=== FILE: README.md ===
# VLFeat core, modelled in Dafny

This project models the sequential, integer- and string-valued logic of the
VLFeat computer-vision library and proves properties of that model. The
floating-point numerics of the library (smoothing, refinement, clustering
on reals, solvers) stay outside the model. Each Dafny module follows one
part of the library:

- **Documentation tools.**
  - `Formatter` covers the line lexer, the lexer cursor, the indentation-driven block grammar, the cross-reference linker and `toDOM` (docsrc/formatter.py).
  - `MDoc` covers M-file names, `getRef`, `depth_first`, comment extraction, the `xscan` filter and index pages (docsrc/mdoc.py).
  - `WikiDoc` covers the marker-delimited splice (docsrc/wikidoc.py).
  - `Text` holds string helpers shared by these modules.
- **Strings and command lines.**
  - `StringOp` models vl/stringop.c.
  - `GenericDriver` models the file meta-arguments of src/generic-driver.h.
  - `GetoptLong` models the `getopt_long` state machine with argv rotation.
  - `MexUtils` models the MEX helpers of toolbox/mexutils.h. A MATLAB array is a record of dimensions, class and flags.
- **Data structures.**
  - `Heap` models the binary heaps of vl/heap.c, vl/heap.h and vl/heap-t.h.
  - `IHash` models the open-addressing hash with overflow chains (vl_ihashsum.c and vl_ihashfind.c).
  - `MserForest` models the MSER union-find forest.
  - `KdTree` models the kd-forest node encoding of toolbox/misc/kdtree.h.
- **Integer algorithms.**
  - `Random` and `Tempering` model MT19937.
  - `Host` models the endianness swaps.
  - `MathOp` models the integer square root, floor and abs.
  - `ImIntegral` models integral images.
  - `IKMeans` and `HIKMeans` model integer and hierarchical k-means.
  - `BinSearch` models the bracket search.
  - `ErFill` models the N-dimensional flood fill.
  - `Subscript` models the odometer subscripts shared by the MSER code and the fill.
  - `Mser` and `MserRegions` model the MSER processing, extremal-region bookkeeping and ellipse buffer.
- **Descriptor geometry.**
  - `Lbp` models vl/lbp.c.
  - `Liop` and `LiopOrder` model vl/liop.c.
  - `Hog` models vl/hog.c; `DHog` models vl/dhog.c and vl/dhog.h.
  - `SiftMex` models toolbox/sift/vl_sift.c, and `Sift` models the filter and octave state machine of vl/sift.c.
  - `CovDet`, `LocalExtrema` and `Compaction` model vl/covdet2.c.
- **Images.** `Pgm` models the PGM (Netpbm) header and raw data over a byte sequence (vl/pgm.c).
- **Shared.** `Wrappers` holds the `Option` and `Result` types.

Integers are unbounded. Where the library relies on 32-bit wrap-around,
the model writes it out: FNV-1 hashing, MT19937 and the uint32/int32
integral images. Where the model exhibits a defect in the library, it keeps two
versions: one of the code as written and one of the behaviour the code
evidently intends. The rest of the model uses the intended version, and
"## Findings" lists each pair.

## Model

| member | source | states |
|---|---|---|
| StringOp.Copy | vl/stringop.c:246-260 | the returned count is always the full source length; with a positive capacity the buffer is NUL-terminated, holds a prefix of the source, and holds all of it exactly when the count is below the capacity; a zero capacity leaves the buffer untouched |
| StringOp.CopySub | vl/stringop.c:280-295 | copies `src[beg..end)` but stops at an embedded NUL; the count is the length of what would have been copied, and the whole of it fits exactly when the count is below the capacity |
| StringOp.ReplaceWildcard | vl/stringop.c:191-229 | the one-pass escape state machine writes exactly the reference expansion (`wild` becomes the replacement, `esc` makes the next character literal, bounded by the buffer) and returns the expansion's full length even when it is truncated |
| StringOp.ReplaceWildcardExample | src/test_stringop.c:46-52 | the test pattern `*: * '\*' *` with replacement `vision` expands to `vision: vision '*' vision` |
| StringOp.StripExt | vl/stringop.c:156-163 | stripping extensions only removes a suffix: the result is a prefix of the name |
| StringOp.BaseName | vl/stringop.c:142-165 | the forward scan and the backward scan find the segment after the last `/` or `\` with up to `nExt` trailing extensions removed, copied with the bounded copy's truncation report |
| StringOp.BaseNameExamples | src/test_stringop.c:70-88 | `a/b/c/d.tar.gz` gives `d.tar.gz`, `d.tar`, `d`, `d` for 0, 1, 2, 3 extensions |
| StringOp.ProtocolOf | vl/stringop.c:77-87 | a prefix is ASCII exactly when it is a prefix of "ascii", binary exactly when it is not but is a prefix of "bin", and unknown otherwise; never "none" |
| StringOp.ParseProtocol | vl/stringop.c:62-91 | without `://` the protocol is "none" and the whole string remains; otherwise the string is the prefix before the first `://`, the separator and the returned remainder, and the protocol is the one that prefix names |
| StringOp.ProtocolName | vl/stringop.c:106-118 | a name exists exactly for the ASCII, binary and "none" protocols |
| StringOp.ProtocolRoundTrip | vl/stringop.c:62-118 | naming the ASCII or binary protocol, adding `://` and a remainder, and parsing gives back that protocol and that remainder |
| StringOp.ParseUnknown | vl/stringop.c:77-88 | a colon-free prefix longer than five characters parses as an unknown protocol and is removed |
| StringOp.ParseChainOf | src/test_stringop.c:90-106 | parsing repeatedly peels prefixes off one at a time, yielding each prefix's protocol in order and the tail at the end |
| StringOp.ParseProtocolExample | src/test_stringop.c:90-106 | the test chain `ascii://bin://ascii://bin://unkown1://unknown2://bin://` yields the listed protocols, with both misspelt names unknown |
| StringOp.Length | vl/stringop.c:329-334 | the result indexes the first NUL: no NUL occurs before it |
| StringOp.CompareZeroIff | vl/stringop.c:347-360 | the case-insensitive comparison is zero exactly when the strings are equal ignoring case |
| StringOp.CompareAntisymmetric | vl/stringop.c:347-360 | swapping the arguments negates the comparison |
| StringOp.CaseiCmp | vl/stringop.c:347-360 | the loop returns the reference comparison, which is zero exactly for strings equal ignoring case |
| StringOp.Truncate | vl/stringop.c:213-219 | the characters kept by a bounded write are a prefix of what was produced: all of it when it fits, otherwise exactly the capacity |
| StringOp.PutChars | vl/stringop.c:213-219 | writing more characters keeps at most n - 1 of everything produced, while the returned count goes on counting them all |
| StringOp.ScanSegmentStart | vl/stringop.c:149-153 | the forward scan ends just after the last '/' or '\', or at 0 without one |
| StringOp.ScanExtensions | vl/stringop.c:155-162 | the backward scan stops at an end within the segment, and the segment up to it is the name with its last `n_ext` extensions stripped |
| StringOp.FindSep | vl/stringop.c:72 | `strstr` finds the first "://" at or after the start, and none means there is none |
| StringOp.ParseNamed | vl/stringop.c:72-90 | a protocol prefix without ':' followed by "://" parses to that prefix's protocol and the text after the separator |
| BinSearch.CountLE | toolbox/misc/vl_binsearch.c:52-74 | the number of break points not above the query never exceeds the number of break points |
| BinSearch.Search | toolbox/misc/vl_binsearch.c:53-73 | the early exits below `B[0]` and above `B[NB-1]` and the bisection loop return an index `r` that brackets the query: `r` is 0 when the query is below the first break point, `NB` when above the last, and otherwise `B[r-1] <= x` with `x < B[r]` or `r = NB` |
| BinSearch.CountSplit | toolbox/misc/vl_binsearch.c:52-74 | on break points split into a part not above the query and a part above it, the count of break points not above the query is the split position |
| BinSearch.BracketUnique | toolbox/misc/vl_binsearch.c:52-74 | on sorted break points the bracketing index is unique: it equals the reference `Bracket` |
| BinSearch.BinSearchMex | toolbox/misc/vl_binsearch.c:33-75 | any argument count other than two is the error "Exactly two arguments are required.", then arguments that are not plain arrays are the error "All arguments must be plain arrays."; otherwise there is one answer per query, and on sorted break points each answer is the reference bracket of its query |
| ImIntegral.Wrap | vl/imopv.c:404-431 | a sum stored in the element type is kept as is for exact arithmetic, and otherwise reduced into the uint32 or int32 range without changing its residue modulo 2^32 |
| ImIntegral.WrapAdd | vl/imopv.c:413-430 | adding to a running sum that has wrapped gives the wrapped total, so the accumulations of the uint32 and int32 instances track the true sums modulo 2^32 |
| ImIntegral.WrapDiff | vl/imopv.c:372-374 | the wrapped difference of two wrapped values is the wrapped true difference |
| ImIntegral.Integral | vl/imopv.c:404-431 | for exact, uint32 and int32 element types, each entry `(x, y)` inside the image is the sum of all pixels at or above-left of it as the element type stores it (wrapped modulo 2^32 for the 32-bit instances), and entries outside the image width or height keep their previous contents |
| ImIntegral.IntegralRow | vl/imopv.c:413-430 | one row of the integral is the row's running sum plus the integral row above it, both in the element type, and the padding past the image width is left alone |
| ImIntegral.IntegralStep | vl/imopv.c:414-417 | one step of the row loop keeps the running sum and the stored entry equal to the true sums as the element type holds them |
| ImIntegral.RangeAsPrefix | vl/imopv.c:356-364 | a sum over a column range is the difference of two prefix sums |
| ImIntegral.RectangleFromIntegral | vl/imopv.c:356-383 | the documented rectangle identity: the pixel sum over `[x', x''] × [y', y'']` is `J(x'',y'') - J(x'-1,y'') - J(x'',y'-1) + J(x'-1,y'-1)` |
| ImIntegral.RectangleWrapped | vl/imopv.c:366-383 | evaluated on the stored entries in the documented order `(J(x'',y'') - J(x'-1,y'')) - (J(x'',y'-1) - J(x'-1,y'-1))` with the element type's arithmetic, the identity gives the rectangle's pixel sum as that type holds it, so uint32 and int32 integrals still give every rectangle sum that fits the type |
| Compaction.Kept | vl/covdet2.c:1441-1451 | compaction never produces more records than it reads |
| Compaction.KeptMember | vl/covdet2.c:1441-1451 | a record is among the kept ones exactly when some input record is kept and rewritten to it |
| Compaction.KeptWitness | vl/covdet2.c:1441-1451 | every kept record at position `j` comes from an input record that was kept and rewritten to it |
| Compaction.KeptAll | vl/covdet2.c:1441-1451 | when every record is kept, compaction rewrites each record in place and keeps the count |
| Compaction.Compact | vl/covdet2.c:1437-1453 | the in-place read/write loop leaves the kept records, rewritten and in their original order, at the front, returns their number (at most the input count), and leaves the buffer from that number on unchanged |
| Host.ArchOf | vl/host.h:117-127 | the big-endian branch is compiled exactly when `VL_ARCH_BIG_ENDIAN` ends up defined, and outside the documentation build the little-endian branch is taken exactly when `VL_ARCH_LITTLE_ENDIAN` is defined |
| Host.Swap8 | vl/host.h:292-316 | the eight byte assignments are the identity on a big-endian host and the byte reversal otherwise |
| Host.Swap4 | vl/host.h:326-342 | the four byte assignments are the identity on a big-endian host and the byte reversal otherwise |
| Host.Swap2 | vl/host.h:352-364 | the two byte assignments are the identity on a big-endian host and the byte reversal otherwise |
| Host.ReverseValue | vl/host.h:306-315 | reading reversed bytes little-endian gives the big-endian value of the original bytes |
| Host.SwapReadsBigEndian | vl/host.h:285-364 | the documented purpose of the swap: on either host, the value the host reads from the swapped bytes is the big-endian value of the source bytes |
| Host.SwapInvolution | vl/host.h:285-364 | swapping twice gives back the original bytes, so the same function converts in both directions |
| GenericDriver.MetaParse | src/generic-driver.h:61-96 | the record is always activated and its file name untouched; the error code is OK, overflow or bad argument; with no argument only the active flag changes |
| GenericDriver.MetaParseNamed | src/generic-driver.h:68-93 | an `ascii://` or `bin://` argument sets the protocol; a pattern shorter than the 1024-character field is stored whole with OK, a longer one keeps its first 1023 characters and reports overflow |
| GenericDriver.MetaParseUnknown | src/generic-driver.h:72-75 | an unknown protocol prefix is a bad argument and changes nothing but the active flag |
| GenericDriver.Substitute | src/generic-driver.h:117-121 | substitution keeps every non-`%` character of the pattern |
| GenericDriver.ExpandWithoutEscape | src/generic-driver.h:117-121 | wildcard expansion with NUL as the escape character, which a C string cannot contain, is plain substitution of every `%` by the base name |
| GenericDriver.MetaOpen | src/generic-driver.h:111-138 | an inactive record succeeds with nothing named; otherwise the name is a prefix of the substituted pattern below the field size; success means the whole substituted name and an opened file; failure is -1 with overflow exactly when the substituted name does not fit, and the I/O error otherwise |
| Random.Initial | vl/random.c:78 | the generator starts valid and marked unseeded (index N+1) |
| Random.SeedDeterministic | vl/random.c:110-123 | the seeding recurrence determines the whole 624-word block from the seed |
| Random.Seed | vl/random.c:110-123 | seeding gives a valid state whose block is the seed's block and whose index is N, so the next draw regenerates |
| Random.SeedByArray | vl/random.c:132-155 | seeding by a key gives a valid state with index N and `mt[0]` forced to `0x80000000`, which keeps the block non-zero |
| Random.GetState | vl/random.c:85-90 | the saved state is the 624 words followed by the index |
| Random.SetState | vl/random.c:97-102 | restoring takes the 624 words and clamps the index to at most N |
| Random.StateRoundTrip | vl/random.c:85-102 | saving then restoring reproduces the generator exactly when its index is at most N; an unseeded generator does not survive the round trip |
| Random.TwistDeterministic | vl/random.c:168-182 | a block determines its regeneration |
| Random.Twist | vl/random.c:168-182 | the three regeneration loops compute, word by word, the reference twist of the block for the given mixing step |
| Random.UInt32 | vl/random.c:162-197 | a draw tempers the word at the index and advances it; at index N it first regenerates the block and restarts at 0; an unseeded generator is first seeded with 5489; the new index is between 1 and N |
| Random.Half | vl/random.c:204-207 | shifting right by one gives a value below 2^31 from which the word is recovered with its low bit |
| Random.Int31 | vl/random.c:204-207 | the result is below 2^31 and is the top 31 bits of the tempered word that the 32-bit draw returned |
| Text.SpaceRun | docsrc/formatter.py:456 | the leading whitespace run is all whitespace and is followed by a non-whitespace character or the end |
| Text.Strip | docsrc/formatter.py:456 | Python's `strip()` as the documentation tools use it: empty exactly for an all-whitespace string, and otherwise starting and ending with non-whitespace |
| Text.StripBounds | docsrc/wikidoc.py:29-30 | the stripped string is a slice of the original with only whitespace cut away on either side |
| Text.StripPadded | docsrc/wikidoc.py:29-30 | whitespace padding around a string with non-blank ends does not survive stripping, so a padded marker line still matches its tag |
| Text.Upper | docsrc/mdoc.py:66 | `upper()` on the byte strings the tools handle moves exactly the ASCII lower-case letters up by 32 and never yields a lower-case letter |
| Text.UpperAllIdempotent | docsrc/mdoc.py:66-72 | upper-casing twice is the same as upper-casing once |
| Text.ContainsConcat | docsrc/formatter.py:456 | a substring of either part is a substring of the concatenation |
| Text.Replace | docsrc/mdoc.py:68-69 | `replace` on a single character keeps the length and replaces exactly the occurrences of that character |
| WikiDoc.Stripped | docsrc/wikidoc.py:28-30 | the marker search compares every page line with its surrounding whitespace removed |
| WikiDoc.Find | docsrc/wikidoc.py:28-30 | the first line at or after `i` equal to the tag: no earlier line there is equal to it, and None means no line from `i` on is equal to it |
| WikiDoc.Anchor | docsrc/wikidoc.py:32-37 | the documentation goes at the start marker of a framed page and at line 0 otherwise, never past the page's end |
| WikiDoc.Splice | docsrc/wikidoc.py:10-40 | the new page holds at least the lines before the anchor, the documentation and its two markers |
| WikiDoc.SpliceKeeps | docsrc/wikidoc.py:26-37 | the new page is the page up to the anchor, then the documentation between the two markers, then the page after the old end marker — or, when the page is not framed, the page without its first line (`wikilines[endline+1:]` with `endline` reset to 0) |
| WikiDoc.Extract | docsrc/wikidoc.py:26-32 | documentation can be read back exactly from a page whose first start marker comes before its first end marker |
| WikiDoc.WikiTagsGood | docsrc/wikidoc.py:15-16 | the two marker strings differ and neither has surrounding whitespace, so each matches only itself after stripping |
| WikiDoc.BeforeAnchor | docsrc/wikidoc.py:28-35 | no line before the anchor is a marker |
| WikiDoc.FramedAt | docsrc/wikidoc.py:28-30 | a page framing marker-free documentation at `k`, with no marker before `k`, has its first start marker at `k` and its first end marker right after the documentation |
| WikiDoc.Located | docsrc/wikidoc.py:17-37 | in a spliced page the first markers are the ones the splice wrote |
| WikiDoc.ExtractSplice | docsrc/wikidoc.py:10-40 | round trip: documentation without marker lines reads back unchanged from the page it was spliced into |
| WikiDoc.SpliceTwice | docsrc/wikidoc.py:10-40 | splicing twice is the same as splicing the second documentation once: the earlier documentation is fully replaced |
| WikiDoc.MissingPage | docsrc/wikidoc.py:20-24 | a page file that does not exist becomes just the framed documentation |
| Tempering.TemperInvertible | vl/random.c:190-194 | the four tempering steps of a draw form a bijection on 32-bit words: the inverse steps give the word back |
| MathOp.FloorSqrtUnique | vl/mathop.h:251-261 | an integer square root (`g*g <= x < (g+1)*(g+1)`) is unique, so the bit-by-bit result is the floor square root |
| MathOp.FastSqrtI | vl/mathop.h:251-261 | for every 32-bit input the sixteen conditional subtractions yield the floor square root, which fits in 16 bits |
| MathOp.Trunc | vl/mathop.h:53 | the C cast to `int` truncates toward zero: the floor for non-negative values, the negated floor of the negation otherwise |
| MathOp.Floor | vl/mathop.h:51-65 | correcting the truncation by one for negative non-integers gives the floor: the greatest integer not above `x` |
| MathOp.Abs | vl/mathop.h:77-87 | the result is non-negative and is `x` or `-x` |
| MathOp.SlotInjective | vl/dhog.c:578-582 | distinct cells of a `T x X x Y` layout have distinct offsets `t + x*T + y*X*T` |
| MathOp.SlotOf | vl/dhog.c:578-582 | every offset below `T*X*Y` is the offset of some cell, so the layout fills the array |
| MathOp.SlotInRange | vl/dhog.c:578-582 | offsets of in-range cells lie below `T*X*Y`, in either orientation of the two outer sides |
| Subscript.LinearBound | vl/mser.c:938-943 | an in-range subscript has a linear index below the element count |
| Subscript.LinearZeros | vl/mser.c:31-38 | the all-zero subscript is element 0 |
| Subscript.LinearAllMax | vl/mser.c:31-38 | the subscript with every digit at its maximum is the last element |
| Subscript.LinearCarry | vl/mser.c:33-37 | wrapping the full lower digits to zero and incrementing the next digit adds exactly one to the linear index |
| Subscript.Adv | vl/mser.c:31-38 | `adv` moves an in-range subscript to the next element in linear order, and from the last element back to element 0 |
| Subscript.PrefixProds | vl/mser.c:753-757 | stride `k` is the product of the dimensions before `k` |
| Subscript.StrideSumIsLinear | vl/mser.c:938-943 | summing coordinates times strides gives the linear index |
| Subscript.DigitUnique | vl/mser.c:918-926 | a digit below its radix and the quotient above it are fixed by the value they encode |
| Subscript.LinearInjective | vl/mser.c:918-926 | distinct in-range subscripts have distinct linear indices, so index and subscript determine each other |
| Subscript.ToSubs | vl/mser.c:918-926 | dividing by the strides from the last dimension down gives the in-range subscript whose linear index is `idx` |
| Subscript.DivMod | vl/mser.c:924-925 | C's unsigned quotient and remainder satisfy `t = q*st + r` with `r < st` |
| Subscript.Strides | vl/mser.c:753-760 | `vl_mser_new` computes the prefix-product strides and the element count as the product of all dimensions |
| Subscript.Shift | vl/mser.c:940-941 | the neighbour subscript is the pixel's subscript plus the offset wherever that is non-negative |
| Subscript.Neighbour | vl/mser.c:937-943 | a neighbour exists exactly when every shifted coordinate is within its dimension; it is then the linear index of the shifted subscript, and it is the pixel itself exactly for the zero offset |
| Subscript.NeighbourSelf | vl/mser.c:945-958 | a shifted in-range subscript is the same element exactly when the offset is all zeros, which the `n_idx != idx` test excludes |
| Subscript.FirstOffset | vl/mser.c:922-925 | the first offset is all `-1`, the offset with enumeration code 0 |
| Subscript.NextOffset | vl/mser.c:1033-1037 | the step to the next neighbour offset keeps every coordinate in `{-1, 0, 1}` and advances the enumeration code by one, and it stops exactly after the last of the `3^n` offsets |
| Subscript.Digits | vl/mser.c:918-926 | the reference subscript of an index: in range and with that linear index |
| Subscript.Offset | vl/mser.c:1033-1037 | the offset with enumeration code `c` has coordinates in `{-1, 0, 1}` and code `c` |
| Subscript.OffsetOfCode | vl/mser.c:1033-1037 | each offset is the offset of its own code, so the enumeration visits every offset exactly once |
| Subscript.NeighbourInjective | vl/mser.c:937-943 | distinct offsets reach distinct neighbours |
| DHog.Quot | vl/dhog.c:334-335 | C's `int` division truncates toward zero, also for a negative divisor |
| DHog.FramesAlong | vl/dhog.c:332-335 | no frame fits along an axis whose range is shorter than one frame; otherwise a positive step fits `range / step + 1` frames |
| DHog.UpdateBuffers | vl/dhog.c:325-342 | recomputing the derived sizes leaves the filter consistent (frame count and descriptor size agree with its parameters) and changes no parameter |
| DHog.New | vl/dhog.c:396-433 | a new filter has steps (5, 5), bounds covering the image, 8 orientations on a 4 x 4 grid of 5-pixel bins, no flat window, nothing allocated, 128-entry descriptors, and the frame count of the default geometry |
| DHog.NewBasic | vl/dhog.c:448-457 | the basic constructor uses one step and one bin size on both axes and keeps the other defaults |
| DHog.SetSteps | vl/dhog.h:232-239 | the steps read back as set, the bounds, geometry and window flag are kept, and the derived sizes are consistent again |
| DHog.SetBounds | vl/dhog.h:251-259 | the bounds read back as set, everything else is kept, and the derived sizes are consistent again |
| DHog.SetGeometry | vl/dhog.h:268-273 | the geometry reads back as set, the descriptor size becomes `numBinT * numBinX * numBinY`, and everything else is kept |
| DHog.SetFlatWindow | vl/dhog.h:282-286 | only the window flag changes; frame count and descriptor size stay as they were |
| DHog.AllocBuffers | vl/dhog.c:354-383 | after recomputing the sizes, a reallocation happens exactly when one of the three recorded allocation sizes differs from what is needed, and afterwards the recorded sizes are the needed ones |
| DHog.AllocOnce | vl/dhog.c:354-383 | allocating twice in a row reallocates at most the first time |
| DHog.FlatWindowKeepsBuffers | vl/dhog.h:282-286 | toggling the flat window after an allocation never causes a reallocation |
| DHog.Sweep | vl/dhog.c:695-700 | the loop `for (v = lo; v <= limit; v += step)` visits the values `lo, lo+step, ...` for its number of trips |
| DHog.SweepMatchesCount | vl/dhog.c:332-335 | the frame loops' limit `boundMax - frameSize + 1` gives exactly the frame count computed when the buffers are sized |
| DHog.AxesAreSweeps | vl/dhog.c:695-700 | the frame positions along each axis are the values the frame loops visit |
| DHog.GridAt | vl/dhog.c:695-725 | frame `j * |xs| + i` is `(xs[i], ys[j])`: x varies fastest |
| DHog.FramePositions | vl/dhog.c:695-725 | the nested frame loops produce the frames in row order over the two axes |
| DHog.FrameCount | vl/dhog.c:695-725 | the frame loops visit exactly the number of frames the buffers were sized for, so the keypoint buffer neither overflows nor is left partly unwritten |
| DHog.FramesFit | vl/dhog.c:695-700 | every visited frame lies within the bounds along its axis |
| DHog.SampleInFrame | vl/dhog.c:534-535 | bin `b` samples the pixel `frame + b * binSize`, which lies within the frame |
| DHog.FrameCenter | vl/dhog.c:684-685 | the keypoint lies halfway between the frame's first and last pixel |
| DHog.LayoutCursor | vl/dhog.c:517-540 | the write cursor for bin `(t, x, y)` starts at `t + x*numBinT + y*numBinX*numBinT` and advances one descriptor per frame |
| DHog.LayoutInRange | vl/dhog.c:517-540 | every bin of every frame lands in that frame's block of the descriptor buffer |
| DHog.LayoutInjective | vl/dhog.c:517-540 | different (frame, bin) pairs never write the same buffer entry |
| DHog.Clamp | vl/dhog.c:719-720 | entries above 0.2 become 0.2 and the others are kept |
| DHog.FlipT | vl/dhog.h:318-319 | the transposed orientation `(numBinT/4 - t) mod numBinT` is a valid orientation |
| DHog.FlipInvolution | vl/dhog.h:318-319 | the orientation map undoes itself |
| DHog.Transpose | vl/dhog.h:304-323 | every source bin `(t, x, y)` is written to bin `(flip(t), y, x)` of the transposed grid |
| DHog.TransposeCovers | vl/dhog.h:304-323 | every destination entry receives some source bin, so the transpose is a bijection |
| DHog.TransposeTwice | vl/dhog.h:296-323 | transposing back with the grid sides swapped restores the original descriptor |
| Hog.UoCTTIMod | vl/hog.c:93-99 | on the directed block the flip is `(n - i) mod 2n` and on the undirected block `(n - o) mod n + 2n`: the closed form agrees with the modular expressions of the source |
| Hog.DalalTriggsMod | vl/hog.c:105-111 | in each of the four DalalTriggs blocks, orientation `o` maps to `(n - o) mod n` of the same block |
| Hog.FlipInvolution | vl/hog.c:219-234 | the flip maps into the descriptor, and flipping twice gives the position back, as a left-right mirror must |
| Hog.DalalTriggsInvolution | vl/hog.c:105-111 | entry `o` of block `k` trades places with entry `(n - o) mod n` of the same block |
| Hog.FlipPermutes | vl/hog.c:219-234 | the flip table is a permutation of the descriptor entries: in range, injective, and its own inverse |
| Hog.NewPermutation | vl/hog.c:91-115 | the table `vl_hog_new` fills has the descriptor's dimension (`3n+4` or `4n`) and entry `i` is the flip of `i` |
| Hog.UoCTTIEntries | vl/hog.c:94-99 | the three entries the UoCTTI loop writes for orientation `o` are the flips of `o`, `o+n` and `o+2n`, and the texture entries map to themselves |
| Hog.ClearPrefix | vl/hog.c:358-359 | `memset` over `count` entries zeroes exactly the first `count` entries and keeps the rest |
| Hog.PrepareClears | vl/hog.c:344-377 | after the corrected preparation both buffers have the grid's size and hold only zeros, whether they were reused or reallocated |
| Hog.StaleNorm | vl/hog.c:358-359 | as written, a reused 1x1 grid whose norm buffer holds 1 from the previous image keeps that 1, while the corrected preparation clears it to 0 |
| Hog.FillUoCTTI | vl/hog.c:93-102 | the UoCTTI loops fill every entry of the table with the left-right flip of its position |
| Hog.FillDalalTriggs | vl/hog.c:105-112 | the DalalTriggs loops fill every entry of the table with the left-right flip of its position |
| Hog.PrepareAsWritten | vl/hog.c:344-377 | as written, the grid size is recomputed; a reused histogram buffer is cleared but the norm buffer is left as it was, while fresh buffers are allocated zeroed |
| Hog.Prepare | vl/hog.c:344-377 | the corrected preparation sets the grid size from the cell size and allocates zeroed buffers of that size when the grid changed |
| Lbp.Transpose | vl/lbp.c:121-132 | the bit-reversal loop followed by the rotation by three bits gives the pattern of the transposed image |
| Lbp.PatternsDistinct | vl/lbp.c:110-118 | the 56 uniform patterns (a run of `j` ones rotated by `i`) are distinct bytes, and none is constant |
| Lbp.InitUniform | vl/lbp.c:93-139 | the table has dimension 58: the constant bytes map to bin 56, the rotation by `i` of a run of `j` ones maps to bin `7i + j - 1`, and every other byte maps to bin 57, in the plain or transposed orientation |
| Lbp.UniformBins | vl/lbp.c:97-102 | every byte maps to one of the 58 bins |
| Lbp.UniformRest | vl/lbp.c:100-107 | bin 57 collects exactly the bytes that are neither constant nor one of the 56 patterns |
| Lbp.TablesAgree | vl/lbp.c:120-133 | the transposed table at the transposed byte agrees with the plain table at the byte |
| Lbp.TransposedPattern | vl/lbp.c:120-133 | a byte whose transpose is a transposed pattern is the plain pattern of the same bin |
| Lbp.BitString | vl/lbp.c:225-236 | bit `k` of the code is set exactly when the `k`-th neighbour (E, SE, S, SW, W, NW, N, NE) is strictly brighter than the centre |
| Lbp.TransposeImage | vl/lbp.c:206-207 | the image with rows and columns exchanged, as a column-major buffer read row-major |
| Lbp.TransposedBitString | vl/lbp.c:225-236 | a pixel of the transposed image has the transposed code of the original pixel |
| Lbp.TransposedBins | vl/lbp.c:120-133 | coding the transposed image with the transposed table gives each pixel the same bin as the plain table gives the original, which is what the transposed mode is for |
| Lbp.Grid | vl/lbp.c:197-198 | the grid has `width / cellSize` columns and `height / cellSize` rows |
| Lbp.Split | vl/lbp.c:210-222 | a pixel's first cell and the weight of the second cell along one axis satisfy `cell + weight = (p + 1/2)/cellSize - 1/2` with the weight in `[0, 1)` |
| Lbp.PixelVotesInGrid | vl/lbp.c:239-250 | every vote a pixel casts lands inside the grid |
| Lbp.PixelVotesSum | vl/lbp.c:239-250 | a pixel whose four cells all exist spreads a total weight of exactly one over them |
| Lbp.Weights | vl/lbp.c:239-250 | the bilinear weights lie in `[0, 1]` and sum to one |
| Lbp.Process | vl/lbp.c:192-253 | the accumulation loops use the `width / cellSize` by `height / cellSize` grid and add exactly the votes of the interior pixels in scan order (row by row, left to right), each pixel casting the bilinear votes of its uniform-pattern bin unless its first cell lies past the grid; every vote lands inside the grid |
| Lbp.ProcessRow | vl/lbp.c:215-252 | the inner loop adds exactly the votes of one row's interior pixels, left to right, all inside the grid |
| Lbp.RowPastGrid | vl/lbp.c:212 | a row whose first cell lies past the grid casts no votes, so skipping it loses nothing |
| Lbp.ProcessPixel | vl/lbp.c:215-251 | one pass of the inner loop extends the votes of the row so far by the pixel's votes, or by none when its first cell lies past the grid (the `continue` at line 220) |
| Lbp.RowStep | vl/lbp.c:215-251 | the votes the inner loop body adds are exactly the pixel's entry in the reference list of the row's votes |
| Lbp.ImageStep | vl/lbp.c:207-252 | the votes one pass of the outer loop adds are exactly the row's entry in the reference list of the image's votes, none for a row past the grid |
| Lbp.CellVotesInGrid | vl/lbp.c:236-247 | every vote of an interior pixel addresses a cell of the grid and one of the 58 bins, with a weight in `[0, 1]` |
| Lbp.RowVotesInGrid | vl/lbp.c:215-251 | every vote of a row addresses a cell of the grid and one of the 58 bins |
| Lbp.ImageVotesInGrid | vl/lbp.c:207-252 | every vote of the image addresses a cell of the grid and one of the 58 bins, so the accumulation never writes outside the features buffer |
| Lbp.PatternInjective | vl/lbp.c:110-118 | two (rotation, run) pairs give the same uniform pattern only when they are the same pair |
| ErFill.Neighbours | toolbox/mser/vl_erfill.c:144-183 | the scanned neighbours of a pixel are in the array and are never the pixel itself |
| ErFill.NeighboursMembers | toolbox/mser/vl_erfill.c:144-183 | a pixel is scanned around `idx` exactly when it differs from `idx` and some offset in `{-1,0,1}^n` moves the subscript of `idx` onto it inside the array |
| ErFill.NeighboursDistinct | toolbox/mser/vl_erfill.c:144-183 | no pixel is scanned twice around the same pixel |
| ErFill.Visit | toolbox/mser/vl_erfill.c:164-175 | scanning one neighbour only ever appends to the member list, and every appended pixel uses up one unvisited mark, which bounds the list by the image size |
| ErFill.Scan | toolbox/mser/vl_erfill.c:127-185 | the expansion loop stops with every member expanded and the initial members kept as a prefix |
| ErFill.OneBased | toolbox/mser/vl_erfill.c:196-198 | the output turns every index into MATLAB's 1-based index |
| ErFill.Flood | toolbox/mser/vl_erfill.c:107-127 | an ER of zero or of magnitude above the pixel count is an error; otherwise the list starts with the seed's 1-based index, and a negative ER selects the inverted comparison |
| ErFill.FillAsWritten | toolbox/mser/vl_erfill.c:45-207 | the fill as written, with the seed left unmarked: the same error cases, and the list starts with the seed |
| ErFill.Fill | toolbox/mser/vl_erfill.c:45-207 | the corrected fill, with the seed marked visited: the same error cases, and the list starts with the seed |
| ErFill.StepKeeps | toolbox/mser/vl_erfill.c:130-183 | expanding one member keeps the fill invariant: listed pixels are accepted, distinct and marked, each after the seed is a neighbour of one listed before it, and expanded members have all their accepted neighbours listed |
| ErFill.VisitAllFrom | toolbox/mser/vl_erfill.c:164-175 | scanning a neighbour list appends only pixels taken from that list |
| ErFill.StartInv | toolbox/mser/vl_erfill.c:107-122 | with the seed marked, the single-seed start satisfies the fill invariant |
| ErFill.FinishedRegion | toolbox/mser/vl_erfill.c:127-198 | a finished scan, turned 1-based, is a fill region: distinct accepted pixels, each after the first a neighbour of one listed before it, closed under accepted neighbours |
| ErFill.OneBasedAdjoins | toolbox/mser/vl_erfill.c:196-198 | turning the member list 1-based keeps every pixel after the first a neighbour of one listed before it |
| ErFill.FloodSpec | toolbox/mser/vl_erfill.c:107-198 | a flood with the seed marked lists the seed first, lists at most as many pixels as the image has, and is a fill region for the seed's value: every listed pixel is accepted, listed once and, after the seed, a neighbour of a pixel listed before it (so connected to the seed through listed pixels), and every accepted neighbour of a listed pixel is listed |
| ErFill.FillSpec | toolbox/mser/vl_erfill.c:45-207 | the corrected fill returns the seed first, at most `nel` pixels, each once, all passing the threshold test against the seed's value, each after the seed adjacent in the N-dimensional grid to one returned before it, and closed under accepted neighbours |
| ErFill.FillAsWrittenRepeatsSeed | toolbox/mser/vl_erfill.c:108-120 | as written, a 2-by-1 image `[0, 0]` with ER = 1 gives `[1, 2, 1]`: the seed is listed twice, which is three entries in a member buffer sized for two |
| ErFill.FillListsOnce | toolbox/mser/vl_erfill.c:108-120 | the corrected fill gives `[1, 2]` on the same input |
| ErFill.CollectMembers | toolbox/mser/vl_erfill.c:144-183 | a pixel is collected below offset code `c` exactly when it is not `idx` and some code below `c` lands on it |
| ErFill.PairScanAsWritten | toolbox/mser/vl_erfill.c:108-120 | on a 2-by-1 image of equal values, the scan with the seed unmarked lists pixel 0, pixel 1, then pixel 0 again |
| ErFill.PairScanMarked | toolbox/mser/vl_erfill.c:108-120 | with the seed marked, the same scan lists each of the two pixels once |
| ErFill.PairFills | toolbox/mser/vl_erfill.c:108-198 | on that image the fill as written returns the 1-based list [1, 2, 1] and the corrected fill [1, 2] |
| LocalExtrema.Around | vl/covdet2.c:93-121 | one compared value per neighbour offset, in the order of the offsets |
| LocalExtrema.Hits3Exactly | vl/covdet2.c:78-147 | a point is reported exactly when it is interior to the volume and is a strict maximum at or above `threshold`, or a strict minimum at or below `-threshold`, among its 26 neighbours |
| LocalExtrema.Hits2Exactly | vl/covdet2.c:161-204 | a point is reported exactly when it is interior to the image and a strict extremum beyond the threshold among its 8 neighbours |
| LocalExtrema.Hits3Ordered | vl/covdet2.c:123-146 | the hits come in scan order (z, then y, then x), each reported once |
| LocalExtrema.Hits2Ordered | vl/covdet2.c:187-203 | the hits come in scan order (y, then x), each reported once |
| LocalExtrema.AddressIs | vl/covdet2.c:84-87 | the cursor plus `dx*xo + dy*yo + dz*zo` is the address of the neighbour at `(x+dx, y+dy, z+dz)` |
| LocalExtrema.AroundAt | vl/covdet2.c:93-121 | the values `CHECK_NEIGHBORS` reads through the cursor, one per offset |
| LocalExtrema.NeighbourAddresses | vl/covdet2.c:93-121 | around an interior point every address the macro reads is on the map, and the cursor reads exactly the point's neighbours |
| LocalExtrema.CheckAtIs | vl/covdet2.c:126-128 | the two macro tests at the cursor succeed exactly when the point is a strict extremum beyond the threshold |
| LocalExtrema.ScanRow | vl/covdet2.c:125-141 | the x loop reports the row's hits in order and leaves the cursor on the row's last cell |
| LocalExtrema.ScanPlane | vl/covdet2.c:124-143 | the y loop reports the plane's hits in order, with the cursor skipping two cells between rows |
| LocalExtrema.Scan3 | vl/covdet2.c:123-146 | the three loops report exactly the reference hit list of the volume |
| LocalExtrema.Scan2 | vl/covdet2.c:187-203 | the two loops report exactly the reference hit list of the image |
| CovDet.Resize | vl/covdet2.c:31-50 | a successful allocation gives a block of exactly the target size, keeps the common prefix of a reallocated block and records the new size; a failed one returns the allocation error and leaves a block untouched, or leaves a missing block missing with size zero |
| CovDet.Enlarge | vl/covdet2.c:60-63 | a buffer already large enough is returned unchanged with no error; otherwise the result is that of resizing to the target |
| CovDet.FlatAt | vl/covdet2.c:129-140 | in the flat buffer of uniform tuples, tuple k occupies the `stride` cells from offset `k * stride` |
| CovDet.TupleAt | vl/covdet2.c:136-139 | entry j of tuple k is at offset `k * stride + j` of any buffer that starts with the flattened tuples |
| CovDet.FlatLength | vl/covdet2.c:131-133 | the flat buffer of n uniform tuples has `n * stride` cells |
| CovDet.StoreTuples | vl/covdet2.c:129-140 | the growth-and-store loop leaves a consistent buffer at least as large as the data, untouched when it was already large enough and at most `slack` cells over otherwise, holding the tuples in order at its start |
| CovDet.Triples | vl/covdet2.c:136-139 | one (x, y, z) triple per extremum |
| CovDet.Pairs | vl/covdet2.c:196-199 | one (x, y) pair per extremum |
| CovDet.FindLocalExtrema3 | vl/covdet2.c:78-147 | the count returned is the number of interior strict extrema of the volume beyond the threshold, the buffer stays consistent and large enough, and triple k of the buffer is the k-th extremum in scan order |
| CovDet.FindLocalExtrema2 | vl/covdet2.c:161-204 | the same for a planar map with pairs |
| CovDet.New | vl/covdet2.c:448-458 | a new detector has three subdivisions per octave, first octave -1, the default thresholds, no frames and no scale spaces |
| CovDet.Subdivisions | vl/covdet2.c:580-589 | the Gaussian scale space gets the octave resolution plus three levels for the difference of Gaussians (from -2), plus two for the Hessian (from -1), and exactly the resolution otherwise (from 0) |
| CovDet.Append | vl/covdet2.c:812-826 | with a consistent frame buffer the store never faults, the count goes up by one and nothing else but the frames changes; on success the new feature is stored after the kept ones, on allocation failure the buffer is untouched |
| CovDet.ResetAsWritten | vl/covdet2.c:526-540 | the frames are dropped while their recorded size and count survive, so the buffer stays consistent only when its recorded size was zero |
| CovDet.Reset | vl/covdet2.c:526-540 | the corrected reset leaves a consistent empty frame buffer and no scale spaces, and changes nothing else |
| CovDet.ClearFrames | vl/covdet2.c:847 | a new detection forgets the stored features but keeps the buffer |
| CovDet.SetEdgeThreshold | vl/covdet2.c:1712-1716 | sets the edge threshold and nothing else |
| CovDet.SetPeakThreshold | vl/covdet2.c:1736-1740 | sets the peak threshold and nothing else |
| CovDet.SetFirstOctaveAsWritten | vl/covdet2.c:1760-1764 | with the reset as written, the first octave is set and the frames are gone while their size and count are kept |
| CovDet.SetFirstOctave | vl/covdet2.c:1760-1764 | sets the first octave and resets the detector, changing nothing else |
| CovDet.SetOctaveResolution | vl/covdet2.c:1785-1789 | sets the octave resolution and resets the detector, changing nothing else |
| CovDet.ExtractAffineShape | vl/covdet2.c:1437-1453 | the kept features are, in order, the stored features whose adaptation succeeds with their frames replaced by the adapted ones; the cells after them and everything else in the detector are unchanged; if every adaptation succeeds none is lost |
| CovDet.AffineShapeKeepsScores | vl/covdet2.c:1446-1449 | every kept feature comes from a stored feature whose frame adapts to the kept frame, with the same peak and edge scores |
| Sift.HalveBounds | vl/generic.h:222 | shifting right by k divides by 2^k rounding down, for negative values too |
| Sift.ShiftLeftIs | vl/generic.h:222 | `VL_SHIFT_LEFT(x, n)` multiplies by 2^n for n >= 0 and divides by 2^-n rounding down otherwise |
| Sift.ShiftMono | vl/generic.h:222 | on a non-negative value, a larger shift never gives less, and the result stays non-negative |
| Sift.ShiftPow2 | vl/generic.h:222 | a power of two shifts to the power of two with the exponents added |
| Sift.ILog2Bounds | vl/sift.c:505 | the integer `floor(log2 m)` is the exponent of the largest power of two not above m |
| Sift.NumOctaves | vl/sift.c:503-506 | a non-negative request is kept; a negative one gives at least one octave |
| Sift.New | vl/sift.c:493-553 | the filter has levels `s_min = -1` to `s_max = nlevels + 1`, starts at octave `o_min`, sizes its octave, difference-of-Gaussian and gradient buffers from the first octave's size, and holds no keypoints |
| Sift.LastOctaveSize | vl/sift.c:505 | when the number of octaves is chosen from the image and is more than one, the last octave is still at least 16 pixels on its shorter side |
| Sift.FirstOctaveAsWritten | vl/sift.c:595-682 | restarts at `o_min` with no keypoints and answers end-of-file exactly when there are no octaves, while keeping the gradient cache index of the previous image |
| Sift.FirstOctave | vl/sift.c:595-682 | the corrected first octave also invalidates the gradient cache, sets the octave size from `o_min`, and on success holds the new image's scale space |
| Sift.NextOctave | vl/sift.c:701-757 | answers end-of-file exactly at the last octave `o_min + O - 1`, changing nothing; otherwise moves one octave up with no keypoints |
| Sift.NextOctaveHalves | vl/sift.c:731-742 | each octave is half the previous one on both sides, rounding down |
| Sift.NextOctavesCount | vl/sift.c:720-721 | from any octave in range, the next-octave call succeeds exactly until the last octave |
| Sift.AllOctaves | vl/sift.c:613-736 | after a successful first octave exactly O - 1 more octaves succeed, so O octaves are processed |
| Sift.LevelFits | vl/sift.c:508-518 | every level `s_min..s_max` of the current octave lies inside the octave buffer |
| Sift.FitIff | vl/sift.c:464 | a whole block i of d pixels fits in n pixels exactly when i is below the number of blocks the inner loop takes |
| Sift.CoverIff | vl/sift.c:463 | block i starts inside n pixels exactly when i is below the number of rows the outer loop visits |
| Sift.FitIsShift | vl/sift.c:446-452 | the number of whole blocks of 2^k is `floor(n / 2^k)`, the documented output size |
| Sift.RowsPixel | vl/sift.c:462-468 | sample i of output row j is the source pixel at column `i * d` of row `j * d` |
| Sift.DownsampleFits | vl/sift.c:446-452 | the documented downsampling has exactly `floor(width/2^k) * floor(height/2^k)` pixels and reads only inside the source image |
| Sift.SampleInside | vl/sift.c:462-468 | a sample of a whole column block on a visited row is inside the image |
| Sift.DownsampleOverrun | vl/sift.c:455-470 | as written, a 4 x 1 image downsampled once gives 2 pixels although the documented size is 0 |
| Sift.CopyRow | vl/sift.c:464-467 | the inner loop copies one sample per whole block of the row, in order |
| Sift.CopyAndDownsampleAsWritten | vl/sift.c:455-470 | the loops as written produce the as-written downsampling, partial last row block included |
| Sift.CopyAndDownsample | vl/sift.c:446-452 | the loops with the documented bound produce exactly the documented downsampling |
| Sift.BaseLevel | vl/sift.c:635-655 | the first level exists for `o_min >= 0` (a copy or a downsampling) and has the first octave's size; upsampling for a negative `o_min` is not modelled |
| Sift.UpdateGradient | vl/sift.c:1065-1149 | afterwards the gradient cache is for the current octave; when it already was, nothing changes |
| Sift.LastRowDiffers | vl/sift.c:1213-1218 | a keypoint on the last row of a 4 x 4 octave passes the orientation guard but not the descriptor guard |
| Sift.MaxH | vl/sift.c:1293-1295 | the histogram maximum, started from 0, is non-negative and bounds every bin |
| Sift.MaxHAttained | vl/sift.c:1293-1295 | the maximum is 0 or the value of some bin |
| Sift.PeaksMember | vl/sift.c:1298-1314 | the peak list from bin i contains exactly the passing bins from i on |
| Sift.PeaksIncreasing | vl/sift.c:1298-1314 | the peak list is in increasing bin order |
| Sift.FirstFour | vl/sift.c:1310-1312 | at most four peaks are kept, and they are a prefix of all the peaks |
| Sift.PeakBins | vl/sift.c:1298-1316 | the loop returns the first (at most four) peaks of the histogram |
| Sift.FirstFourExact | vl/sift.c:1298-1316 | the bins returned pass, are in increasing order, and when fewer than four are returned every passing bin is among them |
| Sift.PeakBinsExact | vl/sift.c:1298-1316 | each returned bin is a peak (above 0.8 of the maximum and both circular neighbours), in order; fewer than four means all peaks |
| Sift.Orientations | vl/sift.c:1177-1317 | a keypoint not in the current octave or outside the guard gets no orientation and leaves the filter alone; otherwise the gradients are brought up to date and the first peaks are returned |
| Sift.Descriptor | vl/sift.c:1543-1715 | a keypoint failing the descriptor guard leaves the filter and descriptor alone; otherwise the gradients are current and the whole 128-entry descriptor is written |
| Sift.DifferenceOfGaussians | vl/sift.c:794-803 | the difference of Gaussians has one plane fewer than the octave and each entry is the next level's pixel minus this level's |
| Sift.DogAt | vl/sift.c:794-803 | pixel (x, y) of difference plane z is the octave's pixel at level z + 1 minus the one at level z |
| Sift.StoreCandidates | vl/sift.c:851-869 | every hit is stored at the front in scan order, the reservation grows in steps of 500 only when needed and stays a multiple of 500, and the entries past the hits are kept |
| Sift.KeptAtExtrema | vl/sift.c:883-1048 | every refined keypoint kept belongs to the current octave and comes from a stored difference-of-Gaussian extremum |
| Sift.Detect | vl/sift.c:771-1049 | the candidates are exactly the interior strict extrema beyond 0.8 times the peak threshold, the reservation grows by 500 steps only when needed, every kept keypoint is in the current octave and comes from a candidate, and none is lost when refinement always succeeds |
| Sift.DownsampleAsWritten | vl/sift.c:455-470 | the loops as written visit every row starting inside the image, so the output has `ceil(height/2^k) * floor(width/2^k)` pixels |
| Sift.Downsample | vl/sift.c:440-452 | the documented downsampling has `floor(height/2^k) * floor(width/2^k)` pixels, and pixel `(i, j)` is the source pixel `(i * 2^k, j * 2^k)` |
| Sift.RowsSampled | vl/sift.c:462-468 | every sample of the row-by-row copy is the source pixel at `2^k` times its position |
| SiftMex.Rot | toolbox/sift/vl_sift.c:79-81 | the transposed orientation bin is `(8 - t) mod 8`, again a bin |
| SiftMex.EntryOf | toolbox/sift/vl_sift.c:68-84 | every descriptor index below 128 is the entry of some (orientation, x, y) bin |
| SiftMex.TransposeDescriptor | toolbox/sift/vl_sift.c:68-84 | the result has 128 entries and entry (t, i, j) of the input is at ((8 - t) mod 8, i, 3 - j) |
| SiftMex.MoveEntry | toolbox/sift/vl_sift.c:77-81 | one assignment of the loop extends the moved prefix by the entry it handles |
| SiftMex.TransposeOnto | toolbox/sift/vl_sift.c:68-84 | every slot of the transposed descriptor receives the entry of some bin |
| SiftMex.TransposeInjective | toolbox/sift/vl_sift.c:68-84 | different bins land in different slots, so the transpose is a permutation |
| SiftMex.TransposeTwice | toolbox/sift/vl_sift.c:60-66 | transposing twice gives the descriptor back |
| SiftMex.KOrder | toolbox/sift/vl_sift.c:97-102 | the comparison answers -1, 0 or 1, negative exactly when the first scale is smaller and positive exactly when it is larger |
| SiftMex.CheckSorted | toolbox/sift/vl_sift.c:115-125 | answers true exactly when the frames are in non-decreasing scale order |
| SiftMex.SortedPairwise | toolbox/sift/vl_sift.c:115-125 | ordered neighbours mean any earlier frame has scale at most that of any later one |
| SiftMex.InsertByScale | toolbox/sift/vl_sift.c:247 | inserting adds exactly the frame to the multiset of frames |
| SiftMex.InsertSorted | toolbox/sift/vl_sift.c:247 | inserting into a scale-sorted list keeps it sorted, and the first scale is the smaller of the two heads |
| SiftMex.SortByScaleSorts | toolbox/sift/vl_sift.c:247 | the sort result is scale-sorted and a permutation of its input |
| SiftMex.PrepareFrames | toolbox/sift/vl_sift.c:246-248 | the frames handed on are scale-sorted and a permutation of the given ones; already sorted frames are kept exactly as given |
| SiftMex.Quantize | toolbox/sift/vl_sift.c:422-424 | the byte is `512 v` truncated when that is below 255, and 255 otherwise |
| SiftMex.QuantizeDescriptor | toolbox/sift/vl_sift.c:421-425 | every entry becomes its quantized byte, in place |
| MserForest.PathDecreasing | vl/mser.c:63-78 | along the shortcut path ranks strictly decrease, so the first loop of `climb` ends |
| MserForest.PathDistinct | vl/mser.c:63-78 | no node occurs twice on a shortcut path |
| MserForest.PathIsDistinct | vl/mser.c:63-78 | the shortcut path is a list of distinct nodes |
| MserForest.Climb | vl/mser.c:56-99 | `climb` returns the root reached by shortcuts, points the shortcut of every node on the way at that root, and changes no other shortcut |
| MserForest.ClimbUp | vl/mser.c:63-80 | the first loop ends at the last node of the path, with each visited shortcut reversed to point one step back, and nothing off the path touched |
| MserForest.ClimbBack | vl/mser.c:82-96 | the second loop points every node of the path at the root and touches nothing off the path |
| MserForest.Empty | vl/mser.c:883-885 | before any pixel is processed every node is void and the forest invariant holds with no nodes and no joins |
| MserForest.AddRootKeepsGood | vl/mser.c:909-913 | adding a void pixel as its own root keeps the forest invariant and counts one more node |
| MserForest.JoinKeepsGood | vl/mser.c:1005-1022 | hanging one root under another keeps the invariant: the same nodes, one root fewer, and the roots' areas still adding up |
| MserForest.AddedBelowSize | vl/mser.c:883-885 | no more nodes are in the forest than the image has pixels |
| MserForest.TwoRoots | vl/mser.c:1000 | two distinct roots count at least twice among the roots |
| MserForest.FindAdded | vl/mser.c:56-99 | following shortcuts from a node in the forest stays in the forest |
| MserForest.PathInterior | vl/mser.c:63-78 | every node of a path but the root is not a root and has a larger rank than the root |
| MserForest.ClimbForest | vl/mser.c:982-983 | on the forest, `climb` changes only shortcuts, each to its node's root, keeps the invariant, and returns the root of the node |
| MserForest.PathFind | vl/mser.c:63-78 | every node on the path from a node has that node's root |
| MserForest.FindRank | vl/mser.c:63-78 | a node that is not a root has a larger rank than its root |
| MserForest.ClimbKeepsGood | vl/mser.c:82-96 | pointing any shortcuts straight at their roots keeps the forest invariant |
| Mser.New | vl/mser.c:733-780 | strides are the prefix products of the dimensions, the pixel count is their product, an ellipse has `ndims + ndims (ndims + 1) / 2` degrees of freedom, and the defaults are verbose, clean up bad and duplicate regions, delta 5 |
| Mser.PosOrder | vl/mser.c:866-878 | pixels in (value, index) order get strictly increasing positions |
| Mser.PosRange | vl/mser.c:866-878 | every pixel's position is inside the permutation |
| Mser.PosOnto | vl/mser.c:866-878 | every position belongs to some pixel |
| Mser.Occurrence | vl/mser.c:873-877 | for each rank among the pixels of a value there is a pixel of that value with exactly that many earlier ones |
| Mser.BucketSort | vl/mser.c:862-878 | the counting sort returns a permutation of the pixel indices, sorted by value with ties by index |
| Mser.Counts | vl/mser.c:862-865 | each bucket holds the number of pixels of its value |
| Mser.Accumulate | vl/mser.c:868-870 | after accumulation each bucket holds the number of pixels of value at most its own |
| Mser.Fill | vl/mser.c:873-877 | walking the pixels backwards, each pixel lands at its (value, index) rank |
| Mser.ProcessPixel | vl/mser.c:903-1039 | one pixel joins the forest as a root and is merged with its processed neighbours: the forest invariant and monotone intensities are kept, exactly one node is added, joins only grow, and recorded heights change only at roots |
| Mser.SameAddedCount | vl/mser.c:1005-1022 | forests with the same added nodes count the same number of them |
| Mser.JoinNeighbour | vl/mser.c:958-1030 | the join of one processed neighbour keeps the invariant and monotone intensities, adds no node, records at most one join and one extremal region, and changes heights only at roots |
| Mser.JoinHeights | vl/mser.c:1005-1021 | the pixel's root goes under the neighbour's only for equal values and a strictly lower tree; the new root's height is the larger height, or one more than both when they are equal |
| Mser.JoinAsWritten | vl/mser.c:964-1021 | with heights read before the climbs from the previous root and from node 0, the join agrees with the root-based one only when those happen to be the two roots |
| Mser.JoinCorrected | vl/mser.c:1005-1021 | heights read from the two roots: the pixel's root goes under exactly when the values are equal and its tree is lower, only the new parent's height changes, to the height of the joined tree |
| Mser.StaleHeightsMisjoin | vl/mser.c:964-965 | a fresh pixel root (height 1) meeting a same-valued root of height 3 while node 0 has height 1 is hung under the neighbour with the roots' heights but made the parent with the stale ones, growing the tree |
| Mser.ClimbMono | vl/mser.c:982-983 | `climb` keeps the invariants and returns a root at least as bright as the pixel |
| Mser.JoinRoots | vl/mser.c:1005-1022 | joining two roots, the child no brighter than the parent, keeps every invariant of the loop and the set of added nodes |
| Mser.FindMono | vl/mser.c:1005-1022 | the root a pixel reaches is at least as bright as the pixel |
| Mser.ClimbKeepsMono | vl/mser.c:82-96 | pointing shortcuts at roots keeps intensities monotone |
| Mser.AddedSorted | vl/mser.c:903-908 | in sorted order, the pixels already in the forest are no brighter than the next one |
| Mser.Process | vl/mser.c:903-1039 | after the loop every pixel is in the forest, intensities are monotone, the roots' areas add up to the pixel count, roots plus joins equal the pixel count, and at least one extremal region is counted |
| Mser.AddedStep | vl/mser.c:903-913 | adding the next pixel of the permutation extends the processed prefix by one |
| Mser.CountAllAdded | vl/mser.c:1039 | when all first k nodes count as added, each of them is in the forest |
| Mser.Pairs | vl/mser.c:1129-1134 | there are `n (n + 1) / 2` index pairs `i <= j < n` |
| Mser.PairsAt | vl/mser.c:1129-1134 | pair (i, j) sits at position `j (j + 1) / 2 + i` |
| Mser.PairsPosition | vl/mser.c:1129-1134 | the position formula gives back every position, so the decoding inverts it |
| Mser.PairsInjective | vl/mser.c:1129-1134 | distinct positions hold distinct pairs |
| Mser.DofPair | vl/mser.c:1129-1134 | the decoding loop maps a second-order degree of freedom to the pair stored at its position, with `i <= j < ndims` |
| Mser.DecodedInRange | vl/mser.c:1129-1134 | a position below `n (n + 1) / 2` decodes to indices below n |
| Mser.FitEll | vl/mser.c:1068-1188 | nothing changes when as many ellipses as regions are fitted; otherwise the buffer grows only when too small, the first nmer ellipses hold the fitted moments, the rest of a kept buffer is untouched, and the fitted count becomes nmer |
| Mser.Refill | vl/mser.c:1163-1184 | the first nmer rows hold the moments, the rest of the buffer is kept |
| Mser.Rows | vl/mser.c:1163-1184 | n ellipses take `n * dof` cells |
| Mser.EllFits | vl/mser.c:1091-1095 | nmer ellipses fit in a buffer reserved for at least nmer |
| MserForest.Find | vl/mser.c:56-99 | following parents from any node of a well-ranked forest reaches a node that is its own parent, the root `climb` returns |
| MserForest.AddRoot | vl/mser.c:910-914 | a new pixel becomes a root of area 1 that is its own shortcut; the forest stays well shaped and every other node is unchanged |
| MserForest.Join | vl/mser.c:1001-1028 | joining makes the child's parent and shortcut the new parent, adds the child's area to the parent's, records the child in the join list, and leaves every other node unchanged |
| MserRegions.Extract | vl/mser.c:469-497 | a pixel gets a region exactly when it is extremal (a root, or its parent is brighter); regions come in pixel-index order, each its own parent, with its pixel's value and area, and the pixel-to-region links agree both ways |
| MserRegions.IndexedAppend | vl/mser.c:481-492 | a region pivoted at the next pixel extends the index in both directions |
| MserRegions.IndexedVoid | vl/mser.c:493-496 | a pixel that pivots no region leaves the index as it was |
| MserRegions.Link | vl/mser.c:508-518 | the parent of each region is the region of the nearest pixel strictly above its pivot that pivots a region |
| MserRegions.UpBrighter | vl/mser.c:512-514 | the region pixel found upward is at least as bright as the start |
| MserRegions.Regions | vl/mser.c:469-518 | on a finished forest the regions form a tree whose roots are exactly the regions pivoted at forest roots, with the extremal pixels indexed both ways, values and areas copied and pivots increasing |
| MserRegions.StableAncestor | vl/mser.c:666-670 | the walk upward ends at a region still marked stable or at the root of the tree, never at a darker region |
| MserRegions.Sweep | vl/mser.c:634-689 | the flags after examining the first k regions have one flag per region |
| MserRegions.SweepAhead | vl/mser.c:634-689 | regions not yet examined keep their stability flag |
| MserRegions.SweepBehind | vl/mser.c:634-689 | once examined, a region's flag does not change |
| MserRegions.Cleanup | vl/mser.c:623-697 | a region survives exactly when it was stable and its own tests do not drop it; bad, big or small regions are dropped; any other dropped region is a non-root duplicate under the duplicate test; with every clean-up switched off the flags are unchanged |
| MserRegions.Survivors | vl/mser.c:716-719 | no more survivors than regions examined |
| MserRegions.Mer | vl/mser.c:716-719 | the result list is the pivots of the surviving regions, in region order |
| MserRegions.SurvivorsMembers | vl/mser.c:716-719 | a pixel is listed exactly when it pivots a surviving region |
| MserRegions.SurvivorsSorted | vl/mser.c:716-719 | with pivots in increasing order the list is strictly increasing |
| MserRegions.FinishedForest | vl/mser.c:903-1039 | the forest left by the join loop has ranked parents and parents at least as bright as their children |
| MserRegions.Detect | vl/mser.c:823-1056 | the extremal regions form a tree over the image's pixels with their values, a surviving region is stable at its pivot, and the result lists exactly the pivots of the surviving regions, strictly increasing |
| Pgm.Bpp | vl/pgm.c:120-123 | a pixel takes one byte exactly when the maximum value is below 256, two otherwise |
| Pgm.RemoveLine | vl/pgm.c:27-47 | reading stops right after the first new-line, or at the end of the input, and reads no new-line before that |
| Pgm.RemoveBlanks | vl/pgm.c:57-86 | skipping stops at the end of the input or at a solid character |
| Pgm.RemoveBlanksRun | vl/pgm.c:57-86 | a run of blanks is skipped in full |
| Pgm.RemoveBlanksComment | vl/pgm.c:57-86 | a '#' comment is skipped through its new-line, whatever it contains |
| Pgm.LineEnd | vl/pgm.c:27-47 | the line is consumed exactly through its first new-line |
| Pgm.Decimal | vl/pgm.c:330-334 | `%d` of a natural number is a non-empty run of digits |
| Pgm.DecimalValue | vl/pgm.c:189-205 | reading the digits `%d` prints gives the number back |
| Pgm.IntText | vl/pgm.c:330-334 | `%d` starts with a minus sign or a digit |
| Pgm.DigitEnd | vl/pgm.c:192 | the digit run ends at the end of the input or at a non-digit |
| Pgm.ScanInt | vl/pgm.c:192 | a successful `%d` consumes at least one character and ends at the end of the input or a non-digit |
| Pgm.Number | vl/pgm.c:192 | a number read consumes at least one character and stops at a non-digit |
| Pgm.DigitRun | vl/pgm.c:192 | a run of digits is read in full |
| Pgm.NumberOfDigits | vl/pgm.c:192 | printed digits of m are read back as m, ending right after them |
| Pgm.NumberOfNegative | vl/pgm.c:192 | a minus sign and the digits of m are read back as -m |
| Pgm.ScanIntText | vl/pgm.c:189-205 | reading what `%d` prints gives the integer back and stops right after it |
| Pgm.Field | vl/pgm.c:189-205 | a field needs at least one blank or comment character before its number; every failure is an invalid meta section |
| Pgm.HeadFields | vl/pgm.c:141-218 | an invalid header is reported exactly when the input has fewer than two characters or the magic is not "P2" or "P5"; other failures are invalid meta sections; a header read says raw exactly for "P5" and the data starts after exactly one blank |
| Pgm.ExtractHeadAsWritten | vl/pgm.c:141-231 | as written, the range check never rejects, so the result is whatever the field reading gives |
| Pgm.ExtractHead | vl/pgm.c:220-223 | with the intended check, a header is returned only when the field reading succeeds with a maximum below 65536, and rejected otherwise |
| Pgm.SwapPairs | vl/pgm.c:277-281 | exchanging the bytes of each pixel keeps the length |
| Pgm.SwapPairsAt | vl/pgm.c:277-281 | the two bytes of every pixel are exchanged |
| Pgm.SwapPairsTwice | vl/pgm.c:277-281 | swapping twice restores the pixels |
| Pgm.ExtractData | vl/pgm.c:248-311 | the raw read fails, with invalid data, exactly when fewer complete pixels remain than the header promises; otherwise it returns that many pixels, the input's own bytes unless two-byte pixels are swapped |
| Pgm.Preamble | vl/pgm.c:330-334 | the preamble starts with the raw magic "P5" |
| Pgm.Insert | vl/pgm.c:323-360 | the output is the preamble followed by one pixel's worth of bytes per pixel |
| Pgm.FieldOfText | vl/pgm.c:189-205 | a field printed as a new-line and `%d` is read back as its value |
| Pgm.PreambleLaid | vl/pgm.c:330-334 | anything starting with the preamble has the three fields where the header reader looks for them |
| Pgm.HeadOfLaid | vl/pgm.c:141-218 | fields laid out as the preamble lays them read back as the image's meta data, raw, with the data right after the preamble |
| Pgm.InsertHeadRoundTrip | vl/pgm.c:323-360 | reading back what the writer wrote recovers width, height and maximum, marked raw, whatever follows the data |
| Pgm.InsertRoundTrip | vl/pgm.c:141-360 | with the intended range check, an image below 65536 grey levels reads back with its meta data and exactly its pixels |
| Pgm.InsertDataRoundTrip | vl/pgm.c:248-311 | the pixels written after the preamble read back unchanged, the two swaps cancelling |
| Pgm.WideMaxAccepted | vl/pgm.c:220-223 | the written header of a 70000-level image is accepted as written although its pixels do not fit two bytes, and rejected by the intended check |
| Pgm.MaxCheckAsWritten | vl/pgm.c:220-223 | the range check as written never rejects a maximum value |
| GetoptLong.Rotate | vl/getopt_long.c:300-313 | the rotation keeps the length of the argument vector |
| GetoptLong.RotateParts | vl/getopt_long.c:300-313 | the entries consumed by the option move, in order, to `optind`, the skipped non-options follow them in order, everything else stays, and nothing is lost |
| GetoptLong.RotateArgv | vl/getopt_long.c:300-313 | the `done_option` loops perform exactly that rotation |
| GetoptLong.ShiftDown | vl/getopt_long.c:305-310 | one pass of the inner loop and the store after it rotate the range one place to the right |
| GetoptLong.NextDash | vl/getopt_long.c:113-125 | the search finds the first argument at or after `optind` that starts with '-', or reports that there is none |
| GetoptLong.NameLength | vl/getopt_long.c:166 | `strcspn(place, "=")` is the length of the text before the first '=', or the whole text |
| GetoptLong.FindLong | vl/getopt_long.c:169-172 | the table scan finds the first entry whose name is exactly the given one, or reports that no entry has it |
| GetoptLong.IndexOf | vl/getopt_long.c:235 | `strchr` finds the first occurrence of the character, or none when it does not occur |
| GetoptLong.Done | vl/getopt_long.c:300-316 | closing an option returns its value, advances `optind` by the number of entries consumed and only rotates the vector |
| GetoptLong.Opts | vl/getopt_long.c:82-83 | a leading ':' of the option string is dropped, otherwise it is kept |
| GetoptLong.Found | vl/getopt_long.c:95-131 | a new option is read with `optreset` cleared, one entry starting at the found argument |
| GetoptLong.Dispatch | vl/getopt_long.c:141-226 | whatever the found argument, the result keeps the state valid, only rotates the vector and never moves `optind` back; for "--" this is the corrected behaviour listed under Findings |
| GetoptLong.Long | vl/getopt_long.c:151-226 | a long option always closes its argument, keeps the state valid and moves `optind` past it |
| GetoptLong.Matched | vl/getopt_long.c:203-214 | a matched entry without flag variable returns its value; with one, its variable is set to the value and 0 is returned |
| GetoptLong.Short | vl/getopt_long.c:229-296 | a short option keeps the state valid, only rotates the vector and never moves `optind` back |
| GetoptLong.StepValid | vl/getopt_long.c:66-318 | every call of the corrected `getopt_long` keeps the state valid, only permutes the argument vector and never moves `optind` back |
| GetoptLong.DashDash | vl/getopt_long.c:141-148 | in the corrected `getopt_long`, "--" ends option processing: it moves to `optind` ahead of the skipped non-options, `optind` steps past it, the operands keep their order, and -1 is returned |
| GetoptLong.NameLengthAt | vl/getopt_long.c:166 | `strcspn` stops at the first '=' after a name without one |
| GetoptLong.LongWithValue | vl/getopt_long.c:178-184 | "--name=v" for an entry taking an argument sets `optarg` to v; for an entry without argument no argument is taken; the entry index is reported and one element consumed |
| GetoptLong.NameWhole | vl/getopt_long.c:166 | without '=' the whole text is the name |
| GetoptLong.LongRequiredNext | vl/getopt_long.c:187-199 | "--name" for an entry requiring an argument takes the next element as `optarg`, and both move to `optind` |
| GetoptLong.LongRequiredMissing | vl/getopt_long.c:189-196 | with no element left it returns ':' after a leading ':' in the option string and '?' otherwise |
| GetoptLong.LongOptionalAbsent | vl/getopt_long.c:178-200 | an optional argument is taken only with '=' |
| GetoptLong.LongUnknown | vl/getopt_long.c:219-225 | an unknown long option returns '?' and is consumed |
| GetoptLong.LongOptionAt | vl/getopt_long.c:155-163 | "--name..." at a new option is read as the long option "name..." |
| GetoptLong.DashDashAsWritten | vl/getopt_long.c:141-313 | as written, the "--" branch stores "--" over the element after it and sets `optind` two past "--" |
| GetoptLong.DashDashAsWrittenLoses | vl/getopt_long.c:141-313 | as written, the element after "--" is lost from the vector unless it is itself "--" |
| GetoptLong.DashDashExample | vl/getopt_long.c:141-313 | for `prog -- file` the code as written leaves `[prog, --, --]` with `optind` 3, while the corrected call keeps the vector and leaves `optind` at the operand |
| GetoptLong.GetoptLong | vl/getopt_long.c:66-318 | a call that returns keeps the parsing state valid, only rotates entries of the argument vector past the ones already consumed, and never moves `optind` back |
| Heap.Parent | vl/heap.h:102-130 | the root is its own parent; any other node's parent is an earlier node of which it is the left or right child |
| Heap.NodesDisjoint | vl/heap.h:63-67 | distinct nodes occupy disjoint byte ranges of the array, in index order |
| Heap.RootIsMin | vl/heap.c:296-309 | in a heap the root is a smallest node |
| Heap.New | vl/heap.c:150-162 | a new heap holds no node and manages the given array |
| Heap.Clear | vl/heap.h:87-90 | clearing forgets the nodes without touching the array |
| Heap.SwapAt | vl/heap.c:92-116 | an exchange swaps the two nodes, leaves the others, and keeps the multiset of nodes |
| Heap.ApplySwaps | vl/heap.c:92-116 | any sequence of exchanges keeps the array length |
| Heap.SwapsPermute | vl/heap.c:92-116 | any sequence of exchanges only rearranges the nodes |
| Heap.Down | vl/heap.c:184-203 | moving a node toward the root is a sequence of exchanges and leaves every later node in place |
| Heap.DownRestores | vl/heap.c:184-203 | when only the link above a node is broken, moving it toward the root restores the heap |
| Heap.Up | vl/heap.c:213-253 | moving a node toward the leaves is a sequence of exchanges inside the heap, leaving the rest of the array |
| Heap.SettledBelow | vl/heap.c:222-224 | a node not larger than its children, with nothing else broken, gives a heap |
| Heap.SwapDown | vl/heap.c:235-251 | exchanging a node with its smallest child, when that child is smaller, moves the broken links down to the child's place |
| Heap.UpRestores | vl/heap.c:213-253 | when only the links below a node are broken, moving it toward the leaves restores the heap |
| Heap.Push | vl/heap.c:272-276 | a push adds the next array node to the heap, as a sequence of exchanges that only rearranges the nodes |
| Heap.PushRestores | vl/heap.c:272-276 | pushing onto a heap gives a heap |
| Heap.Pop | vl/heap.c:296-309 | pop on an empty heap returns nothing and changes nothing; otherwise the heap shrinks by one, the old root sits just past its end and is returned, and the nodes are only rearranged |
| Heap.RootSwapped | vl/heap.c:303-305 | putting the last node at the root breaks only the links below the root |
| Heap.PopRestores | vl/heap.c:296-309 | popping from a heap leaves a heap |
| Heap.PopRemovesMin | vl/heap.c:296-309 | what pop removes from a non-empty heap is a smallest node of it |
| Heap.Update | vl/heap.c:330-334 | an update keeps the node count and only rearranges the nodes, by exchanges |
| Heap.Lowered | vl/heap.c:330-334 | lowering a node's key breaks only the link above it |
| Heap.Raised | vl/heap.c:330-334 | raising a node's key breaks only the links below it |
| Heap.UpdateRestores | vl/heap.c:330-334 | changing one node of a heap and calling update gives a heap again |
| Heap.ByteSwap | vl/heap.c:92-116 | the default exchange swaps the two nodes' bytes completely, using `nodeSize / 4` whole words |
| IHash.FnvHash | toolbox/misc/vl_ihashsum.c:19-29 | the loop computes the 32-bit FNV fold of the key's bytes |
| IHash.ZeroKey | toolbox/misc/vl_ihashsum.c:32-40 | the all-zero key of n bytes is the null key |
| IHash.Start | toolbox/misc/vl_ihashsum.c:175-179 | the first probe is a slot of the K-slot table |
| IHash.OddStep | toolbox/misc/vl_ihashsum.c:176 | `h1 \| 1` is odd and is h1 or h1 + 1 |
| IHash.Advance | toolbox/misc/vl_ihashsum.c:183 | the hash after any number of steps is an unsigned 32-bit value |
| IHash.ProbeAt | toolbox/misc/vl_ihashsum.c:184 | every probe is a slot of the first K |
| IHash.ProbeLoop | toolbox/misc/vl_ihashsum.c:179-185 | the loop stops within K probes at one of the first K slots |
| IHash.Probe | toolbox/misc/vl_ihashsum.c:175-185 | the probe sequence of a key ends within K probes at one of the first K slots |
| IHash.ProbeLoopSpec | toolbox/misc/vl_ihashsum.c:179-185 | the loop ends at the slot of the probe it stopped at, after passing only slots holding another key, and that slot is free or holds the key unless all K probes were blocked |
| IHash.ProbeSpec | toolbox/misc/vl_ihashsum.c:175-185 | the probe of a key visits `fnv(x) % K` and on by the odd step, and ends at the first slot free or holding the key, or after K blocked probes |
| IHash.ProbeLoopSame | toolbox/misc/vl_ihashsum.c:181-182 | probing depends only on which of the first K slots hold another key |
| IHash.Walk | toolbox/misc/vl_ihashsum.c:188-208 | with forward links the walk ends at or after its start, at a slot free or holding the key, or at the end of the chain |
| IHash.WalkAsWritten | toolbox/misc/vl_ihashsum.c:188-208 | with any links in range, a walk that stops ends at a slot free, holding the key, or at the chain end |
| IHash.SelfLinkNeverStops | toolbox/misc/vl_ihashsum.c:188-208 | a one-slot table holding another key whose link points to itself passes the argument checks, and the walk never stops |
| IHash.WalkStops | toolbox/misc/vl_ihashsum.c:188-208 | with forward links the walk as written stops within the slots after its start, where the forward-link walk says |
| IHash.WalkMoreFuel | toolbox/misc/vl_ihashsum.c:188-208 | a walk that has stopped gives the same slot with more steps allowed |
| IHash.Grow | toolbox/misc/vl_ihashsum.c:195-204 | a full table grows by half its size, at least 2, keeping its entries and zero-filling the rest |
| IHash.Append | toolbox/misc/vl_ihashsum.c:194-207 | appending links the chain end to the next unused slot (1-based), uses it, and changes no key, count or other link |
| IHash.AppendWf | toolbox/misc/vl_ihashsum.c:194-207 | appending after a chain end in use keeps the table invariant |
| IHash.WalkBelow | toolbox/misc/vl_ihashsum.c:188-208 | the walk from a used slot with links among the used slots stays among them |
| IHash.Locate | toolbox/misc/vl_ihashsum.c:175-208 | the located slot is inside the (possibly grown) table |
| IHash.LocateCases | toolbox/misc/vl_ihashsum.c:188-208 | the chain walk ends at a used slot; if that slot holds another key a new slot is appended after it, otherwise that slot is the answer |
| IHash.LocateWf | toolbox/misc/vl_ihashsum.c:175-208 | locating keeps the invariant and ends at a used slot that was free or held the key, or at the fresh slot |
| IHash.InsertCounts | toolbox/misc/vl_ihashsum.c:170-214 | after an insertion the slot holds the key and its count went up by one modulo 2^32; every other slot keeps its key and count |
| IHash.LocateKeeps | toolbox/misc/vl_ihashsum.c:175-208 | locating keeps every old key and count, and the located slot's count is its old one or 0 when new |
| IHash.Find | toolbox/misc/vl_ihashfind.c:152-189 | the search answers 0 or a 1-based slot that holds the key, and never finds the null key |
| IHash.InsertSameBlocked | toolbox/misc/vl_ihashsum.c:170-214 | an insertion changes nowhere in the old table which slots block the key |
| IHash.InsertLinks | toolbox/misc/vl_ihashsum.c:188-208 | an insertion changes only the link of the chain end, and only when that slot holds another key, to point at the new slot; otherwise the key goes into the chain end itself |
| IHash.FindAfterInsert | toolbox/misc/vl_ihashfind.c:152-189 | looking a non-null key up right after inserting it gives its 1-based slot |
| IHash.FoundAt | toolbox/misc/vl_ihashfind.c:162-188 | in a table that differs from another only as an insertion of the key makes it differ, the search ends at the inserted slot |
| IHash.ProbeSame | toolbox/misc/vl_ihashfind.c:162-172 | the probe depends only on which of the first K slots block the key |
| IHash.WalkAfterInsert | toolbox/misc/vl_ihashfind.c:175-179 | after an insertion the walk follows the old links to the old chain end, then the new link, to the inserted slot |
| IHash.ProbeLoopKept | toolbox/misc/vl_ihashfind.c:166-172 | a probe ending at an occupied slot gives the same result in any table that keeps every occupied slot |
| IHash.WalkKept | toolbox/misc/vl_ihashfind.c:175-179 | a walk that ends at the key gives the same result in any table that keeps every occupied slot and every link |
| IHash.FindKept | toolbox/misc/vl_ihashfind.c:152-189 | a key that is found stays found in the same slot when occupied slots and links are kept |
| IHash.CheckShapes | toolbox/misc/vl_ihashsum.c:96-128 | the arguments are accepted exactly when H and NEXT are uint32 row vectors, X and ID uint8 with the same rows, H, ID and NEXT have the same columns, and K is a plain scalar |
| IHash.Initial | toolbox/misc/vl_ihashsum.c:152-163 | the start fails exactly when K exceeds the table size or some NEXT entry does, with the matching error, and otherwise uses the inputs with `last` the table size |
| IHash.Truncate | toolbox/misc/vl_ihashsum.c:216-222 | the outputs keep exactly the first `last` slots |
| IHash.TruncateKeepsFind | toolbox/misc/vl_ihashsum.c:216-222 | truncation keeps the invariant and every key is found where it was |
| IHash.WalkPrefix | toolbox/misc/vl_ihashsum.c:216-222 | a walk among the used slots is the same after the unused ones are cut off |
| IHash.InsertStep | toolbox/misc/vl_ihashsum.c:170-214 | one insertion keeps the invariant, uses a slot below `last` that then holds the key, and a non-null key is then found there |
| IHash.InsertFrame | toolbox/misc/vl_ihashsum.c:170-214 | an insertion keeps every occupied slot's key and every existing link |
| IHash.InsertKeepsFind | toolbox/misc/vl_ihashsum.c:170-214 | every key found before an insertion is still found in the same slot |
| IHash.RecordedStep | toolbox/misc/vl_ihashsum.c:170-214 | inserting the next column extends the record of reported slots |
| IHash.RecordedTruncate | toolbox/misc/vl_ihashsum.c:216-222 | truncation keeps the record of reported slots |
| IHash.Sum | toolbox/misc/vl_ihashsum.c:170-222 | after inserting every column and truncating, the table keeps its invariant, every column has a slot below `last`, and every non-null column sits in its slot and is found there |
| IHash.FnvFeeds | toolbox/misc/vl_ihashsum.c:19-29 | the hash of a key is the offset basis fed the key's bytes one by one, each step multiplying by the FNV prime modulo 2^32 and xoring the byte |
| IHash.FeedLast | toolbox/misc/vl_ihashsum.c:27-28 | feeding a key is feeding all but its last byte and then one more loop step |
| IHash.Insert | toolbox/misc/vl_ihashsum.c:170-214 | an insertion keeps the table invariant and reports a used slot that holds the key |
| KdTree.EncodeChild | toolbox/misc/kdtree.h:130-133 | a node child is written one-based, a leaf reference (negative) as is |
| KdTree.DecodeChild | toolbox/misc/kdtree.h:346-347 | a stored value of at least 1 reads back one lower, anything else as is |
| KdTree.EncodeIndex | toolbox/misc/kdtree.h:134-148 | split dimensions and data indices are written one-based, so never 0 |
| KdTree.DecodeIndexAsWritten | toolbox/misc/kdtree.h:348-357 | subtracting one in 32-bit unsigned arithmetic gives the index for stored values of at least 1 and wraps 0 to 2^32 - 1 |
| KdTree.EncodeNode | toolbox/misc/kdtree.h:128-136 | the written children decode back to the node's children |
| KdTree.DecodeNodeAsWritten | toolbox/misc/kdtree.h:324-350 | a node is accepted exactly when its upper child is in `[-numData-1, numUsedNodes]`, its lower child in `[-numData, numUsedNodes]` and its stored split dimension at most the dimension; accepted children are below `numUsedNodes` |
| KdTree.DecodeNode | toolbox/misc/kdtree.h:339-343 | with the intended check the stored split dimension must also be at least 1, so an accepted node's split dimension is a valid zero-based index |
| KdTree.Restore | toolbox/misc/kdtree.h:27-50 | a successful restore uses at least one unit of budget, changes only parent fields, and leaves every visited child pointing at the node that names it |
| KdTree.RestoreChild | toolbox/misc/kdtree.h:40-49 | a leaf child changes nothing; a node child is linked to its parent and restored, with the same guarantees |
| KdTree.ParentsTrueLink | toolbox/misc/kdtree.h:41-43 | linking a child to its parent before restoring it keeps the parent fields true |
| KdTree.WalkSize | toolbox/misc/kdtree.h:27-50 | the number of visits of the walk, when it fits, is between 1 and the budget |
| KdTree.WalkSizeShape | toolbox/misc/kdtree.h:27-50 | the walk only reads children, so parent fields do not change its size |
| KdTree.RestoreCounts | toolbox/misc/kdtree.h:27-50 | the restore succeeds exactly when the walk's visit count fits in the budget, and leaves the budget minus that count |
| KdTree.ChildCounts | toolbox/misc/kdtree.h:40-49 | the same for one child |
| KdTree.CheckTree | toolbox/misc/kdtree.h:361-368 | an accepted tree keeps its shape and gets true parent fields |
| KdTree.CheckTreeCounts | toolbox/misc/kdtree.h:361-368 | a tree is accepted exactly when the walk from the root visits exactly `numUsedNodes` nodes |
| KdTree.ThreeNodeTree | toolbox/misc/kdtree.h:361-368 | a root whose two children are leaves-only nodes is accepted |
| KdTree.SharedChildTree | toolbox/misc/kdtree.h:361-368 | a root naming the same node as both children is refused |
| KdTree.SplitDimensionZeroAccepted | toolbox/misc/kdtree.h:339-347 | as written, a stored split dimension of 0 passes the `d > dimension` check and reads back as `2^32 - 1`, beyond every data dimension |
| KdTree.NodeRoundTrip | toolbox/misc/kdtree.h:324-351 | a node with children in range and a split dimension below the data dimension, written as lines 128-136 write it, is read back unchanged by the corrected reader |
| MexUtils.Raise | toolbox/mexutils.h:183-212 | the raised identifier is "vl:" followed by the error's name, and the message is the caller's when one is given, otherwise the default sentence for that error |
| MexUtils.RaiseDistinct | toolbox/mexutils.h:188-197 | the eight error codes get eight different identifiers, and none of them is "vl:undefinedError" |
| MexUtils.RaiseUndefined | toolbox/mexutils.h:197-210 | any code outside the eight raises "vl:undefinedError" with "Undefined error message." |
| MexUtils.ColsOfMatrix | toolbox/mexutils.h:531-541 | for a two-dimensional array, the column count mxGetN reads is the second dimension |
| MexUtils.U32 | toolbox/mexutils.h:355-367 | the `(unsigned)` cast lands in [0, 2^32) and leaves values already in that range unchanged |
| MexUtils.I32 | toolbox/mexutils.h:540 | the `(signed)` cast lands in [-2^31, 2^31) and leaves values already in that range unchanged |
| MexUtils.IsVector | toolbox/mexutils.h:353-378 | the two loops accept exactly the non-sparse arrays with at most one non-singleton dimension whose element count, when prescribed, matches after the 32-bit cast |
| MexUtils.IsArray | toolbox/mexutils.h:434-452 | a negative dimension count accepts every array; otherwise a differing (cast) number of dimensions rejects it, and acceptance means every non-negative requested dimension matches |
| MexUtils.AllMatch | toolbox/mexutils.h:444-450 | the dimension loop holds exactly when every requested non-negative dimension from index `d` on equals the actual one after the 32-bit cast |
| MexUtils.IsArrayExact | toolbox/mexutils.h:434-452 | for sizes below 2^32 vlmxIsArray is an exact shape test: it accepts exactly when every non-negative requested dimension equals the actual one |
| MexUtils.IsString | toolbox/mexutils.h:531-541 | an accepted array is a two-dimensional char row (or 0-by-0) whose length is the requested one; every char row of the requested length is accepted; a negative length drops the length test |
| MexUtils.CompareStringsI | toolbox/mexutils.h:660-673 | the result is 0 exactly when the strings are equal ignoring case, and it is the same value vl_string_casei_cmp returns |
| MexUtils.CompareToStringI | toolbox/mexutils.h:676-704 | comparing an array's characters to a C string gives 0 exactly when they are equal ignoring case, a positive value exactly when the array sorts after the string in lexicographic order ignoring case (a longer array whose extra part starts with NUL included), and a negative value exactly when it sorts before |
| MexUtils.LessISuffix | toolbox/mexutils.h:676-684 | past a common prefix, lexicographic order ignoring case is decided by what follows |
| MexUtils.IsEqualToStringI | toolbox/mexutils.h:714-717 | the test is true exactly when the array's characters equal the string ignoring case |
| MexUtils.Lookup | toolbox/mexutils.h:795-800 | the entry found matches the name ignoring case and no earlier entry does; when none is found, no entry from `i` on matches |
| MexUtils.NextOption | toolbox/mexutils.h:765-792 | the end of the list (and only the end) gives -1; a non-string argument fails as an invalid option; a name that does not fit the 1024-byte buffer fails too |
| MexUtils.Resolve | toolbox/mexutils.h:794-822 | a resolved option advances past the name, and past its argument only when that argument exists; the only failures are an unknown option and a missing argument |
| MexUtils.ResolveFound | toolbox/mexutils.h:795-821 | the first matching entry decides: its value is returned with `next` past the name (and its argument when it takes one), or a missing argument is reported |
| MexUtils.ResolveNegative | toolbox/mexutils.h:795-805 | when the first matching entry has a negative value the option is unknown, whatever later entries say |
| Formatter.Body | docsrc/formatter.py:91-117 | the text the patterns see before the optional final `\n` is a prefix of the line, holds no line break, and is blank exactly when the line is |
| Formatter.LastColons | docsrc/formatter.py:94 | the greedy `(.*)::` splits at an occurrence of "::" with none after it; when it finds none, the line holds no "::" |
| Formatter.Lex | docsrc/formatter.py:83-117 | every line lexes to some terminal (never the end marker), and to a blank one exactly when it is whitespace only |
| Formatter.LexIndent | docsrc/formatter.py:94-117 | a non-blank line gives a line terminal whose indent is the length of its leading whitespace, which is shorter than the line |
| Formatter.LexRendered | docsrc/formatter.py:94-117 | a non-blank line's terminal reproduces the line after its indentation |
| Formatter.DefinitionRenders | docsrc/formatter.py:94-100 | joining a definition's content, "::" and inner content gives back the line after its indentation |
| Formatter.LexSplits | docsrc/formatter.py:94-117 | a non-blank line is exactly its whitespace indentation followed by the terminal's text, which starts with a non-space |
| Formatter.LexDefinition | docsrc/formatter.py:91-100 | definition lines are exactly the non-blank lines containing "::", and the text after the split holds no further "::" |
| Formatter.LexBullet | docsrc/formatter.py:102-110 | bullet lines are exactly the non-blank lines without "::" that start with a marker; the bullet is the marker and its spaces, and the inner text starts with a non-space |
| Formatter.Tokenize | docsrc/formatter.py:132-136 | the lexer holds one terminal per line, each the lexing of that line, with the head before the first |
| Formatter.Next | docsrc/formatter.py:138-143 | the head moves forward by one; past the last line the end marker comes back, otherwise the terminal under the head |
| Formatter.Back | docsrc/formatter.py:148-149 | the head moves back by one but never below -1, and the terminals are untouched |
| Formatter.Seek | docsrc/formatter.py:145-146 | the head is at the requested position and the terminals are untouched |
| Formatter.NameRun | docsrc/formatter.py:208 | the `[A-Z0-9_]*` run is maximal: every character in it is a name character and the next one is not |
| Formatter.CloseParen | docsrc/formatter.py:208 | `[^\)]*\)` stops at the first ')' after the name; none means no ')' follows |
| Formatter.MatchAt | docsrc/formatter.py:208 | a match found at `i` starts with an upper-case letter, continues with name characters up to '(' and ends at the first ')' |
| Formatter.FirstMatch | docsrc/formatter.py:208-211 | the match returned is the leftmost one from `i`: no earlier position matches, and none means no position matches |
| Formatter.MatchesChain | docsrc/formatter.py:208-211 | the matches `finditer` yields are genuine matches, in increasing order and non-overlapping |
| Formatter.LinkKeepsText | docsrc/formatter.py:205-239 | in anchor mode the text pieces and link texts, concatenated, give back the whole input text: the argument list stays as text after each link |
| Formatter.LinkFromFlatten | docsrc/formatter.py:211-237 | the same from any match position: the pieces concatenate to the text after the last cut |
| Formatter.LinkRefs | docsrc/formatter.py:211-227 | the links are exactly the matches whose name is in the function table, in order, and each points at its table entry |
| Formatter.LinkFromRefs | docsrc/formatter.py:211-227 | from any position, the linked names are the known names among the remaining matches |
| Formatter.LinkFromTargets | docsrc/formatter.py:215-226 | every link made from any position points at the table entry of its name |
| Formatter.MapWiki | docsrc/formatter.py:228-230 | each piece is written out in wiki form, one for one |
| Formatter.LinkWiki | docsrc/formatter.py:222-230 | wiki mode produces the anchor-mode pieces with each link written as `[[href|name]]` text |
| Formatter.LinkFromWiki | docsrc/formatter.py:222-233 | the same correspondence holds from any match position |
| Formatter.Terminal | docsrc/formatter.py:243-251 | a terminal of the requested kind after the head is taken and the head moves to it; otherwise the head is left where it was |
| Formatter.Peek | docsrc/formatter.py:482-483 | `next()` then `back()` yields the terminal after the head (the end marker past the last line) |
| Formatter.Rewind | docsrc/formatter.py:309-316 | taking a line and then backing over it leaves the head where it started |
| Formatter.Continue | docsrc/formatter.py:308-317 | the continuation loop takes every following line at exactly the indent and stops at the first terminal that is not one |
| Formatter.RunUnique | docsrc/formatter.py:308-317 | a maximal run of lines at one indent has only one possible end |
| Formatter.VerbatimLoop | docsrc/formatter.py:329-342 | the loop takes only deeper lines and blank lines and stops before the first terminal that is neither |
| Formatter.VerbatimLoopGood | docsrc/formatter.py:329-343 | `good` ends up true exactly when it started true or a deeper line was taken |
| Formatter.FirstDeep | docsrc/formatter.py:329-343 | a verbatim run holds a deeper line exactly when its first non-blank terminal is deeper |
| Formatter.TrimBlank | docsrc/formatter.py:346-347 | a text ending in two line breaks loses exactly one; any other text is unchanged |
| Formatter.ParseV | docsrc/formatter.py:325-351 | a verbatim block is produced exactly when the first non-blank terminal is a deeper line, and then it covers a maximal run of deeper and blank lines; otherwise the head is restored |
| Formatter.VerbatimBlock | docsrc/formatter.py:326-348 | the block's text is a line break, each taken line re-indented relative to `n` (blank lines as empty lines), with a final empty line dropped |
| Formatter.ParseP | docsrc/formatter.py:291-321 | a paragraph starts exactly at a plain line at indent `n`; it takes the maximal run of lines at `n` and its text is those lines, linked; otherwise the head does not move |
| Formatter.ParseULI | docsrc/formatter.py:371-410 | an item starts exactly at a bullet line at indent `n`, and consumes at least that line; otherwise the head does not move |
| Formatter.ItemContent | docsrc/formatter.py:371-410 | the item's paragraph is the bullet's inner text followed by the continuation lines at the inner indent, linked; its body is the division parsed at the inner indent after them, and the head ends where that division stops |
| Formatter.ParseItems | docsrc/formatter.py:357-362 | the item loop yields items exactly when the next terminal is a bullet at `n`, and stops only where no further bullet at `n` follows |
| Formatter.ParseUL | docsrc/formatter.py:355-367 | a list is produced exactly at a bullet line at indent `n`, holds at least one item, and is maximal: no bullet at `n` follows it |
| Formatter.ParseDI | docsrc/formatter.py:431-492 | an entry starts exactly at a definition line at `n`; its term is the line's content, its defaults are the stripped inner text when that is non-empty, and it has a (non-empty) body exactly when the next terminal is a deeper line |
| Formatter.ParseEntries | docsrc/formatter.py:417-422 | the entry loop yields entries exactly when the next terminal is a definition line at `n` |
| Formatter.ParseDL | docsrc/formatter.py:415-427 | a description list is produced exactly at a definition line at `n` and holds at least one entry |
| Formatter.ParseBlocks | docsrc/formatter.py:261-285 | the division loop yields blocks exactly when the terminals after the head open a block at `n`, and stops only where nothing at `n` can continue |
| Formatter.ParseDiv | docsrc/formatter.py:255-287 | a division is produced exactly when a block at `n` opens after the blank lines, is then non-empty, and stops where nothing at `n` continues |
| Formatter.IndentInit | docsrc/formatter.py:181-185 | the initial indent is the number of leading spaces of the first line (tabs do not count) |
| Formatter.Format | docsrc/formatter.py:495-506 | no lines fails on `lines[0]`; otherwise the document is produced exactly when a block opens at the initial indent, and fails on iterating `None` when none does |
| Formatter.FirstLineOpens | docsrc/formatter.py:181-187 | a document whose first line is not blank always produces blocks |
| Formatter.FormatCoversAll | docsrc/formatter.py:503 | when no line is indented less than the initial indent, the top-level division consumes every line |
| Formatter.ListItems | docsrc/formatter.py:355-367 | a parsed list's items are its first item followed by the items the loop parses after it |
| MDoc.RFind | docsrc/mdoc.py:64 | `str.rfind`: the index returned holds the character and no later index does; -1 means it does not occur |
| MDoc.SplitExt | docsrc/mdoc.py:64 | `os.path.splitext`: root and extension concatenate to the path, and a non-empty extension starts at the path's last dot |
| MDoc.SplitExtOf | docsrc/mdoc.py:64 | a file `stem.e` whose extension has no dot or separator splits into `stem` and `.e` (unless the file name is dots only) |
| MDoc.Join | docsrc/mdoc.py:67-71 | `os.path.join` with an absolute second part returns that part |
| MDoc.JoinPrefix | docsrc/mdoc.py:67-71 | joining a relative name under a directory keeps the directory as the prefix and the name as the suffix |
| MDoc.MFileNames | docsrc/mdoc.py:63-72 | the derived names agree: the documentation name is the relative path with separators as '_', the web name has '.' there, the HTML name adds ".html", and the wiki name is "MDoc_" and the upper-cased documentation name |
| MDoc.MFileStem | docsrc/mdoc.py:64-68 | for a file `stem.e` the function name is the upper-cased stem and the documentation name is built from `dirname/stem` |
| MDoc.GetRef | docsrc/mdoc.py:78-84 | "html", "web" and "wiki" select the HTML, web and wiki names; any other format gives `None` |
| MDoc.DepthFirst | docsrc/mdoc.py:158-168 | the walk starts with the node itself |
| MDoc.DepthFirstNodes | docsrc/mdoc.py:158-168 | the walk yields a node exactly when it lies in the tree |
| MDoc.DepthFirstSize | docsrc/mdoc.py:158-168 | the walk visits each node once: its length is the number of nodes in the tree |
| MDoc.ChildWalk | docsrc/mdoc.py:164-167 | pre-order: the walk of child k sits right after the node and the walks of the children before it |
| MDoc.KeptFilesSpec | docsrc/mdoc.py:231-243 | a file becomes an M-file of the node exactly when it is listed, has extension ".m", and its function name contains neither "DEMO" nor "TEST" |
| MDoc.XScanChildren | docsrc/mdoc.py:246-247 | one child per sub-directory, in order, each named by joining the directory names |
| MDoc.XScanFilters | docsrc/mdoc.py:238-241 | no node anywhere in a scanned tree lists a demo or test function |
| MDoc.Item | docsrc/mdoc.py:123-136 | each file's index entry is non-empty |
| MDoc.ItemsContain | docsrc/mdoc.py:123-136 | the entries of a node's file list contain the entry of each of its files |
| MDoc.OwnContains | docsrc/mdoc.py:119-136 | a node's own part of the index contains the entry of each of its files |
| MDoc.IndexLists | docsrc/mdoc.py:116-139 | the index of a tree contains the entry of every M-file of every node, at any depth |
| MDoc.IndexEmpty | docsrc/mdoc.py:116-139 | the index is empty exactly when no node of the tree has an M-file |
| MDoc.IndexDepth | docsrc/mdoc.py:119-138 | the depth only decides the wiki headings from depth 2 on: an HTML index, or a wiki index at depths above 1, does not depend on it |
| MDoc.IndexTop | docsrc/mdoc.py:131-138 | the top-level wiki index differs from the same tree at depth 2 only by the missing heading of the root directory |
| MDoc.Classify | docsrc/mdoc.py:187-200 | a stripped line starting with '%' is a comment whose text follows the '%'; one starting with "function" is a function line |
| MDoc.StopAt | docsrc/mdoc.py:184-197 | the loop stops within the file |
| MDoc.StopAtSpec | docsrc/mdoc.py:184-197 | the loop stops at the first line that breaks it: a line that is neither comment nor function, unless a function line was seen and no comment yet |
| MDoc.BreaksHere | docsrc/mdoc.py:189-195 | the flags after a line record whether a function or comment line has been seen, and the break test at a line uses the flags updated by that line |
| MDoc.CollectComments | docsrc/mdoc.py:184-201 | the collected body is the text of the comment lines before the stop line |
| MDoc.CollectNoBreak | docsrc/mdoc.py:200-205 | each collected line is a comment text without line breaks followed by one line break |
| MDoc.StripNoBreak | docsrc/mdoc.py:187 | stripping a file line leaves no line break in it |
| MDoc.HeaderSound | docsrc/mdoc.py:207-209 | a header matched by `^\s*(\w+)\s*(\S.*)\n$` has that shape: whitespace, a word name, optional whitespace, a description starting with a non-space |
| MDoc.HeaderComplete | docsrc/mdoc.py:207-209 | whenever the first comment line has that shape, the match succeeds |
| MDoc.ExtractSpec | docsrc/mdoc.py:171-211 | without comment lines the result is empty; otherwise extraction succeeds exactly when the first comment line has the header shape (the source fails on `match.group` when it has not), and then the body is the comment lines after it and the name and description come from the match |
| MDoc.XScan | docsrc/mdoc.py:215-249 | the node is named after the scanned directory, has one child per sub-directory and at most one M-file per listed file, and none of its M-files is a demo or test function |
| MDoc.IndexPage | docsrc/mdoc.py:116-139 | the page of a node contains the index entry of each of its M-files, in either format |
| MDoc.Header | docsrc/mdoc.py:207-209 | a matched header gives a non-empty word name and a description that starts with a non-space and is the tail of the line |
| MDoc.Extract | docsrc/mdoc.py:171-211 | a file without comment lines gives an empty record; otherwise the function name is a word and the brief description is non-empty and starts with a non-space |
| IKMeans.SqDist | vl/ikmeans.c:66-74 | the accumulated squared distance is never negative |
| IKMeans.SqDistZero | vl/ikmeans.c:66-74 | the distance is zero exactly when the point and the center agree on all M coordinates |
| IKMeans.NearestUnique | vl/ikmeans.c:77-81 | "first of the strictly closest" singles out one center: two nearest centers in this sense are the same |
| IKMeans.ArgMin | vl/ikmeans.c:64-82 | among the first k centers the one chosen is as close as any and strictly closer than every earlier one |
| IKMeans.Nearest | vl/ikmeans.c:61-82 | with no centers the assignment stays `(idx_t)-1`; otherwise it is the nearest center in that sense |
| IKMeans.Assign | vl/ikmeans.c:59-88 | the assignment has one entry per point |
| IKMeans.NearestCenter | vl/ikmeans.c:139-159 | the center loop returns `(idx_t)-1` without centers, and otherwise the first center at the smallest distance |
| IKMeans.Push | vl/ikmeans.c:131-162 | every point is assigned its nearest center (and `(idx_t)-1` when there are no centers) |
| IKMeans.PushIsAssign | vl/ikmeans.c:131-162 | any assignment of every point to its nearest center is the assignment function, so pushing and a training pass agree |
| IKMeans.AssignPass | vl/ikmeans.c:57-88 | after the pass every point holds its nearest center, and `done` holds exactly when no assignment changed |
| IKMeans.Count | vl/ikmeans.c:101-105 | a cluster never counts more points than were accumulated |
| IKMeans.SumBound | vl/ikmeans.c:101-109 | the byte coordinates summed into a cluster stay between 0 and 255 times its count |
| IKMeans.Center | vl/ikmeans.c:111-123 | a recomputed center has M coordinates |
| IKMeans.Update | vl/ikmeans.c:98-123 | recomputation yields K centers of M coordinates each |
| IKMeans.UpdateBytes | vl/ikmeans.c:111-123 | centers recomputed from byte data are bytes again: the integer mean of bytes, or a data point for an empty cluster |
| IKMeans.CountsCover | vl/ikmeans.c:101-105 | when every assignment is below K the cluster counts add up to the number of points |
| IKMeans.TotalStep | vl/ikmeans.c:105 | accumulating one more point raises the total count by one exactly when its cluster is one of the K |
| IKMeans.AddRow | vl/ikmeans.c:107-108 | accumulating a point adds it coordinate by coordinate |
| IKMeans.Recompute | vl/ikmeans.c:98-123 | the clear/accumulate/divide loops compute each center as the per-coordinate integer mean of its points, or its permuted data point when it has none |
| IKMeans.Init | vl/ikmeans.c:42-45 | the initial centers are the data points at the first K permuted positions |
| IKMeans.Train | vl/ikmeans.c:23-128 | at most 201 passes; the final assignment is the nearest-center assignment for the final centers and names one of the K; byte data gives byte centers; a stop after the first pass keeps the initial centers and, when it stopped on `done`, the given assignment; a later stop before the pass limit leaves the centers recomputed from the final assignment (a fixed point) |
| IKMeans.AssignBelow | vl/ikmeans.c:59-88 | with at least one center every assignment names one of them |
| HIKMeans.Positions | vl/hikmeans.c:35-48 | the matching rows: as many as the counting loop counts, each with the requested id, strictly increasing, and every row with that id among them |
| HIKMeans.Subset | vl/hikmeans.c:42-48 | the copied subset has as many rows as the counting loop counts |
| HIKMeans.CopySubset | vl/hikmeans.c:30-52 | N2 equals both the first count and the number of rows copied, and the rows are those with the requested id in their original order |
| HIKMeans.SubsetStep | vl/hikmeans.c:43-48 | scanning one more row appends it exactly when its id matches |
| HIKMeans.SubsetsCover | vl/hikmeans.c:77-84 | when every id is below K, the K subsets share out all N rows |
| HIKMeans.SizesAreTotal | vl/hikmeans.c:77-84 | the sizes of the K subsets sum to the number of rows whose id is below K |
| HIKMeans.XMeans | vl/hikmeans.c:55-89 | the node's centers are the clustering of its data, and the subtree has the requested depth: K children per node down to depth 1 |
| HIKMeans.ChildTrainedOnCluster | vl/hikmeans.c:77-84 | child c of a node is built, one level shallower, on exactly the points whose nearest center at the node is c |
| HIKMeans.Build | vl/hikmeans.c:91-104 | the tree records M, K and the depth, and its root is a complete tree of that depth |
| HIKMeans.BuiltDescends | vl/hikmeans.c:125-136 | in a built tree every nearest center at a node with children names an existing child, so the descent never leaves the tree |
| HIKMeans.PushPath | vl/hikmeans.c:125-136 | a descent records at least one center, and every recorded center is a real index |
| HIKMeans.NodeAt | vl/hikmeans.c:135 | following recorded centers from a node stays inside the tree |
| HIKMeans.PushPathNearest | vl/hikmeans.c:129-135 | each recorded center is the nearest center of the node reached by the centers before it |
| HIKMeans.PushPathEndsAtLeaf | vl/hikmeans.c:133 | the descent stops at a node without children |
| HIKMeans.PushPathLength | vl/hikmeans.c:117-136 | in a built tree every descent records exactly `depth` centers, each below K, so the `depth*N` output array is filled exactly |
| HIKMeans.Walk | vl/hikmeans.c:125-136 | the loop for one point records the descent from the root |
| HIKMeans.Block | vl/hikmeans.c:130 | point q's entries are `ids[q*depth .. q*depth+depth)` |
| HIKMeans.Push | vl/hikmeans.c:115-140 | the output has depth·N entries and point q's block is its descent from the root |
| HIKMeans.Appended | vl/hikmeans.c:123-136 | writing point i's entries leaves every earlier point's block as it was and fills point i's block |
| HIKMeans.BlockFits | vl/hikmeans.c:130 | earlier points' blocks end before point i's starts, and every block lies inside the array |
| HIKMeans.PushEntry | vl/hikmeans.c:130 | entry `i*depth+d` of the output is the center chosen for point i at level d |
| LiopOrder.Fact | vl/liop.c:566-573 | the factorial is at least 1 (and 1 for every argument up to 1) |
| LiopOrder.Factorial | vl/liop.c:566-573 | the product loop returns n!, and 1 for every n <= 1 |
| LiopOrder.FactStep | vl/liop.c:568-571 | each step moves one factor from the remaining factorial into the running product without changing their product |
| LiopOrder.FactDiv | vl/liop.c:521 | `f / (size - i)` steps from one factorial to the previous one exactly |
| LiopOrder.Free | vl/liop.c:512-520 | at most v of the values below v are still unused |
| LiopOrder.FreeSnoc | vl/liop.c:514 | marking one more value removes it from the free values exactly when it lies below v |
| LiopOrder.FreeAll | vl/liop.c:512-520 | distinct values below n leave exactly n minus their number free |
| LiopOrder.DigitBound | vl/liop.c:512-522 | the digit at position i counts at most the positions after it |
| LiopOrder.RankFromBound | vl/liop.c:506-522 | the digits from position i on amount to less than (n - i)! |
| LiopOrder.RankBound | vl/liop.c:485-497 | the permutation index of n values lies in [0, n!) |
| LiopOrder.LexOrder | vl/liop.c:128-140 | the index follows the table's lexicographic order: a permutation smaller at the first difference gets the smaller index |
| LiopOrder.DigitOrder | vl/liop.c:506-522 | a smaller digit at position i puts the index from i on below, whatever follows |
| LiopOrder.RankInjective | vl/liop.c:491-492 | distinct permutations of one length get distinct indexes |
| LiopOrder.FirstDifference | vl/liop.c:128-140 | two different sequences of one length have a first position where they differ |
| LiopOrder.TableFirst | vl/liop.c:132 | (1 2 3 4) has index 0 |
| LiopOrder.TableSecond | vl/liop.c:133 | (1 2 4 3) has index 1 |
| LiopOrder.TableSixth | vl/liop.c:137 | (1 4 3 2) has index 5 |
| LiopOrder.TableSeventh | vl/liop.c:138 | (2 1 3 4) has index 6 |
| LiopOrder.TableLast | vl/liop.c:495 | (4 3 2 1) has index 23, the largest for four values |
| LiopOrder.Marked | vl/liop.c:516-520 | at most v values below v are marked |
| LiopOrder.CountFree | vl/liop.c:516-520 | the inner loop lowers the value by the number of marked values below it |
| LiopOrder.MarkedFree | vl/liop.c:509-520 | values below v are either marked or still free, so the loop's result is the number of free values below v |
| LiopOrder.PermutationIndex | vl/liop.c:497-528 | the index computed is the permutation's rank in the lexicographic table |
| LiopOrder.Swap | vl/liop.c:473-479 | the two entries trade places and nothing else changes |
| LiopOrder.SwapPermutes | vl/liop.c:473-479 | a swap inside a range only rearranges that range |
| LiopOrder.RangeMultiset | vl/liop.c:426-465 | rearranging a range keeps the range's multiset of entries |
| LiopOrder.SideKept | vl/liop.c:457-463 | rearranging one side keeps every entry on its side of the pivot |
| LiopOrder.IndexesKept | vl/liop.c:426-465 | rearranging keeps every entry a valid index of the values |
| LiopOrder.SweepTake | vl/liop.c:443-449 | an entry that sorts before the pivot (smaller value, or equal value and smaller index) is swapped into the low part |
| LiopOrder.SweepPlace | vl/liop.c:452-454 | swapping the pivot into place leaves the low part before it and the rest after it |
| LiopOrder.Partition | vl/liop.c:431-454 | the range is rearranged around a pivot at `m`: everything before sorts before it, everything after sorts after it |
| LiopOrder.Assemble | vl/liop.c:456-463 | two sorted sides around a separating pivot make a sorted range |
| LiopOrder.SortIndexes | vl/liop.c:426-465 | the index range is rearranged into increasing (value, index) order |
| LiopOrder.Iota | vl/liop.c:426 | the index array before sorting is 0 .. n-1 |
| LiopOrder.DistinctByMultiset | vl/liop.c:426-465 | a rearrangement of distinct indexes is distinct |
| LiopOrder.SortedPermutation | vl/liop.c:426-465 | sorting 0 .. n-1 gives a permutation of 0 .. n-1 in strictly increasing (value, index) order: the sort is stable |
| LiopOrder.Insert | vl/liop.c:426-465 | inserting into the reference order adds exactly that one index |
| LiopOrder.InsertSorted | vl/liop.c:426-465 | insertion keeps the reference order strictly sorted |
| LiopOrder.Order | vl/liop.c:426-465 | the reference insertion sort rearranges its input |
| LiopOrder.OrderSorted | vl/liop.c:426-465 | the reference sort of distinct indexes is strictly sorted by (value, index) |
| LiopOrder.SortedHead | vl/liop.c:426-465 | two strictly sorted arrangements of the same indexes start with the same index |
| LiopOrder.SortedUnique | vl/liop.c:426-465 | two strictly sorted arrangements of the same indexes are equal |
| LiopOrder.Ordering | vl/liop.c:119-121 | the ordering read for given intensities is a permutation of 0 .. n-1 strictly sorted by (value, index) |
| LiopOrder.QuicksortIsOrdering | vl/liop.c:426-465 | what the quicksort leaves in the permutation array is exactly that ordering, independent of pivot choices |
| Liop.Coordinates | vl/liop.c:582-589 | the coordinates, shifted so the center is (0, 0), put the column within the patch side and rebuild the position as row·side + column |
| Liop.RowMajor | vl/liop.c:584-585 | a position splits into a non-negative row and a column in [0, side) that rebuild it |
| Liop.VectorPosition | vl/liop.c:599-607 | a point at or right of and below the patch corner gets a non-negative position |
| Liop.CoordinatesOfPosition | vl/liop.c:582-607 | position and coordinates are inverse: a point inside the patch columns gets back the coordinates it was placed at |
| Liop.RowColumnUnique | vl/liop.c:584-585 | row-major positions with columns inside [0, side) determine row and column |
| Liop.CenterPosition | vl/liop.c:340-343 | for an odd side, the point skipped as the center is exactly the middle entry of the patch vector |
| Liop.Middle | vl/liop.c:586 | the middle of (2s+1)² entries is at row s, column s |
| Liop.PairScore | vl/liop.c:639-644 | a pair adds 2 exactly when its difference exceeds the threshold, 0 exactly when it falls below, and 1 when equal |
| Liop.GetWeight | vl/liop.c:632-652 | the double loop computes the weight: the pair scores summed, or 1 when they sum to 0 |
| Liop.RowScoreBound | vl/liop.c:638-645 | one row of pairs scores at most 2 per pair, exactly that when all are far apart, and 0 when all are close |
| Liop.SpanIs | vl/liop.c:637-646 | twice the number of pairs i < j among m values is m(m-1) |
| Liop.PairsBound | vl/liop.c:637-646 | the pair scores from i on are at most (n-i)(n-i-1), reached when all are far apart, and 0 when all are close |
| Liop.WeightBounds | vl/liop.c:632-652 | the weight is at least 1, at most n(n-1) for n >= 2 neighbours, and 1 for fewer |
| Liop.WeightFlat | vl/liop.c:647-648 | neighbours all closer than the threshold weigh 1 |
| Liop.WeightSpread | vl/liop.c:637-651 | neighbours all farther apart than the threshold weigh n(n-1), the largest weight |
| Liop.MakeBins | vl/liop.c:284-299 | the bins tile the sorted points: all but the last hold n / bins points and the last also holds the remainder |
| Liop.BinQuotient | vl/liop.c:287-288 | `(n - residue) / bins` is the quotient and `residue` the remainder of n over the bins |
| Liop.LastBinEnds | vl/liop.c:298 | the last bin, n / bins + n % bins points from the last shift, ends exactly at n |
| Liop.DivParts | vl/liop.c:287-288 | n is bins times the quotient plus the remainder |
| Liop.BinsDisjoint | vl/liop.c:290-299 | no point lies in two bins |
| Liop.StartsGrow | vl/liop.c:290-296 | every bin starts after all earlier bins end |
| Liop.BinsCover | vl/liop.c:290-299 | every point lies in some bin |
| Liop.BinsOrdered | vl/liop.c:281-299 | over the sorted points, every point of an earlier bin sorts before every point of a later one: bins go from dark to bright |
| Liop.BlockLayout | vl/liop.c:292-299 | bin i's entry r lies inside the descriptor at `i·n! + r`, and no two (bin, entry) pairs share a slot |
| Liop.PointPattern | vl/liop.c:348-359 | one point's permutation index is the rank of its neighbours' ordering, below n!, and its weight is the pair-score weight |
| Liop.BinLiop | vl/liop.c:326-370 | each histogram entry grows by the total weight of the bin's non-center points whose pattern is that entry, and the used-point count is the number of non-center points |
| Liop.Counted | vl/liop.c:339-366 | one loop step keeps the histogram tallied: the center changes nothing, any other point adds its weight at its pattern |
| Liop.Tally | vl/liop.c:362-365 | adding one point's votes keeps the histogram tallied and counts it when it is not the center |
| Liop.MassSnoc | vl/liop.c:362 | an entry over one more point grows by that point's vote |
| Liop.VotesUpTo | vl/liop.c:362 | one point votes once, in the entry of its pattern, when that entry is in range |
| Liop.HistogramTotal | vl/liop.c:339-366 | every weight lands in exactly one of the n! entries: the histogram sums to the total weight of the non-center points |
| Liop.PatternBound | vl/liop.c:353-356 | every permutation index of n neighbours is below n!, so `binLiop[permIndex]` stays inside the bin |
| Liop.Histogram | vl/liop.c:286-299 | each bin's histogram has n! entries |
| Liop.BinHistograms | vl/liop.c:290-304 | one histogram per bin, each of n! entries |
| Liop.Describe | vl/liop.c:266-304 | the sorted points are a rearrangement of the inner points in increasing (intensity, index) order, and the descriptor is the bins' histograms laid out bin by bin, of neighbours!·bins entries |
| Liop.BinBlocks | vl/liop.c:290-304 | the bin loop produces the descriptor: each bin's histogram in bin order |
| Liop.BinBlock | vl/liop.c:326-370 | bin i's block, started from zero, is the histogram of its points |
| Liop.DescriptorSize | vl/liop.c:276-278 | the descriptor has neighbours!·bins entries |
| Liop.DescriptorEntry | vl/liop.c:292-299 | entry `i·n! + r` of the descriptor is the weight gathered at pattern r by the points of bin i |
| Liop.FlattenLength | vl/liop.c:295 | blocks of f entries each fill |bs|·f entries |
| Liop.FlattenAt | vl/liop.c:292-295 | entry r of block j sits at `j·f + r` |
| Liop.BinSlice | vl/liop.c:292-298 | the slice handed to bin i is that bin's range of the sorted points |
| Liop.StartIsMultiple | vl/liop.c:294 | bin i starts at i·(n / bins) |
| Liop.BinSampled | vl/liop.c:292-298 | the points of a bin are sample points with neighbours |
| Liop.SliceSampled | vl/liop.c:292-298 | any slice of sample points is made of sample points |
| Liop.SortedSampled | vl/liop.c:281 | sorting the sample points keeps them sample points |

## Left out

- Floating point: smoothing, difference of Gaussians, sub-pixel refinement, orientation and descriptor histograms, LIOP interpolation and normalisation, and HOG/DHOG gradients are not modelled. Where an integer part depends on them, they become parameters.
- I/O: file reads and writes, `fopen` and stderr/printf messages are left out. Streams are byte sequences.
- MEX entry points: most `mexFunction` bodies are left out, and only the pure helpers and table logic they call are modelled. Five bodies are modelled in part, without MATLAB's array allocation and output creation:
  - toolbox/misc/vl_binsearch.c:24-75, by `BinSearch.BinSearchMex`, with the argument count and plain-array checks; `plain` stands for the result of `uIsPlainArray` on both arguments.
  - toolbox/mser/vl_erfill.c:45-207, by `ErFill.Fill` and `ErFill.FillAsWritten`. The argument and output count checks, the UINT8 class check on I and the double-scalar check on ER (lines 72-84) are left out: the image is a sequence of naturals and ER an integer.
  - toolbox/misc/vl_ihashsum.c:70-222, by `IHash.CheckShapes`, `IHash.Initial`, `IHash.Sum` and `IHash.Truncate`. The argument and output count checks (lines 89-93) are left out.
  - toolbox/misc/vl_ihashfind.c:71-190, by `IHash.Find` for the search loop only. Its argument and class checks (lines 88-123) and the checks of K and NEXT against the table size (lines 141-146) are left out.
  - toolbox/sift/vl_sift.c:132 onwards, by `SiftMex.PrepareFrames` (the frame sorting) and `SiftMex.QuantizeDescriptor` (the descriptor output) only, next to the file's helpers above it (lines 60-125). Option parsing and the calls into the SIFT filter are left out.
- BinSearch.Search: requires at least one break point. For NB = 0, toolbox/misc/vl_binsearch.c:58 and :63 read `B[0]` and `B[NB-1]` outside the empty array, which has no defined result; `BinSearch.BinSearchMex` excludes the same case whenever X is non-empty.
- Pgm.ExtractData: the `swap` parameter stands for the host-endianness test `! vl_get_endianness() == VL_BIG_ENDIAN` (vl/pgm.c:274). The endianness constants are not part of this model.
- Pgm.Insert: the `swap` parameter stands for the same host-endianness test (vl/pgm.c:337). The `VL_ERR_PGM_IO` result of a failed write (vl/pgm.c:354) is not modelled because writing is a parameter-free byte sequence.
- Pgm.HeadFields: a bad magic number returns `Err(101)` (VL_ERR_PGM_INV_HEAD). The source returns −1 and sets `vl_err_no` to that code (vl/pgm.c:156-182).
- Pgm.ExtractHead: width, height and maximum value are unbounded integers, so `int` overflow while reading a long digit string is not modelled. The ASCII data path of `vl_pgm_extract_data` is not modelled either.
- BinSearch.Search: the doubles are modelled as integers, so NaN comparisons are not modelled.
- IHash.Walk: requires forward links (every non-zero NEXT entry points to a later slot). The source only checks that the links are at most res (toolbox/misc/vl_ihashsum.c:154-162). An acyclic backward link terminates in the source but is outside this member. A cyclic one loops forever; `IHash.WalkAsWritten` models that case and it is listed under Findings.
- IHash.Start: requires K > 0. The source divides by K (toolbox/misc/vl_ihashsum.c:175-184) and has no defined result for K = 0.
- IHash.Insert: keeps `IHash.Wf`, which includes forward links and K > 0, for the two reasons above.
- Sift.BaseLevel: upsampling for a negative first octave (vl/sift.c:635-655) is not modelled and yields None. Pixel values are reals, with no floating-point rounding.
- Sift.NextOctaves: counts successful calls of process_next_octave up to a fuel bound. `Sift.NextOctavesCount` shows the count is the smaller of the fuel and the number of octaves left, so the fuel only matters when it is below that number.
- Sift.Detect: the difference of Gaussians is an input, and keypoint refinement is a parameter that returns a refined keypoint or rejects the candidate.
- CovDet.Resize: buffer sizes are counted in elements rather than bytes, and allocation failure is an input flag.
- CovDet.ExtractAffineShape: the shape adaptation is a parameter giving each feature's status. Only the compaction of the kept features is modelled.
- Mser.FitEll: the second-order moments are a parameter. Only the buffer handling and the dof decoding are modelled.
- Mser.ProcessPixel: the join tie-break reads the heights of the two roots after the climbs (`Mser.JoinCorrected`). The source reads them before the climbs (vl/mser.c:964-965); that reading is `Mser.JoinAsWritten`, under Findings.
- MserRegions.Detect: the variation and stability scores are inputs (per-pixel stable and bad flags). Only the extremal-region bookkeeping and the cleanup are modelled.
- Formatter.Format: the XML DOM that `toDOM` builds is modelled as a datatype of blocks and inline pieces, without minidom. Python's exceptions are the `Failure` values of a `Result`.
- Lbp.Process: pixel values are reals, so the rounding of the bilinear cell weights is not modelled, and neither is the square-root normalisation of the histogram.
- Hog.FillUoCTTI: works on arrays and states its result through `modifies`, so it is not counted. The gradient histograms that fill the cells are not modelled.
- DHog.FramePositions: the convolutions and the normalisation that fill the descriptors are not modelled. Only the frame enumeration and the descriptor layout are.
- ErFill.Fill: the seed ER is an integer, so the truncating double-to-int conversion of the MATLAB argument is not modelled.
- ImIntegral.Integral: the float and double instances are modelled as exact sums, without rounding. Signed overflow of the int32 instance is undefined in C; the model reads it as two's-complement wrap-around modulo 2^32, as the uint32 instance does.
- MathOp.FastSqrtI: its input is a natural below 2^32, with no unsigned wrap-around elsewhere.
- Liop.Describe: takes each sample's neighbour intensities as input. Also not modelled: `find_weight_threshold`, `rotate_vector`, the circle look-up table, the inner-patch indexes and the final normalisation (vl/liop.c:306-317).
- IKMeans.Train: the random-key permutation of the initial centers is a parameter. The accumulator is unbounded, so `acc_t` overflow is not modelled. Progress messages are left out.
- HIKMeans.Build: the per-node k-means training is a parameter, because vl/hikmeans.c:65 calls `vl_ikmeans` with a signature that vl/ikmeans.c does not define. The depth is a parameter of at least 1: the formula `ceil(log(nleaves)/log(K))` of vl/hikmeans.c:95 is not modelled, and neither are its degenerate cases. For `nleaves = 1` it gives depth 0, and since vl/hikmeans.c:68 only stops at depth 1, `vl_hikm_xmeans` then recurses without end. For `K = 1` it divides by `log 1 = 0`. `vl_hikm_delete` is not modelled either.
- `vlmxIsMatrix` is not modelled, because it reads a dimension before its bound check.
- GetoptLong.Dispatch: the warning messages are not modelled, only their return codes.
- GenericDriver.MetaOpen: opening the file is a parameter. Only the name building and the error returns are modelled.
- Not modelled at all: `vl_string_find_char_rev` (it compares against the literal 'c'), the block-sparse arrays, CPUID/SIMD detection, allocator hooks and concurrency.

## Findings

Each row pairs a member that models the code as written with the
corrected member the rest of the model uses.

| source | as written | input that shows it | evidently intended | confidence | as-written member | corrected member |
|---|---|---|---|---|---|---|
| vl/getopt_long.c:141-148 | an argument equal to "--" sets `optind = optend` before the rotation at lines 301-313, so "--" is copied over the element after it | `prog -- file` gives argv `[prog, --, --]` with `optind` 3, so the operand "file" is lost (`GetoptLong.DashDashExample`) | "--" is rotated to `optind`, `optind` steps just past it, and every operand is kept in order | not executed | GetoptLong.DashDashAsWritten | GetoptLong.DashDash |
| vl/pgm.c:220-223 | `! max_value >= 65536` parses as `(!max_value) >= 65536`, which is always false, so the range check never rejects | a header `P5 1 1 70000` is accepted although its pixels do not fit two bytes (`Pgm.WideMaxAccepted`) | a maximum value of 65536 or more is rejected with VL_ERR_PGM_INV_META | not executed | Pgm.ExtractHeadAsWritten | Pgm.ExtractHead |
| toolbox/mser/vl_erfill.c:108-120 | the seed is appended to the member list but never marked visited, so a neighbour can append it again | a 2-by-1 image of zeros (dims `[2, 1]`) with ER = 1 gives `[1, 2, 1]`, which writes past the nel slots of the member list (`ErFill.FillAsWrittenRepeatsSeed`) | the seed is marked visited when listed, so each pixel appears at most once (`ErFill.FillListsOnce`) | not executed | ErFill.FillAsWritten | ErFill.Fill |
| toolbox/misc/kdtree.h:339-348 | the split dimension is checked only against the upper bound, then decoded as `d - 1` | a stored split dimension 0 is accepted and `d - 1` on the vl_uint32 gives 2^32 − 1, outside `[0, dimension)` | a stored split dimension must lie in `[1, dimension]` | not executed | KdTree.DecodeNodeAsWritten | KdTree.DecodeNode |
| vl/mser.c:964-965 | the two heights for the join tie-break are read before the climbs, from the pixel's previous root and from node `nr_idx = 0` | a fresh pixel root of height 1 meets a same-valued root of height 3 while node 0 has height 1; the pixel's root is hung under the neighbour's root, but with the stale heights it is made the parent, and the tree grows (`Mser.StaleHeightsMisjoin`) | the heights of the two roots found by the climbs decide the tie | not executed | Mser.JoinAsWritten | Mser.JoinCorrected |
| vl/sift.c:455-470 | the outer loop runs while `y < height`, so a partial last block of rows is sampled | a 4 x 1 image downsampled once gives 2 pixels where the octave size is 2 x 0 = 0 (`Sift.DownsampleOverrun`) | only whole blocks of rows are sampled, exactly the octave's pixels (`Sift.DownsampleFits`) | not executed | Sift.CopyAndDownsampleAsWritten | Sift.CopyAndDownsample |
| vl/sift.c:613-621 | process_first_octave does not reset the gradient cache index `grad_o` | with o_min = 0, an orientation on image 1 sets `grad_o` to 0; after the first octave of image 2, the gradients of image 1 are reused (`Sift.StaleGradients`) | the first octave of a new image invalidates the gradient cache, so `grad_o` becomes o_min − 1 | not executed | Sift.FirstOctaveAsWritten | Sift.FirstOctave |
| vl/covdet2.c:526-540 | vl_covdet_reset frees and nulls `frames` but keeps its recorded size and `numFrames` | after a detection grows the buffer, setting the first octave and detecting again stores the first feature through NULL (`CovDet.ResetThenAppendFaults`) | the reset also zeroes the recorded size and the count, so the buffer stays consistent | not executed | CovDet.ResetAsWritten | CovDet.Reset |
| toolbox/misc/vl_ihashsum.c:188-208 | the overflow chain is followed with no step bound, and the links are only checked to be at most res | a one-slot table whose slot holds another key and links to itself loops forever (`IHash.SelfLinkNeverStops`) | links lead forward, so every walk stops within the table (`IHash.WalkStops`) | not executed | IHash.WalkAsWritten | IHash.Walk |
| vl/hog.c:358-359 | a reused buffer clears `hog` twice, the second time with the norm buffer's size, and never clears `hogNorm` | a reused 1 x 1 grid whose norm holds 1 from the previous image keeps it, so the norm pass adds into a stale value (`Hog.StaleNorm`; the corrected version clears both buffers, `Hog.PrepareClears`) | the second memset clears `hogNorm` | not executed | Hog.PrepareAsWritten | Hog.Prepare |

The worked example in the comment at vl/liop.c:123-126 gives index 6
for the permutation (1 4 3 2). The table at vl/liop.c:137 and the code
give 5, and `LiopOrder.TableSixth` proves the model agrees with the table.
The defect is in the documentation only, so it has no row above.

=== FILE: binsearch.dfy ===
/**
 * The bracket search of toolbox/misc/vl_binsearch.c: for each query x it
 * finds the bin of the break points B that contains x. Break points and
 * queries are MATLAB doubles; only their order matters, so they are
 * modelled as integers.
 */
module BinSearch {
  import opened Wrappers

  predicate Sorted(b: seq<int>)
  {
    forall i, j :: 0 <= i < j < |b| ==> b[i] <= b[j]
  }

  /** Number of break points not above x. */
  function CountLE(b: seq<int>, x: int): (r: nat)
    ensures r <= |b|
  {
    if b == [] then 0
    else CountLE(b[..|b| - 1], x) + (if b[|b| - 1] <= x then 1 else 0)
  }

  /**
   * What the search promises for one query, sorted or not: 0 below the
   * first break point, |b| above the last, and otherwise an index r >= 1
   * with b[r-1] <= x, and x < b[r] unless r is the last index or |b|.
   */
  predicate IsBracket(b: seq<int>, x: int, r: nat)
    requires |b| >= 1
  {
    if x < b[0] then r == 0
    else if x > b[|b| - 1] then r == |b|
    else
      && 1 <= r <= |b| && b[r - 1] <= x
      && (r < |b| - 1 ==> x < b[r])
      && (|b| >= 2 ==> r <= |b| - 1)
  }

  /**
   * The bin of x for sorted break points: the number of break points not
   * above x, except that x equal to the last break point still falls in
   * the last finite bin.
   */
  function Bracket(b: seq<int>, x: int): (r: nat)
    requires |b| >= 1
  {
    if x < b[0] then 0
    else if x > b[|b| - 1] then |b|
    else if |b| == 1 then 1
    else Min(CountLE(b, x), |b| - 1)
  }

  /** The loop of vl_binsearch for one query. */
  method Search(b: seq<int>, x: int) returns (r: nat)
    requires |b| >= 1
    ensures IsBracket(b, x, r)
  {
    if x < b[0] {
      return 0;
    }
    if x > b[|b| - 1] {
      return |b|;
    }
    var lo := 0;
    var hi := |b| - 1;
    while lo + 1 < hi
      invariant 0 <= lo <= hi <= |b| - 1
      invariant b[lo] <= x
      invariant hi == |b| - 1 || x < b[hi]
      invariant |b| >= 2 ==> lo < hi
    {
      var split := (hi + lo) / 2;
      if x < b[split] {
        hi := split;
      } else {
        lo := split;
      }
    }
    r := lo + 1;
  }

  /** On a sorted prefix-below / suffix-above split, CountLE is the split. */
  lemma {:induction false} CountSplit(b: seq<int>, x: int, r: nat)
    requires r <= |b|
    requires forall i :: 0 <= i < r ==> b[i] <= x
    requires forall i :: r <= i < |b| ==> x < b[i]
    ensures CountLE(b, x) == r
    decreases |b|
  {
    if b != [] {
      var p := b[..|b| - 1];
      if r == |b| {
        CountSplit(p, x, r - 1);
      } else {
        CountSplit(p, x, r);
      }
    }
  }

  /** On sorted break points the bracket property has exactly one answer. */
  lemma BracketUnique(b: seq<int>, x: int, r: nat)
    requires |b| >= 1 && Sorted(b)
    requires IsBracket(b, x, r)
    ensures r == Bracket(b, x)
  {
    if b[0] <= x <= b[|b| - 1] && |b| >= 2 {
      if r < |b| - 1 {
        CountSplit(b, x, r);
      } else if x < b[|b| - 1] {
        CountSplit(b, x, r);
      } else {
        CountSplit(b, x, |b|);
      }
    }
  }

  /**
   * The MEX entry: exactly two arguments, both plain arrays (`plain`
   * says whether uIsPlainArray accepts both), and one bin per query, in
   * the shape of X. The argument count is checked first.
   */
  method BinSearchMex(nin: int, plain: bool, b: seq<int>, xs: seq<int>) returns (r: Result<seq<nat>, string>)
    requires nin == 2 && plain && |xs| > 0 ==> |b| >= 1
    ensures nin != 2 ==> r == Err("Exactly two arguments are required.")
    ensures nin == 2 && !plain ==> r == Err("All arguments must be plain arrays.")
    ensures r.Ok? <==> nin == 2 && plain
    ensures r.Ok? ==> |r.value| == |xs|
    ensures r.Ok? && Sorted(b) ==>
      forall i :: 0 <= i < |xs| ==> r.value[i] == Bracket(b, xs[i])
  {
    if nin != 2 {
      return Err("Exactly two arguments are required.");
    }
    if !plain {
      return Err("All arguments must be plain arrays.");
    }
    var out: seq<nat> := [];
    var i := 0;
    while i < |xs|
      invariant 0 <= i <= |xs| && |out| == i
      invariant forall k :: 0 <= k < i ==> IsBracket(b, xs[k], out[k])
    {
      var k := Search(b, xs[i]);
      out := out + [k];
      i := i + 1;
    }
    if Sorted(b) {
      forall k | 0 <= k < |xs|
        ensures out[k] == Bracket(b, xs[k])
      {
        BracketUnique(b, xs[k], out[k]);
      }
    }
    return Ok(out);
  }
}

=== FILE: compaction.dfy ===
/**
 * In-place compaction of a buffer of records: each record is either
 * rewritten and kept or dropped, and the kept records are moved to the
 * front in their original order. The SIFT keypoint refinement
 * (vl/sift.c) and the affine-shape pass of the covariant detector
 * (vl/covdet2.c) both work this way, with a write cursor that never
 * overtakes the read cursor.
 */
module Compaction {
  import opened Wrappers

  /** The records f keeps, rewritten, in their original order. */
  function Kept<T>(f: T -> Option<T>, s: seq<T>): (r: seq<T>)
    ensures |r| <= |s|
    decreases |s|
  {
    if s == [] then []
    else
      var rest := Kept(f, s[..|s| - 1]);
      match f(s[|s| - 1])
      case Some(v) => rest + [v]
      case None => rest
  }

  /** A record is kept exactly when f keeps it, and then f's rewrite is what is kept. */
  lemma {:induction false} KeptMember<T>(f: T -> Option<T>, s: seq<T>, v: T)
    ensures v in Kept(f, s) <==> exists i :: 0 <= i < |s| && f(s[i]) == Some(v)
    decreases |s|
  {
    if s != [] {
      var p := s[..|s| - 1];
      KeptMember(f, p, v);
      if exists i :: 0 <= i < |p| && f(p[i]) == Some(v) {
        var i :| 0 <= i < |p| && f(p[i]) == Some(v);
        assert s[i] == p[i];
      }
      if exists i :: 0 <= i < |s| && f(s[i]) == Some(v) {
        var i :| 0 <= i < |s| && f(s[i]) == Some(v);
        if i < |p| {
          assert f(p[i]) == Some(v);
        }
      }
    }
  }

  /** Each kept record is f's rewrite of some record of s. */
  lemma {:induction false} KeptWitness<T>(f: T -> Option<T>, s: seq<T>, j: nat) returns (i: nat)
    requires j < |Kept(f, s)|
    ensures i < |s| && f(s[i]) == Some(Kept(f, s)[j])
    decreases |s|
  {
    var p := s[..|s| - 1];
    var rest := Kept(f, p);
    if j < |rest| {
      i := KeptWitness(f, p, j);
      assert s[i] == p[i];
    } else {
      i := |s| - 1;
    }
  }

  /** When f keeps every record, compaction only rewrites them in place. */
  lemma {:induction false} KeptAll<T>(f: T -> Option<T>, s: seq<T>)
    requires forall i :: 0 <= i < |s| ==> f(s[i]).Some?
    ensures |Kept(f, s)| == |s|
    ensures forall i :: 0 <= i < |s| ==> Kept(f, s)[i] == f(s[i]).value
    decreases |s|
  {
    if s != [] {
      var p := s[..|s| - 1];
      assert forall i :: 0 <= i < |p| ==> p[i] == s[i];
      KeptAll(f, p);
    }
  }

  /**
   * The compaction loop: record i is read, and when f keeps it the
   * rewrite is stored at the write position j <= i, which then advances.
   * The kept records end up in buf[..n], the rest of the buffer is as
   * it was.
   */
  method Compact<T>(buf: seq<T>, count: nat, f: T -> Option<T>) returns (out: seq<T>, n: nat)
    requires count <= |buf|
    ensures |out| == |buf| && n <= count
    ensures out[..n] == Kept(f, buf[..count])
    ensures out[n..] == buf[n..]
  {
    out, n := buf, 0;
    var i := 0;
    while i < count
      invariant n <= i <= count && |out| == |buf|
      invariant out[..n] == Kept(f, buf[..i])
      invariant out[n..] == buf[n..]
    {
      assert out[i] == buf[i];
      assert buf[..i + 1][..i] == buf[..i];
      match f(out[i]) {
        case Some(v) =>
          out := out[n := v];
          n := n + 1;
        case None =>
      }
      i := i + 1;
    }
  }
}

=== FILE: covdet.dfy ===
/**
 * The bookkeeping of the covariant feature detector (vl/covdet2.c):
 * the growable buffers, the storage of the local extrema found by the
 * scans, the feature list with its append and in-place affine-shape
 * compaction, the subdivision range of the scale space, and the
 * setters that reset the detector. Buffer sizes are counted in
 * elements; the source counts bytes, and every comparison it makes
 * has the element size on both sides.
 */
module CovDet {
  import opened Wrappers
  import LocalExtrema
  import Compaction
  import MathOp

  /** A heap block as a pointer sees it: NULL, or an allocation holding its elements. */
  datatype Buffer<T> = Null | Block(items: seq<T>)

  /** The two error codes the buffer functions return. */
  datatype Err = ErrOk | ErrAlloc

  /** A buffer together with the size its owner records for it. */
  datatype Sized<T> = Sized(buffer: Buffer<T>, size: nat)

  /** The recorded size is the size of the allocation, and 0 for NULL. */
  predicate Consistent<T>(b: Sized<T>)
  {
    match b.buffer
    case Null => b.size == 0
    case Block(items) => |items| == b.size
  }

  // ---------------------------------------------------------------------
  // _vl_resize_buffer and _vl_enlarge_buffer
  // ---------------------------------------------------------------------

  /**
   * _vl_resize_buffer: malloc for a NULL buffer, realloc otherwise;
   * allocOk says whether the allocator succeeds. A reallocation keeps
   * the common prefix; the new elements are pad (undefined in C).
   */
  function Resize<T>(b: Sized<T>, target: nat, allocOk: bool, pad: T): (r: (Sized<T>, Err))
    ensures allocOk ==> r.1 == ErrOk && r.0.size == target && r.0.buffer.Block? && |r.0.buffer.items| == target
    ensures allocOk && b.buffer.Block? ==>
      var keep := if target < |b.buffer.items| then target else |b.buffer.items|;
      r.0.buffer.items[..keep] == b.buffer.items[..keep]
    ensures !allocOk && b.buffer.Null? ==> r == (Sized(Null, 0), ErrAlloc)
    ensures !allocOk && b.buffer.Block? ==> r == (b, ErrAlloc)
  {
    match b.buffer
    case Null =>
      if allocOk then (Sized(Block(seq(target, _ => pad)), target), ErrOk) else (Sized(Null, 0), ErrAlloc)
    case Block(items) =>
      if !allocOk then (b, ErrAlloc)
      else if target <= |items| then (Sized(Block(items[..target]), target), ErrOk)
      else (Sized(Block(items + seq(target - |items|, _ => pad)), target), ErrOk)
  }

  /** _vl_enlarge_buffer: nothing happens when the recorded size already reaches the target. */
  function Enlarge<T>(b: Sized<T>, target: nat, allocOk: bool, pad: T): (r: (Sized<T>, Err))
    ensures b.size >= target ==> r == (b, ErrOk)
    ensures b.size < target ==> r == Resize(b, target, allocOk, pad)
  {
    if b.size >= target then (b, ErrOk) else Resize(b, target, allocOk, pad)
  }

  /** Resizing keeps the recorded size equal to the allocation, whether or not the allocator succeeds. */
  lemma ResizeConsistent<T>(b: Sized<T>, target: nat, allocOk: bool, pad: T)
    requires Consistent(b)
    ensures Consistent(Resize(b, target, allocOk, pad).0)
  {
  }

  /** A successful enlargement leaves room for the target and keeps what was stored. */
  lemma EnlargeKeeps<T>(b: Sized<T>, target: nat, pad: T)
    requires Consistent(b)
    ensures var r := Enlarge(b, target, true, pad).0;
      Consistent(r) && r.size >= target && r.size >= b.size
      && (b.buffer.Block? ==> r.buffer.Block? && r.buffer.items[..b.size] == b.buffer.items)
  {
  }

  // ---------------------------------------------------------------------
  // Storing the extrema found by vl_find_local_extrema_3 / _2
  // ---------------------------------------------------------------------

  /** The coordinate tuples laid end to end, as the index buffer holds them. */
  function Flat(coords: seq<seq<int>>): (r: seq<int>)
  {
    if coords == [] then [] else Flat(coords[..|coords| - 1]) + coords[|coords| - 1]
  }

  /** Every tuple has the given number of coordinates. */
  predicate Uniform(coords: seq<seq<int>>, stride: nat)
  {
    forall i :: 0 <= i < |coords| ==> |coords[i]| == stride
  }

  /** Tuple k of a uniform list sits at offset k * stride of the flat buffer. */
  lemma {:induction false} FlatAt(coords: seq<seq<int>>, stride: nat, k: nat)
    requires Uniform(coords, stride) && k < |coords|
    ensures |Flat(coords)| == MathOp.Times(|coords|, stride)
    ensures MathOp.Times(k, stride) + stride <= |Flat(coords)|
    ensures Flat(coords)[MathOp.Times(k, stride)..MathOp.Times(k, stride) + stride] == coords[k]
    decreases |coords|
  {
    var p := coords[..|coords| - 1];
    UniformPrefix(coords, stride);
    FlatLength(p, stride);
    assert Flat(coords) == Flat(p) + coords[|coords| - 1];
    if k < |p| {
      FlatAt(p, stride, k);
      assert coords[k] == p[k];
      assert Flat(coords)[..|Flat(p)|] == Flat(p);
    } else {
      assert Flat(coords)[|Flat(p)|..] == coords[k];
    }
  }

  /** Entry j of tuple k sits at offset k * stride + j of a buffer that starts with the flattened tuples. */
  lemma TupleAt(items: seq<int>, coords: seq<seq<int>>, stride: nat, k: nat, j: nat)
    requires Uniform(coords, stride) && k < |coords| && j < stride
    requires |Flat(coords)| <= |items| && items[..|Flat(coords)|] == Flat(coords)
    ensures MathOp.Times(k, stride) + j < |items|
    ensures items[MathOp.Times(k, stride) + j] == coords[k][j]
  {
    FlatAt(coords, stride, k);
    var at := MathOp.Times(k, stride);
    var fl := Flat(coords);
    assert items[at + j] == fl[at + j];
    assert fl[at..at + stride][j] == coords[k][j];
  }

  lemma UniformPrefix(coords: seq<seq<int>>, stride: nat)
    requires Uniform(coords, stride) && coords != []
    ensures Uniform(coords[..|coords| - 1], stride)
  {
    var p := coords[..|coords| - 1];
    forall i | 0 <= i < |p| ensures |p[i]| == stride { assert p[i] == coords[i]; }
  }

  lemma {:induction false} FlatLength(coords: seq<seq<int>>, stride: nat)
    requires Uniform(coords, stride)
    ensures |Flat(coords)| == MathOp.Times(|coords|, stride)
    decreases |coords|
  {
    if coords != [] {
      UniformPrefix(coords, stride);
      FlatLength(coords[..|coords| - 1], stride);
    }
  }

  /**
   * The storage loop of the two scans: for each extremum the required
   * size grows by one tuple, and when the recorded size falls short
   * the buffer is resized to the required size plus slack. The scans
   * assert that the resize succeeds, so allocation is taken to succeed.
   */
  method StoreTuples(b: Sized<int>, coords: seq<seq<int>>, stride: nat, slack: nat) returns (b': Sized<int>)
    requires Consistent(b) && Uniform(coords, stride) && stride > 0
    ensures Consistent(b') && (coords != [] ==> b'.buffer.Block?) && (coords == [] ==> b' == b)
    ensures b'.size >= |Flat(coords)| && b'.size >= b.size
    ensures b.size >= |Flat(coords)| ==> b'.size == b.size
    ensures b.size < |Flat(coords)| ==> b'.size <= |Flat(coords)| + slack
    ensures b'.buffer.Block? ==> b'.buffer.items[..|Flat(coords)|] == Flat(coords)
  {
    b' := b;
    var k := 0;
    var required := 0;
    while k < |coords|
      invariant k <= |coords| && required == |Flat(coords[..k])|
      invariant Consistent(b') && b'.size >= required && b'.size >= b.size
      invariant k > 0 ==> b'.buffer.Block?
      invariant k == 0 ==> b' == b
      invariant b.size >= required ==> b'.size == b.size
      invariant b.size < required ==> b'.size <= required + slack
      invariant b'.buffer.Block? ==> b'.buffer.items[..required] == Flat(coords[..k])
    {
      assert coords[..k + 1][..k] == coords[..k];
      var c := coords[k];
      assert |c| == stride;
      var next := required + stride;
      if b'.size < next {
        b' := Resize(b', next + slack, true, 0).0;
      }
      var items := b'.buffer.items;
      assert items[..required] == Flat(coords[..k]);
      items := items[..required] + c + items[next..];
      assert items[..next] == Flat(coords[..k]) + c;
      b' := Sized(Block(items), b'.size);
      required, k := next, k + 1;
    }
    assert coords[..k] == coords;
  }

  /** The coordinates (x, y, z) of each extremum, in scan order. */
  function Triples(hits: seq<LocalExtrema.Point>): (r: seq<seq<int>>)
    ensures |r| == |hits| && Uniform(r, 3)
  {
    seq(|hits|, i requires 0 <= i < |hits| => [hits[i].x as int, hits[i].y as int, hits[i].z as int])
  }

  /** The coordinates (x, y) of each extremum, in scan order. */
  function Pairs(hits: seq<LocalExtrema.Point>): (r: seq<seq<int>>)
    ensures |r| == |hits| && Uniform(r, 2)
  {
    seq(|hits|, i requires 0 <= i < |hits| => [hits[i].x as int, hits[i].y as int])
  }

  /**
   * vl_find_local_extrema_3: the interior strict extrema of the map
   * beyond the threshold, stored as (x, y, z) triples; the buffer grows
   * to the required size plus 2000 triples whenever it is too small.
   */
  method FindLocalExtrema3(b: Sized<int>, m: seq<real>, w: nat, h: nat, d: nat, threshold: real)
    returns (b': Sized<int>, numExtrema: nat)
    requires Consistent(b) && |m| == MathOp.Cells(w, h, d)
    ensures numExtrema == |LocalExtrema.Hits3(m, w, h, d, threshold)|
    ensures Consistent(b') && b'.size >= 3 * numExtrema
    ensures b'.buffer.Block? ==> forall k :: 0 <= k < numExtrema ==>
      var p := LocalExtrema.Hits3(m, w, h, d, threshold)[k];
      b'.buffer.items[3 * k] == p.x && b'.buffer.items[3 * k + 1] == p.y && b'.buffer.items[3 * k + 2] == p.z
  {
    var hits := LocalExtrema.Scan3(m, w, h, d, threshold);
    var coords := Triples(hits);
    b' := StoreTuples(b, coords, 3, 2000 * 3);
    numExtrema := |hits|;
    FlatLength(coords, 3);
    MathOp.TimesIs(numExtrema, 3);
    if b'.buffer.Block? {
      forall k | 0 <= k < numExtrema
        ensures b'.buffer.items[3 * k] == hits[k].x && b'.buffer.items[3 * k + 1] == hits[k].y
          && b'.buffer.items[3 * k + 2] == hits[k].z
      {
        TupleAt(b'.buffer.items, coords, 3, k, 0);
        TupleAt(b'.buffer.items, coords, 3, k, 1);
        TupleAt(b'.buffer.items, coords, 3, k, 2);
        MathOp.TimesIs(k, 3);
      }
    }
  }

  /** vl_find_local_extrema_2: the same over a w x h map, 8 neighbours, (x, y) pairs, 2000 pairs of slack. */
  method FindLocalExtrema2(b: Sized<int>, m: seq<real>, w: nat, h: nat, threshold: real)
    returns (b': Sized<int>, numExtrema: nat)
    requires Consistent(b) && |m| == MathOp.Times(h, w)
    ensures numExtrema == |LocalExtrema.Hits2(m, w, h, threshold)|
    ensures Consistent(b') && b'.size >= 2 * numExtrema
    ensures b'.buffer.Block? ==> forall k :: 0 <= k < numExtrema ==>
      var p := LocalExtrema.Hits2(m, w, h, threshold)[k];
      b'.buffer.items[2 * k] == p.x && b'.buffer.items[2 * k + 1] == p.y
  {
    var hits := LocalExtrema.Scan2(m, w, h, threshold);
    var coords := Pairs(hits);
    b' := StoreTuples(b, coords, 2, 2000 * 2);
    numExtrema := |hits|;
    FlatLength(coords, 2);
    MathOp.TimesIs(numExtrema, 2);
    if b'.buffer.Block? {
      forall k | 0 <= k < numExtrema
        ensures b'.buffer.items[2 * k] == hits[k].x && b'.buffer.items[2 * k + 1] == hits[k].y
      {
        TupleAt(b'.buffer.items, coords, 2, k, 0);
        TupleAt(b'.buffer.items, coords, 2, k, 1);
        MathOp.TimesIs(k, 2);
      }
    }
  }

  // ---------------------------------------------------------------------
  // The detector object
  // ---------------------------------------------------------------------

  /** The detection methods of VlCovDetMethod. */
  datatype Method = DoG | Hessian | HessianLaplace | HarrisLaplace | MultiscaleHessian | MultiscaleHarris

  /** An oriented ellipse: centre and affine matrix. */
  datatype Frame = Frame(x: real, y: real, a11: real, a12: real, a21: real, a22: real)

  datatype Feature = Feature(frame: Frame, peakScore: real, edgeScore: real)

  /** The geometry a scale space was built for; the detector only tests whether one exists. */
  datatype Geometry = Geometry(width: nat, height: nat, firstOctave: int, lastOctave: int,
                               octaveResolution: nat, firstSubdivision: int, lastSubdivision: int)

  /** The fields of VlCovDet that the bookkeeping reads and writes. */
  datatype Detector = Detector(
    kind: Method, peakThreshold: real, edgeThreshold: real,
    octaveResolution: nat, firstOctave: int,
    frames: Sized<Feature>, numFrames: nat,
    gss: Option<Geometry>, css: Option<Geometry>)

  const DefPeakThreshold: real := 0.001
  const DefEdgeThreshold: real := 10.0

  /** vl_covdet_new: three subdivisions per octave, starting at octave -1, with no frames. */
  function New(kind: Method): (d: Detector)
    ensures d.kind == kind && d.octaveResolution == 3 && d.firstOctave == -1
    ensures d.peakThreshold == DefPeakThreshold && d.edgeThreshold == DefEdgeThreshold
    ensures d.frames == Sized(Null, 0) && d.numFrames == 0 && d.gss == None && d.css == None
  {
    Detector(kind, DefPeakThreshold, DefEdgeThreshold, 3, -1, Sized(Null, 0), 0, None, None)
  }

  /**
   * The subdivisions vl_covdet_put_image asks of the Gaussian scale
   * space: the DoG needs two below the octave, the Hessian one, the
   * other methods exactly the R subdivisions of the octave.
   */
  function Subdivisions(kind: Method, r: nat): (s: (int, int))
    ensures s.1 - s.0 + 1 == match kind case DoG => r + 3 case Hessian => r + 2 case _ => r
    ensures kind == DoG ==> s.0 == -2
    ensures kind == Hessian ==> s.0 == -1
    ensures kind != DoG && kind != Hessian ==> s.0 == 0
  {
    match kind
    case DoG => (-2, r as int)
    case Hessian => (-1, r as int)
    case _ => (0, r as int - 1)
  }

  // ---------------------------------------------------------------------
  // vl_covdet_append_feature
  // ---------------------------------------------------------------------

  /**
   * vl_covdet_append_feature, as written: the count goes up first; if
   * the recorded size is short the buffer is resized to count + 1000
   * (a failed resize returns the error with the count already raised);
   * then the feature is stored at index count - 1. None is the store
   * through a NULL pointer or past the allocation.
   */
  function Append(d: Detector, feature: Feature, allocOk: bool): (r: Option<(Detector, Err)>)
    // With a consistent frame buffer the store is always in bounds, the
    // frames already stored are kept, and on success the new feature is
    // the last one; on failure only the count changes.
    ensures Consistent(d.frames) ==> r.Some?
    ensures Consistent(d.frames) ==> var (d', err) := r.value;
      Consistent(d'.frames) && d'.numFrames == d.numFrames + 1
      && d' == d.(numFrames := d'.numFrames, frames := d'.frames)
      && (err == ErrOk ==> d'.frames.size >= d'.numFrames && d'.frames.buffer.items[d.numFrames] == feature
                           && (d.frames.buffer.Block? && d.numFrames <= d.frames.size ==>
                                 d'.frames.buffer.items[..d.numFrames] == d.frames.buffer.items[..d.numFrames]))
      && (err == ErrAlloc ==> !allocOk && d'.frames == d.frames)
  {
    var n := d.numFrames + 1;
    if n > d.frames.size then
      var (frames, err) := Resize(d.frames, n + 1000, allocOk, feature);
      if err == ErrAlloc then Some((d.(numFrames := n, frames := frames), ErrAlloc))
      else Some((d.(numFrames := n, frames := Sized(Block(frames.buffer.items[n - 1 := feature]), frames.size)), ErrOk))
    else
      match d.frames.buffer
      case Null => None
      case Block(items) =>
        if n - 1 < |items| then Some((d.(numFrames := n, frames := Sized(Block(items[n - 1 := feature]), d.frames.size)), ErrOk))
        else None
  }

  /** Appending to a fresh detector stores the feature and reserves 1001 slots. */
  lemma AppendFirst(kind: Method, feature: Feature)
    ensures var r := Append(New(kind), feature, true);
      r.Some? && r.value.1 == ErrOk && r.value.0.numFrames == 1
      && r.value.0.frames.size == 1001 && r.value.0.frames.buffer.items[0] == feature
  {
  }

  // ---------------------------------------------------------------------
  // Reset and the setters
  // ---------------------------------------------------------------------

  /**
   * vl_covdet_reset as written: frees and nulls the frames and the two
   * scale spaces, but leaves numFrames and numFrameBufferSize alone.
   */
  function ResetAsWritten(d: Detector): (r: Detector)
    ensures Consistent(r.frames) <==> d.frames.size == 0
    ensures r.numFrames == d.numFrames && r.gss == None && r.css == None
  {
    d.(frames := Sized(Null, d.frames.size), gss := None, css := None)
  }

  /** The reset the rest of the detector relies on: the recorded size and the count go with the buffer. */
  function Reset(d: Detector): (r: Detector)
    ensures Consistent(r.frames) && r.numFrames == 0 && r.gss == None && r.css == None
    ensures r == d.(frames := r.frames, numFrames := 0, gss := None, css := None)
  {
    d.(frames := Sized(Null, 0), numFrames := 0, gss := None, css := None)
  }

  /** The first step of vl_covdet_detect: previous detections are forgotten, the buffer is kept. */
  function ClearFrames(d: Detector): (r: Detector)
    ensures r.numFrames == 0 && r.frames == d.frames
  {
    d.(numFrames := 0)
  }

  /**
   * After a detection has grown the buffer, setting the first octave
   * (which resets) and detecting again makes the first append store
   * through NULL: the recorded size still says there is room.
   */
  lemma ResetThenAppendFaults(feature: Feature)
    ensures var d1 := Append(New(DoG), feature, true).value.0;
      var d2 := ClearFrames(SetFirstOctaveAsWritten(d1, 0));
      Append(d2, feature, true) == None
  {
  }

  /** The corrected reset keeps the frame buffer consistent, so a later append cannot fault. */
  lemma ResetThenAppendSafe(d: Detector, o: int, feature: Feature, allocOk: bool)
    ensures Consistent(SetFirstOctave(d, o).frames)
    ensures Append(ClearFrames(SetFirstOctave(d, o)), feature, allocOk).Some?
  {
  }

  /** vl_covdet_set_edge_threshold; the source asserts the threshold is non-negative. */
  function SetEdgeThreshold(d: Detector, t: real): (r: Detector)
    requires t >= 0.0
    ensures r.edgeThreshold == t && r == d.(edgeThreshold := r.edgeThreshold)
  {
    d.(edgeThreshold := t)
  }

  /** vl_covdet_set_peak_threshold; the source asserts the threshold is non-negative. */
  function SetPeakThreshold(d: Detector, t: real): (r: Detector)
    requires t >= 0.0
    ensures r.peakThreshold == t && r == d.(peakThreshold := r.peakThreshold)
  {
    d.(peakThreshold := t)
  }

  /** vl_covdet_set_first_octave as written: set, then the source's reset. */
  function SetFirstOctaveAsWritten(d: Detector, o: int): (r: Detector)
    ensures r.firstOctave == o && r.frames.buffer.Null? && r.frames.size == d.frames.size && r.numFrames == d.numFrames
  {
    ResetAsWritten(d.(firstOctave := o))
  }

  /** vl_covdet_set_first_octave with the corrected reset. */
  function SetFirstOctave(d: Detector, o: int): (r: Detector)
    ensures r.firstOctave == o && r == Reset(d).(firstOctave := o)
  {
    Reset(d.(firstOctave := o))
  }

  /** vl_covdet_set_octave_resolution with the corrected reset. */
  function SetOctaveResolution(d: Detector, res: nat): (r: Detector)
    ensures r.octaveResolution == res && r == Reset(d).(octaveResolution := res)
  {
    Reset(d.(octaveResolution := res))
  }

  /** The setters that reset discard every frame and both scale spaces, whatever came before. */
  lemma SettersReset(d: Detector, o: int, res: nat)
    ensures SetFirstOctave(d, o).numFrames == 0 && SetFirstOctave(d, o).gss == None
    ensures SetOctaveResolution(d, res).numFrames == 0 && SetOctaveResolution(d, res).css == None
    ensures SetOctaveResolution(SetFirstOctave(d, o), res) == SetFirstOctave(SetOctaveResolution(d, res), o)
  {
  }

  // ---------------------------------------------------------------------
  // vl_covdet_extract_affine_shape
  // ---------------------------------------------------------------------

  /** The feature with its frame replaced by the adapted one, when adaptation succeeds. */
  function Adapted(shape: Frame -> Option<Frame>): Feature -> Option<Feature>
  {
    (f: Feature) => match shape(f.frame) case Some(a) => Some(f.(frame := a)) case None => None
  }

  /**
   * vl_covdet_extract_affine_shape: each stored feature whose affine
   * adaptation succeeds gets the adapted frame and is moved forward
   * in place; the count becomes the number kept. The adaptation itself
   * is the parameter shape.
   */
  method ExtractAffineShape(d: Detector, shape: Frame -> Option<Frame>) returns (d': Detector)
    requires d.frames.buffer.Block? && d.numFrames <= |d.frames.buffer.items|
    ensures d' == d.(frames := d'.frames, numFrames := d'.numFrames)
    ensures d'.frames.size == d.frames.size && d'.frames.buffer.Block?
    ensures |d'.frames.buffer.items| == |d.frames.buffer.items| && d'.numFrames <= d.numFrames
    ensures d'.frames.buffer.items[..d'.numFrames] == Compaction.Kept(Adapted(shape), d.frames.buffer.items[..d.numFrames])
    ensures d'.frames.buffer.items[d'.numFrames..] == d.frames.buffer.items[d'.numFrames..]
    ensures (forall f :: shape(f).Some?) ==> d'.numFrames == d.numFrames
  {
    var items := d.frames.buffer.items;
    var out, n := Compaction.Compact(items, d.numFrames, Adapted(shape));
    d' := d.(frames := Sized(Block(out), d.frames.size), numFrames := n);
    if forall f :: shape(f).Some? {
      forall i | 0 <= i < d.numFrames
        ensures Adapted(shape)(items[..d.numFrames][i]).Some?
      {
        assert shape(items[..d.numFrames][i].frame).Some?;
      }
      Compaction.KeptAll(Adapted(shape), items[..d.numFrames]);
      assert |out[..n]| == n;
    }
  }

  /** A kept feature is the adaptation of a stored one: its scores are unchanged and its frame is the adapted frame. */
  lemma AffineShapeKeepsScores(shape: Frame -> Option<Frame>, s: seq<Feature>, v: Feature)
    requires v in Compaction.Kept(Adapted(shape), s)
    ensures exists i :: (0 <= i < |s| && shape(s[i].frame) == Some(v.frame)
      && v.peakScore == s[i].peakScore && v.edgeScore == s[i].edgeScore)
  {
    Compaction.KeptMember(Adapted(shape), s, v);
    var i :| 0 <= i < |s| && Adapted(shape)(s[i]) == Some(v);
  }
}

=== FILE: dhog.dfy ===
/**
 * The bookkeeping of the dense HOG filter (vl/dhog.c, vl/dhog.h): the
 * filter's parameters with their setters and getters, the number of
 * frames and the descriptor size derived from them, the decision to
 * reallocate buffers, the enumeration of frames, the layout of the
 * descriptor buffer, the final clamp, and the descriptor transpose.
 * Gradients, convolutions and normalisation are floating point and are
 * not modelled; the clamp and the frame centers work on reals.
 */
module DHog {
  import opened MathOp

  // ---------------------------------------------------------------------
  // Filter state
  // ---------------------------------------------------------------------

  /** VlDhogDescriptorGeometry: orientation bins, spatial bins and bin sizes. */
  datatype Geometry = Geometry(numBinT: int, numBinX: int, numBinY: int, binSizeX: int, binSizeY: int)

  /** The fields of VlDhogFilter other than the buffers themselves. */
  datatype Filter = Filter(
    imWidth: int, imHeight: int,
    stepX: int, stepY: int,
    boundMinX: int, boundMinY: int, boundMaxX: int, boundMaxY: int,
    geom: Geometry,
    useFlatWindow: bool,
    numFrames: int, descrSize: int,
    numBinAlloc: int, numFrameAlloc: int, numGradAlloc: int)

  /** C integer division, which truncates toward zero. */
  function Quot(a: int, b: int): (q: int)
    requires b != 0
    ensures a >= 0 && b > 0 ==> q == a / b
    ensures a >= 0 && b < 0 ==> q == -(a / -b)
  {
    var m := (if a < 0 then -a else a) / (if b < 0 then -b else b);
    if (a < 0) == (b < 0) then m else -m
  }

  /**
   * The frames along one axis: one per step while a frame still fits
   * between the bounds, none when no frame fits at all.
   */
  function FramesAlong(lo: int, hi: int, numBin: int, binSize: int, step: int): (n: int)
    requires step != 0
    ensures step > 0 ==> n >= 0
    ensures hi - lo < (numBin - 1) * binSize ==> n == 0
    ensures step > 0 && hi - lo >= (numBin - 1) * binSize ==> n == (hi - lo - (numBin - 1) * binSize) / step + 1
  {
    var range := hi - lo - (numBin - 1) * binSize;
    if range >= 0 then Quot(range, step) + 1 else 0
  }

  /** numFrames and descrSize agree with the parameters they are derived from. */
  predicate Consistent(f: Filter)
  {
    && f.stepX != 0 && f.stepY != 0
    && f.numFrames == FramesAlong(f.boundMinX, f.boundMaxX, f.geom.numBinX, f.geom.binSizeX, f.stepX)
                    * FramesAlong(f.boundMinY, f.boundMaxY, f.geom.numBinY, f.geom.binSizeY, f.stepY)
    && f.descrSize == f.geom.numBinT * f.geom.numBinX * f.geom.numBinY
  }

  /** The filter f with only its derived sizes possibly different. */
  predicate SameParameters(f: Filter, g: Filter)
  {
    g.(numFrames := f.numFrames, descrSize := f.descrSize) == f
  }

  /** _vl_dhog_update_buffers: recompute the frame count and the descriptor size. */
  function UpdateBuffers(f: Filter): (g: Filter)
    requires f.stepX != 0 && f.stepY != 0
    ensures Consistent(g) && SameParameters(f, g)
  {
    var numFramesX := FramesAlong(f.boundMinX, f.boundMaxX, f.geom.numBinX, f.geom.binSizeX, f.stepX);
    var numFramesY := FramesAlong(f.boundMinY, f.boundMaxY, f.geom.numBinY, f.geom.binSizeY, f.stepY);
    f.(numFrames := numFramesX * numFramesY,
       descrSize := f.geom.numBinT * f.geom.numBinX * f.geom.numBinY)
  }

  /** Updating a consistent filter changes nothing. */
  lemma UpdateIdempotent(f: Filter)
    requires Consistent(f)
    ensures UpdateBuffers(f) == f
  {
  }

  /** The number of default frames along a side of the image: one every 5 pixels where 16 pixels fit. */
  function DefaultFrames(side: int): int
  {
    if side >= 16 then (side - 16) / 5 + 1 else 0
  }

  /**
   * vl_dhog_new: steps of 5, bounds the whole image, 4 x 4 spatial bins
   * of 5 pixels and 8 orientations, flat window off, nothing allocated.
   */
  function New(imWidth: int, imHeight: int): (f: Filter)
    ensures Consistent(f)
    ensures f.imWidth == imWidth && f.imHeight == imHeight
    ensures GetSteps(f) == (5, 5)
    ensures GetBounds(f) == (0, 0, imWidth - 1, imHeight - 1)
    ensures GetGeometry(f) == Geometry(8, 4, 4, 5, 5) && !GetFlatWindow(f)
    ensures f.numBinAlloc == 0 && f.numFrameAlloc == 0 && f.numGradAlloc == 0
    ensures GetDescriptorSize(f) == 128
    ensures GetKeypointNum(f) == DefaultFrames(imWidth) * DefaultFrames(imHeight)
  {
    UpdateBuffers(Filter(imWidth, imHeight, 5, 5, 0, 0, imWidth - 1, imHeight - 1,
                         Geometry(8, 4, 4, 5, 5), false, 0, 0, 0, 0, 0))
  }

  /** vl_dhog_new_basic: the default filter with one step and one bin size for both axes. */
  function NewBasic(imWidth: int, imHeight: int, step: int, binSize: int): (f: Filter)
    requires step != 0
    ensures Consistent(f)
    ensures GetSteps(f) == (step, step) && GetBounds(f) == (0, 0, imWidth - 1, imHeight - 1)
    ensures GetGeometry(f) == Geometry(8, 4, 4, binSize, binSize) && !GetFlatWindow(f)
    ensures GetDescriptorSize(f) == 128
  {
    var f := New(imWidth, imHeight);
    var f := SetGeometry(f, GetGeometry(f).(binSizeX := binSize, binSizeY := binSize));
    SetSteps(f, step, step)
  }

  // ---------------------------------------------------------------------
  // Setters and getters
  // ---------------------------------------------------------------------

  function GetSteps(f: Filter): (int, int)
  {
    (f.stepX, f.stepY)
  }

  function GetBounds(f: Filter): (int, int, int, int)
  {
    (f.boundMinX, f.boundMinY, f.boundMaxX, f.boundMaxY)
  }

  function GetGeometry(f: Filter): Geometry
  {
    f.geom
  }

  function GetFlatWindow(f: Filter): bool
  {
    f.useFlatWindow
  }

  function GetDescriptorSize(f: Filter): int
  {
    f.descrSize
  }

  function GetKeypointNum(f: Filter): int
  {
    f.numFrames
  }

  /** vl_dhog_set_steps: the steps read back as set, the other parameters kept, the sizes recomputed. */
  function SetSteps(f: Filter, stepX: int, stepY: int): (g: Filter)
    requires stepX != 0 && stepY != 0
    ensures Consistent(g)
    ensures GetSteps(g) == (stepX, stepY)
    ensures GetBounds(g) == GetBounds(f) && GetGeometry(g) == GetGeometry(f) && GetFlatWindow(g) == GetFlatWindow(f)
    ensures SameParameters(f.(stepX := stepX, stepY := stepY), g)
  {
    UpdateBuffers(f.(stepX := stepX, stepY := stepY))
  }

  /** vl_dhog_set_bounds. */
  function SetBounds(f: Filter, minX: int, minY: int, maxX: int, maxY: int): (g: Filter)
    requires f.stepX != 0 && f.stepY != 0
    ensures Consistent(g)
    ensures GetBounds(g) == (minX, minY, maxX, maxY)
    ensures GetSteps(g) == GetSteps(f) && GetGeometry(g) == GetGeometry(f) && GetFlatWindow(g) == GetFlatWindow(f)
    ensures SameParameters(f.(boundMinX := minX, boundMinY := minY, boundMaxX := maxX, boundMaxY := maxY), g)
  {
    UpdateBuffers(f.(boundMinX := minX, boundMinY := minY, boundMaxX := maxX, boundMaxY := maxY))
  }

  /** vl_dhog_set_geometry. */
  function SetGeometry(f: Filter, geom: Geometry): (g: Filter)
    requires f.stepX != 0 && f.stepY != 0
    ensures Consistent(g)
    ensures GetGeometry(g) == geom
    ensures GetSteps(g) == GetSteps(f) && GetBounds(g) == GetBounds(f) && GetFlatWindow(g) == GetFlatWindow(f)
    ensures GetDescriptorSize(g) == geom.numBinT * geom.numBinX * geom.numBinY
    ensures SameParameters(f.(geom := geom), g)
  {
    UpdateBuffers(f.(geom := geom))
  }

  /** vl_dhog_set_flat_window: only the flag changes; the derived sizes are not recomputed. */
  function SetFlatWindow(f: Filter, useFlatWindow: bool): (g: Filter)
    ensures GetFlatWindow(g) == useFlatWindow
    ensures g.(useFlatWindow := f.useFlatWindow) == f
    ensures GetKeypointNum(g) == GetKeypointNum(f) && GetDescriptorSize(g) == GetDescriptorSize(f)
    ensures Consistent(f) ==> Consistent(g)
  {
    f.(useFlatWindow := useFlatWindow)
  }

  // ---------------------------------------------------------------------
  // Buffers
  // ---------------------------------------------------------------------

  /**
   * _vl_dhog_alloc_buffers: recompute the sizes, then reallocate (and
   * record the new allocation sizes) only when one of them changed.
   * The second component tells whether the buffers were reallocated.
   */
  function AllocBuffers(f: Filter): (r: (Filter, bool))
    requires f.stepX != 0 && f.stepY != 0
    ensures Consistent(r.0)
    ensures r.1 <==> (r.0.descrSize != f.numBinAlloc || r.0.geom.numBinT != f.numGradAlloc
                      || r.0.numFrames != f.numFrameAlloc)
    ensures r.0.numBinAlloc == r.0.descrSize && r.0.numGradAlloc == r.0.geom.numBinT
    ensures r.0.numFrameAlloc == r.0.numFrames
    ensures r.0.(numBinAlloc := f.numBinAlloc, numGradAlloc := f.numGradAlloc, numFrameAlloc := f.numFrameAlloc)
         == UpdateBuffers(f)
  {
    var g := UpdateBuffers(f);
    var numFrameAlloc := GetKeypointNum(g);
    var numBinAlloc := GetDescriptorSize(g);
    var numGradAlloc := g.geom.numBinT;
    if numBinAlloc != g.numBinAlloc || numGradAlloc != g.numGradAlloc || numFrameAlloc != g.numFrameAlloc then
      (g.(numBinAlloc := numBinAlloc, numGradAlloc := numGradAlloc, numFrameAlloc := numFrameAlloc), true)
    else
      (g, false)
  }

  /** Allocating twice in a row reallocates at most the first time, and the second call changes nothing. */
  lemma AllocOnce(f: Filter)
    requires f.stepX != 0 && f.stepY != 0
    ensures var r := AllocBuffers(f); AllocBuffers(r.0) == (r.0, false)
  {
    var r := AllocBuffers(f);
    UpdateIdempotent(r.0);
  }

  /** Changing only the flat-window flag never causes a reallocation after an allocation. */
  lemma FlatWindowKeepsBuffers(f: Filter, flat: bool)
    requires f.stepX != 0 && f.stepY != 0
    ensures var g := SetFlatWindow(AllocBuffers(f).0, flat); !AllocBuffers(g).1
  {
    var r := AllocBuffers(f);
    UpdateIdempotent(SetFlatWindow(r.0, flat));
  }

  // ---------------------------------------------------------------------
  // Frame enumeration
  // ---------------------------------------------------------------------

  /** lo, lo + step, lo + 2 step, ...: count values. */
  function Ladder(lo: int, step: nat, count: nat): (vs: seq<int>)
    ensures |vs| == count
    decreases count
  {
    if count == 0 then [] else Ladder(lo, step, count - 1) + [lo + Times(count - 1, step)]
  }

  lemma {:induction false} LadderAt(lo: int, step: nat, count: nat, k: nat)
    requires k < count
    ensures Ladder(lo, step, count)[k] == lo + Times(k, step)
    decreases count
  {
    if k < count - 1 {
      LadderAt(lo, step, count - 1, k);
    }
  }

  /** How many times `for (v = lo; v <= limit; v += step)` runs its body. */
  function Trips(lo: int, limit: int, step: nat): nat
    requires step >= 1
  {
    if limit - lo >= 0 then (limit - lo) / step + 1 else 0
  }

  /** The loop `for (v = lo; v <= limit; v += step)`: the values it visits. */
  method Sweep(lo: int, limit: int, step: nat) returns (vs: seq<int>)
    requires step >= 1
    ensures vs == Ladder(lo, step, Trips(lo, limit, step))
  {
    vs := [];
    var v := lo;
    ghost var k: nat := 0;
    while v <= limit
      invariant v == lo + Times(k, step) && vs == Ladder(lo, step, k) && k <= Trips(lo, limit, step)
      decreases limit - v + step
    {
      MoreTrips(lo, limit, step, k);
      vs := vs + [v];
      v := v + step;
      k := k + 1;
    }
    NoMoreTrips(lo, limit, step, k);
  }

  /** While the loop value is within the limit, the loop has at least one more trip to make. */
  lemma MoreTrips(lo: int, limit: int, step: nat, k: nat)
    requires step >= 1 && lo + Times(k, step) <= limit
    ensures k + 1 <= Trips(lo, limit, step)
  {
    TimesIs(k, step);
    var q := (limit - lo) / step;
    if q < k {
      TimesIs(q + 1, step);
      TimesGap(q, k, step);
    }
  }

  /** Once past the limit, the loop has made exactly its trips. */
  lemma NoMoreTrips(lo: int, limit: int, step: nat, k: nat)
    requires step >= 1 && lo + Times(k, step) > limit && k <= Trips(lo, limit, step)
    ensures k == Trips(lo, limit, step)
  {
    if limit - lo >= 0 {
      var q := (limit - lo) / step;
      TimesIs(q, step);
      if k <= q {
        if k < q {
          TimesGap(k, q, step);
        }
      }
    }
  }

  /** The width of a frame along one axis: numBin - 1 bin sizes, plus the pixel it starts on. */
  function FrameSize(numBin: int, binSize: int): int
  {
    binSize * (numBin - 1) + 1
  }

  /** The loop limit of the frame loops gives exactly the frame count of _vl_dhog_update_buffers. */
  lemma SweepMatchesCount(lo: int, hi: int, numBin: int, binSize: int, step: nat)
    requires step >= 1
    ensures Trips(lo, hi - FrameSize(numBin, binSize) + 1, step) == FramesAlong(lo, hi, numBin, binSize, step)
  {
    assert binSize * (numBin - 1) == (numBin - 1) * binSize;
  }

  /** The frame positions along each axis are the values of the frame loops. */
  lemma AxesAreSweeps(f: Filter)
    requires f.stepX >= 1 && f.stepY >= 1
    ensures AxisX(f) == Ladder(f.boundMinX, f.stepX, Trips(f.boundMinX, f.boundMaxX - FrameSize(f.geom.numBinX, f.geom.binSizeX) + 1, f.stepX))
    ensures AxisY(f) == Ladder(f.boundMinY, f.stepY, Trips(f.boundMinY, f.boundMaxY - FrameSize(f.geom.numBinY, f.geom.binSizeY) + 1, f.stepY))
  {
    SweepMatchesCount(f.boundMinX, f.boundMaxX, f.geom.numBinX, f.geom.binSizeX, f.stepX);
    SweepMatchesCount(f.boundMinY, f.boundMaxY, f.geom.numBinY, f.geom.binSizeY, f.stepY);
  }

  /** Frames in the order the loops visit them: every x for the first y, then every x for the next y, and so on. */
  function Grid(xs: seq<int>, ys: seq<int>): (g: seq<(int, int)>)
    ensures |g| == Times(|ys|, |xs|)
    decreases |ys|
  {
    if ys == [] then []
    else Grid(xs, ys[..|ys| - 1]) + seq(|xs|, i requires 0 <= i < |xs| => (xs[i], ys[|ys| - 1]))
  }

  /** Frame j * |xs| + i of the grid is (xs[i], ys[j]): x varies fastest. */
  lemma {:induction false} GridAt(xs: seq<int>, ys: seq<int>, i: nat, j: nat)
    requires i < |xs| && j < |ys|
    ensures Times(j, |xs|) + i < |Grid(xs, ys)| && Grid(xs, ys)[Times(j, |xs|) + i] == (xs[i], ys[j])
    decreases |ys|
  {
    var init := ys[..|ys| - 1];
    if j < |init| {
      GridAt(xs, init, i, j);
      assert init[j] == ys[j];
    }
  }

  /** The positions along each axis that the frame loops of vl_dhog_process visit. */
  function AxisX(f: Filter): seq<int>
    requires f.stepX >= 1
  {
    Ladder(f.boundMinX, f.stepX, FramesAlong(f.boundMinX, f.boundMaxX, f.geom.numBinX, f.geom.binSizeX, f.stepX))
  }

  function AxisY(f: Filter): seq<int>
    requires f.stepY >= 1
  {
    Ladder(f.boundMinY, f.stepY, FramesAlong(f.boundMinY, f.boundMaxY, f.geom.numBinY, f.geom.binSizeY, f.stepY))
  }

  /**
   * The frame loops of vl_dhog_process: framey from boundMinY and framex
   * from boundMinX, each in its step while a frame still fits; the
   * frames come out in row order.
   */
  method FramePositions(f: Filter) returns (frames: seq<(int, int)>)
    requires f.stepX >= 1 && f.stepY >= 1
    ensures frames == Grid(AxisX(f), AxisY(f))
  {
    var frameSizeX := FrameSize(f.geom.numBinX, f.geom.binSizeX);
    var frameSizeY := FrameSize(f.geom.numBinY, f.geom.binSizeY);
    var ys := Sweep(f.boundMinY, f.boundMaxY - frameSizeY + 1, f.stepY);
    var xs := Sweep(f.boundMinX, f.boundMaxX - frameSizeX + 1, f.stepX);
    AxesAreSweeps(f);
    frames := [];
    var j := 0;
    while j < |ys|
      invariant 0 <= j <= |ys| && frames == Grid(xs, ys[..j])
    {
      var row := FrameRow(xs, ys[j]);
      assert ys[..j + 1][..j] == ys[..j];
      frames := frames + row;
      j := j + 1;
    }
    assert ys[..j] == ys;
  }

  /** The inner frame loop: one row of frames at height y. */
  method FrameRow(xs: seq<int>, y: int) returns (row: seq<(int, int)>)
    ensures row == seq(|xs|, i requires 0 <= i < |xs| => (xs[i], y))
  {
    row := [];
    var i := 0;
    while i < |xs|
      invariant 0 <= i <= |xs| && row == seq(i, k requires 0 <= k < i => (xs[k], y))
    {
      row := row + [(xs[i], y)];
      i := i + 1;
    }
  }

  /** The frame loops visit exactly numFrames positions. */
  lemma FrameCount(f: Filter)
    requires Consistent(f) && f.stepX >= 1 && f.stepY >= 1
    ensures |Grid(AxisX(f), AxisY(f))| == f.numFrames
  {
    TimesIs(|AxisY(f)|, |AxisX(f)|);
  }

  /** Every frame the loops visit lies inside the bounds along its axis. */
  lemma FramesFit(lo: int, hi: int, numBin: int, binSize: int, step: nat, k: nat)
    requires step >= 1 && k < FramesAlong(lo, hi, numBin, binSize, step)
    ensures lo <= Ladder(lo, step, FramesAlong(lo, hi, numBin, binSize, step))[k]
    ensures Ladder(lo, step, FramesAlong(lo, hi, numBin, binSize, step))[k] + FrameSize(numBin, binSize) - 1 <= hi
  {
    var n := FramesAlong(lo, hi, numBin, binSize, step);
    LadderAt(lo, step, n, k);
    SweepMatchesCount(lo, hi, numBin, binSize, step);
    TripsFit(lo, hi - FrameSize(numBin, binSize) + 1, step, k);
  }

  /** Every value the loop visits is within its limit. */
  lemma TripsFit(lo: int, limit: int, step: nat, k: nat)
    requires step >= 1 && k < Trips(lo, limit, step)
    ensures lo + Times(k, step) <= limit
  {
    var q := (limit - lo) / step;
    TimesIs(q, step);
    if k < q {
      TimesGap(k, q, step);
    }
  }

  /**
   * The pixel that bin b of a frame at `frame` samples along one axis:
   * frame + b * binSize. For bins of the frame it stays within the frame.
   */
  lemma SampleInFrame(frame: int, numBin: int, binSize: nat, b: nat)
    requires b < numBin
    ensures frame <= frame + b * binSize <= frame + FrameSize(numBin, binSize) - 1
  {
    TimesIs(b, binSize);
    TimesIs(numBin - 1, binSize);
    if b < numBin - 1 {
      TimesGap(b, numBin - 1, binSize);
    }
    assert binSize * (numBin - 1) == (numBin - 1) * binSize;
  }

  /** The keypoint of a frame is its corner plus half the bins' span. */
  function FrameCenter(frame: int, numBin: int, binSize: int): (c: real)
    ensures c - frame as real == (frame + FrameSize(numBin, binSize) - 1) as real - c
  {
    frame as real + 0.5 * binSize as real * (numBin - 1) as real
  }

  // ---------------------------------------------------------------------
  // Descriptor layout
  // ---------------------------------------------------------------------

  /** Where bin (t, x, y) of frame k lies in the buffer of all descriptors. */
  function DescrIndex(g: Geometry, k: nat, t: nat, x: nat, y: nat): int
    requires g.numBinT >= 0 && g.numBinX >= 0 && g.numBinY >= 0
  {
    Times(k, Cells(g.numBinT, g.numBinX, g.numBinY)) + Slot(g.numBinT, g.numBinX, t, x, y)
  }

  /**
   * The write cursor of vl_dhog_process for bin (t, x, y) starts at the
   * bin's slot and advances one descriptor per frame: its k-th position
   * is k * descrSize + t + x * T + y * X * T.
   */
  lemma LayoutCursor(g: Geometry, numFrames: nat, k: nat, t: nat, x: nat, y: nat)
    requires g.numBinT >= 0 && g.numBinX >= 0 && g.numBinY >= 0 && k < numFrames
    ensures var descrSize := g.numBinT * g.numBinX * g.numBinY;
      && Ladder(Slot(g.numBinT, g.numBinX, t, x, y), descrSize, numFrames)[k] == DescrIndex(g, k, t, x, y)
      && DescrIndex(g, k, t, x, y) == k * descrSize + t + x * g.numBinT + y * (g.numBinX * g.numBinT)
  {
    var T, X, Y := g.numBinT, g.numBinX, g.numBinY;
    SizeIs(T, X, Y);
    LadderAt(Slot(T, X, t, x, y), T * X * Y, numFrames, k);
    TimesIs(k, T * X * Y);
    SlotIs(T, X, t, x, y);
  }

  /** Every bin of every frame lands inside the buffer, within its own frame's block. */
  lemma LayoutInRange(g: Geometry, numFrames: nat, k: nat, t: nat, x: nat, y: nat)
    requires g.numBinT >= 0 && g.numBinX >= 0 && g.numBinY >= 0
    requires k < numFrames && t < g.numBinT && x < g.numBinX && y < g.numBinY
    ensures var d := Cells(g.numBinT, g.numBinX, g.numBinY);
      Times(k, d) <= DescrIndex(g, k, t, x, y) < Times(k, d) + d <= Times(numFrames, d)
  {
    var d := Cells(g.numBinT, g.numBinX, g.numBinY);
    SlotInRange(g.numBinT, g.numBinX, g.numBinY, t, x, y);
    if k < numFrames - 1 {
      TimesGap(k, numFrames - 1, d);
    }
  }

  /** Different (frame, bin) pairs never share a buffer entry. */
  lemma LayoutInjective(g: Geometry, k: nat, t: nat, x: nat, y: nat, k': nat, t': nat, x': nat, y': nat)
    requires g.numBinT >= 0 && g.numBinX >= 0 && g.numBinY >= 0
    requires t < g.numBinT && x < g.numBinX && y < g.numBinY
    requires t' < g.numBinT && x' < g.numBinX && y' < g.numBinY
    requires DescrIndex(g, k, t, x, y) == DescrIndex(g, k', t', x', y')
    ensures k == k' && t == t' && x == x' && y == y'
  {
    var d := Cells(g.numBinT, g.numBinX, g.numBinY);
    SlotInRange(g.numBinT, g.numBinX, g.numBinY, t, x, y);
    SlotInRange(g.numBinT, g.numBinX, g.numBinY, t', x', y');
    TimesDigits(k, Slot(g.numBinT, g.numBinX, t, x, y), k', Slot(g.numBinT, g.numBinX, t', x', y'), d);
    SlotInjective(g.numBinT, g.numBinX, t, x, y, t', x', y');
  }

  // ---------------------------------------------------------------------
  // Clamping
  // ---------------------------------------------------------------------

  /** The clamp at the end of vl_dhog_process: entries above 0.2 become 0.2. */
  function Clamp(d: seq<real>): (c: seq<real>)
    ensures |c| == |d|
    ensures forall i :: 0 <= i < |d| ==> c[i] <= 0.2 && (d[i] <= 0.2 ==> c[i] == d[i]) && (d[i] > 0.2 ==> c[i] == 0.2)
  {
    seq(|d|, i requires 0 <= i < |d| => if d[i] > 0.2 then 0.2 else d[i])
  }

  /** Clamping an already clamped descriptor changes nothing. */
  lemma ClampIdempotent(d: seq<real>)
    ensures Clamp(Clamp(d)) == Clamp(d)
  {
  }

  // ---------------------------------------------------------------------
  // Descriptor transpose
  // ---------------------------------------------------------------------

  /** Where orientation t goes under the transpose: T/4 - t, taken modulo T. */
  function FlipT(T: nat, t: nat): (u: nat)
    requires T >= 1 && t < T
    ensures u < T
  {
    (T / 4 - t + T) % T
  }

  /** The orientation map undoes itself. */
  lemma FlipInvolution(T: nat, t: nat)
    requires T >= 1 && t < T
    ensures FlipT(T, FlipT(T, t)) == t
  {
    var h := T / 4;
    assert 0 <= h < T;
    ModOnce(h - t + T, T);
    ModOnce(h - FlipT(T, t) + T, T);
  }

  /** Reducing a number of [0, 2m) modulo m subtracts m at most once. */
  lemma ModOnce(a: int, m: int)
    requires m >= 1 && 0 <= a < 2 * m
    ensures a % m == (if a < m then a else a - m)
  {
    var q := a / m;
    assert a == q * m + a % m;
    if q == 1 {
      assert q * m == m;
    }
  }

  /** The transposed descriptor: bin (t, x, y) of src is bin (FlipT(t), y, x) of dst. */
  predicate Transposed(src: seq<real>, dst: seq<real>, T: nat, X: nat, Y: nat)
    requires T >= 1 && |src| == |dst| == Cells(T, X, Y)
  {
    forall t: nat, x: nat, y: nat :: t < T && x < X && y < Y ==>
      (SlotInRange(T, X, Y, t, x, y);
       SlotInRange(T, Y, X, FlipT(T, t), y, x);
       dst[Slot(T, Y, FlipT(T, t), y, x)] == src[Slot(T, X, t, x, y)])
  }

  /** The source bins before slot n, in the order the loops visit them, are already transposed into dst. */
  predicate Written(src: seq<real>, dst: seq<real>, T: nat, X: nat, Y: nat, n: nat)
    requires T >= 1 && |src| == |dst| == Cells(T, X, Y)
  {
    forall t: nat, x: nat, y: nat :: t < T && x < X && y < Y && Slot(T, X, t, x, y) < n ==>
      (SlotInRange(T, X, Y, t, x, y);
       SlotInRange(T, Y, X, FlipT(T, t), y, x);
       dst[Slot(T, Y, FlipT(T, t), y, x)] == src[Slot(T, X, t, x, y)])
  }

  /**
   * vl_dhog_transpose_descriptor: each spatial bin (x, y) of an X x Y
   * grid moves to (y, x) of a Y x X grid, and orientation t to
   * (T/4 - t) mod T. The loops visit the source in slot order.
   */
  method Transpose(src: seq<real>, T: nat, X: nat, Y: nat) returns (dst: seq<real>)
    requires T >= 1 && |src| == Cells(T, X, Y)
    ensures |dst| == |src| && Transposed(src, dst, T, X, Y)
  {
    dst := seq(|src|, _ => 0.0);
    var y := 0;
    while y < Y
      invariant 0 <= y <= Y && |dst| == |src|
      invariant Written(src, dst, T, X, Y, Times(Times(y, X), T))
    {
      dst := TransposeRow(src, dst, T, X, Y, y);
      y := y + 1;
    }
    WrittenAll(src, dst, T, X, Y);
  }

  /** The middle loop of the transpose: the spatial bins of row y. */
  method TransposeRow(src: seq<real>, dst0: seq<real>, T: nat, X: nat, Y: nat, y: nat) returns (dst: seq<real>)
    requires T >= 1 && y < Y && |src| == |dst0| == Cells(T, X, Y)
    requires Written(src, dst0, T, X, Y, Times(Times(y, X), T))
    ensures |dst| == |src| && Written(src, dst, T, X, Y, Times(Times(y + 1, X), T))
  {
    dst := dst0;
    var x := 0;
    while x < X
      invariant 0 <= x <= X && |dst| == |src|
      invariant Written(src, dst, T, X, Y, Times(x + Times(y, X), T))
    {
      dst := TransposeCell(src, dst, T, X, Y, x, y);
      x := x + 1;
    }
  }

  /** The innermost loop of the transpose: the T orientations of spatial bin (x, y). */
  method TransposeCell(src: seq<real>, dst0: seq<real>, T: nat, X: nat, Y: nat, x: nat, y: nat)
    returns (dst: seq<real>)
    requires T >= 1 && x < X && y < Y && |src| == |dst0| == Cells(T, X, Y)
    requires Written(src, dst0, T, X, Y, Times(x + Times(y, X), T))
    ensures |dst| == |src| && Written(src, dst, T, X, Y, Times(x + 1 + Times(y, X), T))
  {
    dst := dst0;
    var offset := Times(x + Times(y, X), T);
    var offsetT := Times(y + Times(x, Y), T);
    var t := 0;
    while t < T
      invariant 0 <= t <= T && |dst| == |src|
      invariant Written(src, dst, T, X, Y, Slot(T, X, t, x, y))
    {
      var tT := T / 4 - t;
      SlotInRange(T, X, Y, t, x, y);
      SlotInRange(T, Y, X, FlipT(T, t), y, x);
      var v := src[offset + t];
      ghost var before := dst;
      dst := dst[offsetT + (tT + T) % T := v];
      WriteStep(src, before, dst, T, X, Y, t, x, y);
      t := t + 1;
    }
  }

  /** Writing the next source bin to its transposed slot extends the written prefix by one. */
  lemma WriteStep(src: seq<real>, before: seq<real>, after: seq<real>, T: nat, X: nat, Y: nat, t: nat, x: nat, y: nat)
    requires T >= 1 && |src| == |before| == Cells(T, X, Y) && t < T && x < X && y < Y
    requires Written(src, before, T, X, Y, Slot(T, X, t, x, y))
    requires Slot(T, X, t, x, y) < |src| && Slot(T, Y, FlipT(T, t), y, x) < |before|
    requires after == before[Slot(T, Y, FlipT(T, t), y, x) := src[Slot(T, X, t, x, y)]]
    ensures Written(src, after, T, X, Y, Slot(T, X, t, x, y) + 1)
  {
    var n := Slot(T, X, t, x, y);
    forall t': nat, x': nat, y': nat | t' < T && x' < X && y' < Y && Slot(T, X, t', x', y') < n + 1
      ensures Slot(T, Y, FlipT(T, t'), y', x') < |after| && Slot(T, X, t', x', y') < |src|
      ensures after[Slot(T, Y, FlipT(T, t'), y', x')] == src[Slot(T, X, t', x', y')]
    {
      SlotInRange(T, X, Y, t', x', y');
      SlotInRange(T, Y, X, FlipT(T, t'), y', x');
      if Slot(T, Y, FlipT(T, t'), y', x') == Slot(T, Y, FlipT(T, t), y, x) {
        SlotInjective(T, Y, FlipT(T, t'), y', x', FlipT(T, t), y, x);
        FlipInvolution(T, t);
        FlipInvolution(T, t');
      } else if Slot(T, X, t', x', y') == n {
        SlotInjective(T, X, t', x', y', t, x, y);
      }
    }
  }

  /** Once every slot is written, the whole descriptor is transposed. */
  lemma WrittenAll(src: seq<real>, dst: seq<real>, T: nat, X: nat, Y: nat)
    requires T >= 1 && |src| == |dst| == Cells(T, X, Y)
    requires Written(src, dst, T, X, Y, Cells(T, X, Y))
    ensures Transposed(src, dst, T, X, Y)
  {
    forall t: nat, x: nat, y: nat | t < T && x < X && y < Y
      ensures Slot(T, Y, FlipT(T, t), y, x) < |dst| && Slot(T, X, t, x, y) < |src|
      ensures dst[Slot(T, Y, FlipT(T, t), y, x)] == src[Slot(T, X, t, x, y)]
    {
      SlotInRange(T, X, Y, t, x, y);
      SlotInRange(T, Y, X, FlipT(T, t), y, x);
    }
  }

  /** Every destination slot receives some source bin: with injectivity, the transpose is a bijection. */
  lemma TransposeCovers(T: nat, X: nat, Y: nat, j: nat) returns (t: nat, x: nat, y: nat)
    requires T >= 1 && j < Cells(T, X, Y)
    ensures t < T && x < X && y < Y && Slot(T, Y, FlipT(T, t), y, x) == j
  {
    CellsSwap(T, X, Y);
    var u;
    u, y, x := SlotOf(T, Y, X, j);
    t := FlipT(T, u);
    FlipInvolution(T, u);
  }

  /** Transposing back, with the grid's sides swapped, restores the original descriptor. */
  lemma TransposeTwice(src: seq<real>, mid: seq<real>, dst: seq<real>, T: nat, X: nat, Y: nat)
    requires T >= 1 && |src| == |mid| == |dst| == Cells(T, X, Y) == Cells(T, Y, X)
    requires Transposed(src, mid, T, X, Y) && Transposed(mid, dst, T, Y, X)
    ensures dst == src
  {
    forall j | 0 <= j < |src|
      ensures dst[j] == src[j]
    {
      var t, x, y := SlotOf(T, X, Y, j);
      FlipInvolution(T, t);
      var u := FlipT(T, t);
      SlotInRange(T, Y, X, u, y, x);
      SlotInRange(T, X, Y, FlipT(T, u), x, y);
    }
  }
}

=== FILE: erfill.dfy ===
/**
 * The region fill of toolbox/mser/vl_erfill.c: from a seed pixel, a
 * breadth-first scan lists the pixels reachable through the 3^n - 1
 * neighbour offsets whose value is at most the seed's value (at least it,
 * for a negative seed), as 1-based indices.
 */
module ErFill {
  import opened Wrappers
  import opened Subscript

  // ----------------------------------------------------------- neighbours

  /** The neighbour of idx at each offset, by offset code. */
  function Hits(dims: seq<nat>, idx: nat): (h: seq<Option<nat>>)
    requires idx < Prod(dims)
    ensures |h| == Prod(Threes(|dims|))
    ensures forall e :: 0 <= e < |h| ==> h[e] == Neighbour(dims, Digits(dims, idx), Offset(|dims|, e))
  {
    seq(Prod(Threes(|dims|)), e requires 0 <= e < Prod(Threes(|dims|)) => Neighbour(dims, Digits(dims, idx), Offset(|dims|, e)))
  }

  /** The hits below code c that are not idx itself, in code order. */
  function Collect(idx: nat, h: seq<Option<nat>>, c: nat): (ns: seq<nat>)
    requires c <= |h|
    ensures forall j :: 0 <= j < |ns| ==> ns[j] != idx
  {
    if c == 0 then []
    else Collect(idx, h, c - 1) + (if h[c - 1].Some? && h[c - 1].value != idx then [h[c - 1].value] else [])
  }

  /** The neighbours the fill scans around idx: in bounds, not idx, in the order of the offset odometer. */
  function Neighbours(dims: seq<nat>, idx: nat): (ns: seq<nat>)
    requires idx < Prod(dims)
    ensures forall j :: 0 <= j < |ns| ==> ns[j] < Prod(dims) && ns[j] != idx
  {
    var h := Hits(dims, idx);
    CollectBound(idx, h, |h|, Prod(dims));
    Collect(idx, h, |h|)
  }

  lemma {:induction false} CollectBound(idx: nat, h: seq<Option<nat>>, c: nat, n: nat)
    requires c <= |h| && forall e :: 0 <= e < |h| && h[e].Some? ==> h[e].value < n
    ensures forall j :: 0 <= j < |Collect(idx, h, c)| ==> Collect(idx, h, c)[j] < n
    decreases c
  {
    if c > 0 {
      CollectBound(idx, h, c - 1, n);
    }
  }

  /** m is collected below c iff some code below c hits m and m is not idx. */
  lemma {:induction false} CollectMembers(idx: nat, h: seq<Option<nat>>, c: nat, m: nat)
    requires c <= |h|
    ensures m in Collect(idx, h, c) <==> m != idx && exists e :: 0 <= e < c && h[e] == Some(m)
    decreases c
  {
    if c > 0 {
      CollectMembers(idx, h, c - 1, m);
      if exists e :: 0 <= e < c && h[e] == Some(m) {
        var e :| 0 <= e < c && h[e] == Some(m);
        if e < c - 1 {
          assert exists e :: 0 <= e < c - 1 && h[e] == Some(m);
        }
      }
    }
  }

  /**
   * m is scanned around idx iff it is not idx and some unit offset of the
   * subscript of idx lands on it inside the array.
   */
  lemma NeighboursMembers(dims: seq<nat>, idx: nat, m: nat)
    requires idx < Prod(dims)
    ensures m in Neighbours(dims, idx) <==>
      m != idx && exists d :: |d| == |dims| && Unit(d) && Neighbour(dims, Digits(dims, idx), d) == Some(m)
  {
    var n := |dims|;
    var h := Hits(dims, idx);
    CollectMembers(idx, h, |h|, m);
    if m in Neighbours(dims, idx) {
      var e :| 0 <= e < |h| && h[e] == Some(m);
      assert |Offset(n, e)| == n && Unit(Offset(n, e)) && Neighbour(dims, Digits(dims, idx), Offset(n, e)) == Some(m);
    }
    if m != idx && exists d :: |d| == n && Unit(d) && Neighbour(dims, Digits(dims, idx), d) == Some(m) {
      var d :| |d| == n && Unit(d) && Neighbour(dims, Digits(dims, idx), d) == Some(m);
      OffsetOfCode(d);
      assert h[Code(d)] == Some(m);
    }
  }

  /** No pixel is scanned twice around the same pixel. */
  lemma NeighboursDistinct(dims: seq<nat>, idx: nat)
    requires idx < Prod(dims)
    ensures forall a, b :: 0 <= a < b < |Neighbours(dims, idx)| ==> Neighbours(dims, idx)[a] != Neighbours(dims, idx)[b]
  {
    var h := Hits(dims, idx);
    forall a, b | 0 <= a < |h| && 0 <= b < |h| && h[a].Some? && h[a] == h[b] ensures a == b {
      NeighbourInjective(dims, Digits(dims, idx), Offset(|dims|, a), Offset(|dims|, b));
    }
    CollectDistinct(idx, h, |h|);
  }

  lemma {:induction false} CollectDistinct(idx: nat, h: seq<Option<nat>>, c: nat)
    requires c <= |h| && forall a, b :: 0 <= a < |h| && 0 <= b < |h| && h[a].Some? && h[a] == h[b] ==> a == b
    ensures forall a, b :: 0 <= a < b < |Collect(idx, h, c)| ==> Collect(idx, h, c)[a] != Collect(idx, h, c)[b]
    decreases c
  {
    if c > 0 {
      CollectDistinct(idx, h, c - 1);
      var prev := Collect(idx, h, c - 1);
      if h[c - 1].Some? && h[c - 1].value != idx {
        var m := h[c - 1].value;
        assert forall e :: 0 <= e < c - 1 ==> h[e] != Some(m);
        CollectMembers(idx, h, c - 1, m);
        var cur := Collect(idx, h, c);
        assert cur == prev + [m];
        forall a, b | 0 <= a < b < |cur| ensures cur[a] != cur[b] {
          if b < |prev| {
            assert cur[a] == prev[a] && cur[b] == prev[b];
          } else {
            assert cur[a] == prev[a] && cur[b] == m;
          }
        }
      }
    }
  }

  // ---------------------------------------------------------------- state

  /** The member list, the visited flags and the number of members already expanded. */
  datatype State = State(members: seq<nat>, visited: seq<bool>, expanded: nat)

  /** m belongs to the region: not brighter than the seed value (not darker, inverted). */
  predicate Accept(im: seq<nat>, value: nat, invert: bool, m: nat)
    requires m < |im|
  {
    if invert then im[m] >= value else im[m] <= value
  }

  /** Number of unvisited pixels among the first k. */
  function Unvisited(v: seq<bool>, k: nat): nat
    requires k <= |v|
  {
    if k == 0 then 0 else Unvisited(v, k - 1) + (if v[k - 1] then 0 else 1)
  }

  lemma {:induction false} UnvisitedMark(v: seq<bool>, m: nat, k: nat)
    requires m < |v| && k <= |v| && !v[m]
    ensures Unvisited(v[m := true], k) + (if m < k then 1 else 0) == Unvisited(v, k)
    decreases k
  {
    if k > 0 {
      UnvisitedMark(v, m, k - 1);
    }
  }

  predicate Wf(st: State, n: nat)
  {
    |st.visited| == n && st.expanded <= |st.members| && forall j :: 0 <= j < |st.members| ==> st.members[j] < n
  }

  /** Scan one neighbour: an accepted, unvisited pixel is marked and appended. */
  function Visit(im: seq<nat>, value: nat, invert: bool, st: State, m: nat): (st': State)
    requires Wf(st, |im|) && m < |im|
    ensures Wf(st', |im|) && st'.expanded == st.expanded && st.members <= st'.members
    ensures |st'.members| + Unvisited(st'.visited, |im|) == |st.members| + Unvisited(st.visited, |im|)
  {
    if Accept(im, value, invert, m) && !st.visited[m] then
      UnvisitedMark(st.visited, m, |im|);
      State(st.members + [m], st.visited[m := true], st.expanded)
    else st
  }

  /** Scan a list of neighbours in order. */
  function VisitAll(im: seq<nat>, value: nat, invert: bool, st: State, ns: seq<nat>): (st': State)
    requires Wf(st, |im|) && forall j :: 0 <= j < |ns| ==> ns[j] < |im|
    ensures Wf(st', |im|) && st'.expanded == st.expanded && st.members <= st'.members
    ensures |st'.members| + Unvisited(st'.visited, |im|) == |st.members| + Unvisited(st.visited, |im|)
    decreases |ns|
  {
    if ns == [] then st else VisitAll(im, value, invert, Visit(im, value, invert, st, ns[0]), ns[1..])
  }

  /** The neighbour lists of every pixel, by pixel index. */
  function Adjacency(dims: seq<nat>): (adj: seq<seq<nat>>)
    ensures Graph(adj, Prod(dims))
    ensures forall i :: 0 <= i < |adj| ==> adj[i] == Neighbours(dims, i)
  {
    seq(Prod(dims), i requires 0 <= i < Prod(dims) => Neighbours(dims, i))
  }

  /** adj lists, for each of n pixels, neighbours among those n pixels. */
  predicate Graph(adj: seq<seq<nat>>, n: nat)
  {
    |adj| == n && forall i, j :: 0 <= i < n && 0 <= j < |adj[i]| ==> adj[i][j] < n
  }

  /** Expand members in list order until every member is expanded. */
  function Scan(adj: seq<seq<nat>>, im: seq<nat>, value: nat, invert: bool, st: State): (st': State)
    requires Graph(adj, |im|) && Wf(st, |im|)
    ensures Wf(st', |im|) && st'.expanded == |st'.members| && st.members <= st'.members
    decreases 2 * Unvisited(st.visited, |im|) + |st.members| - st.expanded
  {
    if st.expanded == |st.members| then st
    else
      var next := VisitAll(im, value, invert, st.(expanded := st.expanded + 1), adj[st.members[st.expanded]]);
      Scan(adj, im, value, invert, next)
  }

  // ----------------------------------------------------------------- entry

  /** Turn 0-based indices into the 1-based ones MATLAB receives. */
  function OneBased(ms: seq<nat>): (r: seq<nat>)
    ensures |r| == |ms| && forall j :: 0 <= j < |ms| ==> r[j] == ms[j] + 1
  {
    seq(|ms|, j requires 0 <= j < |ms| => ms[j] + 1)
  }

  /** The seed is the only member; nothing is expanded yet. */
  function Start(n: nat, seed: nat, markSeed: bool): (st: State)
    requires seed < n
    ensures Wf(st, n) && st.members == [seed] && st.expanded == 0
    ensures forall x :: 0 <= x < n ==> (st.visited[x] <==> markSeed && x == seed)
  {
    var visited := seq(n, _ => false);
    State([seed], if markSeed then visited[seed := true] else visited, 0)
  }

  /**
   * The fill over the neighbour table adj for a seed ER: |ER| is the
   * 1-based seed index and a negative ER inverts the comparison. markSeed
   * says whether the seed starts out visited.
   */
  function Flood(adj: seq<seq<nat>>, im: seq<nat>, er: int, markSeed: bool): (r: Result<seq<nat>, string>)
    requires Graph(adj, |im|)
    ensures r.Err? <==> er == 0 || er > |im| || -er > |im|
    ensures r.Ok? ==> |r.value| >= 1 && r.value[0] == (if er < 0 then -er else er)
  {
    var idx := if er < 0 then -er else er;
    if idx < 1 || idx > |im| then Err("ER out of range")
    else
      var seed := idx - 1;
      Ok(OneBased(Scan(adj, im, im[seed], er < 0, Start(|im|, seed, markSeed)).members))
  }

  /** vl_erfill as written: the seed is never marked visited. */
  function FillAsWritten(dims: seq<nat>, im: seq<nat>, er: int): (r: Result<seq<nat>, string>)
    requires |im| == Prod(dims)
    ensures r.Err? <==> er == 0 || er > |im| || -er > |im|
    ensures r.Ok? ==> |r.value| >= 1 && r.value[0] == (if er < 0 then -er else er)
  {
    Flood(Adjacency(dims), im, er, false)
  }

  /** The fill with the seed marked visited before the scan, so it is listed once. */
  function Fill(dims: seq<nat>, im: seq<nat>, er: int): (r: Result<seq<nat>, string>)
    requires |im| == Prod(dims)
    ensures r.Err? <==> er == 0 || er > |im| || -er > |im|
    ensures r.Ok? ==> |r.value| >= 1 && r.value[0] == (if er < 0 then -er else er)
  {
    Flood(Adjacency(dims), im, er, true)
  }

  // ------------------------------------------------------------ invariants

  /** The members are listed once each, are exactly the visited pixels, and are all accepted. */
  ghost predicate Core(im: seq<nat>, value: nat, invert: bool, st: State)
  {
    && Wf(st, |im|)
    && (forall m :: 0 <= m < |im| ==> (st.visited[m] <==> m in st.members))
    && (forall a, b :: 0 <= a < b < |st.members| ==> st.members[a] != st.members[b])
    && (forall j :: 0 <= j < |st.members| ==> Accept(im, value, invert, st.members[j]))
    && |st.members| + Unvisited(st.visited, |im|) == |im|
  }

  /** Every accepted pixel of ns is visited. */
  ghost predicate ClosedOn(im: seq<nat>, value: nat, invert: bool, visited: seq<bool>, ns: seq<nat>)
    requires |visited| == |im| && forall j :: 0 <= j < |ns| ==> ns[j] < |im|
  {
    forall j :: 0 <= j < |ns| && Accept(im, value, invert, ns[j]) ==> visited[ns[j]]
  }

  /** Every member after the first is a neighbour of a member listed before it. */
  ghost predicate Linked(adj: seq<seq<nat>>, ms: seq<nat>)
    requires forall j :: 0 <= j < |ms| ==> ms[j] < |adj|
  {
    forall j :: 0 < j < |ms| ==> LinkedAt(adj, ms, j)
  }

  /** Member j is a neighbour of a member listed before it. */
  ghost predicate LinkedAt(adj: seq<seq<nat>>, ms: seq<nat>, j: nat)
    requires j < |ms| && forall k :: 0 <= k < |ms| ==> ms[k] < |adj|
  {
    exists p :: 0 <= p < j && ms[j] in adj[ms[p]]
  }

  /**
   * The fill invariant: the core, every member reached through an earlier
   * one, and every expanded member has its accepted neighbours visited.
   */
  ghost predicate Inv(adj: seq<seq<nat>>, im: seq<nat>, value: nat, invert: bool, st: State)
  {
    && Graph(adj, |im|) && Core(im, value, invert, st)
    && Linked(adj, st.members)
    && forall j :: 0 <= j < st.expanded ==> ClosedOn(im, value, invert, st.visited, adj[st.members[j]])
  }

  /** Marks are never taken back. */
  ghost predicate Grows(v: seq<bool>, v': seq<bool>)
  {
    |v| == |v'| && forall x :: 0 <= x < |v| && v[x] ==> v'[x]
  }

  lemma VisitKeeps(im: seq<nat>, value: nat, invert: bool, st: State, m: nat)
    requires Core(im, value, invert, st) && m < |im|
    ensures Core(im, value, invert, Visit(im, value, invert, st, m))
    ensures Accept(im, value, invert, m) ==> Visit(im, value, invert, st, m).visited[m]
    ensures Grows(st.visited, Visit(im, value, invert, st, m).visited)
  {
    var st' := Visit(im, value, invert, st, m);
    if Accept(im, value, invert, m) && !st.visited[m] {
      assert st'.members == st.members + [m];
      forall x | 0 <= x < |im| ensures st'.visited[x] <==> x in st'.members {
        assert x in st'.members <==> x in st.members || x == m;
      }
    }
  }

  lemma {:induction false} VisitAllKeeps(im: seq<nat>, value: nat, invert: bool, st: State, ns: seq<nat>)
    requires Core(im, value, invert, st) && forall j :: 0 <= j < |ns| ==> ns[j] < |im|
    ensures Core(im, value, invert, VisitAll(im, value, invert, st, ns))
    ensures ClosedOn(im, value, invert, VisitAll(im, value, invert, st, ns).visited, ns)
    ensures Grows(st.visited, VisitAll(im, value, invert, st, ns).visited)
    decreases |ns|
  {
    if ns != [] {
      var st1 := Visit(im, value, invert, st, ns[0]);
      VisitKeeps(im, value, invert, st, ns[0]);
      VisitAllKeeps(im, value, invert, st1, ns[1..]);
      var st' := VisitAll(im, value, invert, st, ns);
      forall j | 0 <= j < |ns| && Accept(im, value, invert, ns[j]) ensures st'.visited[ns[j]] {
        if j > 0 {
          assert ns[j] == ns[1..][j - 1];
        }
      }
    }
  }

  /** Scanning a list appends only pixels taken from that list. */
  lemma {:induction false} VisitAllFrom(im: seq<nat>, value: nat, invert: bool, st: State, ns: seq<nat>)
    requires Wf(st, |im|) && forall j :: 0 <= j < |ns| ==> ns[j] < |im|
    ensures forall j :: |st.members| <= j < |VisitAll(im, value, invert, st, ns).members| ==>
      VisitAll(im, value, invert, st, ns).members[j] in ns
    decreases |ns|
  {
    if ns != [] {
      var st1 := Visit(im, value, invert, st, ns[0]);
      VisitAllFrom(im, value, invert, st1, ns[1..]);
      var st' := VisitAll(im, value, invert, st, ns);
      forall j | |st.members| <= j < |st'.members| ensures st'.members[j] in ns {
        if j < |st1.members| {
          assert st1.members == st.members + [ns[0]];
          assert st'.members[j] == st1.members[j];
        } else {
          assert st' == VisitAll(im, value, invert, st1, ns[1..]);
          assert st'.members[j] in ns[1..];
        }
      }
    }
  }

  /** Expanding one member keeps the invariant. */
  lemma StepKeeps(adj: seq<seq<nat>>, im: seq<nat>, value: nat, invert: bool, st: State)
    requires Inv(adj, im, value, invert, st) && st.expanded < |st.members|
    ensures Inv(adj, im, value, invert,
      VisitAll(im, value, invert, st.(expanded := st.expanded + 1), adj[st.members[st.expanded]]))
  {
    var ns := adj[st.members[st.expanded]];
    var st0 := st.(expanded := st.expanded + 1);
    VisitAllKeeps(im, value, invert, st0, ns);
    VisitAllFrom(im, value, invert, st0, ns);
    var st' := VisitAll(im, value, invert, st0, ns);
    ExtendLinked(adj, st.members, st'.members, st.expanded);
    forall j | 0 <= j < st'.expanded ensures ClosedOn(im, value, invert, st'.visited, adj[st'.members[j]]) {
      assert st'.members[j] == st.members[j];
    }
  }

  /** Appending neighbours of member e to a linked list keeps it linked. */
  lemma ExtendLinked(adj: seq<seq<nat>>, ms: seq<nat>, ms': seq<nat>, e: nat)
    requires (forall k :: 0 <= k < |ms'| ==> ms'[k] < |adj|) && ms <= ms' && e < |ms|
    requires Linked(adj, ms)
    requires forall j :: |ms| <= j < |ms'| ==> ms'[j] in adj[ms[e]]
    ensures Linked(adj, ms')
  {
    forall j | 0 < j < |ms'| ensures LinkedAt(adj, ms', j) {
      if j < |ms| {
        assert LinkedAt(adj, ms, j);
        var p :| 0 <= p < j && ms[j] in adj[ms[p]];
        assert ms'[j] == ms[j] && ms'[p] == ms[p];
      } else {
        assert ms'[e] == ms[e];
      }
    }
  }

  lemma {:induction false} ScanKeeps(adj: seq<seq<nat>>, im: seq<nat>, value: nat, invert: bool, st: State)
    requires Inv(adj, im, value, invert, st)
    ensures Inv(adj, im, value, invert, Scan(adj, im, value, invert, st))
    decreases 2 * Unvisited(st.visited, |im|) + |st.members| - st.expanded
  {
    if st.expanded < |st.members| {
      StepKeeps(adj, im, value, invert, st);
      ScanKeeps(adj, im, value, invert, VisitAll(im, value, invert, st.(expanded := st.expanded + 1), adj[st.members[st.expanded]]));
    }
  }

  lemma {:induction false} UnvisitedNone(v: seq<bool>, k: nat)
    requires k <= |v| && forall i :: 0 <= i < |v| ==> !v[i]
    ensures Unvisited(v, k) == k
    decreases k
  {
    if k > 0 {
      UnvisitedNone(v, k - 1);
    }
  }

  /** The corrected start state satisfies the fill invariant. */
  lemma StartInv(adj: seq<seq<nat>>, im: seq<nat>, value: nat, invert: bool, seed: nat)
    requires Graph(adj, |im|) && seed < |im| && Accept(im, value, invert, seed)
    ensures Inv(adj, im, value, invert, Start(|im|, seed, true))
  {
    var none := seq(|im|, _ => false);
    UnvisitedNone(none, |im|);
    UnvisitedMark(none, seed, |im|);
    assert Start(|im|, seed, true).visited == none[seed := true];
  }

  /** Every accepted neighbour of q appears, 1-based, in ms. */
  ghost predicate Surrounds(adj: seq<seq<nat>>, im: seq<nat>, value: nat, invert: bool, ms: seq<nat>, q: nat)
    requires Graph(adj, |im|) && q < |im|
  {
    forall m :: m in adj[q] && Accept(im, value, invert, m) ==> m + 1 in ms
  }

  /**
   * A fill result: distinct 1-based pixels, each passing the threshold
   * test and, after the first, a neighbour of a pixel listed before it,
   * with every accepted neighbour of a listed pixel listed too.
   */
  ghost predicate FillRegion(adj: seq<seq<nat>>, im: seq<nat>, value: nat, invert: bool, ms: seq<nat>)
    requires Graph(adj, |im|)
  {
    && (forall j :: 0 <= j < |ms| ==> 1 <= ms[j] <= |im| && Accept(im, value, invert, ms[j] - 1))
    && (forall j :: 0 < j < |ms| ==> Adjoins(adj, ms, j))
    && (forall a, b :: 0 <= a < b < |ms| ==> ms[a] != ms[b])
    && (forall j :: 0 <= j < |ms| ==> 1 <= ms[j] <= |im| && Surrounds(adj, im, value, invert, ms, ms[j] - 1))
  }

  /** The 1-based pixel ms[j] is a neighbour of a pixel listed before it. */
  ghost predicate Adjoins(adj: seq<seq<nat>>, ms: seq<nat>, j: nat)
    requires j < |ms| && forall k :: 0 <= k < |ms| ==> 1 <= ms[k] <= |adj|
  {
    exists p :: 0 <= p < j && ms[j] - 1 in adj[ms[p] - 1]
  }

  /** A finished scan, turned 1-based, is a fill region. */
  lemma FinishedRegion(adj: seq<seq<nat>>, im: seq<nat>, value: nat, invert: bool, st: State)
    requires Inv(adj, im, value, invert, st) && st.expanded == |st.members|
    ensures FillRegion(adj, im, value, invert, OneBased(st.members))
  {
    var ms := OneBased(st.members);
    OneBasedCore(im, value, invert, st, ms);
    AllSurrounded(adj, im, value, invert, st, ms);
    OneBasedAdjoins(adj, st.members);
    RegionOfParts(adj, im, value, invert, ms);
  }

  /** The four clauses of a fill region, proved apart, make one. */
  lemma RegionOfParts(adj: seq<seq<nat>>, im: seq<nat>, value: nat, invert: bool, ms: seq<nat>)
    requires Graph(adj, |im|)
    requires forall j :: 0 <= j < |ms| ==> 1 <= ms[j] <= |im| && Accept(im, value, invert, ms[j] - 1)
    requires forall j :: 0 < j < |ms| ==> Adjoins(adj, ms, j)
    requires forall a, b :: 0 <= a < b < |ms| ==> ms[a] != ms[b]
    requires forall j :: 0 <= j < |ms| ==> 1 <= ms[j] <= |im| && Surrounds(adj, im, value, invert, ms, ms[j] - 1)
    ensures FillRegion(adj, im, value, invert, ms)
  {
  }

  /** In a finished scan, every accepted neighbour of every member is listed. */
  lemma AllSurrounded(adj: seq<seq<nat>>, im: seq<nat>, value: nat, invert: bool, st: State, ms: seq<nat>)
    requires Inv(adj, im, value, invert, st) && st.expanded == |st.members| && ms == OneBased(st.members)
    ensures forall j :: 0 <= j < |ms| ==> 1 <= ms[j] <= |im| && Surrounds(adj, im, value, invert, ms, ms[j] - 1)
  {
    forall j | 0 <= j < |ms| ensures 1 <= ms[j] <= |im| && Surrounds(adj, im, value, invert, ms, ms[j] - 1) {
      MemberSurrounded(adj, im, value, invert, st, ms, j);
    }
  }

  /** Turning the members 1-based keeps them accepted and distinct. */
  lemma OneBasedCore(im: seq<nat>, value: nat, invert: bool, st: State, ms: seq<nat>)
    requires Core(im, value, invert, st) && ms == OneBased(st.members)
    ensures forall j :: 0 <= j < |ms| ==> 1 <= ms[j] <= |im| && Accept(im, value, invert, ms[j] - 1)
    ensures forall a, b :: 0 <= a < b < |ms| ==> ms[a] != ms[b]
  {
    forall j | 0 <= j < |ms| ensures 1 <= ms[j] <= |im| && Accept(im, value, invert, ms[j] - 1) {
      assert ms[j] - 1 == st.members[j];
    }
  }

  /** Every accepted neighbour of an expanded member is a member, so its 1-based index is listed. */
  lemma MemberSurrounded(adj: seq<seq<nat>>, im: seq<nat>, value: nat, invert: bool, st: State, ms: seq<nat>, j: nat)
    requires Inv(adj, im, value, invert, st) && st.expanded == |st.members|
    requires ms == OneBased(st.members) && j < |ms|
    ensures 1 <= ms[j] <= |im| && Surrounds(adj, im, value, invert, ms, ms[j] - 1)
  {
    var ns := adj[st.members[j]];
    assert ClosedOn(im, value, invert, st.visited, ns);
    forall m | m in ns && Accept(im, value, invert, m) ensures m + 1 in ms {
      var i :| 0 <= i < |ns| && ns[i] == m;
      var p :| 0 <= p < |st.members| && st.members[p] == m;
      assert ms[p] == m + 1;
    }
  }

  /** Turning a linked member list 1-based keeps each pixel a neighbour of an earlier one. */
  lemma OneBasedAdjoins(adj: seq<seq<nat>>, members: seq<nat>)
    requires (forall k :: 0 <= k < |members| ==> members[k] < |adj|) && Linked(adj, members)
    ensures forall j :: 0 < j < |members| ==> Adjoins(adj, OneBased(members), j)
  {
    var ms := OneBased(members);
    forall j | 0 < j < |ms| ensures Adjoins(adj, ms, j) {
      assert LinkedAt(adj, members, j);
      var p :| 0 <= p < j && members[j] in adj[members[p]];
      assert ms[p] - 1 == members[p] && ms[j] - 1 == members[j];
    }
  }

  /**
   * A flood with the seed marked lists the seed first and at most as many
   * pixels as the image has, and the list is a fill region for the seed's
   * value: every listed pixel passes the threshold test, none is listed
   * twice, each after the seed is a neighbour of one listed earlier (so
   * all are connected to the seed through listed pixels), and every
   * accepted neighbour of a listed pixel is listed.
   */
  lemma FloodSpec(adj: seq<seq<nat>>, im: seq<nat>, er: int)
    requires Graph(adj, |im|) && Flood(adj, im, er, true).Ok?
    ensures var ms := Flood(adj, im, er, true).value;
      var seed := (if er < 0 then -er else er) - 1;
      && 0 <= seed < |im| && ms[0] == seed + 1 && |ms| <= |im|
      && FillRegion(adj, im, im[seed], er < 0, ms)
  {
    var seed := (if er < 0 then -er else er) - 1;
    StartInv(adj, im, im[seed], er < 0, seed);
    var st0 := Start(|im|, seed, true);
    ScanKeeps(adj, im, im[seed], er < 0, st0);
    FinishedRegion(adj, im, im[seed], er < 0, Scan(adj, im, im[seed], er < 0, st0));
  }

  /** The corrected fill of vl_erfill is such a region over the array's neighbour table. */
  lemma FillSpec(dims: seq<nat>, im: seq<nat>, er: int)
    requires |im| == Prod(dims) && Fill(dims, im, er).Ok?
    ensures var ms := Fill(dims, im, er).value;
      var seed := (if er < 0 then -er else er) - 1;
      && 0 <= seed < |im| && ms[0] == seed + 1 && |ms| <= |im|
      && FillRegion(Adjacency(dims), im, im[seed], er < 0, ms)
  {
    FloodSpec(Adjacency(dims), im, er);
  }

  // ------------------------------------------------------ a small example

  function Elems(ns: seq<nat>): set<nat>
  {
    set x | x in ns
  }

  /** A sequence without repeats has as many distinct elements as entries. */
  lemma {:induction false} DistinctCard(ns: seq<nat>)
    requires forall a, b :: 0 <= a < b < |ns| ==> ns[a] != ns[b]
    ensures |Elems(ns)| == |ns|
    decreases |ns|
  {
    if ns != [] {
      var init := ns[..|ns| - 1];
      var last := ns[|ns| - 1];
      DistinctCard(init);
      assert forall a :: 0 <= a < |init| ==> init[a] == ns[a];
      assert last !in init;
      assert ns == init + [last];
      forall x ensures x in ns <==> x in init || x == last {
      }
      assert Elems(ns) == Elems(init) + {last};
    }
  }

  /** A repeat-free list of pixels below 2 that avoids idx and holds m is just [m]. */
  lemma OnlyOther(ns: seq<nat>, idx: nat, m: nat)
    requires forall a, b :: 0 <= a < b < |ns| ==> ns[a] != ns[b]
    requires forall j :: 0 <= j < |ns| ==> ns[j] < 2 && ns[j] != idx
    requires idx < 2 && m == 1 - idx && m in ns
    ensures ns == [m]
  {
    DistinctCard(ns);
    assert Elems(ns) == {m};
  }

  /** In a two-pixel array, a unit offset from idx that lands on the other pixel makes it the only neighbour. */
  lemma OtherNeighbour(dims: seq<nat>, idx: nat, m: nat, d: seq<int>)
    requires Prod(dims) == 2 && idx < 2 && m == 1 - idx
    requires |d| == |dims| && Unit(d) && Neighbour(dims, Digits(dims, idx), d) == Some(m)
    ensures Neighbours(dims, idx) == [m]
  {
    OffsetListed(dims, idx, m, d);
    ListedOther(dims, idx, m);
  }

  /** In a two-pixel array, a pixel with the other one among its neighbours has no other neighbour. */
  lemma ListedOther(dims: seq<nat>, idx: nat, m: nat)
    requires Prod(dims) == 2 && idx < 2 && m == 1 - idx && m in Neighbours(dims, idx)
    ensures Neighbours(dims, idx) == [m]
  {
    NeighboursDistinct(dims, idx);
    OnlyOther(Neighbours(dims, idx), idx, m);
  }

  /** A pixel other than idx reached from it by a unit offset is among its neighbours. */
  lemma OffsetListed(dims: seq<nat>, idx: nat, m: nat, d: seq<int>)
    requires idx < Prod(dims) && m != idx
    requires |d| == |dims| && Unit(d) && Neighbour(dims, Digits(dims, idx), d) == Some(m)
    ensures m in Neighbours(dims, idx)
  {
    NeighboursMembers(dims, idx, m);
  }

  /** A 2-by-1 array has two pixels, with subscripts (0, 0) and (1, 0). */
  lemma PairShape(dims: seq<nat>)
    requires dims == [2, 1]
    ensures Prod(dims) == 2 && Digits(dims, 0) == [0, 0] && Digits(dims, 1) == [1, 0]
  {
    assert dims[1..] == [1] && dims[1..][1..] == [];
    assert Prod(dims[1..][1..]) == 1;
    assert Prod(dims[1..]) == 1;
  }

  lemma PairNeighbour0(dims: seq<nat>)
    requires dims == [2, 1]
    ensures Prod(dims) == 2 && Neighbours(dims, 0) == [1]
  {
    PairShape(dims);
    assert Shift([0, 0], [1, 0]) == [1, 0];
    OtherNeighbour(dims, 0, 1, [1, 0]);
  }

  lemma PairNeighbour1(dims: seq<nat>)
    requires dims == [2, 1]
    ensures Prod(dims) == 2 && Neighbours(dims, 1) == [0]
  {
    PairShape(dims);
    assert Shift([1, 0], [-1, 0]) == [0, 0];
    OtherNeighbour(dims, 1, 0, [-1, 0]);
  }

  /** A 2-by-1 array has two pixels, each the other's only neighbour. */
  lemma PairNeighbours(dims: seq<nat>)
    requires dims == [2, 1]
    ensures Prod(dims) == 2 && Neighbours(dims, 0) == [1] && Neighbours(dims, 1) == [0]
  {
    PairNeighbour0(dims);
    PairNeighbour1(dims);
  }

  lemma PairAdjacency(dims: seq<nat>)
    requires Prod(dims) == 2 && Neighbours(dims, 0) == [1] && Neighbours(dims, 1) == [0]
    ensures Adjacency(dims) == [[1], [0]]
  {
    var adj := Adjacency(dims);
    assert |adj| == 2 && adj[0] == [1] && adj[1] == [0];
  }

  /** Expanding the next member of the pair graph visits the other pixel. */
  lemma PairStep(adj: seq<seq<nat>>, im: seq<nat>, st: State, m: nat)
    requires adj == [[1], [0]] && im == [0, 0] && Wf(st, 2) && st.expanded < |st.members|
    requires m == 1 - st.members[st.expanded]
    ensures Graph(adj, |im|)
    ensures Scan(adj, im, 0, false, st) == Scan(adj, im, 0, false, Visit(im, 0, false, st.(expanded := st.expanded + 1), m))
  {
    assert adj[st.members[st.expanded]] == [m];
    var st0 := st.(expanded := st.expanded + 1);
    assert VisitAll(im, 0, false, st0, [m]) == VisitAll(im, 0, false, Visit(im, 0, false, st0, m), []);
  }

  /** Marking m in a two-pixel state of equal values: m joins the members. */
  lemma PairVisit(im: seq<nat>, members: seq<nat>, visited: seq<bool>, expanded: nat, m: nat)
    requires im == [0, 0] && Wf(State(members, visited, expanded), 2) && m < 2
    ensures Visit(im, 0, false, State(members, visited, expanded), m) ==
      if visited[m] then State(members, visited, expanded) else State(members + [m], visited[m := true], expanded)
  {
  }

  lemma PairStart(markSeed: bool)
    ensures Start(2, 0, markSeed) == State([0], [markSeed, false], 0)
  {
  }

  /** A state with every member expanded is final. */
  lemma ScanDone(adj: seq<seq<nat>>, im: seq<nat>, value: nat, invert: bool, st: State)
    requires Graph(adj, |im|) && Wf(st, |im|) && st.expanded == |st.members|
    ensures Scan(adj, im, value, invert, st) == st
  {
  }

  /** With the seed unmarked, pixel 0 is reached again from pixel 1. */
  lemma PairScanAsWritten(adj: seq<seq<nat>>, im: seq<nat>)
    requires adj == [[1], [0]] && im == [0, 0]
    ensures Graph(adj, |im|) && Scan(adj, im, 0, false, Start(2, 0, false)).members == [0, 1, 0]
  {
    PairStart(false);
    var s0 := State([0], [false, false], 0);
    var s1 := State([0, 1], [false, true], 1);
    var s2 := State([0, 1, 0], [true, true], 2);
    var s3 := State([0, 1, 0], [true, true], 3);
    PairMove(adj, im, s0, 1, s1);
    PairMove(adj, im, s1, 0, s2);
    PairMove(adj, im, s2, 1, s3);
    ScanDone(adj, im, 0, false, s3);
  }

  /** One expansion on the pair graph, from st to st'. */
  lemma PairMove(adj: seq<seq<nat>>, im: seq<nat>, st: State, m: nat, st': State)
    requires adj == [[1], [0]] && im == [0, 0] && Wf(st, 2) && st.expanded < |st.members|
    requires m == 1 - st.members[st.expanded]
    requires st' == if st.visited[m] then st.(expanded := st.expanded + 1)
      else State(st.members + [m], st.visited[m := true], st.expanded + 1)
    ensures Graph(adj, |im|)
    ensures Scan(adj, im, 0, false, st) == Scan(adj, im, 0, false, st')
  {
    PairStep(adj, im, st, m);
    PairVisit(im, st.members, st.visited, st.expanded + 1, m);
    assert st.(expanded := st.expanded + 1) == State(st.members, st.visited, st.expanded + 1);
  }

  /** With the seed marked, each pixel is listed once. */
  lemma PairScanMarked(adj: seq<seq<nat>>, im: seq<nat>)
    requires adj == [[1], [0]] && im == [0, 0]
    ensures Graph(adj, |im|) && Scan(adj, im, 0, false, Start(2, 0, true)).members == [0, 1]
  {
    PairStart(true);
    PairStep(adj, im, State([0], [true, false], 0), 1);
    PairVisit(im, [0], [true, false], 1, 1);
    assert [0] + [1] == [0, 1] && [true, false][1 := true] == [true, true];
    PairStep(adj, im, State([0, 1], [true, true], 1), 0);
    PairVisit(im, [0, 1], [true, true], 2, 0);
    ScanDone(adj, im, 0, false, State([0, 1], [true, true], 2));
  }

  /** On the pair graph with equal values, the fills from pixel 0, as written and corrected. */
  lemma PairFills(adj: seq<seq<nat>>, im: seq<nat>)
    requires adj == [[1], [0]] && im == [0, 0]
    ensures Graph(adj, |im|) && Flood(adj, im, 1, false) == Ok([1, 2, 1]) && Flood(adj, im, 1, true) == Ok([1, 2])
  {
    PairScanAsWritten(adj, im);
    assert OneBased([0, 1, 0]) == [1, 2, 1];
    PairScanMarked(adj, im);
    assert OneBased([0, 1]) == [1, 2];
  }

  /**
   * The fill as written lists the seed a second time: its neighbour is
   * accepted, and from there the unmarked seed is accepted again, so three
   * indices are produced for an image of nel = 2 pixels, one more than the
   * member buffer holds.
   */
  lemma FillAsWrittenRepeatsSeed(dims: seq<nat>, im: seq<nat>)
    requires dims == [2, 1] && im == [0, 0]
    ensures |im| == Prod(dims) && FillAsWritten(dims, im, 1) == Ok([1, 2, 1])
  {
    PairNeighbours(dims);
    PairAdjacency(dims);
    PairFills(Adjacency(dims), im);
  }

  /** The corrected fill lists each of the two pixels once. */
  lemma FillListsOnce(dims: seq<nat>, im: seq<nat>)
    requires dims == [2, 1] && im == [0, 0]
    ensures |im| == Prod(dims) && Fill(dims, im, 1) == Ok([1, 2])
  {
    PairNeighbours(dims);
    PairAdjacency(dims);
    PairFills(Adjacency(dims), im);
  }
}

=== FILE: extrema.dfy ===
/**
 * Strict local extrema of sampled maps, as found by the scans of
 * vl_find_local_extrema_3 and vl_find_local_extrema_2 (vl/covdet2.c)
 * and by the DoG scan of vl_sift_detect (vl/sift.c). A map of width
 * w, height h and depth d is stored x fastest, then y, then z; the
 * scans visit the interior points in that order with a cursor that
 * moves one cell per point, skips the two border cells at the end of
 * each row and the two border rows at the end of each plane.
 */
module LocalExtrema {
  import opened MathOp

  /** A grid point; z is 0 on two-dimensional maps. */
  datatype Point = Point(x: nat, y: nat, z: nat)

  /** The map's value at (x, y, z); 0 off the map, where no scan reads. */
  function Value(m: seq<real>, w: nat, h: nat, x: int, y: int, z: int): real
  {
    if 0 <= x < w && 0 <= y < h && 0 <= z && Slot(w, h, x, y, z) < |m| then m[Slot(w, h, x, y, z)] else 0.0
  }

  /** The 26 neighbours of a voxel, in the order CHECK_NEIGHBORS_3 compares them. */
  const Neighbours3: seq<(int, int, int)> := [
    (1, 0, 0), (-1, 0, 0), (0, 0, 1), (0, 0, -1), (0, 1, 0), (0, -1, 0),
    (1, 1, 0), (-1, 1, 0), (1, -1, 0), (-1, -1, 0),
    (1, 0, 1), (-1, 0, 1), (0, 1, 1), (0, -1, 1), (1, 1, 1), (-1, 1, 1), (1, -1, 1), (-1, -1, 1),
    (1, 0, -1), (-1, 0, -1), (0, 1, -1), (0, -1, -1), (1, 1, -1), (-1, 1, -1), (1, -1, -1), (-1, -1, -1)]

  /** The 8 neighbours of a pixel, in the order CHECK_NEIGHBORS_2 compares them. */
  const Neighbours2: seq<(int, int, int)> := [
    (1, 0, 0), (-1, 0, 0), (0, 1, 0), (0, -1, 0), (1, 1, 0), (-1, 1, 0), (1, -1, 0), (-1, -1, 0)]

  /** Every neighbour offset moves at most one cell along each axis. */
  predicate Unit(nb: seq<(int, int, int)>)
  {
    forall k :: 0 <= k < |nb| ==> -1 <= nb[k].0 <= 1 && -1 <= nb[k].1 <= 1 && -1 <= nb[k].2 <= 1
  }

  /** The neighbours of plane z stay within the d planes of the map. */
  predicate Layer(d: nat, z: nat, nb: seq<(int, int, int)>)
  {
    z < d && forall k :: 0 <= k < |nb| ==> 0 <= z + nb[k].2 < d
  }

  /** The 26 offsets are all the non-zero moves by at most one cell along each axis. */
  lemma Neighbours3Complete(dx: int, dy: int, dz: int)
    requires -1 <= dx <= 1 && -1 <= dy <= 1 && -1 <= dz <= 1 && (dx, dy, dz) != (0, 0, 0)
    ensures (dx, dy, dz) in Neighbours3
  {
  }

  /** The 8 offsets are all the non-zero in-plane moves by at most one cell along each axis. */
  lemma Neighbours2Complete(dx: int, dy: int)
    requires -1 <= dx <= 1 && -1 <= dy <= 1 && (dx, dy) != (0, 0)
    ensures (dx, dy, 0) in Neighbours2
  {
  }

  /** v is strictly above every value of s. */
  predicate Above(v: real, s: seq<real>)
  {
    forall i :: 0 <= i < |s| ==> v > s[i]
  }

  /** v is strictly below every value of s. */
  predicate Below(v: real, s: seq<real>)
  {
    forall i :: 0 <= i < |s| ==> v < s[i]
  }

  /** The value of p's neighbour at offset o. */
  function Neighbour(m: seq<real>, w: nat, h: nat, p: Point, o: (int, int, int)): real
  {
    Value(m, w, h, p.x + o.0, p.y + o.1, p.z + o.2)
  }

  /** The values of p's neighbours, in the order of nb. */
  function Around(m: seq<real>, w: nat, h: nat, nb: seq<(int, int, int)>, p: Point): (s: seq<real>)
    ensures |s| == |nb|
  {
    seq(|nb|, k requires 0 <= k < |nb| => Neighbour(m, w, h, p, nb[k]))
  }

  /** p is at least th and strictly above all its neighbours. */
  predicate IsMax(m: seq<real>, w: nat, h: nat, th: real, nb: seq<(int, int, int)>, p: Point)
  {
    Value(m, w, h, p.x, p.y, p.z) >= th && Above(Value(m, w, h, p.x, p.y, p.z), Around(m, w, h, nb, p))
  }

  /** p is at most -th and strictly below all its neighbours. */
  predicate IsMin(m: seq<real>, w: nat, h: nat, th: real, nb: seq<(int, int, int)>, p: Point)
  {
    Value(m, w, h, p.x, p.y, p.z) <= -th && Below(Value(m, w, h, p.x, p.y, p.z), Around(m, w, h, nb, p))
  }

  predicate Extremum(m: seq<real>, w: nat, h: nat, th: real, nb: seq<(int, int, int)>, p: Point)
  {
    IsMax(m, w, h, th, nb, p) || IsMin(m, w, h, th, nb, p)
  }

  // ---------------------------------------------------------------------
  // The hits, in scan order
  // ---------------------------------------------------------------------

  /** The test the scan applies at each interior point. */
  function ExtremumAt(m: seq<real>, w: nat, h: nat, th: real, nb: seq<(int, int, int)>): Point -> bool
  {
    p => Extremum(m, w, h, th, nb, p)
  }

  /** The points of row (y, z) from column x up to w - 2 that pass the test. */
  function RowHits(hit: Point -> bool, w: nat, y: nat, z: nat, x: nat): seq<Point>
    decreases w - x
  {
    if x + 1 < w then (if hit(Point(x, y, z)) then [Point(x, y, z)] else []) + RowHits(hit, w, y, z, x + 1)
    else []
  }

  /** The points of plane z from row y up to h - 2, columns 1 to w - 2, that pass the test. */
  function PlaneHits(hit: Point -> bool, w: nat, h: nat, z: nat, y: nat): seq<Point>
    decreases h - y
  {
    if y + 1 < h then RowHits(hit, w, y, z, 1) + PlaneHits(hit, w, h, z, y + 1)
    else []
  }

  /** The points from plane z up to d - 2 that pass the test. */
  function VolumeHits(hit: Point -> bool, w: nat, h: nat, d: nat, z: nat): seq<Point>
    decreases d - z
  {
    if z + 1 < d then PlaneHits(hit, w, h, z, 1) + VolumeHits(hit, w, h, d, z + 1)
    else []
  }

  /** What vl_find_local_extrema_3 reports. */
  function Hits3(m: seq<real>, w: nat, h: nat, d: nat, th: real): seq<Point>
  {
    VolumeHits(ExtremumAt(m, w, h, th, Neighbours3), w, h, d, 1)
  }

  /** What vl_find_local_extrema_2 reports. */
  function Hits2(m: seq<real>, w: nat, h: nat, th: real): seq<Point>
  {
    PlaneHits(ExtremumAt(m, w, h, th, Neighbours2), w, h, 0, 1)
  }

  /** The interior of a w x h x d map: one cell away from every border. */
  predicate Interior3(w: nat, h: nat, d: nat, p: Point)
  {
    1 <= p.x && p.x + 1 < w && 1 <= p.y && p.y + 1 < h && 1 <= p.z && p.z + 1 < d
  }

  /** The interior of a w x h image. */
  predicate Interior2(w: nat, h: nat, p: Point)
  {
    1 <= p.x && p.x + 1 < w && 1 <= p.y && p.y + 1 < h && p.z == 0
  }

  lemma {:induction false} RowMember(hit: Point -> bool, w: nat, y: nat, z: nat, x: nat, p: Point)
    ensures p in RowHits(hit, w, y, z, x) <==> p.y == y && p.z == z && x <= p.x && p.x + 1 < w && hit(p)
    decreases w - x
  {
    if x + 1 < w {
      RowMember(hit, w, y, z, x + 1, p);
      var here := if hit(Point(x, y, z)) then [Point(x, y, z)] else [];
      assert RowHits(hit, w, y, z, x) == here + RowHits(hit, w, y, z, x + 1);
      assert p in here <==> p == Point(x, y, z) && hit(p);
    }
  }

  lemma {:induction false} PlaneMember(hit: Point -> bool, w: nat, h: nat, z: nat, y: nat, p: Point)
    ensures p in PlaneHits(hit, w, h, z, y) <==>
      p.z == z && y <= p.y && p.y + 1 < h && 1 <= p.x && p.x + 1 < w && hit(p)
    decreases h - y
  {
    if y + 1 < h {
      RowMember(hit, w, y, z, 1, p);
      PlaneMember(hit, w, h, z, y + 1, p);
    }
  }

  lemma {:induction false} VolumeMember(hit: Point -> bool, w: nat, h: nat, d: nat, z: nat, p: Point)
    ensures p in VolumeHits(hit, w, h, d, z) <==>
      z <= p.z && p.z + 1 < d && 1 <= p.y && p.y + 1 < h && 1 <= p.x && p.x + 1 < w && hit(p)
    decreases d - z
  {
    if z + 1 < d {
      PlaneMember(hit, w, h, z, 1, p);
      VolumeMember(hit, w, h, d, z + 1, p);
    }
  }

  /** vl_find_local_extrema_3 reports exactly the interior strict extrema of the volume. */
  lemma Hits3Exactly(m: seq<real>, w: nat, h: nat, d: nat, th: real, p: Point)
    ensures p in Hits3(m, w, h, d, th) <==> Interior3(w, h, d, p) && Extremum(m, w, h, th, Neighbours3, p)
  {
    VolumeMember(ExtremumAt(m, w, h, th, Neighbours3), w, h, d, 1, p);
  }

  /** vl_find_local_extrema_2 reports exactly the interior strict extrema of the image. */
  lemma Hits2Exactly(m: seq<real>, w: nat, h: nat, th: real, p: Point)
    ensures p in Hits2(m, w, h, th) <==> Interior2(w, h, p) && Extremum(m, w, h, th, Neighbours2, p)
  {
    PlaneMember(ExtremumAt(m, w, h, th, Neighbours2), w, h, 0, 1, p);
  }

  /** Scan order: by plane, then row, then column. */
  predicate Before(p: Point, q: Point)
  {
    p.z < q.z || (p.z == q.z && (p.y < q.y || (p.y == q.y && p.x < q.x)))
  }

  predicate Ordered(s: seq<Point>)
  {
    forall i, j :: 0 <= i < j < |s| ==> Before(s[i], s[j])
  }

  lemma OrderedJoin(a: seq<Point>, b: seq<Point>)
    requires Ordered(a) && Ordered(b)
    requires forall p, q :: p in a && q in b ==> Before(p, q)
    ensures Ordered(a + b)
  {
    forall i, j | 0 <= i < j < |a + b|
      ensures Before((a + b)[i], (a + b)[j])
    {
      if j < |a| {
      } else if i >= |a| {
        assert (a + b)[i] == b[i - |a|] && (a + b)[j] == b[j - |a|];
      } else {
        assert (a + b)[i] in a && (a + b)[j] in b;
      }
    }
  }

  lemma {:induction false} RowOrdered(hit: Point -> bool, w: nat, y: nat, z: nat, x: nat)
    ensures Ordered(RowHits(hit, w, y, z, x))
    decreases w - x
  {
    if x + 1 < w {
      var rest := RowHits(hit, w, y, z, x + 1);
      RowOrdered(hit, w, y, z, x + 1);
      forall q | q in rest
        ensures Before(Point(x, y, z), q)
      {
        RowMember(hit, w, y, z, x + 1, q);
      }
      var here := if hit(Point(x, y, z)) then [Point(x, y, z)] else [];
      OrderedJoin(here, rest);
    }
  }

  lemma {:induction false} PlaneOrdered(hit: Point -> bool, w: nat, h: nat, z: nat, y: nat)
    ensures Ordered(PlaneHits(hit, w, h, z, y))
    decreases h - y
  {
    if y + 1 < h {
      var row := RowHits(hit, w, y, z, 1);
      var rest := PlaneHits(hit, w, h, z, y + 1);
      RowOrdered(hit, w, y, z, 1);
      PlaneOrdered(hit, w, h, z, y + 1);
      forall p, q | p in row && q in rest
        ensures Before(p, q)
      {
        RowMember(hit, w, y, z, 1, p);
        PlaneMember(hit, w, h, z, y + 1, q);
      }
      OrderedJoin(row, rest);
    }
  }

  lemma {:induction false} VolumeOrdered(hit: Point -> bool, w: nat, h: nat, d: nat, z: nat)
    ensures Ordered(VolumeHits(hit, w, h, d, z))
    decreases d - z
  {
    if z + 1 < d {
      var plane := PlaneHits(hit, w, h, z, 1);
      var rest := VolumeHits(hit, w, h, d, z + 1);
      PlaneOrdered(hit, w, h, z, 1);
      VolumeOrdered(hit, w, h, d, z + 1);
      forall p, q | p in plane && q in rest
        ensures Before(p, q)
      {
        PlaneMember(hit, w, h, z, 1, p);
        VolumeMember(hit, w, h, d, z + 1, q);
      }
      OrderedJoin(plane, rest);
    }
  }

  /** The hits come in scan order, each reported once. */
  lemma Hits3Ordered(m: seq<real>, w: nat, h: nat, d: nat, th: real)
    ensures Ordered(Hits3(m, w, h, d, th))
  {
    VolumeOrdered(ExtremumAt(m, w, h, th, Neighbours3), w, h, d, 1);
  }

  lemma Hits2Ordered(m: seq<real>, w: nat, h: nat, th: real)
    ensures Ordered(Hits2(m, w, h, th))
  {
    PlaneOrdered(ExtremumAt(m, w, h, th, Neighbours2), w, h, 0, 1);
  }

  // ---------------------------------------------------------------------
  // The scan with its cursor
  // ---------------------------------------------------------------------

  /** The cursor offset of a move by s in {-1, 0, 1} along an axis of the given stride. */
  function Step(s: int, stride: nat): int
  {
    if s == 1 then stride as int else if s == -1 then -(stride as int) else 0
  }

  /** The address pt + dx * xo + dy * yo + dz * zo that CHECK_NEIGHBORS compares with pt. */
  function Address(pt: int, o: (int, int, int), yo: nat, zo: nat): int
  {
    pt + o.0 + Step(o.1, yo) + Step(o.2, zo)
  }

  /** Moving a count by one moves its multiple by one stride. */
  lemma TimesStep(a: nat, s: int, z: nat)
    requires -1 <= s <= 1 && a + s >= 0
    ensures Times(a + s, z) == Times(a, z) + Step(s, z)
  {
    if s == -1 {
      assert Times(a, z) == Times(a - 1, z) + z;
    }
  }

  /** Moving a count by one stride h moves its multiple by h strides. */
  lemma TimesStride(a: nat, s: int, h: nat, w: nat)
    requires -1 <= s <= 1 && a + Step(s, h) >= 0
    ensures Times(a + Step(s, h), w) == Times(a, w) + Step(s, Times(h, w))
  {
    if s == 1 {
      TimesAdd(a, h, w);
    } else if s == -1 {
      assert a >= h;
      TimesAdd(a - h, h, w);
    }
  }

  /** The neighbour's address, computed from the cursor with strides 1, w and w * h. */
  lemma AddressIs(w: nat, h: nat, x: nat, y: nat, z: nat, dx: int, dy: int, dz: int)
    requires 1 <= x && x + 1 < w && 1 <= y && y + 1 < h
    requires -1 <= dx <= 1 && -1 <= dy <= 1 && -1 <= dz <= 1 && 0 <= z + dz
    ensures Address(Slot(w, h, x, y, z), (dx, dy, dz), w, Times(h, w)) == Slot(w, h, x + dx, y + dy, z + dz)
  {
    TimesStep(z, dz, h);
    TimesStride(y + dy + Times(z, h), dz, h, w);
    TimesStep(y + Times(z, h), dy, w);
  }

  /** The values CHECK_NEIGHBORS compares with the one at cursor pt, strides 1, yo and zo. */
  function AroundAt(m: seq<real>, pt: nat, yo: nat, zo: nat, nb: seq<(int, int, int)>): (s: seq<real>)
    requires forall k :: 0 <= k < |nb| ==> 0 <= Address(pt, nb[k], yo, zo) < |m|
    ensures |s| == |nb|
  {
    seq(|nb|, k requires 0 <= k < |nb| => m[Address(pt, nb[k], yo, zo)])
  }

  /** CHECK_NEIGHBORS(v, >, +) at cursor pt. */
  predicate MaxAt(m: seq<real>, pt: nat, yo: nat, zo: nat, th: real, nb: seq<(int, int, int)>)
    requires pt < |m| && forall k :: 0 <= k < |nb| ==> 0 <= Address(pt, nb[k], yo, zo) < |m|
  {
    m[pt] >= th && Above(m[pt], AroundAt(m, pt, yo, zo, nb))
  }

  /** CHECK_NEIGHBORS(v, <, -) at cursor pt. */
  predicate MinAt(m: seq<real>, pt: nat, yo: nat, zo: nat, th: real, nb: seq<(int, int, int)>)
    requires pt < |m| && forall k :: 0 <= k < |nb| ==> 0 <= Address(pt, nb[k], yo, zo) < |m|
  {
    m[pt] <= -th && Below(m[pt], AroundAt(m, pt, yo, zo, nb))
  }

  /** The neighbour at offset o of p is on the map, at the address the cursor computes. */
  predicate NeighbourOk(m: seq<real>, w: nat, h: nat, p: Point, o: (int, int, int))
  {
    0 <= Address(Slot(w, h, p.x, p.y, p.z), o, w, Times(h, w)) < |m|
    && m[Address(Slot(w, h, p.x, p.y, p.z), o, w, Times(h, w))] == Neighbour(m, w, h, p, o)
  }

  /** Around an interior point a neighbour's address is on the map and holds its value. */
  lemma NeighbourAddress(m: seq<real>, w: nat, h: nat, d: nat, p: Point, o: (int, int, int))
    requires |m| == Cells(w, h, d)
    requires 1 <= p.x && p.x + 1 < w && 1 <= p.y && p.y + 1 < h
    requires -1 <= o.0 <= 1 && -1 <= o.1 <= 1 && -1 <= o.2 <= 1 && 0 <= p.z + o.2 < d
    ensures NeighbourOk(m, w, h, p, o)
  {
    AddressIs(w, h, p.x, p.y, p.z, o.0, o.1, o.2);
    SlotInRange(w, h, d, p.x + o.0, p.y + o.1, p.z + o.2);
  }

  /** ... so the cursor reads the point's value and its neighbours' values. */
  lemma NeighbourAddresses(m: seq<real>, w: nat, h: nat, d: nat, nb: seq<(int, int, int)>, p: Point)
    requires |m| == Cells(w, h, d) && Unit(nb) && Layer(d, p.z, nb)
    requires 1 <= p.x && p.x + 1 < w && 1 <= p.y && p.y + 1 < h
    ensures Slot(w, h, p.x, p.y, p.z) < |m| && m[Slot(w, h, p.x, p.y, p.z)] == Value(m, w, h, p.x, p.y, p.z)
    ensures forall k :: 0 <= k < |nb| ==> 0 <= Address(Slot(w, h, p.x, p.y, p.z), nb[k], w, Times(h, w)) < |m|
    ensures AroundAt(m, Slot(w, h, p.x, p.y, p.z), w, Times(h, w), nb) == Around(m, w, h, nb, p)
  {
    SlotInRange(w, h, d, p.x, p.y, p.z);
    var pt := Slot(w, h, p.x, p.y, p.z);
    forall k | 0 <= k < |nb|
      ensures 0 <= Address(pt, nb[k], w, Times(h, w)) < |m|
    {
      NeighbourAddress(m, w, h, d, p, nb[k]);
    }
    forall k | 0 <= k < |nb|
      ensures AroundAt(m, pt, w, Times(h, w), nb)[k] == Around(m, w, h, nb, p)[k]
    {
      var o := nb[k];
      NeighbourAddress(m, w, h, d, p, o);
      assert AroundAt(m, pt, w, Times(h, w), nb)[k] == m[Address(pt, o, w, Times(h, w))];
      assert Around(m, w, h, nb, p)[k] == Neighbour(m, w, h, p, o);
    }
  }

  /** One step of the x loop: the test at the cursor decides whether (x, y, z) is a hit. */
  lemma CheckAtIs(m: seq<real>, w: nat, h: nat, d: nat, th: real, nb: seq<(int, int, int)>, p: Point)
    requires |m| == Cells(w, h, d) && Unit(nb) && Layer(d, p.z, nb)
    requires 1 <= p.x && p.x + 1 < w && 1 <= p.y && p.y + 1 < h
    ensures Slot(w, h, p.x, p.y, p.z) < |m|
    ensures forall k :: 0 <= k < |nb| ==> 0 <= Address(Slot(w, h, p.x, p.y, p.z), nb[k], w, Times(h, w)) < |m|
    ensures MaxAt(m, Slot(w, h, p.x, p.y, p.z), w, Times(h, w), th, nb) || MinAt(m, Slot(w, h, p.x, p.y, p.z), w, Times(h, w), th, nb)
      <==> ExtremumAt(m, w, h, th, nb)(p)
  {
    NeighbourAddresses(m, w, h, d, nb, p);
  }

  /** The 26 neighbours stay on the map around every interior plane. */
  lemma Neighbours3Fit(d: nat, z: nat)
    requires 1 <= z && z + 1 < d
    ensures Unit(Neighbours3) && Layer(d, z, Neighbours3)
  {
  }

  /** The 8 neighbours stay in the plane. */
  lemma Neighbours2Fit()
    ensures Unit(Neighbours2) && Layer(1, 0, Neighbours2)
  {
  }

  /** The end of a row: two cells on, the cursor is at column 1 of the next row. */
  lemma NextRow(w: nat, h: nat, y: nat, z: nat)
    requires w >= 2
    ensures Slot(w, h, w - 1, y, z) + 2 == Slot(w, h, 1, y + 1, z)
  {
    TimesAdd(y + Times(z, h), 1, w);
  }

  /** The end of a plane: two rows on, the cursor is at (1, 1) of the next plane. */
  lemma NextPlane(w: nat, h: nat, z: nat)
    requires h >= 2
    ensures Slot(w, h, 1, h - 1, z) + Times(2, w) == Slot(w, h, 1, 1, z + 1)
  {
    TimesAdd(h - 1 + Times(z, h), 2, w);
    TimesAdd(z, 1, h);
  }

  /** The x loop over row (y, z); the cursor ends on the row's last cell. */
  method ScanRow(m: seq<real>, w: nat, h: nat, d: nat, th: real, nb: seq<(int, int, int)>, y: nat, z: nat, pt0: nat)
    returns (hits: seq<Point>, pt: nat)
    requires |m| == Cells(w, h, d) && Unit(nb) && Layer(d, z, nb) && 1 <= y && y + 1 < h
    requires w >= 2 ==> pt0 == Slot(w, h, 1, y, z)
    ensures hits == RowHits(ExtremumAt(m, w, h, th, nb), w, y, z, 1)
    ensures w >= 2 ==> pt == Slot(w, h, w - 1, y, z)
  {
    hits, pt := [], pt0;
    var zo := Times(h, w);
    ghost var hit := ExtremumAt(m, w, h, th, nb);
    var x := 1;
    while x + 1 < w
      invariant 1 <= x && (w >= 2 ==> x <= w - 1)
      invariant w >= 2 ==> pt == Slot(w, h, x, y, z)
      invariant hits + RowHits(hit, w, y, z, x) == RowHits(hit, w, y, z, 1)
      decreases w - x
    {
      var p := Point(x, y, z);
      CheckAtIs(m, w, h, d, th, nb, p);
      var here := if MaxAt(m, pt, w, zo, th, nb) || MinAt(m, pt, w, zo, th, nb) then [p] else [];
      assert RowHits(hit, w, y, z, x) == here + RowHits(hit, w, y, z, x + 1);
      RowStep(hits, here, RowHits(hit, w, y, z, x + 1));
      hits := hits + here;
      pt := pt + 1;
      x := x + 1;
    }
  }

  /** Moving the next piece from the rest to the collected prefix keeps the whole. */
  lemma RowStep(hits: seq<Point>, here: seq<Point>, rest: seq<Point>)
    ensures hits + (here + rest) == (hits + here) + rest
  {
  }

  /** The y loop over plane z; the cursor ends on column 1 of row h - 1. */
  method ScanPlane(m: seq<real>, w: nat, h: nat, d: nat, th: real, nb: seq<(int, int, int)>, z: nat, pt0: nat)
    returns (hits: seq<Point>, pt: nat)
    requires |m| == Cells(w, h, d) && Unit(nb) && Layer(d, z, nb)
    requires w >= 2 && h >= 2 ==> pt0 == Slot(w, h, 1, 1, z)
    ensures hits == PlaneHits(ExtremumAt(m, w, h, th, nb), w, h, z, 1)
    ensures w >= 2 && h >= 2 ==> pt == Slot(w, h, 1, h - 1, z)
  {
    hits, pt := [], pt0;
    ghost var hit := ExtremumAt(m, w, h, th, nb);
    var y := 1;
    while y + 1 < h
      invariant 1 <= y && (h >= 2 ==> y <= h - 1)
      invariant w >= 2 && h >= 2 ==> pt == Slot(w, h, 1, y, z)
      invariant hits + PlaneHits(hit, w, h, z, y) == PlaneHits(hit, w, h, z, 1)
      decreases h - y
    {
      var row;
      row, pt := ScanRow(m, w, h, d, th, nb, y, z, pt);
      if w >= 2 {
        NextRow(w, h, y, z);
      }
      assert PlaneHits(hit, w, h, z, y) == row + PlaneHits(hit, w, h, z, y + 1);
      RowStep(hits, row, PlaneHits(hit, w, h, z, y + 1));
      hits := hits + row;
      pt := pt + 2;
      y := y + 1;
    }
  }

  /** The three loops of vl_find_local_extrema_3, without the output buffer. */
  method Scan3(m: seq<real>, w: nat, h: nat, d: nat, th: real) returns (hits: seq<Point>)
    requires |m| == Cells(w, h, d)
    ensures hits == Hits3(m, w, h, d, th)
  {
    hits := [];
    ghost var hit := ExtremumAt(m, w, h, th, Neighbours3);
    var pt := Slot(w, h, 1, 1, 1);
    var yo2 := Times(2, w);
    var z := 1;
    while z + 1 < d
      invariant 1 <= z && (d >= 2 ==> z <= d - 1)
      invariant w >= 2 && h >= 2 ==> pt == Slot(w, h, 1, 1, z)
      invariant hits + VolumeHits(hit, w, h, d, z) == VolumeHits(hit, w, h, d, 1)
      decreases d - z
    {
      Neighbours3Fit(d, z);
      var plane;
      plane, pt := ScanPlane(m, w, h, d, th, Neighbours3, z, pt);
      if w >= 2 && h >= 2 {
        NextPlane(w, h, z);
      }
      assert VolumeHits(hit, w, h, d, z) == plane + VolumeHits(hit, w, h, d, z + 1);
      RowStep(hits, plane, VolumeHits(hit, w, h, d, z + 1));
      hits := hits + plane;
      pt := pt + yo2;
      z := z + 1;
    }
  }

  /** The two loops of vl_find_local_extrema_2, without the output buffer. */
  method Scan2(m: seq<real>, w: nat, h: nat, th: real) returns (hits: seq<Point>)
    requires |m| == Times(h, w)
    ensures hits == Hits2(m, w, h, th)
  {
    assert Times(1, h) == h;
    Neighbours2Fit();
    var pt;
    hits, pt := ScanPlane(m, w, h, 1, th, Neighbours2, 0, Slot(w, h, 1, 1, 0));
  }
}

=== FILE: formatter.dfy ===
// The documentation formatter of docsrc/formatter.py: a line lexer, a
// cursor over the lexed lines, the indentation-driven recursive-descent
// block parser, and the linker that turns `NAME(...)` references into links.
// The XML document the parser builds is modelled as a tree of datatypes.

module Formatter {
  import opened Wrappers
  import opened Text

  // ------------------------------------------------------------------ Lines

  /** A line as `readlines` produces it: a line break only at the very end. */
  predicate IsLine(s: string)
  {
    forall i :: 0 <= i < |s| - 1 ==> s[i] != '\n'
  }

  /** The line without its final line break. */
  function Body(s: string): (t: string)
    ensures |t| <= |s| && t == s[..|t|]
    ensures IsLine(s) ==> forall i :: 0 <= i < |t| ==> t[i] != '\n'
    ensures AllSpace(s) <==> AllSpace(t)
  {
    if |s| > 0 && s[|s| - 1] == '\n' then s[..|s| - 1] else s
  }

  /** The terminal symbols: one per line, and the end of input. */
  datatype Token =
    | Blank
    | Plain(indent: nat, content: string)
    | Bullet(indent: nat, bullet: string, inner: string)
    | Definition(indent: nat, content: string, inner: string)
    | End
  {
    predicate IsLine() { Plain? || Bullet? || Definition? }

    /** The `content` field: what paragraphs and verbatim blocks take from the line. */
    function LineText(): string
      requires IsLine()
    {
      match this
      case Plain(_, c) => c
      case Bullet(_, b, i) => b + i
      case Definition(_, c, _) => c
    }

    function InnerIndent(): nat
      requires Bullet?
    {
      indent + |bullet|
    }
  }

  /** The text of a line after its indentation, as the lexer split it. */
  function Rendered(t: Token): string
    requires t.IsLine()
  {
    match t
    case Plain(_, c) => c
    case Bullet(_, b, i) => b + i
    case Definition(_, c, i) => c + "::" + i
  }

  predicate IsMarker(c: char)
  {
    c == '-' || c == '*' || c == '#'
  }

  /** A marker, whitespace, then a non-space character. */
  predicate BulletShaped(u: string)
  {
    |u| > 0 && IsMarker(u[0]) && 1 + SpaceRun(u[1..]) < |u|
  }

  /** Start of the last "::" among the positions below `k`. */
  function LastColons(t: string, k: nat): (r: Option<nat>)
    ensures r.Some? ==> r.value < k && r.value + 2 <= |t| && t[r.value] == ':' && t[r.value + 1] == ':'
    ensures r.Some? ==> OccursAt(t, "::", r.value)
    ensures r.Some? ==> forall i :: r.value < i < k ==> !OccursAt(t, "::", i)
    ensures r.None? ==> forall i :: 0 <= i < k ==> !OccursAt(t, "::", i)
  {
    if k == 0 then None
    else if OccursAt(t, "::", k - 1) then
      assert t[k - 1..k + 1][0] == t[k - 1] && t[k - 1..k + 1][1] == t[k];
      Some(k - 1)
    else LastColons(t, k - 1)
  }

  /**
   * `lex(line)`: blank lines first, then definition lines (any "::", split
   * at the last one), then bullet lines, then plain lines. The indent is
   * the number of leading whitespace characters.
   */
  function Lex(s: string): (tok: Token)
    requires IsLine(s)
    ensures tok != End
    ensures tok.Blank? <==> AllSpace(s)
  {
    var t := Body(s);
    if AllSpace(s) then Blank
    else
      var w := SpaceRun(t);
      match LastColons(t, |t|)
      case Some(p) =>
        ColonsAfterIndent(t, w, p);
        Definition(w, t[w..p], t[p + 2..])
      case None =>
        var u := t[w..];
        if BulletShaped(u) then
          var m := 1 + SpaceRun(u[1..]);
          Bullet(w, u[..m], u[m..])
        else
          Plain(w, u)
  }

  /** The "::" a definition line splits at lies after the indentation. */
  lemma ColonsAfterIndent(t: string, w: nat, p: nat)
    requires w <= |t| && AllSpace(t[..w]) && p < |t| && t[p] == ':'
    ensures w <= p
  {
    assert !IsSpace(t[p]);
    assert forall i :: 0 <= i < w ==> t[..w][i] == t[i];
  }

  /** A non-blank line's token is a line token indented by the leading whitespace. */
  lemma LexIndent(s: string)
    requires IsLine(s) && !AllSpace(s)
    ensures var tok := Lex(s); var t := Body(s);
      tok.IsLine() && tok.indent == SpaceRun(t) < |t|
  {
    var t := Body(s);
    var w := SpaceRun(t);
    assert w < |t|;
    match LastColons(t, |t|)
    case Some(p) =>
      ColonsAfterIndent(t, w, p);
    case None =>
  }

  /** A non-blank line's token renders the line after its indentation. */
  lemma LexRendered(s: string)
    requires IsLine(s) && !AllSpace(s)
    ensures Lex(s).IsLine() && Rendered(Lex(s)) == Body(s)[SpaceRun(Body(s))..]
  {
    LexIndent(s);
    var t := Body(s);
    var w := SpaceRun(t);
    match LastColons(t, |t|)
    case Some(p) =>
      ColonsAfterIndent(t, w, p);
      DefinitionRenders(t, w, p);
    case None =>
      var u := t[w..];
      if BulletShaped(u) {
        var m := 1 + SpaceRun(u[1..]);
        assert u == u[..m] + u[m..];
      }
  }

  lemma DefinitionRenders(t: string, w: nat, p: nat)
    requires w <= p && OccursAt(t, "::", p)
    ensures Rendered(Definition(w, t[w..p], t[p + 2..])) == t[w..]
  {
    assert t[w..] == t[w..p] + t[p..p + 2] + t[p + 2..];
  }

  /**
   * A non-blank line is its indentation (whitespace only) followed by the
   * token's text, which starts with a non-space.
   */
  lemma LexSplits(s: string)
    requires IsLine(s) && !AllSpace(s)
    ensures var tok := Lex(s); var t := Body(s);
      && tok.IsLine()
      && tok.indent == SpaceRun(t) < |t|
      && t == t[..tok.indent] + Rendered(tok)
      && !IsSpace(Rendered(tok)[0])
  {
    LexIndent(s);
    LexRendered(s);
    var t := Body(s);
    var w := SpaceRun(t);
    assert t == t[..w] + t[w..];
    assert t[w..][0] == t[w];
  }

  /** Definition lines are exactly the non-blank lines containing "::"; the text after the last one holds no other. */
  lemma LexDefinition(s: string)
    requires IsLine(s)
    ensures Lex(s).Definition? <==> !AllSpace(s) && Contains(Body(s), "::")
    ensures Lex(s).Definition? ==> !Contains(Lex(s).inner, "::")
  {
    var t := Body(s);
    if !AllSpace(s) {
      match LastColons(t, |t|)
      case Some(p) =>
        assert OccursAt(t, "::", p);
        ColonsAfterIndent(t, SpaceRun(t), p);
        InnerNoColons(t, p);
      case None =>
        assert !Contains(t, "::");
    }
  }

  /** A bullet line: a marker, a whitespace run, then non-blank text. */
  lemma LexBullet(s: string)
    requires IsLine(s)
    ensures var t := Body(s);
      Lex(s).Bullet? <==> !AllSpace(s) && !Contains(t, "::") && BulletShaped(t[SpaceRun(t)..])
    ensures var tok := Lex(s);
      tok.Bullet? ==> |tok.bullet| > 0 && IsMarker(tok.bullet[0]) && AllSpace(tok.bullet[1..]) && tok.inner != [] && !IsSpace(tok.inner[0])
  {
    var t := Body(s);
    LexDefinition(s);
    if !AllSpace(s) && !Contains(t, "::") {
      var u := t[SpaceRun(t)..];
      if BulletShaped(u) {
        var m := 1 + SpaceRun(u[1..]);
        assert u[..m][1..] == u[1..][..m - 1];
        assert u[m..][0] == u[1..][m - 1];
      }
    }
  }

  lemma InnerNoColons(t: string, p: nat)
    requires p + 2 <= |t|
    requires forall i :: p < i < |t| ==> !OccursAt(t, "::", i)
    ensures !Contains(t[p + 2..], "::")
  {
    var inner := t[p + 2..];
    forall i | 0 <= i <= |inner|
      ensures !OccursAt(inner, "::", i)
    {
      if i + 2 <= |inner| {
        assert inner[i..i + 2] == t[p + 2 + i..p + 2 + i + 2];
        assert !OccursAt(t, "::", p + 2 + i);
      }
    }
  }

  // ------------------------------------------------------------------ Lexer

  /**
   * The cursor over the tokens: `pos` is the index of the token returned
   * last, starting at -1 before the first one.
   */
  datatype Lexer = Lexer(tokens: seq<Token>, pos: int)

  /** `Lexer(lines)`: every line lexed, the cursor before the first token. */
  function Tokenize(lines: seq<string>): (lx: Lexer)
    requires forall i :: 0 <= i < |lines| ==> IsLine(lines[i])
    ensures lx.pos == -1 && |lx.tokens| == |lines|
    ensures forall i :: 0 <= i < |lines| ==> lx.tokens[i] == Lex(lines[i])
  {
    Lexer(seq(|lines|, i requires 0 <= i < |lines| && IsLine(lines[i]) => Lex(lines[i])), -1)
  }

  /** `next`: advance, then return the token there, or the end marker past the last one. */
  function Next(lx: Lexer): (r: (Lexer, Token))
    requires lx.pos >= -1
    ensures r.0 == lx.(pos := lx.pos + 1)
    ensures r.0.pos >= |lx.tokens| ==> r.1 == End
    ensures r.0.pos < |lx.tokens| ==> r.1 == lx.tokens[r.0.pos]
  {
    var p := lx.pos + 1;
    (lx.(pos := p), if p >= |lx.tokens| then End else lx.tokens[p])
  }

  /** `back`: step back, but never before -1. */
  function Back(lx: Lexer): (r: Lexer)
    ensures r.tokens == lx.tokens
    ensures r.pos == if lx.pos >= 0 then lx.pos - 1 else lx.pos
  {
    if lx.pos >= 0 then lx.(pos := lx.pos - 1) else lx
  }

  function Seek(lx: Lexer, pos: int): (r: Lexer)
    ensures r.tokens == lx.tokens && r.pos == pos
  {
    lx.(pos := pos)
  }

  function GetPos(lx: Lexer): int
  {
    lx.pos
  }

  /** `back` undoes `next`. */
  lemma NextBack(lx: Lexer)
    requires lx.pos >= -1
    ensures Back(Next(lx).0) == lx
  {
  }

  /** Seeking to a saved position restores the cursor exactly. */
  lemma SeekRestores(lx: Lexer, moved: Lexer)
    requires moved.tokens == lx.tokens
    ensures Seek(moved, GetPos(lx)) == lx
  {
  }

  /** `back` at the start position -1 stays there. */
  lemma BackAtStart(tokens: seq<Token>)
    ensures Back(Lexer(tokens, -1)) == Lexer(tokens, -1)
  {
  }

  // ----------------------------------------------------------------- Linker

  datatype LinkType = Anchor | Wiki | Other

  /** The link table (upper-case function name to target) and the link style. */
  datatype Config = Config(funcs: map<string, string>, linktype: LinkType)

  /** A piece of paragraph text: plain text, or an anchor around a name. */
  datatype Piece = Str(text: string) | Ref(href: string, name: string)

  predicate IsUpper(c: char) { 'A' <= c <= 'Z' }

  predicate IsNameChar(c: char) { IsUpper(c) || '0' <= c <= '9' || c == '_' }

  /** End of the run of name characters starting at `i`. */
  function NameRun(s: string, i: nat): (j: nat)
    requires i <= |s|
    ensures i <= j <= |s|
    ensures forall k :: i <= k < j ==> IsNameChar(s[k])
    ensures j < |s| ==> !IsNameChar(s[j])
    decreases |s| - i
  {
    if i < |s| && IsNameChar(s[i]) then NameRun(s, i + 1) else i
  }

  /** The first ')' at or after `i`. */
  function CloseParen(s: string, i: nat): (r: Option<nat>)
    requires i <= |s|
    ensures r.Some? ==> i <= r.value < |s| && s[r.value] == ')'
    ensures r.Some? ==> forall k :: i <= k < r.value ==> s[k] != ')'
    ensures r.None? ==> forall k :: i <= k < |s| ==> s[k] != ')'
    decreases |s| - i
  {
    if i == |s| then None
    else if s[i] == ')' then Some(i)
    else CloseParen(s, i + 1)
  }

  /** One match of `([A-Z][A-Z0-9_]*)\([^)]*\)`: the name is s[start..nameEnd]. */
  datatype Match = Match(start: nat, nameEnd: nat, end: nat)

  predicate ValidMatch(s: string, m: Match)
  {
    m.start < m.nameEnd < m.end <= |s|
  }

  /**
   * The match of the pattern anchored at `i`, if any. The name run is
   * greedy and must be followed by '('; the argument list runs to the
   * first ')'.
   */
  function MatchAt(s: string, i: nat): (r: Option<Match>)
    requires i <= |s|
    ensures r.Some? ==> r.value.start == i && ValidMatch(s, r.value)
    ensures r.Some? ==> IsUpper(s[i]) && s[r.value.nameEnd] == '(' && s[r.value.end - 1] == ')'
    ensures r.Some? ==> forall k :: i < k < r.value.nameEnd ==> IsNameChar(s[k])
    ensures r.Some? ==> forall k :: r.value.nameEnd < k < r.value.end - 1 ==> s[k] != ')'
  {
    if i < |s| && IsUpper(s[i]) then
      var j := NameRun(s, i + 1);
      if j < |s| && s[j] == '(' then
        match CloseParen(s, j + 1)
        case Some(k) => Some(Match(i, j, k + 1))
        case None => None
      else None
    else None
  }

  /** The leftmost match starting at or after `i`. */
  function FirstMatch(s: string, i: nat): (r: Option<Match>)
    requires i <= |s|
    ensures r.Some? ==> i <= r.value.start <= |s| && MatchAt(s, r.value.start) == r
    ensures r.Some? ==> forall p :: i <= p < r.value.start ==> MatchAt(s, p).None?
    ensures r.None? ==> forall p :: i <= p <= |s| ==> MatchAt(s, p).None?
    decreases |s| - i
  {
    if MatchAt(s, i).Some? then MatchAt(s, i)
    else if i == |s| then None
    else FirstMatch(s, i + 1)
  }

  /** Matches in order, each starting at or after `from` and after the previous one. */
  predicate Chain(s: string, ms: seq<Match>, from: nat)
  {
    && (forall k :: 0 <= k < |ms| ==> ValidMatch(s, ms[k]))
    && (|ms| > 0 ==> from <= ms[0].start)
    && (forall k :: 0 < k < |ms| ==> ms[k - 1].end <= ms[k].start)
  }

  /** `re.finditer`: successive leftmost matches, each search resuming at the end of the last. */
  function Matches(s: string, i: nat): seq<Match>
    requires i <= |s|
    decreases |s| - i
  {
    match FirstMatch(s, i)
    case None => []
    case Some(m) => [m] + Matches(s, m.end)
  }

  /** The matches are genuine, in order and do not overlap. */
  lemma {:induction false} MatchesChain(s: string, i: nat)
    requires i <= |s|
    ensures Chain(s, Matches(s, i), i)
    ensures forall k :: 0 <= k < |Matches(s, i)| ==> MatchAt(s, Matches(s, i)[k].start) == Some(Matches(s, i)[k])
    decreases |s| - i
  {
    match FirstMatch(s, i)
    case None =>
    case Some(m) =>
      MatchesChain(s, m.end);
      var ms := Matches(s, i);
      assert ms[1..] == Matches(s, m.end);
      assert forall k :: 0 < k < |ms| ==> ms[k] == ms[1..][k - 1];
  }

  function Name(s: string, m: Match): string
    requires ValidMatch(s, m)
  {
    s[m.start..m.nameEnd]
  }

  /** The pieces a linked name contributes in each link style. */
  function LinkPieces(href: string, name: string, linktype: LinkType): seq<Piece>
  {
    match linktype
    case Anchor => [Ref(href, name)]
    case Wiki => [Str("[[" + href + "|" + name + "]]")]
    case Other => []
  }

  /**
   * `addFancyText(tag, s)` from the search position `i` on: `from` is
   * `last + 1`, the first character not yet emitted. Each match whose name
   * is in the table emits the text before it and the link; other matches
   * emit nothing, and the rest of the text closes the list.
   */
  function LinkFrom(s: string, i: nat, from: nat, cfg: Config): seq<Piece>
    requires from <= i <= |s|
    decreases |s| - i
  {
    match FirstMatch(s, i)
    case None => [Str(s[from..])]
    case Some(m) =>
      var name := Name(s, m);
      if name in cfg.funcs then
        [Str(s[from..m.start])] + LinkPieces(cfg.funcs[name], name, cfg.linktype) + LinkFrom(s, m.end, m.nameEnd, cfg)
      else
        LinkFrom(s, m.end, from, cfg)
  }

  /** `addFancyText(tag, s)`: the pieces appended to the element. */
  function Link(s: string, cfg: Config): seq<Piece>
  {
    LinkFrom(s, 0, 0, cfg)
  }

  /** The text a reader sees: plain text, and the name inside each anchor. */
  function Flatten(ps: seq<Piece>): string
  {
    if |ps| == 0 then ""
    else (match ps[0] case Str(t) => t case Ref(_, n) => n) + Flatten(ps[1..])
  }

  function RefNames(ps: seq<Piece>): seq<string>
  {
    if |ps| == 0 then []
    else (if ps[0].Ref? then [ps[0].name] else []) + RefNames(ps[1..])
  }

  /** The names of the matches that the table knows, in order. */
  function KnownNames(s: string, ms: seq<Match>, funcs: map<string, string>): seq<string>
  {
    if |ms| == 0 then []
    else (if ValidMatch(s, ms[0]) && Name(s, ms[0]) in funcs then [Name(s, ms[0])] else []) + KnownNames(s, ms[1..], funcs)
  }

  lemma {:induction false} FlattenAppend(a: seq<Piece>, b: seq<Piece>)
    ensures Flatten(a + b) == Flatten(a) + Flatten(b)
    decreases |a|
  {
    if |a| == 0 {
      assert a + b == b;
    } else {
      assert (a + b)[1..] == a[1..] + b;
      FlattenAppend(a[1..], b);
    }
  }

  lemma {:induction false} RefNamesAppend(a: seq<Piece>, b: seq<Piece>)
    ensures RefNames(a + b) == RefNames(a) + RefNames(b)
    decreases |a|
  {
    if |a| == 0 {
      assert a + b == b;
    } else {
      assert (a + b)[1..] == a[1..] + b;
      RefNamesAppend(a[1..], b);
    }
  }

  lemma SliceThree(s: string, a: nat, b: nat, c: nat)
    requires a <= b <= c <= |s|
    ensures s[a..] == s[a..b] + s[b..c] + s[c..]
  {
    assert s[a..] == s[a..b] + s[b..];
    assert s[b..] == s[b..c] + s[c..];
  }

  lemma {:induction false} LinkFromFlatten(s: string, i: nat, from: nat, cfg: Config)
    requires from <= i <= |s| && cfg.linktype == Anchor
    ensures Flatten(LinkFrom(s, i, from, cfg)) == s[from..]
    decreases |s| - i
  {
    match FirstMatch(s, i)
    case None =>
      assert Flatten([Str(s[from..])]) == s[from..] + Flatten([]);
    case Some(m) =>
      var name := Name(s, m);
      if name in cfg.funcs {
        var head := [Str(s[from..m.start])] + [Ref(cfg.funcs[name], name)];
        LinkFromFlatten(s, m.end, m.nameEnd, cfg);
        FlattenAppend(head, LinkFrom(s, m.end, m.nameEnd, cfg));
        assert Flatten(head) == s[from..m.start] + name by {
          assert head[1..] == [Ref(cfg.funcs[name], name)];
          assert head[1..][1..] == [];
        }
        SliceThree(s, from, m.start, m.nameEnd);
      } else {
        LinkFromFlatten(s, m.end, from, cfg);
      }
  }

  /**
   * With anchors, the linker keeps all text in order: concatenating the
   * text pieces and the anchor texts gives back the input.
   */
  lemma LinkKeepsText(s: string, cfg: Config)
    requires cfg.linktype == Anchor
    ensures Flatten(Link(s, cfg)) == s
  {
    LinkFromFlatten(s, 0, 0, cfg);
  }

  lemma {:induction false} LinkFromRefs(s: string, i: nat, from: nat, cfg: Config)
    requires from <= i <= |s| && cfg.linktype == Anchor
    ensures RefNames(LinkFrom(s, i, from, cfg)) == KnownNames(s, Matches(s, i), cfg.funcs)
    decreases |s| - i
  {
    match FirstMatch(s, i)
    case None =>
      assert RefNames([Str(s[from..])]) == [] + RefNames([]);
    case Some(m) =>
      var name := Name(s, m);
      var ms := Matches(s, i);
      assert ms[0] == m && ms[1..] == Matches(s, m.end);
      if name in cfg.funcs {
        var head := [Str(s[from..m.start])] + [Ref(cfg.funcs[name], name)];
        LinkFromRefs(s, m.end, m.nameEnd, cfg);
        RefNamesAppend(head, LinkFrom(s, m.end, m.nameEnd, cfg));
        assert RefNames(head) == [name] by {
          assert head[1..] == [Ref(cfg.funcs[name], name)];
          assert head[1..][1..] == [];
        }
      } else {
        LinkFromRefs(s, m.end, from, cfg);
      }
  }

  lemma {:induction false} LinkFromTargets(s: string, i: nat, from: nat, cfg: Config)
    requires from <= i <= |s| && cfg.linktype == Anchor
    ensures forall p :: p in LinkFrom(s, i, from, cfg) && p.Ref? ==> p.name in cfg.funcs && p.href == cfg.funcs[p.name]
    decreases |s| - i
  {
    match FirstMatch(s, i)
    case None =>
    case Some(m) =>
      if Name(s, m) in cfg.funcs {
        LinkFromTargets(s, m.end, m.nameEnd, cfg);
      } else {
        LinkFromTargets(s, m.end, from, cfg);
      }
  }

  /**
   * Only names present in the table become links, each pointing at its
   * table entry, and every match whose name is in the table becomes one,
   * in order.
   */
  lemma LinkRefs(s: string, cfg: Config)
    requires cfg.linktype == Anchor
    ensures RefNames(Link(s, cfg)) == KnownNames(s, Matches(s, 0), cfg.funcs)
    ensures forall p :: p in Link(s, cfg) && p.Ref? ==> p.name in cfg.funcs && p.href == cfg.funcs[p.name]
  {
    LinkFromRefs(s, 0, 0, cfg);
    LinkFromTargets(s, 0, 0, cfg);
  }

  /** A wiki link is the anchor's target and name inside `[[...|...]]`. */
  function WikiText(p: Piece): Piece
  {
    match p
    case Str(t) => Str(t)
    case Ref(h, n) => Str("[[" + h + "|" + n + "]]")
  }

  function MapWiki(ps: seq<Piece>): (r: seq<Piece>)
    ensures |r| == |ps|
    ensures forall k :: 0 <= k < |ps| ==> r[k] == WikiText(ps[k])
  {
    seq(|ps|, k requires 0 <= k < |ps| => WikiText(ps[k]))
  }

  lemma {:induction false} LinkFromWiki(s: string, i: nat, from: nat, funcs: map<string, string>)
    requires from <= i <= |s|
    ensures LinkFrom(s, i, from, Config(funcs, Wiki)) == MapWiki(LinkFrom(s, i, from, Config(funcs, Anchor)))
    decreases |s| - i
  {
    match FirstMatch(s, i)
    case None =>
    case Some(m) =>
      if Name(s, m) in funcs {
        LinkFromWiki(s, m.end, m.nameEnd, funcs);
      } else {
        LinkFromWiki(s, m.end, from, funcs);
      }
  }

  /** Wiki links are the anchors of 'a' mode written out as `[[target|name]]`. */
  lemma LinkWiki(s: string, funcs: map<string, string>)
    ensures Link(s, Config(funcs, Wiki)) == MapWiki(Link(s, Config(funcs, Anchor)))
  {
    LinkFromWiki(s, 0, 0, funcs);
  }

  // ----------------------------------------------------------------- Parser

  datatype Block =
    | Paragraph(pieces: seq<Piece>)
    | Verbatim(text: string)
    | List(items: seq<Item>)
    | Definitions(entries: seq<Entry>)

  /** A list item: its paragraph, then the blocks nested under it. */
  datatype Item = Item(pieces: seq<Piece>, body: seq<Block>)

  /** A description item: the term, its inline defaults, and its body if any. */
  datatype Entry = Entry(term: string, defaults: Option<string>, body: Option<seq<Block>>)

  /** The terminal classes `parse_Terminal` tests with `isa`. */
  datatype Kind = KBlank | KLine | KPlain | KBullet | KDefinition

  predicate Isa(t: Token, k: Kind)
  {
    match k
    case KBlank => t.Blank?
    case KLine => t.IsLine()
    case KPlain => t.Plain?
    case KBullet => t.Bullet?
    case KDefinition => t.Definition?
  }

  predicate LineAt(t: Token, n: nat)
  {
    t.IsLine() && t.indent == n
  }

  predicate Deeper(t: Token, n: nat)
  {
    t.IsLine() && t.indent > n
  }

  /** The cursor position `pos` is one the parser can be at. */
  predicate At(toks: seq<Token>, pos: int)
  {
    -1 <= pos < |toks|
  }

  /** The first index at or after `i` that is not a blank line (|toks| if none). */
  function NextNonBlank(toks: seq<Token>, i: nat): (f: nat)
    requires i <= |toks|
    ensures i <= f <= |toks|
    ensures forall k :: i <= k < f ==> toks[k].Blank?
    ensures f < |toks| ==> !toks[f].Blank?
    decreases |toks| - i
  {
    if i < |toks| && toks[i].Blank? then NextNonBlank(toks, i + 1) else i
  }

  /** `parse_Terminal(T)`: take the next token if it is a T, else leave the cursor alone. */
  function Terminal(toks: seq<Token>, pos: int, k: Kind): (r: (Option<Token>, int))
    requires At(toks, pos)
    ensures r.0.Some? <==> pos + 1 < |toks| && Isa(toks[pos + 1], k)
    ensures r.0.Some? ==> r.0.value == toks[pos + 1] && r.1 == pos + 1
    ensures r.0.None? ==> r.1 == pos
  {
    var lx := Lexer(toks, pos);
    var saved := GetPos(lx);
    var next := Next(lx);
    if Isa(next.1, k) then (Some(next.1), next.0.pos) else (None, Seek(next.0, saved).pos)
  }

  /** The cursor after `back` from `pos`. */
  function Unread(toks: seq<Token>, pos: int): int
  {
    Back(Lexer(toks, pos)).pos
  }

  /** `next()` then `back()`: the token after `pos`, leaving the cursor at `pos`. */
  function Peek(toks: seq<Token>, pos: int): (t: Token)
    requires At(toks, pos)
    ensures pos + 1 < |toks| ==> t == toks[pos + 1]
    ensures pos + 1 >= |toks| ==> t == End
  {
    var lx := Next(Lexer(toks, pos));
    assert Back(lx.0).pos == pos;
    lx.1
  }

  /** After a peek at a line that was then rejected, the cursor is back where it was. */
  function Rewind(toks: seq<Token>, pos: int, x: (Option<Token>, int)): (p: int)
    requires At(toks, pos) && x == Terminal(toks, pos, KLine)
    ensures p == pos
  {
    if x.0.Some? then Unread(toks, x.1) else x.1
  }

  /**
   * Paragraph text: the text of each line of toks[lo..hi] followed by a
   * line break (the parser only joins ranges of lines).
   */
  function Joined(toks: seq<Token>, lo: nat, hi: nat): string
    requires lo <= hi <= |toks|
    decreases hi - lo
  {
    if lo == hi then ""
    else (if toks[lo].IsLine() then toks[lo].LineText() + "\n" else "") + Joined(toks, lo + 1, hi)
  }

  /** Every token after `pos` up to and including `q` is a line at indent `n`. */
  predicate LinesAt(toks: seq<Token>, pos: int, q: int, n: nat)
    requires -1 <= pos && q < |toks|
  {
    forall i :: pos < i <= q ==> toks[i].IsLine() && toks[i].indent == n
  }

  /** The run of lines at indent `n` ends after `q`. */
  predicate RunEnds(toks: seq<Token>, q: int, n: nat)
    requires -1 <= q < |toks|
  {
    q + 1 == |toks| || !LineAt(toks[q + 1], n)
  }

  /**
   * The continuation loop shared by paragraphs and list items: it takes
   * every following line at exactly indent `n` and returns the position of
   * the last one taken. Each taken line contributes its text and a line
   * break (`Joined`).
   */
  function Continue(toks: seq<Token>, pos: int, n: nat): (q: int)
    requires At(toks, pos)
    ensures pos <= q < |toks|
    ensures LinesAt(toks, pos, q, n)
    ensures RunEnds(toks, q, n)
    decreases |toks| - pos
  {
    var x := Terminal(toks, pos, KLine);
    if x.0.Some? && x.0.value.indent == n then Continue(toks, x.1, n)
    else if x.0.Some? then Unread(toks, x.1)
    else x.1
  }

  /** Verbatim lines: blank lines and lines deeper than `n`. */
  predicate VerbatimLine(t: Token, n: nat)
  {
    t.Blank? || Deeper(t, n)
  }

  /** Every token after `pos` up to and including `q` is a verbatim line. */
  predicate AllVerbatim(toks: seq<Token>, pos: int, q: int, n: nat)
    requires -1 <= pos && q < |toks|
  {
    forall i :: pos < i <= q ==> VerbatimLine(toks[i], n)
  }

  /** The run of verbatim lines ends after `q`. */
  predicate VerbatimEnds(toks: seq<Token>, q: int, n: nat)
    requires -1 <= q < |toks|
  {
    q + 1 == |toks| || !VerbatimLine(toks[q + 1], n)
  }

  /** `" " * k`. */
  function Spaces(k: nat): string
  {
    if k == 0 then "" else " " + Spaces(k - 1)
  }

  /** A deep line re-indented by its depth beyond `n`, with a line break. */
  function Indented(t: Token, n: nat): string
    requires Deeper(t, n)
  {
    Spaces(t.indent - n) + t.LineText() + "\n"
  }

  /**
   * Verbatim text of toks[lo..hi]: deep lines re-indented by their extra
   * depth, blank lines as line breaks (the parser only takes such lines).
   */
  function VerbatimText(toks: seq<Token>, lo: nat, hi: nat, n: nat): string
    requires lo <= hi <= |toks|
    decreases hi - lo
  {
    if lo == hi then ""
    else
      var t := toks[lo];
      (if t.Blank? then "\n" else if Deeper(t, n) then Indented(t, n) else "") + VerbatimText(toks, lo + 1, hi, n)
  }

  predicate SomeDeeper(toks: seq<Token>, lo: int, hi: int, n: nat)
    requires -1 <= lo && hi < |toks|
  {
    exists i :: lo < i <= hi && Deeper(toks[i], n)
  }

  /**
   * The loop of `parse_V`: it takes deep lines and blank lines, returning
   * the position of the last one taken and `good`, which records whether a
   * deep line was taken. Each taken line contributes its piece of
   * `VerbatimText`.
   */
  function VerbatimLoop(toks: seq<Token>, pos: int, n: nat, good: bool): (r: (int, bool))
    requires At(toks, pos)
    ensures pos <= r.0 < |toks|
    ensures AllVerbatim(toks, pos, r.0, n)
    ensures VerbatimEnds(toks, r.0, n)
    decreases |toks| - pos
  {
    var x := Terminal(toks, pos, KLine);
    if x.0.Some? && x.0.value.indent > n then
      VerbatimLoop(toks, x.1, n, true)
    else
      var b := Terminal(toks, Rewind(toks, pos, x), KBlank);
      if b.0.Some? then VerbatimLoop(toks, b.1, n, good)
      else (b.1, good)
  }

  /** `good` ends up true iff it started true or a deep line was taken. */
  lemma {:induction false} VerbatimLoopGood(toks: seq<Token>, pos: int, n: nat, good: bool)
    requires At(toks, pos)
    ensures var r := VerbatimLoop(toks, pos, n, good);
      r.1 <==> good || SomeDeeper(toks, pos, r.0, n)
    decreases |toks| - pos
  {
    var x := Terminal(toks, pos, KLine);
    if x.0.Some? && x.0.value.indent > n {
      VerbatimLoopGood(toks, x.1, n, true);
      var r := VerbatimLoop(toks, pos, n, good);
      assert Deeper(toks[pos + 1], n) && pos + 1 <= r.0;
    } else {
      var b := Terminal(toks, Rewind(toks, pos, x), KBlank);
      if b.0.Some? {
        VerbatimLoopGood(toks, b.1, n, good);
        var r := VerbatimLoop(toks, b.1, n, good);
        assert toks[pos + 1].Blank? && b.1 == pos + 1;
        BlankHead(toks, pos, r.0, n);
      }
    }
  }

  /** A blank line at the front of a range adds no deep line. */
  lemma BlankHead(toks: seq<Token>, pos: int, q: int, n: nat)
    requires -1 <= pos < q < |toks| && toks[pos + 1].Blank?
    ensures SomeDeeper(toks, pos, q, n) <==> SomeDeeper(toks, pos + 1, q, n)
  {
    if SomeDeeper(toks, pos, q, n) {
      var i :| pos < i <= q && Deeper(toks[i], n);
      assert pos + 1 < i;
    }
  }

  /** `content[-2:] == "\n\n"` drops the last line break. */
  function TrimBlank(c: string): (r: string)
    ensures |c| >= 2 && c[|c| - 2..] == "\n\n" ==> r + "\n" == c
    ensures !(|c| >= 2 && c[|c| - 2..] == "\n\n") ==> r == c
  {
    if |c| >= 2 && c[|c| - 2..] == "\n\n" then c[..|c| - 1] else c
  }

  /**
   * A run of blank lines and lines deeper than `n` that holds at least one
   * deep line is verbatim; otherwise the cursor goes back to `pos`. Whether
   * there is one is decided by the first non-blank line.
   */
  function ParseV(toks: seq<Token>, pos: int, n: nat): (r: (Option<Block>, int))
    requires At(toks, pos)
    ensures var f := NextNonBlank(toks, pos + 1);
      r.0.Some? <==> f < |toks| && Deeper(toks[f], n)
    ensures r.0.None? ==> r.1 == pos
    ensures r.0.Some? ==> (pos < r.1 < |toks|
      && (AllVerbatim(toks, pos, r.1, n))
      && (VerbatimEnds(toks, r.1, n)))
  {
    var v := VerbatimLoop(toks, pos, n, false);
    VerbatimLoopGood(toks, pos, n, false);
    FirstDeep(toks, pos, v.0, n);
    if v.1 then (Some(VerbatimOf(toks, pos, v.0, n)), v.0)
    else (None, Seek(Lexer(toks, v.0), pos).pos)
  }

  /**
   * The verbatim block's text: the taken lines after a leading line break,
   * without a final empty line.
   */
  lemma VerbatimBlock(toks: seq<Token>, pos: int, n: nat)
    requires At(toks, pos)
    ensures var r := ParseV(toks, pos, n);
      r.0.Some? ==> r.0.value == Verbatim(TrimBlank("\n" + VerbatimText(toks, pos + 1, r.1 + 1, n)))
  {
    var r := ParseV(toks, pos, n);
    if r.0.Some? {
      assert r.0.value == VerbatimOf(toks, pos, r.1, n);
    }
  }

  /** The block made of the verbatim lines toks[pos + 1..q + 1]. */
  function VerbatimOf(toks: seq<Token>, pos: int, q: int, n: nat): Block
    requires -1 <= pos < q < |toks|
  {
    Verbatim(TrimBlank("\n" + VerbatimText(toks, pos + 1, q + 1, n)))
  }

  /** A maximal run of lines at indent `n` after `pos` has only one possible end. */
  lemma RunUnique(toks: seq<Token>, pos: int, q: int, n: nat)
    requires At(toks, pos) && pos <= q < |toks| && LinesAt(toks, pos, q, n) && RunEnds(toks, q, n)
    ensures forall q' :: pos <= q' < |toks| && LinesAt(toks, pos, q', n) && RunEnds(toks, q', n) ==> q' == q
  {
    forall q' | pos <= q' < |toks| && LinesAt(toks, pos, q', n) && RunEnds(toks, q', n)
      ensures q' == q
    {
    }
  }

  /** In a run of verbatim lines, a deep line exists iff the first non-blank one is deep. */
  lemma FirstDeep(toks: seq<Token>, pos: int, q: int, n: nat)
    requires At(toks, pos) && pos <= q < |toks|
    requires AllVerbatim(toks, pos, q, n)
    requires VerbatimEnds(toks, q, n)
    ensures var f := NextNonBlank(toks, pos + 1);
      SomeDeeper(toks, pos, q, n) <==> f < |toks| && Deeper(toks[f], n)
  {
    var f := NextNonBlank(toks, pos + 1);
    if f <= q {
      assert Deeper(toks[f], n);
    } else if f < |toks| {
      assert f == q + 1;
      forall i | pos < i <= q
        ensures !Deeper(toks[i], n)
      {
        assert toks[i].Blank?;
      }
    } else {
      forall i | pos < i <= q
        ensures !Deeper(toks[i], n)
      {
        assert toks[i].Blank?;
      }
    }
  }

  /**
   * A paragraph: a plain line at exactly indent `n`, then every following
   * line at exactly `n`, linked.
   */
  function ParseP(toks: seq<Token>, pos: int, n: nat, cfg: Config): (r: (Option<Block>, int))
    requires At(toks, pos)
    ensures r.0.Some? <==> pos + 1 < |toks| && toks[pos + 1].Plain? && toks[pos + 1].indent == n
    ensures r.0.None? ==> r.1 == pos
    ensures r.0.Some? ==> (pos < r.1 < |toks|
      && (LinesAt(toks, pos, r.1, n))
      && (RunEnds(toks, r.1, n))
      && r.0.value == Paragraph(Link("\n" + Joined(toks, pos + 1, r.1 + 1), cfg)))
  {
    var x := Terminal(toks, pos, KPlain);
    if x.0.Some? && x.0.value.indent == n then
      var q := Continue(toks, x.1, n);
      (Some(Paragraph(Link("\n" + Joined(toks, pos + 1, q + 1), cfg))), q)
    else if x.0.Some? then
      (None, Unread(toks, x.1))
    else
      (None, x.1)
  }

  /**
   * A list item: a bullet line at indent `n`, continuation lines at its
   * inner indent, then the blocks nested at that inner indent.
   */
  function ParseULI(toks: seq<Token>, pos: int, n: nat, cfg: Config): (r: (Option<Item>, int))
    requires At(toks, pos)
    ensures r.0.Some? <==> pos + 1 < |toks| && toks[pos + 1].Bullet? && toks[pos + 1].indent == n
    ensures r.0.None? ==> r.1 == pos
    ensures r.0.Some? ==> pos < r.1 < |toks|
    decreases |toks| - pos, 1
  {
    var x := Terminal(toks, pos, KBullet);
    if x.0.Some? && x.0.value.indent == n then
      var m := x.0.value.InnerIndent();
      var q := Continue(toks, x.1, m);
      var body := ParseDiv(toks, q, m, cfg);
      (Some(Item(Link("\n" + x.0.value.inner + "\n" + Joined(toks, pos + 2, q + 1), cfg), if body.0.Some? then body.0.value else [])), body.1)
    else if x.0.Some? then
      (None, Unread(toks, x.1))
    else
      (None, x.1)
  }

  /**
   * The item's paragraph is the bullet's text followed by the run of lines
   * at the bullet's inner indent; its body is the division parsed at that
   * indent after the run, and parsing resumes where that division stopped.
   */
  lemma ItemContent(toks: seq<Token>, pos: int, n: nat, cfg: Config, q: int)
    requires At(toks, pos) && pos + 1 < |toks| && toks[pos + 1].Bullet? && toks[pos + 1].indent == n
    requires pos + 1 <= q < |toks|
    requires LinesAt(toks, pos + 1, q, toks[pos + 1].InnerIndent())
    requires RunEnds(toks, q, toks[pos + 1].InnerIndent())
    ensures var b := toks[pos + 1]; var m := b.InnerIndent(); var d := ParseDiv(toks, q, m, cfg);
      ParseULI(toks, pos, n, cfg)
      == (Some(Item(Link("\n" + b.inner + "\n" + Joined(toks, pos + 2, q + 1), cfg),
                    if d.0.Some? then d.0.value else [])), d.1)
  {
    var b := toks[pos + 1];
    var m := b.InnerIndent();
    assert Terminal(toks, pos, KBullet) == (Some(b), pos + 1);
    var c := Continue(toks, pos + 1, m);
    RunUnique(toks, pos + 1, c, m);
    assert c == q;
  }

  /**
   * The items at indent `n`, one after another. The run is maximal: the
   * token after it is not a bullet at indent `n`.
   */
  function ParseItems(toks: seq<Token>, pos: int, n: nat, cfg: Config): (r: (seq<Item>, int))
    requires At(toks, pos)
    ensures pos <= r.1 < |toks|
    ensures |r.0| > 0 <==> pos + 1 < |toks| && toks[pos + 1].Bullet? && toks[pos + 1].indent == n
    ensures |r.0| == 0 ==> r.1 == pos
    ensures !(r.1 + 1 < |toks| && toks[r.1 + 1].Bullet? && toks[r.1 + 1].indent == n)
    decreases |toks| - pos, 2
  {
    var x := ParseULI(toks, pos, n, cfg);
    if x.0.Some? then
      var rest := ParseItems(toks, x.1, n, cfg);
      ([x.0.value] + rest.0, rest.1)
    else
      ([], x.1)
  }

  /** A bullet list: one or more items at indent `n`. */
  function ParseUL(toks: seq<Token>, pos: int, n: nat, cfg: Config): (r: (Option<Block>, int))
    requires At(toks, pos)
    ensures r.0.Some? <==> pos + 1 < |toks| && toks[pos + 1].Bullet? && toks[pos + 1].indent == n
    ensures r.0.None? ==> r.1 == pos
    ensures r.0.Some? ==> pos < r.1 < |toks| && r.0.value.List? && |r.0.value.items| > 0
    ensures !(r.1 + 1 < |toks| && toks[r.1 + 1].Bullet? && toks[r.1 + 1].indent == n)
    decreases |toks| - pos, 3
  {
    var xs := ParseItems(toks, pos, n, cfg);
    if |xs.0| == 0 then (None, xs.1) else (Some(List(xs.0)), xs.1)
  }

  /**
   * A list starts with the item parsed at its first bullet and holds the
   * items parsed one after another from there.
   */
  lemma ListItems(toks: seq<Token>, pos: int, n: nat, cfg: Config)
    requires At(toks, pos)
    ensures var r := ParseUL(toks, pos, n, cfg); var x := ParseULI(toks, pos, n, cfg);
      r.0.Some? ==> r.0.value.items == [x.0.value] + ParseItems(toks, x.1, n, cfg).0
  {
  }

  /**
   * A description item: a definition line at indent `n` gives the term and
   * the stripped text after "::" as defaults. It has a body exactly when
   * the next token is a line deeper than `n`; the body is parsed at that
   * line's indent and is never empty.
   */
  function ParseDI(toks: seq<Token>, pos: int, n: nat, cfg: Config): (r: (Option<Entry>, int))
    requires At(toks, pos)
    ensures r.0.Some? <==> pos + 1 < |toks| && toks[pos + 1].Definition? && toks[pos + 1].indent == n
    ensures r.0.None? ==> r.1 == pos
    ensures r.0.Some? ==> (pos < r.1 < |toks|
      && r.0.value.term == "\n" + toks[pos + 1].content + "\n"
      && (r.0.value.defaults.Some? <==> Strip(toks[pos + 1].inner) != [])
      && (r.0.value.defaults.Some? ==> r.0.value.defaults.value == Strip(toks[pos + 1].inner))
      && (r.0.value.body.Some? <==> pos + 2 < |toks| && Deeper(toks[pos + 2], n))
      && (r.0.value.body.Some? ==> |r.0.value.body.value| > 0))
    decreases |toks| - pos, 1
  {
    var x := Terminal(toks, pos, KDefinition);
    if x.0.Some? && x.0.value.indent == n then
      var c := Strip(x.0.value.inner);
      var term := "\n" + x.0.value.content + "\n";
      var defaults := if |c| > 0 then Some(c) else None;
      var t := Peek(toks, x.1);
      if t.IsLine() && t.indent > n then
        var body := ParseDiv(toks, x.1, t.indent, cfg);
        (Some(Entry(term, defaults, body.0)), body.1)
      else
        (Some(Entry(term, defaults, None)), x.1)
    else if x.0.Some? then
      (None, Unread(toks, x.1))
    else
      (None, x.1)
  }

  function ParseEntries(toks: seq<Token>, pos: int, n: nat, cfg: Config): (r: (seq<Entry>, int))
    requires At(toks, pos)
    ensures pos <= r.1 < |toks|
    ensures |r.0| > 0 <==> pos + 1 < |toks| && toks[pos + 1].Definition? && toks[pos + 1].indent == n
    ensures |r.0| == 0 ==> r.1 == pos
    decreases |toks| - pos, 2
  {
    var x := ParseDI(toks, pos, n, cfg);
    if x.0.Some? then
      var rest := ParseEntries(toks, x.1, n, cfg);
      ([x.0.value] + rest.0, rest.1)
    else
      ([], x.1)
  }

  /** A description list: one or more description items at indent `n`. */
  function ParseDL(toks: seq<Token>, pos: int, n: nat, cfg: Config): (r: (Option<Block>, int))
    requires At(toks, pos)
    ensures r.0.Some? <==> pos + 1 < |toks| && toks[pos + 1].Definition? && toks[pos + 1].indent == n
    ensures r.0.None? ==> r.1 == pos
    ensures r.0.Some? ==> pos < r.1 < |toks| && r.0.value.Definitions? && |r.0.value.entries| > 0
    decreases |toks| - pos, 3
  {
    var xs := ParseEntries(toks, pos, n, cfg);
    if |xs.0| == 0 then (None, xs.1) else (Some(Definitions(xs.0)), xs.1)
  }

  /** Where a DIV at indent `n` stops: at the end, or before a line shallower than `n`. */
  predicate Stops(toks: seq<Token>, q: int, n: nat)
    requires -1 <= q < |toks|
  {
    q + 1 == |toks| || toks[q + 1].End? || (toks[q + 1].IsLine() && toks[q + 1].indent < n)
  }

  /** The block a DIV starts at its first non-blank line, if any. */
  predicate Opens(toks: seq<Token>, pos: int, n: nat)
    requires At(toks, pos)
  {
    var f := NextNonBlank(toks, pos + 1);
    f < |toks| && toks[f].IsLine() && toks[f].indent >= n
  }

  /** The loop of `parse_DIV`: skip blanks, else the first of P, V, UL, DL that succeeds. */
  function ParseBlocks(toks: seq<Token>, pos: int, n: nat, cfg: Config): (r: (seq<Block>, int))
    requires At(toks, pos)
    ensures pos <= r.1 < |toks|
    ensures Stops(toks, r.1, n)
    ensures |r.0| > 0 <==> Opens(toks, pos, n)
    decreases |toks| - pos, 4
  {
    var b := Terminal(toks, pos, KBlank);
    if b.0.Some? then
      assert NextNonBlank(toks, pos + 1) == NextNonBlank(toks, pos + 2);
      ParseBlocks(toks, b.1, n, cfg)
    else
      assert pos + 1 < |toks| ==> NextNonBlank(toks, pos + 1) == pos + 1;
      var x1 := ParseP(toks, b.1, n, cfg);
      if x1.0.Some? then More(x1.0.value, ParseBlocks(toks, x1.1, n, cfg))
      else
        var x2 := ParseV(toks, x1.1, n);
        if x2.0.Some? then More(x2.0.value, ParseBlocks(toks, x2.1, n, cfg))
        else
          var x3 := ParseUL(toks, x2.1, n, cfg);
          if x3.0.Some? then More(x3.0.value, ParseBlocks(toks, x3.1, n, cfg))
          else
            var x4 := ParseDL(toks, x3.1, n, cfg);
            if x4.0.Some? then More(x4.0.value, ParseBlocks(toks, x4.1, n, cfg))
            else ([], x4.1)
  }

  /** `xs.append(x)` in front of the blocks parsed after it. */
  function More(x: Block, rest: (seq<Block>, int)): (r: (seq<Block>, int))
    ensures |r.0| > 0 && r.1 == rest.1
  {
    ([x] + rest.0, rest.1)
  }

  /**
   * `parse_DIV(n)`: the blocks at indent `n`, or None when there are none
   * (blank lines may still have been consumed). It produces blocks exactly
   * when its first non-blank line is at indent `n` or deeper, and it stops
   * only at the end or before a shallower line.
   */
  function ParseDiv(toks: seq<Token>, pos: int, n: nat, cfg: Config): (r: (Option<seq<Block>>, int))
    requires At(toks, pos)
    ensures pos <= r.1 < |toks|
    ensures Stops(toks, r.1, n)
    ensures r.0.Some? <==> Opens(toks, pos, n)
    ensures r.0.Some? ==> |r.0.value| > 0
    decreases |toks| - pos, 5
  {
    var xs := ParseBlocks(toks, pos, n, cfg);
    if |xs.0| == 0 then (None, xs.1) else (Some(xs.0), xs.1)
  }

  // -------------------------------------------------------------- Formatter

  /** `indentinit`: the number of leading ' ' characters (only spaces) of the first line. */
  function IndentInit(line: string): (n: nat)
    ensures n <= |line|
    ensures forall i :: 0 <= i < n ==> line[i] == ' '
    ensures n < |line| ==> line[n] != ' '
  {
    if |line| > 0 && line[0] == ' ' then 1 + IndentInit(line[1..]) else 0
  }

  datatype Failure = IndexError | TypeError

  /**
   * `Formatter(lines, funcs, linktype).toDOM()`: the blocks of the
   * documentation. An empty line list fails on `lines[0]`; a document
   * whose top-level DIV yields None fails when its result is iterated.
   */
  function Format(lines: seq<string>, cfg: Config): (r: Result<seq<Block>, Failure>)
    requires forall i :: 0 <= i < |lines| ==> IsLine(lines[i])
    ensures |lines| == 0 ==> r == Err(IndexError)
    ensures |lines| > 0 ==> (r.Ok? <==> Opens(Tokenize(lines).tokens, -1, IndentInit(lines[0])))
    ensures r.Err? && |lines| > 0 ==> r == Err(TypeError)
  {
    if |lines| == 0 then Err(IndexError)
    else
      var n := IndentInit(lines[0]);
      var lx := Tokenize(lines);
      var xs := ParseDiv(lx.tokens, lx.pos, n, cfg).0;
      if xs.None? then Err(TypeError) else Ok(xs.value)
  }

  /** A non-blank first line always opens the document. */
  lemma FirstLineOpens(lines: seq<string>, cfg: Config)
    requires forall i :: 0 <= i < |lines| ==> IsLine(lines[i])
    requires |lines| > 0 && !AllSpace(lines[0])
    ensures Format(lines, cfg).Ok?
  {
    var toks := Tokenize(lines).tokens;
    var t := Body(lines[0]);
    var n := IndentInit(lines[0]);
    assert NextNonBlank(toks, 0) == 0;
    var tok := toks[0];
    assert tok == Lex(lines[0]);
    LexSplits(lines[0]);
    assert forall i :: 0 <= i < n ==> IsSpace(lines[0][i]);
    SpacesPrefix(lines[0], t, n, tok.indent);
  }

  /** The leading spaces of a line are within its leading whitespace. */
  lemma SpacesPrefix(s: string, t: string, n: nat, w: nat)
    requires t == Body(s) && w <= |t| && AllSpace(t[..w])
    requires w < |t| ==> !IsSpace(t[w])
    requires n <= |s| && forall i :: 0 <= i < n ==> IsSpace(s[i])
    requires !AllSpace(s)
    ensures n <= w
  {
    assert w < |t|;
    assert s[w] == t[w];
  }

  /**
   * The top-level parse consumes every token exactly when no line is
   * shallower than `indentinit`: otherwise the parse stops before the
   * first such line and the rest of the document is dropped.
   */
  lemma FormatCoversAll(lines: seq<string>, cfg: Config)
    requires forall i :: 0 <= i < |lines| ==> IsLine(lines[i])
    requires |lines| > 0
    requires forall i :: 0 <= i < |lines| && Lex(lines[i]).IsLine() ==> Lex(lines[i]).indent >= IndentInit(lines[0])
    ensures ParseDiv(Tokenize(lines).tokens, -1, IndentInit(lines[0]), cfg).1 == |lines| - 1
  {
    var toks := Tokenize(lines).tokens;
    var r := ParseDiv(toks, -1, IndentInit(lines[0]), cfg);
  }
}

=== FILE: genericdriver.dfy ===
/**
 * The file meta-arguments of the command-line drivers
 * (src/generic-driver.h): parsing "protocol://pattern" into a meta record,
 * and building a file name from the pattern by substituting the basename
 * for every '%'. Opening the stream is left to a parameter saying whether
 * `fopen` succeeds.
 */
module GenericDriver {
  import opened Wrappers
  import opened StringOp

  /* Error codes (vl/generic.h). */
  const ErrOk := 0
  const ErrOverflow := 1
  const ErrBadArg := 3
  const ErrIo := 4

  /** Size of the `pattern` and `name` arrays, terminator included. */
  const NameSize := 1024

  /** The meta record without its stream: active flag, pattern, protocol, current name. */
  datatype FileMeta = FileMeta(active: bool, pattern: string, protocol: int, name: string)

  /**
   * vl_file_meta_parse: the record is always activated; an unknown
   * protocol is a bad argument; a named protocol replaces the old one and
   * no protocol keeps it; a non-empty remainder is copied (truncated if it
   * does not fit, which is an overflow) and an empty one leaves the
   * pattern alone. A missing argument only activates the record.
   */
  function MetaParse(fm: FileMeta, optarg: Option<string>): (r: (FileMeta, int))
    requires optarg.Some? ==> NoNul(optarg.value)
    ensures r.0.active
    ensures r.0.name == fm.name
    ensures r.1 in {ErrOk, ErrOverflow, ErrBadArg}
    ensures optarg.None? ==> r == (fm.(active := true), ErrOk)
  {
    match optarg
    case None => (fm.(active := true), ErrOk)
    case Some(arg) =>
      var (prot, rest) := ParseProtocol(arg);
      var fm1 := fm.(active := true);
      if prot == ProtUnknown then (fm1, ErrBadArg)
      else
        var fm2 := if prot == ProtAscii || prot == ProtBinary then fm1.(protocol := prot) else fm1;
        if |rest| > 0 then
          var fm3 := fm2.(pattern := Bounded(rest, NameSize).text);
          (fm3, if |rest| >= NameSize then ErrOverflow else ErrOk)
        else (fm2, ErrOk)
  }

  /**
   * The outcomes of parsing: a named protocol with a pattern that fits is
   * stored whole; one that does not fit keeps its first 1023 characters
   * and reports an overflow.
   */
  lemma MetaParseNamed(fm: FileMeta, prot: int, pattern: string)
    requires prot == ProtAscii || prot == ProtBinary
    requires NoNul(pattern) && pattern != []
    requires NoNul(ProtocolName(prot).value + "://" + pattern)
    ensures var (r, err) := MetaParse(fm, Some(ProtocolName(prot).value + "://" + pattern));
      r.protocol == prot
      && (|pattern| < NameSize ==> r.pattern == pattern && err == ErrOk)
      && (|pattern| >= NameSize ==> r.pattern == pattern[..NameSize - 1] && err == ErrOverflow)
  {
    ProtocolRoundTrip(prot, pattern);
  }

  /** Without a protocol prefix the protocol is kept; an empty argument changes nothing else. */
  lemma MetaParsePlain(fm: FileMeta, pattern: string)
    requires NoNul(pattern) && FindSep(pattern, 0).None?
    ensures var (r, err) := MetaParse(fm, Some(pattern));
      r.protocol == fm.protocol
      && (pattern == [] ==> r == fm.(active := true) && err == ErrOk)
      && (0 < |pattern| < NameSize ==> r.pattern == pattern && err == ErrOk)
  {
  }

  /** An unknown protocol leaves everything but the active flag as it was. */
  lemma MetaParseUnknown(fm: FileMeta, p: string, rest: string)
    requires forall i :: 0 <= i < |p| ==> p[i] != ':'
    requires |p| > 5 && NoNul(p + "://" + rest)
    ensures MetaParse(fm, Some(p + "://" + rest)) == (fm.(active := true), ErrBadArg)
  {
    ParseUnknown(p, rest);
  }

  /** The pattern with every '%' replaced by `base`: the intended file name. */
  function Substitute(pattern: string, base: string): (r: string)
    ensures |r| >= |pattern| - Count(pattern, '%')
    decreases |pattern|
  {
    if pattern == [] then []
    else if pattern[0] == '%' then base + Substitute(pattern[1..], base)
    else [pattern[0]] + Substitute(pattern[1..], base)
  }

  function Count(s: string, c: char): (n: nat)
    ensures n <= |s|
  {
    if s == [] then 0 else (if s[0] == c then 1 else 0) + Count(s[1..], c)
  }

  /**
   * With NUL as the escape character, which a C string never contains,
   * wildcard expansion is plain substitution.
   */
  lemma {:induction false} ExpandWithoutEscape(pattern: string, base: string)
    requires NoNul(pattern)
    ensures Expand(pattern, '%', '\0', base) == Substitute(pattern, base)
    decreases |pattern|
  {
    if pattern != [] {
      ExpandWithoutEscape(pattern[1..], base);
    }
  }

  /** What vl_file_meta_open reports: success, or failure with the error number it sets. */
  datatype Opened = Inactive | Named(name: string, status: int, errNo: int)

  /**
   * The naming part of vl_file_meta_open: an inactive record succeeds and
   * does nothing; otherwise the name is the pattern with '%' replaced by
   * the basename, and a name that does not fit is an overflow (-1). When
   * it fits, `opens` says whether the stream could be opened (-1 and an
   * I/O error when not).
   */
  function MetaOpen(fm: FileMeta, base: string, opens: bool): (r: Opened)
    requires NoNul(fm.pattern) && NoNul(base)
    ensures !fm.active <==> r == Inactive
    ensures r.Named? ==> r.name <= Substitute(fm.pattern, base) && |r.name| < NameSize
    ensures r.Named? && r.status == 0 ==> r.name == Substitute(fm.pattern, base) && opens
    ensures r.Named? && r.status != 0 ==> r.status == -1 && r.errNo in {ErrOverflow, ErrIo}
    ensures r.Named? ==> (r.errNo == ErrOverflow <==> |Substitute(fm.pattern, base)| >= NameSize)
  {
    if !fm.active then Inactive
    else
      var full := Expand(fm.pattern, '%', '\0', base);
      ExpandWithoutEscape(fm.pattern, base);
      var name := Bounded(full, NameSize).text;
      if |full| >= NameSize then Named(name, -1, ErrOverflow)
      else if !opens then Named(name, -1, ErrIo)
      else Named(name, 0, ErrOk)
  }
}

=== FILE: getopt.dfy ===
/**
 * The BSD-style `getopt_long` of vl/getopt_long.c.
 *
 * The C function keeps its progress in globals (`optind`, `optarg`,
 * `optopt`, `optreset`) and statics (`place`, `optbegin`, `optend`); here
 * they form a `State` that each call takes and returns, together with the
 * argument vector, which the call permutes. `place` is the rest of the
 * short-option cluster being read ("" is the C `EMSG`). The variables a
 * long option's `flag` points to are a map from flag names to values.
 * Error messages on stderr are left out.
 */
module GetoptLong {
  import opened Wrappers

  const BadCh := '?' as int
  const BadArg := ':' as int

  datatype HasArg = NoArgument | RequiredArgument | OptionalArgument

  /** An entry of the long-option table; `flag` names the variable to set, if any. */
  datatype LongOption = LongOption(name: string, hasArg: HasArg, flag: Option<nat>, val: int)

  datatype State = State(
    optind: int, place: string, optbegin: int, optend: int, optreset: bool,
    optarg: Option<string>, optopt: int, longindex: Option<nat>, flags: map<nat, int>)

  /**
   * The result of one call. `Undefined` is the lone "-" argument: the C
   * code then reads the option character past the end of the argument
   * and looks up the NUL in `optstring`, reading beyond its terminator.
   */
  datatype Step = Step(argv: seq<string>, st: State, ret: int) | Undefined

  /** The states the function can be called in: inside a cluster the statics describe it. */
  predicate Valid(argv: seq<string>, s: State)
  {
    0 <= s.optind
    && (!s.optreset && s.place != [] ==>
          s.optind <= s.optbegin && s.optend == s.optbegin + 1 && s.optend <= |argv|)
  }

  /* ------------------------------------------------------------------ */
  /*                                                      Argv rotation */
  /* ------------------------------------------------------------------ */

  /**
   * The intended effect of the rotation loop at `done_option`: the
   * entries [b, e) consumed by the option move, in order, to index i,
   * ahead of the non-options [i, b) skipped to find it.
   */
  function Rotate(argv: seq<string>, i: int, b: int, e: int): (r: seq<string>)
    requires 0 <= i <= b <= e <= |argv|
    ensures |r| == |argv|
  {
    argv[..i] + argv[b..e] + argv[i..b] + argv[e..]
  }

  /** The rotation only permutes: each part lands where it should and nothing is lost. */
  lemma RotateParts(argv: seq<string>, i: int, b: int, e: int)
    requires 0 <= i <= b <= e <= |argv|
    ensures var r := Rotate(argv, i, b, e);
      multiset(r) == multiset(argv)
      && r[..i] == argv[..i] && r[i..i + (e - b)] == argv[b..e]
      && r[i + (e - b)..e] == argv[i..b] && r[e..] == argv[e..]
  {
    assert argv == argv[..i] + argv[i..b] + argv[b..e] + argv[e..];
    Parts(argv[..i], argv[i..b], argv[b..e], argv[e..]);
    Parts(argv[..i], argv[b..e], argv[i..b], argv[e..]);
  }

  lemma Parts(p0: seq<string>, p1: seq<string>, p2: seq<string>, p3: seq<string>)
    ensures var r := p0 + p1 + p2 + p3;
      var n0, n1, n2 := |p0|, |p0| + |p1|, |p0| + |p1| + |p2|;
      r[..n0] == p0 && r[n0..n1] == p1 && r[n1..n2] == p2 && r[n2..] == p3
      && multiset(r) == multiset(p0) + multiset(p1) + multiset(p2) + multiset(p3)
  {
    var r := p0 + p1 + p2 + p3;
    assert r[..|p0|] == p0;
    assert r[|p0|..|p0| + |p1|] == p1;
    assert r[|p0| + |p1|..|p0| + |p1| + |p2|] == p2;
    assert r[|p0| + |p1| + |p2|..] == p3;
  }

  /** One pass of the outer loop: the last entry of [lo, hi) moves to lo. */
  function RotateRight(a: seq<string>, lo: int, hi: int): seq<string>
    requires 0 <= lo < hi <= |a|
  {
    a[..lo] + [a[hi - 1]] + a[lo..hi - 1] + a[hi..]
  }

  /**
   * The loops of `done_option`: `e - b` times, shift [i, e - 1) one place
   * up and put the old last entry at i.
   */
  method RotateArgv(argv: seq<string>, i: int, b: int, e: int) returns (a: seq<string>)
    requires 0 <= i <= b <= e <= |argv|
    ensures a == Rotate(argv, i, b, e)
  {
    a := argv;
    var k := 0;
    RotateStart(argv, i, e);
    while k < e - b
      invariant 0 <= k <= e - b
      invariant a == argv[..i] + argv[e - k..e] + argv[i..e - k] + argv[e..]
    {
      var before := a;
      a := ShiftDown(a, i, e);
      RotateStep(argv, before, i, e, k);
      k := k + 1;
    }
  }

  lemma RotateStart(argv: seq<string>, i: int, e: int)
    requires 0 <= i <= e <= |argv|
    ensures argv == argv[..i] + argv[e..e] + argv[i..e] + argv[e..]
  {
    assert argv == argv[..i] + argv[i..e] + argv[e..];
  }

  /** The inner loop and the store after it: one right rotation of [lo, hi). */
  method ShiftDown(b: seq<string>, lo: int, hi: int) returns (a: seq<string>)
    requires 0 <= lo < hi <= |b|
    ensures a == RotateRight(b, lo, hi)
  {
    var tmp := b[hi - 1];
    a := b;
    var j := hi - 1;
    while j > lo
      invariant lo <= j <= hi - 1
      invariant a == b[..j + 1] + b[j..hi - 1] + b[hi..]
    {
      ShiftOne(b, a, j, hi);
      a := a[j := a[j - 1]];
      j := j - 1;
    }
    a := a[lo := tmp];
    assert a == b[..lo] + [b[hi - 1]] + b[lo..hi - 1] + b[hi..];
  }

  lemma ShiftOne(b: seq<string>, a: seq<string>, j: int, hi: int)
    requires 0 < j < hi <= |b| && a == b[..j + 1] + b[j..hi - 1] + b[hi..]
    ensures a[j - 1] == b[j - 1]
    ensures a[j := a[j - 1]] == b[..j] + b[j - 1..hi - 1] + b[hi..]
  {
    assert a[j - 1] == b[..j + 1][j - 1];
  }

  lemma RotateStep(argv: seq<string>, a: seq<string>, i: int, e: int, k: int)
    requires 0 <= k && 0 <= i <= e - k - 1 && e <= |argv|
    requires a == argv[..i] + argv[e - k..e] + argv[i..e - k] + argv[e..]
    ensures |a| == |argv|
    ensures RotateRight(a, i, e) == argv[..i] + argv[e - (k + 1)..e] + argv[i..e - (k + 1)] + argv[e..]
  {
    assert a[..i] == argv[..i];
    assert a[i..e] == argv[e - k..e] + argv[i..e - k];
    assert a[e - 1] == argv[e - k - 1];
    var x, y := argv[e - k..e], argv[i..e - k];
    assert a[i..e - 1] == (x + y)[..|x + y| - 1];
    assert (x + y)[..|x + y| - 1] == x + y[..|y| - 1];
    assert y[..|y| - 1] == argv[i..e - k - 1];
    assert a[e..] == argv[e..];
    assert argv[e - (k + 1)..e] == [argv[e - k - 1]] + argv[e - k..e];
  }

  /* ------------------------------------------------------------------ */
  /*                                                       One call      */
  /* ------------------------------------------------------------------ */

  /** The first argument at or after `i` that starts with '-'. */
  function NextDash(argv: seq<string>, i: nat): (r: Option<nat>)
    ensures r.Some? ==> i <= r.value < |argv| && argv[r.value] != [] && argv[r.value][0] == '-'
    ensures r.Some? ==> forall j :: i <= j < r.value ==> argv[j] == [] || argv[j][0] != '-'
    ensures r.None? ==> forall j :: i <= j < |argv| ==> argv[j] == [] || argv[j][0] != '-'
    decreases |argv| - i
  {
    if i >= |argv| then None
    else if argv[i] != [] && argv[i][0] == '-' then Some(i)
    else NextDash(argv, i + 1)
  }

  /** strcspn(s, "="): the length of the text before the first '='. */
  function NameLength(s: string): (n: nat)
    ensures n <= |s| && '=' !in s[..n]
    ensures n < |s| ==> s[n] == '='
  {
    if s == [] then 0
    else if s[0] == '=' then 0
    else 1 + NameLength(s[1..])
  }

  /** The first table entry whose name is exactly `name`. */
  function FindLong(longopts: seq<LongOption>, name: string, i: nat): (r: Option<nat>)
    ensures r.Some? ==> i <= r.value < |longopts| && longopts[r.value].name == name
    ensures r.Some? ==> forall j :: i <= j < r.value ==> longopts[j].name != name
    ensures r.None? ==> forall j :: i <= j < |longopts| ==> longopts[j].name != name
    decreases |longopts| - i
  {
    if i >= |longopts| then None
    else if longopts[i].name == name then Some(i)
    else FindLong(longopts, name, i + 1)
  }

  /** strchr: the first position of `c` in `s`. */
  function IndexOf(s: string, c: char): (r: Option<nat>)
    ensures r.Some? ==> r.value < |s| && s[r.value] == c && c !in s[..r.value]
    ensures r.None? ==> c !in s
  {
    if s == [] then None
    else if s[0] == c then Some(0)
    else match IndexOf(s[1..], c)
      case None => None
      case Some(k) => assert s[..k + 1] == [s[0]] + s[1..][..k]; Some(k + 1)
  }

  /** The argument vector after a call: unchanged, or rotated at `optind` by the entries the option consumed. */
  predicate Moved(argv: seq<string>, optind: int, r: Step)
  {
    r.Step? ==>
      |r.argv| == |argv|
      && (r.argv == argv
          || (0 <= optind <= r.st.optbegin <= r.st.optend <= |argv|
              && r.argv == Rotate(argv, optind, r.st.optbegin, r.st.optend)))
  }

  /** Closing an option: rotate its entries to `optind` and advance past them. */
  function Done(argv: seq<string>, s: State, ret: int): (r: Step)
    requires 0 <= s.optind <= s.optbegin <= s.optend <= |argv|
    ensures r.Step? && r.ret == ret && r.st.optind == s.optind + (s.optend - s.optbegin)
    ensures Moved(argv, s.optind, r)
    ensures s.place == [] ==> Valid(r.argv, r.st)
  {
    Step(Rotate(argv, s.optind, s.optbegin, s.optend), s.(optind := s.optind + (s.optend - s.optbegin)), ret)
  }

  /** A leading ':' in `optstring` asks for ':' on a missing argument. */
  predicate HasColon(optstring: string)
  {
    optstring != [] && optstring[0] == ':'
  }

  /** The option characters: `optstring` without its leading ':'. */
  function Opts(optstring: string): (r: string)
    ensures HasColon(optstring) ==> r == optstring[1..]
    ensures !HasColon(optstring) ==> r == optstring
  {
    if HasColon(optstring) then optstring[1..] else optstring
  }

  /** The state a new option at `b` is read in. */
  function Found(s: State, b: nat): (r: State)
    ensures !r.optreset && r.optbegin == b && r.optend == b + 1 && r.optind == s.optind && r.place == s.place
  {
    s.(optreset := false, optbegin := b, optend := b + 1, optarg := None)
  }

  /**
   * getopt_long. A leading ':' in `optstring` is dropped and turns a
   * missing argument into ':' instead of '?'.
   */
  function GetoptLong(argv: seq<string>, s: State, optstring: string, longopts: seq<LongOption>): (r: Step)
    requires Valid(argv, s)
    ensures r.Step? ==> Valid(r.argv, r.st) && Moved(argv, s.optind, r) && r.st.optind >= s.optind
  {
    var hasColon := HasColon(optstring);
    var opts := Opts(optstring);
    if s.optreset || s.place == [] then
      var s0 := s.(optreset := false);
      if s.optind >= |argv| then Step(argv, s0.(place := []), -1)
      else match NextDash(argv, s.optind)
        case None => Step(argv, s0.(place := [], optbegin := |argv|), -1)
        case Some(b) => Dispatch(argv, Found(s, b), argv[b][1..], longopts, opts, hasColon)
    else Short(argv, s, opts, hasColon)
  }

  /** The argument found at `optbegin`, without its leading '-': "--", a long option or a cluster. */
  function Dispatch(argv: seq<string>, s: State, place: string, longopts: seq<LongOption>, opts: string, hasColon: bool): (r: Step)
    requires 0 <= s.optind <= s.optbegin && s.optend == s.optbegin + 1 && s.optend <= |argv| && !s.optreset
    ensures r.Step? ==> Valid(r.argv, r.st) && Moved(argv, s.optind, r) && r.st.optind >= s.optind
  {
    if place == "-" then
      Done(argv, s.(place := []), -1)
    else if |place| >= 2 && place[0] == '-' then
      Long(argv, s, place[1..], longopts, hasColon)
    else Short(argv, s.(place := place), opts, hasColon)
  }

  /** A long option "--text": matched by the exact name before any '='. */
  function Long(argv: seq<string>, s: State, text: string, longopts: seq<LongOption>, hasColon: bool): (r: Step)
    requires 0 <= s.optind <= s.optbegin && s.optend == s.optbegin + 1 && s.optend <= |argv|
    ensures r.Step? && r.st.place == [] && Valid(r.argv, r.st) && Moved(argv, s.optind, r)
    ensures r.st.optind > s.optind
  {
    var n := NameLength(text);
    match FindLong(longopts, text[..n], 0)
    case None => Done(argv, s.(place := []), BadCh)
    case Some(i) =>
      var o := longopts[i];
      var s1 := s.(longindex := Some(i), place := []);
      if o.hasArg != NoArgument && n < |text| then
        Matched(argv, s1.(optarg := Some(text[n + 1..])), o)
      else if o.hasArg == RequiredArgument then
        if s.optbegin >= |argv| - 1 then Done(argv, s1, if hasColon then BadArg else BadCh)
        else Matched(argv, s1.(optarg := Some(argv[s.optend]), optend := s.optend + 1), o)
      else Matched(argv, s1, o)
  }

  /** A matched long option sets its flag variable and returns 0, or returns its value. */
  function Matched(argv: seq<string>, s: State, o: LongOption): (r: Step)
    requires 0 <= s.optind <= s.optbegin <= s.optend <= |argv|
    ensures r.Step? && r.st.optind == s.optind + (s.optend - s.optbegin) && r.st.optarg == s.optarg
    ensures Moved(argv, s.optind, r)
    ensures s.place == [] ==> Valid(r.argv, r.st)
    ensures o.flag.None? ==> r.ret == o.val && r.st.flags == s.flags
    ensures o.flag.Some? ==> r.ret == 0 && r.st.flags == s.flags[o.flag.value := o.val]
  {
    match o.flag
    case None => Done(argv, s, o.val)
    case Some(f) => Done(argv, s.(flags := s.flags[f := o.val]), 0)
  }

  /** The next character of a short-option cluster. */
  function Short(argv: seq<string>, s: State, opts: string, hasColon: bool): (r: Step)
    requires 0 <= s.optind <= s.optbegin && s.optend == s.optbegin + 1 && s.optend <= |argv|
    requires !s.optreset
    ensures r.Step? ==> Valid(r.argv, r.st) && Moved(argv, s.optind, r) && r.st.optind >= s.optind
  {
    if s.place == [] then Undefined
    else
      var c := s.place[0];
      var rest := s.place[1..];
      var s1 := s.(optopt := c as int, place := rest);
      match IndexOf(opts, c)
      case None =>
        if rest != [] then Step(argv, s1, BadCh) else Done(argv, s1, BadCh)
      case Some(k) =>
        if !(k + 1 < |opts| && opts[k + 1] == ':') then
          if rest != [] then Step(argv, s1, c as int) else Done(argv, s1, c as int)
        else if rest != [] then Done(argv, s1.(optarg := Some(rest), place := []), c as int)
        else if s.optbegin >= |argv| - 1 then Done(argv, s1, if hasColon then BadArg else BadCh)
        else Done(argv, s1.(optarg := Some(argv[s.optend]), optend := s.optend + 1), c as int)
  }

  /* ------------------------------------------------------------------ */
  /*                                                         Properties */
  /* ------------------------------------------------------------------ */

  /** Calls keep the state valid and only permute the argument vector. */
  lemma StepValid(argv: seq<string>, s: State, optstring: string, longopts: seq<LongOption>)
    requires Valid(argv, s)
    ensures var r := GetoptLong(argv, s, optstring, longopts);
      r.Step? ==> Valid(r.argv, r.st) && multiset(r.argv) == multiset(argv) && r.st.optind >= s.optind
  {
    var r := GetoptLong(argv, s, optstring, longopts);
    if r.Step? && r.argv != argv {
      RotateParts(argv, s.optind, r.st.optbegin, r.st.optend);
    }
  }

  /** A new option is looked for only at or after `optind`; without one the call returns -1 and changes nothing visible. */
  lemma NoMoreOptions(argv: seq<string>, s: State, optstring: string, longopts: seq<LongOption>)
    requires Valid(argv, s) && (s.optreset || s.place == [])
    requires s.optind >= |argv| || NextDash(argv, s.optind).None?
    ensures var r := GetoptLong(argv, s, optstring, longopts);
      r.Step? && r.ret == -1 && r.argv == argv && r.st.optind == s.optind && r.st.place == []
  {
  }

  /** At a new option, the call reads the first argument at or after `optind` that starts with '-'. */
  lemma NewOption(argv: seq<string>, s: State, optstring: string, longopts: seq<LongOption>, b: nat)
    requires Valid(argv, s) && (s.optreset || s.place == []) && s.optind < |argv|
    requires NextDash(argv, s.optind) == Some(b)
    ensures GetoptLong(argv, s, optstring, longopts)
         == Dispatch(argv, Found(s, b), argv[b][1..], longopts, Opts(optstring), HasColon(optstring))
  {
  }

  /**
   * "--" ends option processing: it moves to `optind` ahead of the
   * skipped non-options, `optind` steps past it, and every other argument
   * keeps its relative order.
   */
  lemma DashDash(argv: seq<string>, s: State, optstring: string, longopts: seq<LongOption>, b: nat)
    requires Valid(argv, s) && (s.optreset || s.place == []) && s.optind < |argv|
    requires NextDash(argv, s.optind) == Some(b) && argv[b] == "--"
    ensures var r := GetoptLong(argv, s, optstring, longopts);
      r.Step? && r.ret == -1 && r.st.optind == s.optind + 1
      && r.argv == argv[..s.optind] + ["--"] + argv[s.optind..b] + argv[b + 1..]
  {
    DashDashDone(argv, s, optstring, longopts, b);
    DashDashRotates(argv, Found(s, b).(place := []), b);
  }

  lemma DashDashRotates(argv: seq<string>, f: State, b: nat)
    requires 0 <= f.optind <= f.optbegin == b && f.optend == b + 1 <= |argv| && argv[b] == "--"
    ensures var d := Done(argv, f, -1);
      d.st.optind == f.optind + 1 && d.argv == argv[..f.optind] + ["--"] + argv[f.optind..b] + argv[b + 1..]
  {
    RotateSingle(argv, f.optind, b);
  }

  /** Moving the single entry at b to i. */
  lemma RotateSingle(argv: seq<string>, i: int, b: int)
    requires 0 <= i <= b < |argv|
    ensures Rotate(argv, i, b, b + 1) == argv[..i] + [argv[b]] + argv[i..b] + argv[b + 1..]
  {
    assert argv[b..b + 1] == [argv[b]];
  }

  lemma DashDashDone(argv: seq<string>, s: State, optstring: string, longopts: seq<LongOption>, b: nat)
    requires Valid(argv, s) && (s.optreset || s.place == []) && s.optind < |argv|
    requires NextDash(argv, s.optind) == Some(b) && argv[b] == "--"
    ensures GetoptLong(argv, s, optstring, longopts) == Done(argv, Found(s, b).(place := []), -1)
  {
    NewOption(argv, s, optstring, longopts, b);
    assert argv[b][1..] == "-";
  }

  /** strcspn stops at the first '='. */
  lemma {:induction false} NameLengthAt(name: string, rest: string)
    requires '=' !in name
    ensures NameLength(name + rest) == |name| + (if rest != [] && rest[0] == '=' then 0 else NameLength(rest))
    decreases |name|
  {
    if name == [] {
      assert name + rest == rest;
    } else {
      assert (name + rest)[0] == name[0];
      assert (name + rest)[1..] == name[1..] + rest;
      NameLengthAt(name[1..], rest);
    }
  }

  /**
   * A long option "--name=v" whose entry takes an argument: `optarg` is v;
   * with '=' and an entry without argument, no argument is taken.
   */
  lemma LongWithValue(argv: seq<string>, s: State, longopts: seq<LongOption>, hasColon: bool,
                      name: string, v: string, i: nat)
    requires 0 <= s.optind <= s.optbegin && s.optend == s.optbegin + 1 && s.optend <= |argv|
    requires '=' !in name && FindLong(longopts, name, 0) == Some(i)
    ensures var r := Long(argv, s, name + "=" + v, longopts, hasColon);
      r.st.longindex == Some(i) && r.st.optind == s.optind + 1
      && (longopts[i].hasArg != NoArgument ==> r.st.optarg == Some(v))
      && (longopts[i].hasArg == NoArgument ==> r.st.optarg == s.optarg)
  {
    var text := name + "=" + v;
    NameLengthAt(name, "=" + v);
    assert ("=" + v)[0] == '=';
    assert text == name + ("=" + v);
    SplitAtEquals(name, v);
    var s1 := s.(longindex := Some(i), place := []);
    if longopts[i].hasArg != NoArgument {
      assert Long(argv, s, text, longopts, hasColon) == Matched(argv, s1.(optarg := Some(v)), longopts[i]);
    } else {
      assert Long(argv, s, text, longopts, hasColon) == Matched(argv, s1, longopts[i]);
    }
  }

  lemma SplitAtEquals(name: string, v: string)
    ensures var text := name + "=" + v;
      |name| < |text| && text[..|name|] == name && text[|name| + 1..] == v
  {
    var text := name + "=" + v;
    assert text[..|name|] == name;
    assert text[|name| + 1..] == v;
  }

  /** Without '=', strcspn spans the whole text. */
  lemma NameWhole(name: string)
    requires '=' !in name
    ensures NameLength(name) == |name| && name[..NameLength(name)] == name
  {
    NameLengthAt(name, []);
    assert name + [] == name;
  }

  /**
   * A long option "--name" without '=' whose entry requires an argument
   * takes the next element, and both move to `optind`.
   */
  lemma LongRequiredNext(argv: seq<string>, s: State, longopts: seq<LongOption>, hasColon: bool, name: string, i: nat)
    requires 0 <= s.optind <= s.optbegin && s.optend == s.optbegin + 1 && s.optend < |argv|
    requires '=' !in name && FindLong(longopts, name, 0) == Some(i)
    requires longopts[i].hasArg == RequiredArgument
    ensures var r := Long(argv, s, name, longopts, hasColon);
      r.st.longindex == Some(i) && r.st.optarg == Some(argv[s.optend]) && r.st.optind == s.optind + 2
      && r.argv[s.optind..s.optind + 2] == argv[s.optbegin..s.optbegin + 2]
  {
    NameWhole(name);
    RotateParts(argv, s.optind, s.optbegin, s.optbegin + 2);
  }

  /** ... and with no element left it reports a missing argument: ':' after a leading ':', else '?'. */
  lemma LongRequiredMissing(argv: seq<string>, s: State, longopts: seq<LongOption>, hasColon: bool, name: string, i: nat)
    requires 0 <= s.optind <= s.optbegin && s.optend == s.optbegin + 1 && s.optend == |argv|
    requires '=' !in name && FindLong(longopts, name, 0) == Some(i)
    requires longopts[i].hasArg == RequiredArgument
    ensures var r := Long(argv, s, name, longopts, hasColon);
      r.st.longindex == Some(i) && r.ret == (if hasColon then BadArg else BadCh) && r.st.optind == s.optind + 1
  {
    NameWhole(name);
  }

  /** An optional argument can only be given with '=': without it none is taken. */
  lemma LongOptionalAbsent(argv: seq<string>, s: State, longopts: seq<LongOption>, hasColon: bool, name: string, i: nat)
    requires 0 <= s.optind <= s.optbegin && s.optend == s.optbegin + 1 && s.optend <= |argv|
    requires '=' !in name && FindLong(longopts, name, 0) == Some(i)
    requires longopts[i].hasArg != RequiredArgument
    ensures var r := Long(argv, s, name, longopts, hasColon);
      r.st.longindex == Some(i) && r.st.optarg == s.optarg && r.st.optind == s.optind + 1
  {
    NameWhole(name);
  }

  /** An unknown long option returns '?' and is consumed. */
  lemma LongUnknown(argv: seq<string>, s: State, longopts: seq<LongOption>, hasColon: bool, name: string, rest: string)
    requires 0 <= s.optind <= s.optbegin && s.optend == s.optbegin + 1 && s.optend <= |argv|
    requires '=' !in name && FindLong(longopts, name, 0).None?
    requires rest == [] || rest[0] == '='
    ensures var r := Long(argv, s, name + rest, longopts, hasColon);
      r.ret == BadCh && r.st.optind == s.optind + 1 && r.st.longindex == s.longindex
  {
    NameLengthAt(name, rest);
    assert (name + rest)[..|name|] == name;
  }

  /** "--name..." at a new option is read as the long option "name...". */
  lemma LongOptionAt(argv: seq<string>, s: State, optstring: string, longopts: seq<LongOption>, b: nat, text: string)
    requires Valid(argv, s) && (s.optreset || s.place == []) && s.optind < |argv|
    requires NextDash(argv, s.optind) == Some(b) && argv[b] == "--" + text && text != []
    ensures GetoptLong(argv, s, optstring, longopts) == Long(argv, Found(s, b), text, longopts, HasColon(optstring))
  {
    NewOption(argv, s, optstring, longopts, b);
    DropDash(text);
    DispatchLong(argv, Found(s, b), text, longopts, Opts(optstring), HasColon(optstring));
  }

  lemma DropDash(text: string)
    ensures ("--" + text)[1..] == "-" + text && ("-" + text)[1..] == text
  {
  }

  lemma DispatchLong(argv: seq<string>, f: State, text: string, longopts: seq<LongOption>, opts: string, hasColon: bool)
    requires 0 <= f.optind <= f.optbegin && f.optend == f.optbegin + 1 && f.optend <= |argv| && !f.optreset
    requires text != []
    ensures Dispatch(argv, f, "-" + text, longopts, opts, hasColon) == Long(argv, f, text, longopts, hasColon)
  {
    assert ("-" + text)[1..] == text;
  }

  /**
   * Inside a cluster, an option without argument (or an unknown one) is
   * returned and the cluster continues: argv and `optind` stay put.
   */
  lemma ClusterContinues(argv: seq<string>, s: State, optstring: string, longopts: seq<LongOption>)
    requires Valid(argv, s) && !s.optreset && |s.place| >= 2
    requires var k := IndexOf(Opts(optstring), s.place[0]);
      k.None? || !(k.value + 1 < |Opts(optstring)| && Opts(optstring)[k.value + 1] == ':')
    ensures var r := GetoptLong(argv, s, optstring, longopts);
      r.Step? && r.argv == argv && r.st.optind == s.optind && r.st.place == s.place[1..]
      && r.st.optopt == s.place[0] as int
      && r.ret == (if IndexOf(Opts(optstring), s.place[0]).None? then BadCh else s.place[0] as int)
  {
  }

  /**
   * An option taking an argument closes its cluster: the argument is the
   * rest of the cluster, else the next element, else a missing-argument
   * error.
   */
  lemma ClusterArgument(argv: seq<string>, s: State, optstring: string, longopts: seq<LongOption>)
    requires Valid(argv, s) && !s.optreset && s.place != []
    requires var k := IndexOf(Opts(optstring), s.place[0]);
      k.Some? && k.value + 1 < |Opts(optstring)| && Opts(optstring)[k.value + 1] == ':'
    ensures var r := GetoptLong(argv, s, optstring, longopts);
      r.Step? && r.st.place == []
      && (|s.place| > 1 ==> r.st.optarg == Some(s.place[1..]) && r.ret == s.place[0] as int && r.st.optind == s.optind + 1)
      && (|s.place| == 1 && s.optend < |argv| ==>
            r.st.optarg == Some(argv[s.optend]) && r.ret == s.place[0] as int && r.st.optind == s.optind + 2)
      && (|s.place| == 1 && s.optend >= |argv| ==> r.ret == (if HasColon(optstring) then BadArg else BadCh))
  {
  }

  /* ------------------------------------------------------------------ */
  /*                                         "--" as the C code does it */
  /* ------------------------------------------------------------------ */

  /**
   * The "--" branch as written: it sets `optind = optend` before the
   * rotation, so the loop moves nothing and stores "--" over the element
   * after it, then advances `optind` once more.
   */
  function DashDashAsWritten(argv: seq<string>, s: State, b: nat): (r: Step)
    requires s.optind <= b && b + 1 < |argv|
    ensures r.Step? && |r.argv| == |argv| && r.st.optind == b + 2 && r.argv[b + 1] == argv[b]
  {
    var optend := b + 1;
    var optind := optend;
    var tmp := argv[optend - 1];
    Step(argv[optind := tmp], s.(optind := optind + (optend - b), place := [], optbegin := b, optend := optend,
                                 optreset := false, optarg := None), -1)
  }

  /** As written, the element after "--" is lost unless it is itself "--". */
  lemma DashDashAsWrittenLoses(argv: seq<string>, s: State, b: nat)
    requires s.optind <= b && b + 1 < |argv| && argv[b] == "--" && argv[b + 1] != "--"
    ensures multiset(DashDashAsWritten(argv, s, b).argv) != multiset(argv)
  {
    var r := DashDashAsWritten(argv, s, b).argv;
    assert r == argv[b + 1 := "--"];
    assert multiset(r) == multiset(argv) - multiset{argv[b + 1]} + multiset{"--"};
    assert multiset(r)["--"] == multiset(argv)["--"] + 1;
  }

  /**
   * `prog -- file`: as written the operand "file" disappears and
   * `optind` is 3; the rotation used for every other option keeps argv
   * and leaves `optind` at 2, so "file" is the one operand.
   */
  lemma DashDashExample(s: State, optstring: string, longopts: seq<LongOption>)
    requires s.optind == 1 && s.place == [] && !s.optreset
    ensures var argv := ["prog", "--", "file"];
      var w := DashDashAsWritten(argv, s, 1);
      var r := GetoptLong(argv, s, optstring, longopts);
      w.argv == ["prog", "--", "--"] && w.st.optind == 3
      && r.Step? && r.argv == argv && r.st.optind == 2 && r.argv[r.st.optind..] == ["file"]
  {
    var argv := ["prog", "--", "file"];
    assert NextDash(argv, 1) == Some(1);
    DashDashDone(argv, s, optstring, longopts, 1);
    assert Rotate(argv, 1, 1, 2) == argv;
    assert argv[2..] == ["file"];
    assert argv[1 + 1 := argv[1]] == ["prog", "--", "--"];
  }
}

=== FILE: heap.dfy ===
/**
 * The binary min-heaps of vl/heap.h, vl/heap.c and the template
 * vl/heap-t.h. Both store the tree in an array, node 0 the root, and
 * share one algorithm: "down" moves a node toward the root, "up" moves
 * it toward the leaves. The comparison is modelled by an integer key per
 * node; the swap callback is modelled by returning every exchange made,
 * in order, as a pair of node indices.
 */
module Heap {
  import opened Wrappers

  /** vl_heap_parent: the root is its own parent. */
  function Parent(i: nat): (p: nat)
    ensures i == 0 ==> p == 0
    ensures i > 0 ==> p < i && (i == Left(p) || i == Right(p))
  {
    if i == 0 then 0 else (i - 1) / 2
  }

  /** vl_heap_left_child. */
  function Left(i: nat): nat
  {
    2 * i + 1
  }

  /** vl_heap_right_child: just after the left child. */
  function Right(i: nat): nat
  {
    Left(i) + 1
  }

  /** Both children name their parent, and no other node has that parent. */
  lemma ChildrenOfParent(i: nat, j: nat)
    ensures Parent(Left(i)) == i && Parent(Right(i)) == i
    ensures j > 0 && Parent(j) == i ==> j == Left(i) || j == Right(i)
  {
  }

  /** vl_heap_get_node_with_index: node i starts i node sizes into the array. */
  function NodeOffset(nodeSize: nat, i: nat): nat
  {
    nodeSize * i
  }

  /** Distinct nodes occupy disjoint byte ranges, in index order. */
  lemma {:induction false} NodesDisjoint(nodeSize: nat, i: nat, j: nat)
    requires i < j
    ensures NodeOffset(nodeSize, i) + nodeSize <= NodeOffset(nodeSize, j)
    decreases j
  {
    if j > i + 1 {
      NodesDisjoint(nodeSize, i, j - 1);
    }
  }

  /** A heap: the node array and how many of its leading nodes are in the heap. */
  datatype Heap<T> = Heap(nodes: seq<T>, numNodes: nat)

  predicate Valid<T>(h: Heap<T>)
  {
    h.numNodes <= |h.nodes|
  }

  /** No node among the first n is smaller than its parent. */
  predicate IsHeap<T>(key: T -> int, a: seq<T>, n: nat)
    requires n <= |a|
  {
    forall j :: 0 < j < n ==> key(a[Parent(j)]) <= key(a[j])
  }

  /** The root of a heap is a smallest node. */
  lemma {:induction false} RootIsMin<T>(key: T -> int, a: seq<T>, n: nat, k: nat)
    requires n <= |a| && IsHeap(key, a, n) && k < n
    ensures key(a[0]) <= key(a[k])
    decreases k
  {
    if k > 0 {
      RootIsMin(key, a, n, Parent(k));
    }
  }

  /** vl_heap_new: an empty heap over the given array. */
  function New<T>(nodes: seq<T>): (h: Heap<T>)
    ensures Valid(h) && h.numNodes == 0 && h.nodes == nodes
  {
    Heap(nodes, 0)
  }

  /** vl_heap_clear: forget the nodes without touching the array. */
  function Clear<T>(h: Heap<T>): (r: Heap<T>)
    ensures Valid(r) && r.numNodes == 0 && r.nodes == h.nodes
  {
    Heap(h.nodes, 0)
  }

  /** An empty heap and a one-node heap both have the heap property. */
  lemma SmallIsHeap<T>(key: T -> int, a: seq<T>, n: nat)
    requires n <= 1 && n <= |a|
    ensures IsHeap(key, a, n)
  {
  }

  // ------------------------------------------------------------------
  // Exchanges

  /** One exchange of two nodes. */
  function SwapAt<T>(a: seq<T>, i: nat, j: nat): (r: seq<T>)
    requires i < |a| && j < |a|
    ensures |r| == |a| && r[i] == a[j] && r[j] == a[i]
    ensures forall k :: 0 <= k < |a| && k != i && k != j ==> r[k] == a[k]
    ensures multiset(r) == multiset(a)
  {
    a[i := a[j]][j := a[i]]
  }

  predicate SwapsIn(t: seq<(nat, nat)>, n: nat)
  {
    forall k :: 0 <= k < |t| ==> t[k].0 < n && t[k].1 < n
  }

  /** The array after a sequence of exchanges, in order. */
  function ApplySwaps<T>(a: seq<T>, t: seq<(nat, nat)>): (r: seq<T>)
    requires SwapsIn(t, |a|)
    ensures |r| == |a|
    decreases |t|
  {
    if t == [] then a else ApplySwaps(SwapAt(a, t[0].0, t[0].1), t[1..])
  }

  /** Exchanges only rearrange: the multiset of nodes is preserved. */
  lemma {:induction false} SwapsPermute<T>(a: seq<T>, t: seq<(nat, nat)>)
    requires SwapsIn(t, |a|)
    ensures multiset(ApplySwaps(a, t)) == multiset(a)
    decreases |t|
  {
    if t != [] {
      SwapsPermute(SwapAt(a, t[0].0, t[0].1), t[1..]);
    }
  }

  lemma ApplyCons<T>(a: seq<T>, i: nat, j: nat, t: seq<(nat, nat)>)
    requires i < |a| && j < |a| && SwapsIn(t, |a|)
    ensures SwapsIn([(i, j)] + t, |a|)
    ensures ApplySwaps(a, [(i, j)] + t) == ApplySwaps(SwapAt(a, i, j), t)
  {
    assert ([(i, j)] + t)[1..] == t;
  }

  lemma {:induction false} ApplyAppend<T>(a: seq<T>, s: seq<(nat, nat)>, t: seq<(nat, nat)>)
    requires SwapsIn(s, |a|) && SwapsIn(t, |a|)
    ensures SwapsIn(s + t, |a|)
    ensures ApplySwaps(a, s + t) == ApplySwaps(ApplySwaps(a, s), t)
    decreases |s|
  {
    if s == [] {
      assert s + t == t;
    } else {
      assert (s + t)[0] == s[0];
      assert (s + t)[1..] == s[1..] + t;
      ApplyAppend(SwapAt(a, s[0].0, s[0].1), s[1..], t);
    }
  }

  /** A rearranged array and the exchanges that produced it, in order. */
  datatype Sifted<T> = Sifted(nodes: seq<T>, swaps: seq<(nat, nat)>)

  /** The exchanges explain the result, and the nodes are a permutation of the input. */
  ghost predicate Traced<T>(a: seq<T>, r: Sifted<T>)
  {
    && SwapsIn(r.swaps, |a|)
    && ApplySwaps(a, r.swaps) == r.nodes
    && multiset(r.nodes) == multiset(a)
  }

  // ------------------------------------------------------------------
  // Moving toward the root

  /**
   * The state down starts from at node i: every parent link among the
   * first n nodes holds except the one above i, and i's parent is not
   * above i's children.
   */
  predicate HeapExceptAbove<T>(key: T -> int, a: seq<T>, n: nat, i: nat)
    requires i < n <= |a|
  {
    && (forall j :: 0 < j < n && j != i ==> key(a[Parent(j)]) <= key(a[j]))
    && (i > 0 ==> forall j :: 0 < j < n && Parent(j) == i ==> key(a[Parent(i)]) <= key(a[j]))
  }

  /**
   * vl_heap_down: while node i compares smaller than its parent, exchange
   * the two (node first, parent second) and continue from the parent.
   */
  function Down<T>(key: T -> int, a: seq<T>, i: nat): (r: Sifted<T>)
    requires i < |a|
    ensures |r.nodes| == |a| && Traced(a, r)
    ensures forall k :: i < k < |a| ==> r.nodes[k] == a[k]
    decreases i
  {
    if i == 0 then Sifted(a, [])
    else
      var p := Parent(i);
      if key(a[i]) < key(a[p]) then
        var b := SwapAt(a, i, p);
        var s := Down(key, b, p);
        ApplyCons(a, i, p, s.swaps);
        Sifted(s.nodes, [(i, p)] + s.swaps)
      else
        Sifted(a, [])
  }

  /** Moving a node toward the root repairs the one broken link above it. */
  lemma {:induction false} DownRestores<T>(key: T -> int, a: seq<T>, n: nat, i: nat)
    requires i < n <= |a| && HeapExceptAbove(key, a, n, i)
    ensures IsHeap(key, Down(key, a, i).nodes, n)
    decreases i
  {
    if i > 0 {
      var p := Parent(i);
      if key(a[i]) < key(a[p]) {
        var b := SwapAt(a, i, p);
        forall j | 0 < j < n && j != p
          ensures key(b[Parent(j)]) <= key(b[j])
        {
          if j != i && Parent(j) == p {
            assert key(a[p]) <= key(a[j]);
          }
        }
        if p > 0 {
          forall j | 0 < j < n && Parent(j) == p
            ensures key(b[Parent(p)]) <= key(b[j])
          {
            assert key(a[Parent(p)]) <= key(a[p]);
            if j != i {
              assert key(a[p]) <= key(a[j]);
            }
          }
        }
        DownRestores(key, b, n, p);
      }
    }
  }

  // ------------------------------------------------------------------
  // Moving toward the leaves

  /**
   * The state up starts from at node i: every parent link among the
   * first n nodes holds except the ones below i, and i's parent is not
   * above i's children.
   */
  predicate HeapExceptBelow<T>(key: T -> int, a: seq<T>, n: nat, i: nat)
    requires i < n <= |a|
  {
    && (forall j :: 0 < j < n && Parent(j) != i ==> key(a[Parent(j)]) <= key(a[j]))
    && (i > 0 ==> forall j :: 0 < j < n && Parent(j) == i ==> key(a[Parent(i)]) <= key(a[j]))
  }

  /**
   * vl_heap_up: with no child stop; with only a left child exchange with
   * it if it is smaller and stop; with two children pick the left one
   * only when it is strictly smaller than the right one, and exchange with
   * the pick and continue from there if the node is larger than it.
   */
  function Up<T>(key: T -> int, a: seq<T>, n: nat, i: nat): (r: Sifted<T>)
    requires i < n <= |a|
    ensures |r.nodes| == |a| && Traced(a, r)
    ensures forall k :: n <= k < |a| ==> r.nodes[k] == a[k]
    decreases n - i
  {
    var l := Left(i);
    var rt := Right(i);
    if l >= n then Sifted(a, [])
    else
      var m: nat := if rt < n && !(key(a[l]) < key(a[rt])) then rt else l;
      if key(a[i]) > key(a[m]) then
        var b := SwapAt(a, i, m);
        var s := if rt >= n then Sifted(b, []) else Up(key, b, n, m);
        ApplyCons(a, i, m, s.swaps);
        var step: seq<(nat, nat)> := [(i, m)];
        Sifted(s.nodes, step + s.swaps)
      else
        Sifted(a, [])
  }

  /** A node not larger than any of its children leaves nothing broken below it. */
  lemma SettledBelow<T>(key: T -> int, a: seq<T>, n: nat, i: nat)
    requires i < n <= |a| && HeapExceptBelow(key, a, n, i)
    requires forall j :: 0 < j < n && Parent(j) == i ==> key(a[i]) <= key(a[j])
    ensures IsHeap(key, a, n)
  {
    forall j | 0 < j < n
      ensures key(a[Parent(j)]) <= key(a[j])
    {
      if Parent(j) == i {
        assert key(a[i]) <= key(a[j]);
      }
    }
  }

  /**
   * Exchanging a node with its smallest child, when that child is smaller,
   * moves the broken links down to the child's place.
   */
  lemma SwapDown<T>(key: T -> int, a: seq<T>, n: nat, i: nat, m: nat)
    requires i < n <= |a| && HeapExceptBelow(key, a, n, i)
    requires 0 < m < n && Parent(m) == i && key(a[m]) < key(a[i])
    requires forall j :: 0 < j < n && Parent(j) == i ==> key(a[m]) <= key(a[j])
    ensures HeapExceptBelow(key, SwapAt(a, i, m), n, m)
  {
    var b := SwapAt(a, i, m);
    forall j | 0 < j < n && Parent(j) != m
      ensures key(b[Parent(j)]) <= key(b[j])
    {
      if j == i {
        assert key(a[Parent(i)]) <= key(a[m]);
      } else if Parent(j) == i && j != m {
        assert key(a[m]) <= key(a[j]);
      }
    }
  }

  /** Moving a node toward the leaves repairs the broken links below it. */
  lemma {:induction false} UpRestores<T>(key: T -> int, a: seq<T>, n: nat, i: nat)
    requires i < n <= |a| && HeapExceptBelow(key, a, n, i)
    ensures IsHeap(key, Up(key, a, n, i).nodes, n)
    decreases n - i
  {
    var l := Left(i);
    var rt := Right(i);
    if l >= n {
      forall j: nat | 0 < j < n
        ensures Parent(j) != i
      {
        ChildrenOfParent(i, j);
      }
      SettledBelow(key, a, n, i);
    } else {
      var m: nat := if rt < n && !(key(a[l]) < key(a[rt])) then rt else l;
      ChildrenOfParent(i, m);
      forall j | 0 < j < n && Parent(j) == i
        ensures key(a[m]) <= key(a[j])
      {
        ChildrenOfParent(i, j);
      }
      if key(a[i]) > key(a[m]) {
        var b := SwapAt(a, i, m);
        SwapDown(key, a, n, i, m);
        UpRestores(key, b, n, m);
        if rt >= n {
          assert Left(m) >= n;
          assert Up(key, b, n, m) == Sifted(b, []);
        }
        assert Up(key, a, n, i).nodes == Up(key, b, n, m).nodes;
      } else {
        SettledBelow(key, a, n, i);
      }
    }
  }

  /** On a node not larger than its children, up changes nothing. */
  lemma UpStaysPut<T>(key: T -> int, a: seq<T>, n: nat, i: nat)
    requires i < n <= |a|
    requires Left(i) < n ==> key(a[i]) <= key(a[Left(i)])
    requires Right(i) < n ==> key(a[i]) <= key(a[Right(i)])
    ensures Up(key, a, n, i) == Sifted(a, [])
  {
  }

  /** On a node not smaller than its parent, down changes nothing. */
  lemma DownStaysPut<T>(key: T -> int, a: seq<T>, i: nat)
    requires i < |a| && key(a[Parent(i)]) <= key(a[i])
    ensures Down(key, a, i) == Sifted(a, [])
  {
  }

  // ------------------------------------------------------------------
  // Heap operations

  /** The result of a push or an update: the heap and the exchanges made. */
  datatype Step<T> = Step(heap: Heap<T>, swaps: seq<(nat, nat)>)

  /**
   * vl_heap_push and the template push: the node already stored just
   * past the end joins the heap and moves toward the root.
   */
  function Push<T>(key: T -> int, h: Heap<T>): (r: Step<T>)
    requires Valid(h) && h.numNodes < |h.nodes|
    ensures Valid(r.heap) && r.heap.numNodes == h.numNodes + 1
    ensures SwapsIn(r.swaps, |h.nodes|) && ApplySwaps(h.nodes, r.swaps) == r.heap.nodes
    ensures multiset(r.heap.nodes) == multiset(h.nodes)
  {
    var s := Down(key, h.nodes, h.numNodes);
    Step(Heap(s.nodes, h.numNodes + 1), s.swaps)
  }

  /** Pushing onto a heap gives a heap. */
  lemma PushRestores<T>(key: T -> int, h: Heap<T>)
    requires Valid(h) && h.numNodes < |h.nodes| && IsHeap(key, h.nodes, h.numNodes)
    ensures IsHeap(key, Push(key, h).heap.nodes, h.numNodes + 1)
  {
    var n := h.numNodes;
    forall j: nat | 0 < j < n + 1
      ensures Parent(j) != n
    {
      ChildrenOfParent(n, j);
    }
    assert HeapExceptAbove(key, h.nodes, n + 1, n);
    DownRestores(key, h.nodes, n + 1, n);
  }

  /** The result of a pop: the heap, the index of the removed root if any, the exchanges made. */
  datatype Popped<T> = Popped(heap: Heap<T>, removed: Option<nat>, swaps: seq<(nat, nat)>)

  /**
   * vl_heap_pop and the template pop: nothing on an empty heap; otherwise
   * exchange the root with the last node, shrink the heap by one, move the
   * new root toward the leaves when more than one node remains, and
   * return the slot just past the new end, which holds the old root.
   */
  function Pop<T>(key: T -> int, h: Heap<T>): (r: Popped<T>)
    requires Valid(h)
    ensures Valid(r.heap) && |r.heap.nodes| == |h.nodes|
    ensures h.numNodes == 0 <==> r.removed.None?
    ensures h.numNodes == 0 ==> r.heap == h && r.swaps == []
    ensures h.numNodes > 0 ==>
      && r.heap.numNodes == h.numNodes - 1
      && r.removed == Some(h.numNodes - 1)
      && r.heap.nodes[h.numNodes - 1] == h.nodes[0]
    ensures SwapsIn(r.swaps, |h.nodes|) && ApplySwaps(h.nodes, r.swaps) == r.heap.nodes
    ensures multiset(r.heap.nodes) == multiset(h.nodes)
  {
    if h.numNodes == 0 then Popped(h, None, [])
    else
      var n := h.numNodes - 1;
      var b := SwapAt(h.nodes, 0, n);
      var s := if n > 1 then Up(key, b, n, 0) else Sifted(b, []);
      ApplyCons(h.nodes, 0, n, s.swaps);
      Popped(Heap(s.nodes, n), Some(n), [(0, n)] + s.swaps)
  }

  /** Moving the last node of a heap to the root breaks only the links below the root. */
  lemma RootSwapped<T>(key: T -> int, a: seq<T>, n: nat)
    requires 0 < n < |a| && IsHeap(key, a, n + 1)
    ensures HeapExceptBelow(key, SwapAt(a, 0, n), n, 0)
  {
    var b := SwapAt(a, 0, n);
    forall j | 0 < j < n && Parent(j) != 0
      ensures key(b[Parent(j)]) <= key(b[j])
    {
      assert b[j] == a[j] && b[Parent(j)] == a[Parent(j)];
    }
  }

  /** Popping from a heap leaves a heap. */
  lemma PopRestores<T>(key: T -> int, h: Heap<T>)
    requires Valid(h) && IsHeap(key, h.nodes, h.numNodes)
    ensures IsHeap(key, Pop(key, h).heap.nodes, Pop(key, h).heap.numNodes)
  {
    if h.numNodes > 0 {
      var n := h.numNodes - 1;
      var b := SwapAt(h.nodes, 0, n);
      if n > 1 {
        RootSwapped(key, h.nodes, n);
        UpRestores(key, b, n, 0);
        assert Pop(key, h).heap.nodes == Up(key, b, n, 0).nodes;
      } else {
        SmallIsHeap(key, b, n);
      }
    }
  }

  /** What pop removes from a heap is a smallest node of it. */
  lemma PopRemovesMin<T>(key: T -> int, h: Heap<T>, k: nat)
    requires Valid(h) && IsHeap(key, h.nodes, h.numNodes) && k < h.numNodes
    ensures Pop(key, h).removed.Some?
    ensures key(Pop(key, h).heap.nodes[h.numNodes - 1]) <= key(h.nodes[k])
  {
    RootIsMin(key, h.nodes, h.numNodes, k);
  }

  /**
   * vl_heap_update and the template update: after node i changed, move it
   * toward the leaves and then toward the root.
   */
  function Update<T>(key: T -> int, h: Heap<T>, i: nat): (r: Step<T>)
    requires Valid(h) && i < h.numNodes
    ensures Valid(r.heap) && r.heap.numNodes == h.numNodes
    ensures SwapsIn(r.swaps, |h.nodes|) && ApplySwaps(h.nodes, r.swaps) == r.heap.nodes
    ensures multiset(r.heap.nodes) == multiset(h.nodes)
  {
    var u := Up(key, h.nodes, h.numNodes, i);
    var d := Down(key, u.nodes, i);
    ApplyAppend(h.nodes, u.swaps, d.swaps);
    Step(Heap(d.nodes, h.numNodes), u.swaps + d.swaps)
  }

  /** Lowering a node's key breaks only the link above it. */
  lemma Lowered<T>(key: T -> int, a: seq<T>, n: nat, i: nat, v: T)
    requires n <= |a| && i < n && IsHeap(key, a, n) && key(v) <= key(a[i])
    ensures HeapExceptAbove(key, a[i := v], n, i)
  {
    var b := a[i := v];
    forall j | 0 < j < n && j != i
      ensures key(b[Parent(j)]) <= key(b[j])
    {
      assert key(a[Parent(j)]) <= key(a[j]);
    }
    if i > 0 {
      forall j | 0 < j < n && Parent(j) == i
        ensures key(b[Parent(i)]) <= key(b[j])
      {
        assert key(a[Parent(i)]) <= key(a[i]) <= key(a[j]);
      }
    }
  }

  /** Raising a node's key breaks only the links below it. */
  lemma Raised<T>(key: T -> int, a: seq<T>, n: nat, i: nat, v: T)
    requires n <= |a| && i < n && IsHeap(key, a, n) && key(v) > key(a[i])
    ensures HeapExceptBelow(key, a[i := v], n, i)
  {
    var b := a[i := v];
    forall j | 0 < j < n && Parent(j) != i
      ensures key(b[Parent(j)]) <= key(b[j])
    {
      assert key(a[Parent(j)]) <= key(a[j]);
    }
    if i > 0 {
      forall j | 0 < j < n && Parent(j) == i
        ensures key(b[Parent(i)]) <= key(b[j])
      {
        assert key(a[Parent(i)]) <= key(a[i]) <= key(a[j]);
      }
    }
  }

  /** Changing one node of a heap and calling update gives a heap again. */
  lemma UpdateRestores<T>(key: T -> int, a: seq<T>, n: nat, i: nat, v: T)
    requires n <= |a| && i < n && IsHeap(key, a, n)
    ensures IsHeap(key, Update(key, Heap(a[i := v], n), i).heap.nodes, n)
  {
    var b := a[i := v];
    ChildrenOfParent(i, i);
    if key(v) <= key(a[i]) {
      Lowered(key, a, n, i, v);
      UpStaysPut(key, b, n, i);
      DownRestores(key, b, n, i);
      assert Update(key, Heap(b, n), i).heap.nodes == Down(key, b, i).nodes;
    } else {
      Raised(key, a, n, i, v);
      UpRestores(key, b, n, i);
      var u := Up(key, b, n, i).nodes;
      if i > 0 {
        assert key(u[Parent(i)]) <= key(u[i]);
      }
      DownStaysPut(key, u, i);
      assert Update(key, Heap(b, n), i).heap.nodes == u;
    }
  }

  // ------------------------------------------------------------------
  // The default byte-wise exchange of vl_heap_swap

  /**
   * The default exchange of two nodes of nodeSize bytes: whole 4-byte
   * words while one fits, then the remaining bytes one at a time.
   */
  method ByteSwap(a: seq<int>, b: seq<int>) returns (a': seq<int>, b': seq<int>, words: nat)
    requires |a| == |b|
    ensures a' == b && b' == a
    ensures words == |a| / 4
  {
    a', b' := a, b;
    var pos := 0;
    words := 0;
    while pos + 4 <= |a|
      invariant pos == 4 * words && pos <= |a|
      invariant |a'| == |a| && |b'| == |b|
      invariant a'[..pos] == b[..pos] && a'[pos..] == a[pos..]
      invariant b'[..pos] == a[..pos] && b'[pos..] == b[pos..]
    {
      a' := a'[..pos] + b[pos..pos + 4] + a'[pos + 4..];
      b' := b'[..pos] + a[pos..pos + 4] + b'[pos + 4..];
      pos := pos + 4;
      words := words + 1;
    }
    while pos < |a|
      invariant pos <= |a| && |a'| == |a| && |b'| == |b|
      invariant a'[..pos] == b[..pos] && a'[pos..] == a[pos..]
      invariant b'[..pos] == a[..pos] && b'[pos..] == b[pos..]
    {
      a' := a'[pos := b[pos]];
      b' := b'[pos := a[pos]];
      pos := pos + 1;
    }
  }
}

=== FILE: hikmeans.dfy ===
/**
 * Hierarchical integer k-means (vl/hikmeans.c): a tree whose every node
 * clusters the points that reached it into K groups, each child handling
 * one group, down to a fixed depth. Training one node is a parameter
 * `train` that returns K centers; the node's assignment of points to
 * centers is then the nearest-center assignment of IKMeans, which is what
 * training guarantees (IKMeans.Train).
 */
module HIKMeans {
  import opened IKMeans

  /** A node: its K centers and either no children or one child per center. */
  datatype HNode = HNode(K: nat, centers: seq<Point>, children: seq<HNode>)

  /** The tree: data dimension, branching factor, depth and root. */
  datatype HTree = HTree(M: nat, K: nat, depth: nat, root: HNode)

  /**
   * The shape vl_hikm_xmeans builds: every node has K centers of M
   * coordinates; nodes at depth 1 are leaves, all others have K children
   * of one level less.
   */
  predicate Built(n: HNode, M: nat, K: nat, depth: nat)
    decreases n
  {
    && n.K == K == |n.centers| && Rows(n.centers, M)
    && depth >= 1
    && (depth == 1 ==> n.children == [])
    && (depth != 1 ==>
          && |n.children| == K
          && forall c :: 0 <= c < |n.children| ==> Built(n.children[c], M, K, depth - 1))
  }

  // ---------------------------------------------------------------------
  // Splitting the data by assignment
  // ---------------------------------------------------------------------

  /** The positions j with ids[j] == id, in increasing order. */
  function Positions(ids: seq<nat>, id: nat): (pos: seq<nat>)
    ensures |pos| == Count(ids, id, |ids|)
    ensures forall k :: 0 <= k < |pos| ==> pos[k] < |ids| && ids[pos[k]] == id
    ensures forall k, l :: 0 <= k < l < |pos| ==> pos[k] < pos[l]
    ensures forall j :: 0 <= j < |ids| && ids[j] == id ==> j in pos
    decreases |ids|
  {
    if ids == [] then []
    else
      var n := |ids| - 1;
      var front := ids[..n];
      assert forall q :: 0 <= q <= n ==> Count(ids, id, q) == Count(front, id, q) by {
        CountPrefix(ids, front, id, n);
      }
      Positions(front, id) + (if ids[n] == id then [n] else [])
  }

  /** Count only looks at the entries it counts. */
  lemma {:induction false} CountPrefix(a: seq<nat>, b: seq<nat>, id: nat, n: nat)
    requires n <= |a| && n <= |b| && a[..n] == b[..n]
    ensures forall q :: 0 <= q <= n ==> Count(a, id, q) == Count(b, id, q)
    decreases n
  {
    if n > 0 {
      assert a[..n - 1] == a[..n][..n - 1] && b[..n - 1] == b[..n][..n - 1];
      CountPrefix(a, b, id, n - 1);
      assert a[n - 1] == a[..n][n - 1];
    }
  }

  /** The rows whose id is `id`, in their original order. */
  function Subset(data: seq<Point>, ids: seq<nat>, id: nat): (s: seq<Point>)
    requires |ids| == |data|
    ensures |s| == Count(ids, id, |ids|)
  {
    var pos := Positions(ids, id);
    seq(|pos|, k requires 0 <= k < |pos| => data[pos[k]])
  }

  /**
   * vl_hikm_copy_subset: count the matching rows, then copy them in
   * order; N2 is their number.
   */
  method CopySubset(data: seq<Point>, ids: seq<nat>, id: nat) returns (sub: seq<Point>, n2: nat)
    requires |ids| == |data|
    ensures n2 == |sub| == Count(ids, id, |ids|)
    ensures sub == Subset(data, ids, id)
  {
    var count := 0;
    var i := 0;
    while i < |data|
      invariant i <= |data| && count == Count(ids, id, i)
    {
      if ids[i] == id {
        count := count + 1;
      }
      i := i + 1;
    }
    n2 := count;
    sub := [];
    i := 0;
    while i < |data|
      invariant i <= |data|
      invariant sub == Subset(data[..i], ids[..i], id)
    {
      if ids[i] == id {
        sub := sub + [data[i]];
      }
      SubsetStep(data, ids, id, i);
      i := i + 1;
    }
    assert data[..i] == data && ids[..i] == ids;
    n2 := |sub|;
  }

  /** Extending the scanned prefix by one row appends it iff its id matches. */
  lemma SubsetStep(data: seq<Point>, ids: seq<nat>, id: nat, i: nat)
    requires |ids| == |data| && i < |data|
    ensures Subset(data[..i + 1], ids[..i + 1], id)
      == Subset(data[..i], ids[..i], id) + (if ids[i] == id then [data[i]] else [])
  {
    var d1, i1 := data[..i + 1], ids[..i + 1];
    assert i1[..i] == ids[..i] && d1[..i] == data[..i];
    var pos := Positions(ids[..i], id);
    assert Positions(i1, id) == pos + (if ids[i] == id then [i] else []);
  }

  /** A row lands in the subset of its own id: the subsets of ids 0 .. K-1 share out all N rows. */
  lemma SubsetsCover(data: seq<Point>, ids: seq<nat>, K: nat)
    requires |ids| == |data|
    requires forall j :: 0 <= j < |ids| ==> ids[j] < K
    ensures SubsetSizes(data, ids, K) == |data|
  {
    SizesAreTotal(data, ids, K);
    CountsCover(ids, K, |ids|);
  }

  /** The sizes of the subsets of ids 0 .. K-1, added up. */
  function SubsetSizes(data: seq<Point>, ids: seq<nat>, K: nat): nat
    requires |ids| == |data|
  {
    if K == 0 then 0 else SubsetSizes(data, ids, K - 1) + |Subset(data, ids, K - 1)|
  }

  lemma {:induction false} SizesAreTotal(data: seq<Point>, ids: seq<nat>, K: nat)
    requires |ids| == |data|
    ensures SubsetSizes(data, ids, K) == Total(ids, K, |ids|)
    decreases K
  {
    if K > 0 {
      SizesAreTotal(data, ids, K - 1);
    }
  }

  // ---------------------------------------------------------------------
  // Building the tree
  // ---------------------------------------------------------------------

  /** What `train` promises: K centers of M coordinates for any data. */
  ghost predicate Trains(train: seq<Point> -> seq<Point>, M: nat, K: nat)
  {
    forall d :: |train(d)| == K && Rows(train(d), M)
  }

  /**
   * vl_hikm_xmeans: cluster the node's data into K centers; unless the
   * node is at depth 1, give it K children, child c built on the points
   * assigned to center c with one level less.
   */
  function XMeans(train: seq<Point> -> seq<Point>, M: nat, K: nat, data: seq<Point>, depth: nat): (n: HNode)
    requires Trains(train, M, K) && Rows(data, M) && depth >= 1
    ensures Built(n, M, K, depth)
    ensures n.centers == train(data)
    decreases depth
  {
    var centers := train(data);
    var ids := Assign(data, centers, M);
    if depth == 1 then HNode(K, centers, [])
    else
      HNode(K, centers, seq(K, c requires 0 <= c < K =>
        SubsetRows(data, ids, c, M);
        XMeans(train, M, K, Subset(data, ids, c), depth - 1)))
  }

  lemma SubsetRows(data: seq<Point>, ids: seq<nat>, id: nat, M: nat)
    requires |ids| == |data| && Rows(data, M)
    ensures Rows(Subset(data, ids, id), M)
  {
  }

  /**
   * vl_hikm with the depth already chosen: the tree built on all the data.
   * The depth ceil(log nleaves / log K) is not computed here.
   */
  function Build(train: seq<Point> -> seq<Point>, data: seq<Point>, M: nat, K: nat, depth: nat): (t: HTree)
    requires Trains(train, M, K) && Rows(data, M) && depth >= 1
    ensures Built(t.root, t.M, t.K, t.depth)
    ensures t.M == M && t.K == K && t.depth == depth
  {
    HTree(M, K, depth, XMeans(train, M, K, data, depth))
  }

  /**
   * Child c of a built node was trained on exactly the points whose
   * nearest center at the node is c.
   */
  lemma ChildTrainedOnCluster(train: seq<Point> -> seq<Point>, M: nat, K: nat, data: seq<Point>, depth: nat, c: nat)
    requires Trains(train, M, K) && Rows(data, M) && depth > 1 && c < K
    ensures var n := XMeans(train, M, K, data, depth);
      var sub := Subset(data, Assign(data, n.centers, M), c);
      Rows(sub, M) && n.children[c] == XMeans(train, M, K, sub, depth - 1)
  {
    SubsetRows(data, Assign(data, train(data), M), c, M);
  }

  // ---------------------------------------------------------------------
  // Pushing points down the tree
  // ---------------------------------------------------------------------

  /** Well-formed for descent: at least one center, and a child for every center if any. */
  predicate Descends(n: HNode, M: nat)
    decreases n
  {
    && 0 < |n.centers| <= NoCenter && Rows(n.centers, M)
    && (n.children == [] || |n.children| == |n.centers|)
    && forall c :: 0 <= c < |n.children| ==> Descends(n.children[c], M)
  }

  lemma {:induction false} BuiltDescends(n: HNode, M: nat, K: nat, depth: nat)
    requires Built(n, M, K, depth) && 1 <= K <= NoCenter
    ensures Descends(n, M)
    decreases n
  {
    forall c | 0 <= c < |n.children|
      ensures Descends(n.children[c], M)
    {
      BuiltDescends(n.children[c], M, K, depth - 1);
    }
  }

  /**
   * The centers chosen for x from n down: the nearest center at each
   * node, then the child of that center, until a node without children.
   */
  function PushPath(n: HNode, M: nat, x: Point): (path: seq<nat>)
    requires Descends(n, M) && |x| == M
    ensures |path| >= 1
    ensures forall d :: 0 <= d < |path| ==> path[d] < NoCenter
    decreases n
  {
    var best := Nearest(x, n.centers);
    if n.children == [] then [best]
    else [best] + PushPath(n.children[best], M, x)
  }

  /** The node reached from n by following the children a path names. */
  function NodeAt(n: HNode, M: nat, path: seq<nat>): (m: HNode)
    requires Descends(n, M)
    ensures Descends(m, M)
    decreases |path|
  {
    if path == [] || path[0] >= |n.children| then n
    else NodeAt(n.children[path[0]], M, path[1..])
  }

  /**
   * Each step of the path picks the nearest center of the node reached so
   * far, and the descent ends at a leaf.
   */
  lemma {:induction false} PushPathNearest(n: HNode, M: nat, x: Point, d: nat)
    requires Descends(n, M) && |x| == M && d < |PushPath(n, M, x)|
    ensures var path := PushPath(n, M, x); var m := NodeAt(n, M, path[..d]);
      IsNearest(x, m.centers, path[d])
    decreases n
  {
    var path := PushPath(n, M, x);
    if d > 0 {
      var best := Nearest(x, n.centers);
      var child := n.children[best];
      PushPathNearest(child, M, x, d - 1);
      assert path[..d][1..] == PushPath(child, M, x)[..d - 1];
    }
  }

  lemma {:induction false} PushPathEndsAtLeaf(n: HNode, M: nat, x: Point)
    requires Descends(n, M) && |x| == M
    ensures var path := PushPath(n, M, x);
      NodeAt(n, M, path[..|path| - 1]).children == []
    decreases n
  {
    var path := PushPath(n, M, x);
    if n.children != [] {
      var best := Nearest(x, n.centers);
      var child := n.children[best];
      PushPathEndsAtLeaf(child, M, x);
      var rest := PushPath(child, M, x);
      assert path[..|path| - 1][1..] == rest[..|rest| - 1];
    }
  }

  /** In a built tree every path has exactly `depth` entries, each below K. */
  lemma {:induction false} PushPathLength(n: HNode, M: nat, K: nat, depth: nat, x: Point)
    requires Built(n, M, K, depth) && 1 <= K <= NoCenter && |x| == M
    ensures Descends(n, M)
    ensures |PushPath(n, M, x)| == depth
    ensures forall d :: 0 <= d < depth ==> PushPath(n, M, x)[d] < K
    decreases n
  {
    BuiltDescends(n, M, K, depth);
    if depth > 1 {
      var best := Nearest(x, n.centers);
      PushPathLength(n.children[best], M, K, depth - 1, x);
    }
  }

  /**
   * The inner loop of vl_hikm_push for one point: descend from the root,
   * recording the center chosen at each level.
   */
  method Walk(root: HNode, M: nat, x: Point) returns (path: seq<nat>)
    requires Descends(root, M) && |x| == M
    ensures path == PushPath(root, M, x)
  {
    var node := root;
    path := [];
    while true
      invariant Descends(node, M)
      invariant path + PushPath(node, M, x) == PushPath(root, M, x)
      decreases node
    {
      var best := NearestCenter(x, node.centers);
      NearestUnique(x, node.centers, best, Nearest(x, node.centers));
      PushPathStep(node, M, x);
      if node.children == [] {
        path := path + [best];
        break;
      }
      assert path + PushPath(node, M, x) == (path + [best]) + PushPath(node.children[best], M, x);
      path := path + [best];
      node := node.children[best];
    }
  }

  /** One step of the descent: the nearest center here, then the path from its child. */
  lemma PushPathStep(n: HNode, M: nat, x: Point)
    requires Descends(n, M) && |x| == M
    ensures n.children == [] ==> PushPath(n, M, x) == [Nearest(x, n.centers)]
    ensures n.children != [] ==>
      PushPath(n, M, x) == [Nearest(x, n.centers)] + PushPath(n.children[Nearest(x, n.centers)], M, x)
  {
  }

  /** The depth entries of point q in the output of vl_hikm_push. */
  function Block(ids: seq<nat>, q: nat, depth: nat): (b: seq<nat>)
    ensures q * depth + depth <= |ids| ==> b == ids[q * depth..q * depth + depth]
  {
    if q * depth + depth <= |ids| then ids[q * depth..q * depth + depth] else []
  }

  /**
   * vl_hikm_push: for every point, descend from the root, storing the
   * center chosen at level d in ids[i * depth + d].
   */
  method Push(t: HTree, data: seq<Point>) returns (ids: seq<nat>)
    requires Built(t.root, t.M, t.K, t.depth) && 1 <= t.K <= NoCenter && Descends(t.root, t.M)
    requires Rows(data, t.M)
    ensures |ids| == |data| * t.depth
    ensures forall q :: 0 <= q < |data| ==> Block(ids, q, t.depth) == PushPath(t.root, t.M, data[q])
  {
    var depth := t.depth;
    ids := [];
    var i := 0;
    while i < |data|
      invariant i <= |data| && |ids| == i * depth
      invariant forall q :: 0 <= q < i ==> Block(ids, q, depth) == PushPath(t.root, t.M, data[q])
    {
      PushPathLength(t.root, t.M, t.K, depth, data[i]);
      var path := Walk(t.root, t.M, data[i]);
      Appended(ids, path, i, depth);
      ids := ids + path;
      i := i + 1;
    }
  }

  /** Appending point i's entries keeps the blocks of the earlier points. */
  lemma Appended(before: seq<nat>, path: seq<nat>, i: nat, depth: nat)
    requires |before| == i * depth && |path| == depth
    ensures |before + path| == (i + 1) * depth
    ensures forall q :: 0 <= q < i ==> Block(before + path, q, depth) == Block(before, q, depth)
    ensures Block(before + path, i, depth) == path
  {
    forall q | 0 <= q < i
      ensures Block(before + path, q, depth) == Block(before, q, depth)
    {
      BlockFits(q, i, depth, i + 1);
      SameBelow(before + path, before, |before|, q * depth, q * depth + depth);
    }
  }

  /** A sequence extended at its end keeps every slice of its old part. */
  lemma SameBelow(a: seq<nat>, b: seq<nat>, n: nat, lo: nat, hi: nat)
    requires n == |b| <= |a| && a[..n] == b && lo <= hi <= n
    ensures a[lo..hi] == b[lo..hi]
  {
    forall k | lo <= k < hi
      ensures a[k] == b[k]
    {
      assert a[k] == a[..n][k];
    }
  }

  /** Earlier points' blocks end before point i's block starts, and all lie in the array. */
  lemma BlockFits(q: nat, i: nat, depth: nat, N: nat)
    requires q <= i < N
    ensures q * depth + depth <= i * depth + depth <= depth * N
    ensures q < i ==> q * depth + depth <= i * depth
  {
    assert q * depth <= i * depth;
    assert (i + 1) * depth <= N * depth;
    if q < i {
      assert (q + 1) * depth <= i * depth;
    }
  }

  /** Entry d of point i in the output is the center chosen for it at level d. */
  lemma PushEntry(t: HTree, data: seq<Point>, ids: seq<nat>, i: nat, d: nat)
    requires Built(t.root, t.M, t.K, t.depth) && 1 <= t.K <= NoCenter && Descends(t.root, t.M)
    requires Rows(data, t.M)
    requires i < |data| && d < t.depth
    requires |ids| == |data| * t.depth && Block(ids, i, t.depth) == PushPath(t.root, t.M, data[i])
    ensures i * t.depth + d < |ids| && d < |PushPath(t.root, t.M, data[i])|
    ensures ids[i * t.depth + d] == PushPath(t.root, t.M, data[i])[d]
  {
    PushPathLength(t.root, t.M, t.K, t.depth, data[i]);
    BlockFits(i, i, t.depth, |data|);
    assert Block(ids, i, t.depth)[d] == ids[i * t.depth + d];
  }
}

=== FILE: hog.dfy ===
// The index geometry of vl/hog.c: the descriptor dimension of each HOG
// variant, the left-right flip permutation built by `vl_hog_new`, the cell
// grid of `vl_hog_prepare_buffers` and the clearing of its buffers. Cell
// values are modelled as reals; only which entries are zero matters here.

module Hog {

  /** UoCTTI: 2n directed, n undirected orientations and 4 texture cells. DalalTriggs: 4 blocks of n. */
  datatype Variant = UoCTTI | DalalTriggs

  function Dimension(v: Variant, n: nat): nat
  {
    match v
    case UoCTTI => 3 * n + 4
    case DalalTriggs => 4 * n
  }

  /** Position of `i` within its block of `n` entries. */
  function Offset(i: nat, n: nat): (o: nat)
    requires n >= 1
    ensures o < n && o <= i
    decreases i
  {
    if i < n then i else Offset(i - n, n)
  }

  /**
   * Where entry `i` of a flipped descriptor is read from. Orientation 0
   * points right, so mirroring sends directed orientation i to n - i
   * (modulo 2n) and undirected orientation o to n - o (modulo n) within
   * its block; the texture entries stay put.
   */
  function Flip(v: Variant, n: nat, i: nat): (f: nat)
    requires n >= 1
  {
    match v
    case UoCTTI =>
      if i == 0 then n
      else if i <= n then n - i
      else if i < 2 * n then 3 * n - i
      else if i == 2 * n then i
      else if i < 3 * n then 5 * n - i
      else i
    case DalalTriggs =>
      var o := Offset(i, n);
      if o == 0 then i else i + n - 2 * o
  }

  lemma ModSmall(x: int, m: int)
    requires 0 <= x < m
    ensures x % m == x
  {
  }

  lemma ModSelf(m: int)
    requires m > 0
    ensures m % m == 0
  {
  }

  lemma ModNegSmall(x: int, m: int)
    requires -m <= x < 0
    ensures x % m == x + m
  {
  }

  /** The UoCTTI flip in the modular form: (n - i) mod 2n, and (n - o) mod n + 2n on the undirected block. */
  lemma UoCTTIMod(n: nat, i: nat)
    requires n >= 1 && i < 3 * n
    ensures i < 2 * n ==> Flip(UoCTTI, n, i) == (n - i) % (2 * n)
    ensures 2 * n <= i ==> Flip(UoCTTI, n, i) == (n - (i - 2 * n)) % n + 2 * n
  {
    if i == 0 {
      ModSmall(n, 2 * n);
    } else if i <= n {
      ModSmall(n - i, 2 * n);
    } else if i < 2 * n {
      ModNegSmall(n - i, 2 * n);
    } else if i == 2 * n {
      ModSelf(n);
    } else {
      ModSmall(n - (i - 2 * n), n);
    }
  }

  /** Entry o of block k sits at k·n + o. */
  lemma {:induction false} OffsetOf(n: nat, k: nat, o: nat)
    requires n >= 1 && o < n
    ensures Offset(k * n + o, n) == o
    decreases k
  {
    if k > 0 {
      assert k * n + o - n == (k - 1) * n + o;
      OffsetOf(n, k - 1, o);
    }
  }

  /** The DalalTriggs flip in the modular form: o maps to (n - o) mod n + k·n in block k. */
  lemma DalalTriggsMod(n: nat, k: nat, o: nat)
    requires n >= 1 && o < n
    ensures Flip(DalalTriggs, n, k * n + o) == (n - o) % n + k * n
  {
    OffsetOf(n, k, o);
    if o == 0 {
      ModSelf(n);
    } else {
      ModSmall(n - o, n);
    }
  }

  /** Mirroring stays inside the descriptor and mirroring twice gives the position back. */
  lemma FlipInvolution(v: Variant, n: nat, i: nat)
    requires n >= 1 && i < Dimension(v, n)
    ensures Flip(v, n, i) < Dimension(v, n)
    ensures Flip(v, n, Flip(v, n, i)) == i
  {
    if v.DalalTriggs? {
      var o, k := Offset(i, n), Block(i, n);
      BlockBound(n, k, o);
      DalalTriggsInvolution(n, k, o);
    }
  }

  lemma BlockBound(n: nat, k: nat, o: nat)
    requires n >= 1 && k * n + o < 4 * n
    ensures k < 4
  {
  }

  /** In the DalalTriggs layout, entry o of block k trades places with entry (n - o) mod n of the same block. */
  lemma DalalTriggsInvolution(n: nat, k: nat, o: nat)
    requires n >= 1 && o < n && k < 4
    ensures var i := k * n + o; Flip(DalalTriggs, n, i) < 4 * n && Flip(DalalTriggs, n, Flip(DalalTriggs, n, i)) == i
  {
    var i := k * n + o;
    OffsetOf(n, k, o);
    if o != 0 {
      OffsetOf(n, k, n - o);
      assert i + n - 2 * o == k * n + (n - o);
    }
    assert k * n + n <= 4 * n;
  }

  /** Index of the block of `i`, so that i == Block·n + Offset. */
  function Block(i: nat, n: nat): (k: nat)
    requires n >= 1
    ensures i == k * n + Offset(i, n)
    decreases i
  {
    if i < n then 0 else Block(i - n, n) + 1
  }

  /**
   * The flip is a permutation of the descriptor entries: it maps into
   * range, no two entries share a source, and every entry is the source
   * of one.
   */
  lemma FlipPermutes(v: Variant, n: nat)
    requires n >= 1
    ensures forall i :: 0 <= i < Dimension(v, n) ==> Flip(v, n, i) < Dimension(v, n)
    ensures forall i, j :: 0 <= i < j < Dimension(v, n) ==> Flip(v, n, i) != Flip(v, n, j)
    ensures forall j :: 0 <= j < Dimension(v, n) ==> Flip(v, n, Flip(v, n, j)) == j
  {
    forall i | 0 <= i < Dimension(v, n)
      ensures Flip(v, n, i) < Dimension(v, n) && Flip(v, n, Flip(v, n, i)) == i
    {
      FlipInvolution(v, n, i);
    }
    forall i, j | 0 <= i < j < Dimension(v, n)
      ensures Flip(v, n, i) != Flip(v, n, j)
    {
      FlipInvolution(v, n, i);
      FlipInvolution(v, n, j);
    }
  }

  /** The permutation table `vl_hog_new` fills in. */
  method NewPermutation(v: Variant, n: nat) returns (perm: seq<int>)
    requires n >= 1
    ensures |perm| == Dimension(v, n)
    ensures forall i :: 0 <= i < |perm| ==> perm[i] == Flip(v, n, i)
  {
    var a := new int[Dimension(v, n)];
    match v {
      case UoCTTI => FillUoCTTI(a, n);
      case DalalTriggs => FillDalalTriggs(a, n);
    }
    perm := a[..];
  }

  method FillUoCTTI(a: array<int>, n: nat)
    requires n >= 1 && a.Length == 3 * n + 4
    modifies a
    ensures forall i :: 0 <= i < a.Length ==> a[i] == Flip(UoCTTI, n, i)
  {
    var o := 0;
    while o < n
      invariant 0 <= o <= n
      invariant forall i :: 0 <= i < o ==> a[i] == Flip(UoCTTI, n, i)
      invariant forall i :: n <= i < n + o ==> a[i] == Flip(UoCTTI, n, i)
      invariant forall i :: 2 * n <= i < 2 * n + o ==> a[i] == Flip(UoCTTI, n, i)
    {
      var op := n - o;
      a[o] := op;
      a[o + n] := (op + n) % (2 * n);
      a[o + 2 * n] := op % n + 2 * n;
      UoCTTIEntries(n, o);
      o := o + 1;
    }
    var t := 3 * n;
    while t < a.Length
      invariant 3 * n <= t <= a.Length
      invariant forall i :: 0 <= i < t ==> a[i] == Flip(UoCTTI, n, i)
    {
      a[t] := t;
      t := t + 1;
    }
  }

  method FillDalalTriggs(a: array<int>, n: nat)
    requires n >= 1 && a.Length == 4 * n
    modifies a
    ensures forall i :: 0 <= i < a.Length ==> a[i] == Flip(DalalTriggs, n, i)
  {
    var k, base := 0, 0;
    while k < 4
      invariant 0 <= k <= 4 && base == k * n
      invariant forall i :: 0 <= i < base ==> a[i] == Flip(DalalTriggs, n, i)
    {
      var o := 0;
      while o < n
        invariant 0 <= o <= n
        invariant forall i :: 0 <= i < base + o ==> a[i] == Flip(DalalTriggs, n, i)
      {
        var op := n - o;
        a[o + k * n] := op % n + k * n;
        DalalTriggsMod(n, k, o);
        o := o + 1;
      }
      k, base := k + 1, base + n;
    }
  }

  /** The three entries the UoCTTI loop writes for orientation o follow `Flip`. */
  lemma UoCTTIEntries(n: nat, o: nat)
    requires o < n
    ensures n - o == Flip(UoCTTI, n, o)
    ensures (n - o + n) % (2 * n) == Flip(UoCTTI, n, o + n)
    ensures (n - o) % n + 2 * n == Flip(UoCTTI, n, o + 2 * n)
  {
    if o == 0 {
      ModSelf(2 * n);
      ModSelf(n);
    } else {
      ModSmall(2 * n - o, 2 * n);
      ModSmall(n - o, n);
    }
  }

  /** Cells along one side: the side over the cell size, rounded to nearest. */
  function Cells(size: nat, cellSize: nat): nat
    requires cellSize >= 1
  {
    (size + cellSize / 2) / cellSize
  }

  /**
   * The grid covers the image up to half a cell: the cells span at most
   * half a cell more than the side, and one more cell would span more.
   */
  lemma CellsRound(size: nat, cellSize: nat)
    requires cellSize >= 1
    ensures Cells(size, cellSize) * cellSize <= size + cellSize / 2 < (Cells(size, cellSize) + 1) * cellSize
  {
  }

  /**
   * The buffers of a HOG object: the 2n directed histograms of every cell
   * and the norm of every cell, and whether they are allocated (`live`).
   */
  datatype Buffers = Buffers(hog: seq<real>, hogNorm: seq<real>, hogWidth: nat, hogHeight: nat, live: bool)

  predicate Zeros(s: seq<real>)
  {
    forall i :: 0 <= i < |s| ==> s[i] == 0.0
  }

  function ZeroSeq(n: nat): (s: seq<real>)
    ensures |s| == n && Zeros(s)
  {
    seq(n, i => 0.0)
  }

  /** `memset(p, 0, count)`: the first `count` entries become zero. */
  function ClearPrefix(s: seq<real>, count: nat): (r: seq<real>)
    ensures |r| == |s|
    ensures forall i :: 0 <= i < |s| ==> r[i] == (if i < count then 0.0 else s[i])
  {
    seq(|s|, i requires 0 <= i < |s| => if i < count then 0.0 else s[i])
  }

  /** Entries of the histogram buffer: 2n directed orientations per cell. */
  function HistLen(w: nat, h: nat, n: nat): nat
  {
    w * h * n * 2
  }

  /** The buffers of the right size, with every entry zero. */
  predicate Prepared(b: Buffers, w: nat, h: nat, n: nat)
  {
    b.live && b.hogWidth == w && b.hogHeight == h
    && |b.hog| == HistLen(w, h, n) && |b.hogNorm| == w * h
    && Zeros(b.hog) && Zeros(b.hogNorm)
  }

  /** Sizes agree with the recorded grid whenever the buffers are allocated. */
  predicate Sized(b: Buffers, n: nat)
  {
    b.live ==> |b.hog| == HistLen(b.hogWidth, b.hogHeight, n) && |b.hogNorm| == b.hogWidth * b.hogHeight
  }

  /**
   * `vl_hog_prepare_buffers` as written: when the grid size is unchanged
   * it clears `hog` twice and leaves `hogNorm` as it was.
   */
  function PrepareAsWritten(b: Buffers, width: nat, height: nat, cellSize: nat, n: nat): (r: Buffers)
    requires width > 3 && height > 3 && cellSize >= 1
    requires Cells(width, cellSize) > 0 && Cells(height, cellSize) > 0
    ensures r.live && r.hogWidth == Cells(width, cellSize) && r.hogHeight == Cells(height, cellSize)
    ensures Sized(b, n) ==> |r.hog| == HistLen(r.hogWidth, r.hogHeight, n) && Zeros(r.hog)
    ensures b.live && b.hogWidth == r.hogWidth && b.hogHeight == r.hogHeight ==> r.hogNorm == b.hogNorm
    ensures !(b.live && b.hogWidth == r.hogWidth && b.hogHeight == r.hogHeight) ==> Prepared(r, r.hogWidth, r.hogHeight, n)
  {
    var w, h := Cells(width, cellSize), Cells(height, cellSize);
    if b.live && b.hogWidth == w && b.hogHeight == h then
      b.(hog := ClearPrefix(ClearPrefix(b.hog, HistLen(w, h, n)), w * h))
    else
      Buffers(ZeroSeq(HistLen(w, h, n)), ZeroSeq(w * h), w, h, true)
  }

  /** The same with the second clear aimed at `hogNorm`, as its size shows was meant. */
  function Prepare(b: Buffers, width: nat, height: nat, cellSize: nat, n: nat): (r: Buffers)
    requires width > 3 && height > 3 && cellSize >= 1
    requires Cells(width, cellSize) > 0 && Cells(height, cellSize) > 0
    ensures r.live && r.hogWidth == Cells(width, cellSize) && r.hogHeight == Cells(height, cellSize)
    ensures !(b.live && b.hogWidth == r.hogWidth && b.hogHeight == r.hogHeight) ==> Prepared(r, r.hogWidth, r.hogHeight, n)
  {
    var w, h := Cells(width, cellSize), Cells(height, cellSize);
    if b.live && b.hogWidth == w && b.hogHeight == h then
      b.(hog := ClearPrefix(b.hog, HistLen(w, h, n)), hogNorm := ClearPrefix(b.hogNorm, w * h))
    else
      Buffers(ZeroSeq(HistLen(w, h, n)), ZeroSeq(w * h), w, h, true)
  }

  /** After preparation both buffers have the grid's size and hold only zeros. */
  lemma PrepareClears(b: Buffers, width: nat, height: nat, cellSize: nat, n: nat)
    requires width > 3 && height > 3 && cellSize >= 1
    requires Cells(width, cellSize) > 0 && Cells(height, cellSize) > 0
    requires Sized(b, n)
    ensures Prepared(Prepare(b, width, height, cellSize, n), Cells(width, cellSize), Cells(height, cellSize), n)
  {
    var w, h := Cells(width, cellSize), Cells(height, cellSize);
    if b.live && b.hogWidth == w && b.hogHeight == h {
      ClearAll(b.hog, HistLen(w, h, n));
      ClearAll(b.hogNorm, w * h);
    }
  }

  lemma ClearAll(s: seq<real>, count: nat)
    requires |s| == count
    ensures Zeros(ClearPrefix(s, count)) && |ClearPrefix(s, count)| == count
  {
  }

  /** The written version fails to clear the norms exactly when one of them is not zero. */
  lemma PrepareAsWrittenNorms(b: Buffers, width: nat, height: nat, cellSize: nat, n: nat)
    requires width > 3 && height > 3 && cellSize >= 1
    requires Cells(width, cellSize) > 0 && Cells(height, cellSize) > 0
    requires b.live && b.hogWidth == Cells(width, cellSize) && b.hogHeight == Cells(height, cellSize)
    ensures PrepareAsWritten(b, width, height, cellSize, n).hogNorm == b.hogNorm
  {
  }

  /**
   * The norm pass adds into `hogNorm`, so a norm left over from the
   * previous image survives the written version: a 4x4 image in 4-pixel
   * cells with one orientation, processed after an image of the same size
   * whose norm was 1.
   */
  lemma StaleNorm(b: Buffers)
    requires b == Buffers([0.0, 0.0], [1.0], 1, 1, true)
    ensures PrepareAsWritten(b, 4, 4, 4, 1).hogNorm == [1.0]
    ensures Prepare(b, 4, 4, 4, 1).hogNorm == [0.0]
  {
    assert Cells(4, 4) == 1;
  }
}

=== FILE: host.dfy ===
/**
 * Endianness of vl/host.h: which architecture macro is defined, and the
 * host/big-endian byte swaps for 2-, 4- and 8-byte values.
 */
module Host {
  type Byte = x: nat | x < 256

  datatype Arch = LittleEndian | BigEndian

  /**
   * The preprocessor symbols the endianness test looks at: the compiler's
   * little-endian flag, the two little-endian architectures, and the
   * documentation build, which defines both macros.
   */
  datatype Symbols = Symbols(littleFlag: bool, ix86: bool, ia64: bool, doxygen: bool)

  predicate LittleDefined(s: Symbols)
  {
    s.littleFlag || s.ix86 || s.ia64 || s.doxygen
  }

  predicate BigDefined(s: Symbols)
  {
    s.doxygen || !LittleDefined(s)
  }

  /** The architecture the swap bodies are compiled for: the big-endian branch wins when its macro is set. */
  function ArchOf(s: Symbols): (a: Arch)
    ensures a == BigEndian <==> BigDefined(s)
    ensures !s.doxygen ==> (a == LittleEndian <==> LittleDefined(s))
  {
    if BigDefined(s) then BigEndian else LittleEndian
  }

  /** The bytes in reverse order. */
  function Reverse(s: seq<Byte>): (r: seq<Byte>)
    ensures |r| == |s|
    ensures forall i :: 0 <= i < |s| ==> r[i] == s[|s| - 1 - i]
  {
    if s == [] then [] else Reverse(s[1..]) + [s[0]]
  }

  /** The number the bytes spell with the most significant byte first. */
  function BigEndianValue(s: seq<Byte>): nat
  {
    if s == [] then 0 else BigEndianValue(s[..|s| - 1]) * 256 + s[|s| - 1]
  }

  /** The number the bytes spell with the least significant byte first. */
  function LittleEndianValue(s: seq<Byte>): nat
  {
    if s == [] then 0 else s[0] + 256 * LittleEndianValue(s[1..])
  }

  /** The value a host of the given architecture reads from the bytes in memory. */
  function HostValue(a: Arch, s: seq<Byte>): nat
  {
    match a
    case LittleEndian => LittleEndianValue(s)
    case BigEndian => BigEndianValue(s)
  }

  /** The swap the three functions perform, for any width. */
  function SwapBytes(a: Arch, s: seq<Byte>): seq<Byte>
  {
    match a
    case BigEndian => s
    case LittleEndian => Reverse(s)
  }

  /** vl_swap_host_big_endianness_8. */
  function Swap8(a: Arch, src: seq<Byte>): (dst: seq<Byte>)
    requires |src| == 8
    ensures dst == SwapBytes(a, src)
  {
    if a == BigEndian then [src[0], src[1], src[2], src[3], src[4], src[5], src[6], src[7]]
    else
      var r := [src[7], src[6], src[5], src[4], src[3], src[2], src[1], src[0]];
      assert r == Reverse(src);
      r
  }

  /** vl_swap_host_big_endianness_4. */
  function Swap4(a: Arch, src: seq<Byte>): (dst: seq<Byte>)
    requires |src| == 4
    ensures dst == SwapBytes(a, src)
  {
    if a == BigEndian then [src[0], src[1], src[2], src[3]]
    else
      var r := [src[3], src[2], src[1], src[0]];
      assert r == Reverse(src);
      r
  }

  /** vl_swap_host_big_endianness_2. */
  function Swap2(a: Arch, src: seq<Byte>): (dst: seq<Byte>)
    requires |src| == 2
    ensures dst == SwapBytes(a, src)
  {
    if a == BigEndian then [src[0], src[1]]
    else
      var r := [src[1], src[0]];
      assert r == Reverse(src);
      r
  }

  /** Reading reversed bytes little-endian gives their big-endian value. */
  lemma {:induction false} ReverseValue(s: seq<Byte>)
    ensures LittleEndianValue(Reverse(s)) == BigEndianValue(s)
    decreases |s|
  {
    if s != [] {
      var p := s[..|s| - 1];
      var r := Reverse(s);
      assert r[0] == s[|s| - 1];
      assert r[1..] == Reverse(p);
      ReverseValue(p);
    }
  }

  /**
   * The point of the swap: on either host, the value read from the
   * swapped bytes is the big-endian value of the source bytes, so a
   * big-endian file word becomes a native number and back.
   */
  lemma SwapReadsBigEndian(a: Arch, s: seq<Byte>)
    ensures HostValue(a, SwapBytes(a, s)) == BigEndianValue(s)
  {
    if a == LittleEndian {
      ReverseValue(s);
    }
  }

  /** Swapping twice restores the bytes. */
  lemma SwapInvolution(a: Arch, s: seq<Byte>)
    ensures SwapBytes(a, SwapBytes(a, s)) == s
  {
    if a == LittleEndian {
      assert Reverse(Reverse(s)) == s;
    }
  }
}

=== FILE: ihash.dfy ===
/**
 * The integer hash table of toolbox/misc/vl_ihashsum.c and
 * vl_ihashfind.c: keys are columns of `ndims` bytes, hashed with 32-bit
 * FNV-1 into the first K slots and probed with an odd step; when the K
 * probes find no free or matching slot, the search follows an overflow
 * chain of 1-based `next` links, appending a fresh slot (and growing the
 * tables) at its end.
 */
module IHash {
  import opened Wrappers
  import MexUtils

  type Byte = b: int | 0 <= b < 256

  /** A key: one column of the ID table. */
  type Key = seq<Byte>

  /** 2^32: `unsigned int` arithmetic wraps modulo this. */
  const Word := 0x1_0000_0000

  /* ------------------------------------------------------------------ */
  /*                                                              FNV-1 */
  /* ------------------------------------------------------------------ */

  const FnvOffset: bv32 := 2166136261
  const FnvPrime: bv32 := 16777619

  /** One FNV-1 round: multiply modulo 2^32, then xor the byte in. */
  function FnvStep(h: bv32, b: Byte): bv32
  {
    (h * FnvPrime) ^ (b as bv32)
  }

  /** The FNV-1 hash of a key, folding the bytes in from the first. */
  function Fnv(key: Key): bv32
    decreases |key|
  {
    if key == [] then FnvOffset else FnvStep(Fnv(key[..|key| - 1]), key[|key| - 1])
  }

  /** The hash is the state reached by feeding the whole key, first byte first, to FnvOffset. */
  lemma {:induction false} FnvFeeds(key: Key)
    ensures Fnv(key) == Feed(FnvOffset, key)
    decreases |key|
  {
    if key != [] {
      FnvFeeds(key[..|key| - 1]);
      FeedLast(FnvOffset, key);
    }
  }

  /** The state after feeding the bytes of `bytes` to state h, one round per byte, first byte first. */
  function Feed(h: bv32, bytes: Key): bv32
    decreases |bytes|
  {
    if bytes == [] then h else Feed(FnvStep(h, bytes[0]), bytes[1..])
  }

  /** Feeding a key is feeding all but its last byte, then one round for the last. */
  lemma {:induction false} FeedLast(h: bv32, bytes: Key)
    requires bytes != []
    ensures Feed(h, bytes) == FnvStep(Feed(h, bytes[..|bytes| - 1]), bytes[|bytes| - 1])
    decreases |bytes|
  {
    if |bytes| > 1 {
      FeedLast(FnvStep(h, bytes[0]), bytes[1..]);
      assert bytes[1..][..|bytes| - 2] == bytes[..|bytes| - 1][1..];
    }
  }

  /** fnv_hash: the loop over the bytes computes the fold. */
  method FnvHash(key: Key) returns (h: bv32)
    ensures h == Fnv(key)
  {
    h := FnvOffset;
    var i := 0;
    while i < |key|
      invariant 0 <= i <= |key|
      invariant h == Fnv(key[..i])
    {
      assert key[..i + 1][..i] == key[..i];
      h := FnvStep(h, key[i]);
      i := i + 1;
    }
    assert key[..i] == key;
  }

  /* ------------------------------------------------------------------ */
  /*                                                            Probing */
  /* ------------------------------------------------------------------ */

  /** is_null: every byte is zero; such a slot is free. */
  predicate IsNull(k: Key)
  {
    k == [] || (k[0] == 0 && IsNull(k[1..]))
  }

  /** The all-zero key of `n` bytes. */
  function ZeroKey(n: nat): (k: Key)
    ensures |k| == n && IsNull(k)
  {
    if n == 0 then [] else [0] + ZeroKey(n - 1)
  }

  /** A slot the search for `x` must go past: occupied by another key. */
  predicate Blocked(id: seq<Key>, q: nat, x: Key)
    requires q < |id|
  {
    !IsNull(id[q]) && id[q] != x
  }

  /** The first probe: the hash modulo K. */
  function Start(x: Key, K: nat): (h: nat)
    requires K > 0
    ensures h < K
  {
    (Fnv(x) as int) % K
  }

  /** `h1 | 1`: the probe step, made odd. */
  function OddStep(h1: nat): (step: nat)
    ensures step % 2 == 1
    ensures step == h1 || step == h1 + 1
  {
    if h1 % 2 == 0 then h1 + 1 else h1
  }

  /** `h1` after `j` steps: each step adds `step` in unsigned 32-bit arithmetic. */
  function Advance(h0: nat, step: nat, j: nat): (h1: nat)
    ensures h1 < Word
  {
    if j == 0 then h0 % Word else (Advance(h0, step, j - 1) + step) % Word
  }

  /** The slot probed after `j` steps. */
  function ProbeAt(h0: nat, step: nat, j: nat, K: nat): (p: nat)
    requires K > 0
    ensures p < K
  {
    Advance(h0, step, j) % K
  }

  /**
   * The probing loop from step `j` with `h1` the current hash: stops at
   * the first slot that is not blocked, or after K probes at the slot the
   * last step computed. The result is the slot and the number of blocked
   * slots passed.
   */
  function ProbeLoop(id: seq<Key>, x: Key, K: nat, h0: nat, step: nat, h1: nat, j: nat): (r: (nat, nat))
    requires 0 < K <= |id| && j <= K && h1 == Advance(h0, step, j)
    ensures j <= r.1 <= K && r.0 < K
    decreases K - j
  {
    var p := h1 % K;
    if j == K || !Blocked(id, p, x) then (p, j)
    else
      ProbeLoop(id, x, K, h0, step, (h1 + step) % Word, j + 1)
  }

  /** The probe sequence of a key, from slot `Fnv(x) % K` with the odd step. */
  function Probe(id: seq<Key>, x: Key, K: nat): (r: (nat, nat))
    requires 0 < K <= |id| && K < Word
    ensures r.1 <= K && r.0 < K
  {
    var h0 := Start(x, K);
    ProbeLoop(id, x, K, h0, OddStep(h0), h0, 0)
  }

  /**
   * What the loop finds: the slot after the blocked ones it passed, which
   * is free or holds the key unless all K probes were blocked.
   */
  lemma {:induction false} ProbeLoopSpec(id: seq<Key>, x: Key, K: nat, h0: nat, step: nat, h1: nat, j: nat)
    requires 0 < K <= |id| && j <= K && h1 == Advance(h0, step, j)
    ensures var r := ProbeLoop(id, x, K, h0, step, h1, j);
      r.0 == ProbeAt(h0, step, r.1, K)
      && (forall i :: j <= i < r.1 ==> Blocked(id, ProbeAt(h0, step, i, K), x))
      && (r.1 < K ==> !Blocked(id, r.0, x))
    decreases K - j
  {
    var p := h1 % K;
    if j < K && Blocked(id, p, x) {
      var h2 := (h1 + step) % Word;
      assert h2 == Advance(h0, step, j + 1);
      ProbeLoopSpec(id, x, K, h0, step, h2, j + 1);
      var r := ProbeLoop(id, x, K, h0, step, h2, j + 1);
      assert ProbeLoop(id, x, K, h0, step, h1, j) == r;
      assert p == ProbeAt(h0, step, j, K);
      forall i | j <= i < r.1
        ensures Blocked(id, ProbeAt(h0, step, i, K), x)
      {
      }
    } else {
      assert ProbeLoop(id, x, K, h0, step, h1, j) == (p, j);
    }
  }

  /**
   * The probe sequence of a key: the first of the slots `Fnv(x) % K`,
   * then on by the odd step, that is free or holds the key; after K
   * blocked probes, the K-th probe.
   */
  lemma ProbeSpec(id: seq<Key>, x: Key, K: nat)
    requires 0 < K <= |id| && K < Word
    ensures var r := Probe(id, x, K); var h0 := Start(x, K);
      r.0 == ProbeAt(h0, OddStep(h0), r.1, K)
      && (forall i :: 0 <= i < r.1 ==> Blocked(id, ProbeAt(h0, OddStep(h0), i, K), x))
      && (r.1 < K ==> !Blocked(id, r.0, x))
  {
    var h0 := Start(x, K);
    ProbeLoopSpec(id, x, K, h0, OddStep(h0), h0, 0);
  }

  /** Probing looks only at which of the first K slots are blocked. */
  lemma {:induction false} ProbeLoopSame(id: seq<Key>, id': seq<Key>, x: Key, K: nat, h0: nat, step: nat, h1: nat, j: nat)
    requires 0 < K <= |id| && K <= |id'| && j <= K && h1 == Advance(h0, step, j)
    requires forall q :: 0 <= q < K ==> Blocked(id, q, x) == Blocked(id', q, x)
    ensures ProbeLoop(id, x, K, h0, step, h1, j) == ProbeLoop(id', x, K, h0, step, h1, j)
    decreases K - j
  {
    var p := h1 % K;
    if j < K && Blocked(id, p, x) {
      var h2 := (h1 + step) % Word;
      assert h2 == Advance(h0, step, j + 1);
      ProbeLoopSame(id, id', x, K, h0, step, h2, j + 1);
      assert ProbeLoop(id, x, K, h0, step, h1, j) == ProbeLoop(id, x, K, h0, step, h2, j + 1);
      assert ProbeLoop(id', x, K, h0, step, h1, j) == ProbeLoop(id', x, K, h0, step, h2, j + 1);
    } else {
      assert ProbeLoop(id, x, K, h0, step, h1, j) == (p, j);
      assert ProbeLoop(id', x, K, h0, step, h1, j) == (p, j);
    }
  }

  /* ------------------------------------------------------------------ */
  /*                                                   Overflow chains */
  /* ------------------------------------------------------------------ */

  /** Every link points to a later slot, so chains end. */
  predicate Forward(next: seq<nat>, bound: nat)
  {
    forall q :: 0 <= q < |next| ==> next[q] == 0 || q + 1 < next[q] <= bound
  }

  /**
   * The chain walk: past blocked slots along the 1-based links, stopping
   * at a slot that is free or holds the key, or at the end of the chain.
   */
  function Walk(id: seq<Key>, next: seq<nat>, x: Key, p: nat): (q: nat)
    requires |next| == |id| && p < |id| && Forward(next, |id|)
    ensures p <= q < |id|
    ensures !Blocked(id, q, x) || next[q] == 0
    decreases |id| - p
  {
    if Blocked(id, p, x) && next[p] != 0 then Walk(id, next, x, next[p] - 1) else p
  }

  /** The argument check of vl_ihashsum: every link is at most the table size. */
  predicate LinksInRange(next: seq<nat>)
  {
    forall q :: 0 <= q < |next| ==> next[q] <= |next|
  }

  /**
   * The chain walk as vl_ihashsum writes it, which accepts any links in
   * range, followed for at most fuel steps: None when the walk has not
   * stopped by then.
   */
  function WalkAsWritten(id: seq<Key>, next: seq<nat>, x: Key, p: nat, fuel: nat): (r: Option<nat>)
    requires |next| == |id| && p < |id| && LinksInRange(next)
    ensures r.Some? ==> r.value < |id| && (!Blocked(id, r.value, x) || next[r.value] == 0)
    decreases fuel
  {
    if !Blocked(id, p, x) || next[p] == 0 then Some(p)
    else if fuel == 0 then None
    else WalkAsWritten(id, next, x, next[p] - 1, fuel - 1)
  }

  /**
   * A one-slot table whose slot holds another key and links to itself
   * passes the argument checks (K = 1 and the link 1 are at most the
   * size 1), and the walk for the key never stops.
   */
  lemma {:induction false} SelfLinkNeverStops(fuel: nat)
    ensures LinksInRange([1])
    ensures WalkAsWritten([[1]], [1], [2], 0, fuel) == None
    decreases fuel
  {
    assert Blocked([[1]], 0, [2]);
    if fuel > 0 {
      SelfLinkNeverStops(fuel - 1);
    }
  }

  /**
   * With forward links the walk stops within the slots after p, at the
   * slot Walk names.
   */
  lemma {:induction false} WalkStops(id: seq<Key>, next: seq<nat>, x: Key, p: nat)
    requires |next| == |id| && p < |id| && Forward(next, |id|)
    ensures LinksInRange(next)
    ensures WalkAsWritten(id, next, x, p, |id| - p) == Some(Walk(id, next, x, p))
    decreases |id| - p
  {
    if Blocked(id, p, x) && next[p] != 0 {
      WalkStops(id, next, x, next[p] - 1);
      WalkMoreFuel(id, next, x, next[p] - 1, |id| - (next[p] - 1), |id| - p - 1);
    }
  }

  /** More fuel does not change a walk that has stopped. */
  lemma {:induction false} WalkMoreFuel(id: seq<Key>, next: seq<nat>, x: Key, p: nat, fuel: nat, more: nat)
    requires |next| == |id| && p < |id| && LinksInRange(next) && fuel <= more
    requires WalkAsWritten(id, next, x, p, fuel).Some?
    ensures WalkAsWritten(id, next, x, p, more) == WalkAsWritten(id, next, x, p, fuel)
    decreases fuel
  {
    if Blocked(id, p, x) && next[p] != 0 {
      WalkMoreFuel(id, next, x, next[p] - 1, fuel - 1, more - 1);
    }
  }

  /* ------------------------------------------------------------------ */
  /*                                                          The table */
  /* ------------------------------------------------------------------ */

  /**
   * The three tables and `last`, the number of slots in use (1-based index
   * of the last one). H holds 32-bit counts.
   */
  datatype Table = Table(h: seq<nat>, id: seq<Key>, next: seq<nat>, last: nat)

  /**
   * What insertion keeps: equal sizes, keys of `ndims` bytes, counts below
   * 2^32, K probe slots among those in use, forward links into the used
   * slots, and every slot from `last` on still zero.
   */
  predicate Wf(t: Table, ndims: nat, K: nat)
  {
    |t.h| == |t.id| == |t.next| && 0 < K <= t.last <= |t.id| && K < Word
    && (forall q :: 0 <= q < |t.id| ==> |t.id[q]| == ndims && t.h[q] < Word)
    && (forall q :: 0 <= q < |t.next| ==> t.next[q] == 0 || q + 1 < t.next[q] <= t.last)
    && (forall q :: t.last <= q < |t.id| ==> IsNull(t.id[q]) && t.next[q] == 0 && t.h[q] == 0)
  }

  function Zeros(n: nat, ndims: nat): (r: seq<Key>)
    ensures |r| == n && forall q :: 0 <= q < n ==> |r[q]| == ndims && IsNull(r[q])
  {
    seq(n, _ => ZeroKey(ndims))
  }

  /** The growth when the tables are full: by half their size, at least 2, zero-filled. */
  function Grow(t: Table, ndims: nat): (r: Table)
    ensures r.last == t.last && |r.id| == |t.id| + Max(|t.id| / 2, 2)
    ensures |r.h| == |t.h| + Max(|t.id| / 2, 2) && |r.next| == |t.next| + Max(|t.id| / 2, 2)
    ensures r.h[..|t.h|] == t.h && r.id[..|t.id|] == t.id && r.next[..|t.next|] == t.next
  {
    var extra := Max(|t.id| / 2, 2);
    Table(t.h + seq(extra, _ => 0), t.id + Zeros(extra, ndims), t.next + seq(extra, _ => 0), t.last)
  }

  /** Appending after the chain end `q`: the next unused slot is linked in and used. */
  function Append(t: Table, ndims: nat, q: nat): (r: (Table, nat))
    requires |t.h| == |t.id| == |t.next| && t.last <= |t.id| && q < |t.next|
    ensures r.1 == t.last && r.0.last == t.last + 1 && r.1 < |r.0.id|
    ensures |r.0.h| == |r.0.id| == |r.0.next| && |r.0.id| >= |t.id|
    ensures r.0.next[q] == r.1 + 1
    ensures forall k :: 0 <= k < |t.id| ==> r.0.id[k] == t.id[k] && r.0.h[k] == t.h[k]
    ensures forall k :: 0 <= k < |t.id| && k != q ==> r.0.next[k] == t.next[k]
  {
    var t0 := if t.last >= |t.id| then Grow(t, ndims) else t;
    (t0.(next := t0.next[q := t0.last + 1], last := t0.last + 1), t0.last)
  }

  /** Appending after a chain end in use keeps the invariant. */
  lemma AppendWf(t: Table, ndims: nat, K: nat, q: nat)
    requires Wf(t, ndims, K) && q < t.last
    ensures Wf(Append(t, ndims, q).0, ndims, K)
  {
    var t0 := if t.last >= |t.id| then Grow(t, ndims) else t;
    assert Wf(t0, ndims, K) by {
      if t.last >= |t.id| {
        forall k | t0.last <= k < |t0.id|
          ensures IsNull(t0.id[k]) && t0.next[k] == 0 && t0.h[k] == 0
        {
          assert k >= |t.id|;
        }
      }
    }
  }

  /** The chain walk from a slot in use stays among the slots in use. */
  lemma {:induction false} WalkBelow(id: seq<Key>, next: seq<nat>, x: Key, p: nat, bound: nat)
    requires |next| == |id| && p < |id| && Forward(next, |id|) && p < bound
    requires forall k :: 0 <= k < |next| ==> next[k] <= bound
    ensures Walk(id, next, x, p) < bound
    decreases |id| - p
  {
    if Blocked(id, p, x) && next[p] != 0 {
      WalkBelow(id, next, x, next[p] - 1, bound);
    }
  }

  /** The slot for a key: probe, walk the chain, and append a slot if the chain ends without one. */
  function Locate(t: Table, ndims: nat, K: nat, x: Key): (r: (Table, nat))
    requires Wf(t, ndims, K)
    ensures |r.0.h| == |r.0.id| == |r.0.next| && r.1 < |r.0.id|
  {
    var p := Probe(t.id, x, K).0;
    var q := Walk(t.id, t.next, x, p);
    if Blocked(t.id, q, x) then Append(t, ndims, q) else (t, q)
  }

  /** The two ways Locate ends, at a chain end in use either way. */
  lemma LocateCases(t: Table, ndims: nat, K: nat, x: Key)
    requires Wf(t, ndims, K)
    ensures var q := Walk(t.id, t.next, x, Probe(t.id, x, K).0);
      q < t.last
      && (Blocked(t.id, q, x) ==> Locate(t, ndims, K, x) == Append(t, ndims, q))
      && (!Blocked(t.id, q, x) ==> Locate(t, ndims, K, x) == (t, q))
  {
    WalkBelow(t.id, t.next, x, Probe(t.id, x, K).0, t.last);
  }

  /**
   * Locate keeps the invariant and ends at a slot in use: one that was
   * free or already held the key, or the fresh slot `last`.
   */
  lemma LocateWf(t: Table, ndims: nat, K: nat, x: Key)
    requires Wf(t, ndims, K)
    ensures var (r, s) := Locate(t, ndims, K, x);
      Wf(r, ndims, K) && s < r.last
      && ((r == t && s < t.last && !Blocked(t.id, s, x)) || s == t.last)
  {
    LocateCases(t, ndims, K, x);
    var q := Walk(t.id, t.next, x, Probe(t.id, x, K).0);
    if Blocked(t.id, q, x) {
      AppendWf(t, ndims, K, q);
    }
  }

  /** The accumulation: one more count for the slot, which now holds the key. */
  function Count(t: Table, s: nat, x: Key): (r: Table)
    requires |t.h| == |t.id| && s < |t.id|
  {
    t.(h := t.h[s := (t.h[s] + 1) % Word], id := t.id[s := x])
  }

  /** Counting in a slot in use keeps the invariant. */
  lemma CountWf(t: Table, ndims: nat, K: nat, s: nat, x: Key)
    requires Wf(t, ndims, K) && s < t.last && |x| == ndims
    ensures Wf(Count(t, s, x), ndims, K)
  {
  }

  /**
   * One column of vl_ihashsum: locate the key's slot, then count the key
   * there and store it. The result is the new table and the slot.
   */
  function Insert(t: Table, ndims: nat, K: nat, x: Key): (r: (Table, nat))
    requires Wf(t, ndims, K) && |x| == ndims
    ensures Wf(r.0, ndims, K) && r.1 < r.0.last && r.0.id[r.1] == x
  {
    var (t1, s) := Locate(t, ndims, K, x);
    LocateWf(t, ndims, K, x);
    CountWf(t1, ndims, K, s, x);
    (Count(t1, s, x), s)
  }

  /**
   * Insertion keeps the invariant; the slot holds the key and its count
   * went up by one (modulo 2^32); every other slot keeps its key and count.
   */
  lemma InsertCounts(t: Table, ndims: nat, K: nat, x: Key)
    requires Wf(t, ndims, K) && |x| == ndims
    ensures var (r, s) := Insert(t, ndims, K, x);
      Wf(r, ndims, K) && s < |r.id| && |r.id| >= |t.id|
      && r.id[s] == x && r.h[s] == ((if s < |t.h| then t.h[s] else 0) + 1) % Word
      && (forall q :: 0 <= q < |t.id| && q != s ==> r.id[q] == t.id[q] && r.h[q] == t.h[q])
  {
    var (t1, s) := Locate(t, ndims, K, x);
    assert Wf(t1, ndims, K) && s < t1.last by {
      LocateWf(t, ndims, K, x);
    }
    LocateKeeps(t, ndims, K, x);
    CountWf(t1, ndims, K, s, x);
  }

  /** Locate keeps every old key and count, and the located slot's count is its old one, or 0 if new. */
  lemma LocateKeeps(t: Table, ndims: nat, K: nat, x: Key)
    requires Wf(t, ndims, K)
    ensures var (t1, s) := Locate(t, ndims, K, x);
      |t1.id| >= |t.id| && |t1.h| == |t1.id| && s < |t1.id|
      && (forall q :: 0 <= q < |t.id| ==> t1.id[q] == t.id[q] && t1.h[q] == t.h[q])
      && t1.h[s] == (if s < |t.h| then t.h[s] else 0)
  {
    LocateCases(t, ndims, K, x);
    var q := Walk(t.id, t.next, x, Probe(t.id, x, K).0);
    if Blocked(t.id, q, x) {
      var (t1, s) := Append(t, ndims, q);
      if s < |t.h| {
        assert t.h[s] == 0 && t1.h[s] == t.h[s];
      } else {
        var g := Grow(t, ndims);
        assert g.h[s] == (t.h + seq(Max(|t.id| / 2, 2), _ => 0))[s] == 0;
        assert t1.h[s] == g.h[s];
      }
    }
  }

  /* ------------------------------------------------------------------ */
  /*                                                            Lookup */
  /* ------------------------------------------------------------------ */

  /**
   * One column of vl_ihashfind: the all-zero key is never found;
   * otherwise the same probe and chain walk, and the 1-based slot if it
   * holds the key, else 0.
   */
  function Find(t: Table, ndims: nat, K: nat, x: Key): (r: nat)
    requires Wf(t, ndims, K)
    ensures r == 0 || (r - 1 < |t.id| && t.id[r - 1] == x && !IsNull(x))
  {
    if IsNull(x) then 0
    else
      var p := Probe(t.id, x, K).0;
      var q := Walk(t.id, t.next, x, p);
      if t.id[q] == x then q + 1 else 0
  }

  /** Insertion changes which slots block the key nowhere in the old table. */
  lemma InsertSameBlocked(t: Table, ndims: nat, K: nat, x: Key)
    requires Wf(t, ndims, K) && |x| == ndims
    ensures var r := Insert(t, ndims, K, x).0;
      forall q :: 0 <= q < |t.id| ==> Blocked(r.id, q, x) == Blocked(t.id, q, x)
  {
    InsertCounts(t, ndims, K, x);
    LocateWf(t, ndims, K, x);
  }

  /**
   * The links after an insertion: only the old chain end `q` changes, and
   * only when it is blocked, to point at the new slot; otherwise the key
   * goes into `q` itself.
   */
  lemma InsertLinks(t: Table, ndims: nat, K: nat, x: Key)
    requires Wf(t, ndims, K) && |x| == ndims
    ensures var q := Walk(t.id, t.next, x, Probe(t.id, x, K).0);
      var (r, s) := Insert(t, ndims, K, x);
      q < |t.id| && |t.id| <= |r.next|
      && (forall k :: 0 <= k < |t.id| && k != q ==> r.next[k] == t.next[k])
      && (Blocked(t.id, q, x) ==> r.next[q] == s + 1)
      && (!Blocked(t.id, q, x) ==> s == q)
  {
    LocateCases(t, ndims, K, x);
  }

  /**
   * Finding a key right after inserting it gives its slot: the search
   * retraces the insertion's probes and chain, now ending at the key.
   */
  lemma FindAfterInsert(t: Table, ndims: nat, K: nat, x: Key)
    requires Wf(t, ndims, K) && |x| == ndims && !IsNull(x)
    ensures var (r, s) := Insert(t, ndims, K, x);
      Wf(r, ndims, K) && Find(r, ndims, K, x) == s + 1
  {
    var (r, s) := Insert(t, ndims, K, x);
    InsertCounts(t, ndims, K, x);
    InsertSameBlocked(t, ndims, K, x);
    InsertLinks(t, ndims, K, x);
    var p := Probe(t.id, x, K).0;
    FoundAt(t, r, ndims, K, x, s, p, Walk(t.id, t.next, x, p));
  }

  /**
   * The search for `x` in a table that differs from `t` only by storing
   * `x` at `s` and linking the chain end to it, as an insertion does,
   * ends at `s`.
   */
  lemma FoundAt(t: Table, r: Table, ndims: nat, K: nat, x: Key, s: nat, p: nat, q: nat)
    requires Wf(t, ndims, K) && Wf(r, ndims, K) && !IsNull(x)
    requires s < |r.id| && r.id[s] == x && |t.id| <= |r.id|
    requires forall k :: 0 <= k < |t.id| ==> Blocked(r.id, k, x) == Blocked(t.id, k, x)
    requires p == Probe(t.id, x, K).0 && q == Walk(t.id, t.next, x, p)
    requires forall k :: 0 <= k < |t.id| && k != q ==> r.next[k] == t.next[k]
    requires Blocked(t.id, q, x) ==> r.next[q] == s + 1
    requires !Blocked(t.id, q, x) ==> s == q
    ensures Find(r, ndims, K, x) == s + 1
  {
    assert Probe(r.id, x, K).0 == p by {
      ProbeSame(t.id, r.id, x, K);
    }
    assert Walk(r.id, r.next, x, p) == s by {
      assert Forward(t.next, |t.id|) && Forward(r.next, |r.id|);
      WalkAfterInsert(t, r, x, p, q, s);
    }
    FindIs(r, ndims, K, x, p, s);
  }

  /** The probe only asks which of the first K slots block the key. */
  lemma ProbeSame(id: seq<Key>, id': seq<Key>, x: Key, K: nat)
    requires 0 < K <= |id| && K <= |id'| && K < Word
    requires forall q :: 0 <= q < K ==> Blocked(id, q, x) == Blocked(id', q, x)
    ensures Probe(id, x, K) == Probe(id', x, K)
  {
    var h0 := Start(x, K);
    assert Advance(h0, OddStep(h0), 0) == h0;
    ProbeLoopSame(id, id', x, K, h0, OddStep(h0), h0, 0);
  }

  /** The search ends at the slot its probe and walk reach, when that slot holds the key. */
  lemma FindIs(r: Table, ndims: nat, K: nat, x: Key, p: nat, s: nat)
    requires Wf(r, ndims, K) && !IsNull(x)
    requires p == Probe(r.id, x, K).0 && s == Walk(r.id, r.next, x, p) && r.id[s] == x
    ensures Find(r, ndims, K, x) == s + 1
  {
  }

  /**
   * The walk in the new table: it follows the old links through the
   * blocked slots up to the old chain end `q`, then the new link, if any,
   * to the slot `s` that now holds the key.
   */
  lemma {:induction false} WalkAfterInsert(t: Table, r: Table, x: Key, p: nat, q: nat, s: nat)
    requires |t.next| == |t.id| && |r.next| == |r.id| && |t.id| <= |r.id|
    requires Forward(t.next, |t.id|) && Forward(r.next, |r.id|)
    requires p < |t.id| && q == Walk(t.id, t.next, x, p)
    requires s < |r.id| && r.id[s] == x
    requires forall k :: 0 <= k < |t.id| ==> Blocked(r.id, k, x) == Blocked(t.id, k, x)
    requires forall k :: 0 <= k < |t.id| && k != q ==> r.next[k] == t.next[k]
    requires Blocked(t.id, q, x) ==> r.next[q] == s + 1
    requires !Blocked(t.id, q, x) ==> s == q
    ensures Walk(r.id, r.next, x, p) == s
    decreases |t.id| - p
  {
    if p == q {
      if Blocked(t.id, q, x) {
        assert Walk(r.id, r.next, x, p) == Walk(r.id, r.next, x, s);
      }
    } else {
      WalkAfterInsert(t, r, x, t.next[p] - 1, q, s);
    }
  }

  /**
   * Probing for a key whose probe ends at an occupied slot gives the same
   * result in any table that keeps every occupied slot of the first K.
   */
  lemma {:induction false} ProbeLoopKept(id: seq<Key>, id': seq<Key>, y: Key, K: nat, h0: nat, step: nat, h1: nat, j: nat)
    requires 0 < K <= |id| && K <= |id'| && j <= K && h1 == Advance(h0, step, j)
    requires forall q :: 0 <= q < K && !IsNull(id[q]) ==> id'[q] == id[q]
    requires var r := ProbeLoop(id, y, K, h0, step, h1, j); r.1 < K ==> !IsNull(id[r.0])
    ensures ProbeLoop(id', y, K, h0, step, h1, j) == ProbeLoop(id, y, K, h0, step, h1, j)
    decreases K - j
  {
    var p := h1 % K;
    if j < K && Blocked(id, p, y) {
      assert id'[p] == id[p];
      var h2 := (h1 + step) % Word;
      assert h2 == Advance(h0, step, j + 1);
      assert ProbeLoop(id, y, K, h0, step, h1, j) == ProbeLoop(id, y, K, h0, step, h2, j + 1);
      ProbeLoopKept(id, id', y, K, h0, step, h2, j + 1);
      assert ProbeLoop(id', y, K, h0, step, h1, j) == ProbeLoop(id', y, K, h0, step, h2, j + 1);
    } else {
      assert ProbeLoop(id, y, K, h0, step, h1, j) == (p, j);
      if j < K {
        assert id'[p] == id[p];
      }
      assert ProbeLoop(id', y, K, h0, step, h1, j) == (p, j);
    }
  }

  /**
   * A chain walk that ends at the key gives the same result in any table
   * that keeps every occupied slot and every link.
   */
  lemma {:induction false} WalkKept(id: seq<Key>, next: seq<nat>, id': seq<Key>, next': seq<nat>, y: Key, p: nat)
    requires |next| == |id| && |next'| == |id'| && |id| <= |id'| && p < |id|
    requires Forward(next, |id|) && Forward(next', |id'|) && !IsNull(y)
    requires id[Walk(id, next, y, p)] == y
    requires forall k :: 0 <= k < |id| && !IsNull(id[k]) ==> id'[k] == id[k]
    requires forall k :: 0 <= k < |id| && next[k] != 0 ==> next'[k] == next[k]
    ensures Walk(id', next', y, p) == Walk(id, next, y, p)
    decreases |id| - p
  {
    if Blocked(id, p, y) && next[p] != 0 {
      WalkKept(id, next, id', next', y, next[p] - 1);
    }
  }

  /** A key that is found stays found, in the same slot, when occupied slots and links are kept. */
  lemma FindKept(t: Table, r: Table, ndims: nat, K: nat, y: Key)
    requires Wf(t, ndims, K) && Wf(r, ndims, K) && |t.id| <= |r.id| && Find(t, ndims, K, y) != 0
    requires forall k :: 0 <= k < |t.id| && !IsNull(t.id[k]) ==> r.id[k] == t.id[k]
    requires forall k :: 0 <= k < |t.id| && t.next[k] != 0 ==> r.next[k] == t.next[k]
    ensures Find(r, ndims, K, y) == Find(t, ndims, K, y)
  {
    var h0 := Start(y, K);
    var p := Probe(t.id, y, K).0;
    assert !IsNull(t.id[p]);
    ProbeLoopKept(t.id, r.id, y, K, h0, OddStep(h0), h0, 0);
    WalkKept(t.id, t.next, r.id, r.next, y, p);
  }

  /* ------------------------------------------------------------------ */
  /*                                                   The MEX drivers */
  /* ------------------------------------------------------------------ */

  /** The argument errors the drivers raise, in the order they test them. */
  datatype ArgError =
    | TablesNotUint32 | KeysNotUint8 | NotRowVectors | IdNotUint8 | ColumnsDiffer | RowsDiffer
    | KNotScalar | KTooLarge | NextTooLarge

  /**
   * The shape checks of vl_ihashsum on H, ID, NEXT, K and X: H and NEXT
   * uint32 row vectors, X and ID uint8 with the same number of rows, H, ID
   * and NEXT with the same number of columns, K a plain scalar.
   */
  function CheckShapes(h: MexUtils.MxArray, id: MexUtils.MxArray, next: MexUtils.MxArray,
                       k: MexUtils.MxArray, x: MexUtils.MxArray): (r: Option<ArgError>)
    ensures r.None? <==>
      h.cls == MexUtils.Uint32Class && next.cls == MexUtils.Uint32Class
      && x.cls == MexUtils.Uint8Class && id.cls == MexUtils.Uint8Class
      && MexUtils.Rows(h) == 1 && MexUtils.Rows(next) == 1
      && MexUtils.Cols(h) == MexUtils.Cols(id) == MexUtils.Cols(next)
      && MexUtils.Rows(id) == MexUtils.Rows(x) && MexUtils.IsPlainScalar(k)
  {
    if !MexUtils.IsNumeric(h) || h.cls != MexUtils.Uint32Class
       || !MexUtils.IsNumeric(next) || next.cls != MexUtils.Uint32Class then Some(TablesNotUint32)
    else if !MexUtils.IsNumeric(x) || x.cls != MexUtils.Uint8Class then Some(KeysNotUint8)
    else if MexUtils.Rows(h) != 1 || MexUtils.Rows(next) != 1 then Some(NotRowVectors)
    else if !MexUtils.IsNumeric(id) || id.cls != MexUtils.Uint8Class then Some(IdNotUint8)
    else if MexUtils.Cols(h) != MexUtils.Cols(id) || MexUtils.Cols(h) != MexUtils.Cols(next) then Some(ColumnsDiffer)
    else if MexUtils.Rows(id) != MexUtils.Rows(x) then Some(RowsDiffer)
    else if !MexUtils.IsPlainScalar(k) then Some(KNotScalar)
    else None
  }

  function MaxOf(s: seq<nat>, from: nat): (m: nat)
    ensures forall q :: 0 <= q < |s| ==> s[q] <= Max(m, from)
    ensures m >= from && (m == from || exists q :: 0 <= q < |s| && s[q] == m)
    decreases |s|
  {
    if s == [] then from else Max(s[|s| - 1], MaxOf(s[..|s| - 1], from))
  }

  /**
   * The table the loop starts from: `last` is the largest of the size and
   * the NEXT entries, and K or a NEXT entry beyond the size is an error.
   * Well-formed input tables give a well-formed table with `last` equal to
   * the size, so the first append grows the tables.
   */
  function Initial(hv: seq<nat>, idv: seq<Key>, nextv: seq<nat>, K: nat): (r: Result<Table, ArgError>)
    requires |hv| == |idv| == |nextv|
    ensures r.Err? <==> K > |idv| || exists q :: 0 <= q < |nextv| && nextv[q] > |idv|
    ensures r.Err? ==> r.error == (if K > |idv| then KTooLarge else NextTooLarge)
    ensures r.Ok? ==> r.value == Table(hv, idv, nextv, |idv|)
  {
    var last := MaxOf(nextv, |idv|);
    if K > |idv| then Err(KTooLarge)
    else if last > |idv| then Err(NextTooLarge)
    else Ok(Table(hv, idv, nextv, last))
  }

  /** What the initial table needs to be well-formed, beyond the checks. */
  predicate GoodInput(hv: seq<nat>, idv: seq<Key>, nextv: seq<nat>, ndims: nat, K: nat)
  {
    |hv| == |idv| == |nextv| && 0 < K < Word
    && (forall q :: 0 <= q < |idv| ==> |idv[q]| == ndims && hv[q] < Word)
    && (forall q :: 0 <= q < |nextv| ==> nextv[q] == 0 || q + 1 < nextv[q])
  }

  lemma InitialWf(hv: seq<nat>, idv: seq<Key>, nextv: seq<nat>, ndims: nat, K: nat)
    requires GoodInput(hv, idv, nextv, ndims, K) && Initial(hv, idv, nextv, K).Ok?
    ensures Wf(Initial(hv, idv, nextv, K).value, ndims, K)
  {
  }

  /** The outputs keep only the first `last` slots. */
  function Truncate(t: Table): (r: Table)
    requires |t.h| == |t.id| == |t.next| && t.last <= |t.id|
    ensures |r.id| == t.last && r.last == t.last
  {
    Table(t.h[..t.last], t.id[..t.last], t.next[..t.last], t.last)
  }

  lemma TruncateWf(t: Table, ndims: nat, K: nat)
    requires Wf(t, ndims, K)
    ensures Wf(Truncate(t), ndims, K)
  {
  }

  /** Truncation drops only slots nobody uses: every key is found as before. */
  lemma TruncateKeepsFind(t: Table, ndims: nat, K: nat, x: Key)
    requires Wf(t, ndims, K)
    ensures Wf(Truncate(t), ndims, K) && Find(Truncate(t), ndims, K, x) == Find(t, ndims, K, x)
  {
    TruncateWf(t, ndims, K);
    var r := Truncate(t);
    if !IsNull(x) {
      var h0 := Start(x, K);
      ProbeLoopSame(t.id, r.id, x, K, h0, OddStep(h0), h0, 0);
      var p := Probe(t.id, x, K).0;
      WalkPrefix(t, r, x, p);
    }
  }

  /** The chain walk never leaves the slots in use, so cutting off the rest does not change it. */
  lemma {:induction false} WalkPrefix(t: Table, r: Table, x: Key, p: nat)
    requires |t.next| == |t.id| && Forward(t.next, |t.id|) && p < r.last <= |t.id|
    requires r.id == t.id[..r.last] && r.next == t.next[..r.last]
    requires forall q :: 0 <= q < |t.next| ==> t.next[q] <= r.last
    ensures Forward(r.next, |r.id|) && Walk(r.id, r.next, x, p) == Walk(t.id, t.next, x, p)
    decreases |t.id| - p
  {
    if Blocked(t.id, p, x) && t.next[p] != 0 {
      WalkPrefix(t, r, x, t.next[p] - 1);
    }
  }

  /** One insertion as the loop sees it: the invariant holds and the key is found in its slot. */
  lemma InsertStep(t: Table, ndims: nat, K: nat, x: Key)
    requires Wf(t, ndims, K) && |x| == ndims
    ensures var (r, s) := Insert(t, ndims, K, x);
      Wf(r, ndims, K) && s < r.last && t.last <= r.last && r.id[s] == x
      && (!IsNull(x) ==> Find(r, ndims, K, x) == s + 1)
  {
    InsertCounts(t, ndims, K, x);
    LocateWf(t, ndims, K, x);
    if !IsNull(x) {
      FindAfterInsert(t, ndims, K, x);
    }
  }

  /** What an insertion keeps: occupied slots keep their keys, and links are only added. */
  lemma InsertFrame(t: Table, ndims: nat, K: nat, x: Key)
    requires Wf(t, ndims, K) && |x| == ndims
    ensures var r := Insert(t, ndims, K, x).0;
      Wf(r, ndims, K) && |t.id| <= |r.id|
      && (forall q :: 0 <= q < |t.id| && !IsNull(t.id[q]) ==> r.id[q] == t.id[q])
      && (forall q :: 0 <= q < |t.id| && t.next[q] != 0 ==> r.next[q] == t.next[q])
  {
    InsertCounts(t, ndims, K, x);
    LocateWf(t, ndims, K, x);
    InsertLinks(t, ndims, K, x);
  }

  /** Every key that was found before an insertion is still found in the same slot. */
  lemma InsertKeepsFind(t: Table, ndims: nat, K: nat, x: Key, y: Key)
    requires Wf(t, ndims, K) && |x| == ndims && Find(t, ndims, K, y) != 0
    ensures Wf(Insert(t, ndims, K, x).0, ndims, K)
    ensures Find(Insert(t, ndims, K, x).0, ndims, K, y) == Find(t, ndims, K, y)
  {
    InsertFrame(t, ndims, K, x);
    FindKept(t, Insert(t, ndims, K, x).0, ndims, K, y);
  }

  /** After `n` columns: each one's slot is in use and, unless its key is all zeros, finds it. */
  predicate Recorded(t: Table, ndims: nat, K: nat, xs: seq<Key>, slots: seq<nat>, n: nat)
    requires Wf(t, ndims, K)
  {
    |slots| == n <= |xs|
    && (forall j :: 0 <= j < n ==> slots[j] < t.last)
    && (forall j :: 0 <= j < n && !IsNull(xs[j]) ==> Find(t, ndims, K, xs[j]) == slots[j] + 1)
  }

  /** Inserting the next column extends the record by its slot. */
  lemma RecordedStep(t: Table, ndims: nat, K: nat, xs: seq<Key>, slots: seq<nat>, n: nat)
    requires Wf(t, ndims, K) && Recorded(t, ndims, K, xs, slots, n) && n < |xs| && |xs[n]| == ndims
    ensures var (r, s) := Insert(t, ndims, K, xs[n]);
      Wf(r, ndims, K) && Recorded(r, ndims, K, xs, slots + [s], n + 1)
  {
    var (r, s) := Insert(t, ndims, K, xs[n]);
    InsertStep(t, ndims, K, xs[n]);
    var slots' := slots + [s];
    forall j | 0 <= j < n + 1
      ensures slots'[j] < r.last
    {
    }
    forall j | 0 <= j < n + 1 && !IsNull(xs[j])
      ensures Find(r, ndims, K, xs[j]) == slots'[j] + 1
    {
      if j < n {
        InsertKeepsFind(t, ndims, K, xs[n], xs[j]);
      }
    }
  }

  /** Truncation keeps the record. */
  lemma RecordedTruncate(t: Table, ndims: nat, K: nat, xs: seq<Key>, slots: seq<nat>)
    requires Wf(t, ndims, K) && Recorded(t, ndims, K, xs, slots, |xs|)
    ensures Wf(Truncate(t), ndims, K) && Recorded(Truncate(t), ndims, K, xs, slots, |xs|)
  {
    TruncateWf(t, ndims, K);
    forall j | 0 <= j < |xs| && !IsNull(xs[j])
      ensures Find(Truncate(t), ndims, K, xs[j]) == slots[j] + 1
    {
      TruncateKeepsFind(t, ndims, K, xs[j]);
    }
  }

  /**
   * vl_ihashsum after its checks: every column of X inserted in turn, the
   * outputs truncated to the slots in use. Each column's slot is reported;
   * unless the key is all zeros, the final table holds and finds it there.
   */
  method Sum(t0: Table, ndims: nat, K: nat, xs: seq<Key>) returns (r: Table, slots: seq<nat>)
    requires Wf(t0, ndims, K) && forall i :: 0 <= i < |xs| ==> |xs[i]| == ndims
    ensures Wf(r, ndims, K) && |r.id| == r.last && |slots| == |xs|
    ensures forall i :: 0 <= i < |xs| ==> slots[i] < r.last
    ensures forall i :: 0 <= i < |xs| && !IsNull(xs[i]) ==> r.id[slots[i]] == xs[i] && Find(r, ndims, K, xs[i]) == slots[i] + 1
  {
    var t := t0;
    slots := [];
    var i := 0;
    while i < |xs|
      invariant 0 <= i <= |xs| && Wf(t, ndims, K) && Recorded(t, ndims, K, xs, slots, i)
    {
      RecordedStep(t, ndims, K, xs, slots, i);
      var (t1, s) := Insert(t, ndims, K, xs[i]);
      t := t1;
      slots := slots + [s];
      i := i + 1;
    }
    RecordedTruncate(t, ndims, K, xs, slots);
    r := Truncate(t);
  }
}

=== FILE: ikmeans.dfy ===
/**
 * Integer k-means (vl/ikmeans.c): byte-valued points, integer centers and
 * Lloyd iterations that stop when a pass changes no assignment or after
 * the 200th recomputation. Points are rows of M coordinates; the random
 * permutation that picks the initial centers is a parameter.
 */
module IKMeans {

  /** `(idx_t) -1`: what a point is assigned to when there are no centers. */
  const NoCenter := 0xFFFF_FFFF

  /** npasses: the pass number at which the loop stops without convergence. */
  const MaxPasses := 200

  type Point = seq<int>

  /** Every point has M coordinates. */
  predicate Rows(ps: seq<Point>, M: nat)
  {
    forall j :: 0 <= j < |ps| ==> |ps[j]| == M
  }

  /** Every coordinate is a byte (data_t is unsigned char). */
  predicate Bytes(ps: seq<Point>)
  {
    forall j :: 0 <= j < |ps| ==> IsByteRow(ps[j])
  }

  predicate IsByteRow(p: Point)
  {
    forall i :: 0 <= i < |p| ==> 0 <= p[i] < 256
  }

  // ---------------------------------------------------------------------
  // Distances and the nearest center
  // ---------------------------------------------------------------------

  /** Squared Euclidean distance over the first m coordinates. */
  function SqDist(x: Point, c: Point, m: nat): (d: int)
    requires m <= |x| && m <= |c|
    ensures d >= 0
  {
    if m == 0 then 0
    else
      var delta := x[m - 1] - c[m - 1];
      assert delta * delta >= 0;
      SqDist(x, c, m - 1) + delta * delta
  }

  function Dist(x: Point, c: Point): int
    requires |x| == |c|
  {
    SqDist(x, c, |x|)
  }

  /** The distance vanishes exactly on equal points. */
  lemma {:induction false} SqDistZero(x: Point, c: Point, m: nat)
    requires m <= |x| && m <= |c|
    ensures SqDist(x, c, m) == 0 <==> x[..m] == c[..m]
    decreases m
  {
    if m > 0 {
      SqDistZero(x, c, m - 1);
      var delta := x[m - 1] - c[m - 1];
      assert delta * delta >= 0;
      assert delta != 0 ==> delta * delta > 0;
      assert x[..m] == x[..m - 1] + [x[m - 1]];
      assert c[..m] == c[..m - 1] + [c[m - 1]];
      if x[..m] == c[..m] {
        assert x[..m - 1] == x[..m][..m - 1];
        assert c[..m - 1] == c[..m][..m - 1];
      }
    }
  }

  /**
   * b is a nearest center to x, and every center before it is strictly
   * farther: the one the strict `<` comparison keeps.
   */
  predicate IsNearest(x: Point, cs: seq<Point>, b: nat)
    requires Rows(cs, |x|)
  {
    && b < |cs|
    && (forall k :: 0 <= k < |cs| ==> Dist(x, cs[b]) <= Dist(x, cs[k]))
    && (forall k :: 0 <= k < b ==> Dist(x, cs[b]) < Dist(x, cs[k]))
  }

  /** At most one center is the nearest in this sense. */
  lemma NearestUnique(x: Point, cs: seq<Point>, a: nat, b: nat)
    requires Rows(cs, |x|)
    requires IsNearest(x, cs, a) && IsNearest(x, cs, b)
    ensures a == b
  {
    var da, db := Dist(x, cs[a]), Dist(x, cs[b]);
    assert !(a < b);
    assert !(b < a);
  }

  /** The first of the nearest centers among cs[..k]. */
  function ArgMin(x: Point, cs: seq<Point>, k: nat): (b: nat)
    requires Rows(cs, |x|) && 0 < k <= |cs|
    ensures b < k
    ensures forall i :: 0 <= i < k ==> Dist(x, cs[b]) <= Dist(x, cs[i])
    ensures forall i :: 0 <= i < b ==> Dist(x, cs[b]) < Dist(x, cs[i])
  {
    if k == 1 then 0
    else
      var b := ArgMin(x, cs, k - 1);
      if Dist(x, cs[k - 1]) < Dist(x, cs[b]) then k - 1 else b
  }

  /** The center a point is assigned to, NoCenter when there is none. */
  function Nearest(x: Point, cs: seq<Point>): (b: nat)
    requires Rows(cs, |x|)
    ensures |cs| == 0 ==> b == NoCenter
    ensures |cs| > 0 ==> IsNearest(x, cs, b)
  {
    if |cs| == 0 then NoCenter else ArgMin(x, cs, |cs|)
  }

  /** The assignment of every point to its nearest center. */
  function Assign(data: seq<Point>, cs: seq<Point>, M: nat): (a: seq<nat>)
    requires Rows(data, M) && Rows(cs, M)
    ensures |a| == |data|
  {
    seq(|data|, j requires 0 <= j < |data| => Nearest(data[j], cs))
  }

  /**
   * The inner loops of vl_ikmeans_push and of a vl_ikmeans pass: the
   * distance to each center in turn, keeping the first strictly smaller one.
   */
  method NearestCenter(x: Point, cs: seq<Point>) returns (best: nat)
    requires Rows(cs, |x|) && |cs| <= NoCenter
    ensures |cs| == 0 ==> best == NoCenter
    ensures |cs| > 0 ==> IsNearest(x, cs, best)
  {
    best := NoCenter;
    var bestDist := 0;
    var k := 0;
    while k < |cs|
      invariant k <= |cs|
      invariant k == 0 <==> best == NoCenter
      invariant k > 0 ==> best < k && bestDist == Dist(x, cs[best])
      invariant k > 0 ==> forall i :: 0 <= i < k ==> bestDist <= Dist(x, cs[i])
      invariant k > 0 ==> forall i :: 0 <= i < best ==> bestDist < Dist(x, cs[i])
    {
      var dist := 0;
      var i := 0;
      while i < |x|
        invariant i <= |x|
        invariant dist == SqDist(x, cs[k], i)
      {
        var delta := x[i] - cs[k][i];
        dist := dist + delta * delta;
        i := i + 1;
      }
      if best == NoCenter || dist < bestDist {
        best := k;
        bestDist := dist;
      }
      k := k + 1;
    }
  }

  /** vl_ikmeans_push: every point gets its nearest center. */
  method Push(data: seq<Point>, cs: seq<Point>, M: nat) returns (asgn: seq<nat>)
    requires Rows(data, M) && Rows(cs, M) && |cs| <= NoCenter
    ensures |asgn| == |data|
    ensures |cs| == 0 ==> forall j :: 0 <= j < |data| ==> asgn[j] == NoCenter
    ensures |cs| > 0 ==> forall j :: 0 <= j < |data| ==> IsNearest(data[j], cs, asgn[j])
  {
    asgn := [];
    var j := 0;
    while j < |data|
      invariant j <= |data| && |asgn| == j
      invariant |cs| == 0 ==> forall q :: 0 <= q < j ==> asgn[q] == NoCenter
      invariant |cs| > 0 ==> forall q :: 0 <= q < j ==> IsNearest(data[q], cs, asgn[q])
    {
      var best := NearestCenter(data[j], cs);
      asgn := asgn + [best];
      j := j + 1;
    }
  }

  /** What Push computes is the assignment function. */
  lemma PushIsAssign(data: seq<Point>, cs: seq<Point>, M: nat, asgn: seq<nat>)
    requires Rows(data, M) && Rows(cs, M) && |cs| > 0
    requires |asgn| == |data|
    requires forall j :: 0 <= j < |data| ==> IsNearest(data[j], cs, asgn[j])
    ensures asgn == Assign(data, cs, M)
  {
    forall j | 0 <= j < |data|
      ensures asgn[j] == Assign(data, cs, M)[j]
    {
      NearestUnique(data[j], cs, asgn[j], Nearest(data[j], cs));
    }
  }

  /**
   * The assignment step of a vl_ikmeans pass: points are reassigned in
   * place, and the pass is done iff no assignment changed.
   */
  method AssignPass(data: seq<Point>, cs: seq<Point>, M: nat, asgn: seq<nat>)
    returns (asgn': seq<nat>, done: bool)
    requires Rows(data, M) && Rows(cs, M) && 0 < |cs| <= NoCenter
    requires |asgn| == |data|
    ensures asgn' == Assign(data, cs, M)
    ensures done <==> asgn' == asgn
  {
    done := true;
    asgn' := asgn;
    var j := 0;
    while j < |data|
      invariant j <= |data| && |asgn'| == |data|
      invariant forall q :: 0 <= q < j ==> IsNearest(data[q], cs, asgn'[q])
      invariant asgn'[j..] == asgn[j..]
      invariant done <==> asgn'[..j] == asgn[..j]
    {
      var best := NearestCenter(data[j], cs);
      if asgn'[j] != best {
        asgn' := asgn'[j := best];
        done := false;
        assert asgn'[..j + 1][j] != asgn[..j + 1][j];
      } else {
        assert asgn'[..j + 1] == asgn'[..j] + [asgn'[j]];
        assert asgn[..j + 1] == asgn[..j] + [asgn[j]];
        assert !done ==> asgn'[..j + 1][..j] != asgn[..j + 1][..j];
      }
      assert asgn'[j + 1..] == asgn'[j..][1..];
      j := j + 1;
    }
    assert asgn'[..j] == asgn';
    PushIsAssign(data, cs, M, asgn');
  }

  // ---------------------------------------------------------------------
  // Recomputing the centers
  // ---------------------------------------------------------------------

  /** Every point has a coordinate i. */
  predicate Wide(ps: seq<Point>, i: nat)
  {
    forall j :: 0 <= j < |ps| ==> i < |ps[j]|
  }

  /** How many of the first n points are assigned to k. */
  function Count(asgn: seq<nat>, k: nat, n: nat): (c: nat)
    requires n <= |asgn|
    ensures c <= n
  {
    if n == 0 then 0 else Count(asgn, k, n - 1) + (if asgn[n - 1] == k then 1 else 0)
  }

  /** Coordinate i summed over the first n points assigned to k. */
  function Sum(data: seq<Point>, asgn: seq<nat>, k: nat, i: nat, n: nat): int
    requires n <= |asgn| == |data| && Wide(data, i)
  {
    if n == 0 then 0
    else Sum(data, asgn, k, i, n - 1) + (if asgn[n - 1] == k then data[n - 1][i] else 0)
  }

  /** The byte points assigned to k sum to at most 255 per point. */
  lemma {:induction false} SumBound(data: seq<Point>, asgn: seq<nat>, k: nat, i: nat, n: nat)
    requires n <= |asgn| == |data| && Wide(data, i) && Bytes(data)
    ensures 0 <= Sum(data, asgn, k, i, n) <= 255 * Count(asgn, k, n)
    decreases n
  {
    if n > 0 {
      SumBound(data, asgn, k, i, n - 1);
      assert IsByteRow(data[n - 1]);
    }
  }

  /**
   * The center of cluster k after a pass: the per-coordinate integer
   * quotient sum/count, or the k-th permuted point when k is empty.
   */
  function Center(data: seq<Point>, asgn: seq<nat>, M: nat, perm: seq<nat>, k: nat): (c: Point)
    requires |asgn| == |data| && Rows(data, M)
    requires k < |perm| && perm[k] < |data|
    ensures |c| == M
  {
    var n := Count(asgn, k, |data|);
    if n > 0 then seq(M, i requires 0 <= i < M => Sum(data, asgn, k, i, |data|) / n)
    else data[perm[k]]
  }

  /** Indices drawn from the permutation of the data. */
  predicate Picks(perm: seq<nat>, N: nat)
  {
    forall j :: 0 <= j < |perm| ==> perm[j] < N
  }

  /** All K centers recomputed from an assignment. */
  function Update(data: seq<Point>, asgn: seq<nat>, M: nat, K: nat, perm: seq<nat>): (cs: seq<Point>)
    requires |asgn| == |data| && Rows(data, M)
    requires K <= |perm| && Picks(perm, |data|)
    ensures |cs| == K && Rows(cs, M)
  {
    seq(K, k requires 0 <= k < K => Center(data, asgn, M, perm, k))
  }

  /** Centers recomputed from byte data are byte-valued, so they stay comparable with the data. */
  lemma UpdateBytes(data: seq<Point>, asgn: seq<nat>, M: nat, K: nat, perm: seq<nat>)
    requires |asgn| == |data| && Rows(data, M) && Bytes(data)
    requires K <= |perm| && Picks(perm, |data|)
    ensures Bytes(Update(data, asgn, M, K, perm))
  {
    var cs := Update(data, asgn, M, K, perm);
    forall k | 0 <= k < K
      ensures IsByteRow(cs[k])
    {
      var n := Count(asgn, k, |data|);
      if n > 0 {
        forall i | 0 <= i < M
          ensures 0 <= cs[k][i] < 256
        {
          SumBound(data, asgn, k, i, |data|);
          DivBound(Sum(data, asgn, k, i, |data|), n);
        }
      } else {
        assert IsByteRow(data[perm[k]]);
      }
    }
  }

  lemma DivBound(s: int, n: int)
    requires n > 0 && 0 <= s <= 255 * n
    ensures 0 <= s / n < 256
  {
  }

  /** Each point is counted in exactly one of K clusters when every assignment is below K. */
  lemma {:induction false} CountsCover(asgn: seq<nat>, K: nat, n: nat)
    requires n <= |asgn|
    requires forall j :: 0 <= j < n ==> asgn[j] < K
    ensures Total(asgn, K, n) == n
    decreases n
  {
    if n > 0 {
      CountsCover(asgn, K, n - 1);
      TotalStep(asgn, K, n);
    } else {
      TotalNone(asgn, K);
    }
  }

  lemma {:induction false} TotalNone(asgn: seq<nat>, K: nat)
    ensures Total(asgn, K, 0) == 0
    decreases K
  {
    if K > 0 {
      TotalNone(asgn, K - 1);
    }
  }

  /** The counts of clusters 0 .. K-1 over the first n points, added up. */
  function Total(asgn: seq<nat>, K: nat, n: nat): nat
    requires n <= |asgn|
  {
    if K == 0 then 0 else Total(asgn, K - 1, n) + Count(asgn, K - 1, n)
  }

  /** Adding a point raises exactly the total of the clusters that include its own. */
  lemma {:induction false} TotalStep(asgn: seq<nat>, K: nat, n: nat)
    requires 0 < n <= |asgn|
    ensures Total(asgn, K, n) == Total(asgn, K, n - 1) + (if asgn[n - 1] < K then 1 else 0)
    decreases K
  {
    if K > 0 {
      TotalStep(asgn, K - 1, n);
      assert Count(asgn, K - 1, n) == Count(asgn, K - 1, n - 1) + (if asgn[n - 1] == K - 1 then 1 else 0);
    }
  }

  /** Row p added to row r, coordinate by coordinate. */
  function AddRow(r: Point, p: Point): (s: Point)
    requires |r| == |p|
    ensures |s| == |r|
    ensures forall i :: 0 <= i < |r| ==> s[i] == r[i] + p[i]
  {
    seq(|r|, i requires 0 <= i < |r| => r[i] + p[i])
  }

  /**
   * The recomputation step of vl_ikmeans: clear sums and counts,
   * accumulate every point into its cluster, then divide, or reset an
   * empty cluster to its permuted point.
   */
  method Recompute(data: seq<Point>, asgn: seq<nat>, M: nat, K: nat, perm: seq<nat>)
    returns (cs: seq<Point>)
    requires |asgn| == |data| && Rows(data, M)
    requires K <= |perm| && Picks(perm, |data|)
    requires forall j :: 0 <= j < |asgn| ==> asgn[j] < K
    ensures cs == Update(data, asgn, M, K, perm)
  {
    var sums: seq<Point> := seq(K, _ => seq(M, _ => 0));
    var counts: seq<nat> := seq(K, _ => 0);
    var j := 0;
    while j < |data|
      invariant j <= |data| && |sums| == K && |counts| == K && Rows(sums, M)
      invariant forall k :: 0 <= k < K ==> counts[k] == Count(asgn, k, j)
      invariant forall k, i :: 0 <= k < K && 0 <= i < M ==> sums[k][i] == Sum(data, asgn, k, i, j)
    {
      var c := asgn[j];
      counts := counts[c := counts[c] + 1];
      sums := sums[c := AddRow(sums[c], data[j])];
      j := j + 1;
    }
    cs := [];
    var k := 0;
    while k < K
      invariant k <= K && |cs| == k
      invariant forall q :: 0 <= q < k ==> cs[q] == Center(data, asgn, M, perm, q)
    {
      var n := counts[k];
      if n > 0 {
        cs := cs + [seq(M, i requires 0 <= i < M => sums[k][i] / n)];
      } else {
        cs := cs + [data[perm[k]]];
      }
      k := k + 1;
    }
  }

  // ---------------------------------------------------------------------
  // Training
  // ---------------------------------------------------------------------

  /** The initial centers: the data points at the first K permuted positions. */
  function Init(data: seq<Point>, perm: seq<nat>, K: nat): (cs: seq<Point>)
    requires K <= |perm| && Picks(perm, |data|)
    ensures |cs| == K
    ensures forall k :: 0 <= k < K ==> cs[k] == data[perm[k]]
  {
    seq(K, k requires 0 <= k < K => data[perm[k]])
  }

  /**
   * vl_ikmeans: alternate assignment passes and center recomputations.
   * The final assignment always matches the final centers. A stop before
   * the last allowed pass is a convergence: either the first pass left
   * `asgn0` unchanged, or the centers are the update of the assignment
   * they produce, a fixed point of the iteration.
   */
  method Train(data: seq<Point>, M: nat, K: nat, perm: seq<nat>, asgn0: seq<nat>)
    returns (cs: seq<Point>, asgn: seq<nat>, passes: nat)
    requires Rows(data, M) && 1 <= K <= |data| && K <= NoCenter
    requires |perm| == |data| && Picks(perm, |data|)
    requires |asgn0| == |data|
    ensures 1 <= passes <= MaxPasses + 1
    ensures |cs| == K && Rows(cs, M)
    ensures asgn == Assign(data, cs, M)
    ensures forall j :: 0 <= j < |asgn| ==> asgn[j] < K
    ensures Bytes(data) ==> Bytes(cs)
    ensures passes == 1 ==> cs == Init(data, perm, K)
    ensures passes == 1 && passes <= MaxPasses ==> asgn == asgn0
    ensures 1 < passes <= MaxPasses ==> cs == Update(data, asgn, M, K, perm)
  {
    cs := Init(data, perm, K);
    assert Bytes(data) ==> Bytes(cs) by {
      if Bytes(data) {
        forall k | 0 <= k < K ensures IsByteRow(cs[k]) { assert IsByteRow(data[perm[k]]); }
      }
    }
    asgn := asgn0;
    var pass := 0;
    while true
      invariant pass <= MaxPasses
      invariant |cs| == K && Rows(cs, M) && |asgn| == |data|
      invariant Bytes(data) ==> Bytes(cs)
      invariant pass == 0 ==> cs == Init(data, perm, K) && asgn == asgn0
      invariant pass > 0 ==> cs == Update(data, asgn, M, K, perm)
      decreases MaxPasses - pass
    {
      var done;
      var prev := asgn;
      asgn, done := AssignPass(data, cs, M, asgn);
      AssignBelow(data, cs, M, asgn);
      if done || pass == MaxPasses {
        passes := pass + 1;
        return;
      }
      cs := Recompute(data, asgn, M, K, perm);
      if Bytes(data) {
        UpdateBytes(data, asgn, M, K, perm);
      }
      pass := pass + 1;
    }
  }

  /** An assignment to non-empty centers names one of them. */
  lemma AssignBelow(data: seq<Point>, cs: seq<Point>, M: nat, asgn: seq<nat>)
    requires Rows(data, M) && Rows(cs, M) && |cs| > 0
    requires asgn == Assign(data, cs, M)
    ensures forall j :: 0 <= j < |asgn| ==> asgn[j] < |cs|
  {
    forall j | 0 <= j < |asgn|
      ensures asgn[j] < |cs|
    {
      assert IsNearest(data[j], cs, asgn[j]);
    }
  }
}

=== FILE: imintegral.dfy ===
/**
 * The integral image of vl/imopv.c (vl_imintegral). An image is a list of
 * rows, each row as long as the buffer's stride; only the first
 * imageWidth entries of a row are pixels. Sums are taken in the element
 * type: exactly, or wrapping modulo 2^32 for the vl_uint32 and vl_int32
 * instantiations.
 */
module ImIntegral {

  /** The arithmetic of the element type T. */
  datatype Arith = Exact | Unsigned32 | Signed32

  const Modulus: int := 0x1_0000_0000

  /** A mathematical sum as stored in T: unchanged, or reduced into the 32-bit range. */
  function Wrap(a: Arith, v: int): (r: int)
    ensures a == Exact ==> r == v
    ensures a == Unsigned32 ==> 0 <= r < Modulus
    ensures a == Signed32 ==> -0x8000_0000 <= r < 0x8000_0000
    ensures a != Exact ==> r % Modulus == v % Modulus
  {
    match a
    case Exact => v
    case Unsigned32 => v % Modulus
    case Signed32 => (v + 0x8000_0000) % Modulus - 0x8000_0000
  }

  /** Adding a multiple of the modulus changes no residue. */
  lemma ModShift(v: int, q: int)
    ensures (v + q * Modulus) % Modulus == v % Modulus
  {
  }

  /** Sums and differences of residues are residues of sums and differences. */
  lemma ModAddSub(u: int, v: int)
    ensures (u + v) % Modulus == (u % Modulus + v) % Modulus
    ensures (u - v) % Modulus == (u % Modulus - v) % Modulus
    ensures (u - v) % Modulus == (u - v % Modulus) % Modulus
  {
    ModShift(u % Modulus + v, u / Modulus);
    ModShift(u % Modulus - v, u / Modulus);
    ModShift(u - v % Modulus, -(v / Modulus));
  }

  /** A wrapped value depends only on the residue of the sum. */
  lemma WrapSame(a: Arith, u: int, v: int)
    requires a == Exact ==> u == v
    requires u % Modulus == v % Modulus
    ensures Wrap(a, u) == Wrap(a, v)
  {
    if a == Signed32 {
      ModAddSub(u, -0x8000_0000);
      ModAddSub(v, -0x8000_0000);
    }
  }

  /** Wrapping a partial sum before adding more gives the wrapped total. */
  lemma {:induction false} WrapAdd(a: Arith, u: int, v: int)
    ensures Wrap(a, Wrap(a, u) + v) == Wrap(a, u + v)
    ensures Wrap(a, u + Wrap(a, v)) == Wrap(a, u + v)
  {
    if a != Exact {
      ModAddSub(Wrap(a, u), v);
      ModAddSub(u, v);
      ModAddSub(v, u);
      ModAddSub(Wrap(a, v), u);
      WrapSame(a, Wrap(a, u) + v, u + v);
      WrapSame(a, u + Wrap(a, v), u + v);
    }
  }

  /** Sum of the first x entries of a row. */
  function RowSum(row: seq<int>, x: nat): int
    requires x <= |row|
  {
    if x == 0 then 0 else RowSum(row, x - 1) + row[x - 1]
  }

  /** Sum of the pixels with column below x and row below y. */
  function BoxSum(image: seq<seq<int>>, x: nat, y: nat): int
    requires y <= |image|
    requires forall r :: 0 <= r < |image| ==> x <= |image[r]|
  {
    if y == 0 then 0 else BoxSum(image, x, y - 1) + RowSum(image[y - 1], x)
  }

  /** Sum of the entries of a row in columns [a, b). */
  function RangeSum(row: seq<int>, a: nat, b: nat): int
    requires a <= b <= |row|
    decreases b - a
  {
    if a == b then 0 else row[a] + RangeSum(row, a + 1, b)
  }

  /** Sum of the pixels of the rectangle [x0, x1) × [y0, y1). */
  function RectSum(image: seq<seq<int>>, x0: nat, x1: nat, y0: nat, y1: nat): int
    requires x0 <= x1 && y0 <= y1 <= |image|
    requires forall r :: 0 <= r < |image| ==> x1 <= |image[r]|
    decreases y1 - y0
  {
    if y0 == y1 then 0 else RangeSum(image[y0], x0, x1) + RectSum(image, x0, x1, y0 + 1, y1)
  }

  predicate RowsAtLeast(rows: seq<seq<int>>, n: nat, w: nat)
  {
    n <= |rows| && forall r :: 0 <= r < |rows| ==> w <= |rows[r]|
  }

  /**
   * vl_imintegral: entry (x, y) of the result, for x below imageWidth and y
   * below imageHeight, is the sum of the pixels at or above-left of (x, y),
   * as stored in the element type; every other entry of the integral
   * buffer is left as it was.
   */
  method Integral(a: Arith, integral: seq<seq<int>>, image: seq<seq<int>>, imageWidth: nat, imageHeight: nat)
    returns (out: seq<seq<int>>)
    requires RowsAtLeast(image, imageHeight, imageWidth)
    requires RowsAtLeast(integral, imageHeight, imageWidth)
    ensures |out| == |integral|
    ensures forall y :: 0 <= y < |out| ==> |out[y]| == |integral[y]|
    ensures forall y, x :: 0 <= y < imageHeight && 0 <= x < imageWidth ==>
      out[y][x] == Wrap(a, BoxSum(image, x + 1, y + 1))
    ensures forall y, x :: 0 <= y < |out| && 0 <= x < |out[y]| && (y >= imageHeight || x >= imageWidth) ==>
      out[y][x] == integral[y][x]
  {
    out := integral;
    var y := 0;
    while y < imageHeight
      invariant y <= imageHeight && |out| == |integral|
      invariant forall r :: 0 <= r < |out| ==> |out[r]| == |integral[r]|
      invariant forall r, x :: 0 <= r < y && 0 <= x < imageWidth ==> out[r][x] == Wrap(a, BoxSum(image, x + 1, r + 1))
      invariant forall r, x :: 0 <= r < |out| && 0 <= x < |out[r]| && (r >= y || x >= imageWidth) ==>
        out[r][x] == integral[r][x]
    {
      var above := if y > 0 then out[y - 1] else [];
      var row := IntegralRow(a, image, imageWidth, y, above, out[y]);
      out := out[y := row];
      y := y + 1;
    }
  }

  /**
   * One row of the integral: the running sum of the image row, plus the
   * integral row above it from the second row on.
   */
  method IntegralRow(a: Arith, image: seq<seq<int>>, imageWidth: nat, y: nat, above: seq<int>, current: seq<int>)
    returns (row: seq<int>)
    requires RowsAtLeast(image, y + 1, imageWidth) && imageWidth <= |current|
    requires y > 0 ==> imageWidth <= |above|
    requires y > 0 ==> forall x :: 0 <= x < imageWidth ==> above[x] == Wrap(a, BoxSum(image, x + 1, y))
    ensures |row| == |current|
    ensures forall x :: 0 <= x < imageWidth ==> row[x] == Wrap(a, BoxSum(image, x + 1, y + 1))
    ensures forall x :: imageWidth <= x < |row| ==> row[x] == current[x]
  {
    row := current;
    var temp := 0;
    var x := 0;
    while x < imageWidth
      invariant x <= imageWidth && |row| == |current|
      invariant temp == Wrap(a, RowSum(image[y], x))
      invariant forall k :: 0 <= k < x ==> row[k] == Wrap(a, BoxSum(image, k + 1, y + 1))
      invariant forall k :: x <= k < |row| ==> row[k] == current[k]
    {
      IntegralStep(a, image, y, x);
      temp := Wrap(a, temp + image[y][x]);
      if y == 0 {
        row := row[x := temp];
      } else {
        row := row[x := Wrap(a, above[x] + temp)];
      }
      x := x + 1;
    }
  }

  /** One step of the row loop, in the element type. */
  lemma IntegralStep(a: Arith, image: seq<seq<int>>, y: nat, x: nat)
    requires RowsAtLeast(image, y + 1, x + 1)
    ensures Wrap(a, Wrap(a, RowSum(image[y], x)) + image[y][x]) == Wrap(a, RowSum(image[y], x + 1))
    ensures y == 0 ==> Wrap(a, RowSum(image[y], x + 1)) == Wrap(a, BoxSum(image, x + 1, y + 1))
    ensures y > 0 ==>
      Wrap(a, Wrap(a, BoxSum(image, x + 1, y)) + Wrap(a, RowSum(image[y], x + 1))) == Wrap(a, BoxSum(image, x + 1, y + 1))
  {
    var r1 := RowSum(image[y], x + 1);
    if y == 0 {
      WrapAdd(a, RowSum(image[y], x), image[y][x]);
    } else {
      WrapStep(a, RowSum(image[y], x), image[y][x], r1, BoxSum(image, x + 1, y), BoxSum(image, x + 1, y + 1));
    }
  }

  /** The two additions of a loop step, each taken in T, agree with the exact sums. */
  lemma WrapStep(a: Arith, r0: int, p: int, r1: int, b: int, b1: int)
    requires r1 == r0 + p && b1 == b + r1
    ensures Wrap(a, Wrap(a, r0) + p) == Wrap(a, r1)
    ensures Wrap(a, Wrap(a, b) + Wrap(a, r1)) == Wrap(a, b1)
  {
    WrapAdd(a, r0, p);
    WrapBoth(a, b, r1);
  }

  /** Wrapping both terms of a sum gives the wrapped sum. */
  lemma WrapBoth(a: Arith, u: int, v: int)
    ensures Wrap(a, Wrap(a, u) + Wrap(a, v)) == Wrap(a, u + v)
  {
    WrapAdd(a, u, Wrap(a, v));
    WrapAdd(a, u, v);
  }

  /** A column range is the difference of two prefix sums. */
  lemma {:induction false} RangeAsPrefix(row: seq<int>, a: nat, b: nat)
    requires a <= b <= |row|
    ensures RangeSum(row, a, b) == RowSum(row, b) - RowSum(row, a)
    decreases b - a
  {
    if a < b {
      RangeAsPrefix(row, a, b - 1);
      RangeLast(row, a, b);
    }
  }

  lemma {:induction false} RangeLast(row: seq<int>, a: nat, b: nat)
    requires a < b <= |row|
    ensures RangeSum(row, a, b) == RangeSum(row, a, b - 1) + row[b - 1]
    decreases b - a
  {
    if a + 1 < b {
      RangeLast(row, a + 1, b);
    }
  }

  /**
   * The rectangle identity: the pixel sum over [x0, x1] × [y0, y1] is
   * J(x1, y1) - J(x0 - 1, y1) - J(x1, y0 - 1) + J(x0 - 1, y0 - 1), where
   * J(x, y) = BoxSum(x + 1, y + 1) and J is 0 when a coordinate is -1.
   */
  lemma {:induction false} RectangleFromIntegral(image: seq<seq<int>>, x0: nat, x1: nat, y0: nat, y1: nat)
    requires x0 <= x1 && y0 <= y1 < |image|
    requires forall r :: 0 <= r < |image| ==> x1 < |image[r]|
    ensures RectSum(image, x0, x1 + 1, y0, y1 + 1)
      == BoxSum(image, x1 + 1, y1 + 1) - BoxSum(image, x0, y1 + 1)
       - BoxSum(image, x1 + 1, y0) + BoxSum(image, x0, y0)
    decreases y1 - y0
  {
    RangeAsPrefix(image[y0], x0, x1 + 1);
    if y0 < y1 {
      RectangleFromIntegral(image, x0, x1, y0 + 1, y1);
    }
  }

  /**
   * The rectangle identity evaluated in the element type, in the order the
   * documentation prescribes, (J(x'',y'') - J(x'-1,y'')) - (J(x'',y'-1) -
   * J(x'-1,y'-1)), on the stored entries: it yields the rectangle's pixel
   * sum as stored in the element type, so a wrapped uint32 or int32
   * integral still gives exact sums that fit the type.
   */
  lemma RectangleWrapped(a: Arith, image: seq<seq<int>>, x0: nat, x1: nat, y0: nat, y1: nat)
    requires x0 <= x1 && y0 <= y1 < |image|
    requires forall r :: 0 <= r < |image| ==> x1 < |image[r]|
    ensures var j11, j01 := Wrap(a, BoxSum(image, x1 + 1, y1 + 1)), Wrap(a, BoxSum(image, x0, y1 + 1));
      var j10, j00 := Wrap(a, BoxSum(image, x1 + 1, y0)), Wrap(a, BoxSum(image, x0, y0));
      Wrap(a, Wrap(a, j11 - j01) - Wrap(a, j10 - j00)) == Wrap(a, RectSum(image, x0, x1 + 1, y0, y1 + 1))
  {
    RectangleFromIntegral(image, x0, x1, y0, y1);
    WrapCorners(a, BoxSum(image, x1 + 1, y1 + 1), BoxSum(image, x0, y1 + 1), BoxSum(image, x1 + 1, y0), BoxSum(image, x0, y0),
      RectSum(image, x0, x1 + 1, y0, y1 + 1));
  }

  /** The four-corner combination, taken in T, is the wrapped exact combination. */
  lemma WrapCorners(a: Arith, b11: int, b01: int, b10: int, b00: int, sum: int)
    requires sum == b11 - b01 - b10 + b00
    ensures Wrap(a, Wrap(a, Wrap(a, b11) - Wrap(a, b01)) - Wrap(a, Wrap(a, b10) - Wrap(a, b00))) == Wrap(a, sum)
  {
    WrapDiff(a, b11, b01);
    WrapDiff(a, b10, b00);
    WrapDiff(a, b11 - b01, b10 - b00);
  }

  /** The wrapped difference of two wrapped values is the wrapped difference. */
  lemma WrapDiff(a: Arith, u: int, v: int)
    ensures Wrap(a, Wrap(a, u) - Wrap(a, v)) == Wrap(a, u - v)
  {
    if a != Exact {
      ModAddSub(Wrap(a, u), Wrap(a, v));
      ModAddSub(u, Wrap(a, v));
      ModAddSub(u, v);
      ModAddSub(Wrap(a, u), v);
      WrapSame(a, Wrap(a, u) - Wrap(a, v), u - v);
    }
  }
}

=== FILE: kdtree.dfy ===
/**
 * The MATLAB conversion of kd-tree nodes in toolbox/misc/kdtree.h: child
 * indices, split dimensions and data indices are stored one-based, and a
 * converted tree is checked by a counting walk from the root that also
 * restores the parent links.
 *
 * A child index >= 0 names a node; a negative one encodes a leaf range and
 * is passed through unchanged.
 */
module KdTree {
  import opened Wrappers

  const UInt32Modulus: int := 0x1_0000_0000

  datatype Node = Node(lower: int, upper: int, splitDimension: nat, parent: int)

  /** Child index as written to MATLAB. */
  function EncodeChild(a: int): (u: int)
    ensures a >= 0 ==> u == a + 1 && u >= 1
    ensures a < 0 ==> u == a
  {
    if a >= 0 then a + 1 else a
  }

  /** Child index as read back from MATLAB. */
  function DecodeChild(u: int): (a: int)
    ensures u >= 1 ==> a == u - 1 && a >= 0
    ensures u < 1 ==> a == u
  {
    if u >= 1 then u - 1 else u
  }

  lemma ChildRoundTrip(a: int)
    ensures DecodeChild(EncodeChild(a)) == a
  {
  }

  /**
   * A stored child index decodes to a node iff it is not negative; the
   * stored 0, which encoding never produces, decodes to the root.
   */
  lemma DecodeChildIsNode(u: int)
    ensures DecodeChild(u) >= 0 <==> u >= 0
    ensures DecodeChild(0) == 0
  {
  }

  /** Split dimension and data index are stored plus one. */
  function EncodeIndex(i: nat): (u: nat)
    ensures u >= 1
  {
    i + 1
  }

  /**
   * Reading back a uint32 value minus one, in uint32 arithmetic: 0 wraps
   * to 0xFFFFFFFF.
   */
  function DecodeIndexAsWritten(u: nat): (i: nat)
    requires u < UInt32Modulus
    ensures i < UInt32Modulus
    ensures u >= 1 ==> i == u - 1
    ensures u == 0 ==> i == UInt32Modulus - 1
  {
    (u - 1) % UInt32Modulus
  }

  lemma IndexRoundTrip(i: nat)
    requires i + 1 < UInt32Modulus
    ensures DecodeIndexAsWritten(EncodeIndex(i)) == i
  {
  }

  datatype Stored = Stored(lower: int, upper: int, splitDimension: nat)

  function EncodeNode(n: Node): (s: Stored)
    ensures DecodeChild(s.lower) == n.lower && DecodeChild(s.upper) == n.upper
  {
    Stored(EncodeChild(n.lower), EncodeChild(n.upper), EncodeIndex(n.splitDimension))
  }

  /**
   * The per-node range checks and decoding of the source: the upper child
   * may be as low as -numData-1, the lower child as low as -numData, both
   * at most numUsedNodes, and the split dimension at most dimension. The
   * split dimension 0 passes the check and decodes to 0xFFFFFFFF.
   */
  function DecodeNodeAsWritten(s: Stored, numData: nat, numUsedNodes: nat, dimension: nat): (r: Result<Node, string>)
    requires s.splitDimension < UInt32Modulus
    ensures r.Ok? <==>
      -(numData as int) - 1 <= s.upper <= numUsedNodes && -(numData as int) <= s.lower <= numUsedNodes
      && s.splitDimension <= dimension
    ensures r.Ok? && numUsedNodes >= 1 ==> r.value.lower < numUsedNodes && r.value.upper < numUsedNodes
  {
    if s.upper < -(numData as int) - 1 || s.upper > numUsedNodes then Err("UPPERCHILD out of bounds")
    else if s.lower < -(numData as int) || s.lower > numUsedNodes then Err("LOWERCHILD out of bounds")
    else if s.splitDimension > dimension then Err("SPLITDIMENSION out of bounds")
    else Ok(Node(DecodeChild(s.lower), DecodeChild(s.upper), DecodeIndexAsWritten(s.splitDimension), 0))
  }

  /** The stored split dimension 0 is accepted and decodes out of range. */
  lemma SplitDimensionZeroAccepted(dimension: nat)
    requires dimension < UInt32Modulus - 1
    ensures var r := DecodeNodeAsWritten(Stored(-1, -1, 0), 1, 1, dimension);
      r.Ok? && r.value.splitDimension == UInt32Modulus - 1 && r.value.splitDimension >= dimension
  {
  }

  /** The check as intended: a split dimension is a one-based index in [1, dimension]. */
  function DecodeNode(s: Stored, numData: nat, numUsedNodes: nat, dimension: nat): (r: Result<Node, string>)
    ensures r.Ok? <==>
      -(numData as int) - 1 <= s.upper <= numUsedNodes && -(numData as int) <= s.lower <= numUsedNodes
      && 1 <= s.splitDimension <= dimension
    ensures r.Ok? ==> r.value.splitDimension < dimension
  {
    if s.upper < -(numData as int) - 1 || s.upper > numUsedNodes then Err("UPPERCHILD out of bounds")
    else if s.lower < -(numData as int) || s.lower > numUsedNodes then Err("LOWERCHILD out of bounds")
    else if s.splitDimension < 1 || s.splitDimension > dimension then Err("SPLITDIMENSION out of bounds")
    else Ok(Node(DecodeChild(s.lower), DecodeChild(s.upper), s.splitDimension - 1, 0))
  }

  /** A node whose fields are in range survives encoding and checked decoding. */
  lemma NodeRoundTrip(n: Node, numData: nat, numUsedNodes: nat, dimension: nat)
    requires -(numData as int) - 1 <= n.upper < numUsedNodes && -(numData as int) <= n.lower < numUsedNodes
    requires n.splitDimension < dimension && n.parent == 0
    ensures DecodeNode(EncodeNode(n), numData, numUsedNodes, dimension) == Ok(n)
  {
  }

  /* ------------------------------------------------------------------ */
  /*                                                 Consistency walk    */
  /* ------------------------------------------------------------------ */

  predicate ChildrenInRange(nodes: seq<Node>)
  {
    forall i :: 0 <= i < |nodes| ==> nodes[i].lower < |nodes| && nodes[i].upper < |nodes|
  }

  /** Same nodes except, possibly, for their parent fields. */
  predicate SameShape(a: seq<Node>, b: seq<Node>)
  {
    |a| == |b|
    && forall i :: 0 <= i < |a| ==>
      a[i].lower == b[i].lower && a[i].upper == b[i].upper && a[i].splitDimension == b[i].splitDimension
  }

  /** Every parent field of `b` is the one of `a` or names a node with that child. */
  predicate ParentsTrue(a: seq<Node>, b: seq<Node>)
    requires |a| == |b|
  {
    forall j :: 0 <= j < |b| ==>
      b[j].parent == a[j].parent
      || (0 <= b[j].parent < |a| && (a[b[j].parent].lower == j || a[b[j].parent].upper == j))
  }

  /**
   * restore_parent_recursively: visiting a node with no budget left is an
   * error; otherwise it uses one unit of budget, then links and visits the
   * lower child and the upper one. The result carries the updated nodes
   * and the budget left.
   */
  function Restore(nodes: seq<Node>, idx: nat, budget: nat): (r: Result<(seq<Node>, nat), string>)
    requires idx < |nodes| && ChildrenInRange(nodes)
    ensures r.Ok? ==> r.value.1 < budget && SameShape(nodes, r.value.0)
    ensures r.Ok? ==> ChildrenInRange(r.value.0) && ParentsTrue(nodes, r.value.0)
    decreases budget, 0
  {
    if budget == 0 then Err("inconsistent tree structure")
    else
      var r1 := RestoreChild(nodes, idx, nodes[idx].lower, budget - 1);
      if r1.Err? then r1
      else RestoreChild(r1.value.0, idx, nodes[idx].upper, r1.value.1)
  }

  /** One child of restore_parent_recursively: a node child gets its parent set and is visited. */
  function RestoreChild(nodes: seq<Node>, idx: nat, child: int, budget: nat): (r: Result<(seq<Node>, nat), string>)
    requires idx < |nodes| && ChildrenInRange(nodes)
    requires child == nodes[idx].lower || child == nodes[idx].upper
    ensures r.Ok? ==> r.value.1 <= budget && SameShape(nodes, r.value.0)
    ensures r.Ok? ==> ChildrenInRange(r.value.0) && ParentsTrue(nodes, r.value.0)
    ensures child < 0 ==> r == Ok((nodes, budget))
    decreases budget, 1
  {
    if child < 0 then Ok((nodes, budget))
    else
      var linked := nodes[child := nodes[child].(parent := idx)];
      var r := Restore(linked, child, budget);
      if r.Ok? then
        ParentsTrueLink(nodes, linked, r.value.0, idx, child);
        r
      else r
  }

  /** Linking a child to its parent and then setting true parents keeps parents true. */
  lemma ParentsTrueLink(a: seq<Node>, linked: seq<Node>, b: seq<Node>, idx: nat, child: nat)
    requires idx < |a| && child < |a| && (child == a[idx].lower || child == a[idx].upper)
    requires linked == a[child := a[child].(parent := idx)]
    requires SameShape(a, b) && SameShape(linked, b) && ParentsTrue(linked, b)
    ensures ParentsTrue(a, b)
  {
    forall j | 0 <= j < |b|
      ensures b[j].parent == a[j].parent
        || (0 <= b[j].parent < |a| && (a[b[j].parent].lower == j || a[b[j].parent].upper == j))
    {
      if b[j].parent != linked[j].parent {
        var p := b[j].parent;
        assert linked[p].lower == a[p].lower && linked[p].upper == a[p].upper;
      }
    }
  }

  /**
   * Number of nodes the walk from idx visits, counting repeats, when that
   * number is at most the budget; None when the walk needs more.
   */
  function WalkSize(nodes: seq<Node>, idx: nat, budget: nat): (r: Option<nat>)
    requires idx < |nodes| && ChildrenInRange(nodes)
    ensures r.Some? ==> 1 <= r.value <= budget
    decreases budget, 0
  {
    if budget == 0 then None
    else
      var s1 := WalkChild(nodes, nodes[idx].lower, budget - 1);
      if s1.None? then None
      else
        var s2 := WalkChild(nodes, nodes[idx].upper, budget - 1 - s1.value);
        if s2.None? then None
        else Some(1 + s1.value + s2.value)
  }

  function WalkChild(nodes: seq<Node>, child: int, budget: nat): (r: Option<nat>)
    requires child < |nodes| && ChildrenInRange(nodes)
    ensures r.Some? ==> r.value <= budget
    decreases budget, 1
  {
    if child < 0 then Some(0) else WalkSize(nodes, child, budget)
  }

  /** The walk only reads children, so parent fields do not change its size. */
  lemma {:induction false} WalkSizeShape(a: seq<Node>, b: seq<Node>, idx: nat, budget: nat)
    requires idx < |a| && ChildrenInRange(a) && ChildrenInRange(b) && SameShape(a, b)
    ensures WalkSize(a, idx, budget) == WalkSize(b, idx, budget)
    decreases budget
  {
    if budget > 0 {
      if a[idx].lower >= 0 {
        WalkSizeShape(a, b, a[idx].lower, budget - 1);
      }
      var s1 := WalkChild(a, a[idx].lower, budget - 1);
      if s1.Some? && a[idx].upper >= 0 {
        WalkSizeShape(a, b, a[idx].upper, budget - 1 - s1.value);
      }
    }
  }

  /** Changing one parent field keeps the shape. */
  lemma SetParentShape(nodes: seq<Node>, child: nat, p: int)
    requires child < |nodes| && ChildrenInRange(nodes)
    ensures SameShape(nodes, nodes[child := nodes[child].(parent := p)])
    ensures ChildrenInRange(nodes[child := nodes[child].(parent := p)])
  {
  }

  /**
   * The restoring walk succeeds exactly when the pure count fits in the
   * budget, and it leaves the budget minus that count.
   */
  lemma {:induction false} RestoreCounts(nodes: seq<Node>, idx: nat, budget: nat)
    requires idx < |nodes| && ChildrenInRange(nodes)
    ensures Restore(nodes, idx, budget).Ok? <==> WalkSize(nodes, idx, budget).Some?
    ensures Restore(nodes, idx, budget).Ok? ==>
      Restore(nodes, idx, budget).value.1 == budget - WalkSize(nodes, idx, budget).value
    decreases budget, 0
  {
    if budget > 0 {
      var n := nodes[idx];
      ChildCounts(nodes, idx, n.lower, budget - 1);
      var r1 := RestoreChild(nodes, idx, n.lower, budget - 1);
      if r1.Ok? {
        var (nodes1, budget1) := r1.value;
        assert nodes1[idx].upper == n.upper;
        ChildCounts(nodes1, idx, n.upper, budget1);
        if n.upper >= 0 {
          WalkSizeShape(nodes, nodes1, n.upper, budget1);
        }
      }
    }
  }

  lemma {:induction false} ChildCounts(nodes: seq<Node>, idx: nat, child: int, budget: nat)
    requires idx < |nodes| && ChildrenInRange(nodes)
    requires child == nodes[idx].lower || child == nodes[idx].upper
    ensures RestoreChild(nodes, idx, child, budget).Ok? <==> WalkChild(nodes, child, budget).Some?
    ensures RestoreChild(nodes, idx, child, budget).Ok? ==>
      RestoreChild(nodes, idx, child, budget).value.1 == budget - WalkChild(nodes, child, budget).value
    decreases budget, 1
  {
    if child >= 0 {
      var linked := nodes[child := nodes[child].(parent := idx)];
      SetParentShape(nodes, child, idx);
      WalkSizeShape(nodes, linked, child, budget);
      RestoreCounts(linked, child, budget);
    }
  }

  /**
   * The conversion's final check: the walk from the root with a budget of
   * numUsedNodes must end with nothing left. Visiting too many nodes fails
   * inside the walk, too few after it.
   */
  function CheckTree(nodes: seq<Node>): (r: Result<seq<Node>, string>)
    requires |nodes| >= 1 && ChildrenInRange(nodes)
    ensures r.Ok? ==> SameShape(nodes, r.value) && ParentsTrue(nodes, r.value)
  {
    var w := Restore(nodes, 0, |nodes|);
    if w.Err? then Err(w.error)
    else if w.value.1 != 0 then Err("TREE has an inconsistent tree structure.")
    else Ok(w.value.0)
  }

  /** A tree is accepted iff the walk from the root visits exactly numUsedNodes nodes. */
  lemma CheckTreeCounts(nodes: seq<Node>)
    requires |nodes| >= 1 && ChildrenInRange(nodes)
    ensures CheckTree(nodes).Ok? <==> WalkSize(nodes, 0, |nodes|) == Some(|nodes|)
  {
    RestoreCounts(nodes, 0, |nodes|);
    var w := Restore(nodes, 0, |nodes|);
    var s := WalkSize(nodes, 0, |nodes|);
    assert w.Ok? <==> s.Some?;
    assert CheckTree(nodes).Ok? <==> w.Ok? && w.value.1 == 0;
  }

  /** A root whose two children are leaves is accepted. */
  lemma ThreeNodeTree()
    ensures CheckTree([Node(1, 2, 0, 0), Node(-1, -2, 0, 0), Node(-2, -3, 0, 0)]).Ok?
  {
    var t := [Node(1, 2, 0, 0), Node(-1, -2, 0, 0), Node(-2, -3, 0, 0)];
    assert WalkSize(t, 1, 2) == Some(1);
    assert WalkSize(t, 2, 1) == Some(1);
    assert WalkSize(t, 0, 3) == Some(3);
    CheckTreeCounts(t);
  }

  /** A root naming the same node as both children is refused: the walk needs one node too many. */
  lemma SharedChildTree()
    ensures CheckTree([Node(1, 1, 0, 0), Node(-1, -2, 0, 0)]).Err?
  {
    var u := [Node(1, 1, 0, 0), Node(-1, -2, 0, 0)];
    assert WalkSize(u, 1, 1) == Some(1);
    assert WalkSize(u, 1, 0) == None;
    assert WalkSize(u, 0, 2) == None;
    CheckTreeCounts(u);
  }
}

=== FILE: lbp.dfy ===
// The pattern tables of vl/lbp.c: the 58-bin uniform mapping built by
// `_vl_lbp_init_uniform` (optionally for transposed images), the 8-bit
// neighbour comparison of `vl_lbp_process` and its cell grid. Patterns are
// `bv16`: every intermediate value the table code forms stays below 2^15,
// so 16 bits hold the C `unsigned int` exactly. Pixel values are reals;
// the bilinear cell weights and the normalisation are left out.

module Lbp {

  const Dimension := 58

  /** Bit `b` of `x`. */
  predicate Bit(x: bv16, b: bv16)
    requires b < 16
  {
    (x >> b) & 1 == 1
  }

  /** A run of j ones rotated left by i within 8 bits, computed as the table loop does. */
  function Run(i: bv16, j: bv16): bv16
    requires i < 8 && 1 <= j <= 7
  {
    var s := ((1 << j) - 1) << i;
    (s | (s >> 8)) & 0xff
  }

  /** Bit b of the run is set exactly when b lies in the j positions from i on, cyclically. */
  lemma RunBits(i: bv16, j: bv16, b: bv16)
    requires i < 8 && 1 <= j <= 7 && b < 16
    ensures Bit(Run(i, j), b) <==> b < 8 && ((b - i) & 7) < j
  {
  }

  /** The byte with bit k moved to bit 7 - k. */
  function Mirror(x: bv16): bv16
  {
    ((x >> 7) & 1) | (((x >> 6) & 1) << 1) | (((x >> 5) & 1) << 2) | (((x >> 4) & 1) << 3)
    | (((x >> 3) & 1) << 4) | (((x >> 2) & 1) << 5) | (((x >> 1) & 1) << 6) | ((x & 1) << 7)
  }

  /**
   * The transposed pattern: mirrored left-right, then rotated left by 3,
   * which turns the E, SE, S, ... neighbour order of a row-major image
   * into that of a column-major one.
   */
  function Transposed(x: bv16): bv16
  {
    var s := Mirror(x) << 3;
    (s | (s >> 8)) & 0xff
  }

  /** The bit-reversal loop of `_vl_lbp_init_uniform` followed by the rotation. */
  method Transpose(original: bv16) returns (s: bv16)
    requires original < 256
    ensures s == Transposed(original)
  {
    var o := original;
    s := 0;
    var k: bv16 := 0;
    while k < 8
      invariant k <= 8
      invariant o == original >> k
      invariant s == Mirror(original) >> (8 - k)
    {
      MirrorStep(original, k);
      s := (s << 1) | (o & 1);
      o := o >> 1;
      k := k + 1;
    }
    s := s << 3;
    s := (s | (s >> 8)) & 0xff;
  }

  /** One round of the reversal loop moves the next low bit of `x` in at the bottom. */
  lemma MirrorStep(x: bv16, k: bv16)
    requires x < 256 && k < 8
    ensures ((Mirror(x) >> (8 - k)) << 1) | ((x >> k) & 1) == Mirror(x) >> (7 - k)
    ensures (x >> k) >> 1 == x >> (k + 1)
  {
  }

  /** Bit b of a transposed pattern is bit 7 - ((b - 3) mod 8) of the original. */
  lemma TransposedBits(x: bv16, b: bv16)
    requires x < 256 && b < 8
    ensures Bit(Transposed(x), b) <==> Bit(x, 7 - ((b - 3) & 7))
  {
  }

  /** The pattern that receives bin i·7 + (j - 1). */
  function Pattern(transposed: bool, i: bv16, j: bv16): bv16
    requires Pair(i, j)
  {
    if transposed then Transposed(Run(i, j)) else Run(i, j)
  }

  /** The 56 patterns are distinct bytes, and none is 0x00 or 0xff. */
  lemma PatternsDistinct(t: bool, i: bv16, j: bv16, i2: bv16, j2: bv16)
    requires Pair(i, j) && Pair(i2, j2)
    ensures 0 < Pattern(t, i, j) < 255
    ensures Pattern(t, i, j) == Pattern(t, i2, j2) ==> i == i2 && j == j2
  {
    PatternNonConstant(t, i, j);
    PatternInjective(t, i, j, i2, j2);
  }

  lemma PatternNonConstant(t: bool, i: bv16, j: bv16)
    requires Pair(i, j)
    ensures 0 < Pattern(t, i, j) < 255
  {
  }

  lemma PatternInjective(t: bool, i: bv16, j: bv16, i2: bv16, j2: bv16)
    requires Pair(i, j) && Pair(i2, j2)
    ensures Pattern(t, i, j) == Pattern(t, i2, j2) ==> i == i2 && j == j2
  {
    if t {
      TransposedRunsDistinct(i, j, i2, j2);
    } else {
      RunsDistinct(i, j, i2, j2);
    }
  }

  /** Distinct pairs give distinct transposed runs. */
  lemma TransposedRunsDistinct(i: bv16, j: bv16, i2: bv16, j2: bv16)
    requires Pair(i, j) && Pair(i2, j2)
    ensures Transposed(Run(i, j)) == Transposed(Run(i2, j2)) ==> i == i2 && j == j2
  {
  }

  /** Distinct (rotation, length) pairs give distinct runs, none constant. */
  lemma RunsDistinct(i: bv16, j: bv16, i2: bv16, j2: bv16)
    requires Pair(i, j) && Pair(i2, j2)
    ensures 0 < Run(i, j) < 255
    ensures Run(i, j) == Run(i2, j2) ==> i == i2 && j == j2
  {
  }

  /** Transposition is a bijection of the bytes fixing 0x00 and 0xff. */
  lemma TransposedInjective(x: bv16, y: bv16)
    requires x < 256 && y < 256
    ensures Transposed(x) < 256
    ensures Transposed(x) == 0 <==> x == 0
    ensures Transposed(x) == 255 <==> x == 255
    ensures Transposed(x) == Transposed(y) ==> x == y
  {
  }

  /** The table from byte patterns to bins (entries from 256 on are never read). */
  type Table = bv16 -> bv16

  /** Bin of a byte that is neither constant nor one of the 56 patterns. */
  function Default(x: bv16): bv16
  {
    if x == 0 || x == 255 then 56 else 57
  }

  /** The pair (i, j) comes before (i2, j2) in the loop's order. */
  predicate Before(i: bv16, j: bv16, i2: bv16, j2: bv16)
  {
    i < i2 || (i == i2 && j < j2)
  }

  predicate Pair(i: bv16, j: bv16)
  {
    i < 8 && 1 <= j <= 7
  }

  function BinOf(i: bv16, j: bv16): bv16
  {
    i * 7 + j - 1
  }

  /** Bins name their pattern: bin i·7 + (j - 1) gives back i and j. */
  lemma BinRoundTrip(i: bv16, j: bv16)
    requires Pair(i, j)
    ensures BinOf(i, j) < 56 && BinOf(i, j) / 7 == i && BinOf(i, j) % 7 + 1 == j
  {
  }

  /** Bin b (one of the 56 pattern bins) is the bin of the pattern x. */
  predicate Holds(b: bv16, transposed: bool, x: bv16)
  {
    b < 56 && Pattern(transposed, b / 7, b % 7 + 1) == x
  }

  /** Bin b at entry x is the default, or the bin, below `limit`, of the pattern x. */
  predicate Entry(b: bv16, transposed: bool, x: bv16, limit: bv16)
  {
    b == Default(x) || (b < limit && Holds(b, transposed, x))
  }

  /** Every pattern before (i, j) holds its bin. */
  ghost predicate Written(m: Table, transposed: bool, i: bv16, j: bv16)
  {
    forall i2: bv16, j2: bv16 :: Pair(i2, j2) && Before(i2, j2, i, j) ==> m(Pattern(transposed, i2, j2)) == BinOf(i2, j2)
  }

  /** Every byte's entry is its default or the bin, below `limit`, of its pattern. */
  ghost predicate Entries(m: Table, transposed: bool, limit: bv16)
  {
    forall x: bv16 :: x < 256 ==> Entry(m(x), transposed, x, limit)
  }

  /**
   * The uniform table: the constant bytes get bin 56, the rotation by i of
   * a run of j ones gets bin i·7 + (j - 1), and every other byte has its
   * default (56 for the constant bytes, 57 otherwise) or the bin of the
   * pattern it is.
   */
  ghost predicate Uniform(m: Table, transposed: bool)
  {
    && m(0x00) == 56 && m(0xff) == 56
    && (forall i: bv16, j: bv16 :: Pair(i, j) ==> m(Pattern(transposed, i, j)) == BinOf(i, j))
    && (forall x: bv16 :: x < 256 ==> m(x) == Default(x) || Holds(m(x), transposed, x))
  }

  /**
   * `_vl_lbp_init_uniform`: the constant bytes get bin 56, the rotation by
   * i of a run of j ones gets bin i·7 + (j - 1), and every other entry is
   * its default (56 for the constant bytes, 57 otherwise) or the bin of
   * the pattern it holds.
   */
  method InitUniform(transposed: bool) returns (dimension: nat, mapping: Table)
    ensures dimension == Dimension
    ensures Uniform(mapping, transposed)
  {
    dimension := 58;
    var m: Table := x => 57;
    m := x => if x == 0x00 then 56 else m(x);
    m := x => if x == 0xff then 56 else m(x);
    var i: bv16 := 0;
    while i < 8
      invariant i <= 8
      invariant Written(m, transposed, i, 1) && Entries(m, transposed, BinOf(i, 1))
    {
      var j: bv16 := 1;
      while j <= 7
        invariant 1 <= j <= 8
        invariant Written(m, transposed, i, j) && Entries(m, transposed, BinOf(i, j))
      {
        var s := Run(i, j);
        if transposed {
          s := Transpose(s);
        }
        WriteStepSound(m, transposed, i, j, s);
        m := WriteStep(m, i, j, s);
        j := j + 1;
      }
      NextRow(m, transposed, i);
      i := i + 1;
    }
    mapping := m;
    Finish(mapping, transposed);
  }

  /** Once every pair is written, the table has the promised form. */
  lemma Finish(m: Table, transposed: bool)
    requires Written(m, transposed, 8, 1) && Entries(m, transposed, 56)
    ensures Uniform(m, transposed)
  {
    forall x: bv16 | x < 256
      ensures m(x) == Default(x) || Holds(m(x), transposed, x)
    {
      assert Entry(m(x), transposed, x, 56);
    }
    ConstantEntry(m(0x00), transposed, 0x00);
    ConstantEntry(m(0xff), transposed, 0xff);
  }

  /** No pattern is a constant byte, so those entries keep bin 56. */
  lemma ConstantEntry(b: bv16, transposed: bool, x: bv16)
    requires x == 0x00 || x == 0xff
    requires Entry(b, transposed, x, 56)
    ensures b == 56
  {
  }

  /** Finishing row i is starting row i + 1. */
  lemma NextRow(m: Table, transposed: bool, i: bv16)
    requires i < 8 && Written(m, transposed, i, 8)
    ensures Written(m, transposed, i + 1, 1)
    ensures BinOf(i, 8) == BinOf(i + 1, 1)
  {
    forall i2: bv16, j2: bv16 | Pair(i2, j2) && Before(i2, j2, i + 1, 1)
      ensures m(Pattern(transposed, i2, j2)) == BinOf(i2, j2)
    {
      assert Before(i2, j2, i, 8);
    }
  }

  /** The table with pattern `s` sent to the bin of (i, j). */
  function WriteStep(m: Table, i: bv16, j: bv16, s: bv16): Table
  {
    x => if x == s then BinOf(i, j) else m(x)
  }

  /** Writing the bin of (i, j) keeps the earlier pairs' entries and every entry's form. */
  lemma WriteStepSound(m: Table, transposed: bool, i: bv16, j: bv16, s: bv16)
    requires Pair(i, j) && s == Pattern(transposed, i, j)
    requires Written(m, transposed, i, j) && Entries(m, transposed, BinOf(i, j))
    ensures Written(WriteStep(m, i, j, s), transposed, i, j + 1)
    ensures Entries(WriteStep(m, i, j, s), transposed, BinOf(i, j + 1))
  {
    WrittenStep(m, transposed, i, j, s);
    EntriesStep(m, transposed, i, j, s);
  }

  lemma WrittenStep(m: Table, transposed: bool, i: bv16, j: bv16, s: bv16)
    requires Pair(i, j) && s == Pattern(transposed, i, j)
    requires Written(m, transposed, i, j)
    ensures Written(WriteStep(m, i, j, s), transposed, i, j + 1)
  {
    var r := WriteStep(m, i, j, s);
    forall i2: bv16, j2: bv16 | Pair(i2, j2) && Before(i2, j2, i, j + 1)
      ensures r(Pattern(transposed, i2, j2)) == BinOf(i2, j2)
    {
      PatternInjective(transposed, i, j, i2, j2);
    }
  }

  lemma EntriesStep(m: Table, transposed: bool, i: bv16, j: bv16, s: bv16)
    requires Pair(i, j) && s == Pattern(transposed, i, j)
    requires Entries(m, transposed, BinOf(i, j))
    ensures Entries(WriteStep(m, i, j, s), transposed, BinOf(i, j + 1))
  {
    var r := WriteStep(m, i, j, s);
    var limit := BinOf(i, j);
    var next := BinOf(i, j + 1);
    NewEntry(transposed, i, j);
    forall x: bv16 | x < 256
      ensures Entry(r(x), transposed, x, next)
    {
      if x != s {
        EntryLater(m(x), transposed, x, limit, next);
      }
    }
  }

  /** The bin of (i, j) holds its pattern and lies below the next bin. */
  lemma NewEntry(transposed: bool, i: bv16, j: bv16)
    requires Pair(i, j)
    ensures BinOf(i, j) < BinOf(i, j + 1)
    ensures Entry(BinOf(i, j), transposed, Pattern(transposed, i, j), BinOf(i, j + 1))
  {
    BinRoundTrip(i, j);
  }

  /** Raising the limit keeps an entry valid. */
  lemma EntryLater(b: bv16, transposed: bool, x: bv16, limit: bv16, next: bv16)
    requires Entry(b, transposed, x, limit) && limit <= next
    ensures Entry(b, transposed, x, next)
  {
  }

  /** The facts a uniform table states about one byte. */
  lemma UniformAt(m: Table, transposed: bool, x: bv16)
    requires Uniform(m, transposed) && x < 256
    ensures m(x) == Default(x) || Holds(m(x), transposed, x)
  {
  }

  /** Every entry of a uniform table is one of the 58 bins. */
  lemma UniformBins(m: Table, transposed: bool, x: bv16)
    requires Uniform(m, transposed) && x < 256
    ensures m(x) < 58
  {
    UniformAt(m, transposed, x);
  }

  /** Bin 57 collects exactly the bytes that are neither constant nor one of the 56 patterns. */
  lemma UniformRest(m: Table, transposed: bool, x: bv16)
    requires Uniform(m, transposed) && x < 256
    ensures m(x) == 57 <==> (x != 0 && x != 255 && forall i: bv16, j: bv16 :: Pair(i, j) ==> Pattern(transposed, i, j) != x)
  {
    UniformAt(m, transposed, x);
    if m(x) == 57 {
      forall i: bv16, j: bv16 | Pair(i, j)
        ensures Pattern(transposed, i, j) != x
      {
        BinRoundTrip(i, j);
      }
    } else if m(x) != Default(x) {
      var b := m(x);
      BinOfRow(b);
    }
  }

  /** A bin below 56 names the pair whose bin it is. */
  lemma BinOfRow(b: bv16)
    requires b < 56
    ensures Pair(b / 7, b % 7 + 1) && BinOf(b / 7, b % 7 + 1) == b
  {
  }

  /**
   * The transposed table read at the transposed pattern agrees with the
   * plain table read at the pattern: this is what lets a column-major
   * image be coded without copying it.
   */
  lemma TablesAgree(m: Table, mt: Table, p: bv16)
    requires Uniform(m, false) && Uniform(mt, true) && p < 256
    ensures mt(Transposed(p)) == m(p)
  {
    var q := Transposed(p);
    TransposedInjective(p, p);
    UniformAt(m, false, p);
    UniformAt(mt, true, q);
    if m(p) != Default(p) {
      var b := m(p);
      BinOfRow(b);
      PatternOfTransposed(b, p);
      assert mt(Pattern(true, b / 7, b % 7 + 1)) == BinOf(b / 7, b % 7 + 1);
    } else if mt(q) != Default(q) {
      var b := mt(q);
      BinOfRow(b);
      TransposedPattern(b, p);
    }
  }

  /** A plain pattern, transposed, is the transposed pattern of the same bin. */
  lemma PatternOfTransposed(b: bv16, p: bv16)
    requires Holds(b, false, p)
    ensures Pattern(true, b / 7, b % 7 + 1) == Transposed(p)
  {
  }

  /** A byte whose transpose is a transposed pattern is the plain pattern of the same bin. */
  lemma TransposedPattern(b: bv16, p: bv16)
    requires p < 256 && Holds(b, true, Transposed(p))
    ensures Pattern(false, b / 7, b % 7 + 1) == p
  {
    BinOfRow(b);
    var r := Run(b / 7, b % 7 + 1);
    RunsDistinct(b / 7, b % 7 + 1, b / 7, b % 7 + 1);
    TransposedInjective(p, r);
  }

  // ---------------------------------------------------------------------
  // `vl_lbp_process`: the neighbour code of each interior pixel and the
  // cells it votes for.

  /** An image as rows of pixels: `img[v][u]` is the C `at(u, v)`. */
  type Image = seq<seq<real>>

  predicate Rectangular(img: Image, width: nat, height: nat)
  {
    |img| == height && forall v :: 0 <= v < height ==> |img[v]| == width
  }

  /** Pixels scanned by the loops: not on the image border. */
  predicate Interior(width: nat, height: nat, x: int, y: int)
  {
    1 <= x < width - 1 && 1 <= y < height - 1
  }

  /** The byte with bit k set exactly when the k-th argument holds. */
  function Pack(b0: bool, b1: bool, b2: bool, b3: bool, b4: bool, b5: bool, b6: bool, b7: bool): bv16
  {
    (if b0 then 1 else 0) | (if b1 then 2 else 0) | (if b2 then 4 else 0) | (if b3 then 8 else 0)
    | (if b4 then 16 else 0) | (if b5 then 32 else 0) | (if b6 then 64 else 0) | (if b7 then 128 else 0)
  }

  /** Packing is injective: bit k of the byte is the k-th flag, and nothing lies above bit 7. */
  lemma PackBits(b0: bool, b1: bool, b2: bool, b3: bool, b4: bool, b5: bool, b6: bool, b7: bool)
    ensures Pack(b0, b1, b2, b3, b4, b5, b6, b7) < 256
    ensures var r := Pack(b0, b1, b2, b3, b4, b5, b6, b7);
      Bit(r, 0) == b0 && Bit(r, 1) == b1 && Bit(r, 2) == b2 && Bit(r, 3) == b3
      && Bit(r, 4) == b4 && Bit(r, 5) == b5 && Bit(r, 6) == b6 && Bit(r, 7) == b7
  {
  }

  /** Transposing a packed byte permutes its flags: E and S swap, SW and NE swap, W and N swap. */
  lemma TransposedPack(b0: bool, b1: bool, b2: bool, b3: bool, b4: bool, b5: bool, b6: bool, b7: bool)
    ensures Transposed(Pack(b0, b1, b2, b3, b4, b5, b6, b7)) == Pack(b2, b1, b0, b7, b6, b5, b4, b3)
  {
  }

  /**
   * The bit string of pixel (x, y): bits 0 to 7 are set for the neighbours
   * E, SE, S, SW, W, NW, N, NE strictly brighter than the pixel.
   */
  function BitString(img: Image, width: nat, height: nat, x: int, y: int): (r: bv16)
    requires Rectangular(img, width, height) && Interior(width, height, x, y)
    ensures r < 256
    ensures Bit(r, 0) <==> img[y][x + 1] > img[y][x]
    ensures Bit(r, 1) <==> img[y + 1][x + 1] > img[y][x]
    ensures Bit(r, 2) <==> img[y + 1][x] > img[y][x]
    ensures Bit(r, 3) <==> img[y + 1][x - 1] > img[y][x]
    ensures Bit(r, 4) <==> img[y][x - 1] > img[y][x]
    ensures Bit(r, 5) <==> img[y - 1][x - 1] > img[y][x]
    ensures Bit(r, 6) <==> img[y - 1][x] > img[y][x]
    ensures Bit(r, 7) <==> img[y - 1][x + 1] > img[y][x]
  {
    var c := img[y][x];
    PackBits(img[y][x + 1] > c, img[y + 1][x + 1] > c, img[y + 1][x] > c, img[y + 1][x - 1] > c,
             img[y][x - 1] > c, img[y - 1][x - 1] > c, img[y - 1][x] > c, img[y - 1][x + 1] > c);
    Pack(img[y][x + 1] > c, img[y + 1][x + 1] > c, img[y + 1][x] > c, img[y + 1][x - 1] > c,
         img[y][x - 1] > c, img[y - 1][x - 1] > c, img[y - 1][x] > c, img[y - 1][x + 1] > c)
  }

  /** The image with rows and columns exchanged (a column-major buffer read row-major). */
  function TransposeImage(img: Image, width: nat, height: nat): (t: Image)
    requires Rectangular(img, width, height)
    ensures Rectangular(t, height, width)
    ensures forall u, v :: 0 <= u < width && 0 <= v < height ==> t[u][v] == img[v][u]
  {
    seq(width, u requires 0 <= u < width => seq(height, v requires 0 <= v < height => img[v][u]))
  }

  /** The code of a pixel of the transposed image is the transposed code of the original pixel. */
  lemma TransposedBitString(img: Image, width: nat, height: nat, x: int, y: int)
    requires Rectangular(img, width, height) && Interior(width, height, x, y)
    ensures BitString(TransposeImage(img, width, height), height, width, y, x) == Transposed(BitString(img, width, height, x, y))
  {
    var t := TransposeImage(img, width, height);
    var c := img[y][x];
    assert t[x][y] == c;
    assert t[x][y + 1] == img[y + 1][x] && t[x + 1][y + 1] == img[y + 1][x + 1] && t[x + 1][y] == img[y][x + 1];
    assert t[x + 1][y - 1] == img[y - 1][x + 1] && t[x][y - 1] == img[y - 1][x] && t[x - 1][y - 1] == img[y - 1][x - 1];
    assert t[x - 1][y] == img[y][x - 1] && t[x - 1][y + 1] == img[y + 1][x - 1];
    TransposedPack(img[y][x + 1] > c, img[y + 1][x + 1] > c, img[y + 1][x] > c, img[y + 1][x - 1] > c,
                   img[y][x - 1] > c, img[y - 1][x - 1] > c, img[y - 1][x] > c, img[y - 1][x + 1] > c);
  }

  /**
   * Coding the transposed image with the transposed table gives every
   * pixel the bin the plain table gives the original pixel.
   */
  lemma TransposedBins(m: Table, mt: Table, img: Image, width: nat, height: nat, x: int, y: int)
    requires Uniform(m, false) && Uniform(mt, true)
    requires Rectangular(img, width, height) && Interior(width, height, x, y)
    ensures mt(BitString(TransposeImage(img, width, height), height, width, y, x)) == m(BitString(img, width, height, x, y))
  {
    TransposedBitString(img, width, height, x, y);
    TablesAgree(m, mt, BitString(img, width, height, x, y));
  }

  /** The cell grid: `width / cellSize` columns and `height / cellSize` rows. */
  function Grid(width: nat, height: nat, cellSize: nat): (g: (nat, nat))
    requires cellSize > 0
    ensures g.0 * cellSize <= width < (g.0 + 1) * cellSize
    ensures g.1 * cellSize <= height < (g.1 + 1) * cellSize
  {
    (width / cellSize, height / cellSize)
  }

  /**
   * The first of the two cells a pixel at coordinate p votes for along one
   * axis, and the weight of the second: the pixel centre p + 1/2 in cell
   * units, less 1/2, split into its floor and fraction.
   */
  function Split(p: int, cellSize: nat): (s: (int, real))
    requires cellSize > 0
    ensures 0.0 <= s.1 < 1.0
    ensures s.0 as real + s.1 == (p as real + 0.5) / cellSize as real - 0.5
    ensures p >= 0 ==> s.0 >= -1
  {
    var w := (p as real + 0.5) / cellSize as real - 0.5;
    assert p >= 0 ==> (p as real + 0.5) / cellSize as real > 0.0;
    (w.Floor, w - w.Floor as real)
  }

  /** One weighted vote of a pixel: `to(cx, cy, bin) += weight`. */
  datatype Vote = Vote(cx: int, cy: int, bin: bv16, weight: real)

  /** The guarded votes of one pixel, in the order the C code adds them. */
  function PixelVotes(bin: bv16, x: int, y: int, cwidth: nat, cheight: nat, cellSize: nat): seq<Vote>
    requires cellSize > 0
  {
    var sx := Split(x, cellSize);
    var sy := Split(y, cellSize);
    var cx1, wx2, cy1, wy2 := sx.0, sx.1, sy.0, sy.1;
    var cx2 := cx1 + 1;
    var cy2 := cy1 + 1;
    var wx1 := 1.0 - wx2;
    var wy1 := 1.0 - wy2;
    (if cx1 >= 0 && cy1 >= 0 then [Vote(cx1, cy1, bin, wx1 * wy1)] else [])
    + (if cx2 < cwidth && cy1 >= 0 then [Vote(cx2, cy1, bin, wx2 * wy1)] else [])
    + (if cx1 >= 0 && cy2 < cheight then [Vote(cx1, cy2, bin, wx1 * wy2)] else [])
    + (if cx2 < cwidth && cy2 < cheight then [Vote(cx2, cy2, bin, wx2 * wy2)] else [])
  }

  /** A vote inside the features buffer, with a weight in [0, 1]. */
  predicate InGrid(v: Vote, cwidth: nat, cheight: nat)
  {
    0 <= v.cx < cwidth && 0 <= v.cy < cheight && v.bin < 58 && 0.0 <= v.weight <= 1.0
  }

  /** Both cells along one axis exist in a grid of n cells. */
  predicate BothCells(p: int, n: nat, cellSize: nat)
    requires cellSize > 0
  {
    0 <= Split(p, cellSize).0 && Split(p, cellSize).0 + 1 < n
  }

  /** Every vote of a pixel lands inside the grid and weighs between 0 and 1. */
  lemma PixelVotesInGrid(bin: bv16, x: int, y: int, cwidth: nat, cheight: nat, cellSize: nat)
    requires cellSize > 0 && bin < 58 && x >= 0 && y >= 0
    requires Split(x, cellSize).0 < cwidth && Split(y, cellSize).0 < cheight
    ensures forall v :: v in PixelVotes(bin, x, y, cwidth, cheight, cellSize) ==> InGrid(v, cwidth, cheight)
  {
    var sx := Split(x, cellSize);
    var sy := Split(y, cellSize);
    Weights(1.0 - sx.1, sx.1, 1.0 - sy.1, sy.1);
  }

  /** A pixel whose four cells all exist spreads a total weight of exactly one over them. */
  lemma PixelVotesSum(bin: bv16, x: int, y: int, cwidth: nat, cheight: nat, cellSize: nat)
    requires cellSize > 0
    requires BothCells(x, cwidth, cellSize) && BothCells(y, cheight, cellSize)
    ensures |PixelVotes(bin, x, y, cwidth, cheight, cellSize)| == 4
    ensures TotalWeight(PixelVotes(bin, x, y, cwidth, cheight, cellSize)) == 1.0
  {
    var sx := Split(x, cellSize);
    var sy := Split(y, cellSize);
    var cx1, wx2, cy1, wy2 := sx.0, sx.1, sy.0, sy.1;
    Weights(1.0 - wx2, wx2, 1.0 - wy2, wy2);
    var vs := PixelVotes(bin, x, y, cwidth, cheight, cellSize);
    var v1, v2 := Vote(cx1, cy1, bin, (1.0 - wx2) * (1.0 - wy2)), Vote(cx1 + 1, cy1, bin, wx2 * (1.0 - wy2));
    var v3, v4 := Vote(cx1, cy1 + 1, bin, (1.0 - wx2) * wy2), Vote(cx1 + 1, cy1 + 1, bin, wx2 * wy2);
    assert cx1 >= 0 && cy1 >= 0 && cx1 + 1 < cwidth && cy1 + 1 < cheight;
    assert |vs| == 4;
    assert vs[0].weight == v1.weight;
    assert vs == [v1] + [v2] + [v3] + [v4];
    assert vs == [v1, v2, v3, v4];
    assert TotalWeight(vs[3..]) == v4.weight;
    assert TotalWeight(vs[2..]) == v3.weight + v4.weight;
    assert TotalWeight(vs[1..]) == v2.weight + v3.weight + v4.weight;
  }

  /** Bilinear weights are products of numbers in [0, 1] and sum to one. */
  lemma Weights(a1: real, a2: real, b1: real, b2: real)
    requires 0.0 <= a2 < 1.0 && a1 == 1.0 - a2 && 0.0 <= b2 < 1.0 && b1 == 1.0 - b2
    ensures 0.0 <= a1 * b1 <= 1.0 && 0.0 <= a2 * b1 <= 1.0 && 0.0 <= a1 * b2 <= 1.0 && 0.0 <= a2 * b2 <= 1.0
    ensures a1 * b1 + a2 * b1 + a1 * b2 + a2 * b2 == 1.0
  {
    UnitProduct(a1, b1);
    UnitProduct(a2, b1);
    UnitProduct(a1, b2);
    UnitProduct(a2, b2);
    assert a1 * b1 + a2 * b1 == (a1 + a2) * b1;
    assert a1 * b2 + a2 * b2 == (a1 + a2) * b2;
  }

  lemma UnitProduct(a: real, b: real)
    requires 0.0 <= a <= 1.0 && 0.0 <= b <= 1.0
    ensures 0.0 <= a * b <= 1.0
  {
    assert a * b <= a * 1.0 by {
      assert a * (1.0 - b) >= 0.0;
    }
  }

  function TotalWeight(vs: seq<Vote>): real
  {
    if vs == [] then 0.0 else vs[0].weight + TotalWeight(vs[1..])
  }

  /**
   * The votes the accumulation loops add for the interior pixel (x, y):
   * none when its first cell along either axis lies past the grid.
   */
  function CellVotes(m: Table, img: Image, width: nat, height: nat, cellSize: nat, x: int, y: int): seq<Vote>
    requires Rectangular(img, width, height) && Interior(width, height, x, y) && cellSize > 0
  {
    var g := Grid(width, height, cellSize);
    if Split(x, cellSize).0 < g.0 && Split(y, cellSize).0 < g.1
    then PixelVotes(m(BitString(img, width, height, x, y)), x, y, g.0, g.1, cellSize)
    else []
  }

  /** Every vote of an interior pixel addresses a cell of the grid and one of the 58 bins. */
  lemma {:induction false} CellVotesInGrid(m: Table, transposed: bool, img: Image, width: nat, height: nat, cellSize: nat, x: int, y: int)
    requires Uniform(m, transposed) && Rectangular(img, width, height) && Interior(width, height, x, y) && cellSize > 0
    ensures forall v :: v in CellVotes(m, img, width, height, cellSize, x, y) ==> InGrid(v, width / cellSize, height / cellSize)
  {
    var g := Grid(width, height, cellSize);
    if Split(x, cellSize).0 < g.0 && Split(y, cellSize).0 < g.1 {
      var code := BitString(img, width, height, x, y);
      UniformBins(m, transposed, code);
      PixelVotesInGrid(m(code), x, y, g.0, g.1, cellSize);
    }
  }

  /** The votes of the interior pixels of row y left of column xEnd, left to right. */
  function RowVotes(m: Table, img: Image, width: nat, height: nat, cellSize: nat, y: int, xEnd: int): seq<Vote>
    requires Rectangular(img, width, height) && 1 <= y < height - 1 && (xEnd <= 1 || xEnd <= width - 1) && cellSize > 0
    decreases xEnd
  {
    if xEnd <= 1 then []
    else RowVotes(m, img, width, height, cellSize, y, xEnd - 1) + CellVotes(m, img, width, height, cellSize, xEnd - 1, y)
  }

  /** The votes of the interior rows above row yEnd, top to bottom. */
  function ImageVotes(m: Table, img: Image, width: nat, height: nat, cellSize: nat, yEnd: int): seq<Vote>
    requires Rectangular(img, width, height) && (yEnd <= 1 || yEnd <= height - 1) && cellSize > 0
    decreases yEnd
  {
    if yEnd <= 1 then []
    else ImageVotes(m, img, width, height, cellSize, yEnd - 1) + RowVotes(m, img, width, height, cellSize, yEnd - 1, width - 1)
  }

  /** A row whose first cell lies past the grid casts no votes. */
  lemma {:induction false} RowPastGrid(m: Table, img: Image, width: nat, height: nat, cellSize: nat, y: int, xEnd: int)
    requires Rectangular(img, width, height) && 1 <= y < height - 1 && (xEnd <= 1 || xEnd <= width - 1) && cellSize > 0
    requires Split(y, cellSize).0 >= height / cellSize
    ensures RowVotes(m, img, width, height, cellSize, y, xEnd) == []
    decreases xEnd
  {
    if xEnd > 1 {
      RowPastGrid(m, img, width, height, cellSize, y, xEnd - 1);
    }
  }

  /** Every vote of an interior row addresses a cell of the grid and one of the 58 bins. */
  lemma {:induction false} RowVotesInGrid(m: Table, transposed: bool, img: Image, width: nat, height: nat, cellSize: nat, y: int, xEnd: int)
    requires Uniform(m, transposed) && Rectangular(img, width, height) && cellSize > 0
    requires 1 <= y < height - 1 && (xEnd <= 1 || xEnd <= width - 1)
    ensures forall v :: v in RowVotes(m, img, width, height, cellSize, y, xEnd) ==> InGrid(v, width / cellSize, height / cellSize)
    decreases xEnd
  {
    if xEnd > 1 {
      RowVotesInGrid(m, transposed, img, width, height, cellSize, y, xEnd - 1);
      CellVotesInGrid(m, transposed, img, width, height, cellSize, xEnd - 1, y);
    }
  }

  /** Every vote of the image addresses a cell of the grid and one of the 58 bins. */
  lemma {:induction false} ImageVotesInGrid(m: Table, transposed: bool, img: Image, width: nat, height: nat, cellSize: nat, yEnd: int)
    requires Uniform(m, transposed) && Rectangular(img, width, height) && cellSize > 0
    requires yEnd <= 1 || yEnd <= height - 1
    ensures forall v :: v in ImageVotes(m, img, width, height, cellSize, yEnd) ==> InGrid(v, width / cellSize, height / cellSize)
    decreases yEnd
  {
    if yEnd > 1 {
      ImageVotesInGrid(m, transposed, img, width, height, cellSize, yEnd - 1);
      RowVotesInGrid(m, transposed, img, width, height, cellSize, yEnd - 1, width - 1);
    }
  }

  /**
   * The accumulation loops of `vl_lbp_process`, as the list of votes they
   * add: the votes of every interior pixel in scan order, skipping those
   * whose first cell lies past the grid; every vote addresses a cell of
   * the `width / cellSize` by `height / cellSize` grid and one of the 58
   * bins.
   */
  method Process(m: Table, transposed: bool, img: Image, width: nat, height: nat, cellSize: nat)
    returns (cwidth: nat, cheight: nat, votes: seq<Vote>)
    requires Uniform(m, transposed) && Rectangular(img, width, height) && cellSize > 0
    ensures (cwidth, cheight) == Grid(width, height, cellSize)
    ensures votes == ImageVotes(m, img, width, height, cellSize, height - 1)
    ensures forall v :: v in votes ==> InGrid(v, cwidth, cheight)
  {
    cwidth, cheight := width / cellSize, height / cellSize;
    votes := [];
    var y := 1;
    while y < height - 1
      invariant 1 <= y && (y == 1 || y <= height - 1)
      invariant votes == ImageVotes(m, img, width, height, cellSize, y)
    {
      ghost var prev := votes;
      var (cy1, _) := Split(y, cellSize);
      if cy1 < cheight {
        var row := ProcessRow(m, transposed, img, width, height, cellSize, y);
        votes := votes + row;
      }
      ImageStep(m, img, width, height, cellSize, y, prev, votes);
      y := y + 1;
    }
    ImageDone(m, img, width, height, cellSize, y);
    ImageVotesInGrid(m, transposed, img, width, height, cellSize, height - 1);
  }

  /** One pass of the outer loop appends the row's votes, or none for a row past the grid. */
  lemma {:induction false} ImageStep(m: Table, img: Image, width: nat, height: nat, cellSize: nat, y: int,
                                     prev: seq<Vote>, votes: seq<Vote>)
    requires Rectangular(img, width, height) && cellSize > 0 && 1 <= y < height - 1
    requires prev == ImageVotes(m, img, width, height, cellSize, y)
    requires Split(y, cellSize).0 < height / cellSize ==>
      votes == prev + RowVotes(m, img, width, height, cellSize, y, width - 1)
    requires Split(y, cellSize).0 >= height / cellSize ==> votes == prev
    ensures votes == ImageVotes(m, img, width, height, cellSize, y + 1)
  {
    var all := RowVotes(m, img, width, height, cellSize, y, width - 1);
    assert ImageVotes(m, img, width, height, cellSize, y + 1) == prev + all;
    if Split(y, cellSize).0 >= height / cellSize {
      RowPastGrid(m, img, width, height, cellSize, y, width - 1);
      assert votes == prev + all;
    }
  }

  /** When the outer loop stops, its votes are those of every interior row. */
  lemma {:induction false} ImageDone(m: Table, img: Image, width: nat, height: nat, cellSize: nat, y: int)
    requires Rectangular(img, width, height) && cellSize > 0
    requires 1 <= y && (y == 1 || y <= height - 1) && y >= height - 1
    ensures ImageVotes(m, img, width, height, cellSize, y) == ImageVotes(m, img, width, height, cellSize, height - 1)
  {
  }

  /** The inner loop of `vl_lbp_process`: the votes of one row whose first cell lies inside the grid. */
  method ProcessRow(m: Table, transposed: bool, img: Image, width: nat, height: nat, cellSize: nat, y: int)
    returns (votes: seq<Vote>)
    requires Uniform(m, transposed) && Rectangular(img, width, height) && cellSize > 0
    requires 1 <= y < height - 1 && Split(y, cellSize).0 < height / cellSize
    ensures votes == RowVotes(m, img, width, height, cellSize, y, width - 1)
    ensures forall v :: v in votes ==> InGrid(v, width / cellSize, height / cellSize)
  {
    votes := [];
    var x := 1;
    while x < width - 1
      invariant 1 <= x && (x == 1 || x <= width - 1)
      invariant votes == RowVotes(m, img, width, height, cellSize, y, x)
    {
      votes := ProcessPixel(m, img, width, height, cellSize, x, y, votes);
      x := x + 1;
    }
    RowDone(m, img, width, height, cellSize, y, x);
    RowVotesInGrid(m, transposed, img, width, height, cellSize, y, width - 1);
  }

  /**
   * The body of the inner loop: the pixel's votes are added unless its
   * first cell lies past the grid, so the votes so far become those of
   * the row up to and including column x.
   */
  method ProcessPixel(m: Table, img: Image, width: nat, height: nat, cellSize: nat, x: int, y: int, votes: seq<Vote>)
    returns (votes': seq<Vote>)
    requires Rectangular(img, width, height) && Interior(width, height, x, y) && cellSize > 0
    requires Split(y, cellSize).0 < height / cellSize
    requires votes == RowVotes(m, img, width, height, cellSize, y, x)
    ensures votes' == RowVotes(m, img, width, height, cellSize, y, x + 1)
  {
    var (cx1, _) := Split(x, cellSize);
    votes' := votes;
    if cx1 < width / cellSize {
      var code := BitString(img, width, height, x, y);
      var bin := m(code);
      votes' := votes + PixelVotes(bin, x, y, width / cellSize, height / cellSize, cellSize);
    }
    RowStep(m, img, width, height, cellSize, y, x, votes, votes');
  }

  /** One pass of the inner loop appends the pixel's votes, or none for a pixel past the grid. */
  lemma {:induction false} RowStep(m: Table, img: Image, width: nat, height: nat, cellSize: nat, y: int, x: int,
                                   prev: seq<Vote>, votes: seq<Vote>)
    requires Rectangular(img, width, height) && cellSize > 0
    requires 1 <= y < height - 1 && 1 <= x < width - 1 && Split(y, cellSize).0 < height / cellSize
    requires prev == RowVotes(m, img, width, height, cellSize, y, x)
    requires Split(x, cellSize).0 < width / cellSize ==>
      votes == prev + PixelVotes(m(BitString(img, width, height, x, y)), x, y, width / cellSize, height / cellSize, cellSize)
    requires Split(x, cellSize).0 >= width / cellSize ==> votes == prev
    ensures votes == RowVotes(m, img, width, height, cellSize, y, x + 1)
  {
    var cell := CellVotes(m, img, width, height, cellSize, x, y);
    assert Grid(width, height, cellSize) == (width / cellSize, height / cellSize);
    if Split(x, cellSize).0 < width / cellSize {
      assert cell == PixelVotes(m(BitString(img, width, height, x, y)), x, y, width / cellSize, height / cellSize, cellSize);
    } else {
      assert cell == [];
      assert votes == prev + cell;
    }
    assert RowVotes(m, img, width, height, cellSize, y, x + 1) == prev + cell;
  }

  /** When the inner loop stops, its votes are those of every interior pixel of the row. */
  lemma {:induction false} RowDone(m: Table, img: Image, width: nat, height: nat, cellSize: nat, y: int, x: int)
    requires Rectangular(img, width, height) && cellSize > 0 && 1 <= y < height - 1
    requires 1 <= x && (x == 1 || x <= width - 1) && x >= width - 1
    ensures RowVotes(m, img, width, height, cellSize, y, x) == RowVotes(m, img, width, height, cellSize, y, width - 1)
  {
  }
}

=== FILE: liop.dfy ===
/**
 * The LIOP descriptor of a square patch (vl/liop.c): patch coordinates,
 * the pair weighting of a point's neighbours, the split of the sorted
 * sample points into bins, and the per-bin histograms of permutation
 * indexes that are concatenated into the descriptor. Intensities are
 * integers; the neighbours' intensities of each sample point are given,
 * since they come from floating-point interpolation.
 */
module Liop {
  import opened LiopOrder
  import opened MathOp

  // ---------------------------------------------------------------------
  // Patch geometry
  // ---------------------------------------------------------------------

  /** Half the side, rounded down: the offset that puts the patch center at (0, 0). */
  function Shift(side: int): int
    requires side >= 1
  {
    (side - 1) / 2
  }

  /**
   * get_coordinates: the column and row of position pos of the row-major
   * patch vector, both shifted so that the center is (0, 0).
   */
  function Coordinates(side: int, pos: int): (c: (int, int))
    requires side >= 1 && pos >= 0
    ensures -Shift(side) <= c.0 < side - Shift(side) && c.1 >= -Shift(side)
    ensures pos == (c.1 + Shift(side)) * side + (c.0 + Shift(side))
  {
    var x1 := pos % side;
    var y1 := (pos - x1) / side;
    RowMajor(pos, side);
    var c := (x1 - Shift(side), y1 - Shift(side));
    assert c.1 + Shift(side) == y1 && c.0 + Shift(side) == x1;
    c
  }

  /** A position splits into a row of side entries and a column inside it. */
  lemma RowMajor(pos: nat, side: nat)
    requires side >= 1
    ensures (pos - pos % side) / side >= 0 && 0 <= pos % side < side
    ensures pos == (pos - pos % side) / side * side + pos % side
  {
    DivParts(pos, side);
  }

  /** get_vector_position: the row-major position of the point at (x, y). */
  function VectorPosition(side: int, x: int, y: int): (pos: int)
    requires side >= 1
    ensures x >= -Shift(side) && y >= -Shift(side) ==> pos >= 0
  {
    (y + Shift(side)) * side + (x + Shift(side))
  }

  /** Coordinates and back gives the position again. */
  lemma PositionOfCoordinates(side: int, pos: int)
    requires side >= 1 && pos >= 0
    ensures VectorPosition(side, Coordinates(side, pos).0, Coordinates(side, pos).1) == pos
  {
  }

  /** A point inside the patch columns has the coordinates it was placed at. */
  lemma CoordinatesOfPosition(side: int, x: int, y: int)
    requires side >= 1 && -Shift(side) <= x < side - Shift(side) && y >= -Shift(side)
    ensures VectorPosition(side, x, y) >= 0
    ensures Coordinates(side, VectorPosition(side, x, y)) == (x, y)
  {
    var pos := VectorPosition(side, x, y);
    var c := Coordinates(side, pos);
    var row, col := y + Shift(side), x + Shift(side);
    var row', col' := c.1 + Shift(side), c.0 + Shift(side);
    assert row * side + col == row' * side + col';
    RowColumnUnique(side, row, col, row', col');
  }

  /** Row-major positions with columns inside [0, side) determine row and column. */
  lemma RowColumnUnique(side: int, r: int, c: int, r': int, c': int)
    requires side >= 1 && 0 <= c < side && 0 <= c' < side && r >= 0 && r' >= 0
    requires r * side + c == r' * side + c'
    ensures r == r' && c == c'
  {
    assert (r + 1) * side == r * side + side;
    assert (r' + 1) * side == r' * side + side;
    MulMono(r + 1, r', side);
    MulMono(r' + 1, r, side);
  }

  /** For an odd side the center point (0, 0) sits in the middle of the patch vector. */
  lemma CenterPosition(side: int, pos: int)
    requires side >= 1 && side % 2 == 1 && pos >= 0
    ensures Coordinates(side, pos) == (0, 0) <==> pos == (side * side - 1) / 2
  {
    var s := Shift(side);
    assert side == 2 * s + 1;
    Middle(s);
    assert VectorPosition(side, 0, 0) == s * side + s;
    CoordinatesOfPosition(side, 0, 0);
  }

  /** The middle of (2s + 1)^2 entries is at row s, column s. */
  lemma Middle(s: nat)
    ensures ((2 * s + 1) * (2 * s + 1) - 1) / 2 == s * (2 * s + 1) + s
  {
    assert (2 * s + 1) * (2 * s + 1) == 4 * (s * s) + 4 * s + 1;
    assert s * (2 * s + 1) == 2 * (s * s) + s;
  }

  /** The sample point at the patch center is not used. */
  predicate IsCenter(side: int, pos: nat)
    requires side >= 1
  {
    Coordinates(side, pos) == (0, 0)
  }

  // ---------------------------------------------------------------------
  // Weighting of a point by the spread of its neighbours
  // ---------------------------------------------------------------------

  function Abs(v: int): nat
  {
    if v < 0 then -v else v
  }

  /** What one pair of neighbours adds: 2 above the threshold, 1 exactly at it, 0 below. */
  function PairScore(a: int, b: int, th: int): (r: nat)
    ensures r <= 2
    ensures r == 2 <==> Abs(a - b) > th
    ensures r == 0 <==> Abs(a - b) < th
  {
    var v := Abs(a - b) - th;
    if v > 0 then 2 else if v == 0 then 1 else 0
  }

  /** The scores of the pairs (i, j') for j <= j' < |I|. */
  function RowScore(I: seq<int>, i: nat, j: nat, th: int): nat
    requires i < |I|
    decreases |I| - j
  {
    if j >= |I| then 0 else PairScore(I[i], I[j], th) + RowScore(I, i, j + 1, th)
  }

  /** The scores of all pairs (i', j) with i <= i' < j < |I|. */
  function PairsFrom(I: seq<int>, i: nat, th: int): nat
    decreases |I| - i
  {
    if i >= |I| then 0 else RowScore(I, i, i + 1, th) + PairsFrom(I, i + 1, th)
  }

  /** The weight of a point: the pair scores summed, or 1 when they sum to 0. */
  function Weight(I: seq<int>, th: int): nat
  {
    var s := PairsFrom(I, 0, th);
    if s == 0 then 1 else s
  }

  /** get_weight: the double loop over the pairs i < j. */
  method GetWeight(I: seq<int>, th: int) returns (w: int)
    ensures w == Weight(I, th)
  {
    var weight := 0;
    var i := 0;
    while i < |I|
      invariant 0 <= i <= |I|
      invariant weight + PairsFrom(I, i, th) == PairsFrom(I, 0, th)
    {
      var j := i + 1;
      while j < |I|
        invariant i + 1 <= j <= |I|
        invariant weight + RowScore(I, i, j, th) + PairsFrom(I, i + 1, th) == PairsFrom(I, 0, th)
      {
        var value := Abs(I[i] - I[j]) - th;
        if value > 0 {
          weight := weight + 2;
        } else if value == 0 {
          weight := weight + 1;
        }
        j := j + 1;
      }
      i := i + 1;
    }
    if weight == 0 {
      w := 1;
    } else {
      w := weight;
    }
  }

  /** A row of m pairs scores between 0 and 2m, exactly 2m when every pair is above the threshold. */
  lemma {:induction false} RowScoreBound(I: seq<int>, i: nat, j: nat, th: int)
    requires i < j <= |I|
    ensures RowScore(I, i, j, th) <= 2 * (|I| - j)
    ensures (forall k :: j <= k < |I| ==> Abs(I[i] - I[k]) > th) ==> RowScore(I, i, j, th) == 2 * (|I| - j)
    ensures (forall k :: j <= k < |I| ==> Abs(I[i] - I[k]) < th) ==> RowScore(I, i, j, th) == 0
    decreases |I| - j
  {
    if j < |I| {
      RowScoreBound(I, i, j + 1, th);
    }
  }

  /** Every pair above the threshold: among the m = |I| - i points, m(m-1) in total. */
  predicate AllFar(I: seq<int>, i: nat, th: int)
  {
    forall k, l :: i <= k < l < |I| ==> Abs(I[k] - I[l]) > th
  }

  /** Every pair below the threshold. */
  predicate AllClose(I: seq<int>, i: nat, th: int)
  {
    forall k, l :: i <= k < l < |I| ==> Abs(I[k] - I[l]) < th
  }

  /** Twice the number of pairs among m points: 2 * (0 + 1 + ... + (m - 1)). */
  function Span(m: nat): nat
  {
    if m == 0 then 0 else Span(m - 1) + 2 * (m - 1)
  }

  lemma {:induction false} SpanIs(m: nat)
    ensures Span(m) == m * (m - 1)
    decreases m
  {
    if m > 0 {
      SpanIs(m - 1);
      assert m * (m - 1) == (m - 1) * (m - 2) + 2 * (m - 1);
    }
  }

  lemma {:induction false} PairsBound(I: seq<int>, i: nat, th: int)
    requires i <= |I|
    ensures PairsFrom(I, i, th) <= Span(|I| - i)
    ensures AllFar(I, i, th) ==> PairsFrom(I, i, th) == Span(|I| - i)
    ensures AllClose(I, i, th) ==> PairsFrom(I, i, th) == 0
    decreases |I| - i
  {
    if i < |I| {
      PairsBound(I, i + 1, th);
      RowScoreBound(I, i, i + 1, th);
    }
  }

  /** The weight lies between 1 and n(n-1) for n >= 2 neighbours, and is 1 for fewer. */
  lemma WeightBounds(I: seq<int>, th: int)
    ensures 1 <= Weight(I, th)
    ensures |I| >= 2 ==> Weight(I, th) <= |I| * (|I| - 1)
    ensures |I| < 2 ==> Weight(I, th) == 1
  {
    PairsBound(I, 0, th);
    SpanIs(|I|);
    if |I| >= 2 {
      MulMono(1, |I|, |I| - 1);
    }
  }

  /** Neighbours all within the threshold of each other weigh 1. */
  lemma WeightFlat(I: seq<int>, th: int)
    requires AllClose(I, 0, th)
    ensures Weight(I, th) == 1
  {
    PairsBound(I, 0, th);
  }

  /** Neighbours all farther apart than the threshold weigh n(n-1), the largest weight. */
  lemma WeightSpread(I: seq<int>, th: int)
    requires |I| >= 2 && AllFar(I, 0, th)
    ensures Weight(I, th) == |I| * (|I| - 1)
  {
    PairsBound(I, 0, th);
    SpanIs(|I|);
  }

  // ---------------------------------------------------------------------
  // Bins of sample points
  // ---------------------------------------------------------------------

  /** The points of bin i: n / bins each, and the last bin also takes the remainder. */
  function BinSize(n: nat, bins: nat, i: nat): nat
    requires bins >= 1
  {
    if i < bins - 1 then n / bins else n / bins + n % bins
  }

  /** starts and sizes cut [0, n) into consecutive ranges, in order. */
  predicate Tiles(starts: seq<nat>, sizes: seq<nat>, n: nat)
  {
    && |starts| == |sizes| >= 1
    && starts[0] == 0
    && (forall i :: 0 <= i < |starts| - 1 ==> starts[i + 1] == starts[i] + sizes[i])
    && starts[|starts| - 1] + sizes[|starts| - 1] == n
    && (forall i :: 0 <= i < |starts| ==> starts[i] + sizes[i] <= n)
  }

  /** The bin loop of compute_liop_descriptor: where each bin begins and how many points it has. */
  method MakeBins(n: nat, bins: nat) returns (starts: seq<nat>, sizes: seq<nat>)
    requires bins >= 1
    ensures |starts| == |sizes| == bins && Tiles(starts, sizes, n)
    ensures forall i :: 0 <= i < bins ==> sizes[i] == BinSize(n, bins, i)
  {
    var binSize, residue := BinQuotient(n, bins);
    var binShift: nat := 0;
    starts, sizes := [], [];
    var i := 0;
    while i < bins - 1
      invariant 0 <= i <= bins - 1
      invariant |starts| == |sizes| == i && binShift == Times(i, binSize)
      invariant Consecutive(starts, sizes, binShift)
      invariant forall k :: 0 <= k < i ==> sizes[k] == binSize
    {
      ConsecutiveSnoc(starts, sizes, binShift, binSize);
      starts, sizes := starts + [binShift], sizes + [binSize];
      binShift := binShift + binSize;
      i := i + 1;
    }
    LastBinEnds(n, bins, binShift);
    ConsecutiveSnoc(starts, sizes, binShift, binSize + residue);
    SizesAre(sizes, n, bins, binSize, residue);
    starts, sizes := starts + [binShift], sizes + [binSize + residue];
  }

  /** Equal bins, then the last one holding the remainder as well, are the sizes BinSize prescribes. */
  lemma SizesAre(sizes: seq<nat>, n: nat, bins: nat, binSize: nat, residue: nat)
    requires bins >= 1 && |sizes| == bins - 1 && binSize == n / bins && residue == n % bins
    requires forall k :: 0 <= k < |sizes| ==> sizes[k] == binSize
    ensures forall i :: 0 <= i < bins ==> (sizes + [binSize + residue])[i] == BinSize(n, bins, i)
  {
  }

  /** starts and sizes cut [0, end) into consecutive ranges: Tiles without the last range required. */
  predicate Consecutive(starts: seq<nat>, sizes: seq<nat>, end: nat)
  {
    && |starts| == |sizes|
    && (|starts| == 0 ==> end == 0)
    && (|starts| > 0 ==> starts[0] == 0 && starts[|starts| - 1] + sizes[|starts| - 1] == end)
    && (forall i :: 0 <= i < |starts| - 1 ==> starts[i + 1] == starts[i] + sizes[i])
    && (forall i :: 0 <= i < |starts| ==> starts[i] + sizes[i] <= end)
  }

  /** A range appended at the end keeps the cut consecutive; with one range or more it tiles. */
  lemma ConsecutiveSnoc(starts: seq<nat>, sizes: seq<nat>, end: nat, size: nat)
    requires Consecutive(starts, sizes, end)
    ensures Consecutive(starts + [end], sizes + [size], end + size)
    ensures Tiles(starts + [end], sizes + [size], end + size)
  {
  }

  /** The remainder and the quotient of n points over the bins, as compute_liop_descriptor takes them. */
  method BinQuotient(n: nat, bins: nat) returns (binSize: nat, residue: nat)
    requires bins >= 1
    ensures binSize == n / bins && residue == n % bins
  {
    residue := n % bins;
    DivParts(n, bins);
    binSize := (n - residue) / bins;
  }

  /** Past bins - 1 bins of n / bins points, the last bin's n / bins + n % bins points end at n. */
  lemma LastBinEnds(n: nat, bins: nat, shift: nat)
    requires bins >= 1 && shift == Times(bins - 1, n / bins)
    ensures shift + n / bins + n % bins == n
  {
    TimesIs(bins - 1, n / bins);
    DivParts(n, bins);
    assert (bins - 1) * (n / bins) + n / bins == bins * (n / bins);
  }

  /** n is bins times its quotient plus the remainder. */
  lemma DivParts(n: nat, bins: nat)
    requires bins >= 1
    ensures (n - n % bins) / bins == n / bins
    ensures n == bins * (n / bins) + n % bins
  {
    DivExact(bins, n / bins);
    assert n - n % bins == bins * (n / bins);
  }

  /** Bins do not overlap: a point lies in at most one of them. */
  lemma BinsDisjoint(starts: seq<nat>, sizes: seq<nat>, n: nat, p: nat, i: nat, j: nat)
    requires Tiles(starts, sizes, n) && i < |starts| && j < |starts|
    requires starts[i] <= p < starts[i] + sizes[i] && starts[j] <= p < starts[j] + sizes[j]
    ensures i == j
  {
    if i < j {
      StartsGrow(starts, sizes, n, i + 1, j);
    } else if j < i {
      StartsGrow(starts, sizes, n, j + 1, i);
    }
  }

  lemma {:induction false} StartsGrow(starts: seq<nat>, sizes: seq<nat>, n: nat, i: nat, j: nat)
    requires Tiles(starts, sizes, n) && 1 <= i <= j < |starts|
    ensures starts[i - 1] + sizes[i - 1] <= starts[j]
    decreases j - i
  {
    if i < j {
      StartsGrow(starts, sizes, n, i, j - 1);
    }
  }

  /** Bins cover everything: every point below n lies in some bin. */
  lemma BinsCover(starts: seq<nat>, sizes: seq<nat>, n: nat, p: nat) returns (i: nat)
    requires Tiles(starts, sizes, n) && p < n
    ensures i < |starts| && starts[i] <= p < starts[i] + sizes[i]
  {
    i := 0;
    while p >= starts[i] + sizes[i]
      invariant i < |starts| && starts[i] <= p
      decreases |starts| - i
    {
      i := i + 1;
    }
  }

  /** The last bin is the largest. */
  lemma LastBinLargest(n: nat, bins: nat, i: nat)
    requires bins >= 1 && i < bins
    ensures BinSize(n, bins, i) <= BinSize(n, bins, bins - 1)
  {
  }

  /** Bins over points sorted by intensity: every point of an earlier bin sorts before every point of a later one. */
  lemma BinsOrdered(a: seq<int>, sorted: seq<nat>, starts: seq<nat>, sizes: seq<nat>,
                    i: nat, j: nat, k: nat, l: nat)
    requires |sorted| >= 1 && Indexes(a, sorted) && SortedRange(a, sorted, 0, |sorted| - 1)
    requires Tiles(starts, sizes, |sorted|) && i < j < |starts|
    requires starts[i] <= k < starts[i] + sizes[i] && starts[j] <= l < starts[j] + sizes[j]
    ensures !Less(a, sorted[l], sorted[k])
  {
    StartsGrow(starts, sizes, |sorted|, i + 1, j);
  }

  // ---------------------------------------------------------------------
  // Descriptor layout
  // ---------------------------------------------------------------------

  /** The settings of a LIOP descriptor object that the descriptor depends on. */
  datatype LiopDesc = LiopDesc(neighbours: nat, bins: nat, side: nat)

  /** liopArraySize: one block of neighbours! entries per bin. */
  function ArraySize(d: LiopDesc): nat
  {
    Fact(d.neighbours) * d.bins
  }

  /** Entry r of the block of bin i lies inside the descriptor, and no two (bin, entry) pairs share a slot. */
  lemma BlockLayout(d: LiopDesc, i: nat, r: nat, i': nat, r': nat)
    requires i < d.bins && r < Fact(d.neighbours) && i' < d.bins && r' < Fact(d.neighbours)
    ensures i * Fact(d.neighbours) + r < ArraySize(d)
    ensures i * Fact(d.neighbours) + r == i' * Fact(d.neighbours) + r' ==> i == i' && r == r'
  {
    var f := Fact(d.neighbours);
    PlaceBound(i, d.bins - 1, f, r);
    if i < i' {
      PlaceOrder(i, i', f, r, r');
    } else if i' < i {
      PlaceOrder(i', i, f, r', r);
    }
  }

  // ---------------------------------------------------------------------
  // Bin histograms
  // ---------------------------------------------------------------------

  /** Every point of ids has the intensities of its n neighbours in nb. */
  predicate Sampled(nb: seq<seq<int>>, ids: seq<nat>, n: nat)
  {
    forall k :: 0 <= k < |ids| ==> ids[k] < |nb| && |nb[ids[k]]| == n
  }

  /** The permutation index of a point: the rank of the order of its neighbours' intensities. */
  function Pattern(I: seq<int>): nat
  {
    Rank(Ordering(I))
  }

  /** What the point at pos adds to entry r of its bin: its weight if r is its pattern, unless it is the center. */
  function Vote(side: int, nb: seq<seq<int>>, th: int, pos: nat, r: nat): nat
    requires side >= 1
  {
    if pos < |nb| && !IsCenter(side, pos) && Pattern(nb[pos]) == r then Weight(nb[pos], th) else 0
  }

  /** Entry r of the histogram of the points ids. */
  function Mass(side: int, nb: seq<seq<int>>, th: int, ids: seq<nat>, r: nat): nat
    requires side >= 1
    decreases |ids|
  {
    if ids == [] then 0
    else Mass(side, nb, th, ids[..|ids| - 1], r) + Vote(side, nb, th, ids[|ids| - 1], r)
  }

  /** How many of the points ids are not the center. */
  function UsedPoints(side: int, ids: seq<nat>): nat
    requires side >= 1
    decreases |ids|
  {
    if ids == [] then 0
    else UsedPoints(side, ids[..|ids| - 1]) + (if IsCenter(side, ids[|ids| - 1]) then 0 else 1)
  }

  /**
   * The part of compute_bin_liop_descriptor done for one point: sort
   * 0 .. n-1 by the neighbours' intensities, take the permutation index
   * of the result, and weigh the point.
   */
  method PointPattern(intensities: seq<int>, th: int) returns (permIndex: nat, weight: nat)
    requires |intensities| >= 1
    ensures permIndex == Pattern(intensities) && permIndex < Fact(|intensities|)
    ensures weight == Weight(intensities, th)
  {
    var n := |intensities|;
    var permutation := SortIndexes(intensities, Iota(n), 0, n - 1);
    QuicksortIsOrdering(intensities, permutation);
    var index := PermutationIndex(permutation);
    RankBound(permutation);
    permIndex := index;
    var w := GetWeight(intensities, th);
    weight := w;
  }

  /**
   * compute_bin_liop_descriptor: every point other than the center adds
   * its weight at its permutation index.
   */
  method BinLiop(side: int, nb: seq<seq<int>>, n: nat, th: int, ids: seq<nat>, hist0: seq<int>)
    returns (hist: seq<int>, used: nat)
    requires side >= 1 && n >= 1 && Sampled(nb, ids, n) && |hist0| == Fact(n)
    ensures |hist| == |hist0|
    ensures forall r :: 0 <= r < |hist| ==> hist[r] == hist0[r] + Mass(side, nb, th, ids, r)
    ensures used == UsedPoints(side, ids)
  {
    hist, used := hist0, 0;
    var i := 0;
    while i < |ids|
      invariant 0 <= i <= |ids| && |hist| == |hist0|
      invariant Tallied(side, nb, th, ids[..i], hist0, hist)
      invariant used == UsedPoints(side, ids[..i])
    {
      var pos := ids[i];
      var c := Coordinates(side, pos);
      ghost var before := hist;
      if c.0 != 0 || c.1 != 0 {
        var permIndex, weight := PointPattern(nb[pos], th);
        hist := hist[permIndex := hist[permIndex] + weight];
        used := used + 1;
      }
      Counted(side, nb, th, ids, i, hist0, before, hist);
      i := i + 1;
    }
    assert ids[..i] == ids;
  }

  /** hist is hist0 plus the histogram of the points ids. */
  predicate Tallied(side: int, nb: seq<seq<int>>, th: int, ids: seq<nat>, hist0: seq<int>, hist: seq<int>)
    requires side >= 1
  {
    |hist| == |hist0| && forall r :: 0 <= r < |hist| ==> hist[r] == hist0[r] + Mass(side, nb, th, ids, r)
  }

  /** The loop step of compute_bin_liop_descriptor keeps the histogram tallied. */
  lemma Counted(side: int, nb: seq<seq<int>>, th: int, ids: seq<nat>, i: nat,
                hist0: seq<int>, before: seq<int>, hist: seq<int>)
    requires side >= 1 && i < |ids| && Tallied(side, nb, th, ids[..i], hist0, before)
    requires IsCenter(side, ids[i]) ==> hist == before
    requires !IsCenter(side, ids[i]) ==>
      var x := ids[i];
      && x < |nb| && Pattern(nb[x]) < |before|
      && hist == before[Pattern(nb[x]) := before[Pattern(nb[x])] + Weight(nb[x], th)]
    ensures Tallied(side, nb, th, ids[..i + 1], hist0, hist)
    ensures UsedPoints(side, ids[..i + 1]) == UsedPoints(side, ids[..i]) + (if IsCenter(side, ids[i]) then 0 else 1)
  {
    assert ids[..i + 1] == ids[..i] + [ids[i]];
    Tally(side, nb, th, ids[..i], ids[i], hist0, before, hist);
  }

  /** Adding the votes of one more point keeps the histogram tallied. */
  lemma Tally(side: int, nb: seq<seq<int>>, th: int, ids: seq<nat>, x: nat,
              hist0: seq<int>, hist: seq<int>, hist': seq<int>)
    requires side >= 1 && Tallied(side, nb, th, ids, hist0, hist) && |hist'| == |hist|
    requires forall r :: 0 <= r < |hist| ==> hist'[r] == hist[r] + Vote(side, nb, th, x, r)
    ensures Tallied(side, nb, th, ids + [x], hist0, hist')
    ensures UsedPoints(side, ids + [x]) == UsedPoints(side, ids) + (if IsCenter(side, x) then 0 else 1)
  {
    assert (ids + [x])[..|ids|] == ids;
    forall r | 0 <= r < |hist'|
      ensures hist'[r] == hist0[r] + Mass(side, nb, th, ids + [x], r)
    {
      MassSnoc(side, nb, th, ids, x, r);
    }
  }

  /** Entry r over the points ids plus one more point x. */
  lemma MassSnoc(side: int, nb: seq<seq<int>>, th: int, ids: seq<nat>, x: nat, r: nat)
    requires side >= 1
    ensures Mass(side, nb, th, ids + [x], r) == Mass(side, nb, th, ids, r) + Vote(side, nb, th, x, r)
  {
    assert (ids + [x])[..|ids|] == ids;
  }

  /** Entries 0 .. R-1 of the histogram, summed. */
  function MassUpTo(side: int, nb: seq<seq<int>>, th: int, ids: seq<nat>, R: nat): nat
    requires side >= 1
  {
    if R == 0 then 0 else MassUpTo(side, nb, th, ids, R - 1) + Mass(side, nb, th, ids, R - 1)
  }

  /** The weights of the points that are not the center, summed. */
  function TotalWeight(side: int, nb: seq<seq<int>>, th: int, ids: seq<nat>): nat
    requires side >= 1
    decreases |ids|
  {
    if ids == [] then 0
    else
      var x := ids[|ids| - 1];
      TotalWeight(side, nb, th, ids[..|ids| - 1]) + (if x >= |nb| || IsCenter(side, x) then 0 else Weight(nb[x], th))
  }

  /** One point votes once, in the entry of its pattern, if that entry is below R. */
  lemma {:induction false} VotesUpTo(side: int, nb: seq<seq<int>>, th: int, x: nat, R: nat, ids: seq<nat>)
    requires side >= 1
    ensures MassUpTo(side, nb, th, ids + [x], R)
         == MassUpTo(side, nb, th, ids, R)
          + (if x < |nb| && !IsCenter(side, x) && Pattern(nb[x]) < R then Weight(nb[x], th) else 0)
    decreases R
  {
    if R > 0 {
      VotesUpTo(side, nb, th, x, R - 1, ids);
      MassSnoc(side, nb, th, ids, x, R - 1);
    }
  }

  /**
   * Every weight lands in exactly one entry of a histogram of n!
   * entries: the entries sum to the total weight of the points that are
   * not the center.
   */
  lemma {:induction false} HistogramTotal(side: int, nb: seq<seq<int>>, n: nat, th: int, ids: seq<nat>)
    requires side >= 1 && Sampled(nb, ids, n)
    ensures MassUpTo(side, nb, th, ids, Fact(n)) == TotalWeight(side, nb, th, ids)
    decreases |ids|
  {
    if ids == [] {
      EmptyMass(side, nb, th, Fact(n));
    } else {
      var init, x := ids[..|ids| - 1], ids[|ids| - 1];
      assert Sampled(nb, init, n) by {
        forall k | 0 <= k < |init|
          ensures init[k] < |nb| && |nb[init[k]]| == n
        {
          assert init[k] == ids[k];
        }
      }
      HistogramTotal(side, nb, n, th, init);
      assert ids == init + [x];
      VotesUpTo(side, nb, th, x, Fact(n), init);
      PatternBound(nb[x]);
    }
  }

  lemma {:induction false} EmptyMass(side: int, nb: seq<seq<int>>, th: int, R: nat)
    requires side >= 1
    ensures MassUpTo(side, nb, th, [], R) == 0
    decreases R
  {
    if R > 0 {
      EmptyMass(side, nb, th, R - 1);
    }
  }

  /** The permutation index of n neighbours is below n!. */
  lemma PatternBound(I: seq<int>)
    ensures Pattern(I) < Fact(|I|)
  {
    RankBound(Ordering(I));
  }

  // ---------------------------------------------------------------------
  // The descriptor
  // ---------------------------------------------------------------------

  /** The points of bin i: its range of the sorted sample points. */
  function BinPoints(sorted: seq<nat>, bins: nat, i: nat): seq<nat>
    requires bins >= 1 && i < bins
  {
    var start := Times(i, |sorted| / bins);
    var end := start + BinSize(|sorted|, bins, i);
    if end <= |sorted| then sorted[start..end] else []
  }

  /** The histogram of the points ids over the n! permutation indexes. */
  function Histogram(side: int, nb: seq<seq<int>>, th: int, ids: seq<nat>, n: nat): (h: seq<int>)
    requires side >= 1
    ensures |h| == Fact(n)
  {
    seq(Fact(n), r requires 0 <= r => Mass(side, nb, th, ids, r))
  }

  /** The histograms of the bins of the sorted sample points, in bin order. */
  function BinHistograms(d: LiopDesc, sorted: seq<nat>, nb: seq<seq<int>>, th: int): (hs: seq<seq<int>>)
    requires d.side >= 1 && d.bins >= 1
    ensures |hs| == d.bins && forall i :: 0 <= i < d.bins ==> |hs[i]| == Fact(d.neighbours)
  {
    seq(d.bins, i requires 0 <= i < d.bins => Histogram(d.side, nb, th, BinPoints(sorted, d.bins, i), d.neighbours))
  }

  /** The unnormalised descriptor: the bin histograms one after the other. */
  function Descriptor(d: LiopDesc, sorted: seq<nat>, nb: seq<seq<int>>, th: int): seq<int>
    requires d.side >= 1 && d.bins >= 1
  {
    Flatten(BinHistograms(d, sorted, nb, th))
  }

  /**
   * compute_liop_descriptor without the threshold choice and the final
   * normalisation: sort the sample points by intensity, cut them into
   * bins and put the histogram of bin i into block i of the descriptor.
   */
  method Describe(d: LiopDesc, patch: seq<int>, inner: seq<nat>, nb: seq<seq<int>>, th: int)
    returns (desc: seq<int>, sorted: seq<nat>)
    requires d.side >= 1 && d.neighbours >= 1 && d.bins >= 1
    requires |inner| >= 1 && Indexes(patch, inner) && Sampled(nb, inner, d.neighbours)
    ensures |sorted| == |inner| && multiset(sorted) == multiset(inner) && Indexes(patch, sorted)
    ensures SortedRange(patch, sorted, 0, |sorted| - 1)
    ensures desc == Descriptor(d, sorted, nb, th) && |desc| == ArraySize(d)
  {
    var n := |inner|;
    sorted := SortIndexes(patch, inner, 0, n - 1);
    var starts, sizes := MakeBins(n, d.bins);
    SortedSampled(nb, inner, sorted, d.neighbours);
    desc := BinBlocks(d, sorted, starts, sizes, nb, th);
    DescriptorSize(d, sorted, nb, th);
  }

  /** The bin loop of compute_liop_descriptor: each bin's histogram, in bin order. */
  method BinBlocks(d: LiopDesc, sorted: seq<nat>, starts: seq<nat>, sizes: seq<nat>, nb: seq<seq<int>>, th: int)
    returns (desc: seq<int>)
    requires d.side >= 1 && d.neighbours >= 1 && d.bins >= 1 && Sampled(nb, sorted, d.neighbours)
    requires |starts| == |sizes| == d.bins && Tiles(starts, sizes, |sorted|)
    requires forall k :: 0 <= k < d.bins ==> sizes[k] == BinSize(|sorted|, d.bins, k)
    ensures desc == Descriptor(d, sorted, nb, th)
  {
    var f := Factorial(d.neighbours);
    ghost var hs := BinHistograms(d, sorted, nb, th);
    desc := [];
    var i := 0;
    while i < d.bins
      invariant 0 <= i <= d.bins && desc == Flatten(hs[..i])
    {
      var hist := BinBlock(d, sorted, starts, sizes, nb, th, i, f);
      assert hs[..i + 1] == hs[..i] + [hs[i]];
      FlattenSnoc(hs[..i], hs[i]);
      desc := desc + hist;
      i := i + 1;
    }
    assert hs[..i] == hs;
  }

  /** The histogram of spatial bin i, computed from a zeroed block of f = neighbours! entries. */
  method BinBlock(d: LiopDesc, sorted: seq<nat>, starts: seq<nat>, sizes: seq<nat>, nb: seq<seq<int>>, th: int,
                  i: nat, f: int) returns (hist: seq<int>)
    requires d.side >= 1 && d.neighbours >= 1 && d.bins >= 1 && Sampled(nb, sorted, d.neighbours)
    requires |starts| == |sizes| == d.bins && Tiles(starts, sizes, |sorted|)
    requires forall k :: 0 <= k < d.bins ==> sizes[k] == BinSize(|sorted|, d.bins, k)
    requires i < d.bins && f == Fact(d.neighbours)
    ensures hist == BinHistograms(d, sorted, nb, th)[i]
  {
    var ids := BinSlice(sorted, starts, sizes, d.bins, i);
    var zero := seq(f, _ => 0);
    BinSampled(nb, sorted, d.bins, i, d.neighbours);
    var used;
    hist, used := BinLiop(d.side, nb, d.neighbours, th, ids, zero);
  }

  lemma FlattenSnoc(bs: seq<seq<int>>, b: seq<int>)
    ensures Flatten(bs + [b]) == Flatten(bs) + b
  {
    assert (bs + [b])[..|bs|] == bs;
  }

  /** The descriptor has neighbours! * bins entries. */
  lemma DescriptorSize(d: LiopDesc, sorted: seq<nat>, nb: seq<seq<int>>, th: int)
    requires d.side >= 1 && d.bins >= 1
    ensures |Descriptor(d, sorted, nb, th)| == ArraySize(d)
  {
    FlattenLength(BinHistograms(d, sorted, nb, th), Fact(d.neighbours));
  }

  /** Entry r of block i of the descriptor is entry r of the histogram of bin i. */
  lemma DescriptorEntry(d: LiopDesc, sorted: seq<nat>, nb: seq<seq<int>>, th: int, i: nat, r: nat)
    requires d.side >= 1 && d.bins >= 1 && i < d.bins && r < Fact(d.neighbours)
    ensures i * Fact(d.neighbours) + r < |Descriptor(d, sorted, nb, th)|
    ensures Descriptor(d, sorted, nb, th)[i * Fact(d.neighbours) + r]
         == Mass(d.side, nb, th, BinPoints(sorted, d.bins, i), r)
  {
    FlattenAt(BinHistograms(d, sorted, nb, th), Fact(d.neighbours), i, r);
  }

  /** Blocks laid end to end. */
  function Flatten(bs: seq<seq<int>>): seq<int>
    decreases |bs|
  {
    if bs == [] then [] else Flatten(bs[..|bs| - 1]) + bs[|bs| - 1]
  }

  /** Blocks of f entries each flatten to |bs| * f entries. */
  lemma {:induction false} FlattenLength(bs: seq<seq<int>>, f: nat)
    requires forall k :: 0 <= k < |bs| ==> |bs[k]| == f
    ensures |Flatten(bs)| == |bs| * f
    decreases |bs|
  {
    if bs != [] {
      FlattenLength(bs[..|bs| - 1], f);
      assert |bs| * f == (|bs| - 1) * f + f;
    }
  }

  /** With every block f long, entry r of block j sits at j * f + r. */
  lemma {:induction false} FlattenAt(bs: seq<seq<int>>, f: nat, j: nat, r: nat)
    requires forall k :: 0 <= k < |bs| ==> |bs[k]| == f
    requires j < |bs| && r < f
    ensures j * f + r < |Flatten(bs)| && Flatten(bs)[j * f + r] == bs[j][r]
    decreases |bs|
  {
    var init := bs[..|bs| - 1];
    FlattenLength(bs, f);
    FlattenLength(init, f);
    if j < |init| {
      FlattenAt(init, f, j, r);
    } else {
      assert j * f == |Flatten(init)|;
    }
  }

  /** The bin's range of the sorted points, as compute_liop_descriptor hands it over. */
  method BinSlice(sorted: seq<nat>, starts: seq<nat>, sizes: seq<nat>, bins: nat, i: nat) returns (ids: seq<nat>)
    requires bins >= 1 && i < bins && |starts| == |sizes| == bins && Tiles(starts, sizes, |sorted|)
    requires forall k :: 0 <= k < bins ==> sizes[k] == BinSize(|sorted|, bins, k)
    ensures ids == BinPoints(sorted, bins, i)
  {
    StartIsMultiple(starts, sizes, |sorted|, bins, i);
    if i < bins - 1 {
      StartsGrow(starts, sizes, |sorted|, i + 1, bins - 1);
    }
    ids := sorted[starts[i]..starts[i] + sizes[i]];
  }

  lemma {:induction false} StartIsMultiple(starts: seq<nat>, sizes: seq<nat>, n: nat, bins: nat, i: nat)
    requires bins >= 1 && i < bins && |starts| == |sizes| == bins && Tiles(starts, sizes, n)
    requires forall k :: 0 <= k < bins ==> sizes[k] == BinSize(n, bins, k)
    ensures starts[i] == Times(i, n / bins)
    decreases i
  {
    if i > 0 {
      StartIsMultiple(starts, sizes, n, bins, i - 1);
    }
  }

  /** The points of a bin are sample points. */
  lemma BinSampled(nb: seq<seq<int>>, sorted: seq<nat>, bins: nat, i: nat, n: nat)
    requires Sampled(nb, sorted, n) && bins >= 1 && i < bins
    ensures Sampled(nb, BinPoints(sorted, bins, i), n)
  {
    var start := Times(i, |sorted| / bins);
    var end := start + BinSize(|sorted|, bins, i);
    if end <= |sorted| {
      SliceSampled(nb, sorted, start, end, n);
    }
  }

  lemma SliceSampled(nb: seq<seq<int>>, s: seq<nat>, a: nat, b: nat, n: nat)
    requires Sampled(nb, s, n) && a <= b <= |s|
    ensures Sampled(nb, s[a..b], n)
  {
    forall k | 0 <= k < b - a
      ensures s[a..b][k] < |nb| && |nb[s[a..b][k]]| == n
    {
      assert s[a..b][k] == s[a + k];
    }
  }

  /** Sorting the sample points keeps them sampled. */
  lemma SortedSampled(nb: seq<seq<int>>, inner: seq<nat>, sorted: seq<nat>, n: nat)
    requires Sampled(nb, inner, n) && multiset(sorted) == multiset(inner)
    ensures Sampled(nb, sorted, n)
  {
    forall k | 0 <= k < |sorted|
      ensures sorted[k] < |nb| && |nb[sorted[k]]| == n
    {
      assert sorted[k] in multiset(inner);
    }
  }

}

=== FILE: lioporder.dfy ===
/**
 * The ordinal part of the LIOP descriptor (vl/liop.c): factorials, the
 * index of a permutation in lexicographic order, and the quicksort of
 * index arrays that orders entries by value with ties broken by index.
 * Intensities are modelled as integers: the code only compares them.
 */
module LiopOrder {

  // ---------------------------------------------------------------------
  // Factorial
  // ---------------------------------------------------------------------

  /** n!, with 1 for every n <= 1. */
  function Fact(n: int): (r: nat)
    ensures r >= 1
    decreases n
  {
    if n <= 1 then 1 else n * Fact(n - 1)
  }

  /** factorial: multiply num, num - 1, ..., 2 into the result. */
  method Factorial(num: int) returns (result: int)
    ensures result == Fact(num)
  {
    result := 1;
    var k := num;
    while k > 1
      invariant result * Fact(k) == Fact(num)
    {
      FactStep(k, result);
      result := k * result;
      k := k - 1;
    }
  }

  /** One step of the product loop: moving factor k from the factorial into the running product. */
  lemma FactStep(k: int, a: int)
    requires k >= 1
    ensures a * Fact(k) == (k * a) * Fact(k - 1)
  {
    var f := Fact(k - 1);
    assert Fact(k) == k * f;
    assert a * (k * f) == (k * a) * f;
  }

  /** Each factorial is its predecessor times n, so dividing by n steps back exactly. */
  lemma FactDiv(n: int)
    requires n >= 1
    ensures Fact(n) == n * Fact(n - 1)
    ensures Fact(n) / n == Fact(n - 1)
  {
    var f := Fact(n - 1);
    assert Fact(n) == n * f;
    DivExact(n, f);
  }

  lemma DivExact(n: int, y: nat)
    requires n >= 1
    ensures (n * y) / n == y
  {
    var q, r := (n * y) / n, (n * y) % n;
    assert n * y == n * q + r && 0 <= r < n;
    MulMono(q + 1, y, n);
    MulMono(y + 1, q, n);
    assert (q + 1) * n == q * n + n;
    assert (y + 1) * n == y * n + n;
  }

  /** Multiplying by f >= 0 keeps order. */
  lemma {:induction false} MulMono(a: int, b: int, f: nat)
    ensures a <= b ==> a * f <= b * f
    decreases if a <= b then b - a else 0
  {
    if a < b {
      MulMono(a, b - 1, f);
      assert b * f == (b - 1) * f + f;
    }
  }

  /** A digit d <= m in a place worth f, plus less than f, stays below (m + 1) * f. */
  lemma PlaceBound(d: nat, m: nat, f: nat, r: nat)
    requires d <= m && r < f
    ensures d * f + r < (m + 1) * f
  {
    MulMono(d, m, f);
    assert (m + 1) * f == m * f + f;
  }

  /** A larger digit outweighs anything the lower places can add. */
  lemma PlaceOrder(dp: nat, dq: nat, f: nat, rp: nat, rq: nat)
    requires dp < dq && rp < f
    ensures dp * f + rp < dq * f + rq
  {
    MulMono(dp + 1, dq, f);
    assert (dp + 1) * f == dp * f + f;
  }

  // ---------------------------------------------------------------------
  // Permutations and their lexicographic rank
  // ---------------------------------------------------------------------

  /** p lists 0 .. |p|-1, each exactly once. */
  predicate IsPermutation(p: seq<nat>)
  {
    && (forall i :: 0 <= i < |p| ==> p[i] < |p|)
    && Distinct(p)
  }

  predicate Distinct(s: seq<nat>)
  {
    forall i, j :: 0 <= i < j < |s| ==> s[i] != s[j]
  }

  /** How many of the values 0 .. v-1 do not occur in s. */
  function Free(s: seq<nat>, v: nat): (r: nat)
    ensures r <= v
  {
    if v == 0 then 0 else Free(s, v - 1) + (if v - 1 in s then 0 else 1)
  }

  /** Digit i of the Lehmer code: the values below p[i] not used before position i. */
  function Digit(p: seq<nat>, i: nat): nat
    requires i < |p|
  {
    Free(p[..i], p[i])
  }

  /** The digits from position i on, each weighted by the factorial of the positions after it. */
  function RankFrom(p: seq<nat>, i: nat): nat
    requires i <= |p|
    decreases |p| - i
  {
    if i == |p| then 0 else Digit(p, i) * Fact(|p| - 1 - i) + RankFrom(p, i + 1)
  }

  /** The position of p among the permutations of its length in lexicographic order. */
  function Rank(p: seq<nat>): nat
  {
    RankFrom(p, 0)
  }

  lemma {:induction false} FreeNone(v: nat)
    ensures Free([], v) == v
    decreases v
  {
    if v > 0 {
      FreeNone(v - 1);
    }
  }

  /** Using one more value x removes it from the free values above it. */
  lemma {:induction false} FreeSnoc(s: seq<nat>, x: nat, v: nat)
    requires x !in s
    ensures Free(s + [x], v) + (if x < v then 1 else 0) == Free(s, v)
    decreases v
  {
    if v > 0 {
      FreeSnoc(s, x, v - 1);
      assert (v - 1 in s + [x]) <==> (v - 1 in s || v - 1 == x);
    }
  }

  lemma {:induction false} FreeMono(s: seq<nat>, v: nat, w: nat)
    requires v <= w
    ensures Free(s, v) <= Free(s, w)
    decreases w - v
  {
    if v < w {
      FreeMono(s, v, w - 1);
    }
  }

  /** Distinct values below n leave exactly n - |s| of them free. */
  lemma {:induction false} FreeAll(s: seq<nat>, n: nat)
    requires forall i :: 0 <= i < |s| ==> s[i] < n
    requires Distinct(s)
    ensures Free(s, n) + |s| == n
    decreases |s|
  {
    if s == [] {
      FreeNone(n);
    } else {
      var t, x := s[..|s| - 1], s[|s| - 1];
      assert s == t + [x];
      assert x !in t by {
        forall k | 0 <= k < |t|
          ensures t[k] != x
        {
          assert t[k] == s[k];
        }
      }
      FreeAll(t, n);
      FreeSnoc(t, x, n);
    }
  }

  /** The digit at position i is at most the number of positions after it. */
  lemma DigitBound(p: seq<nat>, i: nat)
    requires IsPermutation(p) && i < |p|
    ensures Digit(p, i) <= |p| - 1 - i
  {
    var s, x, n := p[..i], p[i], |p|;
    assert x !in s by {
      forall k | 0 <= k < i
        ensures s[k] != x
      {
        assert s[k] == p[k];
      }
    }
    assert Free(s, x + 1) == Free(s, x) + 1;
    FreeMono(s, x + 1, n);
    FreeSnoc(s, x, n);
    assert p[..i + 1] == s + [x];
    FreeAll(p[..i + 1], n);
  }

  /** The digits from position i on amount to less than (|p| - i)!. */
  lemma {:induction false} RankFromBound(p: seq<nat>, i: nat)
    requires IsPermutation(p) && i <= |p|
    ensures RankFrom(p, i) < Fact(|p| - i)
    decreases |p| - i
  {
    if i < |p| {
      RankFromBound(p, i + 1);
      DigitBound(p, i);
      var m := |p| - 1 - i;
      var d, f := Digit(p, i), Fact(m);
      PlaceBound(d, m, f, RankFrom(p, i + 1));
      assert Fact(m + 1) == (m + 1) * f;
    }
  }

  /** The rank of a permutation of n values lies in [0, n!). */
  lemma RankBound(p: seq<nat>)
    requires IsPermutation(p)
    ensures Rank(p) < Fact(|p|)
  {
    RankFromBound(p, 0);
  }

  /** Equal prefixes contribute equal digits, so ranks differ only by their tails. */
  lemma {:induction false} RankFromGap(p: seq<nat>, q: seq<nat>, i: nat, k: nat)
    requires |p| == |q| && k <= i <= |p| && p[..i] == q[..i]
    ensures RankFrom(p, k) - RankFrom(q, k) == RankFrom(p, i) - RankFrom(q, i)
    decreases i - k
  {
    if k < i {
      RankFromGap(p, q, i, k + 1);
      assert p[..k] == p[..i][..k] && q[..k] == q[..i][..k];
      assert p[k] == p[..i][k] && q[k] == q[..i][k];
    }
  }

  /**
   * The rank follows lexicographic order: if p and q agree before
   * position i and p[i] < q[i], then p comes first.
   */
  lemma LexOrder(p: seq<nat>, q: seq<nat>, i: nat)
    requires IsPermutation(p) && IsPermutation(q) && |p| == |q|
    requires i < |p| && p[..i] == q[..i] && p[i] < q[i]
    ensures Rank(p) < Rank(q)
  {
    RankFromGap(p, q, i, 0);
    var s := p[..i];
    assert p[i] !in s by {
      forall k | 0 <= k < i
        ensures s[k] != p[i]
      {
        assert s[k] == p[k];
      }
    }
    assert Free(s, p[i] + 1) == Free(s, p[i]) + 1;
    FreeMono(s, p[i] + 1, q[i]);
    DigitOrder(p, q, i);
  }

  /** A smaller digit at position i puts the rank from i below, whatever follows. */
  lemma DigitOrder(p: seq<nat>, q: seq<nat>, i: nat)
    requires IsPermutation(p) && |p| == |q| && i < |p| && Digit(p, i) < Digit(q, i)
    ensures RankFrom(p, i) < RankFrom(q, i)
  {
    RankFromBound(p, i + 1);
    PlaceOrder(Digit(p, i), Digit(q, i), Fact(|p| - 1 - i), RankFrom(p, i + 1), RankFrom(q, i + 1));
  }

  /** Distinct permutations of one length have distinct ranks. */
  lemma RankInjective(p: seq<nat>, q: seq<nat>)
    requires IsPermutation(p) && IsPermutation(q) && |p| == |q| && p != q
    ensures Rank(p) != Rank(q)
  {
    var i := FirstDifference(p, q);
    if p[i] < q[i] {
      LexOrder(p, q, i);
    } else {
      LexOrder(q, p, i);
    }
  }

  /** The first position where two different sequences of one length differ. */
  lemma FirstDifference(p: seq<nat>, q: seq<nat>) returns (i: nat)
    requires |p| == |q| && p != q
    ensures i < |p| && p[..i] == q[..i] && p[i] != q[i]
  {
    i := 0;
    while i < |p| && p[i] == q[i]
      invariant i <= |p| && p[..i] == q[..i]
    {
      assert p[..i + 1] == q[..i + 1];
      i := i + 1;
    }
    assert p[..|p|] == p && q[..|q|] == q;
    assert i < |p|;
  }

  /** Rows of the table in the documentation of vl/liop.c (values 1 .. 4 there, 0 .. 3 here). */
  lemma TableFirst()
    ensures Rank([0, 1, 2, 3]) == 0
  {
    FreeNone(0);
    assert Free([0], 1) == 0;
    assert Free([0, 1], 2) == 0;
  }

  lemma TableSecond()
    ensures Rank([0, 1, 3, 2]) == 1
  {
    var p := [0, 1, 3, 2];
    assert p[..1] == [0] && p[..2] == [0, 1] && p[..3] == [0, 1, 3];
    FreeNone(0);
    assert Free([0], 1) == 0;
    assert Free([0, 1], 3) == 1;
    assert Free([0, 1, 3], 2) == 0;
  }

  /** (1 4 3 2) has index 5, as the table says. */
  lemma TableSixth()
    ensures Rank([0, 3, 2, 1]) == 5
  {
    var p := [0, 3, 2, 1];
    assert p[..1] == [0] && p[..2] == [0, 3] && p[..3] == [0, 3, 2];
    FreeNone(0);
    assert Free([0], 3) == 2;
    assert Free([0, 3], 2) == 1;
    assert Free([0, 3, 2], 1) == 0;
  }

  lemma TableSeventh()
    ensures Rank([1, 0, 2, 3]) == 6
  {
    var p := [1, 0, 2, 3];
    assert p[..1] == [1] && p[..2] == [1, 0] && p[..3] == [1, 0, 2];
    FreeNone(1);
    assert Free([1], 0) == 0;
    assert Free([1, 0], 2) == 0;
    assert Free([1, 0, 2], 3) == 0;
  }

  lemma TableLast()
    ensures Rank([3, 2, 1, 0]) == 23
  {
    var p := [3, 2, 1, 0];
    assert p[..1] == [3] && p[..2] == [3, 2] && p[..3] == [3, 2, 1];
    FreeNone(3);
    assert Free([3], 2) == 2;
    assert Free([3, 2], 1) == 1;
    assert Free([3, 2, 1], 0) == 0;
  }

  /** How many of the values 0 .. v-1 are marked. */
  function Marked(marks: seq<bool>, v: nat): (r: nat)
    requires v <= |marks|
    ensures r <= v
  {
    if v == 0 then 0 else Marked(marks, v - 1) + (if marks[v - 1] then 1 else 0)
  }

  /** The inner loop of vl_liop_permutation_index: v less the marked values below it. */
  method CountFree(marks: seq<bool>, v: nat) returns (r: int)
    requires v <= |marks|
    ensures r == v - Marked(marks, v)
  {
    r := v;
    var j := v - 1;
    while j >= 0
      invariant -1 <= j < v
      invariant r + Marked(marks, v) - Marked(marks, j + 1) == v
    {
      if marks[j] {
        r := r - 1;
      }
      j := j - 1;
    }
  }

  /** Values below v are either marked or free in s, when the marks are those of s. */
  lemma {:induction false} MarkedFree(marks: seq<bool>, s: seq<nat>, v: nat)
    requires v <= |marks|
    requires forall u :: 0 <= u < v ==> (marks[u] <==> u in s)
    ensures Marked(marks, v) + Free(s, v) == v
    decreases v
  {
    if v > 0 {
      MarkedFree(marks, s, v - 1);
    }
  }

  /**
   * get_permutation_index: the first entry counts p[0] blocks of (n-1)!;
   * each later entry but the last counts, in blocks of the factorial of
   * the positions after it, its value minus the smaller values already
   * used, found by walking down a table of used values.
   * The table entries equal to NO_VALUE are modelled as `used[v]`.
   */
  method PermutationIndex(p: seq<nat>) returns (index: int)
    requires |p| >= 1 && IsPermutation(p)
    ensures index == Rank(p)
  {
    var size := |p|;
    var used := seq(size, _ => false);
    var f := Factorial(size - 1);
    var value: int := p[0];
    used := used[value := true];
    FreeNone(p[0]);
    assert p[..0] == [];
    index := value * f;
    assert index + RankFrom(p, 1) == Rank(p);
    var i := 1;
    while i < size - 1
      invariant 1 <= i <= size && (size >= 2 ==> i <= size - 1)
      invariant f == Fact(size - i)
      invariant index + RankFrom(p, i) == Rank(p)
      invariant |used| == size
      invariant forall v :: 0 <= v < size ==> (used[v] <==> v in p[..i])
    {
      value := p[i];
      used := used[value := true];
      assert p[..i + 1] == p[..i] + [p[i]];
      value := CountFree(used, value);
      MarkedFree(used, p[..i], p[i]);
      assert value == Digit(p, i);
      FactDiv(size - i);
      f := f / (size - i);
      assert RankFrom(p, i) == value * f + RankFrom(p, i + 1);
      index := index + value * f;
      i := i + 1;
    }
    if size >= 2 {
      DigitBound(p, size - 1);
      assert RankFrom(p, size - 1) == Digit(p, size - 1) * Fact(0) + RankFrom(p, size);
    }
  }

  // ---------------------------------------------------------------------
  // The stable index quicksort
  // ---------------------------------------------------------------------

  /** Index x sorts before y: smaller value, or equal value and smaller index. */
  predicate Less(a: seq<int>, x: nat, y: nat)
    requires x < |a| && y < |a|
  {
    a[x] < a[y] || (a[x] == a[y] && x < y)
  }

  /** Every entry of s indexes a. */
  predicate Indexes(a: seq<int>, s: seq<nat>)
  {
    forall k :: 0 <= k < |s| ==> s[k] < |a|
  }

  /** Entries b .. e of s are in order: none sorts before an earlier one. */
  predicate SortedRange(a: seq<int>, s: seq<nat>, b: nat, e: nat)
    requires Indexes(a, s) && e < |s|
  {
    forall k, l :: b <= k < l <= e ==> !Less(a, s[l], s[k])
  }

  /** Every entry sorts before every later one. */
  predicate StrictlySorted(a: seq<int>, s: seq<nat>)
    requires Indexes(a, s)
  {
    forall k, l :: 0 <= k < l < |s| ==> Less(a, s[k], s[l])
  }

  /** t is s with entries b .. e rearranged and the others untouched. */
  predicate PermutedIn(s: seq<nat>, t: seq<nat>, b: nat, e: nat)
  {
    && |t| == |s| && multiset(t) == multiset(s)
    && forall k :: 0 <= k < |s| && (k < b || e < k) ==> t[k] == s[k]
  }

  /** qsort_swap. */
  function Swap(s: seq<nat>, i: nat, j: nat): (t: seq<nat>)
    requires i < |s| && j < |s|
    ensures |t| == |s| && t[i] == s[j] && t[j] == s[i]
    ensures forall k :: 0 <= k < |s| && k != i && k != j ==> t[k] == s[k]
  {
    s[i := s[j]][j := s[i]]
  }

  lemma SwapPermutes(s: seq<nat>, i: nat, j: nat, b: nat, e: nat)
    requires b <= i <= e && b <= j <= e && e < |s|
    ensures PermutedIn(s, Swap(s, i, j), b, e)
  {
    var t := s[i := s[j]];
    assert multiset(t) == multiset(s) - multiset{s[i]} + multiset{s[j]};
    assert multiset(t[j := s[i]]) == multiset(t) - multiset{t[j]} + multiset{s[i]};
  }

  lemma PermutedTrans(s: seq<nat>, t: seq<nat>, u: seq<nat>, b: nat, e: nat)
    requires PermutedIn(s, t, b, e) && PermutedIn(t, u, b, e)
    ensures PermutedIn(s, u, b, e)
  {
  }

  /** A rearrangement of a range keeps the multiset of the range. */
  lemma RangeMultiset(s: seq<nat>, t: seq<nat>, b: nat, e: nat)
    requires PermutedIn(s, t, b, e) && b <= e < |s|
    ensures multiset(t[b..e + 1]) == multiset(s[b..e + 1])
  {
    var sl, tl := s[..b], t[..b];
    var sh, th := s[e + 1..], t[e + 1..];
    assert tl == sl by {
      forall k | 0 <= k < b
        ensures tl[k] == sl[k]
      {
        assert t[k] == s[k];
      }
    }
    assert th == sh by {
      forall k | 0 <= k < |sh|
        ensures th[k] == sh[k]
      {
        assert t[e + 1 + k] == s[e + 1 + k];
      }
    }
    assert s == sl + s[b..e + 1] + sh;
    assert t == tl + t[b..e + 1] + th;
    MultisetCancel(multiset(sl), multiset(sh), multiset(t[b..e + 1]), multiset(s[b..e + 1]));
  }

  /** Equal unions with the same outer parts have the same middle. */
  lemma MultisetCancel(l: multiset<nat>, h: multiset<nat>, x: multiset<nat>, y: multiset<nat>)
    requires l + x + h == l + y + h
    ensures x == y
  {
    forall v
      ensures x[v] == y[v]
    {
      assert (l + x + h)[v] == (l + y + h)[v];
    }
  }

  /** Which side of the pivot pv an index lies on. */
  predicate Side(a: seq<int>, x: nat, pv: nat, below: bool)
    requires x < |a| && pv < |a|
  {
    if below then Less(a, x, pv) else !Less(a, x, pv)
  }

  /** Rearranging a range keeps every entry on the side of the pivot it was on. */
  lemma SideKept(a: seq<int>, s: seq<nat>, t: seq<nat>, b: nat, e: nat, pv: nat, below: bool)
    requires Indexes(a, s) && PermutedIn(s, t, b, e) && b <= e < |s| && pv < |a|
    requires forall k :: b <= k <= e ==> Side(a, s[k], pv, below)
    ensures forall k :: b <= k <= e ==> t[k] < |a| && Side(a, t[k], pv, below)
  {
    RangeMultiset(s, t, b, e);
    forall k | b <= k <= e
      ensures t[k] < |a| && Side(a, t[k], pv, below)
    {
      assert t[k] == t[b..e + 1][k - b];
      assert t[k] in multiset(s[b..e + 1]);
      var k' :| 0 <= k' < e + 1 - b && s[b..e + 1][k'] == t[k];
      assert s[b + k'] == t[k];
    }
  }

  lemma IndexesKept(a: seq<int>, s: seq<nat>, t: seq<nat>, b: nat, e: nat)
    requires Indexes(a, s) && PermutedIn(s, t, b, e)
    ensures Indexes(a, t)
  {
    forall k | 0 <= k < |t|
      ensures t[k] < |a|
    {
      assert t[k] in multiset(s);
    }
  }

  /**
   * The sweep state of the partition: entries b .. low-1 sort before the
   * pivot kept at e, entries low .. i-1 do not.
   */
  predicate Swept(a: seq<int>, t: seq<nat>, b: nat, low: nat, i: nat, e: nat)
    requires Indexes(a, t) && b <= low <= i <= e < |t|
  {
    && (forall k :: b <= k < low ==> Side(a, t[k], t[e], true))
    && (forall k :: low <= k < i ==> Side(a, t[k], t[e], false))
  }

  /** An entry that sorts before the pivot is swapped to the front of the sweep. */
  lemma SweepTake(a: seq<int>, t: seq<nat>, b: nat, low: nat, i: nat, e: nat)
    requires Indexes(a, t) && b <= low <= i < e < |t|
    requires Swept(a, t, b, low, i, e) && Less(a, t[i], t[e])
    ensures Indexes(a, Swap(t, low, i)) && Swept(a, Swap(t, low, i), b, low + 1, i + 1, e)
  {
    var t' := Swap(t, low, i);
    assert t'[e] == t[e];
    forall k | b <= k < low + 1
      ensures Side(a, t'[k], t'[e], true)
    {
      if k < low {
        assert t'[k] == t[k];
      }
    }
    forall k | low + 1 <= k < i + 1
      ensures Side(a, t'[k], t'[e], false)
    {
      if k < i {
        assert t'[k] == t[k];
      } else {
        assert t'[k] == t[low];
      }
    }
  }

  /** An entry that does not sort before the pivot stays where it is. */
  lemma SweepSkip(a: seq<int>, t: seq<nat>, b: nat, low: nat, i: nat, e: nat)
    requires Indexes(a, t) && b <= low <= i < e < |t|
    requires Swept(a, t, b, low, i, e) && !Less(a, t[i], t[e])
    ensures Swept(a, t, b, low, i + 1, e)
  {
  }

  /** Swapping the pivot from e to low finishes the partition around low. */
  lemma SweepPlace(a: seq<int>, t: seq<nat>, b: nat, low: nat, e: nat)
    requires Indexes(a, t) && b <= low <= e < |t|
    requires Swept(a, t, b, low, e, e)
    ensures Indexes(a, Swap(t, low, e))
    ensures forall k :: b <= k < low ==> Side(a, Swap(t, low, e)[k], Swap(t, low, e)[low], true)
    ensures forall k :: low < k <= e ==> Side(a, Swap(t, low, e)[k], Swap(t, low, e)[low], false)
  {
    var t' := Swap(t, low, e);
    assert t'[low] == t[e];
    forall k | b <= k < low
      ensures Side(a, t'[k], t'[low], true)
    {
      assert t'[k] == t[k];
    }
    forall k | low < k <= e
      ensures Side(a, t'[k], t'[low], false)
    {
      if k < e {
        assert t'[k] == t[k];
      } else {
        assert t'[k] == t[low];
        if low < e {
          assert Side(a, t[low], t[e], false);
        }
      }
    }
  }

  /**
   * The partition step of stable_indexes_qsort: move the middle entry to
   * the end as pivot, sweep the entries that sort before it to the front,
   * then put the pivot right after them.
   */
  method Partition(a: seq<int>, s: seq<nat>, b: nat, e: nat) returns (t: seq<nat>, m: nat)
    requires Indexes(a, s) && b <= e < |s|
    ensures Indexes(a, t) && PermutedIn(s, t, b, e)
    ensures b <= m <= e
    ensures forall k :: b <= k < m ==> Side(a, t[k], t[m], true)
    ensures forall k :: m < k <= e ==> Side(a, t[k], t[m], false)
  {
    var pivot := (e + b) / 2;
    SwapPermutes(s, pivot, e, b, e);
    t := Swap(s, pivot, e);
    IndexesKept(a, s, t, b, e);
    pivot := e;
    var low := b;
    var i := b;
    while i < e
      invariant b <= low <= i <= e
      invariant Indexes(a, t) && PermutedIn(s, t, b, e)
      invariant Swept(a, t, b, low, i, e)
    {
      if Less(a, t[i], t[pivot]) {
        SweepTake(a, t, b, low, i, e);
        SwapPermutes(t, low, i, b, e);
        PermutedTrans(s, t, Swap(t, low, i), b, e);
        t := Swap(t, low, i);
        low := low + 1;
      } else {
        SweepSkip(a, t, b, low, i, e);
      }
      i := i + 1;
    }
    SweepPlace(a, t, b, low, e);
    SwapPermutes(t, low, pivot, b, e);
    PermutedTrans(s, t, Swap(t, low, pivot), b, e);
    t := Swap(t, low, pivot);
    m := low;
  }

  /** The comparison is a strict order. */
  lemma LessOrder(a: seq<int>, x: nat, y: nat, z: nat)
    requires x < |a| && y < |a| && z < |a|
    ensures !(Less(a, x, y) && Less(a, y, x))
    ensures Less(a, x, y) && Less(a, y, z) ==> Less(a, x, z)
    ensures x != y ==> Less(a, x, y) || Less(a, y, x)
  {
  }

  /** Two sorted halves around a pivot that separates them make a sorted range. */
  lemma Assemble(a: seq<int>, t: seq<nat>, b: nat, m: nat, e: nat)
    requires Indexes(a, t) && b <= m <= e < |t|
    requires m > b ==> SortedRange(a, t, b, m - 1)
    requires m < e ==> SortedRange(a, t, m + 1, e)
    requires forall k :: b <= k < m ==> Side(a, t[k], t[m], true)
    requires forall k :: m < k <= e ==> Side(a, t[k], t[m], false)
    ensures SortedRange(a, t, b, e)
  {
    forall k, l | b <= k < l <= e
      ensures !Less(a, t[l], t[k])
    {
      LessOrder(a, t[l], t[k], t[m]);
      LessOrder(a, t[k], t[m], t[l]);
    }
  }

  /**
   * stable_indexes_qsort: sort entries begin .. end of the index array
   * by (value, index), recursing on the two sides of the pivot.
   */
  method SortIndexes(a: seq<int>, s: seq<nat>, begin: nat, end: nat) returns (t: seq<nat>)
    requires Indexes(a, s) && begin <= end < |s|
    ensures Indexes(a, t) && PermutedIn(s, t, begin, end)
    ensures SortedRange(a, t, begin, end)
    decreases end - begin
  {
    var pivot;
    t, pivot := Partition(a, s, begin, end);
    ghost var pv := t[pivot];
    if pivot > begin {
      var t1 := SortIndexes(a, t, begin, pivot - 1);
      SideKept(a, t, t1, begin, pivot - 1, pv, true);
      t := t1;
    }
    if pivot < end {
      ghost var t0 := t;
      var t2 := SortIndexes(a, t, pivot + 1, end);
      SideKept(a, t, t2, pivot + 1, end, pv, false);
      t := t2;
      if pivot > begin {
        assert SortedRange(a, t, begin, pivot - 1) by {
          forall k, l | begin <= k < l <= pivot - 1
            ensures !Less(a, t[l], t[k])
          {
            assert t[k] == t0[k] && t[l] == t0[l];
          }
        }
      }
    }
    Assemble(a, t, begin, pivot, end);
  }

  /** 0, 1, ..., n-1: the permutation array before sorting. */
  function Iota(n: nat): (r: seq<nat>)
    ensures |r| == n && forall k :: 0 <= k < n ==> r[k] == k
  {
    seq(n, k requires 0 <= k < n => k)
  }

  /** A distinct sequence holds each value at most once. */
  lemma {:induction false} DistinctCount(u: seq<nat>, x: nat)
    requires Distinct(u)
    ensures multiset(u)[x] <= 1
    decreases |u|
  {
    if u != [] {
      var v := u[1..];
      assert u == [u[0]] + v;
      assert Distinct(v) by {
        forall i, j | 0 <= i < j < |v|
          ensures v[i] != v[j]
        {
          assert v[i] == u[i + 1] && v[j] == u[j + 1];
        }
      }
      DistinctCount(v, x);
      assert u[0] !in v by {
        forall k | 0 <= k < |v|
          ensures v[k] != u[0]
        {
          assert v[k] == u[k + 1];
        }
      }
    }
  }

  /** A sequence with the multiset of a distinct one is distinct. */
  lemma DistinctByMultiset(t: seq<nat>, u: seq<nat>)
    requires multiset(t) == multiset(u) && Distinct(u)
    ensures Distinct(t)
  {
    forall i, j | 0 <= i < j < |t|
      ensures t[i] != t[j]
    {
      if t[i] == t[j] {
        var x := t[i];
        assert t == t[..j] + [t[j]] + t[j + 1..];
        assert t[..j][i] == x;
        assert multiset(t[..j])[x] >= 1;
        assert multiset(t)[x] >= 2;
        DistinctCount(u, x);
      }
    }
  }

  /**
   * Sorting 0 .. n-1 by the values a gives a permutation of 0 .. n-1 in
   * strictly increasing (value, index) order.
   */
  lemma SortedPermutation(a: seq<int>, t: seq<nat>)
    requires |a| >= 1 && |t| == |a|
    requires Indexes(a, t) && PermutedIn(Iota(|a|), t, 0, |a| - 1)
    requires SortedRange(a, t, 0, |a| - 1)
    ensures IsPermutation(t) && StrictlySorted(a, t)
  {
    DistinctByMultiset(t, Iota(|a|));
    forall k, l | 0 <= k < l < |t|
      ensures Less(a, t[k], t[l])
    {
      LessOrder(a, t[k], t[l], t[k]);
    }
  }

  // ---------------------------------------------------------------------
  // The sorted order as a function
  // ---------------------------------------------------------------------

  /** x placed into the sorted s before the first entry it sorts before. */
  function Insert(a: seq<int>, x: nat, s: seq<nat>): (r: seq<nat>)
    requires x < |a| && Indexes(a, s)
    ensures |r| == |s| + 1 && multiset(r) == multiset(s) + multiset{x} && Indexes(a, r)
  {
    if s == [] then [x]
    else if Less(a, s[0], x) then
      var r' := Insert(a, x, s[1..]);
      assert s == [s[0]] + s[1..];
      IndexesCons(a, s[0], r');
      [s[0]] + r'
    else
      IndexesCons(a, x, s);
      [x] + s
  }

  lemma IndexesCons(a: seq<int>, x: nat, s: seq<nat>)
    requires x < |a| && Indexes(a, s)
    ensures Indexes(a, [x] + s)
  {
    forall k | 0 <= k < |s| + 1
      ensures ([x] + s)[k] < |a|
    {
      if k > 0 {
        assert ([x] + s)[k] == s[k - 1];
      }
    }
  }

  lemma {:induction false} InsertSorted(a: seq<int>, x: nat, s: seq<nat>)
    requires x < |a| && Indexes(a, s) && StrictlySorted(a, s) && x !in s
    ensures StrictlySorted(a, Insert(a, x, s))
    decreases |s|
  {
    if s != [] {
      var r := Insert(a, x, s);
      if Less(a, s[0], x) {
        var tail := s[1..];
        InsertSorted(a, x, tail);
        var r' := Insert(a, x, tail);
        forall l | 0 <= l < |r'|
          ensures Less(a, s[0], r'[l])
        {
          assert r'[l] in multiset(tail) + multiset{x};
          if r'[l] != x {
            var k :| 0 <= k < |tail| && tail[k] == r'[l];
            assert tail[k] == s[k + 1];
          }
        }
        assert r == [s[0]] + r';
      } else {
        forall l | 0 <= l < |s|
          ensures Less(a, x, s[l])
        {
          LessOrder(a, x, s[0], s[l]);
          LessOrder(a, x, s[0], s[0]);
        }
      }
    }
  }

  /** Insertion sort of s by (value, index): the reference for the quicksort. */
  function Order(a: seq<int>, s: seq<nat>): (r: seq<nat>)
    requires Indexes(a, s)
    ensures |r| == |s| && multiset(r) == multiset(s) && Indexes(a, r)
  {
    if s == [] then []
    else
      assert s == [s[0]] + s[1..];
      Insert(a, s[0], Order(a, s[1..]))
  }

  lemma {:induction false} OrderSorted(a: seq<int>, s: seq<nat>)
    requires Indexes(a, s) && Distinct(s)
    ensures StrictlySorted(a, Order(a, s))
    decreases |s|
  {
    if s != [] {
      var tail := s[1..];
      assert Distinct(tail) by {
        forall i, j | 0 <= i < j < |tail|
          ensures tail[i] != tail[j]
        {
          assert tail[i] == s[i + 1] && tail[j] == s[j + 1];
        }
      }
      OrderSorted(a, tail);
      assert s[0] !in tail by {
        forall k | 0 <= k < |tail|
          ensures tail[k] != s[0]
        {
          assert tail[k] == s[k + 1];
        }
      }
      assert s[0] !in multiset(Order(a, tail));
      InsertSorted(a, s[0], Order(a, tail));
    }
  }

  /** Two strictly sorted arrangements of the same entries start alike. */
  lemma SortedHead(a: seq<int>, t: seq<nat>, u: seq<nat>)
    requires Indexes(a, t) && Indexes(a, u) && multiset(t) == multiset(u)
    requires StrictlySorted(a, t) && StrictlySorted(a, u) && |t| > 0
    ensures |u| == |t| && t[0] == u[0]
  {
    assert |u| == |multiset(u)| == |multiset(t)| == |t|;
    assert t[0] in multiset(u);
    var k :| 0 <= k < |u| && u[k] == t[0];
    assert u[0] in multiset(t);
    var m :| 0 <= m < |t| && t[m] == u[0];
    LessOrder(a, t[0], u[0], t[0]);
  }

  /** Two strictly sorted arrangements of the same entries are the same. */
  lemma {:induction false} SortedUnique(a: seq<int>, t: seq<nat>, u: seq<nat>)
    requires Indexes(a, t) && Indexes(a, u) && multiset(t) == multiset(u)
    requires StrictlySorted(a, t) && StrictlySorted(a, u)
    ensures t == u
    decreases |t|
  {
    if |t| > 0 {
      SortedHead(a, t, u);
      var t', u' := t[1..], u[1..];
      assert t == [t[0]] + t' && u == [u[0]] + u';
      MultisetCancel(multiset{t[0]}, multiset{}, multiset(t'), multiset(u'));
      assert StrictlySorted(a, t') by {
        forall k, l | 0 <= k < l < |t'|
          ensures Less(a, t'[k], t'[l])
        {
          assert t'[k] == t[k + 1] && t'[l] == t[l + 1];
        }
      }
      assert StrictlySorted(a, u') by {
        forall k, l | 0 <= k < l < |u'|
          ensures Less(a, u'[k], u'[l])
        {
          assert u'[k] == u[k + 1] && u'[l] == u[l + 1];
        }
      }
      SortedUnique(a, t', u');
    }
  }

  /**
   * The permutation the descriptor reads for intensities a: 0 .. n-1
   * sorted by (value, index).
   */
  function Ordering(a: seq<int>): (r: seq<nat>)
    ensures |r| == |a| && IsPermutation(r) && StrictlySorted(a, r)
  {
    OrderSorted(a, Iota(|a|));
    DistinctByMultiset(Order(a, Iota(|a|)), Iota(|a|));
    Order(a, Iota(|a|))
  }

  /** What the quicksort leaves in the permutation array is that ordering. */
  lemma QuicksortIsOrdering(a: seq<int>, t: seq<nat>)
    requires |a| >= 1 && |t| == |a|
    requires Indexes(a, t) && PermutedIn(Iota(|a|), t, 0, |a| - 1)
    requires SortedRange(a, t, 0, |a| - 1)
    ensures t == Ordering(a)
  {
    SortedPermutation(a, t);
    SortedUnique(a, t, Ordering(a));
  }
}

=== FILE: mathop.dfy ===
/**
 * Integer helpers of vl/mathop.h: the bitwise integer square root, and
 * floor and absolute value, with float and double both modelled as reals.
 */
module MathOp {
  const UInt32Modulus: nat := 0x1_0000_0000

  function Pow2(k: nat): (p: nat)
    ensures p >= 1
  {
    if k == 0 then 1 else 2 * Pow2(k - 1)
  }

  function Sq(n: nat): nat
  {
    n * n
  }

  /** r is the integer square root of x. */
  predicate IsFloorSqrt(x: nat, r: nat)
  {
    Sq(r) <= x < Sq(r + 1)
  }

  lemma SqMono(a: nat, b: nat)
    requires a <= b
    ensures Sq(a) <= Sq(b)
  {
    assert a * a <= a * b <= b * b;
  }

  /** There is only one integer square root. */
  lemma FloorSqrtUnique(x: nat, r: nat, s: nat)
    requires IsFloorSqrt(x, r) && IsFloorSqrt(x, s)
    ensures r == s
  {
    if r < s {
      SqMono(r + 1, s);
    } else if s < r {
      SqMono(s + 1, r);
    }
  }

  /** Trying bit b of the root costs (2g + b)·b of the remainder. */
  lemma StepIdentity(g: nat, b: nat)
    ensures Sq(g + b) == Sq(g) + (2 * g + b) * b
  {
  }

  /**
   * vl_fast_sqrt_i: decides the 16 root bits from the top, keeping the
   * remainder x - g², and subtracts (2g + b)·b — computed as a shift by
   * the bit position — when it fits. Every intermediate value stays below
   * 2^32, so the 32-bit arithmetic of the source never wraps.
   */
  method FastSqrtI(x: nat) returns (g: nat)
    requires x < UInt32Modulus
    ensures IsFloorSqrt(x, g)
    ensures g < 0x1_0000
  {
    g := 0;
    var b: nat := 0x8000;
    var bshft: nat := 15;
    var rem: nat := x;
    assert Pow2(15) == 0x8000 by {
      assert Pow2(3) == 8;
      assert Pow2(6) == 64;
      assert Pow2(9) == 512;
      assert Pow2(12) == 4096;
    }
    assert Sq(0x1_0000) == UInt32Modulus;
    while b > 0
      invariant b > 0 ==> b == Pow2(bshft) && bshft <= 15
      invariant rem + Sq(g) == x
      invariant b > 0 ==> x < Sq(g + 2 * b) && g + 2 * b <= 0x1_0000
      invariant b == 0 ==> x < Sq(g + 1) && g < 0x1_0000
      decreases b
    {
      var temp := (2 * g + b) * Pow2(bshft);
      assert temp < UInt32Modulus by { TempBound(g, b); }
      StepIdentity(g, b);
      if rem >= temp {
        g := g + b;
        rem := rem - temp;
      }
      assert x < Sq(g + b);
      b := b / 2;
      if b > 0 {
        bshft := bshft - 1;
        HalfPow2(bshft);
      }
    }
  }

  lemma HalfPow2(k: nat)
    ensures Pow2(k + 1) / 2 == Pow2(k)
  {
  }

  lemma TempBound(g: nat, b: nat)
    requires b >= 1 && g + 2 * b <= 0x1_0000 && b <= 0x8000
    ensures (2 * g + b) * b < UInt32Modulus
  {
    assert 2 * g + b < 0x2_0000;
    assert (2 * g + b) * b <= 0x2_0000 * b;
  }

  /** The C cast (int) x: truncation toward zero. */
  function Trunc(x: real): (i: int)
    ensures x >= 0.0 ==> i == x.Floor
    ensures x < 0.0 ==> i == -((-x).Floor)
  {
    if x >= 0.0 then x.Floor else -((-x).Floor)
  }

  /** vl_floor_f and vl_floor_d: the truncation, one less for a negative non-integer. */
  function Floor(x: real): (r: int)
    ensures r as real <= x < r as real + 1.0
  {
    var xi := Trunc(x);
    if x >= 0.0 || xi as real == x then xi else xi - 1
  }

  /** vl_abs_f and vl_abs_d. */
  function Abs(x: real): (r: real)
    ensures r >= 0.0 && (r == x || r == -x)
  {
    if x >= 0.0 then x else -x
  }

  /** i * z as repeated addition, the way index loops advance their offsets. */
  function Times(i: nat, z: nat): nat
  {
    if i == 0 then 0 else Times(i - 1, z) + z
  }

  lemma {:induction false} TimesIs(i: nat, z: nat)
    ensures Times(i, z) == i * z
    decreases i
  {
    if i > 0 {
      TimesIs(i - 1, z);
      assert i * z == (i - 1) * z + z;
    }
  }

  /** A later multiple is at least one whole step past an earlier one. */
  lemma {:induction false} TimesGap(a: nat, b: nat, z: nat)
    requires a < b
    ensures Times(a, z) + z <= Times(b, z)
    decreases b - a
  {
    if a + 1 < b {
      TimesGap(a, b - 1, z);
    }
  }

  /** q * z + r with r < z determines q and r. */
  lemma TimesDigits(q: nat, r: nat, q': nat, r': nat, z: nat)
    requires r < z && r' < z && Times(q, z) + r == Times(q', z) + r'
    ensures q == q' && r == r'
  {
    if q < q' {
      TimesGap(q, q', z);
    } else if q' < q {
      TimesGap(q', q, z);
    }
  }

  /** Below n multiples of z, every number is some multiple q < n plus a remainder r < z. */
  lemma {:induction false} TimesSplit(j: nat, n: nat, z: nat) returns (q: nat, r: nat)
    requires j < Times(n, z)
    ensures q < n && r < z && j == Times(q, z) + r
    decreases n
  {
    if j < Times(n - 1, z) {
      q, r := TimesSplit(j, n - 1, z);
    } else {
      q, r := n - 1, j - Times(n - 1, z);
    }
  }

  /**
   * Slot of cell (t, x, y) of a row-major T x X x Y array:
   * T * (x + y * X) + t, t varying fastest, then x, then y.
   */
  function Slot(T: nat, X: nat, t: nat, x: nat, y: nat): nat
  {
    Times(x + Times(y, X), T) + t
  }

  /** The slot in the C arithmetic: t + x * T + y * X * T. */
  lemma SlotIs(T: nat, X: nat, t: nat, x: nat, y: nat)
    ensures Slot(T, X, t, x, y) == t + x * T + y * (X * T)
    ensures Slot(T, X, t, x, y) == T * (x + y * X) + t
  {
    TimesIs(y, X);
    TimesIs(x + y * X, T);
    assert (x + y * X) * T == x * T + y * (X * T);
  }

  /** The size of the array, T * X * Y, as a repeated sum. */
  lemma SizeIs(T: nat, X: nat, Y: nat)
    ensures Times(Times(Y, X), T) == T * X * Y
  {
    TimesIs(Y, X);
    TimesIs(Y * X, T);
  }

  /** The number of cells of a T x X x Y array. */
  function Cells(T: nat, X: nat, Y: nat): nat
  {
    Times(Times(Y, X), T)
  }

  /** Swapping the two outer sides keeps the size. */
  lemma CellsSwap(T: nat, X: nat, Y: nat)
    ensures Cells(T, X, Y) == Cells(T, Y, X) == T * X * Y
  {
    SizeIs(T, X, Y);
    SizeIs(T, Y, X);
  }

  /** Slots of a T x X x Y array lie in [0, T * X * Y). */
  lemma SlotInRange(T: nat, X: nat, Y: nat, t: nat, x: nat, y: nat)
    requires t < T && x < X && y < Y
    ensures Slot(T, X, t, x, y) < Cells(T, X, Y) && Slot(T, X, t, x, y) < Cells(T, Y, X)
  {
    CellsSwap(T, X, Y);
    if y < Y - 1 {
      TimesGap(y, Y - 1, X);
    }
    var c := x + Times(y, X);
    assert c < Times(Y, X);
    if c < Times(Y, X) - 1 {
      TimesGap(c, Times(Y, X) - 1, T);
    }
  }

  /** Slots of a T x X x Y array lie below its number of cells. */
  lemma {:induction false} SlotBelow(T: nat, X: nat, Y: nat, t: nat, x: nat, y: nat)
    requires t < T && x < X && y < Y
    ensures Slot(T, X, t, x, y) < Cells(T, X, Y)
  {
    if y < Y - 1 {
      TimesGap(y, Y - 1, X);
    }
    var c := x + Times(y, X);
    assert c < Times(Y, X);
    if c < Times(Y, X) - 1 {
      TimesGap(c, Times(Y, X) - 1, T);
    }
  }

  /** Different cells have different slots. */
  lemma SlotInjective(T: nat, X: nat, t: nat, x: nat, y: nat, t': nat, x': nat, y': nat)
    requires t < T && x < X && t' < T && x' < X
    requires Slot(T, X, t, x, y) == Slot(T, X, t', x', y')
    ensures t == t' && x == x' && y == y'
  {
    TimesDigits(x + Times(y, X), t, x' + Times(y', X), t', T);
    TimesDigits(y, x, y', x', X);
  }

  /** Every index below T * X * Y is the slot of some cell. */
  lemma SlotOf(T: nat, X: nat, Y: nat, j: nat) returns (t: nat, x: nat, y: nat)
    requires j < Cells(T, X, Y)
    ensures t < T && x < X && y < Y && Slot(T, X, t, x, y) == j
  {
    var c;
    c, t := TimesSplit(j, Times(Y, X), T);
    y, x := TimesSplit(c, Y, X);
  }

  /** Repeated addition distributes over a sum of counts. */
  lemma {:induction false} TimesAdd(a: nat, b: nat, z: nat)
    ensures Times(a + b, z) == Times(a, z) + Times(b, z)
    decreases b
  {
    if b > 0 {
      TimesAdd(a, b - 1, z);
    }
  }

  /** The slot one outer index further on is one block of X * T cells further on. */
  lemma {:induction false} SlotNext(T: nat, X: nat, t: nat, x: nat, y: nat)
    ensures Slot(T, X, t, x, y + 1) == Slot(T, X, t, x, y) + Times(X, T)
  {
    SlotIs(T, X, t, x, y);
    SlotIs(T, X, t, x, y + 1);
    TimesIs(X, T);
    MulNext(y, X * T);
  }

  lemma MulNext(a: int, b: int)
    ensures (a + 1) * b == a * b + b
  {
  }

  /** Times distributes over a sum s = a + b of its first factor. */
  lemma TimesAddEq(a: nat, b: nat, z: nat, s: nat)
    requires s == a + b
    ensures Times(s, z) == Times(a, z) + Times(b, z)
  {
    TimesAdd(a, b, z);
  }
}

=== FILE: mdoc.dfy ===
// The MATLAB side of docsrc/mdoc.py: how an M-file's documentation names
// are derived from its path, the comment-block extraction, the file filter
// of the directory scan, the pre-order walk of the toolbox tree and the
// index page. Paths use the POSIX separator '/'.

module MDoc {
  import opened Wrappers
  import opened Text

  // ------------------------------------------------------------ Path names

  /** Index of the last `c` in `s`, or -1 (`str.rfind`). */
  function RFind(s: string, c: char): (r: int)
    ensures -1 <= r < |s|
    ensures r >= 0 ==> s[r] == c
    ensures forall j :: r < j < |s| ==> s[j] != c
  {
    LastBelow(s, c, |s|)
  }

  /** Index of the last `c` in s[..n], or -1. */
  function LastBelow(s: string, c: char, n: nat): (r: int)
    requires n <= |s|
    ensures -1 <= r < n
    ensures r >= 0 ==> s[r] == c
    ensures forall j :: r < j < n ==> s[j] != c
    decreases n
  {
    if n == 0 then -1
    else if s[n - 1] == c then n - 1
    else LastBelow(s, c, n - 1)
  }

  /** Some character of s[lo..hi] is not a dot. */
  predicate NotAllDots(s: string, lo: int, hi: int)
    requires 0 <= lo && hi <= |s|
  {
    exists k :: lo <= k < hi && s[k] != '.'
  }

  /**
   * `os.path.splitext`: the extension is the text from the last dot after
   * the last separator, unless the file name before that dot is only dots.
   */
  function SplitExt(p: string): (r: (string, string))
    ensures r.0 + r.1 == p
    ensures r.1 != [] ==> r.1[0] == '.' && RFind(p, '.') == |r.0|
  {
    var sep := RFind(p, '/');
    var dot := RFind(p, '.');
    if dot > sep && NotAllDots(p, sep + 1, dot) then
      (p[..dot], p[dot..])
    else
      (p, [])
  }

  /** An extension that holds no dot and no separator splits off again. */
  lemma SplitExtOf(stem: string, e: string)
    requires '.' !in e && '/' !in e
    requires NotAllDots(stem, RFind(stem, '/') + 1, |stem|)
    ensures SplitExt(stem + "." + e) == (stem, "." + e)
  {
    var p := stem + "." + e;
    DotOf(stem, e);
    RFindPrefix(stem, "." + e, '/');
    assert p == stem + ("." + e);
    var k :| RFind(stem, '/') + 1 <= k < |stem| && stem[k] != '.';
    assert p[k] == stem[k];
    assert NotAllDots(p, RFind(p, '/') + 1, |stem|);
    assert p[..|stem|] == stem;
    assert p[|stem|..] == "." + e;
  }

  /** The dot before an extension without dots is the last dot. */
  lemma DotOf(stem: string, e: string)
    requires '.' !in e
    ensures RFind(stem + "." + e, '.') == |stem|
  {
    RFindPrefix(stem + ".", e, '.');
  }

  /** A character absent from the tail leaves `RFind` on the head. */
  lemma RFindPrefix(a: string, b: string, c: char)
    requires c !in b
    ensures RFind(a + b, c) == RFind(a, c)
  {
    var s := a + b;
    var r1 := RFind(s, c);
    var r2 := RFind(a, c);
    if r1 >= 0 {
      assert s[r1] == a[r1];
    }
    if r2 >= 0 {
      assert s[r2] == a[r2];
    }
  }

  /** `os.path.join(a, b)`. */
  function Join(a: string, b: string): (r: string)
    ensures |b| > 0 && b[0] == '/' ==> r == b
  {
    if |b| > 0 && b[0] == '/' then b
    else if a == [] || a[|a| - 1] == '/' then a + b
    else a + "/" + b
  }

  /** A relative name joined under a directory keeps the directory as a prefix. */
  lemma JoinPrefix(a: string, b: string)
    requires |b| > 0 && b[0] != '/'
    ensures var r := Join(a, b); |a| <= |r| && r[..|a|] == a && r[|r| - |b|..] == b
  {
    var r := Join(a, b);
    if a == [] || a[|a| - 1] == '/' {
      assert r == a + b;
    } else {
      assert r == a + "/" + b;
      assert r[..|a|] == (a + "/")[..|a|];
    }
  }

  /** The documentation names of one M-file; `brief` is filled in after extraction. */
  datatype MFile = MFile(
    funcname: string,
    path: string,
    mdocname: string,
    webname: string,
    htmlname: string,
    wikiname: string,
    brief: string)

  /** `MFile(basedir, dirname, name)`. */
  function NewMFile(basedir: string, dirname: string, name: string): (m: MFile)
    ensures m.brief == []
  {
    var func := SplitExt(name).0;
    var rel := Join(dirname, func);
    var mdoc := Replace(rel, '/', '_');
    MFile(
      UpperAll(func),
      Join(Join(basedir, dirname), name),
      mdoc,
      Replace(rel, '/', '.'),
      mdoc + ".html",
      "MDoc_" + Replace(UpperAll(rel), '/', '_'),
      [])
  }

  /**
   * The derived names agree: the web name is the documentation name with
   * dots where the path had separators, the HTML name adds ".html", and the
   * wiki name is "MDoc_" and the upper-cased documentation name.
   */
  lemma MFileNames(basedir: string, dirname: string, name: string)
    ensures var m := NewMFile(basedir, dirname, name);
      var rel := Join(dirname, SplitExt(name).0);
      && |m.webname| == |m.mdocname| == |rel|
      && (forall i :: 0 <= i < |rel| ==> m.webname[i] == (if rel[i] == '/' then '.' else m.mdocname[i]))
      && (forall i :: 0 <= i < |rel| ==> m.mdocname[i] == (if rel[i] == '/' then '_' else rel[i]))
      && m.htmlname[..|m.mdocname|] == m.mdocname && m.htmlname[|m.mdocname|..] == ".html"
      && m.wikiname == "MDoc_" + UpperAll(m.mdocname)
  {
    var m := NewMFile(basedir, dirname, name);
    var rel := Join(dirname, SplitExt(name).0);
    assert m.htmlname == m.mdocname + ".html";
    assert Replace(UpperAll(rel), '/', '_') == UpperAll(Replace(rel, '/', '_'));
  }

  /** For a file `stem.e`, the function name is the upper-cased stem and the names build on `dirname/stem`. */
  lemma MFileStem(basedir: string, dirname: string, stem: string, e: string)
    requires '.' !in e && '/' !in e && '/' !in stem && NotAllDots(stem, 0, |stem|)
    ensures var m := NewMFile(basedir, dirname, stem + "." + e);
      && m.funcname == UpperAll(stem)
      && m.mdocname == Replace(Join(dirname, stem), '/', '_')
  {
    assert RFind(stem, '/') == -1;
    SplitExtOf(stem, e);
  }

  /** `getRef(format)`: the name used to link the file in each output format. */
  function GetRef(m: MFile, format: string): (r: Option<string>)
    ensures r.Some? <==> format == "html" || format == "web" || format == "wiki"
    ensures format == "html" ==> r == Some(m.htmlname)
    ensures format == "web" ==> r == Some(m.webname)
    ensures format == "wiki" ==> r == Some(m.wikiname)
  {
    if format == "html" then Some(m.htmlname)
    else if format == "web" then Some(m.webname)
    else if format == "wiki" then Some(m.wikiname)
    else None
  }

  // -------------------------------------------------------------- The tree

  /** A toolbox directory: its M-files and its sub-directories, in order. */
  datatype Node = Node(dirname: string, mfiles: seq<MFile>, children: seq<Node>)

  /** `depth_first(node)`: the node, then the walk of each child in order. */
  function DepthFirst(n: Node): (r: seq<Node>)
    ensures |r| > 0 && r[0] == n
    decreases n, 1
  {
    [n] + DepthFirstAll(n.children)
  }

  function DepthFirstAll(ns: seq<Node>): seq<Node>
    decreases ns, 0
  {
    if |ns| == 0 then [] else DepthFirst(ns[0]) + DepthFirstAll(ns[1..])
  }

  /** `d` is `n` or lies below one of its children. */
  predicate Below(n: Node, d: Node)
    decreases n, 1
  {
    d == n || BelowAny(n.children, d)
  }

  predicate BelowAny(ns: seq<Node>, d: Node)
    decreases ns, 0
  {
    |ns| > 0 && (Below(ns[0], d) || BelowAny(ns[1..], d))
  }

  /** The number of nodes in the tree. */
  function Size(n: Node): nat
    decreases n, 1
  {
    1 + SizeAll(n.children)
  }

  function SizeAll(ns: seq<Node>): nat
    decreases ns, 0
  {
    if |ns| == 0 then 0 else Size(ns[0]) + SizeAll(ns[1..])
  }

  /** The walk yields every node of the tree and nothing else. */
  lemma {:induction false} DepthFirstNodes(n: Node, d: Node)
    ensures d in DepthFirst(n) <==> Below(n, d)
    decreases n, 1
  {
    DepthFirstAllNodes(n.children, d);
  }

  lemma {:induction false} DepthFirstAllNodes(ns: seq<Node>, d: Node)
    ensures d in DepthFirstAll(ns) <==> BelowAny(ns, d)
    decreases ns, 0
  {
    if |ns| > 0 {
      DepthFirstNodes(ns[0], d);
      DepthFirstAllNodes(ns[1..], d);
    }
  }

  /** The walk visits each node once: its length is the size of the tree. */
  lemma {:induction false} DepthFirstSize(n: Node)
    ensures |DepthFirst(n)| == Size(n)
    decreases n, 1
  {
    DepthFirstAllSize(n.children);
  }

  lemma {:induction false} DepthFirstAllSize(ns: seq<Node>)
    ensures |DepthFirstAll(ns)| == SizeAll(ns)
    decreases ns, 0
  {
    if |ns| > 0 {
      DepthFirstSize(ns[0]);
      DepthFirstAllSize(ns[1..]);
    }
  }

  /**
   * Pre-order: the walk of child k sits right after the walks of the
   * children before it, one position past the node itself.
   */
  lemma {:induction false} ChildWalk(n: Node, k: nat)
    requires k < |n.children|
    ensures var off := 1 + |DepthFirstAll(n.children[..k])|;
      var w := DepthFirst(n.children[k]);
      off + |w| <= |DepthFirst(n)| && DepthFirst(n)[off..off + |w|] == w
  {
    var cs := n.children;
    AllSplit(cs, k);
    assert cs[k..][0] == cs[k];
    assert DepthFirstAll(cs[k..]) == DepthFirst(cs[k]) + DepthFirstAll(cs[k + 1..]) by {
      assert cs[k..][1..] == cs[k + 1..];
    }
  }

  /** The walk of a list splits at any position. */
  lemma {:induction false} AllSplit(ns: seq<Node>, k: nat)
    requires k <= |ns|
    ensures DepthFirstAll(ns) == DepthFirstAll(ns[..k]) + DepthFirstAll(ns[k..])
    decreases k
  {
    if k == 0 {
      assert ns[..0] == [] && ns[0..] == ns;
    } else {
      AllSplit(ns[1..], k - 1);
      assert ns[1..][..k - 1] == ns[..k][1..];
      assert ns[1..][k - 1..] == ns[k..];
      assert ns[..k][0] == ns[0];
    }
  }

  // ------------------------------------------------------- Directory scan

  /**
   * A directory as listed: its regular files, then its sub-directories,
   * each in listing order. Entries that are neither are not listed.
   */
  datatype Dir = Dir(files: seq<string>, subdirs: seq<SubDir>)
  datatype SubDir = SubDir(name: string, dir: Dir)

  /** The scan keeps ".m" files whose function name has no "DEMO" and no "TEST". */
  predicate Keep(basedir: string, dirname: string, f: string)
  {
    var func := NewMFile(basedir, dirname, f).funcname;
    SplitExt(f).1 == ".m" && !Contains(func, "DEMO") && !Contains(func, "TEST")
  }

  /** The files of the listing that the scan keeps, in order. */
  function KeptFiles(basedir: string, dirname: string, files: seq<string>): (r: seq<string>)
    ensures |r| <= |files|
    ensures forall i :: 0 <= i < |r| ==> Keep(basedir, dirname, r[i])
  {
    if |files| == 0 then []
    else if Keep(basedir, dirname, files[0]) then [files[0]] + KeptFiles(basedir, dirname, files[1..])
    else KeptFiles(basedir, dirname, files[1..])
  }

  /** The M-files of the kept files. */
  function MFilesOf(basedir: string, dirname: string, files: seq<string>): (r: seq<MFile>)
    ensures forall m :: m in r ==> !Contains(m.funcname, "DEMO") && !Contains(m.funcname, "TEST")
  {
    var kept := KeptFiles(basedir, dirname, files);
    seq(|kept|, i requires 0 <= i < |kept| => NewMFile(basedir, dirname, kept[i]))
  }

  /**
   * `xscan(basedir, dirname)` on the listing `d` of `basedir/dirname`: a
   * node for the directory with one child per sub-directory, whose own
   * M-files are no demos or tests and at most as many as the files listed.
   */
  function XScan(basedir: string, dirname: string, d: Dir): (n: Node)
    ensures n.dirname == dirname && |n.children| == |d.subdirs| && |n.mfiles| <= |d.files|
    ensures forall m :: m in n.mfiles ==> !Contains(m.funcname, "DEMO") && !Contains(m.funcname, "TEST")
    decreases d, 1
  {
    Node(dirname, MFilesOf(basedir, dirname, d.files), XScanAll(basedir, dirname, d.subdirs))
  }

  function XScanAll(basedir: string, dirname: string, ss: seq<SubDir>): (r: seq<Node>)
    ensures |r| == |ss|
    decreases ss, 0
  {
    if |ss| == 0 then []
    else [XScan(basedir, Join(dirname, ss[0].name), ss[0].dir)] + XScanAll(basedir, dirname, ss[1..])
  }

  /** A file is kept exactly when it is listed and passes the filter. */
  lemma {:induction false} KeptFilesSpec(basedir: string, dirname: string, files: seq<string>, f: string)
    ensures f in KeptFiles(basedir, dirname, files) <==> f in files && Keep(basedir, dirname, f)
    decreases |files|
  {
    if |files| > 0 {
      KeptFilesSpec(basedir, dirname, files[1..], f);
      assert f in files <==> f == files[0] || f in files[1..];
    }
  }

  /** One child per sub-directory, named by joining the directory names. */
  lemma {:induction false} XScanChildren(basedir: string, dirname: string, ss: seq<SubDir>)
    ensures var cs := XScanAll(basedir, dirname, ss);
      |cs| == |ss| && forall i :: 0 <= i < |ss| ==> cs[i].dirname == Join(dirname, ss[i].name)
    decreases |ss|
  {
    if |ss| > 0 {
      XScanChildren(basedir, dirname, ss[1..]);
    }
  }

  /** No node of a scanned tree lists a demo or test function. */
  lemma {:induction false} XScanFilters(basedir: string, dirname: string, d: Dir, x: Node, m: MFile)
    requires Below(XScan(basedir, dirname, d), x) && m in x.mfiles
    ensures !Contains(m.funcname, "DEMO") && !Contains(m.funcname, "TEST")
    decreases d, 1
  {
    var n := XScan(basedir, dirname, d);
    if x == n {
      var kept := KeptFiles(basedir, dirname, d.files);
      var i :| 0 <= i < |kept| && m == NewMFile(basedir, dirname, kept[i]);
      KeptFilesSpec(basedir, dirname, d.files, kept[i]);
    } else {
      XScanAllFilters(basedir, dirname, d.subdirs, x, m);
    }
  }

  lemma {:induction false} XScanAllFilters(basedir: string, dirname: string, ss: seq<SubDir>, x: Node, m: MFile)
    requires BelowAny(XScanAll(basedir, dirname, ss), x) && m in x.mfiles
    ensures !Contains(m.funcname, "DEMO") && !Contains(m.funcname, "TEST")
    decreases ss, 0
  {
    var cs := XScanAll(basedir, dirname, ss);
    if Below(cs[0], x) {
      XScanFilters(basedir, Join(dirname, ss[0].name), ss[0].dir, x, m);
    } else {
      assert cs[1..] == XScanAll(basedir, dirname, ss[1..]);
      XScanAllFilters(basedir, dirname, ss[1..], x, m);
    }
  }

  // ----------------------------------------------------------- Index page

  /** `%s` of `getRef(format)`: Python prints a missing reference as "None". */
  function RefText(m: MFile, format: string): string
  {
    match GetRef(m, format)
    case Some(r) => r
    case None => "None"
  }

  /** The index entry of one M-file. */
  function Item(m: MFile, format: string): (r: string)
    ensures |r| > 0
  {
    if format == "html" then
      "<li>" + "<b><a href='" + RefText(m, format) + "'>" + m.funcname + "</a></b>" + " " + m.brief + "</li>"
    else
      "* [[" + RefText(m, format) + "|" + m.funcname + "]]" + " " + m.brief + "\n"
  }

  function Items(ms: seq<MFile>, format: string): string
  {
    if |ms| == 0 then [] else Item(ms[0], format) + Items(ms[1..], format)
  }

  /** The heading a node gets in a wiki index below the top level. */
  function WikiHeading(n: Node): string
  {
    "=== " + UpperAll(n.dirname) + " ===\n"
  }

  /** The part of the index a node contributes for its own files. */
  function Own(n: Node, format: string, depth: int): string
  {
    if |n.mfiles| == 0 then []
    else if format == "html" then
      "<b>" + UpperAll(n.dirname) + "</b>" + "<ul>\n" + Items(n.mfiles, format) + "</ul>\n"
    else
      (if depth > 1 then WikiHeading(n) else []) + Items(n.mfiles, format)
  }

  /** `node.toIndexPage(format, depth)`: it holds the entry of each of the node's own M-files. */
  function IndexPage(n: Node, format: string, depth: int): (r: string)
    ensures forall m :: m in n.mfiles ==> Contains(r, Item(m, format))
    decreases n, 1
  {
    var own, rest := Own(n, format, depth), IndexPageAll(n.children, format, depth + 1);
    assert forall m :: m in n.mfiles ==> Contains(own + rest, Item(m, format)) by {
      forall m | m in n.mfiles ensures Contains(own + rest, Item(m, format)) {
        OwnContains(n, format, depth, m);
        ContainsConcat(own, rest, Item(m, format));
      }
    }
    own + rest
  }

  function IndexPageAll(ns: seq<Node>, format: string, depth: int): string
    decreases ns, 0
  {
    if |ns| == 0 then [] else IndexPage(ns[0], format, depth) + IndexPageAll(ns[1..], format, depth)
  }

  /** Each file's entry is in the entries of its list. */
  lemma {:induction false} ItemsContain(ms: seq<MFile>, format: string, m: MFile)
    requires m in ms
    ensures Contains(Items(ms, format), Item(m, format))
    decreases |ms|
  {
    if ms[0] == m {
      ContainsSelf(Item(m, format));
      ContainsConcat(Item(m, format), Items(ms[1..], format), Item(m, format));
    } else {
      ItemsContain(ms[1..], format, m);
      ContainsConcat(Item(ms[0], format), Items(ms[1..], format), Item(m, format));
    }
  }

  /** Each file's entry is in its node's part of the index. */
  lemma OwnContains(n: Node, format: string, depth: int, m: MFile)
    requires m in n.mfiles
    ensures Contains(Own(n, format, depth), Item(m, format))
  {
    var its := Items(n.mfiles, format);
    ItemsContain(n.mfiles, format, m);
    if format == "html" {
      var pre := "<b>" + UpperAll(n.dirname) + "</b>" + "<ul>\n";
      ContainsConcat(pre, its, Item(m, format));
      ContainsConcat(pre + its, "</ul>\n", Item(m, format));
    } else {
      ContainsConcat(if depth > 1 then WikiHeading(n) else [], its, Item(m, format));
    }
  }

  /** The index lists every M-file of every node in the tree, at any depth. */
  lemma {:induction false} IndexLists(n: Node, format: string, depth: int, x: Node, m: MFile)
    requires Below(n, x) && m in x.mfiles
    ensures Contains(IndexPage(n, format, depth), Item(m, format))
    decreases n, 1
  {
    var rest := IndexPageAll(n.children, format, depth + 1);
    if x == n {
      OwnContains(n, format, depth, m);
    } else {
      IndexListsAll(n.children, format, depth + 1, x, m);
    }
    ContainsConcat(Own(n, format, depth), rest, Item(m, format));
  }

  lemma {:induction false} IndexListsAll(ns: seq<Node>, format: string, depth: int, x: Node, m: MFile)
    requires BelowAny(ns, x) && m in x.mfiles
    ensures Contains(IndexPageAll(ns, format, depth), Item(m, format))
    decreases ns, 0
  {
    if Below(ns[0], x) {
      IndexLists(ns[0], format, depth, x, m);
    } else {
      IndexListsAll(ns[1..], format, depth, x, m);
    }
    ContainsConcat(IndexPage(ns[0], format, depth), IndexPageAll(ns[1..], format, depth), Item(m, format));
  }

  /** No node of the tree has an M-file. */
  predicate NoMFiles(n: Node)
    decreases n, 1
  {
    |n.mfiles| == 0 && NoMFilesAll(n.children)
  }

  predicate NoMFilesAll(ns: seq<Node>)
    decreases ns, 0
  {
    |ns| == 0 || (NoMFiles(ns[0]) && NoMFilesAll(ns[1..]))
  }

  /** The index is empty exactly when no node of the tree has an M-file. */
  lemma {:induction false} IndexEmpty(n: Node, format: string, depth: int)
    ensures IndexPage(n, format, depth) == [] <==> NoMFiles(n)
    decreases n, 1
  {
    IndexEmptyAll(n.children, format, depth + 1);
    if |n.mfiles| > 0 {
      assert Item(n.mfiles[0], format) == Items(n.mfiles, format)[..|Item(n.mfiles[0], format)|];
    }
  }

  lemma {:induction false} IndexEmptyAll(ns: seq<Node>, format: string, depth: int)
    ensures IndexPageAll(ns, format, depth) == [] <==> NoMFilesAll(ns)
    decreases ns, 0
  {
    if |ns| > 0 {
      IndexEmpty(ns[0], format, depth);
      IndexEmptyAll(ns[1..], format, depth);
    }
  }

  /**
   * Depth only decides the wiki headings, which appear from depth 2 on: an
   * HTML index, and a wiki index at depth 2 or more, do not depend on it.
   */
  lemma {:induction false} IndexDepth(n: Node, format: string, d1: int, d2: int)
    requires format == "html" || (d1 > 1 && d2 > 1)
    ensures IndexPage(n, format, d1) == IndexPage(n, format, d2)
    decreases n, 1
  {
    IndexDepthAll(n.children, format, d1 + 1, d2 + 1);
  }

  lemma {:induction false} IndexDepthAll(ns: seq<Node>, format: string, d1: int, d2: int)
    requires format == "html" || (d1 > 1 && d2 > 1)
    ensures IndexPageAll(ns, format, d1) == IndexPageAll(ns, format, d2)
    decreases ns, 0
  {
    if |ns| > 0 {
      IndexDepth(ns[0], format, d1, d2);
      IndexDepthAll(ns[1..], format, d1, d2);
    }
  }

  /** The heading a nested wiki index gives a node, when it has files. */
  function NestedHeading(n: Node): string
  {
    if |n.mfiles| > 0 then WikiHeading(n) else []
  }

  /**
   * The top-level wiki index differs from a nested one only by the missing
   * heading of the root directory.
   */
  lemma IndexTop(n: Node, format: string)
    requires format != "html"
    ensures IndexPage(n, format, 2) == NestedHeading(n) + IndexPage(n, format, 1)
  {
    IndexDepthAll(n.children, format, 2, 3);
    OwnTop(n, format);
    Regroup(IndexPage(n, format, 2), IndexPage(n, format, 1), Own(n, format, 2), Own(n, format, 1),
      IndexPageAll(n.children, format, 3), IndexPageAll(n.children, format, 2), NestedHeading(n));
  }

  lemma Regroup(p2: string, p1: string, o2: string, o1: string, r2: string, r1: string, h: string)
    requires p2 == o2 + r2 && p1 == o1 + r1 && o2 == h + o1 && r2 == r1
    ensures p2 == h + p1
  {
  }

  lemma OwnTop(n: Node, format: string)
    requires format != "html"
    ensures Own(n, format, 2) == NestedHeading(n) + Own(n, format, 1)
  {
  }

  // ---------------------------------------------------- Comment extraction

  predicate StartsWith(s: string, p: string)
  {
    |p| <= |s| && s[..|p|] == p
  }

  /** How the loop of `extract` sees a line once it is stripped. */
  datatype LineKind = CommentLine(text: string) | FunctionLine | OtherLine

  /**
   * A stripped line starting with '%' is a comment (its text follows the
   * '%'); one starting with "function" is a function line.
   */
  function Classify(l: string): (k: LineKind)
    ensures k.CommentLine? <==> StartsWith(Strip(l), "%")
    ensures k.CommentLine? ==> k.text == Strip(l)[1..]
    ensures k.FunctionLine? <==> StartsWith(Strip(l), "function")
  {
    var s := Strip(l);
    if StartsWith(s, "%") then CommentLine(s[1..])
    else if StartsWith(s, "function") then FunctionLine
    else OtherLine
  }

  function ClassifyAll(lines: seq<string>): (ks: seq<LineKind>)
    ensures |ks| == |lines|
    ensures forall i :: 0 <= i < |lines| ==> ks[i] == Classify(lines[i])
  {
    seq(|lines|, i requires 0 <= i < |lines| => Classify(lines[i]))
  }

  /** Some line of `ks` is a comment line. */
  predicate SeenComment(ks: seq<LineKind>)
  {
    exists k :: 0 <= k < |ks| && ks[k].CommentLine?
  }

  /** Some line of `ks` is a function line. */
  predicate SeenFunction(ks: seq<LineKind>)
  {
    exists k :: 0 <= k < |ks| && ks[k].FunctionLine?
  }

  /** The loop of `extract` stops at a line that is neither comment nor function, unless it is skipped. */
  predicate Breaks(k: LineKind, seenFunction: bool, seenPercent: bool)
  {
    k.OtherLine? && ((seenFunction && seenPercent) || !seenFunction)
  }

  /** Where the loop of `extract` stops (the line count when it runs out). */
  function StopAt(ks: seq<LineKind>, i: nat, sf: bool, sp: bool): (k: nat)
    requires i <= |ks|
    ensures i <= k <= |ks|
    decreases |ks| - i
  {
    if i == |ks| then i
    else
      var sp' := sp || ks[i].CommentLine?;
      if ks[i].FunctionLine? then StopAt(ks, i + 1, true, sp')
      else if Breaks(ks[i], sf, sp') then i
      else StopAt(ks, i + 1, sf, sp')
  }

  /** The body the loop collects from line `i` on: each comment's text and a line break. */
  function Collect(ks: seq<LineKind>, i: nat, sf: bool, sp: bool): seq<string>
    requires i <= |ks|
    decreases |ks| - i
  {
    if i == |ks| then []
    else
      var sp' := sp || ks[i].CommentLine?;
      if ks[i].FunctionLine? then Collect(ks, i + 1, true, sp')
      else if Breaks(ks[i], sf, sp') then []
      else if ks[i].CommentLine? then [ks[i].text + "\n"] + Collect(ks, i + 1, sf, sp')
      else Collect(ks, i + 1, sf, sp')
  }

  /** The comment lines of `ks`: each one's text and a line break. */
  function Comments(ks: seq<LineKind>): seq<string>
  {
    if |ks| == 0 then []
    else (if ks[0].CommentLine? then [ks[0].text + "\n"] else []) + Comments(ks[1..])
  }

  /** The loop's flags after line `i`. */
  predicate Flags(ks: seq<LineKind>, i: nat, sf: bool, sp: bool)
    requires i <= |ks|
  {
    (sf <==> SeenFunction(ks[..i])) && (sp <==> SeenComment(ks[..i]))
  }

  lemma FlagsStep(ks: seq<LineKind>, i: nat, sf: bool, sp: bool)
    requires i < |ks| && Flags(ks, i, sf, sp)
    ensures Flags(ks, i + 1, sf || ks[i].FunctionLine?, sp || ks[i].CommentLine?)
  {
    var a := ks[..i + 1];
    assert a[..i] == ks[..i];
    assert forall k :: 0 <= k < i ==> a[k] == ks[..i][k];
  }

  /** The collected body is the comment lines before the stop line. */
  lemma {:induction false} CollectComments(ks: seq<LineKind>, i: nat, sf: bool, sp: bool)
    requires i <= |ks|
    ensures Collect(ks, i, sf, sp) == Comments(ks[i..StopAt(ks, i, sf, sp)])
    decreases |ks| - i
  {
    if i < |ks| {
      var sp' := sp || ks[i].CommentLine?;
      if ks[i].FunctionLine? {
        CollectComments(ks, i + 1, true, sp');
        CommentsCons(ks, i, StopAt(ks, i + 1, true, sp'));
      } else if !Breaks(ks[i], sf, sp') {
        CollectComments(ks, i + 1, sf, sp');
        CommentsCons(ks, i, StopAt(ks, i + 1, sf, sp'));
      } else {
        assert ks[i..i] == [];
      }
    } else {
      assert ks[i..i] == [];
    }
  }

  lemma CommentsCons(ks: seq<LineKind>, i: nat, k: nat)
    requires i < k <= |ks|
    ensures Comments(ks[i..k]) == (if ks[i].CommentLine? then [ks[i].text + "\n"] else []) + Comments(ks[i + 1..k])
  {
    assert ks[i..k][1..] == ks[i + 1..k];
  }

  /** Line `j` ends the loop, judged by the lines up to it. */
  predicate BreaksAt(ks: seq<LineKind>, j: nat)
    requires j < |ks|
  {
    Breaks(ks[j], SeenFunction(ks[..j]), SeenComment(ks[..j + 1]))
  }

  /** With the flags right, the loop's test at line `i` is `BreaksAt`. */
  lemma BreaksHere(ks: seq<LineKind>, i: nat, sf: bool, sp: bool)
    requires i < |ks| && Flags(ks, i, sf, sp)
    ensures Flags(ks, i + 1, sf || ks[i].FunctionLine?, sp || ks[i].CommentLine?)
    ensures BreaksAt(ks, i) <==> Breaks(ks[i], sf, sp || ks[i].CommentLine?)
  {
    FlagsStep(ks, i, sf, sp);
  }

  /**
   * The loop stops at the first line that is neither comment nor function,
   * except that such lines are skipped after a function line while no
   * comment line has been seen yet.
   */
  lemma {:induction false} StopAtSpec(ks: seq<LineKind>, i: nat, sf: bool, sp: bool)
    requires i <= |ks| && Flags(ks, i, sf, sp)
    ensures var k := StopAt(ks, i, sf, sp);
      && (k < |ks| ==> BreaksAt(ks, k))
      && (forall j :: i <= j < k ==> !BreaksAt(ks, j))
    decreases |ks| - i
  {
    if i < |ks| {
      var sp' := sp || ks[i].CommentLine?;
      BreaksHere(ks, i, sf, sp);
      if ks[i].FunctionLine? {
        StopAtSpec(ks, i + 1, true, sp');
      } else if !Breaks(ks[i], sf, sp') {
        StopAtSpec(ks, i + 1, sf, sp');
      }
    }
  }

  /** A character class of `\w`: ASCII letters, digits and '_'. */
  predicate IsWord(c: char)
  {
    ('a' <= c <= 'z') || ('A' <= c <= 'Z') || ('0' <= c <= '9') || c == '_'
  }

  predicate AllWord(s: string)
  {
    forall i :: 0 <= i < |s| ==> IsWord(s[i])
  }

  /** Length of the run of word characters at the front of `s`. */
  function WordRun(s: string): (n: nat)
    ensures n <= |s|
    ensures AllWord(s[..n])
    ensures n < |s| ==> !IsWord(s[n])
    decreases |s|
  {
    if |s| > 0 && IsWord(s[0]) then
      var k := WordRun(s[1..]);
      assert s[1..][..k] == s[1..k + 1];
      1 + k
    else 0
  }

  /**
   * `re.match(r"^\s*(\w+)\s*(\S.*)\n$", c + "\n")` on a line `c` without
   * line breaks: the function name and the brief description. The word
   * run is greedy, but gives back its last character when only whitespace
   * follows it, since the description needs one non-space character.
   */
  function Header(c: string): (r: Option<(string, string)>)
    requires '\n' !in c
    ensures r.Some? ==> |r.value.0| > 0 && AllWord(r.value.0) && |r.value.1| > 0 && !IsSpace(r.value.1[0])
    ensures r.Some? ==> |r.value.0| + |r.value.1| <= |c| && r.value.1 == c[|c| - |r.value.1|..]
  {
    var w := SpaceRun(c);
    var u := c[w..];
    var k := WordRun(u);
    if k == 0 then None
    else
      var g := SpaceRun(u[k..]);
      if k + g < |u| then
        SoundRun(c, w, k, g, u[..k], u[k + g..]);
        Some((u[..k], u[k + g..]))
      else if k >= 2 then
        SoundBack(c, w, k, u[..k - 1], u[k - 1..]);
        Some((u[..k - 1], u[k - 1..]))
      else None
  }

  /**
   * The language of the pattern: `c` is whitespace, then the name (word
   * characters), then whitespace, then the description, which starts with
   * a non-space.
   */
  predicate HeaderShape(c: string, func: string, brief: string)
  {
    && |func| > 0 && AllWord(func) && |brief| > 0 && !IsSpace(brief[0])
    && |func| + |brief| <= |c| && c[|c| - |brief|..] == brief
    && exists i :: 0 <= i <= |c| - |func| - |brief| && Shaped(c, i, func, brief)
  }

  /** The name sits at i after whitespace, and only whitespace follows it up to the description. */
  predicate Shaped(c: string, i: nat, func: string, brief: string)
    requires i + |func| + |brief| <= |c|
  {
    c[i..i + |func|] == func && AllSpace(c[..i]) && AllSpace(c[i + |func|..|c| - |brief|])
  }

  /** Every header the match returns has the shape the pattern describes. */
  lemma HeaderSound(c: string)
    requires '\n' !in c && Header(c).Some?
    ensures HeaderShape(c, Header(c).value.0, Header(c).value.1)
  {
    var w := SpaceRun(c);
    var u := c[w..];
    var k := WordRun(u);
    var func, brief := Header(c).value.0, Header(c).value.1;
    if k + SpaceRun(u[k..]) < |u| {
      SoundRun(c, w, k, SpaceRun(u[k..]), func, brief);
    } else {
      SoundBack(c, w, k, func, brief);
    }
  }

  /** The greedy case: name, whitespace, then a non-space. */
  lemma SoundRun(c: string, w: nat, k: nat, g: nat, func: string, brief: string)
    requires w <= |c| && AllSpace(c[..w]) && 0 < k <= |c| - w && AllWord(c[w..][..k])
    requires g == SpaceRun(c[w..][k..]) && k + g < |c| - w
    requires func == c[w..][..k] && brief == c[w..][k + g..]
    ensures HeaderShape(c, func, brief)
  {
    var u := c[w..];
    assert c[w..w + k] == u[..k];
    assert c[w + k..w + k + g] == u[k..][..g];
    assert c[w + k + g] == u[k..][g];
    assert c[w + k + g..] == u[k + g..];
    ShapeFrom(c, w, k, w + k + g);
  }

  /** The backtracking case: the name gives its last character to the description. */
  lemma SoundBack(c: string, w: nat, k: nat, func: string, brief: string)
    requires w <= |c| && AllSpace(c[..w]) && 2 <= k <= |c| - w && AllWord(c[w..][..k])
    requires func == c[w..][..k - 1] && brief == c[w..][k - 1..]
    ensures HeaderShape(c, func, brief)
  {
    var u := c[w..];
    assert c[w..w + k - 1] == u[..k][..k - 1] == u[..k - 1];
    assert c[w + k - 1] == u[..k][k - 1];
    assert c[w + k - 1..] == u[k - 1..];
    assert c[w + k - 1..w + k - 1] == [];
    ShapeFrom(c, w, k - 1, w + k - 1);
  }

  /** Index form of the pattern's shape, with the name at c[i..i + n] and the description from b. */
  lemma ShapeFrom(c: string, i: nat, n: nat, b: nat)
    requires 0 < n && i + n <= b < |c|
    requires AllSpace(c[..i]) && AllWord(c[i..i + n]) && AllSpace(c[i + n..b]) && !IsSpace(c[b])
    ensures HeaderShape(c, c[i..i + n], c[b..])
  {
    assert Shaped(c, i, c[i..i + n], c[b..]);
  }

  /** Whenever the line has the pattern's shape, the match succeeds. */
  lemma HeaderComplete(c: string, func: string, brief: string)
    requires '\n' !in c && HeaderShape(c, func, brief)
    ensures Header(c).Some?
  {
    var b := |c| - |brief|;
    var i :| 0 <= i <= b - |func| && Shaped(c, i, func, brief);
    SpaceRunAt(c, i, func);
    var u := c[i..];
    var k := WordRun(u);
    assert u[..|func|] == func;
    assert k >= |func|;
    BriefStart(c, i, func, brief, k);
  }

  /** The whitespace before the name is the leading whitespace of the line. */
  lemma SpaceRunAt(c: string, i: nat, func: string)
    requires i + |func| <= |c| && |func| > 0 && AllWord(func)
    requires c[i..i + |func|] == func && AllSpace(c[..i])
    ensures SpaceRun(c) == i
  {
    var n := SpaceRun(c);
    assert c[i] == func[0];
    AllSpacePrefix(c, i);
    AllSpacePrefix(c, n);
  }

  /** With a word run of length k >= |func| from i, one of the two match cases applies. */
  lemma BriefStart(c: string, i: nat, func: string, brief: string, k: nat)
    requires |func| > 0 && |brief| > 0 && !IsSpace(brief[0])
    requires i + |func| <= |c| - |brief| && c[|c| - |brief|..] == brief
    requires AllSpace(c[i + |func|..|c| - |brief|])
    requires k == WordRun(c[i..]) && k >= |func|
    ensures k + SpaceRun(c[i..][k..]) < |c| - i || k >= 2
  {
    var u := c[i..];
    var b := |c| - |brief| - i;
    assert u[b] == brief[0];
    var g := SpaceRun(u[k..]);
    if k <= b {
      assert u[k..][b - k] == u[b];
      AllSpacePrefix(u[k..], g);
    }
  }

  datatype ExtractError = NoHeader

  /** What `extract` returns: the body lines after the header, the function name and the brief. */
  datatype Doc = Doc(body: seq<string>, func: string, brief: string)

  /** A file line: no line break except at its end. */
  predicate IsLine(l: string)
  {
    forall i :: 0 <= i < |l| - 1 ==> l[i] != '\n'
  }

  /** The comment texts of file lines hold no line break. */
  predicate NoBreaks(ks: seq<LineKind>)
  {
    forall i :: 0 <= i < |ks| && ks[i].CommentLine? ==> '\n' !in ks[i].text
  }

  /** The header line: the first collected line without its line break. */
  function HeadText(body: seq<string>): string
    requires |body| > 0
  {
    if |body[0]| > 0 then body[0][..|body[0]| - 1] else body[0]
  }

  /**
   * `extract(path)` on the lines of the file. The first collected line is
   * the header; when it does not match, `match.group` fails.
   */
  function Extract(lines: seq<string>): (r: Result<Doc, ExtractError>)
    requires forall i :: 0 <= i < |lines| ==> IsLine(lines[i])
    ensures r.Ok? && r.value.func == [] ==> r.value == Doc([], "", "")
    ensures r.Ok? && r.value.func != [] ==> AllWord(r.value.func) && |r.value.brief| > 0 && !IsSpace(r.value.brief[0])
  {
    var ks := ClassifyAll(lines);
    var body := Collect(ks, 0, false, false);
    if |body| == 0 then Ok(Doc([], "", ""))
    else
      LinesNoBreaks(lines);
      CollectNoBreak(ks, 0, false, false);
      match Header(HeadText(body))
      case Some(h) => Ok(Doc(body[1..], h.0, h.1))
      case None => Err(NoHeader)
  }

  lemma LinesNoBreaks(lines: seq<string>)
    requires forall i :: 0 <= i < |lines| ==> IsLine(lines[i])
    ensures NoBreaks(ClassifyAll(lines))
  {
    var ks := ClassifyAll(lines);
    forall i | 0 <= i < |ks| && ks[i].CommentLine?
      ensures '\n' !in ks[i].text
    {
      StripNoBreak(lines[i]);
    }
  }

  /** Collected lines are a comment text and a line break. */
  lemma {:induction false} CollectNoBreak(ks: seq<LineKind>, i: nat, sf: bool, sp: bool)
    requires i <= |ks| && NoBreaks(ks)
    ensures var body := Collect(ks, i, sf, sp);
      |body| > 0 ==> '\n' !in HeadText(body) && body[0] == HeadText(body) + "\n"
    decreases |ks| - i
  {
    if i < |ks| {
      var sp' := sp || ks[i].CommentLine?;
      if ks[i].FunctionLine? {
        CollectNoBreak(ks, i + 1, true, sp');
      } else if !Breaks(ks[i], sf, sp') && !ks[i].CommentLine? {
        CollectNoBreak(ks, i + 1, sf, sp');
      } else if !Breaks(ks[i], sf, sp') {
        var t := ks[i].text + "\n";
        assert t[..|t| - 1] == ks[i].text;
      }
    }
  }

  /** Stripping a file line leaves no line break. */
  lemma StripNoBreak(l: string)
    requires IsLine(l)
    ensures '\n' !in Strip(l)
  {
    var i, j := StripBounds(l);
    var s := Strip(l);
    forall t | 0 <= t < |s|
      ensures s[t] != '\n'
    {
      assert s[t] == l[i + t];
      assert i + t == |l| - 1 ==> t == |s| - 1;
    }
  }

  /**
   * The extracted documentation: without comment lines it is empty;
   * otherwise it succeeds exactly when the first comment line has the
   * header's shape, its name and brief come from that line, and the body
   * is every later comment line before the stop line.
   */
  lemma ExtractSpec(lines: seq<string>)
    requires forall i :: 0 <= i < |lines| ==> IsLine(lines[i])
    ensures var ks := ClassifyAll(lines);
      var body := Comments(ks[..StopAt(ks, 0, false, false)]);
      && (|body| == 0 ==> Extract(lines) == Ok(Doc([], "", "")))
      && (|body| > 0 ==> '\n' !in HeadText(body))
      && (|body| > 0 ==> (Extract(lines).Ok? <==> exists f, b :: HeaderShape(HeadText(body), f, b)))
      && (|body| > 0 && Extract(lines).Ok? ==>
            Extract(lines).value.body == body[1..]
            && HeaderShape(HeadText(body), Extract(lines).value.func, Extract(lines).value.brief))
  {
    var ks := ClassifyAll(lines);
    var k := StopAt(ks, 0, false, false);
    CollectComments(ks, 0, false, false);
    LinesNoBreaks(lines);
    CollectNoBreak(ks, 0, false, false);
    assert ks[0..k] == ks[..k];
    var body := Collect(ks, 0, false, false);
    if |body| > 0 {
      var c := HeadText(body);
      if Header(c).Some? {
        HeaderSound(c);
      }
      if exists f, b :: HeaderShape(c, f, b) {
        var f, b :| HeaderShape(c, f, b);
        HeaderComplete(c, f, b);
      }
    }
  }
}

=== FILE: mexutils.dfy ===
/**
 * The MEX helpers of toolbox/mexutils.h: error identifiers, the
 * array-shape tests, case-insensitive string comparison and the
 * option-list parser.
 *
 * A MATLAB array is abstracted as its storage class, its dimension list,
 * its sparse flag and, for a char array, its characters. The shape tests
 * cast sizes to 32-bit `unsigned` before comparing them; `U32` writes
 * that truncation out.
 */
module MexUtils {
  import opened Wrappers
  import opened StringOp

  /* ------------------------------------------------------------------ */
  /*                                                          Error ids */
  /* ------------------------------------------------------------------ */

  /* VlmxErrorId. */
  const ErrAlloc := 1
  const ErrInvalidArgument := 2
  const ErrNotEnoughInputArguments := 3
  const ErrTooManyInputArguments := 4
  const ErrNotEnoughOutputArguments := 5
  const ErrTooManyOutputArguments := 6
  const ErrInvalidOption := 7
  const ErrInconsistentData := 8

  /** The name part of an error identifier; codes outside the enumeration are "undefinedError". */
  function ErrorName(code: int): string
  {
    if code == ErrAlloc then "outOfMemory"
    else if code == ErrInvalidArgument then "invalidArgument"
    else if code == ErrNotEnoughInputArguments then "notEnoughInputArguments"
    else if code == ErrTooManyInputArguments then "tooManyInputArguments"
    else if code == ErrNotEnoughOutputArguments then "notEnoughOutputArguments"
    else if code == ErrTooManyOutputArguments then "tooManyOutputArguments"
    else if code == ErrInvalidOption then "invalidOption"
    else if code == ErrInconsistentData then "inconsistentData"
    else "undefinedError"
  }

  /** The message used when the caller gives none. */
  function DefaultMessage(code: int): string
  {
    if code == ErrAlloc then "Out of memory."
    else if code == ErrInvalidArgument then "Invalid argument."
    else if code == ErrNotEnoughInputArguments then "Not enough input arguments."
    else if code == ErrTooManyInputArguments then "Too many input arguments."
    else if code == ErrNotEnoughOutputArguments then "Not enough output arguments."
    else if code == ErrTooManyOutputArguments then "Too many output arguments."
    else if code == ErrInconsistentData then "Inconsistent data."
    else if code == ErrInvalidOption then "Invalid option."
    else "Undefined error message."
  }

  /** What vlmxError raises: the identifier "vl:<name>" and the message. */
  datatype Raised = Raised(id: string, message: string)

  function Raise(code: int, message: Option<string>): (r: Raised)
    ensures |r.id| >= 3 && r.id[..3] == "vl:" && r.id[3..] == ErrorName(code)
    ensures message.Some? ==> r.message == message.value
    ensures message.None? ==> r.message == DefaultMessage(code)
  {
    Raised("vl:" + ErrorName(code), if message.Some? then message.value else DefaultMessage(code))
  }

  /** The eight error codes have eight different identifiers, none of them "vl:undefinedError". */
  lemma RaiseDistinct(c1: int, c2: int)
    requires ErrAlloc <= c1 <= ErrInconsistentData && ErrAlloc <= c2 <= ErrInconsistentData
    ensures Raise(c1, None).id == Raise(c2, None).id <==> c1 == c2
    ensures Raise(c1, None).id != "vl:undefinedError"
  {
    var i1, i2 := Raise(c1, None).id, Raise(c2, None).id;
    if i1 == i2 {
      assert i1[3..] == i2[3..];
    }
    assert i1[3..] != "undefinedError";
  }

  /** Any other code raises "vl:undefinedError" with the generic message. */
  lemma RaiseUndefined(code: int)
    requires code < ErrAlloc || code > ErrInconsistentData
    ensures Raise(code, None) == Raised("vl:undefinedError", "Undefined error message.")
  {
    assert ErrorName(code) == "undefinedError";
    assert DefaultMessage(code) == "Undefined error message.";
    assert "vl:" + "undefinedError" == "vl:undefinedError";
  }

  /* ------------------------------------------------------------------ */
  /*                                                       Array shapes */
  /* ------------------------------------------------------------------ */

  datatype MxClass =
    | CharClass | DoubleClass | SingleClass | Uint8Class | Uint32Class | OtherIntClass | LogicalClass | OtherClass

  /** mxIsNumeric: the floating-point and integer classes. */
  predicate IsNumeric(a: MxArray)
  {
    a.cls in {DoubleClass, SingleClass, Uint8Class, Uint32Class, OtherIntClass}
  }

  /** vlmxIsPlainScalar: a real, non-sparse double array with one element. */
  predicate IsPlainScalar(a: MxArray)
  {
    a.cls == DoubleClass && !a.sparse && NumElements(a) == 1
  }

  /** A MATLAB array: class, dimensions (at least two), sparse flag, characters of a char array. */
  datatype MxArray = MxArray(cls: MxClass, dims: seq<nat>, sparse: bool, chars: string)

  function Product(ds: seq<nat>): (p: nat)
  {
    if ds == [] then 1 else ds[0] * Product(ds[1..])
  }

  function NumElements(a: MxArray): nat
  {
    Product(a.dims)
  }

  /** mxGetM: the first dimension. */
  function Rows(a: MxArray): nat
  {
    if a.dims == [] then 0 else a.dims[0]
  }

  /** mxGetN: the product of the dimensions after the first. */
  function Cols(a: MxArray): nat
  {
    if a.dims == [] then 0 else Product(a.dims[1..])
  }

  lemma ColsOfMatrix(a: MxArray)
    ensures |a.dims| == 2 ==> Cols(a) == a.dims[1]
  {
    if |a.dims| == 2 {
      var t := a.dims[1..];
      assert t[1..] == [];
      assert Product(t) == t[0] * Product(t[1..]);
    }
  }

  /** A cast to 32-bit `unsigned`. */
  function U32(x: int): (r: nat)
    ensures r < 0x1_0000_0000
    ensures 0 <= x < 0x1_0000_0000 ==> r == x
  {
    x % 0x1_0000_0000
  }

  /** A cast to 32-bit `signed`. */
  function I32(x: int): (r: int)
    ensures -0x8000_0000 <= r < 0x8000_0000
    ensures -0x8000_0000 <= x < 0x8000_0000 ==> r == x
  {
    (x + 0x8000_0000) % 0x1_0000_0000 - 0x8000_0000
  }

  /** All dimensions but at most one are singleton. */
  predicate AtMostOneNonSingleton(dims: seq<nat>)
  {
    forall i, j :: 0 <= i < j < |dims| && dims[i] != 1 ==> dims[j] == 1
  }

  /** The vector test as the documentation states it. */
  predicate IsVectorSpec(a: MxArray, numElements: int)
  {
    !a.sparse
    && (numElements >= 0 ==> U32(NumElements(a)) == U32(numElements))
    && AtMostOneNonSingleton(a.dims)
  }

  /**
   * vlmxIsVector: not sparse, the element count (when prescribed)
   * matches, then one loop finds the first non-singleton dimension and a
   * second checks that every later one is singleton.
   */
  method IsVector(a: MxArray, numElements: int) returns (r: bool)
    ensures r <==> IsVectorSpec(a, numElements)
  {
    if a.sparse {
      return false;
    }
    if numElements >= 0 && U32(NumElements(a)) != U32(numElements) {
      return false;
    }
    var n := |a.dims|;
    var di := 0;
    while di < n && a.dims[di] == 1
      invariant 0 <= di <= n
      invariant forall k :: 0 <= k < di ==> a.dims[k] == 1
    {
      di := di + 1;
    }
    var first := di;
    di := di + 1;
    while di < n
      invariant first + 1 <= di <= if first < n then n else first + 1
      invariant forall k :: first < k < di ==> a.dims[k] == 1
    {
      if a.dims[di] != 1 {
        return false;
      }
      di := di + 1;
    }
    return true;
  }

  /**
   * vlmxIsArray: with a negative count anything passes; otherwise the
   * number of dimensions must agree, and each non-negative requested
   * dimension must equal the actual one.
   */
  function IsArray(a: MxArray, numDimensions: int, dimensions: Option<seq<int>>): (r: bool)
    requires numDimensions < 0 || U32(|a.dims|) != U32(numDimensions) || numDimensions <= |a.dims|
    requires dimensions.Some? ==> |dimensions.value| >= numDimensions
    ensures numDimensions < 0 ==> r
    ensures numDimensions >= 0 && U32(|a.dims|) != U32(numDimensions) ==> !r
    ensures numDimensions >= 0 && dimensions.Some? && r ==>
      forall d :: 0 <= d < numDimensions && dimensions.value[d] >= 0 ==> U32(dimensions.value[d]) == U32(a.dims[d])
  {
    if numDimensions < 0 then true
    else if U32(|a.dims|) != U32(numDimensions) then false
    else match dimensions
      case None => true
      case Some(ds) => AllMatch(a.dims, ds, 0, numDimensions)
  }

  /** The dimension loop of vlmxIsArray from index `d` on. */
  function AllMatch(actual: seq<nat>, wanted: seq<int>, d: nat, n: int): (r: bool)
    requires n <= |actual| && n <= |wanted|
    ensures r <==> forall k :: d <= k < n && wanted[k] >= 0 ==> U32(wanted[k]) == U32(actual[k])
    decreases n - d
  {
    if d >= n then true
    else if wanted[d] >= 0 && U32(wanted[d]) != U32(actual[d]) then false
    else AllMatch(actual, wanted, d + 1, n)
  }

  /** For sizes below 2^32 the casts change nothing: vlmxIsArray is an exact shape test. */
  lemma IsArrayExact(a: MxArray, ds: seq<int>)
    requires |a.dims| == |ds| && forall k :: 0 <= k < |ds| ==> a.dims[k] < 0x1_0000_0000 && ds[k] < 0x1_0000_0000
    ensures IsArray(a, |ds|, Some(ds)) <==> forall k :: 0 <= k < |ds| && ds[k] >= 0 ==> ds[k] == a.dims[k]
  {
    if IsArray(a, |ds|, Some(ds)) {
      forall k | 0 <= k < |ds| && ds[k] >= 0
        ensures ds[k] == a.dims[k]
      {
        assert U32(ds[k]) == U32(a.dims[k]);
      }
    }
  }

  /**
   * vlmxIsString: a char array with two dimensions and one row (or
   * 0-by-0) whose column count, read as a 32-bit `int`, is `length`
   * unless that is negative.
   */
  function IsString(a: MxArray, length: int): (r: bool)
    ensures r ==> a.cls == CharClass && |a.dims| == 2 && (a.dims[0] == 1 || a.dims == [0, 0])
    ensures r && length >= 0 && a.dims[1] < 0x8000_0000 ==> a.dims[1] == length
    ensures a.cls == CharClass && length < 0x8000_0000 && (a.dims == [1, length] || (length == 0 && a.dims == [0, 0])) ==> r
    ensures length < 0 ==> (r <==> a.cls == CharClass && |a.dims| == 2 && (a.dims[0] == 1 || a.dims == [0, 0]))
  {
    var m, n := Rows(a), Cols(a);
    ColsOfMatrix(a);
    a.cls == CharClass && |a.dims| == 2 && (m == 1 || (m == 0 && n == 0)) && (length < 0 || I32(n) == length)
  }

  /* ------------------------------------------------------------------ */
  /*                                     Case-insensitive string tests */
  /* ------------------------------------------------------------------ */

  /**
   * vlmxCompareStringsI: the source repeats the walk of
   * vl_string_casei_cmp (the lower-cased difference at the first
   * disagreement, 0 when both strings end together), so it is that walk.
   */
  method CompareStringsI(a: string, b: string) returns (r: int)
    requires NoNul(a) && NoNul(b)
    ensures r == 0 <==> EqualIgnoringCase(a, b)
    ensures r == Compare(a, b, 0)
  {
    r := CaseiCmp(a, b);
  }

  /**
   * Lexicographic order ignoring case: a sorts before b when it is a
   * proper prefix of b, or when the lower-cased characters first disagree
   * with a's smaller. Every character counts, NUL included.
   */
  predicate LessI(a: seq<char>, b: seq<char>)
    decreases |a|
  {
    if |a| == 0 then |b| > 0
    else if |b| == 0 then false
    else if Lower(a[0]) != Lower(b[0]) then Lower(a[0]) < Lower(b[0])
    else LessI(a[1..], b[1..])
  }

  /** Past a common prefix, the order is decided by what follows. */
  lemma {:induction false} LessISuffix(a: seq<char>, b: seq<char>, i: nat)
    requires i <= |a| && i <= |b| && forall j :: 0 <= j < i ==> Lower(a[j]) == Lower(b[j])
    ensures LessI(a, b) == LessI(a[i..], b[i..])
    ensures LessI(b, a) == LessI(b[i..], a[i..])
    decreases i
  {
    if i > 0 {
      LessISuffix(a[1..], b[1..], i - 1);
      assert a[1..][i - 1..] == a[i..];
      assert b[1..][i - 1..] == b[i..];
    }
  }

  /**
   * vlmxCompareToStringI: the `n` characters of a char array, which may
   * hold NULs, against a C string. A NUL in the array where the string
   * ends gives 1; otherwise the first disagreement decides, the end of
   * the array reading as NUL.
   */
  method CompareToStringI(s: seq<char>, b: string) returns (r: int)
    requires NoNul(b)
    ensures r == 0 <==> EqualIgnoringCase(s, b)
    ensures r > 0 <==> LessI(b, s)
    ensures r < 0 <==> LessI(s, b)
  {
    var i := 0;
    while i < |s| && Lower(s[i]) == Lower(At(b, i))
      invariant i <= |s| && i <= |b|
      invariant forall j :: 0 <= j < i ==> Lower(s[j]) == Lower(b[j])
      decreases |s| - i
    {
      if At(b, i) == '\0' {
        LowerNul(s[i]);
        LessISuffix(s, b, i);
        return 1;
      }
      i := i + 1;
    }
    var c := if i < |s| then s[i] else '\0';
    r := Lower(c) as int - Lower(At(b, i)) as int;
    if i < |b| {
      LowerNul(b[i]);
    }
    if i < |s| && i == |b| {
      LowerNul(s[i]);
    }
    if r == 0 {
      assert i == |s| && i == |b|;
    }
    LessISuffix(s, b, i);
  }

  /** vlmxIsEqualToStringI. */
  method IsEqualToStringI(s: seq<char>, b: string) returns (r: bool)
    requires NoNul(b)
    ensures r <==> EqualIgnoringCase(s, b)
  {
    var c := CompareToStringI(s, b);
    r := c == 0;
  }

  /* ------------------------------------------------------------------ */
  /*                                                     Option parsing */
  /* ------------------------------------------------------------------ */

  /** An entry of the option table. */
  datatype MxOption = MxOption(name: string, hasArg: bool, val: int)

  /** Size of the buffer the option name is read into. */
  const NameBuffer := 1024

  /** Why vlmxNextOption raises vl:invalidOption. */
  datatype OptionError = NotAString | NameTooLong | UnknownOption | MissingArgument

  /** The outcome of one call: no more options, an option (with the index of its argument), or an error. */
  datatype NextResult =
    | NoMore
    | Next(opt: int, next: nat, optarg: Option<nat>)
    | Failed(error: OptionError)

  /** The first table entry whose name equals `name` ignoring case. */
  function Lookup(options: seq<MxOption>, name: string, i: nat): (r: Option<nat>)
    requires forall k :: 0 <= k < |options| ==> NoNul(options[k].name)
    requires NoNul(name)
    ensures r.Some? ==> i <= r.value < |options| && EqualIgnoringCase(name, options[r.value].name)
    ensures r.Some? ==> forall k :: i <= k < r.value ==> !EqualIgnoringCase(name, options[k].name)
    ensures r.None? ==> forall k :: i <= k < |options| ==> !EqualIgnoringCase(name, options[k].name)
    decreases |options| - i
  {
    if i >= |options| then None
    else if Compare(name, options[i].name, 0) == 0 then
      CompareZeroIff(name, options[i].name, 0);
      Some(i)
    else
      CompareZeroIff(name, options[i].name, 0);
      Lookup(options, name, i + 1)
  }

  /** The first table entry whose name equals `name` ignoring case. */
  predicate FirstMatch(options: seq<MxOption>, name: string, i: nat)
  {
    i < |options| && EqualIgnoringCase(name, options[i].name)
    && forall k :: 0 <= k < i ==> !EqualIgnoringCase(name, options[k].name)
  }

  /**
   * vlmxNextOption: at the end of the list -1; otherwise the element at
   * `next` must be a string shorter than the name buffer, whose text up to
   * any NUL is the option name.
   */
  function NextOption(args: seq<MxArray>, options: seq<MxOption>, next: nat): (r: NextResult)
    requires forall k :: 0 <= k < |options| ==> NoNul(options[k].name)
    ensures r == NoMore <==> next >= |args|
    ensures next < |args| && !IsString(args[next], -1) ==> r == Failed(NotAString)
    ensures next < |args| && IsString(args[next], -1) && |args[next].chars| >= NameBuffer ==> r == Failed(NameTooLong)
  {
    if next >= |args| then NoMore
    else if !IsString(args[next], -1) then Failed(NotAString)
    else if |args[next].chars| >= NameBuffer then Failed(NameTooLong)
    else Resolve(options, UntilNul(args[next].chars), next, |args|)
  }

  /**
   * The second half of vlmxNextOption: the name is looked up
   * case-insensitively among the `count` arguments' table; the value found
   * must be non-negative, else the name counts as unknown. An option
   * without argument advances by one; one with an argument takes the
   * following element and advances by two.
   */
  function Resolve(options: seq<MxOption>, name: string, next: nat, count: nat): (r: NextResult)
    requires forall k :: 0 <= k < |options| ==> NoNul(options[k].name)
    requires NoNul(name)
    ensures r.Next? ==> r.next == next + 1 || (r.next == next + 2 && r.optarg == Some(next + 1) && next + 1 < count)
    ensures r.Failed? ==> r.error in {UnknownOption, MissingArgument}
    ensures !r.NoMore?
  {
    match Lookup(options, name, 0)
    case None => Failed(UnknownOption)
    case Some(i) =>
      var o := options[i];
      if o.val < 0 then Failed(UnknownOption)
      else if !o.hasArg then Next(o.val, next + 1, None)
      else if next + 1 >= count then Failed(MissingArgument)
      else Next(o.val, next + 2, Some(next + 1))
  }

  /** A well-formed name at `next` is resolved against the table. */
  lemma NextOptionResolves(args: seq<MxArray>, options: seq<MxOption>, next: nat)
    requires forall k :: 0 <= k < |options| ==> NoNul(options[k].name)
    requires next < |args| && IsString(args[next], -1) && |args[next].chars| < NameBuffer
    ensures NextOption(args, options, next) == Resolve(options, UntilNul(args[next].chars), next, |args|)
  {
  }

  /** The entry Lookup returns is the first match, and there is one exactly when Lookup finds it. */
  lemma LookupFirst(options: seq<MxOption>, name: string, i: nat)
    requires forall k :: 0 <= k < |options| ==> NoNul(options[k].name)
    requires NoNul(name)
    ensures Lookup(options, name, 0) == Some(i) <==> FirstMatch(options, name, i)
  {
  }

  /**
   * The first matching entry decides: with a non-negative value it is
   * returned, and `next` moves past the name, and past its argument when
   * it takes one; an argument that is missing is an error.
   */
  lemma ResolveFound(options: seq<MxOption>, name: string, next: nat, count: nat, i: nat)
    requires forall k :: 0 <= k < |options| ==> NoNul(options[k].name)
    requires NoNul(name) && FirstMatch(options, name, i) && options[i].val >= 0
    ensures !options[i].hasArg ==> Resolve(options, name, next, count) == Next(options[i].val, next + 1, None)
    ensures options[i].hasArg && next + 1 < count ==>
      Resolve(options, name, next, count) == Next(options[i].val, next + 2, Some(next + 1))
    ensures options[i].hasArg && next + 1 >= count ==> Resolve(options, name, next, count) == Failed(MissingArgument)
  {
    LookupFirst(options, name, i);
  }

  /** A name matching no entry is unknown. */
  lemma ResolveNoMatch(options: seq<MxOption>, name: string, next: nat, count: nat)
    requires forall k :: 0 <= k < |options| ==> NoNul(options[k].name)
    requires NoNul(name)
    requires forall k :: 0 <= k < |options| ==> !EqualIgnoringCase(name, options[k].name)
    ensures Resolve(options, name, next, count) == Failed(UnknownOption)
  {
  }

  /** A name whose first match has a negative value is unknown too, whatever later entries say. */
  lemma ResolveNegative(options: seq<MxOption>, name: string, next: nat, count: nat, i: nat)
    requires forall k :: 0 <= k < |options| ==> NoNul(options[k].name)
    requires NoNul(name) && FirstMatch(options, name, i) && options[i].val < 0
    ensures Resolve(options, name, next, count) == Failed(UnknownOption)
  {
    LookupFirst(options, name, i);
  }
}

=== FILE: mser.dfy ===
/**
 * The integer parts of the MSER filter (vl/mser.c): the filter geometry,
 * the bucket sort of the pixels, the join loop that builds the region
 * forest, the extremal regions and their tree, the clean-up of the
 * maximally stable ones, and the decoding of ellipse moment indices.
 * Pixel values are 8-bit.
 */
module Mser {
  import opened Wrappers
  import opened Subscript
  import opened MserForest
  import MathOp

  /** VL_MSER_PIX_MAXVAL: the number of pixel values. */
  const PixMax: nat := 256

  predicate IsImage(im: seq<nat>)
  {
    forall i :: 0 <= i < |im| ==> im[i] < PixMax
  }

  // ---------------------------------------------------------------- filter

  /** The parameters vl_mser_new fills in. */
  datatype Filter = Filter(
    dims: seq<nat>, strides: seq<nat>, nel: nat, dof: nat,
    verbose: bool, cleanupSmall: bool, cleanupBig: bool, cleanupBad: bool, cleanupDup: bool, delta: nat)

  /**
   * vl_mser_new: strides are the prefix products of the dimensions, the
   * element count is their product, and an ellipsoid has ndims first-order
   * and ndims (ndims + 1) / 2 second-order moments. Only bad-region and
   * duplicate clean-up are on by default, with delta 5.
   */
  method New(dims: seq<nat>) returns (f: Filter)
    requires |dims| >= 1
    ensures f.dims == dims && f.strides == PrefixProds(dims) && f.nel == Prod(dims)
    ensures f.dof == |dims| + |Pairs(|dims|)|
    ensures f.verbose && !f.cleanupSmall && !f.cleanupBig && f.cleanupBad && f.cleanupDup && f.delta == 5
  {
    var strides, nel := Strides(dims);
    var n := |dims|;
    f := Filter(dims, strides, nel, n * (n + 1) / 2 + n, true, false, false, true, true, 5);
  }

  // ---------------------------------------------------------- bucket sort

  /** Number of pixels before k with value v. */
  function Count(im: seq<nat>, v: nat, k: nat): nat
    requires k <= |im|
  {
    if k == 0 then 0 else Count(im, v, k - 1) + (if im[k - 1] == v then 1 else 0)
  }

  /** Number of pixels before k with value below v. */
  function Below(im: seq<nat>, v: nat, k: nat): nat
    requires k <= |im|
  {
    if k == 0 then 0 else Below(im, v, k - 1) + (if im[k - 1] < v then 1 else 0)
  }

  /**
   * Where pixel i belongs in the sorted order: after every smaller pixel
   * and after every equal pixel of smaller index.
   */
  function Pos(im: seq<nat>, i: nat): nat
    requires i < |im|
  {
    Below(im, im[i], |im|) + Count(im, im[i], i)
  }

  /** (value, index) ordering: smaller value first, ties by index. */
  predicate Before(im: seq<nat>, a: nat, b: nat)
    requires a < |im| && b < |im|
  {
    im[a] < im[b] || (im[a] == im[b] && a < b)
  }

  lemma {:induction false} BelowStep(im: seq<nat>, v: nat, k: nat)
    requires k <= |im|
    ensures Below(im, v + 1, k) == Below(im, v, k) + Count(im, v, k)
  {
    if k > 0 {
      BelowStep(im, v, k - 1);
    }
  }

  lemma {:induction false} BelowMono(im: seq<nat>, u: nat, v: nat, k: nat)
    requires k <= |im| && u <= v
    ensures Below(im, u, k) + Count(im, u, k) <= Below(im, v, k) || u == v
  {
    if u < v {
      BelowStep(im, u, k);
      BelowLe(im, u + 1, v, k);
    }
  }

  lemma {:induction false} BelowLe(im: seq<nat>, u: nat, v: nat, k: nat)
    requires k <= |im| && u <= v
    ensures Below(im, u, k) <= Below(im, v, k)
  {
    if k > 0 {
      BelowLe(im, u, v, k - 1);
    }
  }

  lemma {:induction false} CountMono(im: seq<nat>, v: nat, j: nat, k: nat)
    requires j <= k <= |im|
    ensures Count(im, v, j) <= Count(im, v, k)
    decreases k - j
  {
    if j < k {
      CountMono(im, v, j, k - 1);
    }
  }

  lemma {:induction false} BelowAll(im: seq<nat>, k: nat)
    requires k <= |im| && IsImage(im)
    ensures Below(im, PixMax, k) == k && Below(im, 0, k) == 0
  {
    if k > 0 {
      BelowAll(im, k - 1);
    }
  }

  /** Pixels sort in (value, index) order: Pos is strictly monotone in Before. */
  lemma PosOrder(im: seq<nat>, a: nat, b: nat)
    requires a < |im| && b < |im| && Before(im, a, b)
    ensures Pos(im, a) < Pos(im, b)
  {
    if im[a] < im[b] {
      BelowMono(im, im[a], im[b], |im|);
      CountMono(im, im[a], a, |im|);
      assert Count(im, im[a], a) < Count(im, im[a], |im|) by {
        CountMono(im, im[a], a + 1, |im|);
      }
    } else {
      CountMono(im, im[a], a + 1, b);
    }
  }

  /** Pos is a bijection onto [0, |im|): it lands in range. */
  lemma PosRange(im: seq<nat>, i: nat)
    requires IsImage(im) && i < |im|
    ensures Pos(im, i) < |im|
  {
    var v := im[i];
    CountMono(im, v, i + 1, |im|);
    BelowStep(im, v, |im|);
    BelowLe(im, v + 1, PixMax, |im|);
    BelowAll(im, |im|);
  }

  /** Pos is a bijection onto [0, |im|): every slot is the position of some pixel. */
  lemma PosOnto(im: seq<nat>, p: nat) returns (i: nat)
    requires IsImage(im) && p < |im|
    ensures i < |im| && Pos(im, i) == p
  {
    BelowAll(im, |im|);
    var v := 0;
    while Below(im, v + 1, |im|) <= p
      invariant v < PixMax && Below(im, v, |im|) <= p
      decreases PixMax - v
    {
      v := v + 1;
    }
    BelowStep(im, v, |im|);
    i := Occurrence(im, v, p - Below(im, v, |im|), |im|);
  }

  /** The pixel with value v that has exactly c earlier pixels of value v. */
  lemma {:induction false} Occurrence(im: seq<nat>, v: nat, c: nat, k: nat) returns (i: nat)
    requires k <= |im| && c < Count(im, v, k)
    ensures i < k && im[i] == v && Count(im, v, i) == c
  {
    if Count(im, v, k - 1) > c {
      i := Occurrence(im, v, c, k - 1);
    } else {
      i := k - 1;
    }
  }

  /**
   * The counting sort of vl_mser_process: count each value, accumulate
   * the counts, then walk the pixels backwards dropping each into the last
   * free slot of its bucket. Pixel i ends at Pos(im, i), so perm lists
   * every pixel once, by non-decreasing value and by index among equal
   * values.
   */
  method BucketSort(im: seq<nat>) returns (perm: seq<nat>)
    requires IsImage(im)
    ensures |perm| == |im|
    ensures forall i :: 0 <= i < |im| ==> Pos(im, i) < |perm| && perm[Pos(im, i)] == i
    ensures forall p :: 0 <= p < |perm| ==> perm[p] < |im| && Pos(im, perm[p]) == p
    ensures forall p, q :: 0 <= p < q < |perm| ==> Before(im, perm[p], perm[q])
  {
    var n := |im|;
    var buckets := Counts(im);
    buckets := Accumulate(im, buckets);
    perm := Fill(im, buckets);
    forall p | 0 <= p < n ensures perm[p] < n && Pos(im, perm[p]) == p {
      var i := PosOnto(im, p);
    }
    forall p, q | 0 <= p < q < n ensures Before(im, perm[p], perm[q]) {
      if !Before(im, perm[p], perm[q]) {
        PosOrder(im, perm[q], perm[p]);
      }
    }
  }

  /** First pass: buckets[v] is the number of pixels of value v. */
  method Counts(im: seq<nat>) returns (buckets: seq<nat>)
    requires IsImage(im)
    ensures |buckets| == PixMax && forall v :: 0 <= v < PixMax ==> buckets[v] == Count(im, v, |im|)
  {
    buckets := seq(PixMax, _ => 0);
    var i := 0;
    while i < |im|
      invariant i <= |im| && |buckets| == PixMax
      invariant forall v :: 0 <= v < PixMax ==> buckets[v] == Count(im, v, i)
    {
      var v := im[i];
      buckets := buckets[v := buckets[v] + 1];
      i := i + 1;
    }
  }

  /** Second pass: buckets[v] becomes the number of pixels of value at most v. */
  method Accumulate(im: seq<nat>, counts: seq<nat>) returns (buckets: seq<nat>)
    requires |counts| == PixMax && forall v :: 0 <= v < PixMax ==> counts[v] == Count(im, v, |im|)
    ensures |buckets| == PixMax && forall v :: 0 <= v < PixMax ==> buckets[v] == Below(im, v + 1, |im|)
  {
    buckets := counts;
    BelowStep(im, 0, |im|);
    BelowZero(im, |im|);
    var i := 1;
    while i < PixMax
      invariant 1 <= i <= PixMax && |buckets| == PixMax
      invariant forall v :: 0 <= v < i ==> buckets[v] == Below(im, v + 1, |im|)
      invariant forall v :: i <= v < PixMax ==> buckets[v] == Count(im, v, |im|)
    {
      BelowStep(im, i, |im|);
      buckets := buckets[i := buckets[i] + buckets[i - 1]];
      i := i + 1;
    }
  }

  lemma {:induction false} BelowZero(im: seq<nat>, k: nat)
    requires k <= |im|
    ensures Below(im, 0, k) == 0
  {
    if k > 0 {
      BelowZero(im, k - 1);
    }
  }

  /** Third pass: from the last pixel down, take the slot just below the bucket's end. */
  method Fill(im: seq<nat>, cumulative: seq<nat>) returns (perm: seq<nat>)
    requires IsImage(im)
    requires |cumulative| == PixMax && forall v :: 0 <= v < PixMax ==> cumulative[v] == Below(im, v + 1, |im|)
    ensures |perm| == |im| && forall i :: 0 <= i < |im| ==> Pos(im, i) < |perm| && perm[Pos(im, i)] == i
  {
    var n := |im|;
    var buckets := cumulative;
    perm := seq(n, _ => 0);
    forall v | 0 <= v < PixMax ensures buckets[v] == Below(im, v, n) + Count(im, v, n) {
      BelowStep(im, v, n);
    }
    var i := n;
    while i >= 1
      invariant i <= n && FillInv(im, buckets, perm, i)
    {
      i := i - 1;
      var v := im[i];
      FillStep(im, buckets, perm, i);
      buckets := buckets[v := buckets[v] - 1];
      perm := perm[buckets[v] := i];
    }
  }

  /** Pixels from i on are in place, and bucket v ends just past the pixels of value v before i. */
  ghost predicate FillInv(im: seq<nat>, buckets: seq<nat>, perm: seq<nat>, i: nat)
  {
    && IsImage(im) && i <= |im| && |perm| == |im| && |buckets| == PixMax
    && (forall v :: 0 <= v < PixMax ==> buckets[v] == Below(im, v, |im|) + Count(im, v, i))
    && (forall j :: i <= j < |im| ==> Pos(im, j) < |im| && perm[Pos(im, j)] == j)
  }

  lemma FillStep(im: seq<nat>, buckets: seq<nat>, perm: seq<nat>, i: nat)
    requires i < |im| && FillInv(im, buckets, perm, i + 1)
    ensures 1 <= buckets[im[i]] <= |perm|
    ensures FillInv(im, buckets[im[i] := buckets[im[i]] - 1], perm[buckets[im[i]] - 1 := i], i)
  {
    var v := im[i];
    var n := |im|;
    PosRange(im, i);
    assert buckets[v] - 1 == Pos(im, i);
    var perm' := perm[Pos(im, i) := i];
    forall j | i < j < n ensures perm'[Pos(im, j)] == j {
      if Before(im, i, j) {
        PosOrder(im, i, j);
      } else {
        PosOrder(im, j, i);
      }
    }
  }

  // ------------------------------------------------------------ join loop

  /** Void status: exactly the nodes void before, except idx, are void after. */
  predicate AddsOnly(before: seq<nat>, after: seq<nat>, idx: nat)
  {
    |after| == |before| && forall i :: 0 <= i < |before| ==> (after[i] == Void <==> before[i] == Void && i != idx)
  }

  /** Void status is the same before and after. */
  predicate SameAdded(before: seq<nat>, after: seq<nat>)
  {
    |after| == |before| && forall i :: 0 <= i < |before| ==> (after[i] == Void <==> before[i] == Void)
  }

  /**
   * One pixel of the join loop of vl_mser_process. The pixel joins the
   * forest as a root of area 1; then, for every neighbour offset in
   * enumeration order, a neighbour that is inside the image, is not the
   * pixel itself and is already in the forest is joined with the pixel.
   * The pixel's tree starts with height 1.
   */
  method ProcessPixel(f: Forest, ghost rank: seq<nat>, dims: seq<nat>, im: seq<nat>, idx: nat, height: seq<int>)
    returns (f': Forest, ghost rank': seq<nat>, ner: nat, height': seq<int>)
    requires Good(f, rank) && |dims| >= 1 && |f.parent| == Prod(dims) == |im|
    requires idx < |im| && f.parent[idx] == Void && |height| == |im|
    requires Monotone(f, im) && AddedAtMost(f, im, im[idx])
    ensures Good(f', rank') && AddsOnly(f.parent, f'.parent, idx)
    ensures Monotone(f', im)
    ensures CountAdded(f'.parent, |im|) == CountAdded(f.parent, |im|) + 1
    ensures f.joins <= f'.joins
    ensures HeightsOfAdded(height, height', f'.parent)
  {
    var n := |im|;
    AddRootKeepsGood(f, rank, idx);
    f' := AddRoot(f, idx);
    assert AddedAtMost(f', im, im[idx]);
    rank' := rank;
    height' := height[idx := 1];
    assert HeightsOfAdded(height, height', f'.parent);
    var strides, nel := Strides(dims);
    var subs := ToSubs(dims, strides, idx);
    var d := FirstOffset(|dims|);
    ner := 0;
    while true
      invariant Good(f', rank') && AddsOnly(f.parent, f'.parent, idx) && f'.parent[idx] != Void
      invariant Monotone(f', im) && AddedAtMost(f', im, im[idx])
      invariant CountAdded(f'.parent, n) == CountAdded(f.parent, n) + 1
      invariant f.joins <= f'.joins
      invariant HeightsOfAdded(height, height', f'.parent)
      invariant |d| == |dims| && Unit(d)
      decreases Prod(Threes(|dims|)) - Code(d)
    {
      LinearBound(Threes(|dims|), Lift(d));
      var nb := Neighbour(dims, subs, d);
      if nb.Some? && nb.value != idx && f'.parent[nb.value] != Void {
        ghost var g := f';
        ghost var hg := height';
        var more;
        f', rank', more, height' := JoinNeighbour(f', rank', im, idx, nb.value, height');
        HeightsOfAddedStep(height, hg, height', g.parent, f'.parent);
        ner := ner + more;
        SameAddedCount(g.parent, f'.parent, n);
      }
      var done;
      d, done := NextOffset(d);
      if done {
        break;
      }
    }
  }

  /** Only the recorded heights of pixels in the forest differ between height and height'. */
  ghost predicate HeightsOfAdded(height: seq<int>, height': seq<int>, parent: seq<nat>)
  {
    |height'| == |height| == |parent| && forall i :: 0 <= i < |height| && height'[i] != height[i] ==> parent[i] != Void
  }

  lemma HeightsOfAddedStep(h0: seq<int>, h1: seq<int>, h2: seq<int>, p1: seq<nat>, p2: seq<nat>)
    requires HeightsOfAdded(h0, h1, p1) && SameAdded(p1, p2) && |p2| < Void
    requires |h2| == |h1| && forall i :: 0 <= i < |h1| && h2[i] != h1[i] ==> p2[i] == i
    ensures HeightsOfAdded(h0, h2, p2)
  {
  }

  lemma {:induction false} SameAddedCount(a: seq<nat>, b: seq<nat>, k: nat)
    requires SameAdded(a, b) && k <= |a|
    ensures CountAdded(a, k) == CountAdded(b, k)
  {
    if k > 0 {
      SameAddedCount(a, b, k - 1);
    }
  }

  /**
   * The body of the neighbour loop: climb to the roots of the pixel and
   * of the neighbour; if they differ, join them. The tie between two
   * roots of the pixel's value is broken by the trees' heights (see
   * JoinCorrected); otherwise the neighbour's root becomes the child, and
   * more is 1 when the two values differ (a new extremal region).
   */
  method JoinNeighbour(f: Forest, ghost rank: seq<nat>, im: seq<nat>, idx: nat, nIdx: nat, height: seq<int>)
    returns (f': Forest, ghost rank': seq<nat>, more: nat, height': seq<int>)
    requires Good(f, rank) && |f.parent| == |im| && idx < |im| && nIdx < |im| && |height| == |im|
    requires f.parent[idx] != Void && f.parent[nIdx] != Void
    requires Monotone(f, im) && AddedAtMost(f, im, im[idx])
    ensures Good(f', rank') && SameAdded(f.parent, f'.parent)
    ensures Monotone(f', im) && AddedAtMost(f', im, im[idx])
    ensures f.joins <= f'.joins && |f'.joins| <= |f.joins| + 1
    ensures more <= 1
    ensures |height'| == |height|
    ensures forall i :: 0 <= i < |height| && height'[i] != height[i] ==> f'.parent[i] == i
  {
    var rIdx, nrIdx;
    f', rIdx := ClimbMono(f, rank, im, idx);
    f', nrIdx := ClimbMono(f', rank, im, nIdx);
    rank' := rank;
    more := 0;
    height' := height;
    if rIdx != nrIdx {
      var joined := JoinCorrected(height, rIdx, nrIdx, im[nrIdx] == im[idx]);
      var pixelChild := joined.0;
      height' := joined.1;
      var c, p := nrIdx, rIdx;
      if pixelChild {
        c, p := rIdx, nrIdx;
      } else if im[nrIdx] != im[idx] {
        more := 1;
      }
      JoinRoots(f', rank', im, c, p);
      rank' := rank'[c := ChildRank(f')];
      f' := Join(f', c, p);
    }
  }

  // ------------------------------------------------------------ union by height

  /** The height of the tree made by hanging a tree of height hc under a root whose tree has height hp. */
  function Hung(hp: int, hc: int): int
  {
    if hp >= hc + 1 then hp else hc + 1
  }

  /**
   * The tie-break of the join loop, given the heights of the pixel's tree
   * (hgt) and of the neighbour's (nHgt): r.0 says whether the pixel's
   * root becomes the child, r.1 is the height recorded for the new root.
   * Only a root of the pixel's own value may adopt the pixel's root.
   */
  function JoinHeights(hgt: int, nHgt: int, same: bool): (r: (bool, int))
    ensures r.0 ==> same
    ensures r.1 == (if r.0 then Hung(nHgt, hgt) else Hung(hgt, nHgt))
    ensures same ==> r.1 == (if hgt == nHgt then hgt + 1 else if hgt < nHgt then nHgt else hgt)
  {
    if same && hgt < nHgt then (true, if nHgt >= hgt + 1 then nHgt else hgt + 1)
    else (false, if hgt >= nHgt + 1 then hgt else nHgt + 1)
  }

  /**
   * The join's height bookkeeping as vl_mser_process writes it: the two
   * heights are read before the climbs, from the root found for the
   * previous neighbour (rPrev) and from node 0, not from the roots rIdx
   * and nrIdx being joined.
   */
  function JoinAsWritten(height: seq<int>, rPrev: nat, rIdx: nat, nrIdx: nat, same: bool): (r: (bool, seq<int>))
    requires rPrev < |height| && rIdx < |height| && nrIdx < |height|
    ensures |r.1| == |height|
    ensures rPrev == rIdx && nrIdx == 0 ==> r == JoinCorrected(height, rIdx, nrIdx, same)
  {
    var (pixelChild, h) := JoinHeights(height[rPrev], height[0], same);
    (pixelChild, height[(if pixelChild then nrIdx else rIdx) := h])
  }

  /**
   * The join's height bookkeeping read from the two roots: the lower of
   * two same-valued trees goes under the other, and the new root's
   * recorded height is the height of the joined tree.
   */
  function JoinCorrected(height: seq<int>, rIdx: nat, nrIdx: nat, same: bool): (r: (bool, seq<int>))
    requires rIdx < |height| && nrIdx < |height|
    ensures |r.1| == |height|
    ensures var p := if r.0 then nrIdx else rIdx;
      var c := if r.0 then rIdx else nrIdx;
      r.1[p] == Hung(height[p], height[c]) && forall i :: 0 <= i < |height| && i != p ==> r.1[i] == height[i]
    ensures r.0 <==> same && height[rIdx] < height[nrIdx]
  {
    var (pixelChild, h) := JoinHeights(height[rIdx], height[nrIdx], same);
    (pixelChild, height[(if pixelChild then nrIdx else rIdx) := h])
  }

  /**
   * The pixel's fresh root (height 1) meets a neighbour root of the same
   * value whose tree has height 3, while node 0 records height 1. Read
   * from the roots, the pixel goes under the neighbour and the tree stays
   * 3 high; read as written, the neighbour's tree goes under the pixel,
   * which is recorded as 2 high while the joined tree is 4 high.
   */
  lemma StaleHeightsMisjoin()
    ensures JoinCorrected([1, 1, 3], 1, 2, true) == (true, [1, 1, 3])
    ensures JoinAsWritten([1, 1, 3], 1, 1, 2, true) == (false, [1, 2, 3])
    ensures Hung(1, 3) == 4
  {
    assert [1, 1, 3][2 := 3] == [1, 1, 3];
    assert [1, 1, 3][1 := 2] == [1, 2, 3];
  }

  /** climb, keeping intensities monotone: the root is at least as bright as the pixel. */
  method ClimbMono(f: Forest, ghost rank: seq<nat>, im: seq<nat>, idx: nat) returns (f': Forest, root: nat)
    requires Good(f, rank) && Monotone(f, im) && idx < |im| && f.parent[idx] != Void
    ensures Good(f', rank) && Monotone(f', im)
    ensures f'.parent == f.parent && f'.area == f.area && f'.joins == f.joins
    ensures root < |im| && f.parent[root] == root && im[root] >= im[idx]
  {
    f', root := ClimbForest(f, rank, idx);
    FindMono(f, rank, im, idx);
    ClimbKeepsMono(f, rank, im, f'.shortcut);
  }

  /** Joining two roots, the child no brighter than the parent, keeps every invariant of the loop. */
  lemma JoinRoots(f: Forest, rank: seq<nat>, im: seq<nat>, c: nat, p: nat)
    requires Good(f, rank) && Monotone(f, im) && c < |im| && p < |im| && c != p
    requires f.parent[c] == c && f.parent[p] == p && im[c] <= im[p]
    ensures Good(Join(f, c, p), rank[c := ChildRank(f)]) && Monotone(Join(f, c, p), im)
    ensures SameAdded(f.parent, Join(f, c, p).parent)
  {
    JoinKeepsGood(f, rank, c, p);
    JoinKeepsMono(f, im, c, p);
  }

  /**
   * Along both links of the forest, intensities never decrease toward the
   * root: a pixel's parent and shortcut are at least as bright as it.
   */
  ghost predicate Monotone(f: Forest, im: seq<nat>)
  {
    && |f.parent| == |f.shortcut| == |im|
    && forall i :: 0 <= i < |im| && f.parent[i] != Void ==>
         f.parent[i] < |im| && f.shortcut[i] < |im| && im[f.parent[i]] >= im[i] && im[f.shortcut[i]] >= im[i]
  }

  /** Every pixel in the forest has intensity at most v. */
  ghost predicate AddedAtMost(f: Forest, im: seq<nat>, v: nat)
  {
    |f.parent| == |im| && forall i :: 0 <= i < |im| && f.parent[i] != Void ==> im[i] <= v
  }

  /** The root a pixel reaches by shortcuts is at least as bright as the pixel. */
  lemma {:induction false} FindMono(f: Forest, rank: seq<nat>, im: seq<nat>, i: nat)
    requires Good(f, rank) && Monotone(f, im) && i < |im| && f.parent[i] != Void
    ensures im[Find(f.shortcut, rank, i)] >= im[i]
    decreases rank[i]
  {
    assert NodeOk(f, rank, i);
    if f.shortcut[i] != i {
      FindMono(f, rank, im, f.shortcut[i]);
    }
  }

  /** Repointing shortcuts at roots keeps intensities monotone. */
  lemma ClimbKeepsMono(f: Forest, rank: seq<nat>, im: seq<nat>, s': seq<nat>)
    requires Good(f, rank) && Monotone(f, im) && |s'| == |im|
    requires forall i :: 0 <= i < |f.parent| ==> s'[i] == f.shortcut[i] || s'[i] == Find(f.shortcut, rank, i)
    ensures Monotone(f.(shortcut := s'), im)
  {
    forall i | 0 <= i < |im| && f.parent[i] != Void && s'[i] != f.shortcut[i]
      ensures im[s'[i]] >= im[i]
    {
      FindMono(f, rank, im, i);
    }
  }

  /** Hanging a root under a root at least as bright keeps intensities monotone. */
  lemma JoinKeepsMono(f: Forest, im: seq<nat>, c: nat, p: nat)
    requires Shaped(f) && Monotone(f, im) && c < |im| && p < |im| && f.parent[p] != Void && im[c] <= im[p]
    ensures Monotone(Join(f, c, p), im)
  {
  }

  /** In a sorted perm, the pixels already added are no brighter than the next one. */
  lemma AddedSorted(f: Forest, im: seq<nat>, perm: seq<nat>, k: nat)
    requires AddedAre(f.parent, perm, k) && k < |perm| && |f.parent| == |im|
    requires forall p :: 0 <= p < |perm| ==> perm[p] < |im|
    requires forall p, q :: 0 <= p < q < |perm| ==> im[perm[p]] <= im[perm[q]]
    ensures AddedAtMost(f, im, im[perm[k]])
  {
    forall i | 0 <= i < |im| && f.parent[i] != Void ensures im[i] <= im[perm[k]] {
      var j :| 0 <= j < k && perm[j] == i;
    }
  }

  /** The pixels listed in perm are distinct pixels of the image. */
  predicate IsPermutation(perm: seq<nat>, n: nat)
  {
    |perm| == n && (forall p :: 0 <= p < n ==> perm[p] < n) && forall p, q :: 0 <= p < q < n ==> perm[p] != perm[q]
  }

  /**
   * The join loop over all pixels in perm order. At the end every pixel is
   * in the forest, the roots' areas add up to the number of pixels, and
   * every pixel is a root or was joined exactly once. The last root counts
   * as one more extremal region.
   */
  method Process(dims: seq<nat>, im: seq<nat>, perm: seq<nat>)
    returns (f: Forest, ghost rank: seq<nat>, ner: nat)
    requires |dims| >= 1 && |im| == Prod(dims) < Void && IsPermutation(perm, |im|)
    requires forall p, q :: 0 <= p < q < |perm| ==> im[perm[p]] <= im[perm[q]]
    ensures Good(f, rank) && |f.parent| == |im| && Monotone(f, im)
    ensures forall i :: 0 <= i < |im| ==> f.parent[i] != Void
    ensures RootArea(f.parent, f.area, |im|) == |im|
    ensures CountRoots(f.parent, |im|) + |f.joins| == |im|
    ensures ner >= 1
  {
    var n := |im|;
    f := Empty(n);
    rank := seq(n, _ => 0);
    var height := seq(n, _ => 0);
    ner := 0;
    var k := 0;
    while k < n
      invariant k <= n && Good(f, rank) && |f.parent| == n
      invariant AddedAre(f.parent, perm, k) && CountAdded(f.parent, n) == k
      invariant Monotone(f, im) && |height| == n
    {
      var idx := perm[k];
      ghost var g := f;
      var more;
      AddedNext(f.parent, perm, k);
      AddedSorted(f, im, perm, k);
      f, rank, more, height := ProcessPixel(f, rank, dims, im, idx, height);
      AddedStep(g.parent, f.parent, perm, k);
      ner := ner + more;
      k := k + 1;
    }
    CountAllAdded(f.parent, n);
    ner := ner + 1;
  }

  /** The nodes in the forest are exactly the first k pixels of perm. */
  ghost predicate AddedAre(parent: seq<nat>, perm: seq<nat>, k: nat)
  {
    k <= |perm| && forall i :: 0 <= i < |parent| ==> (parent[i] != Void <==> i in perm[..k])
  }

  /** The next pixel of a permutation is not yet in the forest. */
  lemma AddedNext(parent: seq<nat>, perm: seq<nat>, k: nat)
    requires AddedAre(parent, perm, k) && k < |perm| && IsPermutation(perm, |parent|)
    ensures perm[k] < |parent| && parent[perm[k]] == Void
  {
  }

  /** Adding the next pixel of perm extends the listed prefix by one. */
  lemma AddedStep(before: seq<nat>, after: seq<nat>, perm: seq<nat>, k: nat)
    requires AddedAre(before, perm, k) && k < |perm| && AddsOnly(before, after, perm[k])
    ensures AddedAre(after, perm, k + 1)
  {
    assert perm[..k + 1] == perm[..k] + [perm[k]];
  }

  /** When all of the first k nodes count as added, each of them is. */
  lemma {:induction false} CountAllAdded(parent: seq<nat>, k: nat)
    requires k <= |parent| && CountAdded(parent, k) == k
    ensures forall i :: 0 <= i < k ==> parent[i] != Void
  {
    if k > 0 {
      AddedBelowSize(parent, k - 1);
      CountAllAdded(parent, k - 1);
    }
  }

  // ------------------------------------------------------- moment indices

  /** The pairs (i, j) with i <= j < n, in the order the second-order moments are stored: by j, then by i. */
  function Pairs(n: nat): (ps: seq<(nat, nat)>)
    ensures |ps| == n * (n + 1) / 2
    ensures forall t :: 0 <= t < |ps| ==> ps[t].0 <= ps[t].1 < n
  {
    if n == 0 then [] else
      assert n * (n + 1) == (n - 1) * n + 2 * n;
      Pairs(n - 1) + seq(n, i => (i, n - 1))
  }

  /** Pair (i, j) sits at position j (j + 1) / 2 + i. */
  lemma {:induction false} PairsAt(n: nat, i: nat, j: nat)
    requires i <= j < n
    ensures j * (j + 1) / 2 + i < |Pairs(n)| && Pairs(n)[j * (j + 1) / 2 + i] == (i, j)
  {
    assert n * (n + 1) == (n - 1) * n + 2 * n;
    if j < n - 1 {
      PairsAt(n - 1, i, j);
    } else {
      assert j * (j + 1) / 2 == |Pairs(n - 1)|;
    }
  }

  /** Every position holds the pair whose position formula gives it back, so no pair occurs twice. */
  lemma PairsPosition(n: nat, t: nat)
    requires t < |Pairs(n)|
    ensures Pairs(n)[t].1 * (Pairs(n)[t].1 + 1) / 2 + Pairs(n)[t].0 == t
  {
    var (i, j) := Pairs(n)[t];
    PairsAt(n, i, j);
    PairsInjective(n, t, j * (j + 1) / 2 + i);
  }

  /** Distinct positions hold distinct pairs. */
  lemma {:induction false} PairsInjective(n: nat, a: nat, b: nat)
    requires a < |Pairs(n)| && b < |Pairs(n)| && Pairs(n)[a] == Pairs(n)[b]
    ensures a == b
  {
    assert n * (n + 1) == (n - 1) * n + 2 * n;
    var m := |Pairs(n - 1)|;
    if a < m && b < m {
      PairsInjective(n - 1, a, b);
    }
  }

  /**
   * The moment index decoding of vl_mser_fit_ell: a second-order index d
   * (from ndims up to dof) names the moment E[x_i x_j] of pair (i, j), at
   * its place in Pairs.
   */
  method DofPair(ndims: nat, d: nat) returns (i: nat, j: nat)
    requires ndims <= d < ndims + |Pairs(ndims)|
    ensures i <= j < ndims && Pairs(ndims)[d - ndims] == (i, j)
  {
    i := d - ndims;
    j := 0;
    while i > j
      invariant d - ndims == j * (j + 1) / 2 + i
      decreases i
    {
      TriangleStep(j);
      i := i - (j + 1);
      j := j + 1;
    }
    DecodedInRange(ndims, d - ndims, i, j);
    PairsAt(ndims, i, j);
  }

  lemma TriangleStep(j: nat)
    ensures (j + 1) * (j + 2) / 2 == j * (j + 1) / 2 + (j + 1)
  {
    assert (j + 1) * (j + 2) == j * (j + 1) + 2 * (j + 1);
  }

  /** A position below n (n + 1) / 2 decodes to a pair below n. */
  lemma DecodedInRange(n: nat, t: nat, i: nat, j: nat)
    requires t < n * (n + 1) / 2 && t == j * (j + 1) / 2 + i && i <= j
    ensures j < n
  {
    if j >= n {
      TriangleMono(n, j);
    }
  }

  lemma {:induction false} TriangleMono(n: nat, j: nat)
    requires n <= j
    ensures n * (n + 1) / 2 <= j * (j + 1) / 2
    decreases j - n
  {
    if n < j {
      TriangleMono(n, j - 1);
      TriangleStep(j - 1);
    }
  }

  /**
   * The part of the filter state vl_mser_fit_ell reads and writes: the
   * number of fitted ellipses, the capacity of the ellipse buffer in
   * ellipses, and the buffer, which holds dof moments per ellipse.
   */
  datatype EllState = EllState(nell: nat, ellSize: nat, ell: seq<real>)

  predicate EllShaped(st: EllState, dof: nat)
  {
    |st.ell| == st.ellSize * dof
  }

  /**
   * vl_mser_fit_ell's bookkeeping. When as many ellipses as maximally
   * stable regions are already fitted nothing happens. Otherwise a buffer
   * too small for nmer ellipses is replaced by one of exactly nmer, and
   * moment d of region i is stored at d + dof * i; entries past the nmer
   * ellipses of a kept buffer are left alone. moment(i, d) stands for the
   * floating-point moment the source integrates over the region forest.
   */
  method FitEll(st: EllState, nmer: nat, dof: nat, moment: (nat, nat) -> real) returns (st': EllState)
    requires EllShaped(st, dof)
    ensures EllShaped(st', dof) && st'.nell == nmer
    ensures st.nell == nmer ==> st' == st
    ensures st.nell != nmer ==> st'.ellSize >= nmer && (st.ellSize >= nmer ==> st'.ellSize == st.ellSize)
    ensures st.nell != nmer ==> Fitted(st'.ell, nmer, dof, moment)
    ensures st.nell != nmer && st.ellSize >= nmer ==>
      nmer * dof <= |st.ell| && st'.ell[nmer * dof..] == st.ell[nmer * dof..]
  {
    if st.nell == nmer {
      st' := st;
    } else {
      var size, buf := st.ellSize, st.ell;
      if st.ellSize < nmer {
        size, buf := nmer, seq(nmer * dof, _ => 0.0);
      }
      assert |buf| == size * dof;
      EllFits(nmer, size, dof);
      var ell := Refill(buf, nmer, dof, moment);
      st' := EllState(nmer, size, ell);
    }
  }

  /** The buffer with its first nmer ellipses overwritten by their moments. */
  function Refill(buf: seq<real>, nmer: nat, dof: nat, moment: (nat, nat) -> real): (ell: seq<real>)
    requires nmer * dof <= |buf|
    ensures |ell| == |buf| && Fitted(ell, nmer, dof, moment)
    ensures ell[nmer * dof..] == buf[nmer * dof..]
  {
    MathOp.TimesIs(nmer, dof);
    RowsFitted(buf, nmer, dof, moment);
    Rows(nmer, dof, moment) + buf[nmer * dof..]
  }

  lemma RowsFitted(buf: seq<real>, nmer: nat, dof: nat, moment: (nat, nat) -> real)
    requires MathOp.Times(nmer, dof) == nmer * dof <= |buf|
    ensures Fitted(Rows(nmer, dof, moment) + buf[nmer * dof..], nmer, dof, moment)
  {
    var rows := Rows(nmer, dof, moment);
    var ell := rows + buf[nmer * dof..];
    forall i, d | 0 <= i < nmer && 0 <= d < dof
      ensures EllIndex(dof, i, d) < |ell| && ell[EllIndex(dof, i, d)] == moment(i, d)
    {
      RowsAt(nmer, dof, moment, i, d);
      var t := MathOp.Times(i, dof);
      MathOp.TimesIs(i, dof);
      assert t + d == EllIndex(dof, i, d);
      assert t + d < |rows| && ell[t + d] == rows[t + d];
    }
  }

  /** The moments of the first n ellipses, one ellipse after the other. */
  function Rows(n: nat, dof: nat, moment: (nat, nat) -> real): (r: seq<real>)
    ensures |r| == MathOp.Times(n, dof)
  {
    if n == 0 then [] else Rows(n - 1, dof, moment) + seq(dof, (d: int) requires 0 <= d < dof => moment(n - 1, d))
  }

  lemma {:induction false} RowsAt(n: nat, dof: nat, moment: (nat, nat) -> real, i: nat, d: nat)
    requires i < n && d < dof
    ensures MathOp.Times(i, dof) + d < |Rows(n, dof, moment)|
    ensures Rows(n, dof, moment)[MathOp.Times(i, dof) + d] == moment(i, d)
    decreases n
  {
    if i < n - 1 {
      RowsAt(n - 1, dof, moment, i, d);
      MathOp.TimesGap(i, n - 1, dof);
    }
  }

  /** The buffer holds moment d of ellipse i at position d + dof * i, for the first nmer ellipses. */
  ghost predicate Fitted(ell: seq<real>, nmer: nat, dof: nat, moment: (nat, nat) -> real)
  {
    forall i, d :: 0 <= i < nmer && 0 <= d < dof ==> EllIndex(dof, i, d) < |ell| && ell[EllIndex(dof, i, d)] == moment(i, d)
  }

  /** The position of moment d of ellipse i in the ellipse buffer. */
  function EllIndex(dof: nat, i: nat, d: nat): nat
  {
    d + dof * i
  }

  /** nmer ellipses fit in a buffer of size ellipses. */
  lemma EllFits(nmer: nat, size: nat, dof: nat)
    requires nmer <= size
    ensures nmer * dof <= size * dof
  {
    assert size * dof == nmer * dof + (size - nmer) * dof;
  }
}

=== FILE: mserforest.dfy ===
/**
 * The region forest of the MSER filter (vl/mser.c): every processed pixel
 * is a node with a parent, a shortcut toward its root and an area.
 * Shortcuts always point to a node of strictly smaller rank, or to the
 * node itself at a root; the rank is a proof device that is never stored.
 */
module MserForest {

  /** Shortcuts lead toward the root: each non-root jumps to a node of smaller rank. */
  ghost predicate Ranked(s: seq<nat>, rank: seq<nat>)
  {
    && |rank| == |s|
    && (forall i :: 0 <= i < |s| ==> s[i] < |s|)
    && (forall i :: 0 <= i < |s| && s[i] != i ==> rank[s[i]] < rank[i])
  }

  /** The root reached from i by following shortcuts. */
  ghost function Find(s: seq<nat>, rank: seq<nat>, i: nat): (r: nat)
    requires Ranked(s, rank) && i < |s|
    ensures r < |s| && s[r] == r
    decreases rank[i]
  {
    if s[i] == i then i else Find(s, rank, s[i])
  }

  /** The nodes visited from i up to and including its root. */
  ghost function Path(s: seq<nat>, rank: seq<nat>, i: nat): (p: seq<nat>)
    requires Ranked(s, rank) && i < |s|
    ensures |p| >= 1 && p[0] == i && p[|p| - 1] == Find(s, rank, i)
    ensures forall k :: 0 <= k < |p| ==> p[k] < |s|
    ensures forall k :: 0 <= k < |p| - 1 ==> s[p[k]] == p[k + 1] && s[p[k]] != p[k]
    ensures forall k :: 0 <= k < |p| ==> rank[p[k]] <= rank[i]
    decreases rank[i]
  {
    if s[i] == i then [i] else [i] + Path(s, rank, s[i])
  }

  /** Ranks strictly decrease along a path, so it never repeats a node. */
  lemma {:induction false} PathDecreasing(s: seq<nat>, rank: seq<nat>, i: nat, a: nat, b: nat)
    requires Ranked(s, rank) && i < |s|
    requires a < b < |Path(s, rank, i)|
    ensures rank[Path(s, rank, i)[b]] < rank[Path(s, rank, i)[a]]
    decreases rank[i]
  {
    var p := Path(s, rank, i);
    if a == 0 {
      if b > 1 {
        PathDecreasing(s, rank, s[i], 0, b - 1);
      }
      assert p[b] == Path(s, rank, s[i])[b - 1];
    } else {
      PathDecreasing(s, rank, s[i], a - 1, b - 1);
    }
  }

  lemma PathDistinct(s: seq<nat>, rank: seq<nat>, i: nat, a: nat, b: nat)
    requires Ranked(s, rank) && i < |s|
    requires a < |Path(s, rank, i)| && b < |Path(s, rank, i)| && a != b
    ensures Path(s, rank, i)[a] != Path(s, rank, i)[b]
  {
    if a < b {
      PathDecreasing(s, rank, i, a, b);
    } else {
      PathDecreasing(s, rank, i, b, a);
    }
  }

  ghost predicate Distinct(p: seq<nat>)
  {
    forall a, b :: 0 <= a < b < |p| ==> p[a] != p[b]
  }

  lemma PathIsDistinct(s: seq<nat>, rank: seq<nat>, i: nat)
    requires Ranked(s, rank) && i < |s|
    ensures Distinct(Path(s, rank, i))
  {
    var p := Path(s, rank, i);
    forall a, b | 0 <= a < b < |p| ensures p[a] != p[b] {
      PathDecreasing(s, rank, i, a, b);
    }
  }

  /** Every node of p after the first points back to its predecessor; the first points to itself. */
  ghost predicate PointsBack(t: seq<nat>, p: seq<nat>, k: nat)
    requires k < |p| && forall j :: 0 <= j < |p| ==> p[j] < |t|
  {
    && t[p[0]] == p[0]
    && forall j :: 0 < j <= k ==> t[p[j]] == p[j - 1]
  }

  /**
   * climb: walk the shortcuts to the root, reversing each one to remember
   * the way back, then walk back setting every visited shortcut to the
   * root. Only shortcuts change; parent fields are not touched.
   */
  method Climb(s: seq<nat>, ghost rank: seq<nat>, idx: nat) returns (s': seq<nat>, root: nat)
    requires Ranked(s, rank) && idx < |s|
    ensures root == Find(s, rank, idx)
    ensures |s'| == |s|
    ensures forall i :: 0 <= i < |s| && i in Path(s, rank, idx) ==> s'[i] == root
    ensures forall i :: 0 <= i < |s| && i !in Path(s, rank, idx) ==> s'[i] == s[i]
  {
    ghost var p := Path(s, rank, idx);
    PathIsDistinct(s, rank, idx);
    var t;
    t, root := ClimbUp(s, p, idx);
    s' := ClimbBack(t, p, root);
  }

  /** p is the shortcut path in t from p[0] to a root. */
  ghost predicate IsPath(t: seq<nat>, p: seq<nat>)
  {
    && |p| >= 1 && Distinct(p)
    && (forall j :: 0 <= j < |p| ==> p[j] < |t|)
    && (forall j :: 0 <= j < |p| - 1 ==> t[p[j]] == p[j + 1])
    && t[p[|p| - 1]] == p[|p| - 1]
  }

  /** The first loop of climb: find the root, reversing the shortcuts on the way. */
  method ClimbUp(s: seq<nat>, ghost p: seq<nat>, idx0: nat) returns (t: seq<nat>, root: nat)
    requires IsPath(s, p) && idx0 == p[0]
    ensures root == p[|p| - 1] && |t| == |s|
    ensures PointsBack(t, p, |p| - 1)
    ensures forall i :: 0 <= i < |s| && i !in p ==> t[i] == s[i]
  {
    t := s;
    var idx := idx0;
    var prev := idx0;
    ghost var k: nat := 0;
    while true
      invariant k < |p| && idx == p[k] && |t| == |s|
      invariant prev == if k == 0 then p[0] else p[k - 1]
      invariant forall j :: 0 < j < k ==> t[p[j]] == p[j - 1]
      invariant k > 0 ==> t[p[0]] == p[0]
      invariant forall j :: k <= j < |p| ==> t[p[j]] == s[p[j]]
      invariant forall i :: 0 <= i < |s| && i !in p ==> t[i] == s[i]
      decreases |p| - k
    {
      var next := t[idx];
      if k < |p| - 1 {
        assert p[k + 1] != p[k];
      }
      assert next == idx <==> k == |p| - 1;
      forall j | 0 <= j < |p| && j != k
        ensures p[j] != idx
      {
        if j < k { assert p[j] != p[k]; } else { assert p[k] != p[j]; }
      }
      t := t[idx := prev];
      if next == idx {
        break;
      }
      prev := idx;
      idx := next;
      k := k + 1;
    }
    root := idx;
  }

  /** The second loop of climb: walk the reversed shortcuts back, pointing each at the root. */
  method ClimbBack(t: seq<nat>, ghost p: seq<nat>, root: nat) returns (s': seq<nat>)
    requires |p| >= 1 && Distinct(p) && forall j :: 0 <= j < |p| ==> p[j] < |t|
    requires root == p[|p| - 1] && PointsBack(t, p, |p| - 1)
    ensures |s'| == |t|
    ensures forall j :: 0 <= j < |p| ==> s'[p[j]] == root
    ensures forall i :: 0 <= i < |t| && i !in p ==> s'[i] == t[i]
  {
    s' := t;
    var idx := root;
    ghost var k: nat := |p| - 1;
    while true
      invariant k < |p| && idx == p[k] && |s'| == |t|
      invariant PointsBack(s', p, k)
      invariant forall j :: k < j < |p| ==> s'[p[j]] == root
      invariant forall i :: 0 <= i < |t| && i !in p ==> s'[i] == t[i]
      decreases k
    {
      var prev := s'[idx];
      if k > 0 {
        assert p[k - 1] != p[k];
      }
      assert prev == idx <==> k == 0;
      s' := s'[idx := root];
      if prev == idx {
        break;
      }
      idx := prev;
      k := k - 1;
    }
  }

  /** Marks a node not yet added to the forest (VL_MSER_VOID_NODE). */
  const Void: nat := 0xFFFF_FFFF

  /**
   * The forest of vl_mser_process as parallel arrays, one entry per pixel,
   * plus the list of joined children in join order.
   */
  datatype Forest = Forest(parent: seq<nat>, shortcut: seq<nat>, area: seq<nat>, joins: seq<nat>)

  predicate Shaped(f: Forest)
  {
    && |f.shortcut| == |f.parent| && |f.area| == |f.parent| && |f.parent| < Void
    && forall i :: 0 <= i < |f.parent| ==> f.parent[i] == Void || f.parent[i] < |f.parent|
  }

  /** Total area of the roots among the first k nodes. */
  function RootArea(parent: seq<nat>, area: seq<nat>, k: nat): nat
    requires k <= |parent| && |area| == |parent|
  {
    if k == 0 then 0 else RootArea(parent, area, k - 1) + (if parent[k - 1] == k - 1 then area[k - 1] else 0)
  }

  /** Number of roots among the first k nodes. */
  function CountRoots(parent: seq<nat>, k: nat): nat
    requires k <= |parent|
  {
    if k == 0 then 0 else CountRoots(parent, k - 1) + (if parent[k - 1] == k - 1 then 1 else 0)
  }

  /** Number of nodes among the first k that are in the forest. */
  function CountAdded(parent: seq<nat>, k: nat): nat
    requires k <= |parent|
  {
    if k == 0 then 0 else CountAdded(parent, k - 1) + (if parent[k - 1] != Void then 1 else 0)
  }

  /**
   * The forest invariant. Nodes in the forest point (by parent and by
   * shortcut) to nodes in the forest, and are roots by one link exactly
   * when they are roots by the other. Nodes outside the forest are their
   * own shortcut. Parents, like shortcuts, lead to smaller ranks. The ghost rank is 0 on shortcut roots and, on every
   * other node, larger than |parent| - |joins|: the next root joined as
   * a child gets rank |parent| - |joins|, below every node already pointing
   * at it. The roots' areas add up to the number of nodes in the forest,
   * and every node in the forest is a root or has been joined once.
   */
  ghost predicate Good(f: Forest, rank: seq<nat>)
  {
    && Shaped(f)
    && Ranked(f.shortcut, rank)
    && AllNodesOk(f, rank)
    && RootArea(f.parent, f.area, |f.parent|) == CountAdded(f.parent, |f.parent|)
    && CountRoots(f.parent, |f.parent|) + |f.joins| == CountAdded(f.parent, |f.parent|)
  }

  ghost predicate AllNodesOk(f: Forest, rank: seq<nat>)
    requires Shaped(f) && Ranked(f.shortcut, rank)
  {
    forall i :: 0 <= i < |f.parent| ==> NodeOk(f, rank, i)
  }

  /** The part of the forest invariant about node i. */
  ghost predicate NodeOk(f: Forest, rank: seq<nat>, i: nat)
    requires Shaped(f) && Ranked(f.shortcut, rank) && i < |f.parent|
  {
    && (f.parent[i] != Void ==>
          && f.parent[f.parent[i]] != Void && f.parent[f.shortcut[i]] != Void
          && (f.shortcut[i] == i <==> f.parent[i] == i)
          && (f.parent[i] != i ==> rank[f.parent[i]] < rank[i]))
    && (f.parent[i] == Void ==> f.shortcut[i] == i)
    && (f.shortcut[i] == i ==> rank[i] == 0)
    && (f.shortcut[i] != i ==> |f.parent| < rank[i] + |f.joins|)
  }

  lemma {:induction false} RootAreaUpdate(parent: seq<nat>, area: seq<nat>, j: nat, pj: nat, aj: nat, k: nat)
    requires |area| == |parent| && j < |parent| && k <= |parent|
    ensures RootArea(parent[j := pj], area[j := aj], k) + (if j < k && parent[j] == j then area[j] else 0)
      == RootArea(parent, area, k) + (if j < k && pj == j then aj else 0)
  {
    if k > 0 {
      RootAreaUpdate(parent, area, j, pj, aj, k - 1);
    }
  }

  lemma {:induction false} CountRootsUpdate(parent: seq<nat>, j: nat, pj: nat, k: nat)
    requires j < |parent| && k <= |parent|
    ensures CountRoots(parent[j := pj], k) + (if j < k && parent[j] == j then 1 else 0)
      == CountRoots(parent, k) + (if j < k && pj == j then 1 else 0)
  {
    if k > 0 {
      CountRootsUpdate(parent, j, pj, k - 1);
    }
  }

  lemma {:induction false} CountAddedUpdate(parent: seq<nat>, j: nat, pj: nat, k: nat)
    requires j < |parent| && k <= |parent|
    ensures CountAdded(parent[j := pj], k) + (if j < k && parent[j] != Void then 1 else 0)
      == CountAdded(parent, k) + (if j < k && pj != Void then 1 else 0)
  {
    if k > 0 {
      CountAddedUpdate(parent, j, pj, k - 1);
    }
  }

  /** The forest before any pixel is processed: every node is void. */
  function Empty(n: nat): (f: Forest)
    requires n < Void
    ensures Good(f, seq(n, _ => 0))
    ensures |f.parent| == n && f.joins == [] && CountAdded(f.parent, n) == 0
    ensures forall i :: 0 <= i < n ==> f.parent[i] == Void
  {
    var f := Forest(seq(n, _ => Void), seq(n, i => i), seq(n, _ => 0), []);
    assert RootArea(f.parent, f.area, n) == 0 && CountRoots(f.parent, n) == 0 && CountAdded(f.parent, n) == 0 by {
      EmptyCounts(f, n);
    }
    f
  }

  lemma {:induction false} EmptyCounts(f: Forest, k: nat)
    requires Shaped(f) && k <= |f.parent|
    requires forall i :: 0 <= i < |f.parent| ==> f.parent[i] == Void
    ensures RootArea(f.parent, f.area, k) == 0 && CountRoots(f.parent, k) == 0 && CountAdded(f.parent, k) == 0
  {
    if k > 0 {
      EmptyCounts(f, k - 1);
    }
  }

  /** Add pixel idx as a new root of area 1. */
  function AddRoot(f: Forest, idx: nat): (f': Forest)
    requires Shaped(f) && idx < |f.parent|
    ensures Shaped(f') && |f'.parent| == |f.parent| && f'.joins == f.joins
    ensures f'.parent[idx] == idx && f'.shortcut[idx] == idx && f'.area[idx] == 1
    ensures forall i :: 0 <= i < |f.parent| && i != idx ==>
      f'.parent[i] == f.parent[i] && f'.shortcut[i] == f.shortcut[i] && f'.area[i] == f.area[i]
  {
    f.(parent := f.parent[idx := idx], shortcut := f.shortcut[idx := idx], area := f.area[idx := 1])
  }

  /** Adding a void pixel as a root keeps the forest good and counts one more node and one more root. */
  lemma AddRootKeepsGood(f: Forest, rank: seq<nat>, idx: nat)
    requires Good(f, rank) && idx < |f.parent| && f.parent[idx] == Void
    ensures Good(AddRoot(f, idx), rank)
    ensures CountAdded(AddRoot(f, idx).parent, |f.parent|) == CountAdded(f.parent, |f.parent|) + 1
  {
    var n := |f.parent|;
    var f' := AddRoot(f, idx);
    RootAreaUpdate(f.parent, f.area, idx, idx, 1, n);
    CountRootsUpdate(f.parent, idx, idx, n);
    CountAddedUpdate(f.parent, idx, idx, n);
    assert NodeOk(f, rank, idx);
    forall i | 0 <= i < n ensures NodeOk(f', rank, i) {
      assert NodeOk(f, rank, i);
    }
  }

  /** The rank a root takes when it is joined as a child. */
  function ChildRank(f: Forest): nat
  {
    if |f.joins| < |f.parent| then |f.parent| - |f.joins| else 0
  }

  /** Make root c a child of root p: c points to p and p absorbs c's area. */
  function Join(f: Forest, c: nat, p: nat): (f': Forest)
    requires Shaped(f) && c < |f.parent| && p < |f.parent|
    ensures Shaped(f') && |f'.parent| == |f.parent| && f'.joins == f.joins + [c]
    ensures f'.parent[c] == p && f'.shortcut[c] == p
    ensures c != p ==> f'.area[p] == f.area[p] + f.area[c] && f'.area[c] == f.area[c]
    ensures forall i :: 0 <= i < |f.parent| && i != c && i != p ==>
      f'.parent[i] == f.parent[i] && f'.shortcut[i] == f.shortcut[i] && f'.area[i] == f.area[i]
  {
    f.(parent := f.parent[c := p], shortcut := f.shortcut[c := p],
       area := f.area[p := f.area[p] + f.area[c]], joins := f.joins + [c])
  }

  /**
   * Joining two distinct roots keeps the forest good: the roots' areas
   * still add up to the number of nodes, with one root fewer and one more
   * join.
   */
  lemma JoinKeepsGood(f: Forest, rank: seq<nat>, c: nat, p: nat)
    requires Good(f, rank) && c < |f.parent| && p < |f.parent| && c != p
    requires f.parent[c] == c && f.parent[p] == p
    ensures Good(Join(f, c, p), rank[c := ChildRank(f)])
    ensures CountAdded(Join(f, c, p).parent, |f.parent|) == CountAdded(f.parent, |f.parent|)
    ensures CountRoots(Join(f, c, p).parent, |f.parent|) + 1 == CountRoots(f.parent, |f.parent|)
  {
    JoinSums(f, c, p);
    JoinLinks(f, rank, c, p);
  }

  lemma JoinSums(f: Forest, c: nat, p: nat)
    requires Shaped(f) && c < |f.parent| && p < |f.parent| && c != p
    requires f.parent[c] == c && f.parent[p] == p
    requires RootArea(f.parent, f.area, |f.parent|) == CountAdded(f.parent, |f.parent|)
    requires CountRoots(f.parent, |f.parent|) + |f.joins| == CountAdded(f.parent, |f.parent|)
    ensures |f.joins| + 2 <= |f.parent|
    ensures RootArea(Join(f, c, p).parent, Join(f, c, p).area, |f.parent|) == CountAdded(Join(f, c, p).parent, |f.parent|)
    ensures CountAdded(Join(f, c, p).parent, |f.parent|) == CountAdded(f.parent, |f.parent|)
    ensures CountRoots(Join(f, c, p).parent, |f.parent|) + 1 == CountRoots(f.parent, |f.parent|)
  {
    var n := |f.parent|;
    AddedBelowSize(f.parent, n);
    TwoRoots(f.parent, c, p, n);
    var parent' := f.parent[c := p];
    RootAreaUpdate(f.parent, f.area, c, p, f.area[c], n);
    assert f.area[c := f.area[c]] == f.area;
    RootAreaUpdate(parent', f.area, p, p, f.area[p] + f.area[c], n);
    assert parent'[p := p] == parent';
    CountRootsUpdate(f.parent, c, p, n);
    CountAddedUpdate(f.parent, c, p, n);
  }

  lemma JoinLinks(f: Forest, rank: seq<nat>, c: nat, p: nat)
    requires Good(f, rank) && c < |f.parent| && p < |f.parent| && c != p
    requires f.parent[c] == c && f.parent[p] == p && |f.joins| + 2 <= |f.parent|
    ensures Ranked(Join(f, c, p).shortcut, rank[c := ChildRank(f)])
    ensures AllNodesOk(Join(f, c, p), rank[c := ChildRank(f)])
  {
    var n := |f.parent|;
    var f' := Join(f, c, p);
    var r' := rank[c := ChildRank(f)];
    assert NodeOk(f, rank, c) && NodeOk(f, rank, p);
    forall i | 0 <= i < n && f'.shortcut[i] != i ensures r'[f'.shortcut[i]] < r'[i] {
      assert NodeOk(f, rank, i);
    }
    forall i | 0 <= i < n ensures NodeOk(f', r', i) {
      assert NodeOk(f, rank, i);
    }
  }

  /** No more nodes are in the forest than there are nodes. */
  lemma {:induction false} AddedBelowSize(parent: seq<nat>, k: nat)
    requires k <= |parent|
    ensures CountAdded(parent, k) <= k
  {
    if k > 0 {
      AddedBelowSize(parent, k - 1);
    }
  }

  /** Two distinct roots among the first k nodes count at least twice. */
  lemma {:induction false} TwoRoots(parent: seq<nat>, a: nat, b: nat, k: nat)
    requires a < k <= |parent| < Void && b < k && a != b && parent[a] == a && parent[b] == b
    ensures CountRoots(parent, k) >= 2
  {
    if k - 1 != a && k - 1 != b {
      TwoRoots(parent, a, b, k - 1);
    } else {
      var other := if k - 1 == a then b else a;
      OneRoot(parent, other, k - 1);
    }
  }

  lemma {:induction false} OneRoot(parent: seq<nat>, a: nat, k: nat)
    requires a < k <= |parent| && parent[a] == a
    ensures CountRoots(parent, k) >= 1
  {
    if k - 1 != a {
      OneRoot(parent, a, k - 1);
    }
  }

  /** A node reached by shortcuts from a node in the forest is in the forest. */
  lemma {:induction false} FindAdded(f: Forest, rank: seq<nat>, i: nat)
    requires Good(f, rank) && i < |f.parent| && f.parent[i] != Void
    ensures f.parent[Find(f.shortcut, rank, i)] != Void
    decreases rank[i]
  {
    assert NodeOk(f, rank, i);
    if f.shortcut[i] != i {
      FindAdded(f, rank, f.shortcut[i]);
    }
  }

  /** Every node on a path except its last is not a root, and has a larger rank than the last. */
  lemma PathInterior(s: seq<nat>, rank: seq<nat>, idx: nat, i: nat)
    requires Ranked(s, rank) && idx < |s| && i in Path(s, rank, idx)
    requires i != Find(s, rank, idx)
    ensures s[i] != i && rank[Find(s, rank, idx)] < rank[i]
  {
    var p := Path(s, rank, idx);
    var a :| 0 <= a < |p| && p[a] == i;
    PathDecreasing(s, rank, idx, a, |p| - 1);
  }

  /**
   * climb on the forest: only shortcuts change, the forest stays good, and
   * the returned node is the root of idx by both links.
   */
  method ClimbForest(f: Forest, ghost rank: seq<nat>, idx: nat) returns (f': Forest, root: nat)
    requires Good(f, rank) && idx < |f.parent| && f.parent[idx] != Void
    ensures Good(f', rank)
    ensures f'.parent == f.parent && f'.area == f.area && f'.joins == f.joins
    ensures root == Find(f.shortcut, rank, idx) && root < |f.parent| && f.parent[root] == root
    ensures forall i :: 0 <= i < |f.parent| ==> f'.shortcut[i] == f.shortcut[i] || f'.shortcut[i] == Find(f.shortcut, rank, i)
  {
    var s';
    s', root := Climb(f.shortcut, rank, idx);
    f' := f.(shortcut := s');
    forall i | 0 <= i < |f.parent| ensures s'[i] == f.shortcut[i] || s'[i] == Find(f.shortcut, rank, i) {
      if i in Path(f.shortcut, rank, idx) {
        PathFind(f.shortcut, rank, idx, i);
      }
    }
    FindAdded(f, rank, idx);
    assert NodeOk(f, rank, root);
    ClimbKeepsGood(f, rank, s');
  }

  /** Every node on the path from idx has the same root as idx. */
  lemma {:induction false} PathFind(s: seq<nat>, rank: seq<nat>, idx: nat, i: nat)
    requires Ranked(s, rank) && idx < |s| && i in Path(s, rank, idx)
    ensures i < |s| && Find(s, rank, i) == Find(s, rank, idx)
    decreases rank[idx]
  {
    if i != idx {
      PathFind(s, rank, s[idx], i);
    }
  }

  /** A node that is not a root has a larger rank than its root. */
  lemma {:induction false} FindRank(s: seq<nat>, rank: seq<nat>, i: nat)
    requires Ranked(s, rank) && i < |s| && s[i] != i
    ensures rank[Find(s, rank, i)] < rank[i]
    decreases rank[i]
  {
    if s[s[i]] != s[i] {
      FindRank(s, rank, s[i]);
    }
  }

  /** Repointing any shortcuts straight at their roots keeps the forest good. */
  lemma ClimbKeepsGood(f: Forest, rank: seq<nat>, s': seq<nat>)
    requires Good(f, rank) && |s'| == |f.shortcut|
    requires forall i :: 0 <= i < |f.parent| ==> s'[i] == f.shortcut[i] || s'[i] == Find(f.shortcut, rank, i)
    ensures Good(f.(shortcut := s'), rank)
  {
    var n := |f.parent|;
    var f' := f.(shortcut := s');
    forall i | 0 <= i < n && s'[i] != f.shortcut[i]
      ensures f.shortcut[i] != i && s'[i] != i && rank[s'[i]] < rank[i]
      ensures f.parent[i] != Void ==> f.parent[s'[i]] != Void
    {
      FindRank(f.shortcut, rank, i);
      if f.parent[i] != Void {
        FindAdded(f, rank, i);
      }
    }
    assert Ranked(s', rank);
    forall i | 0 <= i < n ensures NodeOk(f', rank, i) {
      assert NodeOk(f, rank, i);
    }
  }
}

=== FILE: mserregions.dfy ===
/**
 * The extremal-region bookkeeping of modified_selection in vl/mser.c:
 * extracting the extremal regions from the finished forest, linking them
 * into a tree, cleaning up the maximally stable ones, and listing the
 * survivors. Only the integer parts are modelled; the variation scores
 * that decide stability are inputs.
 */
module MserRegions {
  import opened Wrappers
  import opened Subscript
  import opened MserForest
  import opened Mser

  /**
   * An extremal region: its pivot pixel, the index of its parent region,
   * the pivot's intensity and the region's area.
   */
  datatype Region = Region(index: nat, parent: nat, value: nat, area: nat)

  /** The forest after the join loop: every pixel has a parent pixel. */
  predicate Complete(parent: seq<nat>, im: seq<nat>)
  {
    |parent| == |im| && forall i :: 0 <= i < |parent| ==> parent[i] < |parent|
  }

  /** Pixel idx pivots an extremal region: its parent is brighter, or it is a root. */
  predicate IsExtremal(parent: seq<nat>, im: seq<nat>, idx: nat)
    requires Complete(parent, im) && idx < |parent|
  {
    im[parent[idx]] > im[idx] || parent[idx] == idx
  }

  /** link and the region pivots are inverse to each other. */
  predicate Indexed(er: seq<Region>, link: seq<Option<nat>>)
  {
    && (forall k :: 0 <= k < |er| ==> er[k].index < |link| && link[er[k].index] == Some(k))
    && (forall i :: 0 <= i < |link| && link[i].Some? ==> link[i].value < |er| && er[link[i].value].index == i)
  }

  /**
   * Extract the extremal regions, scanning pixels by index. Each region
   * starts as its own parent with the pivot's value and area, and the
   * pixel's shortcut (here link) names its region, or is void (None).
   */
  method Extract(parent: seq<nat>, area: seq<nat>, im: seq<nat>) returns (er: seq<Region>, link: seq<Option<nat>>)
    requires Complete(parent, im) && |area| == |parent|
    ensures |link| == |parent| && Indexed(er, link)
    ensures forall i :: 0 <= i < |parent| ==> (link[i].Some? <==> IsExtremal(parent, im, i))
    ensures forall k :: 0 <= k < |er| ==>
      er[k].parent == k && er[k].index < |parent| && er[k].value == im[er[k].index] && er[k].area == area[er[k].index]
    ensures forall k, l :: 0 <= k < l < |er| ==> er[k].index < er[l].index
  {
    er := [];
    link := [];
    var idx := 0;
    while idx < |parent|
      invariant idx <= |parent| && |link| == idx && Indexed(er, link)
      invariant forall i :: 0 <= i < idx ==> (link[i].Some? <==> IsExtremal(parent, im, i))
      invariant forall k :: 0 <= k < |er| ==>
        er[k].parent == k && er[k].index < idx && er[k].value == im[er[k].index] && er[k].area == area[er[k].index]
      invariant forall k, l :: 0 <= k < l < |er| ==> er[k].index < er[l].index
    {
      if im[parent[idx]] > im[idx] || idx == parent[idx] {
        var r := Region(idx, |er|, im[idx], area[idx]);
        IndexedAppend(er, link, r);
        link := link + [Some(|er|)];
        er := er + [r];
      } else {
        IndexedVoid(er, link);
        link := link + [None];
      }
      idx := idx + 1;
    }
  }

  /** A region pivoted at the next pixel extends both directions of the index. */
  lemma IndexedAppend(er: seq<Region>, link: seq<Option<nat>>, r: Region)
    requires Indexed(er, link) && r.index == |link|
    ensures Indexed(er + [r], link + [Some(|er|)])
  {
    var er', link' := er + [r], link + [Some(|er|)];
    forall k | 0 <= k < |er'|
      ensures er'[k].index < |link'| && link'[er'[k].index] == Some(k)
    {
      if k < |er| {
        assert er'[k] == er[k] && link'[er[k].index] == link[er[k].index];
      }
    }
    forall i | 0 <= i < |link'| && link'[i].Some?
      ensures link'[i].value < |er'| && er'[link'[i].value].index == i
    {
      if i < |link| {
        assert link'[i] == link[i] && er'[link[i].value] == er[link[i].value];
      }
    }
  }

  /** A pixel pivoting no region leaves the index as it was. */
  lemma IndexedVoid(er: seq<Region>, link: seq<Option<nat>>)
    requires Indexed(er, link)
    ensures Indexed(er, link + [None])
  {
    var link' := link + [None];
    forall k | 0 <= k < |er|
      ensures er[k].index < |link'| && link'[er[k].index] == Some(k)
    {
      assert link'[er[k].index] == link[er[k].index];
    }
  }

  // ------------------------------------------------------------- the tree

  /** Parents decrease a rank, so following them reaches a root. */
  ghost predicate ParentRanked(parent: seq<nat>, rank: seq<nat>)
  {
    && |rank| == |parent|
    && forall i :: 0 <= i < |parent| ==> parent[i] < |parent| && (parent[i] != i ==> rank[parent[i]] < rank[i])
  }

  /** Every root pivots a region. */
  predicate RootsLinked(parent: seq<nat>, link: seq<Option<nat>>)
  {
    |link| == |parent| && forall i :: 0 <= i < |parent| && parent[i] == i ==> link[i].Some?
  }

  /** The nearest pixel at or above i, following parents, that pivots a region. */
  ghost function Up(parent: seq<nat>, rank: seq<nat>, link: seq<Option<nat>>, i: nat): (j: nat)
    requires ParentRanked(parent, rank) && RootsLinked(parent, link) && i < |parent|
    ensures j < |parent| && link[j].Some?
    decreases rank[i]
  {
    if link[i].Some? then i else Up(parent, rank, link, parent[i])
  }

  /**
   * Link the regions into a tree: the parent of a region is the region of
   * the nearest pixel strictly above its pivot that pivots a region.
   */
  method Link(er: seq<Region>, parent: seq<nat>, link: seq<Option<nat>>, ghost rank: seq<nat>) returns (er': seq<Region>)
    requires ParentRanked(parent, rank) && RootsLinked(parent, link) && Indexed(er, link)
    ensures |er'| == |er|
    ensures forall k :: 0 <= k < |er| ==>
      er'[k] == er[k].(parent := link[Up(parent, rank, link, parent[er[k].index])].value)
  {
    er' := er;
    var i := 0;
    while i < |er|
      invariant i <= |er| && |er'| == |er|
      invariant forall k :: 0 <= k < i ==> er'[k] == er[k].(parent := link[Up(parent, rank, link, parent[er[k].index])].value)
      invariant forall k :: i <= k < |er| ==> er'[k] == er[k]
    {
      assert er[i].index < |link|;
      var idx: nat := parent[er[i].index];
      while link[idx].None?
        invariant idx < |parent| && Up(parent, rank, link, idx) == Up(parent, rank, link, parent[er[i].index])
        decreases rank[idx]
      {
        idx := parent[idx];
      }
      er' := er'[i := er'[i].(parent := link[idx].value)];
      i := i + 1;
    }
  }

  /** Parents are at least as bright as their children. */
  predicate ValuesUp(parent: seq<nat>, im: seq<nat>)
  {
    Complete(parent, im) && forall i :: 0 <= i < |parent| ==> im[parent[i]] >= im[i]
  }

  /** The region pixel above i is at least as bright as i. */
  lemma {:induction false} UpBrighter(parent: seq<nat>, rank: seq<nat>, link: seq<Option<nat>>, im: seq<nat>, i: nat)
    requires ParentRanked(parent, rank) && RootsLinked(parent, link) && ValuesUp(parent, im) && i < |parent|
    ensures im[Up(parent, rank, link, i)] >= im[i]
    decreases rank[i]
  {
    if link[i].None? {
      UpBrighter(parent, rank, link, im, parent[i]);
    }
  }

  /**
   * A tree of regions: every parent is a region; a region is its own
   * parent (the root) or its parent is strictly brighter; values are
   * pixel values.
   */
  predicate RegionTree(er: seq<Region>)
  {
    forall k :: 0 <= k < |er| ==>
      && er[k].parent < |er| && er[k].value < PixMax
      && (er[k].parent != k ==> er[er[k].parent].value > er[k].value)
  }

  /**
   * Extracting and linking the regions of a finished forest whose parents
   * are at least as bright as their children gives a region tree. A
   * region is the root of the tree exactly when its pivot is a root of the
   * forest.
   */
  method Regions(parent: seq<nat>, area: seq<nat>, im: seq<nat>, ghost rank: seq<nat>)
    returns (er: seq<Region>, link: seq<Option<nat>>)
    requires ParentRanked(parent, rank) && ValuesUp(parent, im) && |area| == |parent| && IsImage(im)
    ensures RegionTree(er) && Indexed(er, link) && |link| == |parent|
    ensures forall i :: 0 <= i < |parent| ==> (link[i].Some? <==> IsExtremal(parent, im, i))
    ensures forall k :: 0 <= k < |er| ==> (er[k].parent == k <==> parent[er[k].index] == er[k].index)
    ensures forall k :: 0 <= k < |er| ==> er[k].value == im[er[k].index] && er[k].area == area[er[k].index]
    ensures forall k, l :: 0 <= k < l < |er| ==> er[k].index < er[l].index
  {
    var er0;
    er0, link := Extract(parent, area, im);
    er := Link(er0, parent, link, rank);
    forall k | 0 <= k < |er|
      ensures er[k].parent < |er| && er[k].value < PixMax
      ensures er[k].parent == k <==> parent[er[k].index] == er[k].index
      ensures er[k].parent != k ==> er[er[k].parent].value > er[k].value
    {
      var idx := er0[k].index;
      UpBrighter(parent, rank, link, im, parent[idx]);
      if parent[idx] == idx {
        assert link[idx] == Some(k);
      } else {
        assert im[parent[idx]] > im[idx];
      }
    }
  }

  // -------------------------------------------------------------- clean-up

  /**
   * Starting at region p, the nearest region upward still marked
   * maximally stable; the walk stops at the root of the tree.
   */
  function StableAncestor(er: seq<Region>, stable: seq<bool>, p: nat): (q: nat)
    requires RegionTree(er) && |stable| == |er| && p < |er|
    ensures q < |er| && (stable[q] || er[q].parent == q)
    ensures er[q].value >= er[p].value
    decreases PixMax - er[p].value
  {
    if stable[p] then p
    else if er[p].parent == p then p
    else StableAncestor(er, stable, er[p].parent)
  }

  /**
   * A region is a duplicate of its stable ancestor when the relative area
   * change (pArea - area) / area is below one half.
   */
  predicate Duplicate(area: nat, pArea: nat)
  {
    area > 0 && 2 * (pArea - area) < area
  }

  /**
   * Whether region i is removed, given the current stability flags and
   * the clean-up switches of the filter; bad[i] stands for a variation of
   * at least one.
   */
  predicate Drop(er: seq<Region>, stable: seq<bool>, bad: seq<bool>, nel: nat, f: Filter, i: nat)
    requires RegionTree(er) && |stable| == |er| && |bad| == |er| && i < |er|
  {
    || (f.cleanupBad && bad[i])
    || (f.cleanupBig && er[i].area > nel / 2)
    || (f.cleanupSmall && er[i].area < 25)
    || (f.cleanupDup && er[i].parent != i
        && Duplicate(er[i].area, er[StableAncestor(er, stable, er[i].parent)].area))
  }

  /** Dropped for its own size or variation, whatever the other flags. */
  predicate SizeDrop(er: seq<Region>, bad: seq<bool>, nel: nat, f: Filter, i: nat)
    requires |bad| == |er| && i < |er|
  {
    || (f.cleanupBad && bad[i])
    || (f.cleanupBig && er[i].area > nel / 2)
    || (f.cleanupSmall && er[i].area < 25)
  }

  /** The flags after the clean-up has examined the first k regions, in order. */
  function Sweep(er: seq<Region>, stable: seq<bool>, bad: seq<bool>, nel: nat, f: Filter, k: nat): (s: seq<bool>)
    requires RegionTree(er) && |stable| == |er| && |bad| == |er| && k <= |er|
    ensures |s| == |er|
  {
    if k == 0 then stable
    else
      var s := Sweep(er, stable, bad, nel, f, k - 1);
      if s[k - 1] && Drop(er, s, bad, nel, f, k - 1) then s[k - 1 := false] else s
  }

  /** The sweep has not yet touched the regions from k on. */
  lemma {:induction false} SweepAhead(er: seq<Region>, stable: seq<bool>, bad: seq<bool>, nel: nat, f: Filter, k: nat, j: nat)
    requires RegionTree(er) && |stable| == |er| && |bad| == |er| && k <= j < |er|
    ensures Sweep(er, stable, bad, nel, f, k)[j] == stable[j]
  {
    if k > 0 {
      SweepAhead(er, stable, bad, nel, f, k - 1, j);
    }
  }

  /** Once examined, a region's flag does not change. */
  lemma {:induction false} SweepBehind(er: seq<Region>, stable: seq<bool>, bad: seq<bool>, nel: nat, f: Filter, k: nat, j: nat)
    requires RegionTree(er) && |stable| == |er| && |bad| == |er| && j < k <= |er|
    ensures Sweep(er, stable, bad, nel, f, k)[j] == Sweep(er, stable, bad, nel, f, j + 1)[j]
  {
    if k > j + 1 {
      SweepBehind(er, stable, bad, nel, f, k - 1, j);
    }
  }

  /**
   * The clean-up pass over the maximally stable regions, removing them one
   * at a time in region order. A region survives iff it was stable and
   * was not dropped given the flags at the moment it was examined. The
   * pass only removes; a stable region that is bad, too big or too small
   * (for the switches that are on) is removed; any other removal is a
   * duplicate; with every switch off nothing changes.
   */
  method Cleanup(er: seq<Region>, stable: seq<bool>, bad: seq<bool>, nel: nat, f: Filter) returns (s: seq<bool>)
    requires RegionTree(er) && |stable| == |er| && |bad| == |er|
    ensures |s| == |er|
    ensures forall i :: 0 <= i < |er| ==> (s[i] <==> stable[i] && !Drop(er, Sweep(er, stable, bad, nel, f, i), bad, nel, f, i))
    ensures forall i :: 0 <= i < |er| && s[i] ==> stable[i]
    ensures forall i :: 0 <= i < |er| && stable[i] && SizeDrop(er, bad, nel, f, i) ==> !s[i]
    ensures forall i :: 0 <= i < |er| && stable[i] && !s[i] && !SizeDrop(er, bad, nel, f, i) ==> f.cleanupDup && er[i].parent != i
    ensures !f.cleanupBad && !f.cleanupBig && !f.cleanupSmall && !f.cleanupDup ==> s == stable
  {
    s := stable;
    var i := 0;
    while i < |er|
      invariant i <= |er| && s == Sweep(er, stable, bad, nel, f, i)
    {
      if s[i] && Drop(er, s, bad, nel, f, i) {
        s := s[i := false];
      }
      i := i + 1;
    }
    forall i | 0 <= i < |er|
      ensures s[i] <==> stable[i] && !Drop(er, Sweep(er, stable, bad, nel, f, i), bad, nel, f, i)
    {
      SweepBehind(er, stable, bad, nel, f, |er|, i);
      SweepAhead(er, stable, bad, nel, f, i, i);
    }
    if !f.cleanupBad && !f.cleanupBig && !f.cleanupSmall && !f.cleanupDup {
      assert forall i :: 0 <= i < |er| ==> s[i] == stable[i];
    }
  }

  // ------------------------------------------------------------ the result

  /** The pivots of the surviving regions among the first k, in region order. */
  function Survivors(er: seq<Region>, s: seq<bool>, k: nat): (mer: seq<nat>)
    requires |s| == |er| && k <= |er|
    ensures |mer| <= k
  {
    if k == 0 then [] else Survivors(er, s, k - 1) + (if s[k - 1] then [er[k - 1].index] else [])
  }

  /** The result list: the pivots of the surviving regions, in region order. */
  method Mer(er: seq<Region>, s: seq<bool>) returns (mer: seq<nat>)
    requires |s| == |er|
    ensures mer == Survivors(er, s, |er|)
  {
    mer := [];
    var i := 0;
    while i < |er|
      invariant i <= |er| && mer == Survivors(er, s, i)
    {
      if s[i] {
        mer := mer + [er[i].index];
      }
      i := i + 1;
    }
  }

  /** A pixel is listed iff it pivots a surviving region. */
  lemma {:induction false} SurvivorsMembers(er: seq<Region>, s: seq<bool>, k: nat, x: nat)
    requires |s| == |er| && k <= |er|
    ensures x in Survivors(er, s, k) <==> exists i :: 0 <= i < k && s[i] && er[i].index == x
  {
    if k > 0 {
      SurvivorsMembers(er, s, k - 1, x);
      if s[k - 1] && er[k - 1].index == x {
        assert x in Survivors(er, s, k);
      }
    }
  }

  /** With pivots in increasing order, so is the list. */
  lemma {:induction false} SurvivorsSorted(er: seq<Region>, s: seq<bool>, k: nat)
    requires |s| == |er| && k <= |er|
    requires forall a, b :: 0 <= a < b < |er| ==> er[a].index < er[b].index
    ensures forall a, b :: 0 <= a < b < |Survivors(er, s, k)| ==> Survivors(er, s, k)[a] < Survivors(er, s, k)[b]
  {
    if k > 0 {
      SurvivorsSorted(er, s, k - 1);
      var prev := Survivors(er, s, k - 1);
      forall a | 0 <= a < |prev| ensures prev[a] < er[k - 1].index {
        SurvivorsMembers(er, s, k - 1, prev[a]);
      }
      var cur := Survivors(er, s, k);
      if s[k - 1] {
        assert cur == prev + [er[k - 1].index];
        forall a, b | 0 <= a < b < |cur| ensures cur[a] < cur[b] {
          if b < |prev| {
            assert cur[a] == prev[a] && cur[b] == prev[b];
          }
        }
      } else {
        assert cur == prev;
      }
    }
  }

  // ------------------------------------------------------------ the whole

  /** A finished forest satisfies what extracting and linking regions needs. */
  lemma FinishedForest(f: Forest, rank: seq<nat>, im: seq<nat>)
    requires Good(f, rank) && Monotone(f, im)
    requires forall i :: 0 <= i < |im| ==> f.parent[i] != Void
    ensures ParentRanked(f.parent, rank) && ValuesUp(f.parent, im)
  {
    forall i | 0 <= i < |im|
      ensures f.parent[i] < |im| && (f.parent[i] != i ==> rank[f.parent[i]] < rank[i])
    {
      assert NodeOk(f, rank, i);
    }
  }

  /** The bucket sort's output is a permutation in non-decreasing intensity. */
  lemma SortedPermutation(im: seq<nat>, perm: seq<nat>)
    requires |perm| == |im|
    requires forall p :: 0 <= p < |perm| ==> perm[p] < |im| && Pos(im, perm[p]) == p
    requires forall p, q :: 0 <= p < q < |perm| ==> Before(im, perm[p], perm[q])
    ensures IsPermutation(perm, |im|)
    ensures forall p, q :: 0 <= p < q < |perm| ==> im[perm[p]] <= im[perm[q]]
  {
  }

  /**
   * The integer skeleton of vl_mser_process: sort the pixels, join them
   * into the forest, extract and link the extremal regions, clean up the
   * maximally stable ones and list the survivors. Region stability and
   * badness come from the variation scores, which are not modelled, and
   * are given per pivot pixel.
   */
  method Detect(f: Filter, im: seq<nat>, stablePix: seq<bool>, badPix: seq<bool>)
    returns (er: seq<Region>, s: seq<bool>, mer: seq<nat>)
    requires |f.dims| >= 1 && |im| == Prod(f.dims) < Void && IsImage(im)
    requires |stablePix| == |im| && |badPix| == |im|
    ensures RegionTree(er) && |s| == |er|
    ensures forall k :: 0 <= k < |er| ==> er[k].index < |im| && er[k].value == im[er[k].index]
    ensures forall k :: 0 <= k < |er| && s[k] ==> stablePix[er[k].index]
    ensures forall x :: x in mer <==> exists k :: 0 <= k < |er| && s[k] && er[k].index == x
    ensures forall a, b :: 0 <= a < b < |mer| ==> mer[a] < mer[b]
  {
    var perm := BucketSort(im);
    SortedPermutation(im, perm);
    var forest, rank, ner := Process(f.dims, im, perm);
    FinishedForest(forest, rank, im);
    var link;
    er, link := Regions(forest.parent, forest.area, im, rank);
    var stable := seq(|er|, k requires 0 <= k < |er| => stablePix[er[k].index]);
    var bad := seq(|er|, k requires 0 <= k < |er| => badPix[er[k].index]);
    s := Cleanup(er, stable, bad, |im|, f);
    mer := Mer(er, s);
    forall x ensures x in mer <==> exists k :: 0 <= k < |er| && s[k] && er[k].index == x {
      SurvivorsMembers(er, s, |er|, x);
    }
    SurvivorsSorted(er, s, |er|);
  }
}

=== FILE: pgm.dfy ===
/**
 * The PGM (Netpbm graymap) reader and writer of vl/pgm.c. The file is a
 * sequence of characters, one per byte, and the end of the sequence is
 * EOF. The header parser, the raw data reader and the writer are pure
 * functions of that sequence; the position a reader has reached is an
 * index into it.
 */
module Pgm {
  import opened Wrappers

  /* Error codes (vl/pgm.h). */
  const ErrInvHead := 101
  const ErrInvMeta := 102
  const ErrInvData := 103

  /** The image meta data a header describes. */
  datatype Image = Image(width: int, height: int, maxValue: int, isRaw: bool)

  /** vl_pgm_get_bpp: one byte per pixel below 256 grey levels, two otherwise. */
  function Bpp(im: Image): (r: nat)
    ensures r == 1 || r == 2
    ensures r == 1 <==> im.maxValue < 256
  {
    if im.maxValue >= 256 then 2 else 1
  }

  /** vl_pgm_get_data_size: the number of pixels. */
  function DataSize(im: Image): int
  {
    im.width * im.height
  }

  /* ------------------------------------------------------------------ */
  /*                                                  Blanks and comments */
  /* ------------------------------------------------------------------ */

  /** The four characters remove_blanks skips. */
  predicate Blank(c: char)
  {
    c == '\t' || c == '\n' || c == '\r' || c == ' '
  }

  /** Where remove_blanks stops: a character that is neither blank nor a comment start. */
  predicate Solid(c: char)
  {
    !Blank(c) && c != '#'
  }

  /**
   * remove_line: reads up to and including the next new-line, or to EOF.
   * The result is the position after what was read, so the count the
   * source returns is `r - pos`.
   */
  function RemoveLine(s: seq<char>, pos: nat): (r: nat)
    requires pos <= |s|
    ensures pos <= r <= |s|
    ensures forall k :: pos <= k < r - 1 ==> s[k] != '\n'
    ensures r == |s| || (pos < r && s[r - 1] == '\n')
    decreases |s| - pos
  {
    if pos == |s| then pos
    else if s[pos] == '\n' then pos + 1
    else RemoveLine(s, pos + 1)
  }

  /**
   * remove_blanks: skips blanks and '#' comments (each running to the end
   * of its line) and stops at the first solid character or at EOF. The
   * count the source returns is `r - pos`.
   */
  function RemoveBlanks(s: seq<char>, pos: nat): (r: nat)
    requires pos <= |s|
    ensures pos <= r <= |s|
    ensures r == |s| || Solid(s[r])
    decreases |s| - pos
  {
    if pos == |s| then pos
    else if Blank(s[pos]) then RemoveBlanks(s, pos + 1)
    else if s[pos] == '#' then RemoveBlanks(s, RemoveLine(s, pos + 1))
    else pos
  }

  /** Nothing is removed before a solid character. */
  lemma RemoveBlanksAtSolid(s: seq<char>, pos: nat)
    requires pos < |s| && Solid(s[pos])
    ensures RemoveBlanks(s, pos) == pos
  {
  }

  /** A run of blanks is skipped in full. */
  lemma {:induction false} RemoveBlanksRun(s: seq<char>, pos: nat, n: nat)
    requires pos + n <= |s|
    requires forall k :: pos <= k < pos + n ==> Blank(s[k])
    ensures RemoveBlanks(s, pos) == RemoveBlanks(s, pos + n)
    decreases n
  {
    if n > 0 {
      RemoveBlanksRun(s, pos + 1, n - 1);
    }
  }

  /** A comment is skipped through its new-line, whatever it contains. */
  lemma {:induction false} RemoveBlanksComment(s: seq<char>, pos: nat, n: nat)
    requires pos + n < |s| && s[pos] == '#' && s[pos + n] == '\n'
    requires forall k :: pos < k < pos + n ==> s[k] != '\n'
    ensures RemoveBlanks(s, pos) == RemoveBlanks(s, pos + n + 1)
  {
    LineEnd(s, pos + 1, pos + n);
  }

  /** remove_line stops right after the first new-line. */
  lemma {:induction false} LineEnd(s: seq<char>, pos: nat, nl: nat)
    requires pos <= nl < |s| && s[nl] == '\n'
    requires forall k :: pos <= k < nl ==> s[k] != '\n'
    ensures RemoveLine(s, pos) == nl + 1
    decreases nl - pos
  {
    if pos < nl {
      LineEnd(s, pos + 1, nl);
    }
  }

  /* ------------------------------------------------------------------ */
  /*                                                   Decimal integers */
  /* ------------------------------------------------------------------ */

  /** The characters `isspace` accepts, which fscanf skips before a number. */
  predicate Space(c: char)
  {
    c == ' ' || c == '\t' || c == '\n' || c == '\U{B}' || c == '\U{C}' || c == '\r'
  }

  predicate IsDigit(c: char)
  {
    '0' <= c <= '9'
  }

  predicate AllDigits(d: string)
  {
    forall k :: 0 <= k < |d| ==> IsDigit(d[k])
  }

  /** The value of a string of decimal digits, most significant first. */
  function Value(d: string): int
    decreases |d|
  {
    if d == [] then 0 else Value(d[..|d| - 1]) * 10 + (d[|d| - 1] as int - '0' as int)
  }

  /** The decimal digits of `n` without leading zeros, as printf's %d writes them. */
  function Decimal(n: nat): (d: string)
    ensures d != [] && AllDigits(d)
    decreases n
  {
    if n < 10 then ['0' + n as char] else Decimal(n / 10) + ['0' + (n % 10) as char]
  }

  /** Printing then reading a natural number gives it back. */
  lemma {:induction false} DecimalValue(n: nat)
    ensures Value(Decimal(n)) == n
    decreases n
  {
    if n >= 10 {
      var d := Decimal(n);
      assert d[..|d| - 1] == Decimal(n / 10);
      DecimalValue(n / 10);
    }
  }

  /** The text %d prints for `n`, with a minus sign when negative. */
  function IntText(n: int): (t: string)
    ensures t != [] && (t[0] == '-' || IsDigit(t[0]))
  {
    if n < 0 then "-" + Decimal(-n) else Decimal(n)
  }

  /** The end of the run of digits starting at `pos`. */
  function DigitEnd(s: seq<char>, pos: nat): (r: nat)
    requires pos <= |s|
    ensures pos <= r <= |s|
    ensures r == |s| || !IsDigit(s[r])
    decreases |s| - pos
  {
    if pos < |s| && IsDigit(s[pos]) then DigitEnd(s, pos + 1) else pos
  }

  /**
   * fscanf "%d": skips white space, then reads a number. The result is the
   * value and the position after its last digit.
   */
  function ScanInt(s: seq<char>, pos: nat): (r: Option<(int, nat)>)
    requires pos <= |s|
    ensures r.Some? ==> pos < r.value.1 <= |s| && (r.value.1 == |s| || !IsDigit(s[r.value.1]))
    decreases |s| - pos
  {
    if pos < |s| && Space(s[pos]) then ScanInt(s, pos + 1) else Number(s, pos)
  }

  /** An optional sign and at least one digit. */
  function Number(s: seq<char>, p: nat): (r: Option<(int, nat)>)
    requires p <= |s|
    ensures r.Some? ==> p < r.value.1 <= |s| && (r.value.1 == |s| || !IsDigit(s[r.value.1]))
  {
    var signed := p < |s| && (s[p] == '-' || s[p] == '+');
    var q := if signed then p + 1 else p;
    var e := DigitEnd(s, q);
    if e == q then None
    else
      var m := Value(s[q..e]);
      var v := if signed && s[p] == '-' then -m else m;
      Some((v, e))
  }

  /** A run of digits is read in full. */
  lemma {:induction false} DigitRun(s: seq<char>, pos: nat, d: string)
    requires pos + |d| <= |s| && s[pos..pos + |d|] == d && AllDigits(d)
    requires pos + |d| == |s| || !IsDigit(s[pos + |d|])
    ensures DigitEnd(s, pos) == pos + |d|
    decreases |d|
  {
    if d != [] {
      assert s[pos] == d[0];
      assert s[pos + 1..pos + |d|] == d[1..];
      DigitRun(s, pos + 1, d[1..]);
    }
  }

  /** Unsigned digits are read as their value. */
  lemma NumberOfDigits(s: seq<char>, pos: nat, m: nat)
    requires pos + |Decimal(m)| <= |s| && s[pos..pos + |Decimal(m)|] == Decimal(m)
    requires pos + |Decimal(m)| == |s| || !IsDigit(s[pos + |Decimal(m)|])
    ensures Number(s, pos) == Some((m, pos + |Decimal(m)|))
  {
    var d := Decimal(m);
    assert IsDigit(s[pos]) by { assert s[pos] == d[0]; }
    DigitRun(s, pos, d);
    DecimalValue(m);
  }

  /** A minus sign and digits are read as the negated value. */
  lemma NumberOfNegative(s: seq<char>, pos: nat, m: nat)
    requires pos + 1 + |Decimal(m)| <= |s| && s[pos] == '-' && s[pos + 1..pos + 1 + |Decimal(m)|] == Decimal(m)
    requires pos + 1 + |Decimal(m)| == |s| || !IsDigit(s[pos + 1 + |Decimal(m)|])
    ensures Number(s, pos) == Some((-(m as int), pos + 1 + |Decimal(m)|))
  {
    DigitRun(s, pos + 1, Decimal(m));
    DecimalValue(m);
  }

  /** Reading a printed integer gives it back and stops right after it. */
  lemma ScanIntText(s: seq<char>, pos: nat, n: int)
    requires pos + |IntText(n)| <= |s| && s[pos..pos + |IntText(n)|] == IntText(n)
    requires pos + |IntText(n)| == |s| || !IsDigit(s[pos + |IntText(n)|])
    ensures ScanInt(s, pos) == Some((n, pos + |IntText(n)|))
  {
    var t := IntText(n);
    assert s[pos] == t[0];
    if n < 0 {
      var d := Decimal(-n);
      assert t == "-" + d;
      assert s[pos + 1..pos + 1 + |d|] == d by { assert t[1..] == d; }
      NumberOfNegative(s, pos, -n);
    } else {
      NumberOfDigits(s, pos, n);
    }
  }

  /* ------------------------------------------------------------------ */
  /*                                                            Header */
  /* ------------------------------------------------------------------ */

  /** A successfully read header and the position where the data starts. */
  datatype Head = Head(image: Image, dataStart: nat)

  /**
   * One meta field: at least one blank or comment character, then a
   * decimal integer; anything else is an invalid meta section.
   */
  function Field(s: seq<char>, pos: nat): (r: Result<(int, nat), int>)
    requires pos <= |s|
    ensures r.Ok? ==> pos < r.value.1 <= |s|
    ensures r.Err? ==> r.error == ErrInvMeta
    ensures pos < |s| && Solid(s[pos]) ==> r == Err(ErrInvMeta)
  {
    var b := RemoveBlanks(s, pos);
    if b == pos then Err(ErrInvMeta)
    else
      match ScanInt(s, b)
      case None => Err(ErrInvMeta)
      case Some((v, e)) => Ok((v, e))
  }

  /**
   * The header as the code reads it: the magic "P2" or "P5", then width,
   * height and maximum value, each after blanks, then exactly one blank.
   * The code's range check on the maximum value is no check at all (see
   * MaxCheckAsWritten), so this is everything vl_pgm_extract_head
   * verifies.
   */
  function HeadFields(s: seq<char>): (r: Result<Head, int>)
    ensures r.Err? ==> r.error == ErrInvHead || r.error == ErrInvMeta
    ensures r.Err? && r.error == ErrInvHead <==> |s| < 2 || s[0] != 'P' || (s[1] != '2' && s[1] != '5')
    ensures r.Ok? ==> |s| >= 2 && (r.value.image.isRaw <==> s[1] == '5')
    ensures r.Ok? ==> 2 < r.value.dataStart <= |s| && Blank(s[r.value.dataStart - 1])
  {
    if |s| < 2 || s[0] != 'P' || (s[1] != '2' && s[1] != '5') then Err(ErrInvHead)
    else
      var raw := s[1] == '5';
      match Field(s, 2)
      case Err(e) => Err(e)
      case Ok((w, p1)) =>
        match Field(s, p1)
        case Err(e) => Err(e)
        case Ok((h, p2)) =>
          match Field(s, p2)
          case Err(e) => Err(e)
          case Ok((m, p3)) =>
            if p3 < |s| && Blank(s[p3]) then Ok(Head(Image(w, h, m, raw), p3 + 1))
            else Err(ErrInvMeta)
  }

  /**
   * The range check `! max_value >= 65536` as written: `!` binds tighter
   * than `>=`, so it compares 0 or 1 with 65536 and never fails.
   */
  function MaxCheckAsWritten(maxValue: int): (rejects: bool)
    ensures !rejects
  {
    (if maxValue == 0 then 1 else 0) >= 65536
  }

  /** The as-written check lets every value through. */
  lemma MaxCheckNeverRejects(maxValue: int)
    ensures !MaxCheckAsWritten(maxValue)
  {
  }

  /** vl_pgm_extract_head as written: the header fields, with the no-op check. */
  function ExtractHeadAsWritten(s: seq<char>): (r: Result<Head, int>)
    ensures r == HeadFields(s)
  {
    match HeadFields(s)
    case Err(e) => Err(e)
    case Ok(hd) => if MaxCheckAsWritten(hd.image.maxValue) then Err(ErrInvMeta) else Ok(hd)
  }

  /**
   * vl_pgm_extract_head with the intended range check: a maximum value
   * that does not fit in two bytes is an invalid meta section.
   */
  function ExtractHead(s: seq<char>): (r: Result<Head, int>)
    ensures r.Ok? ==> HeadFields(s) == r && r.value.image.maxValue < 65536
    ensures r.Err? ==> HeadFields(s).Err? || HeadFields(s).value.image.maxValue >= 65536
  {
    match HeadFields(s)
    case Err(e) => Err(e)
    case Ok(hd) => if hd.image.maxValue >= 65536 then Err(ErrInvMeta) else Ok(hd)
  }

  /* ------------------------------------------------------------------ */
  /*                                                        Raw data */
  /* ------------------------------------------------------------------ */

  /** Exchanges the two bytes of every 16-bit pixel. */
  function SwapPairs(d: seq<char>): (r: seq<char>)
    requires |d| % 2 == 0
    ensures |r| == |d|
    decreases |d|
  {
    if d == [] then [] else [d[1], d[0]] + SwapPairs(d[2..])
  }

  /** Pixel `k` has its two bytes exchanged. */
  lemma {:induction false} SwapPairsAt(d: seq<char>, k: nat)
    requires |d| % 2 == 0 && 2 * k + 1 < |d|
    ensures SwapPairs(d)[2 * k] == d[2 * k + 1] && SwapPairs(d)[2 * k + 1] == d[2 * k]
    decreases k
  {
    if k > 0 {
      SwapPairsAt(d[2..], k - 1);
    }
  }

  /** Swapping twice restores the pixels. */
  lemma {:induction false} SwapPairsTwice(d: seq<char>)
    requires |d| % 2 == 0
    ensures SwapPairs(SwapPairs(d)) == d
    decreases |d|
  {
    if d != [] {
      var t := SwapPairs(d[2..]);
      assert (([d[1], d[0]] + t)[2..]) == t;
      SwapPairsTwice(d[2..]);
      assert d == [d[0], d[1]] + d[2..];
    }
  }

  /**
   * The raw path of vl_pgm_extract_data: reads DataSize items of Bpp bytes
   * from `pos`; fewer complete items than that is invalid data. Two-byte
   * pixels are byte-swapped when `swap` says the host is little-endian.
   */
  function ExtractData(s: seq<char>, pos: nat, im: Image, swap: bool): (r: Result<seq<char>, int>)
    requires pos <= |s| && im.isRaw
    ensures r.Err? <==> DataSize(im) < 0 || |s| - pos < Bpp(im) * DataSize(im)
    ensures r.Err? ==> r.error == ErrInvData
    ensures r.Ok? ==> |r.value| == Bpp(im) * DataSize(im)
    ensures r.Ok? && !(swap && Bpp(im) == 2) ==> r.value == s[pos..pos + Bpp(im) * DataSize(im)]
  {
    var size := DataSize(im);
    var n := Bpp(im) * size;
    if size < 0 || |s| - pos < n then Err(ErrInvData)
    else
      var raw := s[pos..pos + n];
      if swap && Bpp(im) == 2 then Ok(SwapPairs(raw)) else Ok(raw)
  }

  /* ------------------------------------------------------------------ */
  /*                                                           Writing */
  /* ------------------------------------------------------------------ */

  /** The preamble vl_pgm_insert prints: "P5\n<width>\n<height>\n<max>\n". */
  function Preamble(im: Image): (t: string)
    ensures |t| > 2 && t[..2] == "P5"
  {
    "P5" + ("\n" + IntText(im.width)) + ("\n" + IntText(im.height)) + ("\n" + IntText(im.maxValue)) + "\n"
  }

  /**
   * vl_pgm_insert: the preamble, then the pixels, byte-swapped first when
   * they take two bytes and `swap` says the host is little-endian.
   */
  function Insert(im: Image, data: seq<char>, swap: bool): (r: seq<char>)
    requires DataSize(im) >= 0 && |data| == Bpp(im) * DataSize(im)
    ensures |r| == |Preamble(im)| + |data|
    ensures r[..|Preamble(im)|] == Preamble(im)
  {
    Preamble(im) + (if swap && Bpp(im) == 2 then SwapPairs(data) else data)
  }

  /** A field printed as "\n<value>" is read back by Field. */
  lemma FieldOfText(s: seq<char>, pos: nat, n: int)
    requires pos + 1 + |IntText(n)| < |s|
    requires s[pos] == '\n' && s[pos + 1..pos + 1 + |IntText(n)|] == IntText(n)
    requires !IsDigit(s[pos + 1 + |IntText(n)|])
    ensures Field(s, pos) == Ok((n, pos + 1 + |IntText(n)|))
  {
    var t := IntText(n);
    assert Solid(s[pos + 1]) by { assert s[pos + 1] == t[0]; }
    assert RemoveBlanks(s, pos) == pos + 1;
    ScanIntText(s, pos + 1, n);
  }

  /** Where the preamble puts its fields: each after a new-line, with a final new-line. */
  predicate Laid(s: seq<char>, w: int, h: int, m: int)
  {
    var p1 := 3 + |IntText(w)|;
    var p2 := p1 + 1 + |IntText(h)|;
    var p3 := p2 + 1 + |IntText(m)|;
    p3 < |s| && s[0] == 'P' && s[1] == '5'
    && s[2] == '\n' && s[3..p1] == IntText(w)
    && s[p1] == '\n' && s[p1 + 1..p2] == IntText(h)
    && s[p2] == '\n' && s[p2 + 1..p3] == IntText(m)
    && s[p3] == '\n'
  }

  /** Anything starting with the preamble has its fields where Laid says. */
  lemma PreambleLaid(im: Image, tail: seq<char>)
    ensures Laid(Preamble(im) + tail, im.width, im.height, im.maxValue)
  {
    var tw, th, tm := IntText(im.width), IntText(im.height), IntText(im.maxValue);
    LaidPieces(tw, th, tm, tail, Preamble(im) + tail);
  }

  /** The three texts and their separators sit where Laid looks for them. */
  lemma LaidPieces(tw: seq<char>, th: seq<char>, tm: seq<char>, tail: seq<char>, s: seq<char>)
    requires s == "P5" + ("\n" + tw) + ("\n" + th) + ("\n" + tm) + "\n" + tail
    ensures 3 + |tw| + 1 + |th| + 1 + |tm| < |s| && s[0] == 'P' && s[1] == '5'
    ensures s[2] == '\n' && s[3..3 + |tw|] == tw
    ensures s[3 + |tw|] == '\n' && s[3 + |tw| + 1..3 + |tw| + 1 + |th|] == th
    ensures s[3 + |tw| + 1 + |th|] == '\n' && s[3 + |tw| + 1 + |th| + 1..3 + |tw| + 1 + |th| + 1 + |tm|] == tm
    ensures s[3 + |tw| + 1 + |th| + 1 + |tm|] == '\n'
  {
    var p1 := 3 + |tw|;
    var p2 := p1 + 1 + |th|;
    var p3 := p2 + 1 + |tm|;
    var rest := "\n" + th + "\n" + tm + "\n" + tail;
    assert s == "P5\n" + tw + rest;
    assert s[3..p1] == tw;
    var rest2 := "\n" + tm + "\n" + tail;
    assert s == ("P5\n" + tw + "\n") + th + rest2;
    assert s[p1 + 1..p2] == th;
    assert s == ("P5\n" + tw + "\n" + th + "\n") + tm + ("\n" + tail);
    assert s[p2 + 1..p3] == tm;
  }

  /** Fields laid out as the preamble lays them are read back. */
  lemma HeadOfLaid(s: seq<char>, im: Image)
    requires Laid(s, im.width, im.height, im.maxValue)
    ensures HeadFields(s) == Ok(Head(im.(isRaw := true), |Preamble(im)|))
  {
    var w, h, m := im.width, im.height, im.maxValue;
    var p1 := 3 + |IntText(w)|;
    var p2 := p1 + 1 + |IntText(h)|;
    var p3 := p2 + 1 + |IntText(m)|;
    LaidFields(s, w, h, m, p1, p2, p3);
    HeadOfFields(s, w, p1, h, p2, m, p3);
    var hd := Head(Image(w, h, m, true), p3 + 1);
    assert HeadFields(s) == Ok(hd);
    assert |Preamble(im)| == p3 + 1;
    assert hd == Head(im.(isRaw := true), |Preamble(im)|);
  }

  /** Each field Laid places reads back as its value, ending where the next begins. */
  lemma LaidFields(s: seq<char>, w: int, h: int, m: int, p1: nat, p2: nat, p3: nat)
    requires Laid(s, w, h, m)
    requires p1 == 3 + |IntText(w)| && p2 == p1 + 1 + |IntText(h)| && p3 == p2 + 1 + |IntText(m)|
    ensures p3 < |s| && s[0] == 'P' && s[1] == '5' && Blank(s[p3])
    ensures Field(s, 2) == Ok((w, p1))
    ensures Field(s, p1) == Ok((h, p2))
    ensures Field(s, p2) == Ok((m, p3))
  {
    var tw, th, tm := IntText(w), IntText(h), IntText(m);
    assert p3 < |s| && s[0] == 'P' && s[1] == '5';
    assert s[2] == '\n' && s[3..p1] == tw && s[p1] == '\n';
    assert s[p1 + 1..p2] == th && s[p2] == '\n';
    assert s[p2 + 1..p3] == tm && s[p3] == '\n';
    FieldOfText(s, 2, w);
    FieldOfText(s, p1, h);
    FieldOfText(s, p2, m);
  }

  /** A raw magic number and three good fields followed by a blank make a header. */
  lemma HeadOfFields(s: seq<char>, w: int, p1: nat, h: int, p2: nat, m: int, p3: nat)
    requires 2 <= p1 <= p2 <= p3 < |s| && s[0] == 'P' && s[1] == '5' && Blank(s[p3])
    requires Field(s, 2) == Ok((w, p1)) && Field(s, p1) == Ok((h, p2)) && Field(s, p2) == Ok((m, p3))
    ensures HeadFields(s) == Ok(Head(Image(w, h, m, true), p3 + 1))
  {
  }

  /**
   * Reading back what vl_pgm_insert writes recovers the image meta data,
   * marked raw, with the data starting right after the preamble; whatever
   * follows the written image does not matter.
   */
  lemma InsertHeadRoundTrip(im: Image, data: seq<char>, swap: bool, rest: seq<char>)
    requires DataSize(im) >= 0 && |data| == Bpp(im) * DataSize(im)
    ensures HeadFields(Insert(im, data, swap) + rest) == Ok(Head(im.(isRaw := true), |Preamble(im)|))
  {
    var body := if swap && Bpp(im) == 2 then SwapPairs(data) else data;
    var s := Insert(im, data, swap) + rest;
    assert s == Preamble(im) + (body + rest);
    PreambleLaid(im, body + rest);
    HeadOfLaid(s, im);
  }

  /**
   * The full round trip with the intended range check: a written image
   * with fewer than 65536 grey levels reads back with its meta data and
   * exactly its pixels.
   */
  lemma InsertRoundTrip(im: Image, data: seq<char>, swap: bool, rest: seq<char>)
    requires DataSize(im) >= 0 && |data| == Bpp(im) * DataSize(im) && im.maxValue < 65536
    ensures ExtractHead(Insert(im, data, swap) + rest) == Ok(Head(im.(isRaw := true), |Preamble(im)|))
    ensures ExtractData(Insert(im, data, swap) + rest, |Preamble(im)|, im.(isRaw := true), swap) == Ok(data)
  {
    InsertHeadRoundTrip(im, data, swap, rest);
    InsertDataRoundTrip(im, data, swap, rest);
  }

  /** The pixels written after the preamble read back unchanged. */
  lemma InsertDataRoundTrip(im: Image, data: seq<char>, swap: bool, rest: seq<char>)
    requires DataSize(im) >= 0 && |data| == Bpp(im) * DataSize(im)
    ensures ExtractData(Insert(im, data, swap) + rest, |Preamble(im)|, im.(isRaw := true), swap) == Ok(data)
  {
    var s := Insert(im, data, swap) + rest;
    var n := |Preamble(im)|;
    var ir := im.(isRaw := true);
    assert Bpp(ir) == Bpp(im) && DataSize(ir) == DataSize(im);
    assert Bpp(ir) * DataSize(ir) == |data|;
    if swap && Bpp(im) == 2 {
      assert |data| == 2 * DataSize(im);
      var body := SwapPairs(data);
      assert s == Preamble(im) + body + rest;
      assert s[n..n + |data|] == body;
      SwapPairsTwice(data);
      assert ExtractData(s, n, ir, swap) == Ok(SwapPairs(body));
    } else {
      assert s == Preamble(im) + data + rest;
      assert s[n..n + |data|] == data;
    }
  }

  /** A data section shorter than the header promises is invalid data. */
  lemma ShortRead(im: Image, data: seq<char>, swap: bool, k: nat)
    requires DataSize(im) > 0 && |data| == Bpp(im) * DataSize(im) && k < |data|
    ensures ExtractData(Insert(im, data, swap)[..|Preamble(im)| + k], |Preamble(im)|, im.(isRaw := true), swap)
      == Err(ErrInvData)
  {
  }

  /**
   * The finding at vl/pgm.c:220-223: the header of an image with 70000
   * grey levels, as vl_pgm_insert writes it, is accepted by the code as
   * written, with a two-byte pixel size that cannot hold such values;
   * the intended check rejects it.
   */
  lemma WideMaxAccepted(im: Image, data: seq<char>, swap: bool)
    requires im == Image(1, 1, 70000, true) && |data| == 2
    ensures ExtractHeadAsWritten(Insert(im, data, swap)) == Ok(Head(im, |Preamble(im)|))
    ensures Bpp(im) == 2 && im.maxValue >= 256 * 256
    ensures ExtractHead(Insert(im, data, swap)) == Err(ErrInvMeta)
  {
    InsertHeadRoundTrip(im, data, swap, []);
    assert Insert(im, data, swap) + [] == Insert(im, data, swap);
  }
}

=== FILE: random.dfy ===
/**
 * The MT19937 generator of vl/random.c: a state of 624 32-bit words plus
 * a read index, seeding from a word or from a key, the block regeneration
 * ("twist") and the output tempering. The source keeps the state in
 * globals; here it is a value passed in and returned.
 */
module Random {
  import opened Tempering

  const N: nat := 624
  const M: nat := 397
  const MatrixA: bv32 := 0x9908b0df
  const UpperMask: bv32 := 0x8000_0000
  const LowerMask: bv32 := 0x7fff_ffff
  /** The index value that marks a state that was never seeded. */
  const Unseeded: bv32 := 625
  const NWord: bv32 := 624

  /**
   * The generator state: mt holds N words, mti is the next word to read.
   * The index is kept as a 32-bit word, the type it is saved with.
   */
  datatype RandState = RandState(mt: seq<bv32>, mti: bv32)

  predicate Valid(s: RandState)
  {
    |s.mt| == N && s.mti <= 625
  }

  /** The state before any seeding. */
  function Initial(): (s: RandState)
    ensures Valid(s) && s.mti == Unseeded
  {
    RandState(seq(N, _ => 0), Unseeded)
  }

  /** The seeding recurrence: word i from word i-1 (Knuth's multiplier). */
  function SeedNext(prev: bv32, i: nat): bv32
    requires i < N
  {
    1812433253 * (prev ^ (prev >> 30)) + i as bv32
  }

  /** The words vl_rand_seed produces from the seed s. */
  predicate IsSeeded(mt: seq<bv32>, s: bv32)
  {
    |mt| == N && mt[0] == s && forall i :: 1 <= i < N ==> mt[i] == SeedNext(mt[i - 1], i)
  }

  /** A seed determines the whole seeded block. */
  lemma SeedDeterministic(a: seq<bv32>, b: seq<bv32>, s: bv32)
    requires IsSeeded(a, s) && IsSeeded(b, s)
    ensures a == b
  {
    var i := 1;
    while i < N
      invariant 1 <= i <= N && a[..i] == b[..i]
    {
      assert a[i] == b[i] by { assert a[i - 1] == b[i - 1] by { assert a[..i][i - 1] == b[..i][i - 1]; } }
      assert a[..i + 1] == a[..i] + [a[i]];
      assert b[..i + 1] == b[..i] + [b[i]];
      i := i + 1;
    }
    assert a == a[..N] && b == b[..N];
  }

  /** vl_rand_seed: mt[0] = s, the recurrence for the rest, mti = N. */
  method Seed(s: bv32) returns (st: RandState)
    ensures Valid(st) && st.mti == NWord && IsSeeded(st.mt, s)
  {
    var mt := [s];
    var i := 1;
    while i < N
      invariant 1 <= i <= N && |mt| == i && mt[0] == s
      invariant forall k :: 1 <= k < i ==> mt[k] == SeedNext(mt[k - 1], k)
    {
      mt := mt + [SeedNext(mt[i - 1], i)];
      i := i + 1;
    }
    st := RandState(mt, NWord);
  }

  /**
   * vl_rand_seed_by_array: seed with 19650218, mix the key in over
   * max(N, |key|) steps and N-1 further steps, then force the top bit of
   * mt[0] so that the state is never all zero.
   */
  method SeedByArray(key: seq<bv32>) returns (st: RandState)
    requires 1 <= |key| < 0x1_0000_0000
    ensures Valid(st) && st.mti == NWord
    ensures st.mt[0] == 0x8000_0000
  {
    var s0 := Seed(19650218);
    var mt := s0.mt;
    var i := 1;
    var j := 0;
    var k := if N > |key| then N else |key|;
    while k > 0
      invariant |mt| == N && 1 <= i < N && 0 <= j < |key|
    {
      mt := mt[i := (mt[i] ^ ((mt[i - 1] ^ (mt[i - 1] >> 30)) * 1664525)) + key[j] + j as bv32];
      i := i + 1;
      j := j + 1;
      if i >= N {
        mt := mt[0 := mt[N - 1]];
        i := 1;
      }
      if j >= |key| {
        j := 0;
      }
      k := k - 1;
    }
    k := N - 1;
    while k > 0
      invariant |mt| == N && 1 <= i < N
    {
      mt := mt[i := (mt[i] ^ ((mt[i - 1] ^ (mt[i - 1] >> 30)) * 1566083941)) - i as bv32];
      i := i + 1;
      if i >= N {
        mt := mt[0 := mt[N - 1]];
        i := 1;
      }
      k := k - 1;
    }
    mt := mt[0 := 0x8000_0000];
    st := RandState(mt, NWord);
  }

  /** vl_rand_get_state: the N words followed by the index. */
  function GetState(s: RandState): (r: seq<bv32>)
    requires Valid(s)
    ensures |r| == N + 1 && r[..N] == s.mt && r[N] == s.mti
  {
    s.mt + [s.mti]
  }

  /** vl_rand_set_state: the N words, and the index clamped to at most N. */
  function SetState(r: seq<bv32>): (s: RandState)
    requires |r| == N + 1
    ensures Valid(s) && s.mt == r[..N] && s.mti <= NWord
    ensures s.mti == if r[N] <= NWord then r[N] else NWord
  {
    RandState(r[..N], if r[N] <= NWord then r[N] else NWord)
  }

  /**
   * Saving and restoring reproduces the generator exactly when its index
   * is at most N; a never-seeded state comes back as a seeded one whose
   * block is exhausted.
   */
  lemma StateRoundTrip(s: RandState)
    requires Valid(s)
    ensures SetState(GetState(s)) == s <==> s.mti <= NWord
  {
    var r := GetState(s);
    assert r[..N] == s.mt;
  }

  /** One twist step: the top bit of `hi`, the low bits of `lo`, mixed into `far`. */
  function Mix(hi: bv32, lo: bv32, far: bv32): bv32
  {
    var y := (hi & UpperMask) | (lo & LowerMask);
    far ^ (y >> 1) ^ (if y & 1 == 1 then MatrixA else 0)
  }

  /**
   * The block regeneration of vl_rand_uint32, done in place: word k mixes
   * the old words k and k+1 with word k+M, where k+M past the end wraps
   * to a word already regenerated, and so does k+1 for the last word.
   */
  ghost predicate IsTwist<W>(mt: seq<W>, r: seq<W>, mix: (W, W, W) -> W)
  {
    && |mt| == N && |r| == N
    && (forall k :: 0 <= k < N - M ==> r[k] == mix(mt[k], mt[k + 1], mt[k + M]))
    && (forall k :: N - M <= k < N - 1 ==> r[k] == mix(mt[k], mt[k + 1], r[k + M - N]))
    && r[N - 1] == mix(mt[N - 1], r[0], r[M - 1])
  }

  /** A block determines its regeneration. */
  lemma TwistDeterministic<W>(mt: seq<W>, a: seq<W>, b: seq<W>, mix: (W, W, W) -> W)
    requires IsTwist(mt, a, mix) && IsTwist(mt, b, mix)
    ensures a == b
  {
    forall k | 0 <= k < N - M ensures a[k] == b[k] {
      assert a[k] == mix(mt[k], mt[k + 1], mt[k + M]);
    }
    var k := N - M;
    while k < N - 1
      invariant N - M <= k <= N - 1
      invariant forall i :: 0 <= i < k ==> a[i] == b[i]
    {
      assert a[k + M - N] == b[k + M - N];
      k := k + 1;
    }
  }

  method TwistLow<W(==)>(mt: seq<W>, mix: (W, W, W) -> W) returns (r: seq<W>)
    requires |mt| == N
    ensures |r| == N
    ensures forall k :: N - M <= k < N ==> r[k] == mt[k]
    ensures forall k :: 0 <= k < N - M ==> r[k] == mix(mt[k], mt[k + 1], mt[k + M])
  {
    r := mt;
    var kk := 0;
    while kk < N - M
      invariant 0 <= kk <= N - M && |r| == N
      invariant forall k :: kk <= k < N ==> r[k] == mt[k]
      invariant forall k :: 0 <= k < kk ==> r[k] == mix(mt[k], mt[k + 1], mt[k + M])
    {
      var v := mix(r[kk], r[kk + 1], r[kk + M]);
      r := r[kk := v];
      kk := kk + 1;
    }
  }

  method TwistHigh<W(==)>(mt: seq<W>, low: seq<W>, mix: (W, W, W) -> W) returns (r: seq<W>)
    requires |mt| == N && |low| == N
    requires forall k :: N - M <= k < N ==> low[k] == mt[k]
    ensures |r| == N && r[N - 1] == mt[N - 1]
    ensures forall k :: 0 <= k < N - M ==> r[k] == low[k]
    ensures forall k :: N - M <= k < N - 1 ==> r[k] == mix(mt[k], mt[k + 1], r[k + M - N])
  {
    r := low;
    var kk := N - M;
    while kk < N - 1
      invariant N - M <= kk <= N - 1 && |r| == N
      invariant forall k :: kk <= k < N ==> r[k] == mt[k]
      invariant forall k :: 0 <= k < N - M ==> r[k] == low[k]
      invariant forall k :: N - M <= k < kk ==> r[k] == mix(mt[k], mt[k + 1], r[k + M - N])
    {
      var v := mix(r[kk], r[kk + 1], r[kk + M - N]);
      r := r[kk := v];
      kk := kk + 1;
    }
  }

  /**
   * The regeneration loops, for any mixing step; the generator uses Mix.
   * Keeping the step abstract here separates the index bookkeeping from
   * the bit arithmetic.
   */
  method Twist<W(==)>(mt: seq<W>, mix: (W, W, W) -> W) returns (r: seq<W>)
    requires |mt| == N
    ensures IsTwist(mt, r, mix)
  {
    var low := TwistLow(mt, mix);
    var high := TwistHigh(mt, low, mix);
    r := high[N - 1 := mix(high[N - 1], high[0], high[M - 1])];
  }

  /** The word most recently consumed: the one just below the index. */
  function LastRead(s: RandState): bv32
    requires Valid(s) && 1 <= s.mti <= NWord
  {
    s.mt[s.mti as int - 1]
  }

  /**
   * vl_rand_uint32: an unseeded state is first seeded with 5489; when the
   * index has reached N the block is regenerated and the index restarts at
   * 0; then one word is consumed and tempered.
   */
  method UInt32(s: RandState) returns (s': RandState, y: bv32)
    requires Valid(s)
    ensures Valid(s') && 1 <= s'.mti <= NWord
    ensures y == Temper(LastRead(s'))
    ensures s.mti < NWord ==> s'.mt == s.mt && s'.mti == s.mti + 1
    ensures s.mti == NWord ==> IsTwist(s.mt, s'.mt, Mix) && s'.mti == 1
    ensures s.mti == Unseeded ==>
      (exists seeded :: IsSeeded(seeded, 5489) && IsTwist(seeded, s'.mt, Mix)) && s'.mti == 1
  {
    var mt := s.mt;
    var mti := s.mti;
    if mti >= NWord {
      if mti == Unseeded {
        var seeded := Seed(5489);
        mt := seeded.mt;
      }
      mt := Twist(mt, Mix);
      mti := 0;
    }
    y := Temper(mt[mti as int]);
    s' := RandState(mt, mti + 1);
  }

  /** The top 31 bits of a word: below 2^31, and with the low bit put back it is the word. */
  function Half(y: bv32): (r: bv32)
    ensures r < 0x8000_0000
    ensures (r << 1) | (y & 1) == y
  {
    y >> 1
  }

  /** vl_rand_int31: a uint32 draw shifted right by one, so below 2^31. */
  method Int31(s: RandState) returns (s': RandState, r: bv32)
    requires Valid(s)
    ensures Valid(s') && 1 <= s'.mti <= NWord && r < 0x8000_0000
    ensures r == Half(Temper(LastRead(s')))
  {
    var y;
    s', y := UInt32(s);
    r := Half(y);
  }
}

=== FILE: sift.dfy ===
/**
 * The integer side of the SIFT filter of vl/sift.c: the filter record
 * made by vl_sift_new, the octave state machine driven by
 * process_first_octave and process_next_octave, the octave sizes and
 * level offsets, the downsampling copy, the gradient cache, the guards
 * of the orientation and descriptor computations, the peak picking of
 * the orientation histogram and the keypoint buffer of vl_sift_detect.
 * Pixel values are reals; smoothing, the difference of Gaussians, the
 * sub-pixel refinement and the histograms themselves are parameters.
 */
module Sift {
  import opened MathOp
  import opened Wrappers
  import LocalExtrema
  import Compaction

  // ---------------------------------------------------------------------
  // Shifts and logarithms
  // ---------------------------------------------------------------------

  /** The arithmetic shift x >> k, as k halvings rounding down. */
  function Halve(x: int, k: nat): int
  {
    if k == 0 then x else Halve(x, k - 1) / 2
  }

  /** VL_SHIFT_LEFT(x, n): x << n, or the arithmetic shift x >> -n for negative n. */
  function ShiftLeft(x: int, n: int): int
  {
    if n >= 0 then x * Pow2(n) else Halve(x, -n)
  }

  lemma MulMono(a: int, b: int, c: int)
    requires a <= b && c >= 0
    ensures c * a <= c * b
  {
  }

  /** One halving step of the bounds below. */
  lemma HalveStep(x: int, p: nat, r': int, r: int)
    requires p * r' <= x < p * (r' + 1) && 2 * r <= r' <= 2 * r + 1
    ensures (2 * p) * r <= x < (2 * p) * (r + 1)
  {
    MulMono(2 * r, r', p);
    MulMono(r' + 1, 2 * r + 2, p);
  }

  /** The shift right divides by 2^k, rounding down. */
  lemma {:induction false} HalveBounds(x: int, k: nat)
    ensures Pow2(k) * Halve(x, k) <= x < Pow2(k) * (Halve(x, k) + 1)
    decreases k
  {
    if k > 0 {
      HalveBounds(x, k - 1);
      HalveStep(x, Pow2(k - 1), Halve(x, k - 1), Halve(x, k));
    }
  }

  lemma {:induction false} TimesDouble(r: nat, p: nat)
    ensures Times(2 * r, p) == Times(r, 2 * p)
    decreases r
  {
    if r > 0 {
      TimesDouble(r - 1, p);
      assert Times(2 * r, p) == Times(2 * r - 2, p) + p + p;
    }
  }

  /** The same bounds for a non-negative value, as repeated sums. */
  lemma {:induction false} HalveTimes(n: nat, k: nat)
    ensures Halve(n, k) >= 0
    ensures Times(Halve(n, k), Pow2(k)) <= n < Times(Halve(n, k), Pow2(k)) + Pow2(k)
    decreases k
  {
    if k > 0 {
      HalveTimes(n, k - 1);
      var r': nat, r: nat, p := Halve(n, k - 1), Halve(n, k), Pow2(k - 1);
      assert Pow2(k) == 2 * p && r' == 2 * r + (r' - 2 * r);
      TimesDouble(r, p);
      TimesAdd(2 * r, r' - 2 * r, p);
      assert Times(r' - 2 * r, p) <= p by {
        if r' > 2 * r {
          assert Times(1, p) == p;
        }
      }
      assert Times(r', p) == Times(r, Pow2(k)) + Times(r' - 2 * r, p);
    } else {
      TimesIs(n, 1);
    }
  }

  /** VL_SHIFT_LEFT by a negative n is division by 2^-n, rounding down. */
  lemma ShiftLeftIs(x: int, n: int)
    ensures n >= 0 ==> ShiftLeft(x, n) == x * Pow2(n)
    ensures n < 0 ==> Pow2(-n) * ShiftLeft(x, n) <= x < Pow2(-n) * (ShiftLeft(x, n) + 1)
  {
    if n < 0 {
      HalveBounds(x, -n);
    }
  }

  lemma {:induction false} Pow2Add(a: nat, b: nat)
    ensures Pow2(a + b) == Pow2(a) * Pow2(b)
    decreases b
  {
    if b > 0 {
      Pow2Add(a, b - 1);
      assert Pow2(a + b) == 2 * Pow2(a + b - 1);
    }
  }

  /** One position less of shift halves the result, rounding down. */
  lemma ShiftHalf(x: int, n: int)
    ensures ShiftLeft(x, n - 1) == ShiftLeft(x, n) / 2
  {
    if n >= 1 {
      assert Pow2(n) == 2 * Pow2(n - 1);
      assert x * Pow2(n) == (x * Pow2(n - 1)) * 2;
    }
  }

  /** On a non-negative value, shifting further left never gives less. */
  lemma {:induction false} ShiftMono(x: int, n: int, n': int)
    requires x >= 0 && n <= n'
    ensures 0 <= ShiftLeft(x, n) <= ShiftLeft(x, n')
    decreases n' - n
  {
    if n < n' {
      ShiftMono(x, n, n' - 1);
      ShiftHalf(x, n');
    } else if n >= 0 {
      MulMono(0, x, Pow2(n));
    } else {
      HalveTimes(x, -n);
    }
  }

  lemma {:induction false} HalveMono(x: int, y: int, k: nat)
    requires x <= y
    ensures Halve(x, k) <= Halve(y, k)
    decreases k
  {
    if k > 0 {
      HalveMono(x, y, k - 1);
    }
  }

  /** Shifting is monotone in the value. */
  lemma ShiftMonoValue(x: int, y: int, n: int)
    requires x <= y
    ensures ShiftLeft(x, n) <= ShiftLeft(y, n)
  {
    if n >= 0 {
      MulMono(x, y, Pow2(n));
    } else {
      HalveMono(x, y, -n);
    }
  }

  lemma {:induction false} HalvePow2(a: nat, k: nat)
    requires k <= a
    ensures Halve(Pow2(a), k) == Pow2(a - k)
    decreases k
  {
    if k > 0 {
      HalvePow2(a, k - 1);
      assert Pow2(a - k + 1) == 2 * Pow2(a - k);
    }
  }

  /** A power of two shifts to a power of two. */
  lemma ShiftPow2(a: nat, n: int)
    requires a + n >= 0
    ensures ShiftLeft(Pow2(a), n) == Pow2(a + n)
  {
    if n >= 0 {
      Pow2Add(a, n);
    } else {
      HalvePow2(a, -n);
    }
  }

  /** floor(log2 m) of a positive m. */
  function ILog2(m: nat): (k: nat)
    requires m >= 1
    decreases m
  {
    if m == 1 then 0 else 1 + ILog2(m / 2)
  }

  lemma {:induction false} ILog2Bounds(m: nat)
    requires m >= 1
    ensures Pow2(ILog2(m)) <= m < Pow2(ILog2(m) + 1)
    decreases m
  {
    if m > 1 {
      ILog2Bounds(m / 2);
    }
  }

  // ---------------------------------------------------------------------
  // The filter record
  // ---------------------------------------------------------------------

  /** A keypoint: octave, integer position and level, and the refined real position, level and scale. */
  datatype Keypoint = Keypoint(o: int, ix: int, iy: int, level: int, x: real, y: real, s: real, sigma: real)

  /** What a buffer entry holds before anything is written to it. */
  const Blank := Keypoint(0, 0, 0, 0, 0.0, 0.0, 0.0, 0.0)

  /** The content of a scale space or gradient buffer: octave o of image number image. */
  datatype Scale = Scale(image: nat, octave: int)

  datatype Status = Processed | Eof

  /**
   * The fields of VlSiftFilt that the integer logic reads and writes.
   * The pixel buffers are represented by their sizes, and the scale
   * space and gradient buffers also by which image and octave they
   * currently hold (None before any computation).
   */
  datatype Filter = Filter(
    width: int, height: int, numOctaves: int, numLevels: int,
    oMin: int, sMin: int, sMax: int, oCur: int,
    octaveWidth: int, octaveHeight: int,
    tempSize: int, octaveSize: int, dogSize: int, gradSize: int,
    keys: seq<Keypoint>, nkeys: nat, keysRes: nat,
    peakThresh: real, edgeThresh: real, normThresh: real, magnif: real,
    gradO: int, gss: Option<Scale>, grad: Option<Scale>)

  /** Pixels of the octave o_min, the largest one, for which the buffers are sized. */
  function BaseSize(width: int, height: int, oMin: int): int
  {
    ShiftLeft(width, -oMin) * ShiftLeft(height, -oMin)
  }

  /**
   * The number of octaves: as given, or for a negative request the
   * largest useful number, floor(log2(min(width, height))) - o_min - 3,
   * but at least one. log2 of a non-positive size is -infinity or NaN in
   * the C arithmetic, and VL_MAX then yields 1.
   */
  function NumOctaves(width: int, height: int, noctaves: int, oMin: int): (n: int)
    ensures noctaves >= 0 ==> n == noctaves
    ensures noctaves < 0 ==> n >= 1
  {
    if noctaves >= 0 then noctaves
    else if Min(width, height) >= 1 then Max(ILog2(Min(width, height)) - oMin - 3, 1)
    else 1
  }

  /** vl_sift_new: the filter for width x height images with the given scale space geometry. */
  function New(width: int, height: int, noctaves: int, nlevels: int, oMin: int): (f: Filter)
    ensures f.sMax - f.sMin == nlevels + 2 && f.oCur == f.oMin == oMin
    ensures f.octaveSize == BaseSize(width, height, oMin) * (nlevels + 3)
    ensures f.dogSize == BaseSize(width, height, oMin) * (nlevels + 2) && f.gradSize == 2 * f.dogSize
    ensures f.nkeys == 0 && f.keysRes == 0 && f.keys == []
  {
    var nel := BaseSize(width, height, oMin);
    Filter(
      width, height, NumOctaves(width, height, noctaves, oMin), nlevels,
      oMin, -1, nlevels + 1, oMin,
      0, 0,
      nel, nel * (nlevels + 3), nel * (nlevels + 2), nel * 2 * (nlevels + 2),
      [], 0, 0,
      0.0, 10.0, 0.0, 3.0,
      oMin - 1, None, None)
  }

  /**
   * With the number of octaves chosen from the image size, the last
   * octave, o_min + O - 1, is still at least 16 pixels on its shorter
   * side whenever more than one octave is used.
   */
  lemma LastOctaveSize(width: int, height: int, noctaves: int, nlevels: int, oMin: int)
    requires noctaves < 0 && Min(width, height) >= 1
    requires New(width, height, noctaves, nlevels, oMin).numOctaves > 1
    ensures ShiftLeft(Min(width, height), -(oMin + New(width, height, noctaves, nlevels, oMin).numOctaves - 1)) >= 16
  {
    var m := Min(width, height);
    var L := ILog2(m);
    ILog2Bounds(m);
    var last := oMin + New(width, height, noctaves, nlevels, oMin).numOctaves - 1;
    assert last == L as int - 4;
    ShiftMonoValue(Pow2(L), m, -last);
    ShiftPow2(L, -last);
    assert Pow2(4) == 16;
  }

  // ---------------------------------------------------------------------
  // Octaves and levels
  // ---------------------------------------------------------------------

  /** The size of octave o: VL_SHIFT_LEFT(size, -o). */
  function OctaveSide(size: int, o: int): int
  {
    ShiftLeft(size, -o)
  }

  /**
   * process_first_octave as written: restart from o_min with an empty
   * keypoint list; EOF when there are no octaves. The gradient cache
   * index grad_o is left as it was.
   */
  function FirstOctaveAsWritten(f: Filter, image: nat): (r: (Filter, Status))
    ensures r.0.oCur == f.oMin && r.0.nkeys == 0 && r.0.gradO == f.gradO
    ensures r.1 == Eof <==> f.numOctaves == 0
  {
    var g := f.(oCur := f.oMin, nkeys := 0,
                octaveWidth := OctaveSide(f.width, f.oMin), octaveHeight := OctaveSide(f.height, f.oMin));
    if f.numOctaves == 0 then (g, Eof) else (g.(gss := Some(Scale(image, f.oMin))), Processed)
  }

  /**
   * process_first_octave with the gradient cache invalidated: the new
   * image's octave o_min must not be mistaken for the previous image's.
   */
  function FirstOctave(f: Filter, image: nat): (r: (Filter, Status))
    ensures r.0.oCur == f.oMin && r.0.nkeys == 0 && r.0.gradO == f.oMin - 1
    ensures r.0.octaveWidth == OctaveSide(f.width, f.oMin) && r.0.octaveHeight == OctaveSide(f.height, f.oMin)
    ensures r.1 == Eof <==> f.numOctaves == 0
    ensures r.1 == Processed ==> r.0.gss == Some(Scale(image, f.oMin))
  {
    var g := FirstOctaveAsWritten(f, image).0.(gradO := f.oMin - 1);
    (g, FirstOctaveAsWritten(f, image).1)
  }

  /**
   * process_next_octave: EOF at the last octave o_min + O - 1; otherwise
   * the next octave, half the size, with an empty keypoint list.
   */
  function NextOctave(f: Filter): (r: (Filter, Status))
    ensures r.1 == Eof <==> f.oCur == f.oMin + f.numOctaves - 1
    ensures r.1 == Eof ==> r.0 == f
    ensures r.1 == Processed ==> r.0.oCur == f.oCur + 1 && r.0.nkeys == 0
  {
    if f.oCur == f.oMin + f.numOctaves - 1 then (f, Eof)
    else
      var o := f.oCur + 1;
      (f.(oCur := o, nkeys := 0,
          octaveWidth := OctaveSide(f.width, o), octaveHeight := OctaveSide(f.height, o),
          gss := if f.gss.Some? then Some(Scale(f.gss.value.image, o)) else None), Processed)
  }

  /** Each octave is half the previous one, rounded down. */
  lemma NextOctaveHalves(f: Filter)
    requires NextOctave(f).1 == Processed && f.octaveWidth == OctaveSide(f.width, f.oCur)
    requires f.octaveHeight == OctaveSide(f.height, f.oCur)
    ensures NextOctave(f).0.octaveWidth == f.octaveWidth / 2
    ensures NextOctave(f).0.octaveHeight == f.octaveHeight / 2
  {
    ShiftHalf(f.width, -f.oCur);
    ShiftHalf(f.height, -f.oCur);
  }

  /** The number of octaves that calls of process_next_octave succeed on, up to fuel calls. */
  function NextOctaves(f: Filter, fuel: nat): nat
    decreases fuel
  {
    if fuel == 0 || NextOctave(f).1 == Eof then 0 else 1 + NextOctaves(NextOctave(f).0, fuel - 1)
  }

  /** From octave o_cur within range, process_next_octave succeeds until o_min + O - 1. */
  lemma {:induction false} NextOctavesCount(f: Filter, fuel: nat)
    requires f.oMin <= f.oCur <= f.oMin + f.numOctaves - 1
    ensures NextOctaves(f, fuel) == Min(fuel, f.oMin + f.numOctaves - 1 - f.oCur)
    decreases fuel
  {
    if fuel > 0 && NextOctave(f).1 == Processed {
      NextOctavesCount(NextOctave(f).0, fuel - 1);
    }
  }

  /** After a successful first octave exactly O - 1 further octaves succeed: O octaves in all. */
  lemma AllOctaves(f: Filter, image: nat)
    requires f.numOctaves >= 0 && FirstOctave(f, image).1 == Processed
    ensures 1 + NextOctaves(FirstOctave(f, image).0, f.numOctaves) == f.numOctaves
  {
    NextOctavesCount(FirstOctave(f, image).0, f.numOctaves);
  }

  /** vl_sift_get_octave: level s of the current octave starts (s - s_min) whole images into the buffer. */
  function LevelOffset(f: Filter, s: int): int
  {
    (s - f.sMin) * (f.octaveWidth * f.octaveHeight)
  }

  lemma MulBoth(a: nat, b: nat, c: nat, d: nat)
    requires a <= c && b <= d
    ensures a * b <= c * d
  {
    assert a * b <= c * b;
    assert c * b <= c * d;
  }

  /** The octave sizes of a filter that the state machine has driven. */
  predicate Sized(f: Filter)
  {
    && f.width >= 0 && f.height >= 0 && f.oCur >= f.oMin && f.sMax >= f.sMin
    && f.octaveWidth == OctaveSide(f.width, f.oCur) && f.octaveHeight == OctaveSide(f.height, f.oCur)
    && f.octaveSize == BaseSize(f.width, f.height, f.oMin) * (f.sMax - f.sMin + 1)
  }

  /** Every level s_min..s_max of every octave lies inside the octave buffer. */
  lemma LevelFits(f: Filter, s: int)
    requires Sized(f) && f.sMin <= s <= f.sMax
    ensures 0 <= LevelOffset(f, s) && LevelOffset(f, s) + f.octaveWidth * f.octaveHeight <= f.octaveSize
  {
    ShiftMono(f.width, -f.oCur, -f.oMin);
    ShiftMono(f.height, -f.oCur, -f.oMin);
    var w, h := f.octaveWidth, f.octaveHeight;
    var nel := BaseSize(f.width, f.height, f.oMin);
    MulBoth(w, h, OctaveSide(f.width, f.oMin), OctaveSide(f.height, f.oMin));
    MulBoth(s - f.sMin + 1, w * h, f.sMax - f.sMin + 1, nel);
    assert LevelOffset(f, s) + w * h == (s - f.sMin + 1) * (w * h);
  }

  /** The first and next octave keep the octave sizes in step with o_cur. */
  lemma OctavesSized(f: Filter, image: nat)
    requires f.width >= 0 && f.height >= 0 && f.sMax >= f.sMin
    requires f.octaveSize == BaseSize(f.width, f.height, f.oMin) * (f.sMax - f.sMin + 1)
    ensures Sized(FirstOctave(f, image).0)
    ensures Sized(f) ==> Sized(NextOctave(f).0)
  {
  }

  // ---------------------------------------------------------------------
  // Downsampling
  // ---------------------------------------------------------------------

  /** The number of whole blocks of d in n: floor(n / d). */
  function Fit(n: nat, d: nat): nat
    requires d >= 1
    decreases n
  {
    if n < d then 0 else 1 + Fit(n - d, d)
  }

  /** Block i fits in n exactly when i < Fit(n, d). */
  lemma {:induction false} FitIff(n: nat, d: nat, i: nat)
    requires d >= 1
    ensures Times(i, d) + d <= n <==> i < Fit(n, d)
    decreases n
  {
    if n >= d && i > 0 {
      FitIff(n - d, d, i - 1);
    }
  }

  /** The number of blocks of d that start below n: ceil(n / d). */
  function Cover(n: nat, d: nat): nat
    requires d >= 1
    decreases n
  {
    if n == 0 then 0 else if n <= d then 1 else 1 + Cover(n - d, d)
  }

  /** Block i starts below n exactly when i < Cover(n, d). */
  lemma {:induction false} CoverIff(n: nat, d: nat, i: nat)
    requires d >= 1
    ensures Times(i, d) < n <==> i < Cover(n, d)
    decreases n
  {
    if n > d && i > 0 {
      CoverIff(n - d, d, i - 1);
    } else if i > 0 {
      TimesGap(0, i, d);
    }
  }

  /** Fit by a power of two is the shift right. */
  lemma FitIsShift(n: nat, k: nat)
    ensures Fit(n, Pow2(k)) == ShiftLeft(n, -(k as int))
  {
    var d := Pow2(k);
    var c := Fit(n, d);
    var r := ShiftLeft(n, -(k as int));
    FitIff(n, d, c);
    if c > 0 {
      FitIff(n, d, c - 1);
    }
    HalveTimes(n, k);
    TimesDigits(c, n - Times(c, d), r, n - Times(r, d), d);
  }

  /** The pixel at offset k, or 0 past the end, where the loops never read. */
  function At(src: seq<real>, k: nat): real
  {
    if k < |src| then src[k] else 0.0
  }

  /** Row y of the image sampled every d pixels, cols samples. */
  function Row(src: seq<real>, width: nat, d: nat, y: nat, cols: nat): (r: seq<real>)
    ensures |r| == cols
  {
    if cols == 0 then [] else Row(src, width, d, y, cols - 1) + [At(src, Times(y, width) + Times(cols - 1, d))]
  }

  lemma {:induction false} RowPixel(src: seq<real>, width: nat, d: nat, y: nat, cols: nat, i: nat)
    requires i < cols
    ensures Row(src, width, d, y, cols)[i] == At(src, Times(y, width) + Times(i, d))
    decreases cols
  {
    if i < cols - 1 {
      RowPixel(src, width, d, y, cols - 1, i);
    }
  }

  /** The rows 0, d, 2d, ... of the first r blocks, sampled every d pixels. */
  function Rows(src: seq<real>, width: nat, d: nat, cols: nat, r: nat): seq<real>
  {
    if r == 0 then [] else Rows(src, width, d, cols, r - 1) + Row(src, width, d, Times(r - 1, d), cols)
  }

  /** copy_and_downsample as written: every row whose index y, a multiple of 2^k, is below height. */
  function DownsampleAsWritten(src: seq<real>, width: nat, height: nat, k: nat): (r: seq<real>)
    ensures |r| == Times(Cover(height, Pow2(k)), Fit(width, Pow2(k)))
  {
    RowsLength(src, width, Pow2(k), Fit(width, Pow2(k)), Cover(height, Pow2(k)));
    Rows(src, width, Pow2(k), Fit(width, Pow2(k)), Cover(height, Pow2(k)))
  }

  /** copy_and_downsample as documented: floor(width / 2^k) by floor(height / 2^k) pixels. */
  function Downsample(src: seq<real>, width: nat, height: nat, k: nat): (r: seq<real>)
    ensures |r| == Times(Fit(height, Pow2(k)), Fit(width, Pow2(k)))
    ensures Sampled(r, src, width, Pow2(k), Fit(width, Pow2(k)), Fit(height, Pow2(k)))
  {
    var d, cols, rows := Pow2(k), Fit(width, Pow2(k)), Fit(height, Pow2(k));
    RowsLength(src, width, d, cols, rows);
    RowsSampled(src, width, d, cols, rows);
    Rows(src, width, d, cols, rows)
  }

  lemma RowsSampled(src: seq<real>, width: nat, d: nat, cols: nat, rows: nat)
    ensures Sampled(Rows(src, width, d, cols, rows), src, width, d, cols, rows)
  {
    forall j, i | 0 <= j < rows && 0 <= i < cols
      ensures Times(j, cols) + i < |Rows(src, width, d, cols, rows)|
      ensures Rows(src, width, d, cols, rows)[Times(j, cols) + i] == At(src, Times(Times(j, d), width) + Times(i, d))
    {
      RowsPixel(src, width, d, cols, rows, j, i);
    }
  }

  /** Sample i of row j of r is the pixel at column i * d of image row j * d. */
  predicate Sampled(r: seq<real>, src: seq<real>, width: nat, d: nat, cols: nat, rows: nat)
  {
    forall j, i :: 0 <= j < rows && 0 <= i < cols ==>
      Times(j, cols) + i < |r| && r[Times(j, cols) + i] == At(src, Times(Times(j, d), width) + Times(i, d))
  }

  lemma {:induction false} RowsLength(src: seq<real>, width: nat, d: nat, cols: nat, r: nat)
    ensures |Rows(src, width, d, cols, r)| == Times(r, cols)
    decreases r
  {
    if r > 0 {
      RowsLength(src, width, d, cols, r - 1);
    }
  }

  /** Sample i of row j is the pixel at column i * d of image row j * d. */
  lemma {:induction false} RowsPixel(src: seq<real>, width: nat, d: nat, cols: nat, r: nat, j: nat, i: nat)
    requires j < r && i < cols
    ensures Times(j, cols) + i < |Rows(src, width, d, cols, r)|
    ensures Rows(src, width, d, cols, r)[Times(j, cols) + i] == At(src, Times(Times(j, d), width) + Times(i, d))
    decreases r
  {
    var prev := Rows(src, width, d, cols, r - 1);
    var row := Row(src, width, d, Times(r - 1, d), cols);
    RowsLength(src, width, d, cols, r - 1);
    assert Rows(src, width, d, cols, r) == prev + row;
    if j < r - 1 {
      TimesGap(j, r - 1, cols);
      RowsPixel(src, width, d, cols, r - 1, j, i);
      assert (prev + row)[Times(j, cols) + i] == prev[Times(j, cols) + i];
    } else {
      RowPixel(src, width, d, Times(r - 1, d), cols, i);
      assert (prev + row)[Times(j, cols) + i] == row[i];
    }
  }

  /**
   * The documented copy has exactly the pixels of octave k, and every
   * sample it takes is inside the source image.
   */
  lemma DownsampleFits(src: seq<real>, width: nat, height: nat, k: nat, j: nat, i: nat)
    requires |src| == Times(height, width)
    ensures |Downsample(src, width, height, k)| == ShiftLeft(width, -(k as int)) * ShiftLeft(height, -(k as int))
    ensures j < Fit(height, Pow2(k)) && i < Fit(width, Pow2(k)) ==>
      Times(Times(j, Pow2(k)), width) + Times(i, Pow2(k)) < |src|
  {
    var d := Pow2(k);
    RowsLength(src, width, d, Fit(width, d), Fit(height, d));
    FitIsShift(width, k);
    FitIsShift(height, k);
    TimesIs(Fit(height, d), Fit(width, d));
    if j < Fit(height, d) && i < Fit(width, d) {
      FitIff(width, d, i);
      FitIff(height, d, j);
      SampleInside(width, height, d, j, i);
    }
  }

  /** A sample of row block j < rows and column block i with i * d + d <= width is inside the image. */
  lemma SampleInside(width: nat, height: nat, d: nat, j: nat, i: nat)
    requires d >= 1 && Times(i, d) + d <= width && Times(j, d) < height
    ensures Times(Times(j, d), width) + Times(i, d) < Times(height, width)
  {
    TimesGap(Times(j, d), height, width);
  }

  /**
   * As written, the copy also takes the partial last block of rows: a
   * 4 x 1 image downsampled once gives 2 pixels, while octave 1 of a
   * 4 x 1 image, and the octave buffer sized from it, has 0.
   */
  lemma DownsampleOverrun(src: seq<real>)
    requires |src| == 4
    ensures |DownsampleAsWritten(src, 4, 1, 1)| == 2
    ensures ShiftLeft(4, -1) * ShiftLeft(1, -1) == 0
  {
    assert Pow2(1) == 2;
    assert Fit(4, 2) == 2 && Cover(1, 2) == 1;
    RowsLength(src, 4, 2, 2, 1);
  }

  /** The inner loop: one row, a sample every d pixels while a whole block fits. */
  method CopyRow(src: seq<real>, width: nat, d: nat, y: nat) returns (row: seq<real>)
    requires d >= 1 && |src| >= Times(y, width) + width
    ensures row == Row(src, width, d, y, Fit(width, d))
  {
    row := [];
    var p := Times(y, width);
    var x := 0;
    ghost var i := 0;
    while x < width - (d - 1)
      invariant x == Times(i, d) && p == Times(y, width) + x
      invariant i <= Fit(width, d) && row == Row(src, width, d, y, i)
      decreases width - x
    {
      FitIff(width, d, i);
      row := row + [src[p]];
      p := p + d;
      x := x + d;
      i := i + 1;
    }
    FitIff(width, d, i);
  }

  /** copy_and_downsample as written: the outer loop runs while y < height. */
  method CopyAndDownsampleAsWritten(src: seq<real>, width: nat, height: nat, k: nat) returns (dst: seq<real>)
    requires |src| == Times(height, width)
    ensures dst == DownsampleAsWritten(src, width, height, k)
  {
    var d := Pow2(k);
    dst := [];
    var y := 0;
    ghost var r := 0;
    while y < height
      invariant y == Times(r, d) && r <= Cover(height, d)
      invariant dst == Rows(src, width, d, Fit(width, d), r)
      decreases height - y
    {
      CoverIff(height, d, r);
      TimesGap(y, height, width);
      var row := CopyRow(src, width, d, y);
      dst := dst + row;
      y := y + d;
      r := r + 1;
    }
    CoverIff(height, d, r);
  }

  /** copy_and_downsample as documented: the outer loop, like the inner one, takes whole blocks only. */
  method CopyAndDownsample(src: seq<real>, width: nat, height: nat, k: nat) returns (dst: seq<real>)
    requires |src| == Times(height, width)
    ensures dst == Downsample(src, width, height, k)
  {
    var d := Pow2(k);
    dst := [];
    var y := 0;
    ghost var r := 0;
    while y < height - (d - 1)
      invariant y == Times(r, d) && r <= Fit(height, d)
      invariant dst == Rows(src, width, d, Fit(width, d), r)
      decreases height - y
    {
      FitIff(height, d, r);
      TimesGap(y, height, width);
      var row := CopyRow(src, width, d, y);
      dst := dst + row;
      y := y + d;
      r := r + 1;
    }
    FitIff(height, d, r);
  }

  /**
   * The first level of the first octave for o_min >= 0: a plain copy at
   * o_min == 0, the documented downsampling above it. Upsampling for a
   * negative o_min is not part of this model (None).
   */
  method BaseLevel(im: seq<real>, width: nat, height: nat, oMin: int) returns (base: Option<seq<real>>)
    requires |im| == Times(height, width)
    ensures oMin < 0 <==> base == None
    ensures base.Some? ==> |base.value| == BaseSize(width, height, oMin)
  {
    if oMin < 0 {
      return None;
    }
    if oMin == 0 {
      TimesIs(height, width);
      return Some(im);
    }
    var dst := CopyAndDownsample(im, width, height, oMin);
    DownsampleFits(im, width, height, oMin, 0, 0);
    return Some(dst);
  }

  // ---------------------------------------------------------------------
  // The gradient cache
  // ---------------------------------------------------------------------

  /**
   * update_gradient: recompute the gradients of the current octave
   * unless grad_o says they are already there.
   */
  function UpdateGradient(f: Filter): (g: Filter)
    ensures g.gradO == g.oCur
    ensures f.gradO == f.oCur ==> g == f
  {
    if f.gradO == f.oCur then f else f.(gradO := f.oCur, grad := f.gss)
  }

  /** grad_o is never ahead of o_cur, and when equal the gradients are those of the current scale space. */
  predicate Synced(f: Filter)
  {
    f.gradO <= f.oCur && (f.gradO == f.oCur ==> f.grad == f.gss)
  }

  /** In a synchronised filter, the gradients in use are always those of the current scale space. */
  lemma UpdateGradientCurrent(f: Filter)
    requires Synced(f)
    ensures UpdateGradient(f).grad == f.gss && Synced(UpdateGradient(f))
  {
  }

  /** Every step of the state machine keeps the cache synchronised. */
  lemma StepsKeepSynced(f: Filter, image: nat)
    requires Synced(f)
    ensures Synced(FirstOctave(f, image).0)
    ensures Synced(NextOctave(f).0)
    ensures Synced(UpdateGradient(f))
  {
  }

  lemma NewSynced(width: int, height: int, noctaves: int, nlevels: int, oMin: int)
    ensures Synced(New(width, height, noctaves, nlevels, oMin))
  {
  }

  /**
   * As written, the first octave of a second image reuses the gradients
   * of the first image: with o_min == 0, an orientation computed on
   * image 1 sets grad_o to 0, and after process_first_octave of image 2
   * update_gradient finds grad_o == o_cur and keeps image 1's gradients.
   */
  lemma StaleGradients(f0: Filter)
    requires f0 == New(16, 16, 2, 3, 0)
    ensures
      var f1 := UpdateGradient(FirstOctaveAsWritten(f0, 1).0);
      var f2 := UpdateGradient(FirstOctaveAsWritten(f1, 2).0);
      f2.grad == Some(Scale(1, 0)) && f2.gss == Some(Scale(2, 0))
  {
  }

  /** With the corrected first octave, the same calls use image 2's gradients. */
  lemma FreshGradients(f0: Filter)
    requires f0 == New(16, 16, 2, 3, 0)
    ensures
      var f1 := UpdateGradient(FirstOctave(f0, 1).0);
      var f2 := UpdateGradient(FirstOctave(f1, 2).0);
      f2.grad == Some(Scale(2, 0)) && f2.gss == Some(Scale(2, 0))
  {
  }

  // ---------------------------------------------------------------------
  // Keypoint guards
  // ---------------------------------------------------------------------

  /** 2^o as a real, the pixel size of octave o. */
  function Xper(o: int): (r: real)
    ensures r > 0.0
  {
    if o >= 0 then Pow2(o) as real else 1.0 / Pow2(-o) as real
  }

  /** The integer coordinates (int)(x / xper + 0.5) used by both computations. */
  function Xi(f: Filter, k: Keypoint): int
  {
    Trunc(k.x / Xper(f.oCur) + 0.5)
  }

  function Yi(f: Filter, k: Keypoint): int
  {
    Trunc(k.y / Xper(f.oCur) + 0.5)
  }

  /** The keypoint may get orientations: current octave, position in the image, level s_min+1..s_max-2. */
  predicate OrientationOk(f: Filter, k: Keypoint)
  {
    && k.o == f.oCur
    && 0 <= Xi(f, k) <= f.octaveWidth - 1
    && 0 <= Yi(f, k) <= f.octaveHeight - 1
    && f.sMin + 1 <= k.level <= f.sMax - 2
  }

  /** The keypoint may get a descriptor: as above, but never on the last row. */
  predicate DescriptorOk(f: Filter, k: Keypoint)
  {
    && k.o == f.oCur
    && 0 <= Xi(f, k) < f.octaveWidth
    && 0 <= Yi(f, k) < f.octaveHeight - 1
    && f.sMin + 1 <= k.level <= f.sMax - 2
  }

  /** The descriptor guard is the stricter one. */
  lemma DescriptorGuardStricter(f: Filter, k: Keypoint)
    ensures DescriptorOk(f, k) ==> OrientationOk(f, k)
  {
  }

  /** On the last row a keypoint gets orientations but no descriptor. */
  lemma LastRowDiffers(f: Filter, k: Keypoint)
    requires f.oCur == 0 && f.octaveWidth == 4 && f.octaveHeight == 4 && f.sMin == -1 && f.sMax == 4
    requires k == Keypoint(0, 1, 3, 1, 1.0, 3.0, 1.0, 2.0)
    ensures OrientationOk(f, k) && !DescriptorOk(f, k)
  {
    assert Xper(0) == 1.0;
    assert Xi(f, k) == 1 && Yi(f, k) == 3;
  }

  /** Bins of the orientation histogram. */
  const NumBins: nat := 36

  /** The histogram maximum, starting from 0. */
  function MaxH(hist: seq<real>): (m: real)
    ensures m >= 0.0 && forall i :: 0 <= i < |hist| ==> hist[i] <= m
    decreases |hist|
  {
    if hist == [] then 0.0
    else
      var m := MaxH(hist[..|hist| - 1]);
      assert forall i :: 0 <= i < |hist| - 1 ==> hist[..|hist| - 1][i] == hist[i];
      if m < hist[|hist| - 1] then hist[|hist| - 1] else m
  }

  /** The maximum is 0 or one of the values. */
  lemma {:induction false} MaxHAttained(hist: seq<real>)
    ensures MaxH(hist) == 0.0 || exists i :: 0 <= i < |hist| && hist[i] == MaxH(hist)
    decreases |hist|
  {
    if hist != [] {
      var p := hist[..|hist| - 1];
      MaxHAttained(p);
      if MaxH(hist) != 0.0 && MaxH(hist) != hist[|hist| - 1] {
        var i :| 0 <= i < |p| && p[i] == MaxH(p);
        assert hist[i] == MaxH(hist);
      }
    }
  }

  /** Bin i is above 80% of the maximum and above both circular neighbours. */
  predicate IsPeak(hist: seq<real>, i: nat)
  {
    && |hist| == NumBins && i < NumBins
    && var h0 := hist[i];
       h0 > 0.8 * MaxH(hist) && h0 > hist[(i + NumBins - 1) % NumBins] && h0 > hist[(i + 1) % NumBins]
  }

  /** The peak test of a histogram, as a function of the bin. */
  function PeakOf(hist: seq<real>): nat -> bool
  {
    (i: nat) => IsPeak(hist, i)
  }

  /** The bins among i..n-1 that pass the test, in bin order. */
  function Peaks(peak: nat -> bool, i: nat, n: nat): seq<nat>
    decreases n - i
  {
    if i >= n then []
    else (if peak(i) then [i] else []) + Peaks(peak, i + 1, n)
  }

  /** The peaks found from bin i are exactly the passing bins from i on. */
  lemma {:induction false} PeaksMember(peak: nat -> bool, i: nat, n: nat, b: nat)
    ensures b in Peaks(peak, i, n) <==> i <= b < n && peak(b)
    decreases n - i
  {
    if i < n {
      PeaksMember(peak, i + 1, n, b);
    }
  }

  /** ... and come in increasing bin order. */
  lemma {:induction false} PeaksIncreasing(peak: nat -> bool, i: nat, n: nat)
    ensures forall a, b :: 0 <= a < b < |Peaks(peak, i, n)| ==> i <= Peaks(peak, i, n)[a] < Peaks(peak, i, n)[b]
    decreases n - i
  {
    if i < n {
      var rest := Peaks(peak, i + 1, n);
      var p := Peaks(peak, i, n);
      PeaksIncreasing(peak, i + 1, n);
      forall k | 0 <= k < |rest| ensures i < rest[k] {
        PeaksMember(peak, i + 1, n, rest[k]);
      }
      var here: seq<nat> := if peak(i) then [i] else [];
      assert p == here + rest;
      forall a, b | 0 <= a < b < |p| ensures i <= p[a] < p[b] {
        assert p[b] == rest[b - |here|];
        if a >= |here| {
          assert p[a] == rest[a - |here|];
        } else {
          assert p[a] == i;
        }
      }
    } else {
      assert Peaks(peak, i, n) == [];
    }
  }

  /** The first peaks, at most four. */
  function FirstFour(p: seq<nat>): (r: seq<nat>)
    ensures |r| <= 4 && r <= p
  {
    if |p| <= 4 then p else p[..4]
  }

  lemma Regroup<T>(a: seq<T>, b: seq<T>, c: seq<T>)
    ensures a + (b + c) == (a + b) + c
  {
  }

  /** The peak loop of vl_sift_calc_keypoint_orientations: the first peaks, at most four. */
  method PeakBins(hist: seq<real>) returns (bins: seq<nat>)
    requires |hist| == NumBins
    ensures bins == FirstFour(Peaks(PeakOf(hist), 0, |hist|))
  {
    ghost var peak := PeakOf(hist);
    bins := [];
    var i := 0;
    while i < |hist|
      invariant i <= |hist| && |bins| < 4
      invariant bins + Peaks(peak, i, |hist|) == Peaks(peak, 0, |hist|)
    {
      var here: seq<nat> := if IsPeak(hist, i) then [i] else [];
      assert peak(i) == IsPeak(hist, i);
      assert Peaks(peak, i, |hist|) == here + Peaks(peak, i + 1, |hist|);
      Regroup(bins, here, Peaks(peak, i + 1, |hist|));
      bins := bins + here;
      if |bins| == 4 {
        assert Peaks(peak, 0, |hist|)[..4] == bins;
        return;
      }
      i := i + 1;
    }
  }

  /** The first four passing bins pass, in order; when fewer than four, they are all of them. */
  lemma FirstFourExact(peak: nat -> bool, n: nat, bins: seq<nat>)
    requires bins == FirstFour(Peaks(peak, 0, n))
    ensures forall k :: 0 <= k < |bins| ==> bins[k] < n && peak(bins[k])
    ensures forall a, b :: 0 <= a < b < |bins| ==> bins[a] < bins[b]
    ensures |bins| < 4 ==> forall b: nat :: b < n && peak(b) ==> b in bins
  {
    var all := Peaks(peak, 0, n);
    PeaksIncreasing(peak, 0, n);
    forall k | 0 <= k < |bins| ensures bins[k] < n && peak(bins[k]) {
      assert bins[k] == all[k];
      PeaksMember(peak, 0, n, bins[k]);
    }
    if |bins| < 4 {
      forall b: nat | b < n && peak(b) ensures b in bins {
        PeaksMember(peak, 0, n, b);
      }
    }
  }

  /** The orientation bins reported are peaks, in order; when fewer than four, all the peaks are there. */
  lemma PeakBinsExact(hist: seq<real>, bins: seq<nat>)
    requires |hist| == NumBins && bins == FirstFour(Peaks(PeakOf(hist), 0, |hist|))
    ensures forall k :: 0 <= k < |bins| ==> IsPeak(hist, bins[k])
    ensures forall a, b :: 0 <= a < b < |bins| ==> bins[a] < bins[b]
    ensures |bins| < 4 ==> forall b: nat :: IsPeak(hist, b) ==> b in bins
  {
    FirstFourExact(PeakOf(hist), |hist|, bins);
    assert forall b :: PeakOf(hist)(b) == IsPeak(hist, b);
  }

  /**
   * vl_sift_calc_keypoint_orientations: no orientation for a keypoint
   * that fails the guard; otherwise the gradients are brought up to date
   * and the peaks of the smoothed histogram hist are the orientations.
   */
  method Orientations(f: Filter, k: Keypoint, hist: seq<real>) returns (f': Filter, bins: seq<nat>)
    requires |hist| == NumBins
    ensures !OrientationOk(f, k) ==> f' == f && bins == []
    ensures OrientationOk(f, k) ==> f' == UpdateGradient(f) && bins == FirstFour(Peaks(PeakOf(hist), 0, |hist|))
  {
    if !OrientationOk(f, k) {
      return f, [];
    }
    f' := UpdateGradient(f);
    bins := PeakBins(hist);
  }

  /** Entries of a descriptor: 8 orientations by 4 by 4 positions. */
  const DescriptorSize: nat := 128

  /**
   * vl_sift_calc_keypoint_descriptor: a keypoint that fails the guard
   * leaves the descriptor alone; otherwise the gradients are brought up
   * to date and all 128 entries are replaced by the computed ones.
   */
  function Descriptor(f: Filter, k: Keypoint, descr: seq<real>, computed: seq<real>): (r: (Filter, seq<real>))
    requires |computed| == DescriptorSize
    ensures !DescriptorOk(f, k) ==> r == (f, descr)
    ensures DescriptorOk(f, k) ==> r.0.gradO == f.oCur && |r.1| == DescriptorSize && r.1 == computed
  {
    if DescriptorOk(f, k) then (UpdateGradient(f), computed) else (f, descr)
  }

  // ---------------------------------------------------------------------
  // Detection in the current octave
  // ---------------------------------------------------------------------

  /**
   * The difference of Gaussians: each entry is the next level's pixel
   * minus this level's, over the levels - 1 consecutive level pairs of
   * a w x h octave.
   */
  method DifferenceOfGaussians(octave: seq<real>, w: nat, h: nat, levels: nat) returns (dog: seq<real>)
    requires levels >= 1 && |octave| == Cells(w, h, levels)
    ensures |dog| == Cells(w, h, levels - 1) && |dog| + Times(h, w) == |octave|
    ensures forall i :: 0 <= i < |dog| ==> dog[i] == octave[i + Times(h, w)] - octave[i]
  {
    var plane := Times(h, w);
    TimesAdd(Times(levels - 1, h), h, w);
    assert Times(levels, h) == Times(levels - 1, h) + h;
    dog := [];
    var i := 0;
    while i < Cells(w, h, levels - 1)
      invariant i <= Cells(w, h, levels - 1) && |dog| == i
      invariant forall j :: 0 <= j < i ==> dog[j] == octave[j + plane] - octave[j]
    {
      dog := dog + [octave[i + plane] - octave[i]];
      i := i + 1;
    }
  }

  /** The pixel is in the first d levels, and one level up is one plane further. */
  lemma {:induction false} NextLevelSlot(w: nat, h: nat, d: nat, x: nat, y: nat, z: nat)
    requires x < w && y < h && z < d
    ensures Slot(w, h, x, y, z) < Cells(w, h, d) && Slot(w, h, x, y, z + 1) < Cells(w, h, d + 1)
    ensures Slot(w, h, x, y, z + 1) == Slot(w, h, x, y, z) + Times(h, w)
  {
    SlotBelow(w, h, d, x, y, z);
    SlotBelow(w, h, d + 1, x, y, z + 1);
    SlotNext(w, h, x, y, z);
  }

  /** A pixel of the d-level DoG is the difference of the same pixel at levels z + 1 and z of the octave. */
  lemma {:induction false} DogAt(octave: seq<real>, dog: seq<real>, w: nat, h: nat, d: nat, x: nat, y: nat, z: nat)
    requires |octave| == Cells(w, h, d + 1) && |dog| == Cells(w, h, d) && |dog| + Times(h, w) == |octave|
    requires forall i :: 0 <= i < |dog| ==> dog[i] == octave[i + Times(h, w)] - octave[i]
    requires x < w && y < h && z < d
    ensures LocalExtrema.Value(dog, w, h, x, y, z) == LocalExtrema.Value(octave, w, h, x, y, z + 1) - LocalExtrema.Value(octave, w, h, x, y, z)
  {
    NextLevelSlot(w, h, d, x, y, z);
    var a := Slot(w, h, x, y, z);
    assert dog[a] == octave[a + Times(h, w)] - octave[a];
  }

  /** A stored candidate: the integer position and level of a DoG extremum; the other fields keep what the entry held. */
  predicate Stored(k: Keypoint, p: LocalExtrema.Point, sMin: int)
  {
    k.ix == p.x && k.iy == p.y && k.level == p.z + sMin
  }

  /**
   * The extremum loop's storage: the hits are written to the front of
   * the buffer in scan order, and when the buffer is full it grows by
   * 500 entries (Blank here: realloc leaves them undefined).
   */
  method StoreCandidates(keys: seq<Keypoint>, hits: seq<LocalExtrema.Point>, sMin: int) returns (keys': seq<Keypoint>)
    requires |keys| % 500 == 0
    ensures |hits| <= |keys'| && |keys'| % 500 == 0
    ensures |hits| <= |keys| ==> |keys'| == |keys|
    ensures |keys| < |hits| ==> |keys'| < |hits| + 500
    ensures forall i :: 0 <= i < |hits| ==> Stored(keys'[i], hits[i], sMin)
    ensures forall i :: |hits| <= i < |keys| ==> keys'[i] == keys[i]
  {
    keys' := keys;
    var n := 0;
    while n < |hits|
      invariant n <= |hits| && n <= |keys'| && |keys| <= |keys'| && |keys'| % 500 == 0
      invariant n <= |keys| ==> |keys'| == |keys|
      invariant |keys| < |keys'| ==> |keys'| < n + 500
      invariant forall i :: 0 <= i < n ==> Stored(keys'[i], hits[i], sMin)
      invariant forall i :: n <= i < |keys| ==> keys'[i] == keys[i]
    {
      if n >= |keys'| {
        keys' := keys' + seq(500, _ => Blank);
      }
      keys' := keys'[n := keys'[n].(ix := hits[n].x, iy := hits[n].y, level := hits[n].z + sMin)];
      n := n + 1;
    }
  }

  /** The refinement of one candidate, stamped with the current octave when it is kept. */
  function Refined(refine: Keypoint -> Option<Keypoint>, o: int): Keypoint -> Option<Keypoint>
  {
    k => match refine(k) case Some(r) => Some(r.(o := o)) case None => None
  }

  /** The DoG point a stored candidate stands for. */
  predicate AtExtremum(f: Filter, dog: seq<real>, k: Keypoint)
    requires f.octaveWidth >= 0 && f.octaveHeight >= 0 && f.sMax >= f.sMin
  {
    var w, h, d := f.octaveWidth, f.octaveHeight, f.sMax - f.sMin;
    k.ix >= 0 && k.iy >= 0 && k.level >= f.sMin
    && LocalExtrema.Interior3(w, h, d, LocalExtrema.Point(k.ix, k.iy, k.level - f.sMin))
    && LocalExtrema.Extremum(dog, w, h, 0.8 * f.peakThresh, LocalExtrema.Neighbours3, LocalExtrema.Point(k.ix, k.iy, k.level - f.sMin))
  }

  /** k is the refinement of a candidate stored for a DoG extremum. */
  ghost predicate FromExtremum(f: Filter, dog: seq<real>, refine: Keypoint -> Option<Keypoint>, k: Keypoint)
    requires f.octaveWidth >= 0 && f.octaveHeight >= 0 && f.sMax >= f.sMin
  {
    exists c :: AtExtremum(f, dog, c) && Refined(refine, f.oCur)(c) == Some(k)
  }

  /** Every refined keypoint comes from a stored candidate, and so from a DoG extremum. */
  lemma KeptAtExtrema(f: Filter, dog: seq<real>, refine: Keypoint -> Option<Keypoint>,
                      hits: seq<LocalExtrema.Point>, stored: seq<Keypoint>, keys: seq<Keypoint>, n: nat)
    requires f.octaveWidth >= 0 && f.octaveHeight >= 0 && f.sMax >= f.sMin
    requires hits == LocalExtrema.Hits3(dog, f.octaveWidth, f.octaveHeight, f.sMax - f.sMin, 0.8 * f.peakThresh)
    requires |hits| <= |stored| && forall i :: 0 <= i < |hits| ==> Stored(stored[i], hits[i], f.sMin)
    requires n <= |keys| && keys[..n] == Compaction.Kept(Refined(refine, f.oCur), stored[..|hits|])
    ensures forall j :: 0 <= j < n ==> keys[j].o == f.oCur
    ensures forall j :: 0 <= j < n ==> FromExtremum(f, dog, refine, keys[j])
  {
    var w, h, d := f.octaveWidth, f.octaveHeight, f.sMax - f.sMin;
    forall j | 0 <= j < n
      ensures keys[j].o == f.oCur
      ensures FromExtremum(f, dog, refine, keys[j])
    {
      assert keys[j] == keys[..n][j];
      var i := Compaction.KeptWitness(Refined(refine, f.oCur), stored[..|hits|], j);
      assert stored[i] == stored[..|hits|][i];
      LocalExtrema.Hits3Exactly(dog, w, h, d, 0.8 * f.peakThresh, hits[i]);
      assert AtExtremum(f, dog, stored[i]);
    }
  }

  /**
   * vl_sift_detect on the DoG of the current octave (levels s_min to
   * s_max - 1): the strict extrema of the interior beyond 0.8 times the
   * peak threshold become candidates, then each is refined in place and
   * the survivors are compacted to the front. The sub-pixel refinement
   * is the parameter refine.
   */
  method Detect(f: Filter, dog: seq<real>, refine: Keypoint -> Option<Keypoint>) returns (f': Filter, hits: seq<LocalExtrema.Point>)
    requires f.octaveWidth >= 0 && f.octaveHeight >= 0 && f.sMax >= f.sMin
    requires |dog| == Cells(f.octaveWidth, f.octaveHeight, f.sMax - f.sMin)
    requires |f.keys| == f.keysRes && f.keysRes % 500 == 0
    ensures hits == LocalExtrema.Hits3(dog, f.octaveWidth, f.octaveHeight, f.sMax - f.sMin, 0.8 * f.peakThresh)
    ensures f' == f.(keys := f'.keys, nkeys := f'.nkeys, keysRes := f'.keysRes)
    ensures |f'.keys| == f'.keysRes && f'.keysRes % 500 == 0 && f'.nkeys <= |hits| <= f'.keysRes
    ensures |hits| <= f.keysRes ==> f'.keysRes == f.keysRes
    ensures f.keysRes < |hits| ==> f'.keysRes < |hits| + 500
    ensures forall j :: 0 <= j < f'.nkeys ==> f'.keys[j].o == f.oCur
    ensures forall j :: 0 <= j < f'.nkeys ==> FromExtremum(f, dog, refine, f'.keys[j])
    ensures (forall c :: refine(c).Some?) ==> f'.nkeys == |hits|
  {
    var w, h, d := f.octaveWidth, f.octaveHeight, f.sMax - f.sMin;
    hits := LocalExtrema.Scan3(dog, w, h, d, 0.8 * f.peakThresh);
    var stored := StoreCandidates(f.keys, hits, f.sMin);
    var keys, n := Compaction.Compact(stored, |hits|, Refined(refine, f.oCur));
    f' := f.(keys := keys, nkeys := n, keysRes := |keys|);
    KeptAtExtrema(f, dog, refine, hits, stored, keys, n);
    if forall c :: refine(c).Some? {
      forall i | 0 <= i < |hits|
        ensures Refined(refine, f.oCur)(stored[..|hits|][i]).Some?
      {
        assert refine(stored[..|hits|][i]).Some?;
      }
      Compaction.KeptAll(Refined(refine, f.oCur), stored[..|hits|]);
      assert |keys[..n]| == n;
    }
  }
}

=== FILE: siftmex.dfy ===
/**
 * Helpers of the SIFT MEX interface (toolbox/sift/vl_sift.c): the
 * descriptor transpose, the scale ordering of input frames with its
 * sortedness check, and the quantization of descriptors to bytes.
 * Descriptor entries and frame coordinates are floating point in the
 * source and reals here.
 */
module SiftMex {
  import opened MathOp

  // ---------------------------------------------------------------------
  // Descriptor transpose
  // ---------------------------------------------------------------------

  /** Orientation bins (BO) and spatial bins per side (BP) of a SIFT descriptor. */
  const NumBinT: nat := 8
  const NumBinP: nat := 4
  const DescrSize: nat := 128

  /** Where entry (t, i, j) is stored: orientation fastest, then i, then j. */
  function Entry(t: nat, i: nat, j: nat): nat
  {
    t + NumBinT * i + NumBinP * NumBinT * j
  }

  /** The orientation of the transposed entry: (8 - t) mod 8. */
  function Rot(t: nat): (u: nat)
    requires t < NumBinT
    ensures u < NumBinT && u == (NumBinT - t) % NumBinT
  {
    if t == 0 then 0 else NumBinT - t
  }

  /** Entries of different bins are stored at different places, all below 128. */
  lemma EntryInjective(t: nat, i: nat, j: nat, t': nat, i': nat, j': nat)
    requires t < NumBinT && i < NumBinP && j < NumBinP && t' < NumBinT && i' < NumBinP && j' < NumBinP
    ensures Entry(t, i, j) < DescrSize
    ensures Entry(t, i, j) == Entry(t', i', j') ==> t == t' && i == i' && j == j'
  {
  }

  /** Every index below 128 is the entry of one bin. */
  lemma EntryOf(k: nat) returns (t: nat, i: nat, j: nat)
    requires k < DescrSize
    ensures t < NumBinT && i < NumBinP && j < NumBinP && Entry(t, i, j) == k
  {
    t, i, j := k % 8, (k / 8) % 4, k / 32;
  }

  /** The transpose moves entry (t, i, j) to ((8 - t) mod 8, i, 3 - j). */
  predicate Transposed(src: seq<real>, dst: seq<real>)
    requires |src| == |dst| == DescrSize
  {
    forall t: nat, i: nat, j: nat :: t < NumBinT && i < NumBinP && j < NumBinP ==>
      dst[Entry(Rot(t), i, NumBinP - 1 - j)] == src[Entry(t, i, j)]
  }

  /** The entries before n, in the order the loops visit them, are already in place. */
  predicate MovedBelow(src: seq<real>, dst: seq<real>, n: nat)
    requires |src| == |dst| == DescrSize
  {
    forall t: nat, i: nat, j: nat :: t < NumBinT && i < NumBinP && j < NumBinP && Entry(t, i, j) < n ==>
      dst[Entry(Rot(t), i, NumBinP - 1 - j)] == src[Entry(t, i, j)]
  }

  /**
   * transpose_descriptor: entry (t, i, j) moves to ((8 - t) mod 8, i, 3 - j),
   * which is the descriptor of the transposed image.
   */
  method TransposeDescriptor(src: seq<real>) returns (dst: seq<real>)
    requires |src| == DescrSize
    ensures |dst| == DescrSize && Transposed(src, dst)
  {
    dst := seq(DescrSize, _ => 0.0);
    var j := 0;
    while j < NumBinP
      invariant 0 <= j <= NumBinP && |dst| == DescrSize
      invariant MovedBelow(src, dst, Entry(0, 0, j))
    {
      var jp := NumBinP - 1 - j;
      var i := 0;
      while i < NumBinP
        invariant 0 <= i <= NumBinP && |dst| == DescrSize
        invariant MovedBelow(src, dst, Entry(0, i, j))
      {
        var op := NumBinT * i + NumBinP * NumBinT * jp;
        dst := MoveEntry(src, dst, 0, i, j, op, op);
        var t := 1;
        while t < NumBinT
          invariant 1 <= t <= NumBinT && |dst| == DescrSize
          invariant MovedBelow(src, dst, Entry(t, i, j))
        {
          dst := MoveEntry(src, dst, t, i, j, op, NumBinT - t + op);
          t := t + 1;
        }
        i := i + 1;
      }
      j := j + 1;
    }
  }

  /** One assignment of the transpose loop: entry (t, i, j) of src is written at position p. */
  method MoveEntry(src: seq<real>, dst0: seq<real>, t: nat, i: nat, j: nat, op: nat, p: nat)
    returns (dst: seq<real>)
    requires |src| == |dst0| == DescrSize && t < NumBinT && i < NumBinP && j < NumBinP
    requires op == NumBinT * i + NumBinP * NumBinT * (NumBinP - 1 - j)
    requires p == (if t == 0 then op else NumBinT - t + op)
    requires MovedBelow(src, dst0, Entry(t, i, j))
    ensures |dst| == DescrSize && MovedBelow(src, dst, Entry(t, i, j) + 1)
  {
    EntryInjective(Rot(t), i, NumBinP - 1 - j, 0, 0, 0);
    assert p == Entry(Rot(t), i, NumBinP - 1 - j);
    dst := dst0[p := src[Entry(t, i, j)]];
    forall t': nat, i': nat, j': nat | t' < NumBinT && i' < NumBinP && j' < NumBinP && Entry(t', i', j') < Entry(t, i, j) + 1
      ensures dst[Entry(Rot(t'), i', NumBinP - 1 - j')] == src[Entry(t', i', j')]
    {
      EntryInjective(Rot(t'), i', NumBinP - 1 - j', Rot(t), i, NumBinP - 1 - j);
      EntryInjective(t', i', j', t, i, j);
    }
  }

  /** Rotating an orientation twice gives it back. */
  lemma RotInvolution(t: nat)
    requires t < NumBinT
    ensures Rot(Rot(t)) == t
  {
  }

  /** Every slot of the transposed descriptor receives the entry of some bin. */
  lemma TransposeOnto(d: nat) returns (t: nat, i: nat, j: nat)
    requires d < DescrSize
    ensures t < NumBinT && i < NumBinP && j < NumBinP && Entry(Rot(t), i, NumBinP - 1 - j) == d
  {
    var u, v, w := EntryOf(d);
    t, i, j := Rot(u), v, NumBinP - 1 - w;
    RotInvolution(u);
  }

  /** ... and of only one: different bins go to different slots. */
  lemma TransposeInjective(t: nat, i: nat, j: nat, t': nat, i': nat, j': nat)
    requires t < NumBinT && i < NumBinP && j < NumBinP && t' < NumBinT && i' < NumBinP && j' < NumBinP
    requires Entry(Rot(t), i, NumBinP - 1 - j) == Entry(Rot(t'), i', NumBinP - 1 - j')
    ensures t == t' && i == i' && j == j'
  {
    EntryInjective(Rot(t), i, NumBinP - 1 - j, Rot(t'), i', NumBinP - 1 - j');
    RotInvolution(t);
    RotInvolution(t');
  }

  /** Transposing twice restores the descriptor. */
  lemma TransposeTwice(src: seq<real>, mid: seq<real>, dst: seq<real>)
    requires |src| == |mid| == |dst| == DescrSize
    requires Transposed(src, mid) && Transposed(mid, dst)
    ensures dst == src
  {
    forall k | 0 <= k < DescrSize
      ensures dst[k] == src[k]
    {
      var t, i, j := EntryOf(k);
      RotInvolution(t);
      assert dst[Entry(Rot(Rot(t)), i, NumBinP - 1 - (NumBinP - 1 - j))] == mid[Entry(Rot(t), i, NumBinP - 1 - j)];
    }
  }

  // ---------------------------------------------------------------------
  // Frames ordered by scale
  // ---------------------------------------------------------------------

  /** A frame of the 'Frames' option: a column (x, y, sigma, angle). */
  datatype Frame = Frame(x: real, y: real, sigma: real, angle: real)

  /** korder: the sign of the difference of the scales. */
  function KOrder(a: Frame, b: Frame): (c: int)
    ensures c == -1 || c == 0 || c == 1
    ensures c < 0 <==> a.sigma < b.sigma
    ensures c > 0 <==> a.sigma > b.sigma
  {
    var x := a.sigma - b.sigma;
    if x < 0.0 then -1 else if x > 0.0 then 1 else 0
  }

  /** korder is a consistent three-way comparison: antisymmetric and transitive. */
  lemma KOrderTotal(a: Frame, b: Frame, c: Frame)
    ensures KOrder(a, b) == -KOrder(b, a)
    ensures KOrder(a, b) <= 0 && KOrder(b, c) <= 0 ==> KOrder(a, c) <= 0
  {
  }

  /** The frames' scales never decrease from one frame to the next. */
  predicate ScaleSorted(keys: seq<Frame>)
  {
    forall k :: 0 <= k < |keys| - 1 ==> keys[k].sigma <= keys[k + 1].sigma
  }

  /** check_sorted: the first out-of-order pair of neighbours makes it false. */
  method CheckSorted(keys: seq<Frame>) returns (sorted: bool)
    ensures sorted <==> ScaleSorted(keys)
  {
    var k := 0;
    while k + 1 < |keys|
      invariant 0 <= k <= |keys| || |keys| == 0
      invariant forall m :: 0 <= m < k && m < |keys| - 1 ==> keys[m].sigma <= keys[m + 1].sigma
    {
      if KOrder(keys[k], keys[k + 1]) > 0 {
        return false;
      }
      k := k + 1;
    }
    return true;
  }

  /** Sorted by neighbours means sorted between any two frames. */
  lemma {:induction false} SortedPairwise(keys: seq<Frame>, i: nat, j: nat)
    requires ScaleSorted(keys) && i <= j < |keys|
    ensures keys[i].sigma <= keys[j].sigma
    decreases j - i
  {
    if i < j {
      SortedPairwise(keys, i, j - 1);
    }
  }

  /** f placed before the first frame of larger scale. */
  function InsertByScale(f: Frame, keys: seq<Frame>): (r: seq<Frame>)
    ensures multiset(r) == multiset(keys) + multiset{f}
    ensures |r| == |keys| + 1
  {
    if keys == [] || f.sigma <= keys[0].sigma then [f] + keys
    else
      assert keys == [keys[0]] + keys[1..];
      [keys[0]] + InsertByScale(f, keys[1..])
  }

  lemma {:induction false} InsertSorted(f: Frame, keys: seq<Frame>)
    requires ScaleSorted(keys)
    ensures ScaleSorted(InsertByScale(f, keys))
    ensures |keys| > 0 ==> InsertByScale(f, keys)[0].sigma == (if f.sigma <= keys[0].sigma then f.sigma else keys[0].sigma)
    decreases |keys|
  {
    if keys != [] && f.sigma > keys[0].sigma {
      InsertSorted(f, keys[1..]);
      var r := InsertByScale(f, keys[1..]);
      assert InsertByScale(f, keys) == [keys[0]] + r;
      if |keys| > 1 {
        assert keys[0].sigma <= keys[1].sigma;
      }
    }
  }

  /**
   * The qsort call with korder: frames in non-decreasing scale. qsort
   * leaves the order of equal scales unspecified; this insertion sort
   * is one admissible outcome.
   */
  function SortByScale(keys: seq<Frame>): (r: seq<Frame>)
    decreases |keys|
  {
    if keys == [] then [] else InsertByScale(keys[0], SortByScale(keys[1..]))
  }

  lemma {:induction false} SortByScaleSorts(keys: seq<Frame>)
    ensures ScaleSorted(SortByScale(keys)) && multiset(SortByScale(keys)) == multiset(keys)
    decreases |keys|
  {
    if keys != [] {
      SortByScaleSorts(keys[1..]);
      InsertSorted(keys[0], SortByScale(keys[1..]));
      assert keys == [keys[0]] + keys[1..];
    }
  }

  /** The 'Frames' option: frames already in scale order are kept as given, others are sorted. */
  method PrepareFrames(keys: seq<Frame>) returns (r: seq<Frame>)
    ensures ScaleSorted(r) && multiset(r) == multiset(keys)
    ensures ScaleSorted(keys) ==> r == keys
  {
    var sorted := CheckSorted(keys);
    if sorted {
      r := keys;
    } else {
      SortByScaleSorts(keys);
      r := SortByScale(keys);
    }
  }

  // ---------------------------------------------------------------------
  // Quantization
  // ---------------------------------------------------------------------

  /**
   * A descriptor entry as a byte: 512 v, capped at 255, truncated. The
   * cast of a negative float to vl_uint8 is undefined in C; descriptor
   * entries are never negative.
   */
  function Quantize(v: real): (q: int)
    requires v >= 0.0
    ensures 0 <= q <= 255
    ensures 512.0 * v < 255.0 ==> q as real <= 512.0 * v < q as real + 1.0
    ensures 512.0 * v >= 255.0 ==> q == 255
  {
    var x := 512.0 * v;
    var x := if x < 255.0 then x else 255.0;
    Trunc(x)
  }

  /** Quantization keeps the order of entries. */
  lemma QuantizeMonotone(v: real, w: real)
    requires 0.0 <= v <= w
    ensures Quantize(v) <= Quantize(w)
  {
  }

  /** Quantization is exact on the multiples of 1/512 that fit in a byte. */
  lemma QuantizeExact(n: nat)
    requires n <= 255
    ensures Quantize(n as real / 512.0) == n
  {
  }

  /** The byte descriptor: every entry quantized. */
  function QuantizeDescriptor(d: seq<real>): (q: seq<int>)
    requires forall j :: 0 <= j < |d| ==> d[j] >= 0.0
    ensures |q| == |d| && forall j :: 0 <= j < |d| ==> 0 <= q[j] <= 255 && q[j] == Quantize(d[j])
  {
    seq(|d|, j requires 0 <= j < |d| => Quantize(d[j]))
  }
}

=== FILE: stringop.dfy ===
/**
 * The string utilities of vl/stringop.c.
 *
 * A C string is modelled by the characters before its terminating NUL, so
 * such a string never contains '\0'. A destination buffer of capacity `n`
 * is modelled by what a call leaves in it: nothing when `n <= 0`, else the
 * text before the NUL it writes.
 */
module StringOp {
  import opened Wrappers

  /* Protocol codes (vl/stringop.h). */
  const ProtUnknown: int := -1
  const ProtNone: int := 0
  const ProtAscii: int := 1
  const ProtBinary: int := 2

  predicate NoNul(s: string)
  {
    forall i :: 0 <= i < |s| ==> s[i] != '\0'
  }

  /** What a bounded write leaves in a destination buffer. */
  datatype Buffer = Untouched | Terminated(text: string)

  /** The first `cap` characters of `s`, or all of them when it is shorter. */
  function Truncate(s: string, cap: int): (r: string)
    ensures r <= s
    ensures |r| == if |s| <= cap then |s| else Max(cap, 0)
  {
    if |s| <= cap then s else s[..Max(cap, 0)]
  }

  /** Truncation keeps everything exactly when everything fits. */
  lemma TruncateWhole(s: string, cap: int)
    ensures cap >= 0 ==> (Truncate(s, cap) == s <==> |s| <= cap)
  {
  }

  /** Appending a character appends to the truncation exactly while there is room. */
  lemma TruncateSnoc(s: string, c: char, cap: int)
    ensures Truncate(s + [c], cap) == if |s| < cap then Truncate(s, cap) + [c] else Truncate(s, cap)
  {
    if |s| >= cap {
      assert (s + [c])[..Max(cap, 0)] == s[..Max(cap, 0)];
    }
  }

  /** A bounded write of `out` into capacity `n`: at most n-1 characters, then NUL. */
  function Bounded(out: string, n: int): Buffer
  {
    if n <= 0 then Untouched else Terminated(Truncate(out, n - 1))
  }

  /** The characters of `s` before its first NUL. */
  function UntilNul(s: seq<char>): (r: string)
    ensures NoNul(r) && r <= s
    ensures |r| < |s| ==> s[|r|] == '\0'
  {
    if s == [] || s[0] == '\0' then [] else [s[0]] + UntilNul(s[1..])
  }

  /* ------------------------------------------------------------------ */
  /*                                                      Bounded copies */
  /* ------------------------------------------------------------------ */

  /**
   * vl_string_copy: the result is always the source length; the buffer holds
   * the whole source exactly when that length is below the capacity.
   */
  method Copy(n: int, src: string) returns (buf: Buffer, k: int)
    requires NoNul(src)
    ensures k == |src|
    ensures buf == Bounded(src, n)
    ensures n > 0 ==> buf.Terminated? && buf.text <= src && (buf.text == src <==> k < n)
    ensures n <= 0 ==> buf == Untouched
  {
    var out: string := [];
    k := 0;
    while k < |src|
      invariant 0 <= k <= |src|
      invariant out == Truncate(src[..k], n - 1)
    {
      TruncateSnoc(src[..k], src[k], n - 1);
      assert src[..k + 1] == src[..k] + [src[k]];
      if k < n - 1 {
        out := out + [src[k]];
      }
      k := k + 1;
    }
    assert src[..k] == src;
    buf := if n > 0 then Terminated(out) else Untouched;
  }

  /**
   * vl_string_copy_sub: copies src[beg..end) but stops early at a NUL, with
   * the same truncation report as Copy.
   */
  method CopySub(n: int, src: seq<char>, beg: nat, end: nat) returns (buf: Buffer, k: int)
    requires beg <= end <= |src|
    ensures k == |UntilNul(src[beg..end])|
    ensures buf == Bounded(UntilNul(src[beg..end]), n)
    ensures n > 0 ==> (buf == Terminated(UntilNul(src[beg..end])) <==> k < n)
  {
    var s := src[beg..end];
    var out: string := [];
    k := 0;
    while k < |s| && s[k] != '\0'
      invariant 0 <= k <= |s|
      invariant s[..k] <= UntilNul(s)
      invariant out == Truncate(s[..k], n - 1)
    {
      assert s[..k + 1] <= UntilNul(s) by { PrefixExtends(s, k); }
      assert Truncate(s[..k + 1], n - 1) == if k < n - 1 then out + [s[k]] else out by {
        assert s[..k + 1] == s[..k] + [s[k]];
        TruncateSnoc(s[..k], s[k], n - 1);
      }
      if k < n - 1 {
        out := out + [s[k]];
      }
      k := k + 1;
    }
    assert s[..k] == UntilNul(s) by { PrefixStops(s, k); }
    TruncateWhole(s[..k], n - 1);
    buf := if n > 0 then Terminated(out) else Untouched;
  }

  /** A NUL-free prefix of `s` that is followed by a non-NUL extends by one. */
  lemma {:induction false} PrefixExtends(s: seq<char>, i: nat)
    requires i < |s| && s[i] != '\0' && s[..i] <= UntilNul(s)
    ensures s[..i + 1] <= UntilNul(s)
  {
    if i > 0 {
      assert s[1..][..i - 1] == s[1..i];
      assert s[..i] == [s[0]] + s[1..i];
      PrefixExtends(s[1..], i - 1);
      assert s[1..][..i] == s[1..i + 1];
      assert s[..i + 1] == [s[0]] + s[1..i + 1];
    }
  }

  /** A NUL-free prefix that ends at a NUL or at the end is the whole C string. */
  lemma {:induction false} PrefixStops(s: seq<char>, i: nat)
    requires i <= |s| && (i == |s| || s[i] == '\0') && s[..i] <= UntilNul(s)
    ensures s[..i] == UntilNul(s)
  {
    if i > 0 {
      assert s[..i] == [s[0]] + s[1..i];
      assert s[1..][..i - 1] == s[1..i];
      PrefixStops(s[1..], i - 1);
    }
  }

  /* ------------------------------------------------------------------ */
  /*                                               Wildcard substitution */
  /* ------------------------------------------------------------------ */

  /**
   * Reference reading of a pattern: an escape character quotes the next
   * character (a trailing escape vanishes), an unquoted wild character
   * becomes `repl`, anything else stands for itself.
   */
  function Expand(s: string, wild: char, esc: char, repl: string): string
    decreases |s|
  {
    if s == [] then []
    else if s[0] == esc then
      (if |s| == 1 then [] else [s[1]] + Expand(s[2..], wild, esc, repl))
    else if s[0] == wild then repl + Expand(s[1..], wild, esc, repl)
    else [s[0]] + Expand(s[1..], wild, esc, repl)
  }

  /** What the rest of the pattern contributes, given the escape state. */
  function Pending(escape: bool, rest: string, wild: char, esc: char, repl: string): string
  {
    if !escape then Expand(rest, wild, esc, repl)
    else if rest == [] then []
    else [rest[0]] + Expand(rest[1..], wild, esc, repl)
  }

  lemma ConcatAssoc(a: string, b: string, c: string)
    ensures a + (b + c) == (a + b) + c
  {
  }

  /** One character of the pattern moves the escape state and what is still pending. */
  lemma PendingStep(escape: bool, c: char, rest: string, wild: char, esc: char, repl: string)
    ensures !escape && c == esc ==> Pending(false, [c] + rest, wild, esc, repl) == Pending(true, rest, wild, esc, repl)
    ensures !escape && c != esc && c == wild ==>
      Pending(false, [c] + rest, wild, esc, repl) == repl + Pending(false, rest, wild, esc, repl)
    ensures (escape || (c != esc && c != wild)) ==>
      Pending(escape, [c] + rest, wild, esc, repl) == [c] + Pending(false, rest, wild, esc, repl)
  {
    assert ([c] + rest)[1..] == rest;
  }

  /**
   * Writing `add` after `k` characters into a buffer of `n`: the buffer
   * keeps at most n - 1 characters and the count goes on regardless.
   */
  method PutChars(out: string, ghost produced: string, k: int, n: int, add: string) returns (out': string, k': int)
    requires k == |produced| && out == Truncate(produced, n - 1)
    ensures k' == k + |add| && out' == Truncate(produced + add, n - 1)
  {
    out', k' := out, k;
    var j := 0;
    while j < |add|
      invariant 0 <= j <= |add| && k' == k + j && out' == Truncate(produced + add[..j], n - 1)
    {
      TruncateSnoc(produced + add[..j], add[j], n - 1);
      assert produced + add[..j + 1] == produced + add[..j] + [add[j]];
      if k' < n - 1 {
        out' := out' + [add[j]];
      }
      k' := k' + 1;
      j := j + 1;
    }
    assert add[..j] == add;
  }

  /**
   * vl_string_replace_wildcard: the character-at-a-time escape state machine
   * produces exactly the reference expansion. It reports the full length
   * even when the buffer is too small or absent.
   */
  method ReplaceWildcard(n: int, src: string, wild: char, esc: char, repl: string)
    returns (buf: Buffer, k: int)
    requires NoNul(src) && NoNul(repl)
    ensures k == |Expand(src, wild, esc, repl)|
    ensures buf == Bounded(Expand(src, wild, esc, repl), n)
  {
    var out: string := [];
    ghost var produced: string := [];
    var escape := false;
    var i := 0;
    k := 0;
    while i < |src|
      invariant 0 <= i <= |src|
      invariant k == |produced|
      invariant out == Truncate(produced, n - 1)
      invariant produced + Pending(escape, src[i..], wild, esc, repl) == Expand(src, wild, esc, repl)
    {
      var c := src[i];
      assert src[i..] == [c] + src[i + 1..];
      PendingStep(escape, c, src[i + 1..], wild, esc, repl);
      i := i + 1;
      if !escape && c == esc {
        escape := true;
      } else {
        var add := if !escape && c == wild then repl else [c];
        ghost var pend := Pending(false, src[i..], wild, esc, repl);
        assert Pending(escape, [c] + src[i..], wild, esc, repl) == add + pend;
        ConcatAssoc(produced, add, pend);
        out, k := PutChars(out, produced, k, n, add);
        produced := produced + add;
        escape := false;
      }
    }
    assert produced == Expand(src, wild, esc, repl);
    buf := if n > 0 then Terminated(out) else Untouched;
  }

  lemma ExpandPlain(c: char, s: string, wild: char, esc: char, repl: string)
    requires c != wild && c != esc
    ensures Expand([c] + s, wild, esc, repl) == [c] + Expand(s, wild, esc, repl)
  {
    assert ([c] + s)[1..] == s;
  }

  lemma ExpandWild(s: string, wild: char, esc: char, repl: string)
    requires wild != esc
    ensures Expand([wild] + s, wild, esc, repl) == repl + Expand(s, wild, esc, repl)
  {
    assert ([wild] + s)[1..] == s;
  }

  lemma ExpandEscaped(c: char, s: string, wild: char, esc: char, repl: string)
    ensures Expand([esc, c] + s, wild, esc, repl) == [c] + Expand(s, wild, esc, repl)
  {
    assert ([esc, c] + s)[2..] == s;
  }

  /** The test pattern with any wildcard and escape characters. */
  lemma ExpandChain(w: char, q: char, r: string)
    requires w != q && w !in ": '" && q !in ": '"
    ensures Expand([w, ':', ' ', w, ' ', '\'', q, '*', '\'', ' ', w], w, q, r)
      == r + ": " + r + (" '*' " + r)
  {
    var s6 := [' ', '\'', q, '*', '\'', ' ', w];
    var t6 := " '*' " + r;
    ExpandQuoted(w, q, r);
    var s7 := [w] + s6;
    assert Expand(s7, w, q, r) == r + t6 by { ExpandWild(s6, w, q, r); }
    var s8 := [' '] + s7;
    assert Expand(s8, w, q, r) == " " + r + t6 by { ExpandPlain(' ', s7, w, q, r); }
    var s9 := [':'] + s8;
    assert Expand(s9, w, q, r) == ": " + r + t6 by { ExpandPlain(':', s8, w, q, r); }
    var s10 := [w] + s9;
    assert Expand(s10, w, q, r) == r + ": " + r + t6 by { ExpandWild(s9, w, q, r); }
    assert s10 == [w, ':', ' ', w, ' ', '\'', q, '*', '\'', ' ', w];
  }

  /** The quoted, escaped star and the final wildcard of the test pattern. */
  lemma ExpandQuoted(w: char, q: char, r: string)
    requires w != q && w !in ": '" && q !in ": '"
    ensures Expand([' ', '\'', q, '*', '\'', ' ', w], w, q, r) == " '*' " + r
  {
    var s1 := [w];
    assert Expand(s1, w, q, r) == r by { ExpandWild([], w, q, r); }
    var s2 := [' '] + s1;
    assert Expand(s2, w, q, r) == " " + r by { ExpandPlain(' ', s1, w, q, r); }
    var s3 := ['\''] + s2;
    assert Expand(s3, w, q, r) == "' " + r by { ExpandPlain('\'', s2, w, q, r); }
    var s4 := [q, '*'] + s3;
    assert Expand(s4, w, q, r) == "*' " + r by { ExpandEscaped('*', s3, w, q, r); }
    var s5 := ['\''] + s4;
    assert Expand(s5, w, q, r) == "'*' " + r by { ExpandPlain('\'', s4, w, q, r); }
    var s6 := [' '] + s5;
    assert Expand(s6, w, q, r) == " '*' " + r by { ExpandPlain(' ', s5, w, q, r); }
    assert s6 == [' ', '\'', q, '*', '\'', ' ', w];
  }

  /** The test vector of src/test_stringop.c for wildcard substitution. */
  lemma ReplaceWildcardExample()
    ensures Expand("*: * '\\*' *", '*', '\\', "vision") == "vision: vision '*' vision"
  {
    ExpandChain('*', '\\', "vision");
    assert "*: * '\\*' *" == ['*', ':', ' ', '*', ' ', '\'', '\\', '*', '\'', ' ', '*'];
    assert "vision" + ": " + "vision" + (" '*' " + "vision") == "vision: vision '*' vision";
  }

  /* ------------------------------------------------------------------ */
  /*                                                            Basename */
  /* ------------------------------------------------------------------ */

  /** Index just after the last '/' or '\', or 0 when there is none. */
  function SegmentStart(s: string): (r: nat)
    ensures r <= |s|
    ensures r > 0 ==> s[r - 1] == '/' || s[r - 1] == '\\'
    ensures forall i :: r <= i < |s| ==> s[i] != '/' && s[i] != '\\'
  {
    if s == [] then 0
    else if s[|s| - 1] == '/' || s[|s| - 1] == '\\' then |s|
    else SegmentStart(s[..|s| - 1])
  }

  /** Index of the last '.', if any. */
  function LastDot(s: string): (r: Option<nat>)
    ensures r.Some? ==> r.value < |s| && s[r.value] == '.'
    ensures r.Some? ==> forall i :: r.value < i < |s| ==> s[i] != '.'
    ensures r.None? ==> forall i :: 0 <= i < |s| ==> s[i] != '.'
  {
    if s == [] then None
    else if s[|s| - 1] == '.' then Some(|s| - 1)
    else LastDot(s[..|s| - 1])
  }

  /** Drop up to `m` trailing ".ext" suffixes, rightmost first. */
  function StripExt(s: string, m: int): (r: string)
    ensures r <= s
    decreases |s|
  {
    if m <= 0 then s
    else match LastDot(s)
      case None => s
      case Some(j) => StripExt(s[..j], m - 1)
  }

  /** The last path component with `m` extensions stripped. */
  function BaseNameOf(s: string, m: int): string
  {
    StripExt(s[SegmentStart(s)..], m)
  }

  /** The forward scan of vl_string_basename: just after the last separator. */
  method ScanSegmentStart(src: string) returns (beg: nat)
    ensures beg == SegmentStart(src)
  {
    beg := 0;
    var i := 0;
    while i < |src|
      invariant 0 <= beg <= i <= |src|
      invariant beg == SegmentStart(src[..i])
    {
      assert src[..i + 1][..i] == src[..i];
      if src[i] == '\\' || src[i] == '/' {
        beg := i + 1;
      }
      i := i + 1;
    }
    assert src[..i] == src;
  }

  /** The backward scan of vl_string_basename: the end after stripping. */
  method ScanExtensions(seg: string, nExt: int) returns (end: nat)
    ensures end <= |seg| && seg[..end] == StripExt(seg, nExt)
  {
    end := |seg|;
    var m := nExt;
    var p := end;
    assert seg[..end] == seg;
    while p > 0
      invariant 0 <= p <= end <= |seg|
      invariant StripExt(seg, nExt) == StripExt(seg[..end], m)
      invariant m > 0 ==> forall j :: p <= j < end ==> seg[j] != '.'
    {
      if seg[p - 1] == '.' && m > 0 {
        StripAt(seg, end, p - 1, m);
        m := m - 1;
        end := p - 1;
      }
      p := p - 1;
    }
    if m > 0 {
      StripNone(seg, end, m);
    }
  }

  /**
   * vl_string_basename: a forward scan finds the last separator, a backward
   * scan strips up to nExt extensions, then the segment is copied with the
   * bounded-copy contract.
   */
  method BaseName(n: int, src: string, nExt: int) returns (buf: Buffer, k: int)
    requires NoNul(src)
    ensures k == |BaseNameOf(src, nExt)|
    ensures buf == Bounded(BaseNameOf(src, nExt), n)
  {
    var beg := ScanSegmentStart(src);
    var seg := src[beg..];
    var end := ScanExtensions(seg, nExt);
    assert UntilNul(src[beg..beg + end]) == BaseNameOf(src, nExt) by {
      assert src[beg..beg + end] == seg[..end];
      assert NoNul(seg[..end]);
      NoNulUntil(seg[..end]);
    }
    buf, k := CopySub(n, src, beg, beg + end);
  }

  /** A dot with none after it before `end`: stripping removes from it on. */
  lemma StripAt(seg: string, end: nat, j: nat, m: int)
    requires j < end <= |seg| && seg[j] == '.' && m > 0
    requires forall i :: j < i < end ==> seg[i] != '.'
    ensures StripExt(seg[..end], m) == StripExt(seg[..j], m - 1)
  {
    assert LastDot(seg[..end]) == Some(j);
    assert seg[..end][..j] == seg[..j];
  }

  /** No dot before `end`: nothing to strip. */
  lemma StripNone(seg: string, end: nat, m: int)
    requires end <= |seg| && forall i :: 0 <= i < end ==> seg[i] != '.'
    ensures StripExt(seg[..end], m) == seg[..end]
  {
    assert LastDot(seg[..end]).None?;
  }

  lemma NoNulUntil(s: string)
    requires NoNul(s)
    ensures UntilNul(s) == s
  {
    if s != [] {
      NoNulUntil(s[1..]);
    }
  }

  /** The basename test vectors of src/test_stringop.c. */
  lemma BaseNameExamples()
    ensures BaseNameOf("a/b/c/d.tar.gz", 0) == "d.tar.gz"
    ensures BaseNameOf("a/b/c/d.tar.gz", 1) == "d.tar"
    ensures BaseNameOf("a/b/c/d.tar.gz", 2) == "d"
    ensures BaseNameOf("a/b/c/d.tar.gz", 3) == "d"
  {
    var s := "a/b/c/d.tar.gz";
    assert s[5] == '/';
    assert SegmentStart(s) == 6;
    var t := s[6..];
    assert t == "d.tar.gz";
    assert t[5] == '.';
    assert LastDot(t) == Some(5);
    var u := t[..5];
    assert u == "d.tar";
    assert u[1] == '.';
    assert LastDot(u) == Some(1);
    assert u[..1] == "d";
    assert LastDot("d") == None;
  }

  /* ------------------------------------------------------------------ */
  /*                                                           Protocols */
  /* ------------------------------------------------------------------ */

  predicate SepAt(s: string, i: nat)
  {
    i + 3 <= |s| && s[i] == ':' && s[i + 1] == '/' && s[i + 2] == '/'
  }

  /** First occurrence of "://" at or after `from` (strstr). */
  function FindSep(s: string, from: nat): (r: Option<nat>)
    ensures r.Some? ==> from <= r.value && SepAt(s, r.value)
    ensures r.Some? ==> forall j :: from <= j < r.value ==> !SepAt(s, j)
    ensures r.None? ==> forall j :: from <= j ==> !SepAt(s, j)
    decreases |s| - from
  {
    if from + 3 > |s| then None
    else if SepAt(s, from) then Some(from)
    else FindSep(s, from + 1)
  }

  /** strncmp(str, name, k) == 0 for a prefix of length k without NUL. */
  predicate PrefixMatches(p: string, name: string)
  {
    |p| <= |name| && p == name[..|p|]
  }

  /**
   * The protocol a prefix names: strncmp against "ascii" and then "bin"
   * over the prefix's own length, so any prefix of those names matches.
   */
  function ProtocolOf(p: string): (prot: int)
    ensures prot in {ProtAscii, ProtBinary, ProtUnknown}
    ensures prot == ProtAscii <==> PrefixMatches(p, "ascii")
    ensures prot == ProtBinary <==> !PrefixMatches(p, "ascii") && PrefixMatches(p, "bin")
  {
    if PrefixMatches(p, "ascii") then ProtAscii
    else if PrefixMatches(p, "bin") then ProtBinary
    else ProtUnknown
  }

  /** vl_string_parse_protocol: the protocol code and the remaining string. */
  function ParseProtocol(s: string): (r: (int, string))
    ensures FindSep(s, 0).None? ==> r == (ProtNone, s)
    ensures FindSep(s, 0).Some? ==>
      s == s[..FindSep(s, 0).value] + "://" + r.1 && r.0 == ProtocolOf(s[..FindSep(s, 0).value])
    ensures r.0 == ProtAscii || r.0 == ProtBinary || r.0 == ProtNone || r.0 == ProtUnknown
  {
    match FindSep(s, 0)
    case None => (ProtNone, s)
    case Some(i) =>
      assert s == s[..i] + "://" + s[i + 3..];
      (ProtocolOf(s[..i]), s[i + 3..])
  }

  /** vl_string_protocol_name: None stands for the NULL pointer. */
  function ProtocolName(prot: int): (r: Option<string>)
    ensures r.Some? <==> prot in {ProtAscii, ProtBinary, ProtNone}
  {
    if prot == ProtAscii then Some("ascii")
    else if prot == ProtBinary then Some("bin")
    else if prot == ProtNone then Some("")
    else None
  }

  predicate NoColon(p: string)
  {
    forall i :: 0 <= i < |p| ==> p[i] != ':'
  }

  /** A prefix without ':' puts the first separator right after it. */
  lemma {:induction false} FindSepAfter(p: string, rest: string, from: nat)
    requires from <= |p| && NoColon(p)
    ensures FindSep(p + "://" + rest, from) == Some(|p|)
    decreases |p| - from
  {
    var s := p + "://" + rest;
    if from < |p| {
      assert !SepAt(s, from) by { assert s[from] == p[from]; }
      FindSepAfter(p, rest, from + 1);
    } else {
      assert SepAt(s, from);
    }
  }

  /** A prefix without ':' followed by "://": its protocol and the rest. */
  lemma ParseNamed(p: string, rest: string)
    requires NoColon(p)
    ensures ParseProtocol(p + "://" + rest) == (ProtocolOf(p), rest)
  {
    FindSepAfter(p, rest, 0);
    var s := p + "://" + rest;
    assert s[..|p|] == p;
    assert s[|p| + 3..] == rest;
  }

  /**
   * Naming a protocol and parsing it back gives the protocol and the rest,
   * for both named protocols.
   */
  lemma ProtocolRoundTrip(prot: int, rest: string)
    requires prot == ProtAscii || prot == ProtBinary
    ensures ParseProtocol(ProtocolName(prot).value + "://" + rest) == (prot, rest)
  {
    ParseNamed(ProtocolName(prot).value, rest);
  }

  /** A prefix too long for "ascii" and not "bin" is an unknown protocol. */
  lemma ParseUnknown(p: string, rest: string)
    requires NoColon(p) && |p| > 5
    ensures ParseProtocol(p + "://" + rest) == (ProtUnknown, rest)
  {
    ParseNamed(p, rest);
  }

  /** Parsing `n` protocol prefixes in a row: the protocols found and what remains. */
  function ParseChain(s: string, n: nat): (r: (seq<int>, string))
    ensures |r.0| == n && |r.1| <= |s|
  {
    if n == 0 then ([], s)
    else
      var (prot, rest) := ParseProtocol(s);
      assert |rest| <= |s| by {
        if FindSep(s, 0).Some? {
          assert |s| == FindSep(s, 0).value + 3 + |rest|;
        }
      }
      var (prots, tail) := ParseChain(rest, n - 1);
      ([prot] + prots, tail)
  }

  /** The string "p1://p2://...://tail". */
  function Chain(names: seq<string>, tail: string): string
  {
    if names == [] then tail else names[0] + "://" + Chain(names[1..], tail)
  }

  function Protocols(names: seq<string>): (prots: seq<int>)
    ensures |prots| == |names|
  {
    if names == [] then [] else [ProtocolOf(names[0])] + Protocols(names[1..])
  }

  /**
   * Repeated parsing peels the prefixes off one at a time: the protocol of
   * each in turn, and the tail at the end.
   */
  lemma {:induction false} ParseChainOf(names: seq<string>, tail: string)
    requires forall k :: 0 <= k < |names| ==> NoColon(names[k])
    ensures ParseChain(Chain(names, tail), |names|) == (Protocols(names), tail)
    decreases |names|
  {
    if names != [] {
      ParseNamed(names[0], Chain(names[1..], tail));
      ParseChainOf(names[1..], tail);
    }
  }

  /**
   * The protocol chain of src/test_stringop.c, whose tail is
   * "/which remains/", here with any tail: the two misspelt prefixes are
   * unknown.
   */
  lemma ParseProtocolExample(tail: string)
    ensures ParseChain(Chain(["ascii", "bin", "ascii", "bin", "unkown1", "unknown2", "bin"], tail), 7)
      == ([ProtAscii, ProtBinary, ProtAscii, ProtBinary, ProtUnknown, ProtUnknown, ProtBinary], tail)
  {
    var names := ["ascii", "bin", "ascii", "bin", "unkown1", "unknown2", "bin"];
    assert ProtocolOf("ascii") == ProtAscii;
    assert ProtocolOf("bin") == ProtBinary by {
      assert "ascii"[..3][0] != "bin"[0];
    }
    assert ProtocolOf("unkown1") == ProtUnknown;
    assert ProtocolOf("unknown2") == ProtUnknown;
    assert Protocols(names) == [ProtAscii, ProtBinary, ProtAscii, ProtBinary, ProtUnknown, ProtUnknown, ProtBinary];
    assert |names| == 7;
    ParseChainOf(names, tail);
  }

  /* ------------------------------------------------------------------ */
  /*                                                 Length and compare */
  /* ------------------------------------------------------------------ */

  /** vl_string_length: the number of characters before the first NUL. */
  method Length(buf: seq<char>) returns (r: nat)
    requires '\0' in buf
    ensures r < |buf| && buf[r] == '\0'
    ensures forall i :: 0 <= i < r ==> buf[i] != '\0'
  {
    r := 0;
    while buf[r] != '\0'
      invariant r < |buf|
      invariant forall i :: 0 <= i < r ==> buf[i] != '\0'
      invariant '\0' in buf[r..]
      decreases |buf| - r
    {
      assert buf[r..] == [buf[r]] + buf[r + 1..];
      r := r + 1;
    }
  }

  /** C-locale tolower. */
  function Lower(c: char): char
  {
    if 'A' <= c <= 'Z' then (c as int + 32) as char else c
  }

  /** The character at `i`, reading the terminating NUL past the end. */
  function At(s: string, i: nat): char
  {
    if i < |s| then s[i] else '\0'
  }

  predicate EqualIgnoringCase(a: string, b: string)
  {
    |a| == |b| && forall i :: 0 <= i < |a| ==> Lower(a[i]) == Lower(b[i])
  }

  /**
   * Reference three-way comparison from position `i` on: the difference of
   * the first lowered characters that disagree, where the end of a string
   * reads as NUL.
   */
  function Compare(a: string, b: string, i: nat): int
    requires i <= |a| && i <= |b|
    decreases |a| - i
  {
    if i == |a| || i == |b| then Lower(At(a, i)) as int - Lower(At(b, i)) as int
    else if Lower(a[i]) != Lower(b[i]) then Lower(a[i]) as int - Lower(b[i]) as int
    else Compare(a, b, i + 1)
  }

  /** Lower maps only NUL to NUL. */
  lemma LowerNul(c: char)
    ensures Lower(c) == '\0' <==> c == '\0'
  {}

  /** The comparison is zero exactly for strings equal ignoring case. */
  lemma {:induction false} CompareZeroIff(a: string, b: string, i: nat)
    requires NoNul(a) && NoNul(b)
    requires i <= |a| && i <= |b|
    requires forall j :: 0 <= j < i ==> Lower(a[j]) == Lower(b[j])
    ensures Compare(a, b, i) == 0 <==> EqualIgnoringCase(a, b)
    decreases |a| - i
  {
    if i == |a| || i == |b| {
      if i < |a| {
        LowerNul(a[i]);
      }
      if i < |b| {
        LowerNul(b[i]);
      }
    } else if Lower(a[i]) == Lower(b[i]) {
      CompareZeroIff(a, b, i + 1);
    }
  }

  /** Swapping the arguments negates the comparison. */
  lemma {:induction false} CompareAntisymmetric(a: string, b: string, i: nat)
    requires i <= |a| && i <= |b|
    ensures Compare(a, b, i) == -Compare(b, a, i)
    decreases |a| - i
  {
    if i < |a| && i < |b| && Lower(a[i]) == Lower(b[i]) {
      CompareAntisymmetric(a, b, i + 1);
    }
  }

  /**
   * vl_string_casei_cmp: the loop walks both strings while their lowered
   * characters agree and returns the difference at the first disagreement,
   * or 0 when both end together.
   */
  method CaseiCmp(a: string, b: string) returns (r: int)
    requires NoNul(a) && NoNul(b)
    ensures r == Compare(a, b, 0)
    ensures r == 0 <==> EqualIgnoringCase(a, b)
  {
    var i := 0;
    while Lower(At(a, i)) == Lower(At(b, i))
      invariant i <= |a| && i <= |b|
      invariant Compare(a, b, i) == Compare(a, b, 0)
      invariant forall j :: 0 <= j < i ==> Lower(a[j]) == Lower(b[j])
      decreases |a| - i
    {
      if At(a, i) == '\0' {
        CompareZeroIff(a, b, 0);
        return 0;
      }
      if i == |b| {
        LowerNul(a[i]);
      }
      i := i + 1;
    }
    r := Lower(At(a, i)) as int - Lower(At(b, i)) as int;
    CompareZeroIff(a, b, 0);
  }
}

=== FILE: subscript.dfy ===
/**
 * N-dimensional subscripts with the first index varying fastest, as used
 * by the MSER filter (vl/mser.c) and the region fill
 * (toolbox/mser/vl_erfill.c): the odometer increment `adv` and the
 * linear index a subscript stands for.
 */
module Subscript {
  import opened Wrappers

  /** Number of elements of an array with these dimensions. */
  function Prod(dims: seq<nat>): nat
  {
    if dims == [] then 1 else dims[0] * Prod(dims[1..])
  }

  /** The subscript lies inside the array. */
  predicate InRange(dims: seq<nat>, subs: seq<nat>)
  {
    |subs| == |dims| && forall k :: 0 <= k < |dims| ==> subs[k] < dims[k]
  }

  /** The linear index of a subscript, first index fastest. */
  function Linear(dims: seq<nat>, subs: seq<nat>): nat
    requires |subs| == |dims|
  {
    if dims == [] then 0 else subs[0] + dims[0] * Linear(dims[1..], subs[1..])
  }

  function Zeros(n: nat): (z: seq<nat>)
    ensures |z| == n && forall k :: 0 <= k < n ==> z[k] == 0
  {
    seq(n, _ => 0)
  }

  /** Every in-range subscript has a linear index below the element count. */
  lemma {:induction false} LinearBound(dims: seq<nat>, subs: seq<nat>)
    requires InRange(dims, subs)
    ensures Linear(dims, subs) < Prod(dims)
    decreases |dims|
  {
    if dims != [] {
      var t := Linear(dims[1..], subs[1..]);
      LinearBound(dims[1..], subs[1..]);
      assert subs[0] + dims[0] * t < dims[0] * (t + 1);
      assert dims[0] * (t + 1) <= dims[0] * Prod(dims[1..]);
    }
  }

  /** The all-zero subscript is element 0. */
  lemma {:induction false} LinearZeros(dims: seq<nat>)
    ensures Linear(dims, Zeros(|dims|)) == 0
    decreases |dims|
  {
    if dims != [] {
      assert Zeros(|dims|)[1..] == Zeros(|dims| - 1);
      LinearZeros(dims[1..]);
    }
  }

  /** The last subscript, every digit at its maximum, is the last element. */
  lemma {:induction false} LinearAllMax(dims: seq<nat>, subs: seq<nat>)
    requires InRange(dims, subs)
    requires forall k :: 0 <= k < |dims| ==> subs[k] == dims[k] - 1
    ensures Linear(dims, subs) + 1 == Prod(dims)
    decreases |dims|
  {
    if dims != [] {
      LinearAllMax(dims[1..], subs[1..]);
      var t := Linear(dims[1..], subs[1..]);
      assert subs[0] + dims[0] * t + 1 == dims[0] * (t + 1);
    }
  }

  /**
   * Incrementing digit d, after the lower digits at their maximum wrapped
   * to zero, adds exactly one to the linear index.
   */
  lemma {:induction false} LinearCarry(dims: seq<nat>, subs: seq<nat>, d: nat)
    requires InRange(dims, subs) && d < |dims| && subs[d] + 1 < dims[d]
    requires forall k :: 0 <= k < d ==> subs[k] == dims[k] - 1
    ensures Linear(dims, Zeros(d) + [subs[d] + 1] + subs[d + 1..]) == Linear(dims, subs) + 1
    decreases d
  {
    var out := Zeros(d) + [subs[d] + 1] + subs[d + 1..];
    if d == 0 {
      assert out[1..] == subs[1..];
    } else {
      var tail := Zeros(d - 1) + [subs[d] + 1] + subs[d + 1..];
      assert out[1..] == tail;
      assert subs[1..][d - 1] == subs[d];
      assert subs[1..][d..] == subs[d + 1..];
      LinearCarry(dims[1..], subs[1..], d - 1);
      var t := Linear(dims[1..], subs[1..]);
      assert Linear(dims, out) == dims[0] * (t + 1);
    }
  }

  lemma CarryShape(dims: seq<nat>, subs: seq<nat>, out: seq<nat>, d: nat)
    requires d < |dims| == |subs| == |out|
    requires forall k :: 0 <= k < d ==> out[k] == 0
    requires out[d] == subs[d] + 1 && out[d + 1..] == subs[d + 1..]
    ensures out == Zeros(d) + [subs[d] + 1] + subs[d + 1..]
  {
    var z := Zeros(d) + [subs[d] + 1] + subs[d + 1..];
    forall k | 0 <= k < |out| ensures out[k] == z[k] {
      if k > d {
        assert out[k] == out[d + 1..][k - d - 1];
      }
    }
  }

  /**
   * adv: increment the first digit; a digit that reaches its dimension
   * wraps to 0 and carries into the next one. Past the last element the
   * subscript wraps around to all zeros.
   */
  method Adv(dims: seq<nat>, subs: seq<nat>) returns (out: seq<nat>)
    requires InRange(dims, subs)
    ensures InRange(dims, out)
    ensures Linear(dims, subs) + 1 < Prod(dims) ==> Linear(dims, out) == Linear(dims, subs) + 1
    ensures Linear(dims, subs) + 1 == Prod(dims) ==> Linear(dims, out) == 0
  {
    LinearBound(dims, subs);
    out := subs;
    var d := 0;
    while d < |dims|
      invariant d <= |dims| && |out| == |dims|
      invariant forall k :: 0 <= k < d ==> out[k] == 0 && subs[k] == dims[k] - 1
      invariant out[d..] == subs[d..]
    {
      if out[d] + 1 < dims[d] {
        out := out[d := out[d] + 1];
        CarryShape(dims, subs, out, d);
        LinearCarry(dims, subs, d);
        LinearBound(dims, out);
        return;
      }
      out := out[d := 0];
      d := d + 1;
    }
    LinearAllMax(dims, subs);
    assert out == Zeros(|dims|);
    LinearZeros(dims);
  }

  /** The strides of an array: entry k is the product of the dimensions before k. */
  function PrefixProds(dims: seq<nat>): (w: seq<nat>)
    ensures |w| == |dims| && forall k :: 0 <= k < |dims| ==> w[k] == Prod(dims[..k])
  {
    seq(|dims|, k requires 0 <= k < |dims| => Prod(dims[..k]))
  }

  lemma {:induction false} ProdSnoc(dims: seq<nat>, x: nat)
    ensures Prod(dims + [x]) == Prod(dims) * x
    decreases |dims|
  {
    if dims != [] {
      assert (dims + [x])[1..] == dims[1..] + [x];
      ProdSnoc(dims[1..], x);
    }
  }

  /** Sum of subs[j] * strides[j] for j from k on: how the source turns a subscript into an index. */
  function SumFrom(subs: seq<int>, strides: seq<nat>, k: nat): int
    requires |strides| == |subs| && k <= |subs|
    decreases |subs| - k
  {
    if k == |subs| then 0 else subs[k] * strides[k] + SumFrom(subs, strides, k + 1)
  }

  /** The stride sum from k on is the linear index of the trailing digits, scaled by the stride at k. */
  lemma {:induction false} StrideSum(dims: seq<nat>, subs: seq<nat>, k: nat)
    requires |subs| == |dims| && k <= |dims|
    ensures SumFrom(subs, PrefixProds(dims), k) == Prod(dims[..k]) * Linear(dims[k..], subs[k..])
    decreases |dims| - k
  {
    if k < |dims| {
      StrideSum(dims, subs, k + 1);
      assert dims[..k + 1] == dims[..k] + [dims[k]];
      ProdSnoc(dims[..k], dims[k]);
      assert dims[k..][1..] == dims[k + 1..] && subs[k..][1..] == subs[k + 1..];
      var p := Prod(dims[..k]);
      var l := Linear(dims[k + 1..], subs[k + 1..]);
      assert Linear(dims[k..], subs[k..]) == subs[k] + dims[k] * l;
      Distrib(p, subs[k], dims[k], l);
    }
  }

  lemma Distrib(p: int, a: int, b: int, l: int)
    ensures p * (a + b * l) == a * p + (p * b) * l
  {
  }

  /** The whole stride sum is the linear index. */
  lemma StrideSumIsLinear(dims: seq<nat>, subs: seq<nat>)
    requires |subs| == |dims|
    ensures SumFrom(subs, PrefixProds(dims), 0) == Linear(dims, subs)
  {
    StrideSum(dims, subs, 0);
    assert dims[..0] == [];
    assert Prod(dims[..0]) == 1;
    assert dims[0..] == dims && subs[0..] == subs;
  }

  lemma MulCancel(a: nat, b: nat, c: nat)
    requires a * b < a * c
    ensures b < c
  {
  }

  /** Digits below their radix are fixed by the value they encode. */
  lemma DigitUnique(d: nat, x: nat, y: nat, x': nat, y': nat)
    requires x < d && x' < d && x + d * y == x' + d * y'
    ensures x == x' && y == y'
  {
    assert d * (y' + 1) == d * y' + d && d * (y + 1) == d * y + d;
    MulCancel(d, y, y' + 1);
    MulCancel(d, y', y + 1);
  }

  /** Distinct in-range subscripts have distinct linear indices. */
  lemma {:induction false} LinearInjective(dims: seq<nat>, a: seq<nat>, b: seq<nat>)
    requires InRange(dims, a) && InRange(dims, b) && Linear(dims, a) == Linear(dims, b)
    ensures a == b
    decreases |dims|
  {
    if dims != [] {
      DigitUnique(dims[0], a[0], Linear(dims[1..], a[1..]), b[0], Linear(dims[1..], b[1..]));
      LinearInjective(dims[1..], a[1..], b[1..]);
      assert a == [a[0]] + a[1..] && b == [b[0]] + b[1..];
    }
  }

  /**
   * The subscript of index idx, computed as in vl_mser_process and the
   * region fill: from the last dimension down, the digit is the quotient
   * by the stride and the remainder carries on.
   */
  method ToSubs(dims: seq<nat>, strides: seq<nat>, idx: nat) returns (subs: seq<nat>)
    requires strides == PrefixProds(dims) && idx < Prod(dims)
    ensures InRange(dims, subs) && Linear(dims, subs) == idx
  {
    var n := |dims|;
    subs := Zeros(n);
    var temp: nat := idx;
    var k: nat := n;
    PrefixAll(dims);
    while k > 0
      invariant k <= n && |subs| == n
      invariant temp < Prod(dims[..k])
      invariant forall j :: k <= j < n ==> subs[j] < dims[j]
      invariant idx == temp + SumFrom(subs, strides, k)
    {
      var q, r := DivMod(temp, strides[k - 1]);
      ToSubsStep(dims, strides, subs, k - 1, temp, q, r);
      subs := subs[k - 1 := q];
      temp := r;
      k := k - 1;
    }
    StrideSumIsLinear(dims, subs);
  }

  /** C's unsigned quotient and remainder. */
  method DivMod(t: nat, st: nat) returns (q: nat, r: nat)
    ensures st > 0 ==> t == q * st + r && r < st
  {
    if st == 0 {
      q, r := 0, 0;
    } else {
      q, r := t / st, t % st;
    }
  }

  /** One digit of ToSubs: quotient and remainder by the stride split the value between digit k and the digits below. */
  lemma ToSubsStep(dims: seq<nat>, strides: seq<nat>, subs: seq<nat>, k: nat, temp: nat, q: nat, r: nat)
    requires |strides| == |subs| == |dims| && k < |dims| && strides[k] == Prod(dims[..k])
    requires temp < Prod(dims[..k + 1])
    requires strides[k] > 0 ==> temp == q * strides[k] + r && r < strides[k]
    ensures q < dims[k] && r < Prod(dims[..k])
    ensures temp + SumFrom(subs, strides, k + 1) == r + SumFrom(subs[k := q], strides, k)
  {
    PrefixStep(dims, k);
    var q', r' := DivModSplit(temp, strides[k], dims[k]);
    DivModUnique(temp, strides[k], q, r);
    SumFromUpdate(subs, strides, k, q);
  }

  lemma DivModUnique(t: nat, st: nat, q: nat, r: nat)
    requires st > 0 && t == q * st + r && r < st
    ensures q == t / st && r == t % st
  {
    DigitUnique(st, r, q, t % st, t / st);
  }

  lemma PrefixStep(dims: seq<nat>, k: nat)
    requires k < |dims|
    ensures Prod(dims[..k + 1]) == Prod(dims[..k]) * dims[k]
  {
    assert dims[..k + 1] == dims[..k] + [dims[k]];
    ProdSnoc(dims[..k], dims[k]);
  }

  lemma DivModSplit(t: nat, st: nat, d: nat) returns (q: nat, r: nat)
    requires t < st * d
    ensures st > 0 && q == t / st && r == t % st
    ensures q < d && r < st && t == q * st + r
  {
    QuotientBound(t, st, d);
    q, r := t / st, t % st;
  }

  lemma QuotientBound(t: nat, st: nat, d: nat)
    requires t < st * d
    ensures st > 0
    ensures t / st < d
  {
    assert st * (t / st) <= t;
    MulCancel(st, t / st, d);
  }

  /** The stride sum from k is untouched by digits below k, and changes with digit k as expected. */
  lemma {:induction false} SumFromUpdate(subs: seq<nat>, strides: seq<nat>, k: nat, q: nat)
    requires |strides| == |subs| && k < |subs|
    ensures SumFrom(subs[k := q], strides, k) == q * strides[k] + SumFrom(subs, strides, k + 1)
  {
    SumFromTail(subs, subs[k := q], strides, k + 1);
  }

  lemma {:induction false} SumFromTail(a: seq<nat>, b: seq<nat>, strides: seq<nat>, k: nat)
    requires |strides| == |a| == |b| && k <= |a|
    requires forall j :: k <= j < |a| ==> a[j] == b[j]
    ensures SumFrom(a, strides, k) == SumFrom(b, strides, k)
    decreases |a| - k
  {
    if k < |a| {
      SumFromTail(a, b, strides, k + 1);
    }
  }

  lemma PrefixAll(dims: seq<nat>)
    ensures dims[..|dims|] == dims
  {
  }

  /**
   * vl_mser_new's geometry: strides[0] = 1, strides[k] = strides[k-1] *
   * dims[k-1], and the element count is the last stride times the last
   * dimension.
   */
  method Strides(dims: seq<nat>) returns (strides: seq<nat>, nel: nat)
    requires |dims| >= 1
    ensures strides == PrefixProds(dims) && nel == Prod(dims)
  {
    strides := [1];
    assert dims[..0] == [];
    var k := 1;
    while k < |dims|
      invariant 1 <= k <= |dims| && |strides| == k
      invariant forall j :: 0 <= j < k ==> strides[j] == Prod(dims[..j])
    {
      assert dims[..k] == dims[..k - 1] + [dims[k - 1]];
      ProdSnoc(dims[..k - 1], dims[k - 1]);
      strides := strides + [strides[k - 1] * dims[k - 1]];
      k := k + 1;
    }
    nel := strides[|dims| - 1] * dims[|dims| - 1];
    assert dims == dims[..|dims| - 1] + [dims[|dims| - 1]];
    ProdSnoc(dims[..|dims| - 1], dims[|dims| - 1]);
  }

  /** The subscript shifted by an offset, each coordinate clamped at 0 below. */
  function Shift(subs: seq<nat>, d: seq<int>): (t: seq<nat>)
    requires |d| == |subs|
    ensures |t| == |subs|
    ensures forall k :: 0 <= k < |t| && subs[k] + d[k] >= 0 ==> t[k] == subs[k] + d[k]
  {
    seq(|subs|, k requires 0 <= k < |subs| => if subs[k] + d[k] >= 0 then subs[k] + d[k] else 0)
  }

  /** Every coordinate of the shifted subscript lies inside the array. */
  predicate InBounds(dims: seq<nat>, subs: seq<nat>, d: seq<int>)
    requires |subs| == |dims| && |d| == |dims|
  {
    forall k :: 0 <= k < |dims| ==> 0 <= subs[k] + d[k] < dims[k]
  }

  /**
   * The neighbour of subs at offset d, as the neighbour loops of
   * vl_mser_process and the region fill compute it: None when a shifted
   * coordinate leaves the array, otherwise the stride sum of the shifted
   * coordinates.
   */
  function Neighbour(dims: seq<nat>, subs: seq<nat>, d: seq<int>): (r: Option<nat>)
    requires |subs| == |dims| && |d| == |dims|
    ensures r.Some? <==> InBounds(dims, subs, d)
    ensures r.Some? ==> r.value < Prod(dims) && r.value == Linear(dims, Shift(subs, d))
    ensures r.Some? && InRange(dims, subs) ==>
      (r.value == Linear(dims, subs) <==> forall k :: 0 <= k < |d| ==> d[k] == 0)
  {
    if InBounds(dims, subs, d) then
      var t := Shift(subs, d);
      StrideSumIsLinear(dims, t);
      LinearBound(dims, t);
      NeighbourSelf(dims, subs, d);
      Some(SumFrom(t, PrefixProds(dims), 0))
    else
      None
  }

  /** A shifted subscript inside the array is the same element exactly when the offset is zero. */
  lemma NeighbourSelf(dims: seq<nat>, subs: seq<nat>, d: seq<int>)
    requires |subs| == |dims| && |d| == |dims| && InBounds(dims, subs, d)
    ensures InRange(dims, subs) ==>
      (Linear(dims, Shift(subs, d)) == Linear(dims, subs) <==> forall k :: 0 <= k < |d| ==> d[k] == 0)
  {
    var t := Shift(subs, d);
    if InRange(dims, subs) && Linear(dims, t) == Linear(dims, subs) {
      LinearInjective(dims, t, subs);
      forall k | 0 <= k < |d| ensures d[k] == 0 {
        assert t[k] == subs[k];
      }
    }
    if forall k :: 0 <= k < |d| ==> d[k] == 0 {
      assert t == subs;
    }
  }

  /** A neighbour offset: every coordinate is -1, 0 or 1. */
  predicate Unit(d: seq<int>)
  {
    forall k :: 0 <= k < |d| ==> -1 <= d[k] <= 1
  }

  function Threes(n: nat): (t: seq<nat>)
    ensures |t| == n && forall k :: 0 <= k < n ==> t[k] == 3
  {
    seq(n, _ => 3)
  }

  /** The position of an offset in the enumeration order: base 3, first coordinate fastest. */
  function Code(d: seq<int>): nat
    requires Unit(d)
  {
    Linear(Threes(|d|), Lift(d))
  }

  function Lift(d: seq<int>): (t: seq<nat>)
    requires Unit(d)
    ensures InRange(Threes(|d|), t) && forall k :: 0 <= k < |d| ==> t[k] == d[k] + 1
  {
    seq(|d|, k requires 0 <= k < |d| => d[k] + 1)
  }

  /** The first offset visited: every coordinate is -1. */
  function FirstOffset(n: nat): (d: seq<int>)
    ensures |d| == n && Unit(d) && Code(d) == 0
  {
    var d := seq(n, _ => -1);
    assert Lift(d) == Zeros(n);
    LinearZeros(Threes(n));
    d
  }

  /**
   * The step to the next neighbour offset: increment the first coordinate;
   * one that passes 1 goes back to -1 and carries into the next. done is
   * set when the carry leaves the last coordinate, after the last offset.
   */
  method NextOffset(d: seq<int>) returns (d': seq<int>, done: bool)
    requires |d| >= 1 && Unit(d)
    ensures |d'| == |d| && Unit(d')
    ensures done <==> Code(d) + 1 == Prod(Threes(|d|))
    ensures !done ==> Code(d') == Code(d) + 1
  {
    var n := |d|;
    LinearBound(Threes(n), Lift(d));
    d' := d;
    var k := 0;
    while true
      invariant k < n && |d'| == n && Unit(d')
      invariant forall j :: 0 <= j < k ==> d'[j] == -1 && d[j] == 1
      invariant d'[k..] == d[k..]
      decreases n - k
    {
      if d'[k] + 1 <= 1 {
        d' := d'[k := d'[k] + 1];
        assert Lift(d') == Zeros(k) + [Lift(d)[k] + 1] + Lift(d)[k + 1..] by {
          OffsetShape(d, d', k);
        }
        LinearCarry(Threes(n), Lift(d), k);
        LinearBound(Threes(n), Lift(d'));
        done := false;
        return;
      }
      d' := d'[k := -1];
      k := k + 1;
      if k == n {
        LinearAllMax(Threes(n), Lift(d));
        done := true;
        return;
      }
    }
  }

  lemma OffsetShape(d: seq<int>, d': seq<int>, k: nat)
    requires Unit(d) && Unit(d') && k < |d| == |d'| && d'[k] == d[k] + 1
    requires forall j :: 0 <= j < k ==> d'[j] == -1
    requires d'[k + 1..] == d[k + 1..]
    ensures Lift(d') == Zeros(k) + [Lift(d)[k] + 1] + Lift(d)[k + 1..]
  {
    var t := Lift(d);
    var t' := Lift(d');
    var z := Zeros(k) + [t[k] + 1] + t[k + 1..];
    forall j | 0 <= j < |d| ensures t'[j] == z[j] {
      if j < k {
        assert z[j] == Zeros(k)[j] == 0;
      } else if j == k {
        assert z[j] == t[k] + 1;
      } else {
        assert d'[j] == d'[k + 1..][j - k - 1] == d[j];
        assert z[j] == t[k + 1..][j - k - 1] == t[j];
      }
    }
    assert |t'| == |z|;
  }

  /** The subscript of index idx: first digit fastest, as Linear reads it. */
  function Digits(dims: seq<nat>, idx: nat): (subs: seq<nat>)
    requires idx < Prod(dims)
    ensures InRange(dims, subs) && Linear(dims, subs) == idx
    decreases |dims|
  {
    if dims == [] then []
    else
      QuotientBound(idx, dims[0], Prod(dims[1..]));
      var rest := Digits(dims[1..], idx / dims[0]);
      assert ([idx % dims[0]] + rest)[1..] == rest;
      [idx % dims[0]] + rest
  }

  /** The neighbour offset with enumeration code c. */
  function Offset(n: nat, c: nat): (d: seq<int>)
    requires c < Prod(Threes(n))
    ensures |d| == n && Unit(d) && Code(d) == c
  {
    var t := Digits(Threes(n), c);
    var d := seq(n, k requires 0 <= k < n => t[k] as int - 1);
    assert Lift(d) == t;
    d
  }

  /** An offset is the offset of its own code, so codes enumerate offsets one to one. */
  lemma OffsetOfCode(d: seq<int>)
    requires Unit(d)
    ensures Code(d) < Prod(Threes(|d|)) && Offset(|d|, Code(d)) == d
  {
    LinearBound(Threes(|d|), Lift(d));
    var e := Offset(|d|, Code(d));
    LinearInjective(Threes(|d|), Lift(d), Lift(e));
    assert forall k :: 0 <= k < |d| ==> Lift(d)[k] == Lift(e)[k];
  }

  /** Distinct offsets reach distinct neighbours. */
  lemma NeighbourInjective(dims: seq<nat>, subs: seq<nat>, d1: seq<int>, d2: seq<int>)
    requires |subs| == |dims| && |d1| == |dims| && |d2| == |dims|
    requires Neighbour(dims, subs, d1).Some? && Neighbour(dims, subs, d1) == Neighbour(dims, subs, d2)
    ensures d1 == d2
  {
    var t1 := Shift(subs, d1);
    var t2 := Shift(subs, d2);
    assert InRange(dims, t1) && InRange(dims, t2);
    LinearInjective(dims, t1, t2);
    forall k | 0 <= k < |d1| ensures d1[k] == d2[k] {
      assert t1[k] == t2[k];
    }
  }
}

=== FILE: tempering.dfy ===
/**
 * The output tempering of the MT19937 generator in vl/random.c and its
 * inverse.
 */
module Tempering {
  /** The MT19937 output transformation: shifts 11, 7, 15 and 18. */
  function Temper(w: bv32): bv32
  {
    var y1 := w ^ (w >> 11);
    var y2 := y1 ^ ((y1 << 7) & 0x9d2c5680);
    var y3 := y2 ^ ((y2 << 15) & 0xefc60000);
    y3 ^ (y3 >> 18)
  }

  /**
   * Tempering is a bijection on 32-bit words, so it loses no state: the
   * inverse steps, last step first, give the word back. The right shifts
   * by 18 and 11 are undone by repeating them, the masked left shift by 15
   * by applying it once more, and the one by 7 by four rounds of
   * substitution.
   */
  lemma TemperInvertible(w: bv32)
    ensures
      var y1 := w ^ (w >> 11);
      var y2 := y1 ^ ((y1 << 7) & 0x9d2c5680);
      var y3 := y2 ^ ((y2 << 15) & 0xefc60000);
      var y := y3 ^ (y3 >> 18);
      var z3 := y ^ (y >> 18);
      var z2 := z3 ^ ((z3 << 15) & 0xefc60000);
      var a := z2 ^ ((z2 << 7) & 0x9d2c5680);
      var b := z2 ^ ((a << 7) & 0x9d2c5680);
      var c := z2 ^ ((b << 7) & 0x9d2c5680);
      var z1 := z2 ^ ((c << 7) & 0x9d2c5680);
      z1 ^ (z1 >> 11) ^ (z1 >> 22) == w
  {
  }
}

=== FILE: text.dfy ===
// Python string primitives shared by the documentation tools: the
// whitespace class used by `str.strip` and by `\s` in byte-string regular
// expressions, and ASCII upper-casing.

module Text {

  /** The six characters Python 2 treats as whitespace in a byte string. */
  predicate IsSpace(c: char)
  {
    c == ' ' || c == '\t' || c == '\n' || c == '\r' || c as int == 11 || c as int == 12
  }

  predicate AllSpace(s: string)
  {
    forall i :: 0 <= i < |s| ==> IsSpace(s[i])
  }

  /** Length of the run of whitespace at the front of `s`. */
  function SpaceRun(s: string): (n: nat)
    ensures n <= |s|
    ensures AllSpace(s[..n])
    ensures n < |s| ==> !IsSpace(s[n])
    decreases |s|
  {
    if |s| > 0 && IsSpace(s[0]) then
      var k := SpaceRun(s[1..]);
      assert s[1..][..k] == s[1..k + 1];
      1 + k
    else 0
  }

  /**
   * `str.strip()`: `s` without its leading and trailing whitespace. The
   * result is empty exactly when `s` is all whitespace; otherwise it
   * starts and ends with a non-space.
   */
  function Strip(s: string): (r: string)
    ensures AllSpace(s) <==> r == []
    ensures r != [] ==> !IsSpace(r[0]) && !IsSpace(r[|r| - 1])
    decreases |s|
  {
    if |s| == 0 then []
    else if IsSpace(s[0]) then Strip(s[1..])
    else if IsSpace(s[|s| - 1]) then Strip(s[..|s| - 1])
    else s
  }

  /** `Strip` removes exactly a whitespace prefix and a whitespace suffix. */
  predicate TrimOf(s: string, r: string)
  {
    exists i, j :: 0 <= i <= j <= |s| && r == s[i..j] && AllSpace(s[..i]) && AllSpace(s[j..])
  }

  lemma AllSpaceConcat(a: string, b: string)
    requires AllSpace(a) && AllSpace(b)
    ensures AllSpace(a + b)
  {
    assert forall i :: 0 <= i < |a + b| ==> (a + b)[i] == if i < |a| then a[i] else b[i - |a|];
  }

  /** Each character of an all-whitespace prefix is whitespace. */
  lemma AllSpacePrefix(s: string, k: nat)
    requires k <= |s| && AllSpace(s[..k])
    ensures forall j :: 0 <= j < k ==> IsSpace(s[j])
  {
    assert forall j :: 0 <= j < k ==> s[..k][j] == s[j];
  }

  /** The bounds of `Strip(s)` in `s`. */
  lemma {:induction false} StripBounds(s: string) returns (i: nat, j: nat)
    ensures i <= j <= |s| && Strip(s) == s[i..j] && AllSpace(s[..i]) && AllSpace(s[j..])
    decreases |s|
  {
    if |s| == 0 {
      i, j := 0, 0;
    } else if IsSpace(s[0]) {
      var a, b := StripBounds(s[1..]);
      i, j := a + 1, b + 1;
      SpaceBefore(s, a, b);
    } else if IsSpace(s[|s| - 1]) {
      i, j := StripBounds(s[..|s| - 1]);
      SpaceAfter(s, i, j);
    } else {
      i, j := 0, |s|;
      assert s[..0] == [] && s[|s|..] == [];
    }
  }

  /** A whitespace character in front widens the leading run by one. */
  lemma SpaceBefore(s: string, a: nat, b: nat)
    requires |s| > 0 && IsSpace(s[0]) && a <= b <= |s| - 1
    requires AllSpace(s[1..][..a]) && AllSpace(s[1..][b..])
    ensures s[1..][a..b] == s[a + 1..b + 1] && AllSpace(s[..a + 1]) && AllSpace(s[b + 1..])
  {
    var t := s[1..];
    assert s[..a + 1] == [s[0]] + t[..a];
    AllSpaceConcat([s[0]], t[..a]);
    assert s[b + 1..] == t[b..];
  }

  /** A whitespace character behind widens the trailing run by one. */
  lemma SpaceAfter(s: string, i: nat, j: nat)
    requires |s| > 0 && IsSpace(s[|s| - 1]) && i <= j <= |s| - 1
    requires AllSpace(s[..|s| - 1][..i]) && AllSpace(s[..|s| - 1][j..])
    ensures s[..|s| - 1][i..j] == s[i..j] && AllSpace(s[..i]) && AllSpace(s[j..])
  {
    var t := s[..|s| - 1];
    assert s[..i] == t[..i];
    assert s[j..] == t[j..] + [s[|s| - 1]];
    AllSpaceConcat(t[j..], [s[|s| - 1]]);
  }

  lemma StripSlice(s: string)
    ensures TrimOf(s, Strip(s))
  {
    var i, j := StripBounds(s);
  }

  /** Whitespace on both sides does not survive `Strip`. */
  lemma {:induction false} StripPadded(a: string, s: string, b: string)
    requires AllSpace(a) && AllSpace(b)
    requires s != [] && !IsSpace(s[0]) && !IsSpace(s[|s| - 1])
    ensures Strip(a + s + b) == s
    decreases |a| + |b|
  {
    var w := a + s + b;
    if |a| > 0 {
      var rest := a[1..] + s + b;
      assert w == [a[0]] + rest by {
        assert a == [a[0]] + a[1..];
      }
      assert w[0] == a[0] && w[1..] == rest;
      StripPadded(a[1..], s, b);
    } else if |b| > 0 {
      assert a == [];
      assert w == s + b;
      assert w[|w| - 1] == b[|b| - 1];
      assert w[..|w| - 1] == a + s + b[..|b| - 1];
      StripPadded(a, s, b[..|b| - 1]);
    } else {
      assert a == [] && b == [];
      assert w == s;
    }
  }

  /** Python's `str.upper()` on a byte string: ASCII letters only. */
  function Upper(c: char): (u: char)
    ensures 'a' <= c <= 'z' ==> u as int == c as int - 32
    ensures !('a' <= c <= 'z') ==> u == c
    ensures !('a' <= u <= 'z')
  {
    if 'a' <= c <= 'z' then (c as int - 32) as char else c
  }

  function UpperAll(s: string): (r: string)
    ensures |r| == |s|
    ensures forall i :: 0 <= i < |s| ==> r[i] == Upper(s[i])
  {
    seq(|s|, i requires 0 <= i < |s| => Upper(s[i]))
  }

  /** Upper-casing twice changes nothing more than upper-casing once. */
  lemma UpperAllIdempotent(s: string)
    ensures UpperAll(UpperAll(s)) == UpperAll(s)
  {
    var u := UpperAll(s);
    assert forall i :: 0 <= i < |u| ==> Upper(u[i]) == u[i];
  }

  /** Does `t` occur in `s` starting at position `i`? */
  predicate OccursAt(s: string, t: string, i: int)
  {
    0 <= i && i + |t| <= |s| && s[i..i + |t|] == t
  }

  /** Python's `s.find(t) != -1`. */
  predicate Contains(s: string, t: string)
  {
    exists i :: 0 <= i <= |s| && OccursAt(s, t, i)
  }

  /** An occurrence in either part is an occurrence in the concatenation. */
  lemma ContainsConcat(a: string, b: string, t: string)
    requires Contains(a, t) || Contains(b, t)
    ensures Contains(a + b, t)
  {
    if Contains(a, t) {
      var i :| 0 <= i <= |a| && OccursAt(a, t, i);
      assert (a + b)[i..i + |t|] == a[i..i + |t|];
      assert OccursAt(a + b, t, i);
    } else {
      var i :| 0 <= i <= |b| && OccursAt(b, t, i);
      assert (a + b)[|a| + i..|a| + i + |t|] == b[i..i + |t|];
      assert OccursAt(a + b, t, |a| + i);
    }
  }

  /** A string occurs in itself. */
  lemma ContainsSelf(t: string)
    ensures Contains(t, t)
  {
    assert t[0..|t|] == t;
    assert OccursAt(t, t, 0);
  }

  /** Every character of `s` is replaced by `to` when it equals `from`. */
  function Replace(s: string, from: char, to: char): (r: string)
    ensures |r| == |s|
    ensures forall i :: 0 <= i < |s| ==> r[i] == (if s[i] == from then to else s[i])
  {
    seq(|s|, i requires 0 <= i < |s| => if s[i] == from then to else s[i])
  }
}

=== FILE: wikidoc.dfy ===
// The wiki page splice of docsrc/wikidoc.py: the generated documentation
// lines replace whatever sits between the first start marker and the first
// end marker of a wiki page, both files being read as lists of lines.

module WikiDoc {
  import opened Wrappers
  import opened Text

  /**
   * The start and end markers. The proofs below hold for any pair of
   * distinct markers that the marker lines strip back to; `WikiTags` is
   * the pair the tool uses.
   */
  datatype Tags = Tags(start: string, end: string)

  const WikiTags := Tags("<!-- WIKIDOC START -->", "<!-- WIKIDOC END -->")

  predicate GoodTags(t: Tags)
  {
    t.start != t.end && Strip(t.start + "\n") == t.start && Strip("\n" + t.end + "\n") == t.end
  }

  /** The documentation framed by a start-marker line and an end-marker line. */
  function Wrap(doc: seq<string>, t: Tags): seq<string>
  {
    [t.start + "\n"] + doc + ["\n" + t.end + "\n"]
  }

  /** Every line with its surrounding whitespace removed. */
  function Stripped(lines: seq<string>): (r: seq<string>)
    ensures |r| == |lines|
    ensures forall i :: 0 <= i < |lines| ==> r[i] == Strip(lines[i])
  {
    seq(|lines|, i requires 0 <= i < |lines| => Strip(lines[i]))
  }

  /** Index of the first entry at or after `i` equal to `tag`. */
  function Find(ss: seq<string>, tag: string, i: nat): (r: Option<nat>)
    ensures r.Some? ==> i <= r.value < |ss| && ss[r.value] == tag
    ensures r.Some? ==> forall j :: i <= j < r.value ==> ss[j] != tag
    ensures r.None? ==> forall j :: i <= j < |ss| ==> ss[j] != tag
    decreases |ss| - i
  {
    if i >= |ss| then None
    else if ss[i] == tag then Some(i)
    else Find(ss, tag, i + 1)
  }

  /** Index of the first line whose stripped text is `tag`. */
  function FirstIndex(lines: seq<string>, tag: string): Option<nat>
  {
    Find(Stripped(lines), tag, 0)
  }

  /** Both markers are present, the start strictly before the end. */
  predicate Framed(lines: seq<string>, t: Tags)
  {
    var s := FirstIndex(lines, t.start);
    var e := FirstIndex(lines, t.end);
    s.Some? && e.Some? && s.value < e.value
  }

  /** `wikilines[1:]`, which is empty for an empty list. */
  function Tail(lines: seq<string>): seq<string>
  {
    if |lines| == 0 then [] else lines[1..]
  }

  /** The page as read: a missing file reads as no lines. */
  function PageLines(page: Option<seq<string>>): seq<string>
  {
    if page.Some? then page.value else []
  }

  /**
   * Where the framed documentation starts in the page: at the start
   * marker when the page is framed, and at line 0 otherwise.
   */
  function Anchor(lines: seq<string>, t: Tags): (k: nat)
    ensures k <= |lines|
  {
    if Framed(lines, t) then FirstIndex(lines, t.start).value else 0
  }

  /** Line after the replaced range: past the end marker, or past line 0. */
  function Resume(lines: seq<string>, t: Tags): (k: nat)
  {
    if Framed(lines, t) then FirstIndex(lines, t.end).value + 1 else 1
  }

  /**
   * `wikidoc(pagename, htmlfile)` on the page lines `page` (None when the
   * page file does not exist) and the documentation lines `doc`.
   */
  function Splice(page: Option<seq<string>>, doc: seq<string>, t: Tags): (r: seq<string>)
    ensures |r| >= Anchor(PageLines(page), t) + |doc| + 2
  {
    var lines := PageLines(page);
    var startline := FirstIndex(lines, t.start);
    var endline := FirstIndex(lines, t.end);
    if startline.Some? && endline.Some? && startline.value < endline.value then
      lines[..startline.value] + Wrap(doc, t) + lines[endline.value + 1..]
    else
      Wrap(doc, t) + Tail(lines)
  }

  /**
   * The lines before the anchor and from the resume point on are kept; the
   * framed documentation goes in between.
   */
  lemma SpliceKeeps(page: Option<seq<string>>, doc: seq<string>, t: Tags)
    ensures var r := Splice(page, doc, t);
      var lines := PageLines(page);
      var k := Anchor(lines, t);
      && r[..k] == lines[..k]
      && r[k..k + |doc| + 2] == Wrap(doc, t)
      && r[k + |doc| + 2..] == (if Framed(lines, t) then lines[Resume(lines, t)..] else Tail(lines))
  {
    var lines := PageLines(page);
    var r := Splice(page, doc, t);
    var w := Wrap(doc, t);
    var k := Anchor(lines, t);
    if Framed(lines, t) {
      var rest := lines[Resume(lines, t)..];
      assert r == lines[..k] + w + rest;
      assert r[..k] == lines[..k];
      assert r[k..k + |doc| + 2] == w;
      assert r[k + |doc| + 2..] == rest;
    } else {
      assert r == w + Tail(lines);
      assert r[..0] == lines[..0];
      assert r[0..|doc| + 2] == w;
    }
  }

  /** The documentation between the first markers of a framed page. */
  function Extract(lines: seq<string>, t: Tags): (r: Option<seq<string>>)
    ensures r.Some? <==> Framed(lines, t)
  {
    if Framed(lines, t) then
      Some(lines[FirstIndex(lines, t.start).value + 1..FirstIndex(lines, t.end).value])
    else None
  }

  /** No documentation line could be mistaken for a marker. */
  predicate Clean(doc: seq<string>, t: Tags)
  {
    forall i :: 0 <= i < |doc| ==> Strip(doc[i]) != t.start && Strip(doc[i]) != t.end
  }

  /** The markers the tool uses satisfy `GoodTags`. */
  lemma WikiTagsGood()
    ensures GoodTags(WikiTags)
  {
    var t := WikiTags;
    assert t.start + "\n" == "" + t.start + "\n";
    StripPadded("", t.start, "\n");
    StripPadded("\n", t.end, "\n");
    assert |t.start| != |t.end|;
  }

  lemma {:induction false} FindAt(ss: seq<string>, tag: string, i: nat, k: nat)
    requires i <= k < |ss| && ss[k] == tag
    requires forall j :: i <= j < k ==> ss[j] != tag
    ensures Find(ss, tag, i) == Some(k)
    decreases k - i
  {
    if i < k {
      FindAt(ss, tag, i + 1, k);
    }
  }

  /** No line before the anchor is a marker. */
  lemma BeforeAnchor(lines: seq<string>, t: Tags, j: nat)
    requires j < Anchor(lines, t)
    ensures Strip(lines[j]) != t.start && Strip(lines[j]) != t.end
  {
    var ss := Stripped(lines);
    assert ss[j] == Strip(lines[j]);
  }

  /**
   * A page holding the framed documentation at `k`, with no marker line
   * before it, has its first start marker at `k` and its first end marker
   * right after the documentation.
   */
  lemma FramedAt(r: seq<string>, doc: seq<string>, t: Tags, k: nat)
    requires GoodTags(t) && Clean(doc, t)
    requires k + |doc| + 2 <= |r| && r[k..k + |doc| + 2] == Wrap(doc, t)
    requires forall j :: 0 <= j < k ==> Strip(r[j]) != t.start && Strip(r[j]) != t.end
    ensures FirstIndex(r, t.start) == Some(k) && FirstIndex(r, t.end) == Some(k + |doc| + 1)
  {
    var ss := Stripped(r);
    var w := Wrap(doc, t);
    assert r[k] == w[0] == t.start + "\n";
    assert r[k + |doc| + 1] == w[|doc| + 1] == "\n" + t.end + "\n";
    forall j | 0 <= j < k + |doc| + 1 && j != k
      ensures ss[j] != t.start && ss[j] != t.end
    {
      if j > k {
        assert r[j] == w[j - k] == doc[j - k - 1];
      }
    }
    FindAt(ss, t.start, 0, k);
    FindAt(ss, t.end, 0, k + |doc| + 1);
  }

  /**
   * In a spliced page the first start marker is the one the splice wrote
   * at the anchor, and the first end marker is the one closing the
   * documentation.
   */
  lemma Located(page: Option<seq<string>>, doc: seq<string>, t: Tags)
    requires GoodTags(t) && Clean(doc, t)
    ensures var r := Splice(page, doc, t);
      var k := Anchor(PageLines(page), t);
      FirstIndex(r, t.start) == Some(k) && FirstIndex(r, t.end) == Some(k + |doc| + 1)
  {
    var lines := PageLines(page);
    var r := Splice(page, doc, t);
    var k := Anchor(lines, t);
    assert k + |doc| + 2 <= |r| && r[..k] == lines[..k] && r[k..k + |doc| + 2] == Wrap(doc, t) by {
      SpliceKeeps(page, doc, t);
    }
    KeptBeforeAnchor(lines, r, doc, t);
  }

  /** A page that keeps the lines before the anchor and then frames `doc` there. */
  lemma KeptBeforeAnchor(lines: seq<string>, r: seq<string>, doc: seq<string>, t: Tags)
    requires GoodTags(t) && Clean(doc, t)
    requires var k := Anchor(lines, t);
      k + |doc| + 2 <= |r| && r[..k] == lines[..k] && r[k..k + |doc| + 2] == Wrap(doc, t)
    ensures var k := Anchor(lines, t);
      FirstIndex(r, t.start) == Some(k) && FirstIndex(r, t.end) == Some(k + |doc| + 1)
  {
    var k := Anchor(lines, t);
    forall j | 0 <= j < k
      ensures Strip(r[j]) != t.start && Strip(r[j]) != t.end
    {
      assert r[j] == r[..k][j] == lines[..k][j] == lines[j];
      BeforeAnchor(lines, t, j);
    }
    FramedAt(r, doc, t, k);
  }

  lemma ExtractFramed(r: seq<string>, doc: seq<string>, t: Tags, k: nat)
    requires k + |doc| + 2 <= |r| && r[k..k + |doc| + 2] == Wrap(doc, t)
    requires FirstIndex(r, t.start) == Some(k) && FirstIndex(r, t.end) == Some(k + |doc| + 1)
    ensures Extract(r, t) == Some(doc)
  {
    assert r[k + 1..k + |doc| + 1] == r[k..k + |doc| + 2][1..|doc| + 1];
  }

  /** Round trip: the documentation can be read back out of the spliced page. */
  lemma ExtractSplice(page: Option<seq<string>>, doc: seq<string>, t: Tags)
    requires GoodTags(t) && Clean(doc, t)
    ensures Extract(Splice(page, doc, t), t) == Some(doc)
  {
    var r := Splice(page, doc, t);
    var k := Anchor(PageLines(page), t);
    assert FirstIndex(r, t.start) == Some(k) && FirstIndex(r, t.end) == Some(k + |doc| + 1) by {
      Located(page, doc, t);
    }
    assert k + |doc| + 2 <= |r| && r[k..k + |doc| + 2] == Wrap(doc, t) by {
      SpliceKeeps(page, doc, t);
    }
    ExtractFramed(r, doc, t, k);
  }

  /**
   * Splicing again replaces the documentation spliced before: the page
   * outside the markers is what the first splice kept.
   */
  lemma SpliceTwice(page: Option<seq<string>>, d1: seq<string>, d2: seq<string>, t: Tags)
    requires GoodTags(t) && Clean(d1, t)
    ensures Splice(Some(Splice(page, d1, t)), d2, t) == Splice(page, d2, t)
  {
    var lines := PageLines(page);
    var r := Splice(page, d1, t);
    var k := Anchor(lines, t);
    Located(page, d1, t);
    SpliceKeeps(page, d1, t);
    SpliceKeeps(Some(r), d2, t);
    SpliceKeeps(page, d2, t);
    assert Framed(r, t);
    assert Anchor(r, t) == k;
    assert Resume(r, t) == k + |d1| + 2;
    var a := Splice(Some(r), d2, t);
    var b := Splice(page, d2, t);
    assert r[..k] == lines[..k];
    assert r[k + |d1| + 2..] == (if Framed(lines, t) then lines[Resume(lines, t)..] else Tail(lines));
    assert a == a[..k] + a[k..k + |d2| + 2] + a[k + |d2| + 2..];
    assert b == b[..k] + b[k..k + |d2| + 2] + b[k + |d2| + 2..];
  }

  /** A page file that does not exist becomes just the framed documentation. */
  lemma MissingPage(doc: seq<string>, t: Tags)
    ensures Splice(None, doc, t) == Wrap(doc, t)
  {
    var r := Splice(None, doc, t);
    SpliceKeeps(None, doc, t);
    assert r == r[..0] + r[0..|doc| + 2] + r[|doc| + 2..];
  }
}

=== FILE: wrappers.dfy ===
/** Optional values and results shared by the modules of this model. */
module Wrappers {

  datatype Option<T> = None | Some(value: T)

  datatype Result<T, E> = Ok(value: T) | Err(error: E)
  {
    predicate IsFailure() { this.Err? }
  }

  function Min(a: int, b: int): int { if a < b then a else b }

  function Max(a: int, b: int): int { if a < b then b else a }
}
